=== FILE: README.md ===
# creator-onboarding-agent, modelled in Dafny

This project models the deterministic decision logic of creator-onboarding-agent, a multi-agent retrieval-augmented generation (RAG) service for creator onboarding, competency diagnosis and mission matching. The model includes every language model, vector store, database, hash, clock and random source the service calls, but only as a parameter: an oracle function, a step-indexed outcome or an explicit `now`. What is left is pure logic over immutable datatypes. Dafny proves the contracts listed under "## Model" about that logic; anything weaker than the source, or not modelled, is named under "## Left out".

The model has one module per source file (two each for the retrieval engine and the RAG pipeline), in four groups:

- **Orchestration state machines.**
  - `MainOrchestrator` (with `Routing`) is the current graph: route, plan, tool enrichment, workflow, RAG quality gate and replan.
  - `LegacyOrchestrator` is the older keyword-routed, acyclic graph.
  - Each graph is a node enum, a pure edge function over the state fields its guards read, and a fuel-free `Run` whose termination measure is the remaining replan budget together with a node rank.
- **RAG pipeline pieces.**
  - `RetrievalEngine`: score fusion, deduplication, keyword and graph scoring, rerank, and tag extraction. A second module, `RetrievalCache`, follows the query cache through a hybrid search, whose merge and rerank re-score the cached hits.
  - `GenerationEngine`: model selection, fallback order and bounded retry.
  - `SemanticCache`, `ContextBuilder`, `PromptOptimizer`, `QueryExpander`, `ResponseRefiner`, `BatchProcessor`, `IntentAnalyzer`, `LlmRouting`, `DocumentProcessor`, `PromptTemplates` and `RagPipeline` (with `PipelinePrompt` for its prompt step).
- **Rule-based scorers.**
  - The mission, creator-onboarding, recommendation, analytics, competency, deep-agent, search, integration and data-collection agents.
  - The LLM-selection tools and the LLM manager agent.
  - The competency and mission domain models.
  - Arithmetic is over `real`; Python's `round` is not modelled.
- **Services and middleware.**
  - Audit log, creator history, A/B testing, and the auth service with its role table.
  - The MCP integration and Supadata clients.
  - The MCP base, vector-search and HTTP-fetch servers.
  - The exception taxonomy and the error-to-status handler with its circuit breaker.
  - The rate limiter, the audit and auth middleware, the security utilities and the request schemas.
  - The performance monitor and the metrics collector.
  - The RAG evaluation script and the hello utilities.

`Common` holds the shared vocabulary:
- `Option`;
- string stripping, lower-casing, substring and split helpers;
- Python slice semantics;
- subsequences, sums and pagination.

`PyScalars` models Python's lenient integer coercion (`_to_int`, `_to_num`), and `PyFloat` a bare `float()` read exactly, with the proof that the two agree.

A function that only computes carries no contract of its own; the table lists the lemmas about it instead. For example:
- `DocumentProcessor.SplitIntoChunksAsWritten` is described by `WrittenChunksAreGood`, `LoopNeverExits` and `ShortTextIsOneChunk`.
- `LlmTools.SelectModel` is described by `TaskTypeDecidesFirst`, `SelectionHoldsRequest` and `CheapestChosenForCost`.
- `Routing.DetermineQueryType` is described by `ApiKeywordNeverMatches`.
- `AnalyticsAgent.Execute` is described by `ExecuteDispatch`.
- `DataCollectionAgent.NormalizeResponse` is described by `EnvelopeItems` and `ObjectCases`.
- `DataCollectionAgent.Validate` is described by `ValidateIff`.
- `CompetencyTools.AnalyzeWithNumpy` is described by `NumpyAnalysisFails`.
- `AuditService.GetStats` is described by `MemoryStatsCoverRange`.

Where a source function has a defect, the model has two versions of it. One models the code as written, with a lemma that shows the failing input. The other is the evidently intended version, with its property proved, and the rest of the model uses that one. Both are listed under "## Findings".

## Model

| member | source | states |
|---|---|---|
| ABTesting.ParseType | src/services/ab_testing/service.py:31-35 | only the texts "control" and "treatment" name a variant type; any other raises |
| ABTesting.BuildVariant | src/services/ab_testing/service.py:133-140 | a variant without a type is control when first and treatment otherwise, and without a weight takes an equal share; its name defaults to "Variant n" |
| ABTesting.BuildFrom | src/services/ab_testing/service.py:131-141 | variant building fails exactly when some variant names an invalid type, and otherwise builds every variant in order |
| ABTesting.ScaleSum | src/services/ab_testing/service.py:143-147 | dividing every weight by the total divides the sum of the weights by it |
| ABTesting.Normalize | src/services/ab_testing/service.py:143-147 | weights with a positive total sum to 1 after creation; otherwise they stay as given |
| ABTesting.CreateExperiment | src/services/ab_testing/service.py:117-163 | a created experiment is a draft holding the normalised variants, stored under its id; an invalid variant type raises |
| ABTesting.DefaultTypes | src/services/ab_testing/service.py:136 | variants given without types are one control followed by treatments |
| ABTesting.DefaultWeightsAreEqual | src/services/ab_testing/service.py:138 | variants given without weights each get the same share |
| ABTesting.SetStatus | src/services/ab_testing/service.py:165-189 | an unknown experiment answers false and changes nothing; a known one takes the new status and date and no other experiment changes |
| ABTesting.StartExperiment | src/services/ab_testing/service.py:165-176 | a started experiment is running |
| ABTesting.StopExperiment | src/services/ab_testing/service.py:178-189 | a stopped experiment is completed |
| ABTesting.Percentage | src/services/ab_testing/service.py:246-249 | a user's position in an experiment lies in [0, 100) |
| ABTesting.FullShareIncludesAll | src/services/ab_testing/service.py:243-251 | a 100% experiment includes every user and a 0% experiment none |
| ABTesting.Draw | src/services/ab_testing/service.py:256-259 | the variant draw lies in [0, 1) |
| ABTesting.Pick | src/services/ab_testing/service.py:253-268 | the assigned variant is one of the experiment's variants, and an experiment without variants raises |
| ABTesting.PickIsFirstCrossing | src/services/ab_testing/service.py:261-265 | the assigned variant is the first whose running weight total exceeds the draw |
| ABTesting.PickFallsBackToLast | src/services/ab_testing/service.py:267-268 | when no running total exceeds the draw the last variant is assigned |
| ABTesting.EvenSplit | src/services/ab_testing/service.py:259-265 | with two equal halves a draw below one half picks the first variant and any other the second |
| ABTesting.ActiveFor | src/services/ab_testing/service.py:207-213 | the active experiments are exactly the running ones for the prompt type, in creation order |
| ABTesting.Assigned | src/services/ab_testing/service.py:225-231 | a remembered assignment is honoured only while the experiment still holds a variant with that id |
| ABTesting.VariantFor | src/services/ab_testing/service.py:191-241 | no variant when disabled or nothing runs for the prompt type; otherwise a variant of the first active experiment, for an included user only, remembered for that user |
| ABTesting.AssignmentIsSticky | src/services/ab_testing/service.py:225-239 | asking again for the same user returns the same variant and changes nothing |
| ABTesting.RecordResult | src/services/ab_testing/service.py:270-301 | recording a result appends it and changes nothing else |
| ABTesting.StatsFor | src/services/ab_testing/service.py:313-358 | a variant's sample size counts its results; without results it has no metrics, and its success rate is a fraction |
| ABTesting.OtherResultsIgnored | src/services/ab_testing/service.py:313-314 | a result recorded for another variant leaves a variant's statistics exactly as they were |
| ABTesting.OwnResultCounted | src/services/ab_testing/service.py:313-314 | a result recorded for the variant itself raises its sample size by one |
| ABTesting.Winner | src/services/ab_testing/service.py:360-369 | a winner needs two or more variants and is a variant with the best average quality and at least 30 samples; with two or more variants, the variant first in the stable quality order is declared the winner whenever it has 30 samples, and there is no winner only when a best-quality variant has fewer |
| ABTesting.ExperimentStatsOf | src/services/ab_testing/service.py:303-380 | an unknown experiment is an error; otherwise the total counts its results and the result is significant iff there is a winner |
| ABTesting.NoWinnerAlone | src/services/ab_testing/service.py:362 | an experiment with fewer than two variants has no winner |
| ABTesting.ListExperiments | src/services/ab_testing/service.py:386-395 | the listing holds exactly the experiments with the status asked for, newest first |
| ABTesting.FirstRunning | src/services/ab_testing/service.py:410-418 | the experiment found is the first running one that holds the variant, if any |
| ABTesting.PromptFor | src/services/ab_testing/service.py:397-422 | an assigned variant supplies its prompt and ids; otherwise the default prompt comes back without ids |
| ABTesting.DisabledUsesDefault | src/services/ab_testing/service.py:204-205 | a disabled service always answers with the default prompt |
| AnalyticsAgent.LearningMetrics | src/agents/analytics_agent/__init__.py:31-94 | without a database row or with no activity the sample learning metrics come back; otherwise the completion rate lies in [0, 100] and the module total is the row's activity count |
| AnalyticsAgent.EngagementMetrics | src/agents/analytics_agent/__init__.py:96-163 | without sessions the sample engagement metrics come back; otherwise logins per week are positive and participation lies in [0, 100] |
| AnalyticsAgent.Categories | src/agents/analytics_agent/__init__.py:205-209 | the categories are listed without duplicates and are exactly those already seen or carried by some row |
| AnalyticsAgent.CategoriesInFirstOrder | src/agents/analytics_agent/__init__.py:205-209 | the categories are those already seen, then each row category not yet taken, in order of first appearance |
| AnalyticsAgent.Mean | src/agents/analytics_agent/__init__.py:212-214 | the mean of a non-empty score list times its length is the list's sum |
| AnalyticsAgent.PerformanceMetrics | src/agents/analytics_agent/__init__.py:165-232 | no rows give the sample performance metrics; rows give test scores, a mean and skill levels |
| AnalyticsAgent.PerformanceFromRows | src/agents/analytics_agent/__init__.py:201-218 | the reported test scores are the last five (fewer when there are fewer rows), ending with the newest row's score |
| AnalyticsAgent.ScoresIn | src/agents/analytics_agent/__init__.py:205-209 | a category's score list holds exactly the scores of the rows in that category (a missing or empty category read as "기타"), and is non-empty exactly when such a row exists |
| AnalyticsAgent.ScoresInFiltered | src/agents/analytics_agent/__init__.py:205-209 | a category's score list is the scores of the rows in that category, each as often as it occurs, in row order |
| AnalyticsAgent.SkillLevelsPerCategory | src/agents/analytics_agent/__init__.py:205-212 | the skill levels name exactly the row categories, each once, each with the mean of that category's scores |
| AnalyticsAgent.EveryRowHasSkillLevel | src/agents/analytics_agent/__init__.py:205-212 | every row's category (or "기타" when it is missing or empty) has a skill level |
| AnalyticsAgent.CalculateStreak | src/agents/analytics_agent/__init__.py:234-266 | the streak counts the leading activity days that are today, yesterday and so on, and stops exactly at the first gap |
| AnalyticsAgent.TrendOf | src/agents/analytics_agent/__init__.py:444-455 | excellent exactly from 80, good exactly in [60, 80), needs improvement exactly below 40 (an absent rate counts as 0) |
| AnalyticsAgent.EngagementScoreBounds | src/agents/analytics_agent/__init__.py:457-465 | with non-negative counts and participation in [0, 100] the weighted engagement score lies in [0, 100] |
| AnalyticsAgent.DatabaseEngagementScoreBounds | src/agents/analytics_agent/__init__.py:96-163 | the engagement the database rows give always scores within [0, 100] |
| AnalyticsAgent.GradeOf | src/agents/analytics_agent/__init__.py:467-480 | grade A exactly from 90, B in [80, 90), C in [70, 80), F below 60 on the mean test score |
| AnalyticsAgent.InsightsBands | src/agents/analytics_agent/__init__.py:482-514 | at most three insights; a progress insight first exactly when a completion rate is known, chosen by the 80 / 60 bands; a score trend only with two scores; high and low participation exactly at 80 and below 50 |
| AnalyticsAgent.WeakSkills | src/agents/analytics_agent/__init__.py:541-543 | the weak skills are exactly those with a level below 70 |
| AnalyticsAgent.RecommendationsThresholds | src/agents/analytics_agent/__init__.py:516-545 | each piece of advice appears exactly when its threshold is crossed; the strengthening advice names exactly the skills below 70 |
| AnalyticsAgent.SamplePerformanceAdvice | src/agents/analytics_agent/__init__.py:295-307 | the sample performance metrics advise strengthening "고급" only, and report rising scores by 12 |
| AnalyticsAgent.ParseReportType | src/agents/analytics_agent/__init__.py:341-384 | "engagement" and "performance" select their analyses; anything else, or nothing, selects learning progress |
| AnalyticsAgent.CountSites | src/agents/analytics_agent/__init__.py:555-560 | no more dictionary snippets than snippets, and none exactly when no snippet is a dictionary |
| AnalyticsAgent.ExternalInsightsFromContext | src/agents/analytics_agent/__init__.py:547-584 | the direct context keys win over the MCP enrichment; a source-count insight exactly when a chosen snippet is a dictionary, a channel insight exactly for a non-empty title |
| AnalyticsAgent.ExecuteDispatch | src/agents/analytics_agent/__init__.py:341-384 | the report type picks the metrics and the summary; the insights start with those of the metrics and the advice is that of the metrics |
| AuditService.New | src/services/audit/service.py:83-95 | the audit log is kept in memory exactly when the database URL mentions sqlite, starting empty |
| AuditService.Initialize | src/services/audit/service.py:97-120 | initialisation happens once; tables that cannot be created switch the service to an empty in-memory list |
| AuditService.Cap | src/services/audit/service.py:167-171 | a list grown past 10 000 logs keeps exactly its newest 10 000, in order |
| AuditService.Log | src/services/audit/service.py:122-184 | a log is appended in memory and capped, or written to the database, and a failed write falls back to an uncapped in-memory list; in memory the list never exceeds 10 000 |
| AuditService.LogKeepsNewest | src/services/audit/service.py:167-171 | after a write in memory the newest log is the one written and the older ones keep their order behind it |
| AuditService.FailedWritesGrow | src/services/audit/service.py:222-227 | each failed database write adds one log to the fallback list, with no limit |
| AuditService.SelectedOf | src/services/audit/service.py:240-259 | a log is selected exactly when it meets every filter that is set, the filters being conjunctive |
| AuditService.QueryMemory | src/services/audit/service.py:238-271 | the page is exactly the window offset..offset+limit of the selected logs sorted newest first (ties keep their order); it holds selected logs only, and the total counts every selected log before paging |
| AuditService.FullPageHasAll | src/services/audit/service.py:263-264 | a first page at least as large as the list holds every selected log |
| AuditService.QueryLogs | src/services/audit/service.py:229-236 | as written, a database query that fails reads the in-memory list, and fails as well when no write ever failed |
| AuditService.DatabaseFallbackRaises | src/services/audit/service.py:359-361 | as written, a failed database query on a freshly started database service raises instead of answering |
| AuditService.QueryLogsChecked | src/services/audit/service.py:359-361 | the intended fallback answers a failed database query from an empty list when none exists |
| AuditService.CheckedAgrees | src/services/audit/service.py:229-236 | the intended query answers exactly as written wherever the written one answers |
| AuditService.Tally | src/services/audit/service.py:381-391 | a tally has a key for each value met and counts how often it occurs |
| AuditService.StatsOf | src/services/audit/service.py:376-405 | successes and failures add up to the logs returned, the per-action and per-severity counts cover exactly the values met, and the success rate over the total is a fraction |
| AuditService.MemoryStatsCoverRange | src/services/audit/service.py:363-405 | in memory the statistics query never truncates, so successes and failures add up to the total and the rate lies in [0, 1] |
| AuditMiddleware.FirstMatch | src/api/middleware/audit.py:154-161 | the lookup finds an endpoint exactly when some table entry matches the path, and the first entry wins when it matches |
| AuditMiddleware.MethodDefault | src/api/middleware/audit.py:163-173 | without an endpoint, a POST mentioning create or add is a user creation, PUT or PATCH an update, DELETE a deletion, anything else a RAG query |
| AuditMiddleware.DetermineAction | src/api/middleware/audit.py:150-173 | an exact endpoint match wins, then the first endpoint the path extends, then the method default |
| AuditMiddleware.ExactImpliesPrefix | src/api/middleware/audit.py:154-161 | whenever the exact lookup finds an endpoint the prefix lookup finds one too |
| AuditMiddleware.LoginPaths | src/api/middleware/audit.py:18-19 | the login endpoint is logged as a login whatever the method |
| AuditMiddleware.ClientIp | src/api/middleware/audit.py:132-148 | the client address is the first X-Forwarded-For element, else X-Real-IP, else the peer, else "unknown" |
| AuditMiddleware.ForwardedChainNamesClient | src/api/middleware/audit.py:135-137 | a proxy chain is reported by its first, original client |
| AuditMiddleware.ErrorMessage | src/api/middleware/audit.py:81-92 | a failure carries a message, naming the status class of an error response or the exception's text, and a success carries none |
| AuditMiddleware.SeverityOf | src/api/middleware/audit.py:97-104 | the severity is info exactly on success and error exactly for a 5xx response; every other failure is a warning |
| AuditMiddleware.Dispatch | src/api/middleware/audit.py:50-130 | a request is audited unless auditing is off or its path has an excluded prefix; the event is a success iff the status is below 400, with the resolved action and client address |
| AuditMiddleware.HealthBypasses | src/api/middleware/audit.py:42-55 | anything under /health bypasses auditing |
| AuditMiddleware.RaisedIsWarning | src/api/middleware/audit.py:89-102 | a handler that raised is logged as a failed warning with the exception's text |
| UserModels.ParseRole | src/data/models/user_models.py:12-18 | a parsed role's wire value is the parsed string; other strings are the ValueError path |
| UserModels.RoleRoundTrip | src/data/models/user_models.py:12-18 | every role parses back from its wire value |
| UserModels.PermissionRoundTrip | src/data/models/user_models.py:21-46 | every permission parses back from its `resource:action` value |
| UserModels.PermissionValueInjective | src/data/models/user_models.py:21-46 | two permissions share a wire value only if they are the same permission |
| UserModels.AdminHoldsAll | src/data/models/user_models.py:50-51 | the administrator is granted every permission, each once |
| UserModels.RolesNest | src/data/models/user_models.py:50-75 | viewer's grants lie within creator's, creator's within manager's, manager's within administrator's |
| UserModels.AdminOnlyPermissions | src/data/models/user_models.py:50-75 | system admin, user management and both deletions are held by the administrator alone; a manager holds every other permission |
| UserModels.ValidateCreate | src/data/models/user_models.py:78-91 | registration succeeds exactly for a 3-50 character username and a password of at least 8; an omitted role is viewer, an omitted flag active |
| UserModels.DefaultRoleIsViewer | src/data/models/user_models.py:85 | a registration naming no role creates an active viewer |
| UserModels.ValidatePasswordChange | src/data/models/user_models.py:167-171 | a password change is accepted exactly when the new password has at least 8 characters |
| AuthService.ValuesMember | src/services/auth/service.py:331-333 | a permission's wire value is in the listed values exactly when the permission is in the list |
| AuthService.ToResponse | src/services/auth/service.py:331-345 | the response carries the user's public fields and lists exactly the permissions the role grants |
| AuthService.CreateUser | src/services/auth/service.py:75-107 | a taken e-mail is rejected first, then a taken username; otherwise the user is filed under the new id in all three maps with the hashed password |
| AuthService.CreateKeepsConsistent | src/services/auth/service.py:100-103 | creation keeps id, e-mail and username maps in agreement and adds exactly the new id |
| AuthService.KeysUnique | src/services/auth/service.py:77-83 | in a consistent store no two users share an e-mail or a username |
| AuthService.Authenticate | src/services/auth/service.py:109-129 | a login returns an active user whose password verifies, resolved by username then e-mail, with the login time recorded; a failure changes nothing |
| AuthService.AuthenticateSound | src/services/auth/service.py:109-129 | a successful login names the user by its username or e-mail and leaves the store consistent |
| AuthService.LoginByUsername | src/services/auth/service.py:111-129 | an active user with the right password logs in by username |
| AuthService.LoginByEmail | src/services/auth/service.py:113-129 | an active user with the right password logs in by e-mail unless the e-mail is someone's username |
| AuthService.UnknownNameRejected | src/services/auth/service.py:116-117 | a name that is neither a username nor an e-mail is refused and nothing changes |
| AuthService.InactiveRejected | src/services/auth/service.py:119-121 | an inactive user is refused whatever the password |
| AuthService.AccessToken | src/services/auth/service.py:131-155 | the access token carries the user's id, role and role permissions, type access, and expires after the given lifetime or 30 minutes |
| AuthService.RefreshToken | src/services/auth/service.py:157-170 | the refresh token carries only the user id, type refresh, and expires after 7 days |
| AuthService.CreateTokens | src/services/auth/service.py:172-181 | the advertised `expires_in` equals the access token's lifetime; the pair is one access and one refresh token of bearer type |
| AuthService.Decode | src/services/auth/service.py:190 | decoding succeeds exactly for the service's key and an unexpired token, and yields its payload |
| AuthService.VerifyToken | src/services/auth/service.py:183-208 | revoked, foreign, expired or id-less tokens are rejected; an accepted token yields its id, its permissions (or none) and its role (or viewer) |
| AuthService.IssuedAccessTokenVerifies | src/services/auth/service.py:131-205 | an unrevoked access token verifies within its lifetime to its user's id, role and role permissions |
| AuthService.RefreshTokenVerifiesAsViewer | src/services/auth/service.py:183-205 | a refresh token also passes verification, as a viewer with no permissions, because the type claim is not checked |
| AuthService.ForeignKeyRejected | src/services/auth/service.py:190 | a token signed with another key never verifies |
| AuthService.Revoke | src/services/auth/service.py:236-263 | revocation without Redis adds the token to the in-memory set, reports success and leaves the users alone |
| AuthService.RevokedTokenRejected | src/services/auth/service.py:265-282 | a revoked token is rejected from then on |
| AuthService.RevokeIsolated | src/services/auth/service.py:265-282 | revoking one token leaves every other token's verdict unchanged |
| AuthService.RefreshAccessToken | src/services/auth/service.py:210-234 | only a decodable refresh-type token of an existing active user is exchanged; the old token is revoked and a new pair issued; otherwise nothing changes |
| AuthService.AccessTokenCannotRefresh | src/services/auth/service.py:215-216 | an access token is never exchanged |
| AuthService.RefreshReplayAccepted | src/services/auth/service.py:210-230 | after an exchange the old token is revoked, yet exchanging it again still succeeds |
| AuthService.RefreshChecked | src/services/auth/service.py:210-230 | the corrected exchange refuses a revoked token and otherwise agrees with the service's |
| AuthService.CheckedRefreshSingleUse | src/services/auth/service.py:226-230 | with the revocation check a refresh token is good for one exchange only |
| AuthService.HasAny | src/services/auth/service.py:288-292 | true exactly when some listed permission is in the token |
| AuthService.HasAll | src/services/auth/service.py:294-298 | true exactly when every listed permission is in the token |
| AuthService.AllImpliesAny | src/services/auth/service.py:288-298 | holding all of a non-empty list implies holding one of it |
| AuthService.IssuedTokenGrantsRole | src/services/auth/service.py:284-286 | a token issued to a user grants exactly the permissions of the user's role |
| AuthService.GetUser | src/services/auth/service.py:300-305 | a user is found exactly when its id is stored, as its response |
| AuthService.GetUserByEmail | src/services/auth/service.py:307-312 | the lookup goes through the e-mail index; an unknown e-mail finds nothing |
| AuthService.EmailFindsUser | src/services/auth/service.py:307-312 | in a consistent store every user is found by its e-mail |
| AuthService.UpdatePassword | src/services/auth/service.py:314-329 | the hash is replaced exactly when the user exists and the current password verifies; otherwise nothing changes |
| AuthService.NewPasswordLogsIn | src/services/auth/service.py:314-329 | after a change the store stays consistent and the user logs in with the new password |
| AuthMiddleware.HeaderWords | src/api/middleware/auth.py:129 | a header of a space-free scheme, one space and a space-free token unpacks into exactly those two |
| AuthMiddleware.BareSplit | src/api/middleware/auth.py:129 | a single word does not unpack into scheme and token |
| AuthMiddleware.SplitHeader | src/api/middleware/auth.py:129 | the unpacking succeeds exactly when the header has two whitespace-separated words, and yields them |
| AuthMiddleware.Dispatch | src/api/middleware/auth.py:110-164 | disabled or exempt-prefix requests pass unchecked; a missing header is the 401 "Missing authorization header"; a checked pass needs two words, a bearer scheme in any case and a decodable token, whose user id is attached |
| AuthMiddleware.CreatorsPathsExempt | src/api/middleware/auth.py:92-117 | every path under "/api/v1/creators" passes without a token, through the "/api/v1/creator" prefix |
| AuthMiddleware.BearerForwarded | src/api/middleware/auth.py:128-150 | "Bearer <token>" with a decodable token is forwarded with the token's user id |
| AuthMiddleware.OtherSchemeRefused | src/api/middleware/auth.py:130-137 | any scheme other than bearer is the 401 "Invalid authentication scheme" |
| AuthMiddleware.BareTokenRefused | src/api/middleware/auth.py:138-145 | a header of one word is the 401 "Invalid authorization header format" |
| AuthMiddleware.DecodeToken | src/api/middleware/auth.py:29-54 | expired and invalid tokens are 401s with their details; a payload missing a token field or naming an unknown role is a 401; a granted record carries the payload's id, role and permissions |
| AuthMiddleware.AccessPayloadAccepted | src/api/middleware/auth.py:29-54 | an access token's payload decodes to its user's id, role and role permissions |
| AuthMiddleware.RefreshPayloadRefused | src/api/middleware/auth.py:47-54 | a refresh token's payload lacks the identity fields and is refused |
| AuthMiddleware.RequirePermission | src/api/middleware/auth.py:64-77 | the decoded user is admitted exactly when the token lists the permission's value; otherwise 403 naming the permission, or the decode error |
| AuthMiddleware.GuardFollowsRole | src/api/middleware/auth.py:64-77 | with an access token a permission-guarded route admits exactly the roles granting that permission |
| McpServer.NewServer | src/mcp/servers/base_server.py:61-66 | a new server has no tools |
| McpServer.RegisterTool | src/mcp/servers/base_server.py:68-71 | registering maps the tool's name to it, replacing a tool of the same name in place and appending a new name last |
| McpServer.ToolsList | src/mcp/servers/base_server.py:126-139 | the listing holds exactly the registered tools, one entry per registered name |
| McpServer.ToolsCall | src/mcp/servers/base_server.py:141-184 | an unregistered tool is a METHOD_NOT_FOUND error naming it; a registered one gives a call result whose isError flag holds exactly when the handler raised, with the handler's text or "Error: " and the message |
| McpServer.HandleRequest | src/mcp/servers/base_server.py:78-108 | the request id is always echoed; ping answers pong, initialize reports protocol 2024-11-05 and the server's name and version, an unknown method is METHOD_NOT_FOUND, and a failure while handling is INTERNAL_ERROR |
| McpServer.ErrorCodes | src/mcp/servers/base_server.py:78-108 | request handling only ever produces METHOD_NOT_FOUND or INTERNAL_ERROR errors |
| McpServer.RegisteredToolIsCallable | src/mcp/servers/base_server.py:141-174 | a tool just registered is always found when called |
| McpServer.RegisterThenList | src/mcp/servers/base_server.py:68-71 | a registered tool is listed, and no other tool of the same name remains |
| McpServer.ToRequest | src/mcp/servers/base_server.py:209-214 | a request keeps the line's id, its method defaults to "" and its params to an empty dictionary |
| McpServer.RunStdio | src/mcp/servers/base_server.py:186-246 | blank lines are skipped, so there are never more answers than lines, and every parse error is answered with a null id |
| McpServer.NonObjectStopsLoop | src/mcp/servers/base_server.py:207-214 | a JSON value that is not an object ends the loop, leaving the following ping unanswered |
| McpServer.RunStdioChecked | src/mcp/servers/base_server.py:186-246 | the corrected loop answers every non-blank line exactly once, with a null id for parse errors and invalid requests |
| McpServer.CheckedAgreesOnObjects | src/mcp/servers/base_server.py:186-246 | on input with no non-object lines the corrected loop answers exactly as the original |
| McpServer.CheckedAnswersAfterNonObject | src/mcp/servers/base_server.py:207-214 | the corrected loop answers INVALID_REQUEST for a non-object line and goes on to answer the ping after it |
| CompetencyModels.ParseDomain | src/domain/competency/models.py:18-26 | a text names a domain exactly when it equals that domain's value; otherwise no domain has that value |
| CompetencyModels.SyncIds | src/domain/competency/models.py:65-71 | validation fails exactly when neither identifier is given; a given identifier is kept; one given alone is copied to the other |
| CompetencyModels.NewSkillGap | src/domain/competency/models.py:29-36 | a new skill gap has priority "medium" and no recommendations |
| CompetencyModels.MakeQuestion | src/domain/competency/models.py:52-71 | a question is built exactly when an identifier, the text and the domain are given; area defaults to "general", difficulty to "medium" |
| CompetencyModels.QuestionIdsAgree | src/domain/competency/models.py:65-71 | either identifier alone gives a question whose id and question_id are equal; both given are kept |
| CompetencyModels.MakeResponse | src/domain/competency/models.py:74-94 | a response is built exactly when an identifier, the question, the user and the answer are given; confidence defaults to 0.5 |
| CompetencyModels.ResponseIdsAgree | src/domain/competency/models.py:88-94 | either identifier alone gives a response whose id and response_id are equal; an omitted confidence is 0.5 |
| CompetencyTools.SquareNonNegative | src/tools/competency_tools.py:136-160 | squared deviations are never negative, so the variance is not either |
| CompetencyTools.CompetencyScore | src/tools/competency_tools.py:85-101 | the score is the mean feature clamped into [0, 1] |
| CompetencyTools.LevelOf | src/tools/competency_tools.py:103-112 | the level is advanced, intermediate, novice or basic exactly by the bands 0.8, 0.6 and 0.4 |
| CompetencyTools.LevelMonotone | src/tools/competency_tools.py:103-112 | a higher score never gets a lower level |
| CompetencyTools.Strengths | src/tools/competency_tools.py:114-134 | high achievement exactly when some feature exceeds 0.7; consistent results exactly when the mean exceeds 0.6 |
| CompetencyTools.ImprovementAreas | src/tools/competency_tools.py:136-160 | basic skills exactly when some feature is below 0.4; consistency exactly when the standard deviation exceeds 0.3 |
| CompetencyTools.AdviceFor | src/tools/competency_tools.py:162-175 | below 0.4, below 0.7 and the rest each get exactly their own two recommendations |
| CompetencyTools.Analyze | src/tools/competency_tools.py:38-67 | invalid data exactly for a non-dictionary or a missing responses key; no data exactly for an empty list; the score always lies in [0, 1] |
| CompetencyTools.AnalysisConsistent | src/tools/competency_tools.py:38-67 | a non-empty list is analysed; its level is that of its score, its advice has two items, and its high-achievement and basic-skills findings match the responses |
| CompetencyTools.UniformScores | src/tools/competency_tools.py:85-160 | responses sharing one score give that score's level and no consistency concern |
| CompetencyTools.NumpyAnalysisFails | src/tools/competency_tools.py:87-139 | with numpy, two or more responses always end in the error result where the intended analysis succeeds; a lone zero loses its basic-skills area |
| CompetencyTools.Anonymize | src/tools/competency_tools.py:184-203 | the list keeps its length and keys; non-dictionaries and non-personal values are unchanged; name, email, phone and id values are hashed |
| CompetencyTools.AnonymizeTwice | src/tools/competency_tools.py:184-203 | anonymising twice hashes each personal value twice and changes nothing else |
| CompetencyAgent.NormalizeResponse | src/agents/competency_agent/__init__.py:88-147 | objects and dictionaries give a response and anything else is skipped |
| CompetencyAgent.NormalizedDictKeepsAnswer | src/agents/competency_agent/__init__.py:95-123 | a dictionary keeps its question id, value, time and confidence whether it validates or is patched |
| CompetencyAgent.NormalizeResponses | src/agents/competency_agent/__init__.py:95-123 | every non-skipped entry's response is kept and every kept response comes from an entry |
| CompetencyAgent.Preprocess | src/agents/competency_agent/__init__.py:88-147 | only valid responses are kept |
| CompetencyAgent.PreprocessKeepsExactlyValid | src/agents/competency_agent/__init__.py:317-325 | a response is kept exactly when it has a question id and a value and no negative time |
| CompetencyAgent.NormalizeQuestion | src/agents/competency_agent/__init__.py:159-187 | objects keep their id and area, other entries are skipped, and a patched dictionary with an unknown domain is an error |
| CompetencyAgent.NormalizeQuestions | src/agents/competency_agent/__init__.py:159-187 | the analysis aborts exactly when some entry fails validation |
| CompetencyAgent.AreaOf | src/agents/competency_agent/__init__.py:327-364 | a question id maps to an area exactly when some question has it, the last such one winning |
| CompetencyAgent.AreaScoreInUnitRange | src/agents/competency_agent/__init__.py:327-364 | with values in [0, 1] and non-negative confidences every area score lies in [0, 1] |
| CompetencyAgent.EqualWeightsGivePlainMean | src/agents/competency_agent/__init__.py:327-364 | equal positive confidences make the weighted mean the plain mean |
| CompetencyAgent.Mine | src/agents/competency_agent/__init__.py:327-364 | an area's responses are exactly those whose question maps to it |
| CompetencyAgent.ScoredAreas | src/agents/competency_agent/__init__.py:327-364 | exactly the areas that have responses are scored |
| CompetencyAgent.AreaScores | src/agents/competency_agent/__init__.py:327-364 | each listed score is the area score of that area's responses |
| CompetencyAgent.AreaScoresDistinct | src/agents/competency_agent/__init__.py:327-364 | each area with responses is scored exactly once |
| CompetencyAgent.QuartileBetween | src/agents/competency_agent/__init__.py:366-391 | both quartile rules give a value within any bounds of the scores |
| CompetencyAgent.InterpolatedBetween | src/agents/competency_agent/__init__.py:366-391 | numpy's interpolated percentile lies within any bounds of the list |
| CompetencyAgent.AreasAtLeast | src/agents/competency_agent/__init__.py:366-391 | an area is a strength exactly when its score reaches the threshold |
| CompetencyAgent.AreasAtMost | src/agents/competency_agent/__init__.py:366-391 | an area is a weakness exactly when its score is at most the threshold |
| CompetencyAgent.ExtremesAreStrengthsAndWeaknesses | src/agents/competency_agent/__init__.py:366-391 | under either quartile rule an area with the greatest score is a strength and one with the least a weakness |
| CompetencyAgent.PatternOfUniform | src/agents/competency_agent/__init__.py:393-411 | two or more equal confidences are consistent; a single response is variable |
| CompetencyAgent.OverallLevel | src/agents/competency_agent/__init__.py:413-436 | no scores is unassessed; otherwise advanced exactly when the mean reaches 0.8 less epsilon, basic exactly when it is below 0.4 less epsilon |
| CompetencyAgent.OverallAtLeastAnalyserLevel | src/agents/competency_agent/__init__.py:413-436 | the overall level is never below the analyser's level of the same mean |
| CompetencyAgent.WeaknessRecs | src/agents/competency_agent/__init__.py:438-459 | one high-priority improvement per weakness, in order |
| CompetencyAgent.StrengthRecs | src/agents/competency_agent/__init__.py:461-482 | one medium-priority expansion per strength, in order |
| CompetencyAgent.PatternRecs | src/agents/competency_agent/__init__.py:484-504 | a pattern recommendation appears exactly when the pattern is variable |
| CompetencyAgent.PrioritizeSortsAndPermutes | src/agents/competency_agent/__init__.py:506-515 | prioritising only reorders, and ranks never decrease along the result |
| CompetencyAgent.PrioritizeIsStable | src/agents/competency_agent/__init__.py:506-515 | the sort lists the high items, then the medium ones, then the rest, each in its original order |
| CompetencyAgent.OneHighPerWeakness | src/agents/competency_agent/__init__.py:238-283 | the recommendations start with the weakness items in order, and every later one is medium |
| CompetencyAgent.AccessLevel | src/agents/competency_agent/__init__.py:517-524 | restricted exactly at high security; authorised exactly when both user and session are given otherwise |
| CompetencyAgent.Analyze | src/agents/competency_agent/__init__.py:149-236 | no responses and a failing question are errors; an analysis's overall level is that of its scores |
| CompetencyAgent.Execute | src/agents/competency_agent/__init__.py:61-86 | kept responses are valid, the access level is the state's, and a failed analysis gives errors and no recommendations |
| CompetencyAgent.NoValidResponses | src/agents/competency_agent/__init__.py:61-236 | without valid responses the run reports both missing data and missing analysis and recommends nothing |
| CompetencyAgent.ExecuteRecommendsWeaknessesFirst | src/agents/competency_agent/__init__.py:61-315 | a successful run has no errors, carries the digest of its analysis and puts the weakness items first |
| CreatorHistory.New | src/services/creator_history/service.py:96-107 | the service keeps its history in memory exactly when the database URL mentions sqlite, and only then are the in-memory stores created |
| CreatorHistory.Initialize | src/services/creator_history/service.py:109-129 | initialisation happens once; a database whose tables cannot be created falls back to fresh, empty in-memory stores |
| CreatorHistory.Latest | src/services/creator_history/service.py:303-307 | the latest snapshot in memory is the last one stored for the creator, none when there is none |
| CreatorHistory.Delta | src/services/creator_history/service.py:163-179 | a first evaluation has an empty change record; later ones record the follower, engagement and score differences, a missing score counting as 0 |
| CreatorHistory.Description | src/services/creator_history/service.py:165-179 | the entry text gains the score gain exactly when the score rose |
| CreatorHistory.EvaluationEntry | src/services/creator_history/service.py:181-190 | an evaluation entry links the current snapshot and, when there is one, the previous snapshot |
| CreatorHistory.RecordEvaluation | src/services/creator_history/service.py:131-196 | recording an evaluation appends the snapshot and its entry to the creator's in-memory lists |
| CreatorHistory.FirstEvaluation | src/services/creator_history/service.py:163-179 | a creator's first evaluation has no previous snapshot, an empty change record and the plain description |
| CreatorHistory.SecondEvaluationLinks | src/services/creator_history/service.py:163-190 | the next evaluation links back to the previous snapshot, records the differences, and mentions the score gain iff the score rose |
| CreatorHistory.RecordMission | src/services/creator_history/service.py:198-223 | a mission completion adds a "mission_complete" entry naming the mission, carrying the performance metrics or an empty record, and leaves snapshots alone |
| CreatorHistory.GradeImproved | src/services/creator_history/service.py:262-267 | the grade improved only when both grades are non-empty and the later one ranks strictly higher in S > A > B > C |
| CreatorHistory.Classify | src/services/creator_history/service.py:274-279 | improving iff followers grew more than 5% and engagement grew; declining iff not improving and followers fell more than 5% or engagement fell more than 0.01 |
| CreatorHistory.SmallMovesAreStable | src/services/creator_history/service.py:274-279 | follower moves within 5% and an engagement change of at least -0.01 are stable |
| CreatorHistory.FollowerDropDeclines | src/services/creator_history/service.py:274-279 | a follower fall of more than 5% is declining whatever the engagement did |
| CreatorHistory.SnapshotsIn | src/services/creator_history/service.py:430-438 | the snapshots in range are exactly the stored ones whose time lies in the closed period |
| CreatorHistory.GetTrend | src/services/creator_history/service.py:232-301 | a trend needs two snapshots in the period; it compares the first and last, dividing follower growth by at least one follower, and reports a score change only when both scores exist |
| CreatorHistory.ZeroFollowersCountAsOne | src/services/creator_history/service.py:250 | growth from zero followers is measured against one follower |
| CreatorHistory.SelectedOf | src/services/creator_history/service.py:457-462 | the selected entries are exactly those meeting every given date bound and the change type, an empty change type filtering nothing |
| CreatorHistory.Page | src/services/creator_history/service.py:464-466 | the page is exactly the window offset..offset+limit of the selected entries sorted newest first (ties keep their order); the total counts all selected entries before paging |
| CreatorHistory.FullPageHasAll | src/services/creator_history/service.py:464-466 | a first page at least as large as the history holds every selected entry |
| CreatorHistory.GetHistory | src/services/creator_history/service.py:449-481 | as written, a history query answers exactly when in-memory stores exist; the answer holds the page of the creator's entries and exactly the last ten of their snapshots |
| CreatorHistory.DatabaseHistoryRaises | src/services/creator_history/service.py:477-481 | as written, every history query of a service started with a working database fails |
| CreatorHistory.GetHistoryChecked | src/services/creator_history/service.py:449-475 | the intended query answers in database mode too, with an empty page and a zero total |
| CreatorHistory.CheckedAgreesInMemory | src/services/creator_history/service.py:449-475 | wherever the as-written query answers, the intended one gives the same response |
| DataCollectionAgent.ValidateIff | src/agents/data_collection_agent/__init__.py:1169-1192 | an item is rejected exactly when id, title or source is missing or falsy, the id text exceeds 255 characters, the title is blank or exceeds 500, or a truthy description exceeds 10000 |
| DataCollectionAgent.WarningsDoNotReject | src/agents/data_collection_agent/__init__.py:1194-1218 | a different URL or creation date never changes the intended verdict: those checks only warn |
| DataCollectionAgent.ValidateAsWritten | src/agents/data_collection_agent/__init__.py:1194-1224 | acceptance as written implies acceptance as intended; the URL warning can only reject more |
| DataCollectionAgent.NumericUrlRejected | src/agents/data_collection_agent/__init__.py:1195-1198 | an otherwise valid item whose URL is the number 42 is rejected as written, because the warning slices the URL and the handler returns False |
| DataCollectionAgent.AsWrittenAgreesOnTextUrls | src/agents/data_collection_agent/__init__.py:1195-1198 | with a missing, text or list URL the as-written and intended validators agree |
| DataCollectionAgent.ValidateAll | src/agents/data_collection_agent/__init__.py:226-251 | the validated items are exactly the valid ones; each failure records an invalid item with "Validation failed" |
| DataCollectionAgent.ValidatePartitions | src/agents/data_collection_agent/__init__.py:226-251 | validated and failed items partition the collected items, as multisets and in number |
| DataCollectionAgent.ContentTypeOf | src/agents/data_collection_agent/__init__.py:331-348 | the classification fails exactly when content_type is present and not text (`.lower()` raises) |
| DataCollectionAgent.ContentTypeIgnoresCase | src/agents/data_collection_agent/__init__.py:333 | a type name and its lowered form get the same content type |
| DataCollectionAgent.ContentTypePrecedence | src/agents/data_collection_agent/__init__.py:335-340 | an mp4 marker always gives video; a course without video markers gives document |
| DataCollectionAgent.CleanTextFields | src/agents/data_collection_agent/__init__.py:1306-1323 | only truthy title, description and author change, each to its cleaned and stripped text; keys are kept |
| DataCollectionAgent.NormalizeDates | src/agents/data_collection_agent/__init__.py:1325-1347 | only created_at and updated_at may change, truthiness of every field is kept, keys are kept |
| DataCollectionAgent.RawTags | src/agents/data_collection_agent/__init__.py:1374-1381 | iterating the tags raises exactly for None, numbers and dates |
| DataCollectionAgent.CleanTagList | src/agents/data_collection_agent/__init__.py:1380-1387 | a tag is kept iff its stripped lower-case form is non-empty and at most 50 characters; kept tags are distinct |
| DataCollectionAgent.CleanTagsAreClean | src/agents/data_collection_agent/__init__.py:1380-1387 | every cleaned tag is stripped, free of upper-case letters, non-empty, at most 50 characters, and distinct |
| DataCollectionAgent.CleanTags | src/agents/data_collection_agent/__init__.py:1372-1389 | truthy tags become their cleaned list; the step raises exactly when truthy tags are not iterable |
| DataCollectionAgent.QualityTenths | src/agents/data_collection_agent/__init__.py:1391-1435 | the quality score is at most ten tenths whenever no length computation raises |
| DataCollectionAgent.QualityInUnitRange | src/agents/data_collection_agent/__init__.py:1433-1435 | the quality score lies in [0, 1] |
| DataCollectionAgent.Completeness | src/agents/data_collection_agent/__init__.py:1437-1441 | completeness is within half a hundredth of the filled share of nine fields, 1.0 iff all nine are filled, 0.0 iff none is |
| DataCollectionAgent.NinthsToHundredths | src/agents/data_collection_agent/__init__.py:1441 | rounding a ninth to two decimals errs by at most 0.005 and keeps 0 and 1 exact |
| DataCollectionAgent.CompletenessExtremes | src/agents/data_collection_agent/__init__.py:1437-1441 | an item with all nine fields filled scores 1.0; one with none scores 0.0 |
| DataCollectionAgent.KeySentences | src/agents/data_collection_agent/__init__.py:1480-1492 | at most three sentences, each stripped and at least 20 characters; none without a description |
| DataCollectionAgent.KeySentencesArePrefix | src/agents/data_collection_agent/__init__.py:1488-1492 | the key sentences are the first three long sentences, none skipped |
| DataCollectionAgent.Process | src/agents/data_collection_agent/__init__.py:1267-1304 | a failure returns the original item; success gives quality and completeness in [0, 1], at most three sentences and the same keys |
| DataCollectionAgent.ProcessFailsOnlyOnTagsOrMetadata | src/agents/data_collection_agent/__init__.py:1267-1304 | processing falls back to the original exactly when tag cleaning or a quality length raises |
| DataCollectionAgent.MakeMeta | src/agents/data_collection_agent/__init__.py:294-329 | metadata exists iff the content type is text-derived and the model accepts the item; url prefers file_url; scores are present iff processing succeeded |
| DataCollectionAgent.ProcessAll | src/agents/data_collection_agent/__init__.py:265-284 | each validated item yields either one metadata record or one failure naming it |
| DataCollectionAgent.Clients | src/agents/data_collection_agent/__init__.py:70-95 | a public source has a client iff its API key is configured and non-empty; manual upload never has one |
| DataCollectionAgent.Collect | src/agents/data_collection_agent/__init__.py:129-152 | a source with a client replaces the items and sets the total; any other source only appends the unsupported-source error |
| DataCollectionAgent.ValidateStep | src/agents/data_collection_agent/__init__.py:226-259 | the error count equals the failures; validated plus failed equals collected; errors and total unchanged |
| DataCollectionAgent.ProcessStep | src/agents/data_collection_agent/__init__.py:261-292 | the success count is the number of records; records plus new failures equal the validated items; earlier failures and the error count are kept |
| DataCollectionAgent.Execute | src/agents/data_collection_agent/__init__.py:97-127 | the run completes; with a supported source successes plus failures equal the fetched items; a storage failure is the last error |
| DataCollectionAgent.ErrorCountIsValidationFailures | src/agents/data_collection_agent/__init__.py:226-292 | error_count counts only validation failures; processing failures are in failed_items but not counted |
| DataCollectionAgent.UnsupportedSource | src/agents/data_collection_agent/__init__.py:131-151 | an unsupported source adds exactly the "Unsupported data source: DataSourceType.MANUAL" error and keeps the total |
| DataCollectionAgent.HasMember | src/agents/data_collection_agent/__init__.py:652-674 | `in` raises exactly on values that are not a dictionary, list or string |
| DataCollectionAgent.EnvelopeItems | src/agents/data_collection_agent/__init__.py:652-670 | a single item object is wrapped in a list, a list stays, and a missing totalCount defaults to the item count |
| DataCollectionAgent.ObjectCases | src/agents/data_collection_agent/__init__.py:672-679 | a dictionary with items passes through; one with neither key gives an empty envelope |
| DataCollectionAgent.ListWithKeyWord | src/agents/data_collection_agent/__init__.py:652-677 | as written, the list ["items"] comes back unwrapped and the list ["response"] raises |
| DataCollectionAgent.NormalizeResponseChecked | src/agents/data_collection_agent/__init__.py:649-679 | the corrected normalisation wraps every list with its length and passes through only dictionaries |
| DataCollectionAgent.CheckedAgreesOnObjects | src/agents/data_collection_agent/__init__.py:649-679 | on dictionaries the corrected and as-written normalisations agree |
| DataCollectionAgent.NileTags | src/agents/data_collection_agent/__init__.py:825-835 | the extracted tags are non-empty and stripped; a truthy non-text field raises |
| DataCollectionAgent.PolicyTags | src/agents/data_collection_agent/__init__.py:979-986 | policy tags start with "정책" followed only by truthy category and target |
| DataCollectionAgent.ResearchTags | src/agents/data_collection_agent/__init__.py:1133-1145 | research tags start with "연구보고서" and are all truthy |
| DeepAgents.ShouldUseDeepAgents | src/agents/deep_agents/__init__.py:50-109 | an empty query never uses the deep agent, and one that does names a complexity indicator or is longer than 300 characters |
| DeepAgents.TwoIndicatorsTrigger | src/agents/deep_agents/__init__.py:50-109 | two different complexity indicators in a query are enough on their own to use the deep agent |
| DeepAgents.PlainShortQueryStays | src/agents/deep_agents/__init__.py:50-109 | a query of at most 300 characters naming no indicator never uses the deep agent |
| DeepAgents.HeuristicScore | src/agents/deep_agents/__init__.py:241-249 | the heuristic score lies between 0.5 and 0.8: 0.5 for a short unstructured answer, 0.8 for a long structured one |
| DeepAgents.HeuristicCritique | src/agents/deep_agents/__init__.py:241-254 | the heuristic critique's score lies between 0.5 and 0.8 |
| DeepAgents.ImproveFallback | src/agents/deep_agents/__init__.py:259-265 | without an engine, the improved answer begins with the previous answer |
| DeepAgents.FailureResult | src/agents/deep_agents/__init__.py:179-186 | a failed run reports no success, zero iterations and a zero quality score |
| DeepAgents.Execute | src/agents/deep_agents/__init__.py:111-177 | the run succeeds within the round and step budgets; every critique but the last fell short of the threshold, the quality is the last critique's score, and the loop stops early only when the threshold is met or the steps run out |
| DocumentProcessor.WindowWithinLimit | src/rag/document_processor.py:131-143 | the slice `text[start:end]` of any window, however the end was pulled back to a full stop, holds at most `max_chunk_size` characters |
| DocumentProcessor.ChunksAtAreGood | src/rag/document_processor.py:143-145 | every appended chunk is non-empty, already stripped, no longer than `max_chunk_size` and occurs in the text |
| DocumentProcessor.WrittenStarts | src/rag/document_processor.py:129-149 | the written loop, when it finishes, visits at most one window per round and every window starts inside the text |
| DocumentProcessor.WrittenChunksAreGood | src/rag/document_processor.py:121-152 | whenever the written chunking finishes on a long text, all its chunks are good |
| DocumentProcessor.LoopNeverExits | src/rag/document_processor.py:129-149 | with `chunk_overlap > 0` the next start `end - overlap` stays below `len(text)`, so the loop never ends |
| DocumentProcessor.LongTextNeverChunks | src/rag/document_processor.py:121-152 | a text longer than `max_chunk_size` never finishes chunking when the overlap is positive |
| DocumentProcessor.DefaultSettingsNeverChunk | src/rag/document_processor.py:22-24 | with the default sizes (1000, 200, 100) every text over 1000 characters is affected |
| DocumentProcessor.LoopStarts | src/rag/document_processor.py:129-149 | the corrected loop's window starts lie in the text and strictly increase |
| DocumentProcessor.SplitIntoChunks | src/rag/document_processor.py:121-152 | the corrected chunking always finishes with at most one chunk per character |
| DocumentProcessor.ChunksAreGood | src/rag/document_processor.py:129-152 | every chunk of the corrected chunking of a long text is good |
| DocumentProcessor.WindowsCoverText | src/rag/document_processor.py:129-149 | corrected windows leave no gap: each starts no later than the previous one ended and the last ends at the end of the text |
| DocumentProcessor.ShortTextIsOneChunk | src/rag/document_processor.py:123-124 | a text of at most `max_chunk_size` characters comes back whole (not stripped), an empty one as no chunks, in both versions |
| DocumentProcessor.UniqueSentences | src/rag/document_processor.py:188-201 | kept sentences are non-empty, stripped, free of full stops and of repeats, in first-occurrence order, and every non-blank piece is kept |
| DocumentProcessor.JoinedSentencesSplitBack | src/rag/document_processor.py:190-203 | splitting the ". "-joined sentences at full stops and stripping gives the sentences back |
| DocumentProcessor.RemoveDuplicateSentencesIdempotent | src/rag/document_processor.py:188-205 | removing duplicate sentences twice is the same as once |
| DocumentProcessor.ClassifyInGroupOrder | src/rag/document_processor.py:235-261 | a category is chosen exactly when its keyword group occurs in the lowered text and no earlier group does |
| DocumentProcessor.SharedKeywordReadsAsParenting | src/rag/document_processor.py:241-253 | a text mentioning "교육" is always "parenting", never "education" |
| DocumentProcessor.ClassifyIgnoresCase | src/rag/document_processor.py:238-239 | lowering the content first does not change the category |
| DocumentProcessor.HangulTextIsKorean | src/rag/document_processor.py:267-276 | a non-empty text of Hangul syllables is "ko" |
| DocumentProcessor.LatinTextIsEnglish | src/rag/document_processor.py:267-278 | a non-empty text of Latin letters is "en" |
| DocumentProcessor.LetterlessTextIsMixed | src/rag/document_processor.py:267-280 | a text with neither kind of letter is "mixed" |
| DocumentProcessor.OtherCharsDoNotCount | src/rag/document_processor.py:271-272 | appending characters that are neither Hangul syllables nor Latin letters never changes the language |
| DocumentProcessor.TopWords | src/rag/document_processor.py:222-226 | the ranked words are at most ten distinct candidates in descending frequency |
| DocumentProcessor.ExtractKeywords | src/rag/document_processor.py:207-228 | at most ten distinct keywords, each longer than two characters, not a stop word and seen more than once, in descending frequency |
| DocumentProcessor.FewWordsAllRepeatsKept | src/rag/document_processor.py:219-228 | with at most ten distinct candidates every repeated word is a keyword |
| DocumentProcessor.OutrankedByTop | src/rag/document_processor.py:225-226 | a candidate cut from the top ten is no more frequent than any of the ten, which are then exactly ten |
| DocumentProcessor.DroppedRepeatsAreRarer | src/rag/document_processor.py:219-228 | a repeated word left out is no more frequent than any keyword kept |
| IntentAnalyzer.NormalizeIntent | src/rag/intent_analyzer.py:65-77 | the intent is always one of the enumeration's values: "competency" and "mission" are folded to their full names, a known value is kept, and anything else becomes general_chat |
| IntentAnalyzer.AnalyzeIntent | src/rag/intent_analyzer.py:30-87 | the analysis fails exactly when the call raised or the fence-stripped reply is not a JSON object, and then answers general_chat with confidence 0.0; otherwise the intent is the normalised field and the confidence is passed through |
| IntentAnalyzer.NormalizeIdempotent | src/rag/intent_analyzer.py:65-77 | normalising an already normalised intent changes nothing |
| IntentAnalyzer.BareReplyOnlyStripped | src/rag/intent_analyzer.py:61 | a reply without backticks is decoded after whitespace stripping alone |
| PromptTemplates.NameToType | src/rag/prompt_templates.py:42-50 | a name maps to the prompt type whose value it is, and to no type when no value matches |
| PromptTemplates.ValueNameRoundTrip | src/rag/prompt_templates.py:42-50 | every prompt type's value maps back to that type |
| PromptTemplates.PromptFileName | src/rag/prompt_templates.py:308-328 | every type loads one of five files, and "analyze" serves exactly the analytics and data-collection types |
| PromptTemplates.FileNamesDistinguishTypes | src/rag/prompt_templates.py:320-327 | two different types share a file only when they are the analytics and data-collection types |
| PromptTemplates.GetSystemPrompt | src/rag/prompt_templates.py:330-358 | the agent's markdown prompt wins when one loads; otherwise the role's inline prompt, and the default prompt for an unknown role |
| PromptTemplates.FormatByName | src/rag/prompt_templates.py:361-407 | system prompt names return their prompt, rag_answer without the variant formats the base template or falls back to it raw, and an unknown name gives the empty string |
| PromptTemplates.GetPrompt | src/rag/prompt_templates.py:264-306 | a loaded markdown file wins; otherwise an empty inline template gives "", and a non-empty one is formatted, or returned raw when formatting fails |
| PromptTemplates.TypeNamesReachPrompt | src/rag/prompt_templates.py:361-404 | asking by a prompt type's name gives exactly `get_prompt` of that type, whatever the A/B variant |
| PromptTemplates.SystemNamesAgree | src/rag/prompt_templates.py:330-383 | by name, a role's key and "system_default" give what `get_system_prompt` gives for that role and for "default" when no agent prompt loads |
| PromptTemplates.ContentPreview | src/rag/prompt_templates.py:449 | content up to 500 characters is kept whole, longer content is cut to 500 and marked with "..." |
| PromptTemplates.DocBlocks | src/rag/prompt_templates.py:442-455 | one block per document, numbered consecutively |
| PromptTemplates.FormatRetrievedDocuments | src/rag/prompt_templates.py:436-456 | an empty document list gives the fixed "no documents" text |
| PromptTemplates.DocumentShownNumbered | src/rag/prompt_templates.py:441-454 | document i appears in the prompt as a block numbered i + 1 holding its content preview, score, source and date |
| PromptTemplates.DocumentsShownInOrder | src/rag/prompt_templates.py:441-456 | the document blocks appear in the order of the documents |
| PromptTemplates.ConversationHistory | src/rag/prompt_templates.py:468-472 | the history shows exactly the last five turns, in order |
| PromptTemplates.RecentTurnsShown | src/rag/prompt_templates.py:468-472 | every one of the last five turns appears in the history as "role: content" |
| Hello.HelloUser | src/utils/hello.py:13-22 | the greeting is "Hello ", the name, then "!" |
| Hello.GetGreeting | src/utils/hello.py:25-34 | a given name is greeted as hello_user greets it |
| Hello.HelloUserInjective | src/utils/hello.py:13-22 | distinct names give distinct greetings |
| Hello.DefaultGreeting | src/utils/hello.py:25-34 | the default greeting is hello_user of "World", which differs from hello_world's text by its "!" |
| Exceptions.AllAreBase | src/core/exceptions.py:98-427 | every exception class is an application exception, and the hierarchy is at most two levels below the root |
| Exceptions.Base | src/core/exceptions.py:45-62 | the base exception keeps the given message, code, category, severity and details, and captures a traceback exactly when an original exception is given |
| Exceptions.NewValidation | src/core/exceptions.py:98-120 | a validation error has code VALIDATION_ERROR, category validation and low severity; a non-empty field is recorded and a given value is kept as its first 100 characters |
| Exceptions.NewMissingField | src/core/exceptions.py:123-128 | a missing field is a validation error with code MISSING_FIELD whose details name only the field |
| Exceptions.NewInvalidFormat | src/core/exceptions.py:131-142 | an invalid format is a validation error with code INVALID_FORMAT recording the expected format |
| Exceptions.NewAuthentication | src/core/exceptions.py:145-159 | an authentication error has code AUTH_ERROR, category auth and medium severity |
| Exceptions.NewInvalidToken | src/core/exceptions.py:162-167 | an invalid token is an authentication error with code INVALID_TOKEN whose message and reason are the given reason |
| Exceptions.NewTokenExpired | src/core/exceptions.py:170-175 | an expired token is an authentication error with code TOKEN_EXPIRED and reason "expired" |
| Exceptions.NewAuthorization | src/core/exceptions.py:178-198 | an authorization error has code AUTHZ_ERROR and medium severity, and records a non-empty required permission |
| Exceptions.NewDatabase | src/core/exceptions.py:201-224 | a database error has code DB_ERROR and high severity, and its details hold at most the operation and table |
| Exceptions.NewRecordNotFound | src/core/exceptions.py:227-235 | a missing record is a database error with code NOT_FOUND, lowered to low severity, for operation SELECT |
| Exceptions.NewDuplicateRecord | src/core/exceptions.py:242-252 | a duplicate record is a database error with code DUPLICATE_RECORD, low severity, for operation INSERT |
| Exceptions.NewExternalApi | src/core/exceptions.py:255-279 | an external-API error records the API name, a non-zero status code and the first 500 characters of a non-empty response body |
| Exceptions.NewApiTimeout | src/core/exceptions.py:282-292 | a timeout is an external-API error re-categorised as timeout with code API_TIMEOUT, recording the timeout in seconds |
| Exceptions.NewApiRateLimit | src/core/exceptions.py:295-307 | a rate limit is an external-API error with status code 429 and code API_RATE_LIMIT, recording a non-zero retry delay |
| Exceptions.SafeState | src/core/exceptions.py:321-324 | the recorded agent state keeps exactly the entries whose names do not start with an underscore, with their values |
| Exceptions.NewAgent | src/core/exceptions.py:310-333 | an agent error has code AGENT_ERROR, business-logic category and medium severity; a non-empty state is recorded without its private entries |
| Exceptions.NewAgentExecution | src/core/exceptions.py:336-348 | an execution error is an agent error with code AGENT_EXECUTION_ERROR recording the agent and the step |
| Exceptions.NewAgentState | src/core/exceptions.py:351-360 | a state error is an agent error with code AGENT_STATE_ERROR and the reason in its message |
| Exceptions.NewDataCollection | src/core/exceptions.py:363-385 | a data-collection error is in the external-API category and records the source and both item counts |
| Exceptions.NewDataProcessing | src/core/exceptions.py:388-410 | a data-processing error is business logic and records the processor |
| Exceptions.NewConfiguration | src/core/exceptions.py:413-427 | a configuration error is a high-severity system error whose details hold at most the config key |
| Exceptions.LogLevel | src/core/exceptions.py:75-86 | an error is logged as critical exactly when critical and as info exactly when low |
| Exceptions.Wrap | src/core/exceptions.py:444-449 | an application exception is kept as it is; any other becomes a medium system error with code APP_ERROR, its text and the context |
| Exceptions.HandleException | src/core/exceptions.py:431-456 | the standardised error is raised exactly when re-raising is asked for; a foreign exception keeps its text and the context and carries a traceback |
| Exceptions.HandleIdempotent | src/core/exceptions.py:444-449 | standardising an already standardised error changes nothing |
| Exceptions.CreateErrorResponse | src/core/exceptions.py:459-481 | the body carries the code, message and category value; details appear exactly in debug mode and the traceback only in debug mode when one was captured |
| Exceptions.AddException | src/core/exceptions.py:497-510 | adding an exception appends its standardised form and keeps the earlier errors |
| Exceptions.HasCritical | src/core/exceptions.py:516-521 | the aggregator has critical errors exactly when some error is high or critical severity |
| Exceptions.GetSummary | src/core/exceptions.py:523-543 | the summary's total is the number of errors, each present category and severity maps to its count, absent ones are missing, and the first ten errors are listed |
| Exceptions.CategoryCountsSum | src/core/exceptions.py:531-538 | the per-category counts add up to the number of errors |
| Exceptions.SummaryTotals | src/core/exceptions.py:523-543 | the summary total equals the sum of its category counts, and an empty aggregator reports a zero total and no errors |
| Exceptions.CriticalMatchesSummary | src/core/exceptions.py:516-538 | having critical errors agrees with the summary counting some high or critical errors |
| Exceptions.ForeignNotCritical | src/core/exceptions.py:497-521 | adding a foreign exception never makes the aggregator critical |
| ErrorHandler.StatusFor | src/api/middleware/error_handler.py:43-61 | an application exception's status is 400 exactly for validation errors, 401 exactly for authentication errors and 403 exactly for authorization errors, and always one of eight statuses |
| ErrorHandler.NotFoundBeforeDatabase | src/api/middleware/error_handler.py:50-51 | a missing record is answered 404 although it is a database error |
| ErrorHandler.DatabaseUnavailable | src/api/middleware/error_handler.py:56-57 | every other database error is answered 503 |
| ErrorHandler.RateLimitBeforeExternal | src/api/middleware/error_handler.py:52-53 | a rate-limit error is answered 429 although it is an external-API error |
| ErrorHandler.ExternalBadGateway | src/api/middleware/error_handler.py:54-55 | every other external-API error, timeouts included, is answered 502 |
| ErrorHandler.SubclassesFollowFamily | src/api/middleware/error_handler.py:44-47 | missing-field and invalid-format errors are 400s, invalid and expired tokens 401s |
| ErrorHandler.OtherFamiliesAre500 | src/api/middleware/error_handler.py:58-61 | outside the validation, auth, database and external-API families every class is answered 500, whatever its severity |
| ErrorHandler.ConstructedClientStatuses | src/api/middleware/error_handler.py:43-51 | the errors the constructors build are answered 400 for a missing field, 401 for an invalid or expired token, 403 for an authorization failure and 404 for a missing record |
| ErrorHandler.ConstructedApiStatuses | src/api/middleware/error_handler.py:52-55 | a constructed rate-limit error is answered 429 and a constructed timeout 502 |
| ErrorHandler.ApplicationAnswer | src/api/middleware/error_handler.py:36-63 | the answer has the class's status and the error body's code, message and category, with details exactly in debug mode |
| ErrorHandler.DebugOnlyAddsDetails | src/api/middleware/error_handler.py:36-63 | debug mode changes only the details of an application error's answer, never its status, code, message or category |
| ErrorHandler.FieldPathSplits | src/api/middleware/error_handler.py:72 | splitting a joined field path at the dots gives back its dot-free location segments |
| ErrorHandler.ValidationAnswer | src/api/middleware/error_handler.py:65-90 | request-validation failures are a 422 VALIDATION_ERROR listing every problem, in order, with its dotted field path, message and type |
| ErrorHandler.HttpAnswer | src/api/middleware/error_handler.py:92-107 | an HTTP exception keeps its status, and its code is HTTP_ followed by the status digits |
| ErrorHandler.GeneralAnswer | src/api/middleware/error_handler.py:109-134 | any other exception is a 500 INTERNAL_ERROR whose message is the exception text in debug mode and a fixed message otherwise |
| ErrorHandler.GeneralHidesText | src/api/middleware/error_handler.py:109-134 | outside debug mode two unexpected exceptions get the same answer, whatever their text |
| ErrorHandler.RecordFailure | src/api/middleware/error_handler.py:175-183 | a failure raises the service's count by one from zero or its previous value, stamps the time, and leaves other services alone |
| ErrorHandler.RecordSuccess | src/api/middleware/error_handler.py:192-194 | a success resets the service's count to zero and leaves the failure times and other services alone |
| ErrorHandler.IsCircuitOpen | src/api/middleware/error_handler.py:196-217 | the circuit is open exactly when the service has reached the threshold and the reset timeout has not passed since its last failure; the state changes only by the half-open reset to one below the threshold |
| ErrorHandler.FiveFailuresOpen | src/api/middleware/error_handler.py:172-217 | four failures leave the circuit closed and the fifth opens it |
| ErrorHandler.SuccessCloses | src/api/middleware/error_handler.py:192-204 | after a success the circuit is closed |
| ErrorHandler.HalfOpenReopensOnFailure | src/api/middleware/error_handler.py:206-217 | after the timeout one call is let through at one below the threshold, and a single further failure opens the circuit again |
| ErrorHandler.CheckIsolated | src/api/middleware/error_handler.py:196-217 | checking one service never changes another service's count |
| GenerationEngine.EmptyConfig | src/rag/generation_engine.py:64-91 | without settings, fast and fallback model are the same Gemini model, and the fallback order starts with the selected slot and lists five slots |
| GenerationEngine.AddNew | src/rag/generation_engine.py:104-118 | loading appends each accepted, not yet loaded name once, keeping earlier models first and the list duplicate-free |
| GenerationEngine.InitializeModels | src/rag/generation_engine.py:97-165 | a name is loaded iff some provider whose key is set accepts it by prefix or substring among that provider's slots; nothing loads without LangChain |
| GenerationEngine.GoogleOnlyLoadsFastModelOnce | src/rag/generation_engine.py:146-160 | with only the Google key, a Gemini fast model that doubles as fallback is loaded once and a non-Gemini default not at all |
| GenerationEngine.SelectModel | src/rag/generation_engine.py:249-293 | the selection is always a loaded model, is absent iff nothing is loaded, an explicit loaded name wins, budget or fast hints pick a loaded fast model, and without context the loaded default is used |
| GenerationEngine.DeepModelOnlyForDeepTasks | src/rag/generation_engine.py:262-282 | the deep model is chosen iff the task is analysis, coding or reasoning, it is loaded, and no explicit name or fast/budget hint takes precedence |
| GenerationEngine.Candidates | src/rag/generation_engine.py:378-383 | the generator yields each loaded, non-empty, not yet seen name that some token resolves to, once |
| GenerationEngine.FallbackCandidates | src/rag/generation_engine.py:365-383 | a name is a candidate iff it is loaded, is not the selected name and some fallback-order token resolves to it; no name repeats |
| GenerationEngine.CandidatesFollowOrder | src/rag/generation_engine.py:378-383 | candidates appear in the order of the fallback tokens |
| GenerationEngine.DefaultOrderTriesDefaultFirst | src/rag/generation_engine.py:89-91 | with the default order the loaded default model is the first fallback after a different selected model, which never reappears |
| GenerationEngine.Attempts | src/rag/generation_engine.py:351 | at least one attempt, exactly `max_retries` when that is positive |
| GenerationEngine.GenerateWithRetries | src/rag/generation_engine.py:347-363 | between one and `max(1, max_retries)` calls, with one sleep between consecutive calls |
| GenerationEngine.RetryStopsAtFirstSuccess | src/rag/generation_engine.py:353-363 | all attempts before the last one failed; the reply is the first success's text, or "" after every attempt failed |
| GenerationEngine.RetrySleepsGrow | src/rag/generation_engine.py:356-360 | the k-th sleep is the initial backoff times the multiplier to the k-th power |
| GenerationEngine.SecondAttemptSucceeds | src/rag/generation_engine.py:353-360 | with two attempts, one failure and a success give the second reply after one sleep of `backoff_ms/1000` |
| GenerationEngine.FormatContext | src/rag/generation_engine.py:385-398 | the formatted context is empty iff there are no retrieved documents and no user context |
| GenerationEngine.PrepareMessages | src/rag/generation_engine.py:317-332 | the prompt is the last and only human message; a given system prompt comes first; a context message is added iff the formatted context is non-empty |
| GenerationEngine.FirstReply | src/rag/generation_engine.py:229-236 | the fallback loop's reply is empty iff every candidate's retries gave "", and otherwise is some candidate's reply |
| GenerationEngine.Generate | src/rag/generation_engine.py:197-247 | generation never returns empty text, and returns the apology when no model is loaded |
| GenerationEngine.GenerateRepliesFromLoadedModel | src/rag/generation_engine.py:219-243 | every reply other than the apology is the retry reply of a loaded model, given the messages after the overrides |
| GenerationEngine.AllFailuresGiveApology | src/rag/generation_engine.py:226-243 | when every model call raises, the reply is the fixed apology |
| GenerationEngine.PromptOverrideWins | src/rag/generation_engine.py:206-215 | a truthy `prompt_override` makes the prompt argument irrelevant and becomes the human message |
| GenerationEngine.BackupAnswers | src/rag/generation_engine.py:226-236 | with one attempt, a failing selected model and a first candidate that answers, the candidate's text is returned |
| HttpFetchServer.FetchUrl | src/mcp/servers/http_fetch_server.py:170-183 | the page keeps the fetcher's URL (or the requested one), status (0 when missing), json and error; its text is present exactly when the fetched text is non-empty and is then its first 5000 characters |
| HttpFetchServer.ToPreview | src/mcp/servers/http_fetch_server.py:196-204 | a preview keeps the URL and error, reports whether JSON came back, and has a text preview of at most 1000 characters exactly when the text is non-empty |
| HttpFetchServer.PreviewAgreesWithPage | src/mcp/servers/http_fetch_server.py:170-204 | a fetch's preview and its page agree on status, JSON and error, have text together, and the preview text is a prefix of the page text |
| HttpFetchServer.FetchUrls | src/mcp/servers/http_fetch_server.py:185-206 | one preview per fetched result, in order |
| HttpFetchServer.WebSearch | src/mcp/servers/http_fetch_server.py:208-232 | the count is the number of URLs; an error is reported exactly when the search raised, and then with no URLs |
| HttpFetchServer.SearchAndFetch | src/mcp/servers/http_fetch_server.py:234-265 | a search error with a message is returned unchanged, no URLs gives "No search results found", and otherwise every URL found is reported and fetched up to the fetch limit |
| HttpFetchServer.FetchedUrlsAreReported | src/mcp/servers/http_fetch_server.py:208-265 | the URLs fetched, and their number, are exactly those the plain web search reports for the query, with no error |
| HttpFetchServer.EmptyFailureReadsAsNoResults | src/mcp/servers/http_fetch_server.py:244-255 | a search that raised with an empty message is answered as finding nothing |
| HttpFetchServer.DetectPlatform | src/mcp/servers/http_fetch_server.py:276-286 | an explicit platform is never overridden; for "unknown", tiktok is detected before instagram, and the result is always one of the known platforms or the given one |
| HttpFetchServer.UnknownIffNoMarker | src/mcp/servers/http_fetch_server.py:276-286 | the platform stays "unknown" exactly when the lower-cased URL names none of the six site markers |
| HttpFetchServer.BoxHostReadsAsTwitter | src/mcp/servers/http_fetch_server.py:285-286 | the twitter test is a substring test, so the URL "box.com" is read as twitter |
| HttpFetchServer.FetchCreatorProfile | src/mcp/servers/http_fetch_server.py:267-321 | fetched holds exactly when the fetch reported no error; the follower text and description come only from non-empty text, the description being the first 200 characters of the match |
| HttpFetchServer.ExplicitPlatformKept | src/mcp/servers/http_fetch_server.py:277 | a profile fetched with an explicit platform keeps it |
| HttpFetchServer.Initialized | src/mcp/servers/http_fetch_server.py:49-168 | initialisation registers the five tools, once each, in order |
| IntegrationAgent.ChosenType | src/agents/integration_agent/__init__.py:39-41 | a non-empty state type wins; an absent or empty one defers to whatever value the context holds, and "default" is used only when the context has no type |
| IntegrationAgent.KindOf | src/agents/integration_agent/__init__.py:43-51 | exactly the texts "api", "webhook" and "batch" select their own handler; anything else the default one |
| IntegrationAgent.DataKeysDistinct | src/agents/integration_agent/__init__.py:65-101 | the four handlers read four different context keys |
| IntegrationAgent.Process | src/agents/integration_agent/__init__.py:65-101 | each handler reports its own type, status "completed", and its context data or an empty dictionary |
| IntegrationAgent.ProcessReadsOnlyItsKey | src/agents/integration_agent/__init__.py:65-101 | a handler's result depends on its own context key and on nothing else in the context |
| IntegrationAgent.Execute | src/agents/integration_agent/__init__.py:34-63 | success exactly when nothing raises; the result's type is the dispatched branch; a failure appends one error and keeps the old results |
| IntegrationAgent.TypePrecedence | src/agents/integration_agent/__init__.py:39-51 | the state's own type decides the branch, unknown types running the default handler |
| IntegrationAgent.ContextTypeFallback | src/agents/integration_agent/__init__.py:39-51 | with no usable state type the context's value decides the branch, anything but the three known texts running the default handler |
| IntegrationAgent.DefaultWhenUntyped | src/agents/integration_agent/__init__.py:39-101 | with no type anywhere the default handler runs and reads the context's "data" |
| LegacyOrchestrator.KeywordWorkflow | src/agents/orchestrator.py:387-400 | each of the six workflows is chosen exactly when its keyword group occurs in the lowered message and every earlier group missed, and "general" answers exactly when no group occurs |
| LegacyOrchestrator.RouteMessage | src/agents/orchestrator.py:380-400 | deep agents win first, then RAG, then the keyword groups; the answer is always a key of the router's edge map |
| LegacyOrchestrator.InitialState | src/agents/orchestrator.py:845-856 | a run starts with the user's message as the one human message and workflow type "default" |
| LegacyOrchestrator.AddError | src/agents/orchestrator.py:365-367 | an error is appended to the error list and the conversation is untouched |
| LegacyOrchestrator.Follow | src/agents/orchestrator.py:307-346 | a key is followed to the node the edge map gives it, and otherwise the run stops with that key |
| LegacyOrchestrator.Edges | src/agents/orchestrator.py:307-355 | every edge moves strictly down the node rank; only final synthesis ends, and only the LLM manager and mission nodes have no edge |
| LegacyOrchestrator.EdgesCompleted | src/agents/orchestrator.py:349-355 | with the two missing edges to synthesis added, no node is a dead end |
| LegacyOrchestrator.RouteNode | src/agents/orchestrator.py:361-422 | the workflow type becomes the routing of the latest message; with no messages an error is recorded instead |
| LegacyOrchestrator.RagNode | src/agents/orchestrator.py:921-998 | a successful RAG call appends its non-empty answer and picks the next workflow from documents and message; a failure records one error and keeps the workflow |
| LegacyOrchestrator.WorkerNode | src/agents/orchestrator.py:536-718 | a worker step leaves the conversation and the workflow type untouched |
| LegacyOrchestrator.SynthesisParts | src/agents/orchestrator.py:755-781 | at most six parts are collected, none empty |
| LegacyOrchestrator.SynthesizeAsWritten | src/agents/orchestrator.py:783 | the parts are joined by the four-character text backslash-n-backslash-n, or the completion notice is given when there are none |
| LegacyOrchestrator.TwoPartsShowBackslashes | src/agents/orchestrator.py:783 | with competency and recommendation data the answer shows the backslash sequence as text |
| LegacyOrchestrator.Synthesize | src/agents/orchestrator.py:755-783 | corrected synthesis: every part occurs in the answer, and no backslash appears that no part holds |
| LegacyOrchestrator.SynthesisNode | src/agents/orchestrator.py:719-753 | synthesis appends exactly one AI message holding the answer |
| LegacyOrchestrator.Run | src/agents/orchestrator.py:283-359 | every run ends within the router's rank in steps, halting only at the LLM manager or mission node, sticking only after a conditional edge, and finishing with an AI message last |
| LegacyOrchestrator.PlainMessageGetsNoAnswer | src/agents/orchestrator.py:319-320 | a message routed to "general" halts at the LLM manager and no answer is appended |
| LegacyOrchestrator.GeneralRouteHalts | src/agents/orchestrator.py:319-320 | any state the router sends to "general" halts at the LLM manager with its messages unchanged |
| LegacyOrchestrator.LlmManagerHalts | src/agents/orchestrator.py:349-355 | the LLM manager has no outgoing edge, so a run reaching it halts with the messages unchanged |
| LegacyOrchestrator.RunCompleted | src/agents/orchestrator.py:283-359 | with the missing edges added, a run never halts at a dead end and finishes with an AI message last |
| LegacyOrchestrator.CompletedRunsAnswer | src/agents/orchestrator.py:845-860 | from the entry point every completed run finishes with an answer unless a RAG or deep-agent key is missing from its edge map |
| LegacyOrchestrator.RouteKeyKnown | src/agents/orchestrator.py:307-321 | every workflow the router can choose has an edge to a node below the router |
| LegacyOrchestrator.FailedRagSticks | src/agents/orchestrator.py:991-992 | a failed RAG step keeps workflow "rag", which the RAG edge map lacks, so the run stops there |
| LlmRouting.RouteRequest | src/rag/llm_manager.py:18-91 | routing tasks get the fast model on a budget; planning or high complexity for a pro user or a performance preference gets the deep model at premium cost; coding gets the deep model; otherwise free users get the fast model, pro users asking for speed get it with balanced cost, and the rest get the default model unless a budget RAG task takes the fast one |
| LlmRouting.RouteIsConfigured | src/rag/llm_manager.py:35-87 | the router always names one of the three configured models, with hints from the fixed vocabularies |
| LlmRouting.DeepModelExactly | src/rag/llm_manager.py:51-67 | when the deep model is distinct, it is chosen exactly for coding or for an escalating non-routing task |
| LlmRouting.PremiumMeansSlow | src/rag/llm_manager.py:51-59 | premium cost comes exactly with slow latency, and exactly for an escalating non-routing task |
| LlmTools.RecordCounts | src/tools/llm_tools.py:30-61 | Recording a call appends it to the history, adds one request to that model's totals, one success exactly when the success rate exceeds 0.5, adds its time and cost, and leaves every other model's statistics unchanged |
| LlmTools.RecordKeepsCountsConsistent | src/tools/llm_tools.py:55-61 | A model's success count never exceeds its request count |
| LlmTools.ScanOptimal | src/tools/llm_tools.py:84-102 | The best-model loop returns a measured model that beats the starting score, that no measured model beats, and that strictly beats every measured model before it; if nothing beats the starting score it keeps the running best |
| LlmTools.FastestModelWins | src/tools/llm_tools.py:82-92 | Under the response-time criterion the answer is a measured model of least mean response time |
| LlmTools.MostReliableModelWins | src/tools/llm_tools.py:82-104 | Under the success-rate criterion the answer has the highest success ratio, which is positive; with every ratio 0 the answer is "gpt-5.2" |
| LlmTools.CostCriterionNeverWins | src/tools/llm_tools.py:82-104 | With non-negative costs the cost criterion never replaces its starting score of 0.0, so the answer is always "gpt-5.2" |
| LlmTools.CheapestModelWins | src/tools/llm_tools.py:98-102 | With the cost criterion started at infinity, the answer is a measured model of least mean cost |
| LlmTools.UnknownCriterionGivesDefault | src/tools/llm_tools.py:84-104 | A criterion other than the three known ones always yields "gpt-5.2" |
| LlmTools.EstimateTokens | src/tools/llm_tools.py:158-165 | The estimate is at least 1, and for four or more characters it is the number of whole four-character groups |
| LlmTools.Cheapest | src/tools/llm_tools.py:216-225 | The head of the cost-sorted list is one of the given models and costs no more than any of them |
| LlmTools.TaskTypeDecidesFirst | src/tools/llm_tools.py:175-188 | Tool execution and coding get gpt-5.2, planning and reasoning get gpt-5.2-pro, and routing or the speed priority get the llama model, whatever the budget |
| LlmTools.SelectionHoldsRequest | src/tools/llm_tools.py:190-233 | Past the fixed task types the chosen model's window holds the request, and a request larger than every window gets gpt-5-mini |
| LlmTools.CostPriorityPicksCheapest | src/tools/llm_tools.py:215-225 | The cost priority picks a model whose window holds the request and which costs no more than any other such model |
| LlmTools.CheapestChosenForCost | src/tools/llm_tools.py:215-225 | under the cost priority the selection is the cheapest of the models whose window holds the request |
| LlmTools.MidCostRequestGoesMini | src/tools/llm_tools.py:215-225 | Under the cost priority a request of 8001 to 128000 tokens gets gpt-5-mini |
| LlmTools.BalancedPriorityGetsMini | src/tools/llm_tools.py:227-229 | Any other priority gets gpt-5-mini whenever gpt-5-mini holds the request |
| LlmTools.PerformancePriorityFallsBack | src/tools/llm_tools.py:201-229 | The performance priority takes the success-rate leader only when it is a catalogue model whose window holds the request, and gpt-5-mini otherwise |
| LlmManagerAgent.CostPreference | src/agents/llm_manager_agent.py:58-60 | The cost preference comes from the plan, then the context, then "balanced", and is always one of the four known values |
| LlmManagerAgent.Complexity | src/agents/llm_manager_agent.py:62-64 | The complexity is the plan's when it is a known value, "high" or "medium" by message length when the plan has none, and always one of three values |
| LlmManagerAgent.ExecuteNormalises | src/agents/llm_manager_agent.py:58-73 | The token budget is 1200, 2400 or 6000 by complexity, and the priority is "cost" exactly for a budget preference, "speed" exactly for a speed preference and "balanced" otherwise |
| LlmManagerAgent.Execute | src/agents/llm_manager_agent.py:69-76 | The criteria's task type is the state's, else the plan's workflow type, else "general", and the selected model is the selector's choice for those criteria |
| LlmManagerAgent.SpeedPreferenceGetsLlama | src/agents/llm_manager_agent.py:69-75 | A speed preference ends on the local llama model |
| LlmManagerAgent.BalancedPreferencesGetMini | src/agents/llm_manager_agent.py:67-75 | Balanced and performance preferences end on gpt-5-mini, since the agent never asks for the performance priority |
| LlmManagerAgent.BudgetPreferenceGetsCheapest | src/agents/llm_manager_agent.py:67-75 | A budget preference ends on the cheapest model holding the budget, which is always the local llama model |
| LlmManagerAgent.ExecuteOrFallback | src/agents/llm_manager_agent.py:83-95 | The context's selected model always equals the state's; after an exception it is the previous selection or the configured default, and the normalised fields are not written |
| LlmTools.SuitableModels | src/tools/llm_tools.py:190-195 | the candidates are exactly the catalogue models whose context window holds the request |
| Routing.DeepExitKey | src/graphs/main_orchestrator.py:905-927 | a failed or missing deep-agent result goes to synthesis; a successful one goes to RAG, competency or recommendation by the first need it names, else to synthesis |
| Routing.ShouldUseRag | src/graphs/main_orchestrator.py:1393-1424 | RAG is used exactly when the lowered message holds one of the RAG indicators, has more than ten words, or holds a domain keyword |
| Routing.QueryTypeOf | src/graphs/main_orchestrator.py:1500-1531 | each keyword group decides only when every earlier group missed, and general chat answers exactly when every group misses |
| Routing.FirstCategoryWorkflow | src/graphs/main_orchestrator.py:1539-1549 | the workflow is that of the first document whose category is parenting, policy or education, and none when no document has such a category |
| Routing.PostRagWorkflow | src/graphs/main_orchestrator.py:1533-1565 | the first categorised document decides; otherwise the competency, recommendation and analytics keywords are tried in that order, and the answer is "final" exactly when no document is categorised and no keyword occurs |
| Routing.ApiKeywordNeverMatches | src/graphs/main_orchestrator.py:1521-1522 | the upper-case keyword "API" never occurs in a lowered message |
| Routing.ApiMessageIsGeneralChat | src/graphs/main_orchestrator.py:1521-1526 | a message naming an API and no other keyword is classified as general chat |
| Routing.IntendedApiIsDataCollection | src/graphs/main_orchestrator.py:1521-1522 | with the keyword in lower case, such a message is classified as data collection |
| MainOrchestrator.DedupStrings | src/graphs/main_orchestrator.py:49-60 | the result holds each stripped non-empty string of the input exactly once, in order of first appearance, and nothing else |
| MainOrchestrator.InitialState | src/graphs/main_orchestrator.py:1350-1391 | a run starts with one message, no replans spent and a budget of two |
| MainOrchestrator.ShouldPlan | src/graphs/main_orchestrator.py:505-518 | the planner is skipped exactly when the workflow is neither general nor rag, confidence is at least 0.65, the text has at most 200 characters and names no planning keyword |
| MainOrchestrator.PlannerFallback | src/graphs/main_orchestrator.py:548-558 | an undecodable planner reply keeps the workflow, asks for RAG only for rag and for tools only for data collection or mission |
| MainOrchestrator.AdoptPlan | src/graphs/main_orchestrator.py:560-566 | a decoded plan is stored, and its non-empty workflow type replaces the current one |
| MainOrchestrator.IntentWorkflow | src/graphs/main_orchestrator.py:449-463 | general chat and unknown intents become rag or general by the RAG test |
| MainOrchestrator.ToolNode | src/graphs/main_orchestrator.py:583-689 | tools are skipped exactly when the plan does not ask for them and the workflow needs no outside data, and only the tool status changes |
| MainOrchestrator.ApplyReplan | src/graphs/main_orchestrator.py:808-835 | a replan choosing search always asks for RAG, and a replan asking for RAG clears the previous RAG result and its documents |
| MainOrchestrator.PostToolEnrichmentKey | src/graphs/main_orchestrator.py:690-712 | a needed tool step that failed is replanned, spending one unit of budget, exactly while budget remains; otherwise the workflow type is the key |
| MainOrchestrator.ShouldReplanAfterRag | src/graphs/main_orchestrator.py:1590-1624 | with a RAG result, replanning is asked for exactly when no documents came back, the answer is blank or uncertain, or it is under 120 characters with two or more documents |
| MainOrchestrator.RagRouteKey | src/graphs/main_orchestrator.py:1567-1588 | the RAG router replans, spending one unit, exactly when the quality gate fires and budget remains; otherwise it returns the workflow type |
| MainOrchestrator.PostToolRouteKey | src/graphs/main_orchestrator.py:1117-1130 | RAG is re-entered, spending one unit, exactly when the plan asks for RAG, budget remains and there is no RAG result; otherwise the run ends |
| MainOrchestrator.Follow | src/graphs/main_orchestrator.py:353-405 | a key is followed to the node the edge map gives it, the replan node is never entered through an edge that spends no budget, and otherwise the run stops with that key |
| MainOrchestrator.Edges | src/graphs/main_orchestrator.py:318-413 | every edge either moves down the node rank or spends one unit of replan budget, which never exceeds the maximum |
| MainOrchestrator.EdgesAsWritten | src/graphs/main_orchestrator.py:353-383 | the declared edges differ from the budgeted ones only by entering the replan node without spending budget |
| MainOrchestrator.ReplanWorkflowCycles | src/graphs/main_orchestrator.py:353-383 | with workflow type "replan" and an undecodable replan reply, tool enrichment and replan alternate on the same state, so only the graph runner's recursion limit ends the run |
| MainOrchestrator.Synthesize | src/graphs/main_orchestrator.py:1201-1288 | a lone RAG answer is returned stripped; otherwise the model's answer; when that raises, every non-empty part occurs in the answer, which is empty exactly when all parts are empty, and only an empty list of parts gives the completion notice |
| MainOrchestrator.SynthesisNode | src/graphs/main_orchestrator.py:1165-1199 | synthesis appends exactly one AI message with the answer and changes nothing else |
| MainOrchestrator.Step | src/graphs/main_orchestrator.py:318-413 | one node and its edges never lower the spent budget or raise it past the maximum, and a step that spends none moves down the rank |
| MainOrchestrator.Run | src/graphs/main_orchestrator.py:318-413 | every run terminates within a step bound fixed by the start node and the remaining budget, and never over-spends the budget |
| MainOrchestrator.RunFromStartIsBounded | src/graphs/main_orchestrator.py:1350-1391 | a run from the entry point spends at most two replans and takes at most 27 steps |
| MainOrchestrator.EdgesEnds | src/graphs/main_orchestrator.py:334-413 | only `mission_recommendation` lacks an outgoing edge, and only `final_synthesis` leads to the end |
| MainOrchestrator.MissionRunHalts | src/graphs/main_orchestrator.py:362 | a "mission" state leaving tool enrichment is either replanned or halts at the mission node two steps later with its conversation unchanged, so the reply `run()` returns is the last message already there |
| MainOrchestrator.EdgesCompleted | src/graphs/main_orchestrator.py:384-413 | corrected edges: the mission node leads to final synthesis, every other node keeps its edges, and no node is a dead end |
| MainOrchestrator.RunCompleted | src/graphs/main_orchestrator.py:318-413 | over the corrected edges a run keeps the step bound and the budget, never halts, and a finished run has an AI message last |
| MainOrchestrator.CompletedAgreesUnlessHalted | src/graphs/main_orchestrator.py:334-413 | the corrected edges change only runs that halted at the mission node; every other run has the same outcome |
| MainOrchestrator.MissionRunAnswers | src/graphs/main_orchestrator.py:362 | over the corrected edges a "mission" state not replanned finishes in three steps with exactly one AI message appended |
| MainOrchestrator.ReentryIsGuarded | src/graphs/main_orchestrator.py:1117-1130 | after external integration RAG is re-entered exactly under the guard, as a rag workflow with one unit spent; otherwise the run goes to synthesis |
| MainOrchestrator.DeepAgentResultGoesFinal | src/graphs/main_orchestrator.py:905-927 | a successful deep-agent result naming no need goes to final synthesis |
| MainOrchestrator.PlannerWorkflowOutsideMapSticks | src/graphs/main_orchestrator.py:353-369 | a workflow type outside the edge map stops the run after tool enrichment with that key |
| MainOrchestrator.SummarizeWorkflowSticks | src/graphs/main_orchestrator.py:560-566 | a planner answering workflow "summarize" gets the run stuck after tool enrichment |
| MainOrchestrator.FailedRagSticks | src/graphs/main_orchestrator.py:1567-1588 | a failed RAG call on the rag workflow returns the key "rag", which the RAG edge map lacks |
| MainOrchestrator.QualityGateSignals | src/graphs/main_orchestrator.py:1603-1620 | no documents, a blank answer, or a short answer with two or more documents each trigger a replan |
| MainOrchestrator.ReplanResetsRag | src/graphs/main_orchestrator.py:786-833 | an undecodable replan reply turns tools off and RAG on, and clears the previous RAG result |
| MainOrchestrator.SearchReplanNeedsRag | src/graphs/main_orchestrator.py:808-821 | a replan choosing search is stored with RAG turned on and becomes the workflow |
| MainOrchestrator.PlannerSkip | src/graphs/main_orchestrator.py:505-520 | when all four skip conditions hold the planner step only clears the plan |
| MainOrchestrator.ReplanFallbackBranchIsDead | src/graphs/main_orchestrator.py:790-806 | even with no previous plan, the copied plan holds its notes, so the fallback plan is never built and the copy gets tools off and RAG on |
| MainOrchestrator.SynthesisShortCut | src/graphs/main_orchestrator.py:1201-1215 | a lone non-blank RAG answer is appended stripped, without the model |
| MainOrchestrator.RouteNode | src/graphs/main_orchestrator.py:415-487 | routing leaves the replan budget and its spent count untouched |
| MainOrchestrator.PlanNode | src/graphs/main_orchestrator.py:489-582 | planning leaves the replan budget and its spent count untouched |
| MainOrchestrator.ReplanNode | src/graphs/main_orchestrator.py:714-853 | the replan node itself spends no budget; only the edge into it does |
| MainOrchestrator.DeepNode | src/graphs/main_orchestrator.py:860-927 | the deep-agent step leaves the replan budget untouched |
| MainOrchestrator.RagNode | src/graphs/main_orchestrator.py:1426-1498 | the RAG step leaves the replan budget untouched |
| MainOrchestrator.WorkerNode | src/graphs/main_orchestrator.py:967-1066 | a worker step leaves the budget and the conversation untouched |
| MainOrchestrator.Body | src/graphs/main_orchestrator.py:318-352 | no node body changes the replan budget or its spent count |
| McpIntegration.ExtractWebSpec | src/services/mcp_integration.py:71-80 | there is no web spec exactly when neither a search query nor URLs (`urls`, else `web_urls`) are given; the limit is `web_limit`, else `limit`, else 3; an extracted spec always has a query or URLs to fetch from |
| McpIntegration.FetchWeb | src/services/mcp_integration.py:82-100 | given URLs are fetched as they are; without URLs the search supplies them only when there is a query and a search client; with no URLs in the end there is nothing |
| McpIntegration.GivenUrlsSkipSearch | src/services/mcp_integration.py:90-92 | when URLs are given the search is never consulted: any other search gives the same result |
| McpIntegration.FailedSearchGivesNothing | src/services/mcp_integration.py:91-97 | a search that raises leaves no URLs and so no web data |
| McpIntegration.YouTubeQuery | src/services/mcp_integration.py:147-149 | the spec's query takes precedence over the user context's, and a usable query exists iff either of them is a non-empty string |
| McpIntegration.YouTubeTasks | src/services/mcp_integration.py:117-163 | an overview task runs exactly when a channel resolved and fetching it is asked for, a details task exactly when video ids are given, and a search task exactly when there is a query |
| McpIntegration.OverviewOf | src/services/mcp_integration.py:173-177 | an overview is kept exactly when some overview task returned a dictionary, and it is such a dictionary; raised tasks are skipped |
| McpIntegration.DetailsOf | src/services/mcp_integration.py:173-179 | video details are kept exactly when some details task returned a dictionary, and they are such a dictionary |
| McpIntegration.SearchOf | src/services/mcp_integration.py:173-181 | search results are kept exactly when some search task returned a list, and they are such a list |
| McpIntegration.FetchYouTube | src/services/mcp_integration.py:102-191 | an unusable client gives nothing; a result always carries some non-empty part, an overview only when a channel resolved, and the resolved channel id else the given one |
| McpIntegration.AllRaisedGivesNothing | src/services/mcp_integration.py:169-184 | when every sub-task raises there are no YouTube insights |
| McpIntegration.Strings | src/services/mcp_integration.py:209-211 | only the string items of a URL list are kept, in order |
| McpIntegration.UrlOf | src/services/mcp_integration.py:234-241 | a map or crawl URL counts only when it is a non-empty string |
| McpIntegration.CrawlLimit | src/services/mcp_integration.py:242 | a given non-zero limit is kept, a missing or zero one becomes 50, so a crawl never runs with limit 0 |
| McpIntegration.NonEmpty | src/services/mcp_integration.py:218-245 | a call's results are kept exactly when the call was made and returned something |
| McpIntegration.FetchSupadata | src/services/mcp_integration.py:193-251 | an unavailable client gives nothing; a result carries at least one non-empty part, each part being the call's answer for the string URLs, and includes the requested spec |
| McpIntegration.NonStringUrlsIgnored | src/services/mcp_integration.py:209-248 | a spec listing only non-string URLs and no map or crawl URL gives nothing |
| McpIntegration.EnrichContext | src/services/mcp_integration.py:30-69 | a missing or empty spec gives nothing; snippets appear exactly with their web source, Supadata results exactly with their source, and each only when its part of the spec was given |
| McpIntegration.NothingAvailableGivesNothing | src/services/mcp_integration.py:36-69 | with no query, no URLs and no usable YouTube or Supadata client the result is empty |
| MetricsCollector.New | src/monitoring/metrics_collector.py:19-29 | a fresh collector has no samples, zero deep-agent counters and no critic scores |
| MetricsCollector.Append | src/monitoring/metrics_collector.py:99-101 | storing a sample drops at most the oldest one, keeps the newest last, and keeps a history within its bound within it |
| MetricsCollector.AppendFull | src/monitoring/metrics_collector.py:99-101 | appending to a full history drops the oldest sample and keeps the length |
| MetricsCollector.CollectSystem | src/monitoring/metrics_collector.py:31-107 | without the inspection library a zero sample is returned and not stored; a zero disk total fails and stores nothing; otherwise the sample, with disk use in percent, is stored |
| MetricsCollector.CollectKeepsBound | src/monitoring/metrics_collector.py:98-101 | collecting never lets a history within its bound outgrow it |
| MetricsCollector.DiskShareWithin | src/monitoring/metrics_collector.py:57 | the disk percentage of a disk no fuller than its size lies in [0, 100] |
| MetricsCollector.ApplicationErrorRate | src/monitoring/metrics_collector.py:124 | the error rate is 0.0 without requests, lies in [0, 1] when errors never outnumber requests, and is 1.0 when all failed |
| MetricsCollector.AvgCritic | src/monitoring/metrics_collector.py:165-168 | the average critic score is 0.0 without scores and otherwise times their count gives their sum |
| MetricsCollector.CollectLangGraph | src/monitoring/metrics_collector.py:135-177 | the retry and no-progress counters grow by the positive part of their deltas, a reported critic score is kept, and the history is untouched |
| MetricsCollector.CountersNeverDecrease | src/monitoring/metrics_collector.py:149-150 | the deep-agent counters never decrease, and a negative delta leaves them as they were |
| MetricsCollector.RagTotalTime | src/monitoring/metrics_collector.py:197 | the total processing time is retrieval plus generation, at least each of them when both are non-negative |
| MetricsCollector.Since | src/monitoring/metrics_collector.py:213-216 | the window keeps, in order, exactly the samples at or after the cutoff |
| MetricsCollector.Average | src/monitoring/metrics_collector.py:223 | the average times the count gives the sum |
| MetricsCollector.MetricsSummary | src/monitoring/metrics_collector.py:207-245 | no summary exactly when no sample falls in the window; otherwise its count is the window's size and its latest sample is the window's last |
| MetricsCollector.SteadyCpuAverage | src/monitoring/metrics_collector.py:221-223 | when every sample reads the same CPU use, the summary's average is that value |
| MetricsCollector.History | src/monitoring/metrics_collector.py:247-254 | the result is a suffix of the history: the latest `limit` samples for a positive limit, all of them for zero, nothing for an empty history |
| MetricsCollector.ClearOld | src/monitoring/metrics_collector.py:256-277 | only the samples of the window remain, and the count returned is the number of older samples, so it and the remaining count add up to the original |
| MetricsCollector.CountSplit | src/monitoring/metrics_collector.py:263-268 | every sample is either kept or counted as removed |
| MetricsCollector.ClearTwiceRemovesNothing | src/monitoring/metrics_collector.py:256-277 | clearing again at the same moment removes nothing |
| MissionModels.DefaultRequirement | src/domain/mission/models.py:28-61 | the defaults satisfy the schema bounds: minimum grade C, high-report creators refused, at most 2 reports in 90 days, no other limits |
| MissionModels.MakeRequirement | src/domain/mission/models.py:28-61 | a requirement is accepted exactly when its counts are non-negative and its engagement rate lies in [0, 1], and is then kept unchanged |
| MissionModels.DefaultAccepted | src/domain/mission/models.py:28-61 | a requirement left at its defaults is accepted unchanged, and with any other engagement rate it is accepted exactly when that rate lies in [0, 1] |
| MissionModels.NewAssignment | src/domain/mission/models.py:91-104 | an assignment is accepted exactly when its score lies in [0, 100]; it starts as recommended with the given ids and score |
| PyScalars.Or | src/agents/mission_agent/__init__.py:74-76 | Python `or`: the first value when it is truthy, else the second |
| PyScalars.ToIntOfDecimalText | src/agents/mission_agent/__init__.py:321-330 | the decimal text of a natural number converts back to that number |
| PyScalars.DigitsRoundTrip | src/agents/mission_agent/__init__.py:327-328 | reading the digits written for a number gives the number back |
| PyScalars.ToIntIgnoresCommas | src/agents/mission_agent/__init__.py:327 | thousands separators do not change the converted value |
| PyScalars.RemoveCommasIdempotent | src/agents/mission_agent/__init__.py:327 | removing commas twice is removing them once |
| PyScalars.ToIntDefaults | src/agents/mission_agent/__init__.py:321-330 | `None`, and text holding a character no number can contain (anything but a digit, underscore, point, sign or exponent mark), give the default |
| PyScalars.ParseOfGroup | src/agents/mission_agent/__init__.py:328 | a digit group with single underscores, such as "1_000", reads as its digits with the underscores dropped |
| PyScalars.ParseOfExponent | src/agents/mission_agent/__init__.py:328 | scientific notation such as "1e3" reads as the mantissa times ten to the exponent |
| PyScalars.ParseOfDecimal | src/agents/mission_agent/__init__.py:328 | a decimal such as "12.7" reads as its whole part: the fraction is truncated toward zero |
| PyScalars.ToIntOfNumbers | src/agents/mission_agent/__init__.py:325-326 | integers are kept and floats truncate toward zero |
| PyFloat.UnsignedReal | src/agents/creator_onboarding_agent/__init__.py:270 | an unsigned number is read exactly where the integer reader reads it, and is never negative |
| PyFloat.ParseReal | src/agents/creator_onboarding_agent/__init__.py:270 | `float` on stripped text accepts exactly the text the integer reader accepts; a negative value needs a leading minus |
| PyFloat.ToFloat | src/agents/creator_onboarding_agent/__init__.py:270 | `float` raises exactly on `None` and on text the integer reader refuses; integers and floats are kept |
| PyFloat.ShiftIsFloor | src/agents/creator_onboarding_agent/__init__.py:456 | the integer reader's scaled digits are the floor of the exact scaled value |
| PyFloat.ParseTruncOfReal | src/agents/creator_onboarding_agent/__init__.py:456 | `int(float(s))`: the integer reader gives the exact value truncated toward zero |
| PyFloat.ToIntTruncatesToFloat | src/agents/creator_onboarding_agent/__init__.py:449-458 | on comma-free values `_to_num` is `int(float(v))`: the default comes back where `float` raises, and otherwise the truncated float |
| MissionAgent.GradeRank | src/agents/mission_agent/__init__.py:333-336 | the rank is at most 4 and positive exactly for the grades S, A, B, C in any case |
| MissionAgent.GradeRankIgnoresCase | src/agents/mission_agent/__init__.py:333-336 | upper- and lower-casing a grade does not change its rank |
| MissionAgent.ReadCreator | src/agents/mission_agent/__init__.py:74-90 | followers fall back to followers_count when falsy; platform and category come out lower-case and grade upper-case |
| MissionAgent.FirstExcluded | src/agents/mission_agent/__init__.py:233-236 | the risk found is one of the creator's and excluded by the mission; none is found exactly when no risk is excluded |
| MissionAgent.RejectionIffIneligible | src/agents/mission_agent/__init__.py:200-236 | the ordered hard filters pass exactly when every eligibility condition holds, and a refusal carries a rejection reason |
| MissionAgent.MatchedTags | src/agents/mission_agent/__init__.py:276 | a tag is matched exactly when the creator has it and the mission requires it |
| MissionAgent.RawScoreAtMost100 | src/agents/mission_agent/__init__.py:238-301 | the weights sum to one, so the weighted score never exceeds 100 |
| MissionAgent.FitReasons | src/agents/mission_agent/__init__.py:249-315 | a passing mission's reasons never include a rejection reason |
| MissionAgent.ScoreMission | src/agents/mission_agent/__init__.py:178-318 | the score lies in [0, 100]; a failed filter gives 0 and exactly its one reason; otherwise the raw score floored at 0 with no rejection reason |
| MissionAgent.IneligibleScoresZero | src/agents/mission_agent/__init__.py:199-236 | an ineligible creator scores 0 with a single reason |
| MissionAgent.RawScoreAtLeastFive | src/agents/mission_agent/__init__.py:249-301 | without penalties every component is non-negative and availability alone adds at least 5 |
| MissionAgent.EligibleWithoutPenaltyScoresPositive | src/agents/mission_agent/__init__.py:238-317 | an eligible creator with no penalised risk scores at least 5 |
| MissionAgent.AssignmentFor | src/agents/mission_agent/__init__.py:140-150 | the assignment of a scored mission is valid, recommended and names that mission |
| MissionAgent.Candidates | src/agents/mission_agent/__init__.py:113-150 | exactly the missions passing the request filters and reaching the minimum score yield assignments |
| MissionAgent.Execute | src/agents/mission_agent/__init__.py:68-72 | the result is missing (an error is recorded) exactly when the mission list is empty; which recommendations come back is stated by MissionAgent.RecommendationsRanked |
| MissionAgent.RecommendationsRanked | src/agents/mission_agent/__init__.py:170-172 | recommendations are sorted by score, highest first; with a non-negative top_k there are min(top_k, qualifying) of them and no qualifying mission left out scores above one kept |
| MissionAgent.RecommendationsQualify | src/agents/mission_agent/__init__.py:113-172 | every recommendation is valid, reaches the minimum score and comes from a mission passing the request filters and, with a positive minimum, every hard filter |
| MissionAgent.AllQualifyingRecommended | src/agents/mission_agent/__init__.py:137-172 | when at most top_k missions qualify, all of them are recommended |
| CreatorOnboarding.SafeDiv | src/agents/creator_onboarding_agent/__init__.py:461-465 | the result times a non-zero divisor gives the dividend back; a zero divisor gives 0 |
| CreatorOnboarding.ZClip | src/agents/creator_onboarding_agent/__init__.py:468-473 | the result is the input or a bound, and lies within a proper range |
| CreatorOnboarding.ZClipIsClamp | src/agents/creator_onboarding_agent/__init__.py:468-473 | on a proper range the clip is the usual clamp |
| CreatorOnboarding.ReadSignals | src/agents/creator_onboarding_agent/__init__.py:263-274 | the signals read raises exactly when a brand fit is present and `float` refuses it; a missing brand fit is 0 and a readable one is its float value; followers fall back to followers_count when falsy; with at most one follower the engagement is likes plus twice comments; frequency is posts over 30 days |
| CreatorOnboarding.BrandFitReads | src/agents/creator_onboarding_agent/__init__.py:270 | a brand fit of `None` or of the text "high" raises, a float is kept as it is, and a missing key reads as 0 |
| CreatorOnboarding.Components | src/agents/creator_onboarding_agent/__init__.py:276-280 | the four components lie within 0.4, 0.3, 0.15 and 0.15 |
| CreatorOnboarding.Risks | src/agents/creator_onboarding_agent/__init__.py:283-293 | each risk is tagged exactly when its threshold is crossed, once |
| CreatorOnboarding.ScoreIsFlooredBase | src/agents/creator_onboarding_agent/__init__.py:281-295 | the base never exceeds 1, so the score is the base floored at 0 times 100, and the bare base without risks |
| CreatorOnboarding.HighReportsCapScore | src/agents/creator_onboarding_agent/__init__.py:285-295 | three or more reports cap the score at 85 |
| CreatorOnboarding.GradeOf | src/agents/creator_onboarding_agent/__init__.py:477-483 | S exactly from 85, S or A exactly from 70, better than C exactly from 55 |
| CreatorOnboarding.GradeMonotone | src/agents/creator_onboarding_agent/__init__.py:477-483 | a higher score never earns a lower grade |
| CreatorOnboarding.DecisionOf | src/agents/creator_onboarding_agent/__init__.py:485-489 | reject exactly on many reports or a score under 50; hold exactly a low-activity creator under 70 otherwise; accept only the rest |
| CreatorOnboarding.DecisionTags | src/agents/creator_onboarding_agent/__init__.py:491-497 | top_candidate exactly for S and A; the activation and awareness tags exactly for their risks |
| CreatorOnboarding.GradeMeetsMissionDefault | src/agents/creator_onboarding_agent/__init__.py:476-483 | every onboarding grade ranks, for the mission recommender, as its own rank and at least C |
| CreatorOnboarding.TierOf | src/agents/creator_onboarding_agent/__init__.py:104-112 | mega from one million followers, macro from 100000, nano under 10000 |
| CreatorOnboarding.SimilarQueryShape | src/agents/creator_onboarding_agent/__init__.py:95-114 | the similar-creator query starts with the platform, ends with the tier and holds the category and first three tags |
| CreatorOnboarding.CollectSimilarIsFilteredPrefix | src/agents/creator_onboarding_agent/__init__.py:119-141 | the loop keeps the first five hits that are not the creator's own handle |
| CreatorOnboarding.SimilarCreatorsSound | src/agents/creator_onboarding_agent/__init__.py:81-147 | at most five similar creators, none the creator, in search order; fewer than five means every other hit is kept; no engine or a failed search gives none |
| CreatorOnboarding.Cuts | src/agents/creator_onboarding_agent/__init__.py:162-166 | each content is cut to the snippet width, one for one |
| CreatorOnboarding.SnippetsEmptyIff | src/agents/creator_onboarding_agent/__init__.py:149-235 | a context string is empty exactly when every result content is empty |
| CreatorOnboarding.ContextOf | src/agents/creator_onboarding_agent/__init__.py:149-235 | a disabled or failed search gives empty context |
| CreatorOnboarding.MeanWithin | src/agents/creator_onboarding_agent/__init__.py:338-340 | the mean similarity of the similar creators lies between their lowest and highest score |
| CreatorOnboarding.Recommendation | src/agents/creator_onboarding_agent/__init__.py:336-351 | empty exactly without similar creators; otherwise the count of similar creators, then their mean similarity as rendered, then the number of S- and A-graded ones |
| CreatorOnboarding.RecommendationNamesSuccesses | src/agents/creator_onboarding_agent/__init__.py:345-351 | the success-case note ends the recommendation exactly when some similar creator is graded S or A |
| CreatorOnboarding.Enhance | src/agents/creator_onboarding_agent/__init__.py:300-362 | the recommendation context is empty exactly when no similar creator was found |
| CreatorOnboarding.Execute | src/agents/creator_onboarding_agent/__init__.py:237-446 | the evaluation raises exactly when the signals cannot be read, which is at the brand fit; otherwise its score lies in [0, 100] |
| CreatorOnboarding.EvaluationFollowsScore | src/agents/creator_onboarding_agent/__init__.py:277-296 | when the evaluation does not raise, grade and decision follow the score and risks of the read signals; many reports always reject; retrieval data is present exactly when enabled |
| CreatorOnboarding.EvaluationTags | src/agents/creator_onboarding_agent/__init__.py:296-369 | when the evaluation does not raise, each tag appears exactly when its cause holds, including the retrieval tags at three similar creators and non-empty insights |
| CreatorOnboarding.NoEngineNoRagTags | src/agents/creator_onboarding_agent/__init__.py:90-92 | without a search engine the retrieval data, the recommendation context included, is empty and no retrieval tag is added |
| PerformanceMonitor.New | src/monitoring/performance_monitor.py:34-45 | a fresh monitor has an empty history, no recorded durations and nothing in flight, and satisfies the invariant |
| PerformanceMonitor.BoundedAppend | src/monitoring/performance_monitor.py:39 | appending to the bounded history keeps at most `max_history` entries, the newest last, dropping the oldest |
| PerformanceMonitor.StartOperation | src/monitoring/performance_monitor.py:57-79 | the id is the name, an underscore and the start time in milliseconds; the operation is put in flight, replacing one with the same id |
| PerformanceMonitor.Record | src/monitoring/performance_monitor.py:103-108 | recording appends the duration under the operation's name, adds one failure exactly when it failed, and appends the metric to the bounded history |
| PerformanceMonitor.RecordKeepsValid | src/monitoring/performance_monitor.py:103-108 | recording keeps the invariant: failures never outnumber durations under any name and the history stays within its bound |
| PerformanceMonitor.RecordLeavesOthers | src/monitoring/performance_monitor.py:103-108 | recording changes no other operation's durations or failures |
| PerformanceMonitor.Finished | src/monitoring/performance_monitor.py:94-98 | the finished metric keeps the operation's name and start, and its duration takes it from the start to now |
| PerformanceMonitor.EndOperation | src/monitoring/performance_monitor.py:81-120 | an unknown id returns nothing and changes nothing; a known one leaves the in-flight set and its metric is recorded and returned |
| PerformanceMonitor.EndKeepsValid | src/monitoring/performance_monitor.py:81-120 | ending an operation keeps the monitor's invariant |
| PerformanceMonitor.StartThenEnd | src/monitoring/performance_monitor.py:57-108 | ending what was just started returns its metric with the elapsed time, and ending the same id again returns nothing |
| PerformanceMonitor.Warnings | src/monitoring/performance_monitor.py:122-146 | the latency warning fires exactly when the duration is non-zero and above the threshold; the error-rate warning exactly when the name's failure share is above its threshold |
| PerformanceMonitor.EndedNameHasDurations | src/monitoring/performance_monitor.py:134-137 | after an operation ends its name has at least one duration, so the error-rate check always has a count to divide by |
| PerformanceMonitor.SortAsc | src/monitoring/performance_monitor.py:189 | the sorted copy is ascending and as long as the data |
| PerformanceMonitor.PercentileIndex | src/monitoring/performance_monitor.py:190-191 | the truncated index is never past the last element, and is not negative for a non-negative percentile |
| PerformanceMonitor.PercentileIndexEnds | src/monitoring/performance_monitor.py:190-191 | a percentile of 100 or more selects the last index and a percentile of 0 the first |
| PerformanceMonitor.Percentile | src/monitoring/performance_monitor.py:183-195 | no data gives 0.0; otherwise, for a non-negative percentile, the result is one of the data values |
| PerformanceMonitor.PercentileExtremes | src/monitoring/performance_monitor.py:183-195 | the 100th (or higher) percentile is at least every value and the 0th at most every value |
| PerformanceMonitor.MinOf | src/monitoring/performance_monitor.py:173 | the minimum is one of the values and at most every value |
| PerformanceMonitor.MaxOf | src/monitoring/performance_monitor.py:174 | the maximum is one of the values and at least every value |
| PerformanceMonitor.MeanOf | src/monitoring/performance_monitor.py:172 | the mean lies between the minimum and the maximum |
| PerformanceMonitor.ErrorRate | src/monitoring/performance_monitor.py:171 | the error rate is 0.0 with no operations or no failures, and in [0, 1] when failures never outnumber operations |
| PerformanceMonitor.Summarise | src/monitoring/performance_monitor.py:148-181 | without durations every statistic is zero and there is no 99th percentile; otherwise min, max and both percentiles are data values and min <= p95, p99, mean <= max |
| PerformanceMonitor.OperationStats | src/monitoring/performance_monitor.py:148-181 | an operation's total is its count of durations, its error rate lies in [0, 1], and its failures are reported once it has durations |
| PerformanceMonitor.ErrorsWithinOperations | src/monitoring/performance_monitor.py:103-108 | under the invariant an operation's failures never outnumber its durations |
| PerformanceMonitor.AllErrorsWithin | src/monitoring/performance_monitor.py:204-209 | summed over all operations, failures never outnumber durations |
| PerformanceMonitor.OverallStats | src/monitoring/performance_monitor.py:197-240 | the overall total is the count of every duration, the overall error rate lies in [0, 1], and each recorded operation gets its own statistics |
| PerformanceMonitor.Recent | src/monitoring/performance_monitor.py:242-245 | a positive limit keeps the latest entries, zero keeps the whole history, and a negative limit drops that many from the front |
| PerformanceMonitor.ZeroLimitReturnsAll | src/monitoring/performance_monitor.py:245 | asking for the latest 0 metrics returns the whole history |
| PerformanceMonitor.RecentHourCount | src/monitoring/performance_monitor.py:273-276 | the last-hour count never exceeds the history |
| PerformanceMonitor.PerformanceSummary | src/monitoring/performance_monitor.py:263-292 | the summary carries the overall statistics, the number of operations in flight, at most the latest 50 metrics and the last-hour count |
| PerformanceMonitor.SummaryShowsEnded | src/monitoring/performance_monitor.py:81-292 | right after an operation ends the summary lists its metric as the latest and one fewer operation as running |
| PerformanceMonitor.Reset | src/monitoring/performance_monitor.py:294-316 | a reset monitor equals a fresh one with the same configuration |
| PerformanceMonitor.ResetClears | src/monitoring/performance_monitor.py:294-316 | after a reset the overall statistics are all zero and nothing is in flight or in history |
| PerformanceMonitor.RecordCreatorResult | src/monitoring/performance_monitor.py:318-326 | one more decision and score are recorded, and an accept, in any letter case, is counted |
| PerformanceMonitor.RecordMissionRecommendation | src/monitoring/performance_monitor.py:328-335 | one more request is counted and only a positive number of missions is added |
| PerformanceMonitor.DomainMetrics | src/monitoring/performance_monitor.py:337-364 | the accept rate lies in [0, 1] and the missions per request are non-negative; each average is 0.0 when nothing was recorded |
| PerformanceMonitor.AcceptRateExample | src/monitoring/performance_monitor.py:318-355 | after one upper-case accept and one reject the accept rate is one half |
| RagPipeline.DeduplicateDocuments | src/rag/rag_pipeline.py:434-445 | the result has unique ids and only input documents |
| RagPipeline.DeduplicateKeepsFirst | src/rag/rag_pipeline.py:434-445 | each kept document is the first with its id, and every input id survives |
| RagPipeline.FlattenFrom | src/rag/rag_pipeline.py:120-127 | the nested per-list loop sharing one `seen_ids` set equals one first-occurrence pass over the concatenated lists |
| RagPipeline.FlattenUnique | src/rag/rag_pipeline.py:120-127 | the merged multi-query list is the deduplication of all lists concatenated, so ids are unique |
| RagPipeline.HybridRetrieval | src/rag/rag_pipeline.py:209-244 | a failing search gives []; otherwise ids are unique, scores descend, at most `max_retrieval_docs` documents come back, all from the vector or keyword hits |
| RagPipeline.RetrievedStayDistinct | src/rag/rag_pipeline.py:235-240 | sorting and cutting a duplicate-free list keeps its ids unique |
| RagPipeline.RoomyRetrievalKeepsAllIds | src/rag/rag_pipeline.py:218-240 | when the limit covers all hits, every vector hit's id is returned |
| RagPipeline.ValidateResponse | src/rag/rag_pipeline.py:478-494 | under 10 stripped characters gives the too-short reply, a blocked keyword the refusal, anything else is unchanged |
| RagPipeline.ValidateIdempotent | src/rag/rag_pipeline.py:478-494 | validating a validated answer changes nothing |
| RagPipeline.FixedRepliesPass | src/rag/rag_pipeline.py:482-490 | both fixed replies pass validation unchanged |
| RagPipeline.SourceLine | src/rag/rag_pipeline.py:500-503 | a document without a source yields a line starting "- Unknown (" |
| RagPipeline.SourceInfo | src/rag/rag_pipeline.py:496-510 | the source list is empty iff there are no documents and begins with the first document's line |
| RagPipeline.Postprocess | src/rag/rag_pipeline.py:404-418 | the validated answer, followed by the heading and source list exactly when there are documents |
| RagPipeline.SourceListed | src/rag/rag_pipeline.py:500-506 | each of the first three documents has its source line in the source list |
| RagPipeline.PostprocessKeepsAnswer | src/rag/rag_pipeline.py:404-418 | the validated answer is a prefix of the result; with documents the heading follows it and every one of the first three source lines occurs after the heading |
| RagPipeline.Complexity | src/rag/rag_pipeline.py:143 | complexity is "high" iff more than 3 documents or a query longer than 50 characters, else "low" |
| RagPipeline.ProcessQuery | src/rag/rag_pipeline.py:79-199 | a cached answer leaves the cache as it was and reports no documents or routing; otherwise at most `rerank_top_k` documents are reported and a routing is made |
| RagPipeline.CacheHitSkipsWork | src/rag/rag_pipeline.py:99-106 | a live non-empty cached answer is returned with `cached` set, whatever the collaborators would do |
| RagPipeline.AnswerIsCached | src/rag/rag_pipeline.py:164-165 | after a miss, the same query within the time-to-live is answered from the cache with the computed answer |
| RagPipeline.MissRetrievesAndRoutes | src/rag/rag_pipeline.py:108-182 | on a miss the reported documents are the reranked first-occurrence merge cut at `rerank_top_k`, and routing uses the complexity of the retrieved count and original query |
| RagPipeline.Copied | src/rag/rag_pipeline.py:322-326 | exactly the listed keys present in the user context are copied, with their values |
| RagPipeline.AugmentWith | src/rag/rag_pipeline.py:295-343 | without a user context (or with a non-dictionary `analytics_context`) the context is unchanged; otherwise `user_data` is present |
| RagPipeline.AugmentAnalyticsContext | src/rag/rag_pipeline.py:295-343 | an empty user context changes nothing; otherwise `user_data` is set |
| RagPipeline.AugmentCopiesKeys | src/rag/rag_pipeline.py:322-329 | each listed key of the user context appears at the top level and inside `analytics_context` with the user's value |
| RagPipeline.AugmentKeepsOthers | src/rag/rag_pipeline.py:322-341 | unlisted keys keep their values; `user_data` is kept if present and is the user context otherwise |
| RagPipeline.AugmentIdempotent | src/rag/rag_pipeline.py:295-343 | augmenting twice with the same user context equals augmenting once |
| RagEval.Hits | scripts/rag_eval.py:32-33 | the hit count reaches the number of keywords exactly when every keyword occurs in the answer ignoring case, and is zero exactly when none does |
| RagEval.ScoreResponse | scripts/rag_eval.py:29-34 | a score lies in [0, 1]; it is 1.0 when nothing is expected, otherwise 1.0 exactly when every keyword was found, and 0.0 exactly when keywords were expected and none was found |
| RagEval.ScoreIsShare | scripts/rag_eval.py:32-34 | with keywords expected, the score is the number found over the number expected |
| RagEval.Scores | scripts/rag_eval.py:49-57 | every scored item's score lies in [0, 1], and items with blank queries are the only ones skipped |
| RagEval.Evaluate | scripts/rag_eval.py:37-62 | the average lies in [0, 1], is 1.0 for an empty golden set and 0.0 when every query was blank |
| RagEval.MeanOfScored | scripts/rag_eval.py:60 | with at least one scored item the average is the sum of scores over their number |
| RagEval.AllBlankScoresZero | scripts/rag_eval.py:45-60 | a golden set whose queries are all blank scores 0.0, although an empty one scores 1.0 |
| RagEval.PerfectAnswersScoreOne | scripts/rag_eval.py:49-60 | when every answer contains every expected keyword the average is 1.0 |
| RagEval.ExitCode | scripts/rag_eval.py:65-76 | the exit code is 0 exactly when the golden file is missing or the average reaches the minimum score, and 1 otherwise |
| RagEval.DefaultMinimumPasses | scripts/rag_eval.py:68-76 | with the default minimum score of 0.0 every run exits with 0 |
| ResponseRefiner.Excerpts | src/rag/response_refiner.py:85 | only the first three documents are quoted, each cut to its first 300 characters |
| ResponseRefiner.DocsTextBounded | src/rag/response_refiner.py:85 | the quoted document text is at most three excerpts of 300 characters and two separators long |
| ResponseRefiner.DocsTextIgnoresTail | src/rag/response_refiner.py:85 | documents after the third never change the quoted text |
| ResponseRefiner.CheckHallucination | src/rag/response_refiner.py:79-107 | a failed verification call passes; otherwise the answer passes exactly when "YES" occurs in the upper-cased stripped reply |
| ResponseRefiner.Checked | src/rag/response_refiner.py:35-41 | the warning is appended exactly when the check is on, documents are present and the check fails; otherwise the answer is unchanged |
| ResponseRefiner.Refine | src/rag/response_refiner.py:21-77 | an empty answer gives an empty one; a checked answer under 50 characters, or a failed rewrite, returns the checked answer |
| ResponseRefiner.ShortAnswerSkipsRewrite | src/rag/response_refiner.py:43-45 | a checked answer under 50 characters never reaches the rewriting model |
| ResponseRefiner.NoCheckNoWarning | src/rag/response_refiner.py:35 | without the grounding check nothing is appended |
| ContextBuilder.SystemSection | src/rag/context_builder.py:60-67 | the system section is never empty |
| ContextBuilder.Title | src/rag/context_builder.py:76 | title-casing keeps the length and decides each character by its position in its run of letters |
| ContextBuilder.Unsnake | src/rag/context_builder.py:76 | replacing underscores keeps the length and leaves no underscore |
| ContextBuilder.UserLines | src/rag/context_builder.py:74-76 | one profile line per truthy value, each built from its own key and value |
| ContextBuilder.UserSection | src/rag/context_builder.py:69-77 | the profile section is empty exactly when the profile is |
| ContextBuilder.AgentLine | src/rag/context_builder.py:85-88 | an entry gives a task line exactly when its value is a scalar or a non-empty list of strings, and fails exactly when its value is a list whose first item is a string and a later one is not |
| ContextBuilder.AgentLines | src/rag/context_builder.py:84-88 | the lines fail exactly when some entry holds such a list; otherwise there is one task line per entry that gives one |
| ContextBuilder.AgentSection | src/rag/context_builder.py:79-89 | the task section fails exactly when some entry holds such a list; otherwise it is empty exactly when the task context is |
| ContextBuilder.HistoryLines | src/rag/context_builder.py:145-151 | the last twenty messages are shown in order, each as the upper-cased role, a colon and the content, with "user" and "" as defaults |
| ContextBuilder.HistorySection | src/rag/context_builder.py:141-152 | the history section is empty exactly when the history is |
| ContextBuilder.QuerySection | src/rag/context_builder.py:154-155 | the query section is never empty |
| ContextBuilder.Clip | src/rag/context_builder.py:100-112 | a text within the limit is kept; a longer one keeps its head of 70 percent of the limit and is marked truncated |
| ContextBuilder.ClipWithinCap | src/rag/context_builder.py:100-116 | with the cap of at least 800 that the per-document rule gives, a clipped text never exceeds the cap |
| ContextBuilder.PerDocCap | src/rag/context_builder.py:115-116 | the per-document cap lies between 800 and 8000 |
| ContextBuilder.Fitting | src/rag/context_builder.py:118-134 | the documents kept are the longest prefix whose texts fit the character budget |
| ContextBuilder.BudgetLines | src/rag/context_builder.py:118-134 | the fitting document texts appear in order, followed, when some are dropped, by a notice counting the rest |
| ContextBuilder.RetrievalSection | src/rag/context_builder.py:91-139 | the retrieval section is empty exactly when there are no documents |
| ContextBuilder.SectionsEnds | src/rag/context_builder.py:35-56 | the sections, when built, start with the system section and end with the query section |
| ContextBuilder.BuildContextPrompt | src/rag/context_builder.py:23-58 | building raises exactly when a task-context list cannot be joined; otherwise the prompt starts with the system section and ends with the query section |
| ContextBuilder.SectionsShown | src/rag/context_builder.py:23-58 | when the sections are built, so is the prompt, and every non-empty section, whichever of the six it is, appears in it |
| ContextBuilder.RetrievalShown | src/rag/context_builder.py:44-58 | with retrieved documents, the retrieval section appears in every prompt that is built |
| ContextBuilder.MixedListRaises | src/rag/context_builder.py:87-88 | a task-context list of a string followed by a non-string makes building the whole prompt raise |
| ContextBuilder.QueryEndsPrompt | src/rag/context_builder.py:154-155 | a prompt ending with the query section ends with the query itself |
| PipelinePrompt.CreatePrompt | src/rag/rag_pipeline.py:345-369 | the prompt always ends with the query, and is the bare query exactly when building the context prompt raises |
| ContextBuilder.KeptEnds | src/rag/context_builder.py:58 | dropping empty sections keeps the non-empty first and last sections at the ends |
| QueryExpander.StrippedLines | src/rag/query_expander.py:42 | the candidates are exactly the stripped non-empty lines of the reply, each already stripped |
| QueryExpander.AddUnique | src/rag/query_expander.py:45-48 | the accumulated list grows at the end only, stays free of duplicates, and gains exactly the non-empty candidates that differ from the original |
| QueryExpander.ExpandQuery | src/rag/query_expander.py:18-54 | a failed call gives only the original; otherwise the original comes first, at most n variations follow, none repeats and each is a line of the reply other than the original |
| QueryExpander.ExpandedFacts | src/rag/query_expander.py:45-50 | any prefix of the accumulated list is duplicate-free, starts with the original and holds only candidates after it |
| QueryExpander.AllVariationsKeptWhenRoomy | src/rag/query_expander.py:45-50 | when n covers every candidate, every candidate other than the original is returned |
| QueryExpander.AddUniqueLength | src/rag/query_expander.py:46-48 | the loop adds at most one query per candidate |
| PromptOptimizer.CollapseNewlines | src/rag/prompt_optimizer.py:33 | the result has no run of three newlines and starts with the same character as the input |
| PromptOptimizer.CollapseNewlinesIdentity | src/rag/prompt_optimizer.py:33 | text without a run of three newlines is left unchanged |
| PromptOptimizer.CollapseBlanks | src/rag/prompt_optimizer.py:34 | the result holds no tab and no two spaces in a row, and a leading blank run becomes one space |
| PromptOptimizer.CollapseBlanksKeepsNewlines | src/rag/prompt_optimizer.py:33-34 | collapsing blanks never creates a run of three newlines or a leading pair of newlines |
| PromptOptimizer.CollapseBlanksIdentity | src/rag/prompt_optimizer.py:34 | text without a tab or a double space is left unchanged |
| PromptOptimizer.CleanText | src/rag/prompt_optimizer.py:31-35 | cleaned text has no triple newline, no tab, no double space, and no whitespace at either end |
| PromptOptimizer.InfixKeepsShape | src/rag/prompt_optimizer.py:31-35 | every slice of cleaned-shaped text keeps both shape properties |
| PromptOptimizer.CleanTextIdempotent | src/rag/prompt_optimizer.py:31-35 | cleaning twice is cleaning once |
| PromptOptimizer.PruneContext | src/rag/prompt_optimizer.py:37-56 | the kept items are a prefix of the context whose estimated tokens fit the limit, and the first item left out would push the estimate over it |
| PromptOptimizer.Optimize | src/rag/prompt_optimizer.py:19-29 | the prompt is cleaned and the context is a prefix that fits the token limit |
| BatchProcessor.ItemResult | src/rag/batch_processor.py:40-45 | a failed item reads "Error processing request." and a successful one keeps its answer |
| BatchProcessor.GatheredAt | src/rag/batch_processor.py:36-45 | item i of the gathered list is the treated outcome of request i |
| BatchProcessor.ProcessBatch | src/rag/batch_processor.py:19-51 | one answer per request; when gathering fails every answer is "Error", otherwise each is its request's answer or the item error |
| BatchProcessor.GatheredSplits | src/rag/batch_processor.py:28-47 | gathering a concatenation is concatenating the gatherings |
| BatchProcessor.BatchSplits | src/rag/batch_processor.py:19-47 | a batch is processed as its two halves, so no item depends on its neighbours |
| RateLimit.New | src/api/middleware/rate_limit.py:24-42 | a new limiter tracks no client and keeps the configured limit and window |
| RateLimit.ClientIp | src/api/middleware/rate_limit.py:57-63 | the first X-Forwarded-For element, stripped, when the header is non-empty; else the peer host; else "unknown" |
| RateLimit.SameClientAsAudit | src/api/middleware/rate_limit.py:57-63 | without X-Real-IP the limiter and the audit middleware name the same client |
| RateLimit.Check | src/api/middleware/rate_limit.py:65-96 | a request is refused exactly when its client has a window no older than the window length whose count reached the limit, reporting the truncated seconds left and changing nothing; a new client or an expired window restarts at one with limit − 1 left; otherwise the count grows by one and limit − previous − 1 is left; other clients are untouched |
| RateLimit.CheckKeepsValid | src/api/middleware/rate_limit.py:75-96 | every window keeps between one and the limit requests, and an allowed request reports a non-negative remainder |
| RateLimit.ThirdRequestRefused | src/api/middleware/rate_limit.py:75-92 | with a limit of two, requests one and two are allowed with 1 and 0 left and the third is refused with the whole window to wait |
| RateLimit.ExpiredWindowResets | src/api/middleware/rate_limit.py:83-86 | after the window has passed the client's count restarts at one |
| RateLimit.Cleanup | src/api/middleware/rate_limit.py:125-134 | exactly the windows older than twice the window length are forgotten; the rest are kept unchanged |
| RateLimit.CleanupKeepsOpenWindows | src/api/middleware/rate_limit.py:125-134 | cleanup keeps the limiter valid and never forgets a window that is still open |
| RateLimit.Dispatch | src/api/middleware/rate_limit.py:136-188 | disabled limiting forwards untouched; a refused check is a 429 carrying the limit; a forwarded request reports a remaining count of at least zero from the memory backend |
| RecommendationAgent.Catalogue | src/agents/recommendation_agent/__init__.py:32-85 | the catalogue holds five materials, each rated between 0 and 5 |
| RecommendationAgent.AssessLevel | src/agents/recommendation_agent/__init__.py:171-182 | no data gives beginner; otherwise advanced exactly from 0.8 and beginner exactly below 0.6, a missing score counting as 0 |
| RecommendationAgent.DifficultyMatch | src/agents/recommendation_agent/__init__.py:212-225 | 1.0 exactly on the user's level, 0.8 exactly one level away, 0.3 exactly between beginner and advanced |
| RecommendationAgent.StyleMatch | src/agents/recommendation_agent/__init__.py:227-236 | every table entry lies in [0.2, 1.0] and an unknown style scores 0.5 |
| RecommendationAgent.PreferredTypes | src/agents/recommendation_agent/__init__.py:229-234 | visual learners rate video highest, auditory ones workshops, kinesthetic ones interactive material; balanced never exceeds 0.8 |
| RecommendationAgent.MatchesZeroIff | src/agents/recommendation_agent/__init__.py:243 | no distinct topic matches exactly when no topic is an interest |
| RecommendationAgent.InterestMatch | src/agents/recommendation_agent/__init__.py:238-244 | the share lies in [0, 1]; no interests give 0.5; with interests it is 0 exactly when no topic is an interest |
| RecommendationAgent.RecommendationScore | src/agents/recommendation_agent/__init__.py:184-210 | the score never exceeds 1 |
| RecommendationAgent.ScoreInUnitRange | src/agents/recommendation_agent/__init__.py:184-210 | a valid material scores between 0.18 and 1 |
| RecommendationAgent.Reasons | src/agents/recommendation_agent/__init__.py:270-292 | there is always a reason; the generic one appears only alone; the level and rating reasons appear exactly when they apply |
| RecommendationAgent.TopIsTop | src/agents/recommendation_agent/__init__.py:136-145 | the top three are scored materials in descending order and no material left out outranks one kept |
| RecommendationAgent.PresentedTopIsTop | src/agents/recommendation_agent/__init__.py:143-163 | formatting keeps the order, materials and scores of the top three |
| RecommendationAgent.GenerateRecommendations | src/agents/recommendation_agent/__init__.py:143-145 | there are three recommendations, or all materials when fewer |
| RecommendationAgent.RecommendationsAreTop | src/agents/recommendation_agent/__init__.py:118-169 | recommendations are materials in descending score order, each with its own score, and none left out scores higher |
| RecommendationAgent.CatalogueGivesThree | src/agents/recommendation_agent/__init__.py:143-145 | the default catalogue yields exactly three recommendations |
| RecommendationAgent.Confidence | src/agents/recommendation_agent/__init__.py:246-268 | confidence lies in [0.5, 1.0] and is 0.5 when nothing is known |
| RecommendationAgent.FullInformationFullConfidence | src/agents/recommendation_agent/__init__.py:253-268 | a complete profile with preferences and competency data gives confidence 1 |
| RecommendationAgent.ConfidenceMonotone | src/agents/recommendation_agent/__init__.py:260-268 | adding preferences or competency data never lowers confidence |
| RecommendationAgent.Execute | src/agents/recommendation_agent/__init__.py:87-116 | three recommendations and a confidence in [0.5, 1.0] |
| RetrievalEngine.TermCount | src/rag/retrieval_engine.py:350-353 | the term count is positive exactly when some query term occurs in the content |
| RetrievalEngine.KeywordScore | src/rag/retrieval_engine.py:356 | a matching document's normalised score lies in (0, 1] |
| RetrievalEngine.KeywordHits | src/rag/retrieval_engine.py:346-365 | every keyword hit is an indexed document, with its content, holding a query term and scored in (0, 1] |
| RetrievalEngine.KeywordResults | src/rag/retrieval_engine.py:343-368 | a fresh keyword search returns only matching documents, best first, at most the limit |
| RetrievalEngine.KeywordResultsAreTop | src/rag/retrieval_engine.py:343-368 | every indexed document sharing a term with the query is ranked; min(limit, matches) are kept and none left out scores above one kept |
| RetrievalEngine.KeywordSearch | src/rag/retrieval_engine.py:336-370 | a query and limit seen before are answered with the cache entry as it stands, whose hits a hybrid search may since have re-scored (RetrievalCache); otherwise the fresh result is returned and cached under them |
| RetrievalEngine.RepeatedSearchIsCached | src/rag/retrieval_engine.py:339-341 | with no hybrid search in between, a repeated search returns its first answer even after the index changed |
| RetrievalEngine.Entities | src/rag/retrieval_engine.py:384 | every query entity is longer than two characters |
| RetrievalEngine.GraphScore | src/rag/retrieval_engine.py:394-397 | the graph score counts entities mentioned by some tag: at most their number, and positive exactly when one is mentioned |
| RetrievalEngine.GraphHits | src/rag/retrieval_engine.py:389-407 | every graph hit is an indexed document scored by the entities its tags mention, at least one |
| RetrievalEngine.GraphSearch | src/rag/retrieval_engine.py:376-410 | graph results are matching documents, best first, at most the limit |
| RetrievalEngine.GraphSearchIsTop | src/rag/retrieval_engine.py:376-410 | every document whose tags mention a query entity is ranked; min(limit, matches) are kept and none left out scores above one kept |
| RetrievalEngine.LastScore | src/rag/retrieval_engine.py:574-601 | a list gives an id a score exactly when some result of the list has that id |
| RetrievalEngine.AddVector | src/rag/retrieval_engine.py:573-579 | after the vector loop the table holds exactly the listed ids, each with its last vector score and zero elsewhere |
| RetrievalEngine.AddComponent | src/rag/retrieval_engine.py:581-601 | a keyword or graph loop sets the component of listed ids, adds new ids with zero elsewhere, and changes nothing else |
| RetrievalEngine.MergeTableIds | src/rag/retrieval_engine.py:571-601 | after the three loops the table holds exactly the ids of the three lists |
| RetrievalEngine.MergeTableAt | src/rag/retrieval_engine.py:571-601 | each id carries its last score of each list, and zero for a list that misses it |
| RetrievalEngine.Fuse | src/rag/retrieval_engine.py:603-612 | the table's entries come out in insertion order, each re-scored by the weighted sum |
| RetrievalEngine.FusedIds | src/rag/retrieval_engine.py:571-614 | the fused ids are distinct and are exactly the ids of the three lists |
| RetrievalEngine.FusedEntries | src/rag/retrieval_engine.py:571-614 | each fused entry carries its component scores and their weighted sum |
| RetrievalEngine.MergeSearchResults | src/rag/retrieval_engine.py:562-614 | one entry per id of the three lists, scored by the weighted sum of its last component scores, zero for a list that misses it |
| RetrievalEngine.DeduplicateResults | src/rag/retrieval_engine.py:620-628 | no two results share an id, and every result comes from the input |
| RetrievalEngine.DeduplicateKeepsFirst | src/rag/retrieval_engine.py:620-628 | every id survives through its first result, in input order |
| RetrievalEngine.Rescored | src/rag/retrieval_engine.py:484-487 | each covered document takes the cross-encoder's score and keeps its old score as the original one |
| RetrievalEngine.RerankDocuments | src/rag/retrieval_engine.py:457-495 | no documents give none; without a reranker or with full scores the result is sorted best first within top-k; a failed prediction keeps the input order; a short score list fails after re-scoring the covered documents |
| RetrievalEngine.RerankUsesEncoderScores | src/rag/retrieval_engine.py:476-491 | with a full score list every returned document carries the cross-encoder's score for it and its original score |
| RetrievalEngine.HybridSearchAsWritten | src/rag/retrieval_engine.py:415-451 | without a reranker the merged list is cut in merge order to top-k |
| RetrievalEngine.HybridSliceUnsorted | src/rag/retrieval_engine.py:446-449 | a vector hit with a lower fused score than a keyword hit still comes first, so the result is not sorted |
| RetrievalEngine.HybridSearch | src/rag/retrieval_engine.py:415-451 | corrected search: without a reranker the result is sorted best first, drawn from the merged candidates, at most top-k |
| RetrievalEngine.HybridSearchAgreesWithReranker | src/rag/retrieval_engine.py:446-447 | with a reranker the corrected and written searches agree |
| RetrievalEngine.MergeVectorThenKeyword | src/rag/retrieval_engine.py:573-614 | a vector hit and a keyword hit of different documents merge with the vector hit first |
| RetrievalEngine.HybridSearchSortsThem | src/rag/retrieval_engine.py:446-449 | the corrected search returns the same two documents best first |
| RetrievalCache.FinalStates | src/rag/retrieval_engine.py:483-487 | the merged hits' final states keep each position's id and content; only a cross-encoder changes scores, each covered hit taking its own |
| RetrievalCache.WrittenBack | src/rag/retrieval_engine.py:571-612 | a cached hit that the merge keeps in its table ends in its final merged state under the same id; every other cached hit is untouched |
| RetrievalCache.CombinedListsInputs | src/rag/retrieval_engine.py:571-614 | every id of the vector or keyword list is the id of a merged hit |
| RetrievalCache.KeptHitsMerged | src/rag/retrieval_engine.py:571-614 | every cached hit the merge keeps has a final state of its id |
| RetrievalCache.FinalKeepsIds | src/rag/retrieval_engine.py:483-487 | the rerank's writes keep every id of the merged list |
| RetrievalCache.HybridSearchCachedAsWritten | src/rag/retrieval_engine.py:415-451 | returns the written search over the keyword search's hits; the query's cache entry then holds its kept hits in their merged and reranked states, and every other key is left alone |
| RetrievalCache.HybridSearchCached | src/rag/retrieval_engine.py:415-451 | corrected search with copies cached: at most top-k results, every earlier cache entry unchanged, only the query's own entry added |
| RetrievalCache.CachedSearchRepeats | src/rag/retrieval_engine.py:339-341 | with copies cached, a repeated hybrid search returns the same results and leaves the same cache |
| RetrievalCache.KeywordScoresSurvive | src/rag/retrieval_engine.py:339-341 | with copies cached, a keyword search after a hybrid search still returns the keyword scores |
| RetrievalCache.CachedSearchesAgreeWithReranker | src/rag/retrieval_engine.py:446-447 | with a reranker both versions return the same list from the same cache |
| RetrievalCache.MergeSelfAndGraph | src/rag/retrieval_engine.py:571-612 | one hit met by the vector and keyword loops and a graph hit of its id merge into one entry carrying all three scores |
| RetrievalCache.FusedCombined | src/rag/retrieval_engine.py:603-612 | that entry's merged hit is the cached hit with its weighted score |
| RetrievalCache.OneHitReturnsFused | src/rag/retrieval_engine.py:446-449 | without a reranker the written search returns that one fused hit |
| RetrievalCache.WrittenSearchRewritesCache | src/rag/retrieval_engine.py:336-449 | in fallback mode, from a cache holding that one hit, the written search returns the fused hit and leaves the fused hit in the cache |
| RetrievalCache.WrittenScoresDrift | src/rag/retrieval_engine.py:336-341 | from a cached keyword score of 0.2 and a graph score of 1.0, two written searches return 0.5 then 0.8, and a keyword search in between returns 0.5 |
| RetrievalEngine.NonBlank | src/rag/retrieval_engine.py:153-155 | metadata tag items are kept only when non-blank |
| RetrievalEngine.FindHashtags | src/rag/retrieval_engine.py:164 | every hashtag found has at least two characters, all of the tag class |
| RetrievalEngine.NoHashNoTags | src/rag/retrieval_engine.py:164 | a text without "#" has no hashtags |
| RetrievalEngine.HashtagMissed | src/rag/retrieval_engine.py:164 | "#tip" yields no hashtag with the written character class and "tip" with the word class |
| RetrievalEngine.WrittenMatch | src/rag/retrieval_engine.py:168 | a match of the written token pattern includes its literal tail |
| RetrievalEngine.SplitWritten | src/rag/retrieval_engine.py:168 | splitting always yields at least one piece |
| RetrievalEngine.SplitWrittenWhole | src/rag/retrieval_engine.py:168 | text without the pattern's literal tail is never split |
| RetrievalEngine.TokenTags | src/rag/retrieval_engine.py:173-182 | every kept token has three or more characters, is no stop word and fails the number test |
| RetrievalEngine.TokenTagsComeFromPieces | src/rag/retrieval_engine.py:173-182 | every kept token is a stripped piece of the split |
| RetrievalEngine.TagLoop | src/rag/retrieval_engine.py:185-197 | the clean-up keeps stripped non-empty tags, distinct ignoring case, at most thirty |
| RetrievalEngine.ExtractTagsAsWritten | src/rag/retrieval_engine.py:141-200 | at most thirty stripped non-empty tags, distinct ignoring case |
| RetrievalEngine.ExtractTags | src/rag/retrieval_engine.py:141-200 | corrected extraction: at most thirty stripped non-empty tags, distinct ignoring case |
| RetrievalEngine.ExtractedTokensAreWords | src/rag/retrieval_engine.py:167-182 | no corrected token is a number or holds whitespace or punctuation |
| RetrievalEngine.WholeTextTag | src/rag/retrieval_engine.py:168-182 | as written, a short text without "#" is its own and only tag when it passes the filter |
| RetrievalEngine.NoIntendedTags | src/rag/retrieval_engine.py:162-182 | without "#" and with no token passing the filter, the corrected extractor finds no tag |
| RetrievalEngine.NumberTokenKept | src/rag/retrieval_engine.py:180-181 | a number of five to fourteen digits is kept as a tag as written and dropped as intended |
| RetrievalEngine.TextNotTokenised | src/rag/retrieval_engine.py:168 | "ab cd" stays one tag as written and yields none as intended |
| RetrievalEngine.FallbackAdd | src/rag/retrieval_engine.py:642-657 | adding keeps every existing key and stores every document that has an id |
| RetrievalEngine.FallbackDelete | src/rag/retrieval_engine.py:662-666 | deleting removes exactly the given ids and ignores unknown ones |
| RetrievalEngine.AddThenDelete | src/rag/retrieval_engine.py:642-666 | a stored document is found under its id with its content, and deleting the id removes it |
| RetrievalEngine.DeleteAbsentIsNoop | src/rag/retrieval_engine.py:662-666 | deleting ids not in the index changes nothing |
| RetrievalEngine.HashEmbedding | src/rag/retrieval_engine.py:671-684 | the embedding has 128 values in [0, 1]: the digest bytes over 255, then zeros |
| RequestSchemas.NonBlank | src/api/schemas/request_schemas.py:12-18 | a required text field is accepted exactly when its length as sent is within bounds and it is not blank, and is kept stripped |
| RequestSchemas.NonBlankIdempotent | src/api/schemas/request_schemas.py:14-18 | an accepted value validates again to itself |
| RequestSchemas.PaddingIgnored | src/api/schemas/request_schemas.py:14-18 | spaces around an accepted value do not change the stored value |
| RequestSchemas.ReportType | src/api/schemas/request_schemas.py:64-88 | a report type is accepted exactly when it is non-blank within 50 characters and its stripped lower-case form is one of the seven report types, which is what is kept |
| RequestSchemas.ReportTypesAccepted | src/api/schemas/request_schemas.py:76-88 | every report type is accepted as written and in upper case, both giving the lower-case name |
| RequestSchemas.ReportTypeIdempotent | src/api/schemas/request_schemas.py:86-88 | an accepted report type validates again to itself |
| RequestSchemas.OptionalId | src/api/schemas/request_schemas.py:24 | an optional session id is accepted when absent or at most 100 characters, and kept as sent |
| RequestSchemas.ValidateCompetencyAssessment | src/api/schemas/request_schemas.py:6-18 | an assessment request is accepted exactly when both ids are non-blank within 100 characters, and keeps them stripped |
| RequestSchemas.BlankUserIdRefused | src/api/schemas/request_schemas.py:16-17 | a user id of spaces only is refused |
| RequestSchemas.ValidateRecommendation | src/api/schemas/request_schemas.py:21-35 | a recommendation request needs a non-blank user id and an optional session id within 100 characters |
| RequestSchemas.ValidateSearch | src/api/schemas/request_schemas.py:38-52 | a search request needs a non-blank query within 500 characters and a user id, and its limit defaults to 10 and must lie in [1, 100] |
| RequestSchemas.ValidateAnalytics | src/api/schemas/request_schemas.py:55-88 | an analytics request needs a non-blank user id and a known report type, kept lower-case; external sources default to none |
| RequestSchemas.ValidateCreatorEvaluation | src/api/schemas/request_schemas.py:91-103 | a creator evaluation needs a non-blank platform and a non-blank handle within 100 characters, both kept stripped |
| RequestSchemas.ValidateMissionRecommend | src/api/schemas/request_schemas.py:120-145 | a mission recommendation request needs a non-blank creator id, kept stripped; external sources default to none |
| RequestSchemas.SearchRevalidates | src/api/schemas/request_schemas.py:38-52 | a validated search request, sent again as validated, is accepted unchanged |
| RequestSchemas.AnalyticsRevalidates | src/api/schemas/request_schemas.py:55-88 | a validated analytics request, sent again as validated, is accepted unchanged |
| RequestSchemas.CreatorEvaluationRevalidates | src/api/schemas/request_schemas.py:91-103 | a validated creator evaluation, sent again as validated, is accepted unchanged |
| SearchAgent.ApplyFilters | src/agents/search_agent/__init__.py:147-169 | no filters keep every result; otherwise exactly the matching results are kept, in order |
| SearchAgent.DroppedExactly | src/agents/search_agent/__init__.py:157-167 | a result is dropped exactly when its metadata holds a filtered key with a different value |
| SearchAgent.AbsentKeysKeepAll | src/agents/search_agent/__init__.py:161-164 | filter keys absent from every result's metadata never exclude anything |
| SearchAgent.FallbackSearch | src/agents/search_agent/__init__.py:108-145 | at most a non-negative limit of results and at most the two canned documents, each passing the filters |
| SearchAgent.CategoryFilter | src/agents/search_agent/__init__.py:116-145 | a category filter keeps exactly the canned document of that category |
| SearchAgent.Format | src/agents/search_agent/__init__.py:91-98 | a non-dictionary raises; a dictionary's missing keys default to "", {}, 0.0 and "unknown" |
| SearchAgent.FormatAll | src/agents/search_agent/__init__.py:89-100 | every document is formatted in order, or formatting fails exactly when some document is not a dictionary |
| SearchAgent.SearchWithRag | src/agents/search_agent/__init__.py:78-106 | no retrieval engine gives nothing; a failed retrieval or formatting gives the fallback results |
| SearchAgent.Execute | src/agents/search_agent/__init__.py:39-76 | total_count always equals the number of results; an empty query gives no results and no error; earlier errors are kept |
| SearchAgent.ExecuteErrors | src/agents/search_agent/__init__.py:70-74 | exactly one error is appended and the results emptied exactly when an exception escapes |
| SearchAgent.FallbackWithoutPipeline | src/agents/search_agent/__init__.py:58-66 | without a pipeline the results are filtered fallback documents, never more than a non-negative limit |
| SecurityUtils.MaskKeys | src/api/middleware/security_utils.py:20-23 | a message containing none of the (non-empty) keys comes out unchanged |
| SecurityUtils.PiiFilter | src/api/middleware/security_utils.py:14-24 | the record is always kept; an empty pattern list means the three default keys; a message without any key is unchanged |
| SecurityUtils.ReplaceShowsRep | src/api/middleware/security_utils.py:21-22 | replacing a pattern that occurs leaves the replacement text in the result |
| SecurityUtils.SingleKeyTagged | src/api/middleware/security_utils.py:20-23 | a message mentioning the key comes out containing the key followed by "[*masked*]" |
| SecurityUtils.RequireRoles | src/api/middleware/security_utils.py:52-57 | the handler proceeds exactly when no roles are listed or the caller's role is listed; otherwise 403, including for a caller without a role |
| SecurityUtils.WiderRolesAdmitMore | src/api/middleware/security_utils.py:52-57 | widening a non-empty allowed list never locks out an admitted caller |
| SecurityUtils.Collapse | src/api/middleware/security_utils.py:77 | every whitespace run becomes one space: no two whitespace characters remain adjacent and all remaining whitespace is a space |
| SecurityUtils.CollapseKeepsText | src/api/middleware/security_utils.py:77 | collapsing whitespace keeps every other character in order |
| SecurityUtils.StripKeepsShape | src/api/middleware/security_utils.py:77 | stripping keeps every non-whitespace character and adds no double whitespace |
| SecurityUtils.Normalize | src/api/middleware/security_utils.py:77 | the normalised prompt has single spaces only, no whitespace at either end, and the prompt's text unchanged |
| SecurityUtils.SanitizePrompt | src/api/middleware/security_utils.py:66-101 | the sanitised prompt is at most `max_len` + 3 characters and is the masked, normalised prompt whenever that fits |
| SecurityUtils.CleanPromptKeepsText | src/api/middleware/security_utils.py:74-99 | a short prompt with nothing to mask keeps all its text with single spaces between words |
| SecurityUtils.SanitizeOutput | src/api/middleware/security_utils.py:120-136 | the result has the input's structure (list lengths, dictionary keys, non-string scalars) and every string is at most `max_str_len` + 3 characters |
| SecurityUtils.EllipsisIdempotent | src/api/middleware/security_utils.py:127-128 | cutting a cut string again changes nothing |
| SemanticCache.NewCache | src/rag/semantic_cache.py:18-23 | a new cache holds nothing and keeps the given time-to-live |
| SemanticCache.Get | src/rag/semantic_cache.py:25-44 | a lookup answers exactly when the normalised key is present and not past its expiry, without changing the cache; a miss removes the key |
| SemanticCache.Put | src/rag/semantic_cache.py:46-56 | storing sets the key's response and an expiry one time-to-live later, and leaves every other entry as it was |
| SemanticCache.Clear | src/rag/semantic_cache.py:64-65 | clearing empties the cache and keeps its time-to-live |
| SemanticCache.KeyIgnoresCaseAndSpace | src/rag/semantic_cache.py:58-59 | queries differing only in case or surrounding whitespace share one key |
| SemanticCache.StripLowerCommute | src/rag/semantic_cache.py:58-59 | stripping and lower-casing commute |
| SemanticCache.PutThenGet | src/rag/semantic_cache.py:25-56 | a stored response is served back under any spelling with the same normal form until it expires |
| SemanticCache.ExpiredGetDeletes | src/rag/semantic_cache.py:33-39 | a lookup after expiry misses and deletes the entry |
| SemanticCache.PutOverwrites | src/rag/semantic_cache.py:46-56 | storing twice under one key equals storing only the second time |
| SemanticCache.ClearThenGet | src/rag/semantic_cache.py:25-66 | after clearing, every lookup misses |
| SupadataMcp.CallTool | src/services/supadata_mcp.py:124-150 | a call fails without a connection, when the session raises or on an error payload; otherwise structured content is returned when present, else the content blocks when any, else an empty dictionary |
| SupadataMcp.StructuredPreferred | src/services/supadata_mcp.py:138-148 | structured content wins over content blocks |
| SupadataMcp.Calls | src/services/supadata_mcp.py:104-108 | one call is made per argument set with a URL, and each outcome is that call's |
| SupadataMcp.Kept | src/services/supadata_mcp.py:115-122 | only truthy values of calls that succeeded are kept |
| SupadataMcp.KeptIsSubsequence | src/services/supadata_mcp.py:115-122 | the kept values are a subsequence, in order, of the successful values |
| SupadataMcp.AllKept | src/services/supadata_mcp.py:115-122 | when every call answers something, nothing is dropped |
| SupadataMcp.GatherResults | src/services/supadata_mcp.py:96-122 | a disabled or unconnected client, no arguments, or arguments without URLs give nothing; otherwise at most one truthy value per argument set with a URL |
| SupadataMcp.GatherIsSubsequence | src/services/supadata_mcp.py:113-122 | the gathered values are a subsequence of the successful calls' values |
| SupadataMcp.AllAnsweredAllKept | src/services/supadata_mcp.py:101-122 | when every argument set has a URL and every call answers, one value per argument set is returned |
| SupadataMcp.ScrapeArgs | src/services/supadata_mcp.py:67-70 | one scrape request per URL, carrying its URL and the language |
| SupadataMcp.ScrapeUrls | src/services/supadata_mcp.py:60-70 | scraping returns at most one truthy value per URL |
| SupadataMcp.FetchTranscripts | src/services/supadata_mcp.py:72-83 | transcripts return at most one value per URL |
| SupadataMcp.MapSite | src/services/supadata_mcp.py:85-87 | a site map is the single gathered value, or nothing; an empty URL gives nothing |
| SupadataMcp.CrawlArgs | src/services/supadata_mcp.py:92 | the crawl limit sent is clamped to [1, 5000] and is the given one inside that range |
| SupadataMcp.CrawlSite | src/services/supadata_mcp.py:89-94 | a crawl is the single gathered value, or nothing; an empty URL gives nothing |
| SupadataMcp.FailedCrawlGivesNothing | src/services/supadata_mcp.py:89-122 | a crawl whose call raises gives nothing |
| VectorSearchServer.FormatHit | src/mcp/servers/vector_search_server.py:215-224 | a formatted result keeps the hit's id, score and metadata, and its content is the first 500 characters of the hit's content; only hybrid results carry the partial scores |
| VectorSearchServer.Format | src/mcp/servers/vector_search_server.py:206-247 | one formatted entry per hit, in order, each tagged with the search kind and at most 500 characters of content |
| VectorSearchServer.Hybrid | src/mcp/servers/vector_search_server.py:249-285 | the search runs with the requested vector weight and its complement; afterwards the engine's vector weight is back but its two weights sum to one |
| VectorSearchServer.KeywordWeightNotRestored | src/mcp/servers/vector_search_server.py:259-269 | an engine configured with weights 0.5 and 0.3 is left with 0.5 and 0.5 |
| VectorSearchServer.HybridRestoring | src/mcp/servers/vector_search_server.py:259-269 | the corrected search gives the same results and leaves the engine's weights exactly as they were |
| VectorSearchServer.RestoringAgreesIffComplementary | src/mcp/servers/vector_search_server.py:259-269 | the original and corrected searches agree exactly when the engine's weights already summed to one |
| VectorSearchServer.ChangeReport | src/mcp/servers/vector_search_server.py:292-300 | a successful change reports every document and a success message with the count; a failed one reports zero and a failure message |
| VectorSearchServer.AddDocuments | src/mcp/servers/vector_search_server.py:287-300 | the added count is the number of documents when the engine accepted them and zero otherwise |
| VectorSearchServer.DeleteDocuments | src/mcp/servers/vector_search_server.py:302-315 | the deleted count is the number of ids when the engine deleted them and zero otherwise |
| VectorSearchServer.FailedChangeCountsNothing | src/mcp/servers/vector_search_server.py:292-300 | a failed report does not depend on how many documents were sent |
| VectorSearchServer.TierOf | src/mcp/servers/vector_search_server.py:338-347 | the follower tier is mega from 1,000,000, macro from 100,000, micro from 10,000 and nano below |
| VectorSearchServer.TierMonotone | src/mcp/servers/vector_search_server.py:338-347 | more followers never give a lower tier |
| VectorSearchServer.QueryParts | src/mcp/servers/vector_search_server.py:327-347 | the query has the platform and category when given, at most three tags, and ends with exactly the tier phrase |
| VectorSearchServer.Query | src/mcp/servers/vector_search_server.py:349 | the space-joined query ends with the tier phrase |
| VectorSearchServer.QueryShowsProfile | src/mcp/servers/vector_search_server.py:327-349 | the query names the given platform as "platform:" and the platform, the given category, and each of the first three tags |
| VectorSearchServer.ToMatch | src/mcp/servers/vector_search_server.py:367-375 | a similar creator keeps the hit's id and metadata, its content is the first 300 characters, and the reason names the query |
| VectorSearchServer.Collect | src/mcp/servers/vector_search_server.py:356-378 | the loop collects at most max(limit, 1) entries and none has the current creator's handle, compared lower-cased |
| VectorSearchServer.Others | src/mcp/servers/vector_search_server.py:363-365 | the kept hits all come from the results and none is the creator itself |
| VectorSearchServer.OthersOfOthers | src/mcp/servers/vector_search_server.py:363-365 | with no hit of the creator itself nothing is skipped |
| VectorSearchServer.CollectIsFilteredPrefix | src/mcp/servers/vector_search_server.py:356-378 | the loop returns exactly the first max(limit, 1) hits that are not the creator itself, in order |
| VectorSearchServer.AllOthersKept | src/mcp/servers/vector_search_server.py:356-378 | with no hit of the creator itself and no more hits than the limit, every hit is returned |
| VectorSearchServer.FindSimilar | src/mcp/servers/vector_search_server.py:322-380 | at most max(limit, 1) similar creators, none with the profile's own handle, each with the query as reason and at most 300 characters of content |
| VectorSearchServer.FindSimilarIsFilteredPrefix | src/mcp/servers/vector_search_server.py:322-380 | the similar creators are exactly the first max(limit, 1) hits of the doubled-limit search that are not the creator itself, in order |
| McpServer.RegisterAll | src/mcp/servers/base_server.py:68-71 | registering distinct names in turn lists them in that order, each under its own name |
| VectorSearchServer.Initialized | src/mcp/servers/vector_search_server.py:34-204 | initialisation registers the seven tools, once each, in order |
| VectorSearchTools.ModelName | src/tools/vector_search_tools.py:63-67 | the embedding model name is never empty: an empty setting gives all-MiniLM-L6-v2 |
| VectorSearchTools.BackendAsWritten | src/tools/vector_search_tools.py:69-98 | as written, OpenAI is in use exactly when a text-embedding model is configured, installed and starts |
| VectorSearchTools.VoyageNeverSelected | src/tools/vector_search_tools.py:79-98 | as written, the Voyage backend is never the one left in use |
| VectorSearchTools.VoyageModelFallsBack | src/tools/vector_search_tools.py:79-98 | a voyage-3 model with a key and a working client ends on the fallback backend as written |
| VectorSearchTools.ChosenBackend | src/tools/vector_search_tools.py:69-98 | the intended choice: OpenAI iff chosen, Voyage iff chosen without OpenAI, SentenceTransformers only when neither and installed |
| VectorSearchTools.BackendsAgreeOffVoyage | src/tools/vector_search_tools.py:69-98 | the as-written and intended choices agree except that Voyage becomes the fallback |
| VectorSearchTools.SentenceModel | src/tools/vector_search_tools.py:92 | the configured model is kept unless it names an OpenAI model, which is replaced by all-MiniLM-L6-v2; either way SentenceTransformers never receives an empty or OpenAI model name |
| VectorSearchTools.Init | src/tools/vector_search_tools.py:58-129 | as written, the document dictionary exists iff start-up raised, and Pinecone is on iff configured and start-up did not raise |
| VectorSearchTools.InitChecked | src/tools/vector_search_tools.py:116-129 | the intended start-up always has an empty document dictionary |
| VectorSearchTools.NormalStartNeverStores | src/tools/vector_search_tools.py:116-267 | after a normal start without Pinecone, every search returns the sentinel, adds and non-empty deletes fail, and the count is 0 |
| VectorSearchTools.Sentinel | src/tools/vector_search_tools.py:170-177 | a failed fallback search returns one result, id "fallback", score 0.5 |
| VectorSearchTools.PyCount | src/tools/vector_search_tools.py:158 | the occurrence count is positive whenever the query occurs |
| VectorSearchTools.ScoreDoc | src/tools/vector_search_tools.py:154-164 | scoring raises exactly for non-text content or a match in wordless content; a hit keeps the document's content and id and scores in (0, 1] |
| VectorSearchTools.Scan | src/tools/vector_search_tools.py:154-165 | every hit is a stored text document containing the lowered query, scored in (0, 1], no more hits than documents |
| VectorSearchTools.FallbackSearch | src/tools/vector_search_tools.py:147-177 | without a dictionary the sentinel; otherwise results sorted by score descending, at most a non-negative limit, scores in (0, 1], ids of stored documents |
| VectorSearchTools.PrefixKeepsSorted | src/tools/vector_search_tools.py:166-168 | cutting a sorted result list keeps it sorted |
| VectorSearchTools.HitsContainQuery | src/tools/vector_search_tools.py:154-168 | every returned hit names a stored text document whose lowered content contains the lowered query |
| VectorSearchTools.ScanFindsMatches | src/tools/vector_search_tools.py:154-164 | a scan that does not raise includes every stored document that matches |
| VectorSearchTools.SearchFindsStored | src/tools/vector_search_tools.py:147-168 | when nothing raises and the limit covers all documents, every matching document is returned |
| VectorSearchTools.Search | src/tools/vector_search_tools.py:131-145 | with Pinecone on the results are Pinecone's; otherwise the fallback search's |
| VectorSearchTools.AddDocuments | src/tools/vector_search_tools.py:220-229 | adding succeeds iff the dictionary exists, and then every document is stored under its id or fresh uuid; a failure changes nothing |
| VectorSearchTools.DeleteDocuments | src/tools/vector_search_tools.py:247-256 | deletion removes exactly the listed ids and keeps the rest; without a dictionary only an empty list succeeds |
| VectorSearchTools.DocumentCount | src/tools/vector_search_tools.py:258-267 | the count is the number of stored documents, 0 without a dictionary |
| VectorSearchTools.AddThenDelete | src/tools/vector_search_tools.py:220-256 | after adding documents then deleting ids, none of the ids is stored and both calls report success |
| VectorSearchTools.DeleteAbsent | src/tools/vector_search_tools.py:247-256 | deleting ids that are not stored succeeds and leaves the store unchanged |
| VectorSearchTools.CheckedStartFindsAdded | src/tools/vector_search_tools.py:147-226 | with the intended start-up, a document just added whose content contains the query is found |
| VectorSearchTools.HexDigest | src/tools/vector_search_tools.py:272-273 | a digest of n bytes renders as 2n lower-case hexadecimal digits |
| VectorSearchTools.PairsRecoverBytes | src/tools/vector_search_tools.py:276-278 | reading the hexadecimal digest two digits at a time gives back the digest bytes |
| VectorSearchTools.Pad128 | src/tools/vector_search_tools.py:277-282 | the embedding has exactly 128 values in [0, 1], zero past the digest |
| VectorSearchTools.HashEmbeddingIsDigest | src/tools/vector_search_tools.py:269-282 | the hash embedding is each digest byte over 255, then zeros up to 128 |
| VectorSearchTools.EmbedQuery | src/tools/vector_search_tools.py:284-299 | the backend's vector when it produced one, otherwise (and always on the fallback backend) the hash embedding; on the fallback backend the query vector has 128 values in [0, 1] |
| VectorSearchTools.HashEmbedding | src/tools/vector_search_tools.py:269-282 | the fallback embedding has 128 values, each in [0, 1] |
| VectorSearchTools.HexRoundTrip | src/tools/vector_search_tools.py:277-278 | each hexadecimal digit of the digest reads back as its value |

## Left out

- Language-model calls (planner and intent JSON, critiques, refinements, generation, streaming) are oracle parameters that return text or a failure. `generate_stream` and the dict-form message path used when no LangChain model loads are not modelled.
- Vector stores and rerankers (Pinecone, Chroma, Voyage, SentenceTransformer, CrossEncoder): search hits and rerank scores are inputs. The retrieval engine's lazy construction of these clients is not modelled.
- Persistence and network I/O: LangGraph compilation and checkpointing, SQLAlchemy storage, Redis, file and HTTP downloads, and the NILE/MOHW/KICCE clients. Every service is modelled in its in-memory mode. Database outcomes appear only as a success-or-failure input where the source falls back on failure.
- Concurrency: `asyncio.gather` fan-out is modelled as sequential branches, each with its own success-or-failure input.
- Floating point: Python floats are exact `real`s. `round`, numpy statistics, and the average and standard-deviation values in reports are not modelled.
- Hashes, tokens and randomness: md5, sha256, bcrypt, JWT signatures, `uuid` and `random` are parameters. This includes the prompt A/B draw in the prompt templates and the probabilistic cleanup trigger in the rate limiter. Fresh ids are a precondition where uniqueness matters.
- Regular expressions and date parsing are parameters or simplified predicates:
  - the text cleaning in the document processor and the data collection agent, and URL and date validation;
  - the PII masking patterns, the follower and description patterns of the HTTP-fetch server, and `_parse_date`.
  - `\w` is approximated by ASCII letters, digits, `_` and Hangul syllables.
- Wall-clock time is an explicit `now` (whole seconds) for the cache, rate limiter, circuit breaker, history, audit log and monitors.
- Python `set` iteration order is a parameter (competency agent) or first-occurrence order (data-collection tags).
- Strings have no Unicode case folding beyond ASCII and no encoding.
- DocumentProcessor: OCR, the md5 document id, metadata timestamps, batch processing and index creation are not modelled.
- DataCollectionAgent: keyword extraction, the storage back ends, pydantic field coercion, the HTTP/XML API clients with their endpoint mappings, and the `pre_execute`/`post_execute` hooks are not modelled.
- CompetencyAgent: the retention policy and report timestamps are not modelled.
- AuthService: the Redis blacklist (TTL and jti) and e-mail address syntax are not modelled. `verify_token` does not check the token's type claim, so a refresh token verifies as an access token with no permissions; this is modelled as written.
- McpServer: the HTTP app endpoints and `run_http` are not modelled. Tool arguments are a string-keyed map, so type errors from `handler(**arguments)` are not modelled.
- VectorSearchServer: `get_search_stats` passes through a store call and is left out. `find_similar_creators` with a limit of 0 or less still returns one item, and the model keeps that behaviour.
- HttpFetchServer: the "x.com" test is a plain substring test, so hosts such as box.com read as twitter. This is modelled as written (`HttpFetchServer.BoxHostReadsAsTwitter`).
- ABTesting: an experiment with no variants raises IndexError in `_assign_variant`; the model returns None there.
- MetricsCollector: the psutil readings are inputs.
- Observability, FastAPI routes, application start-up, Celery tasks, thin library wrappers and data-only schema files carry no decision logic of their own and are not part of this model.
- The scripts other than `scripts/rag_eval.py` drive live services and are not part of this model.
- PyScalars.ToInt: the text is read exactly. Rounding to a 53-bit float is not modelled, so very long digit strings convert to their exact value rather than the nearest float's. Overflow to infinity beyond about 1.8e308, where `int()` raises and the default is returned, is not modelled either. The spellings "inf", "nan" and "infinity" are covered: they give the default, as the source's `int()` raises on them.
- PyFloat.ToFloat: the text is read exactly, without rounding to a 53-bit float. The spellings "inf", "nan" and "infinity", which `float` accepts, have no `real` value and are read as raising.
- CreatorOnboarding.ReadSignals: inherits both limits of `PyFloat.ToFloat` for the brand fit, so a brand fit of "inf" or "nan" is modelled as making the evaluation raise, although the source goes on with an infinite or undefined fit.
- CreatorOnboarding.Recommendation: the two-decimal rendering of the mean similarity (`:.2f`) is a parameter, because it rounds the binary float value, and binary floats are not modelled.
- RagPipeline.ProcessQuery: the outer exception handler, which answers with success false, no response and the error text when a step raises, is not modelled. Every collaborator is total, so the model always produces an answer. The generator is given only the routing; the prompt it would receive is modelled on its own as `PipelinePrompt.CreatePrompt`.
- RetrievalCache.HybridSearchCachedAsWritten: only the keyword cache's entry is followed. The vector store's own `vec::` entries (src/rag/retrieval_engine.py:222-224, :269) also share their hits with the merge and drift the same way, but vector hits are an input here. The extra fields the merge and the rerank add to each hit (`vector_score`, `keyword_score`, `graph_score`, `rerank_score`) are not modelled.
- MainOrchestrator.Run: the graph's LLM-backed worker nodes (competency, recommendation, search, analytics, data collection, LLM manager) are modelled only by the state fields the guards read. Their outputs are oracle results.

## Findings

| source | as written | input that shows it | evidently intended | confidence | as-written member | corrected member |
|---|---|---|---|---|---|---|
| src/graphs/main_orchestrator.py:353-383 | the planner may set `workflow_type` to "replan"; the tool-enrichment router then returns it and the edge map sends the run to `replan_request` without spending budget, and the node sends it back, until LangGraph's recursion limit (25 steps by default) raises | a plan whose workflow is "replan" with an unchanged state | every edge into the replan node spends one unit of the replan budget, so every run ends | not executed | MainOrchestrator.ReplanWorkflowCycles | MainOrchestrator.RunFromStartIsBounded |
| src/graphs/main_orchestrator.py:1521-1522 | the data-collection group lists the keyword "API" in upper case, but the message is lower-cased before the test, so it never matches | the message "api" | a message naming an API is a data-collection request | not executed | Routing.ApiMessageIsGeneralChat | Routing.IntendedApiIsDataCollection |
| src/agents/orchestrator.py:783 | parts are joined by the four characters backslash, n, backslash, n | two non-empty parts "a" and "b" | parts separated by a blank line | not executed | LegacyOrchestrator.TwoPartsShowBackslashes | LegacyOrchestrator.Synthesize |
| src/agents/orchestrator.py:349-355 | `llm_manager` and `mission_recommendation` have no outgoing edge, so a run reaching them never passes through synthesis | a plain greeting, routed to "general" | every worker node leads to final synthesis | not executed | LegacyOrchestrator.PlainMessageGetsNoAnswer | LegacyOrchestrator.CompletedRunsAnswer |
| src/graphs/main_orchestrator.py:334-413 | `mission_recommendation` is reachable through the "mission" edge but has no outgoing edge, so the run never reaches `final_synthesis` and `run()` answers with the last message already present, the user's own | a message the intent model reads as mission matching (`workflow_type = "mission"`, :453-454) | the mission node, like the other workers, leads to final synthesis; `run()` also returns `mission_recommendations` (:1384), so callers may read the result from there and the missing edge may be deliberate | not executed | MainOrchestrator.MissionRunHalts | MainOrchestrator.MissionRunAnswers |
| src/tools/llm_tools.py:82-104 | the "cost" criterion starts the best score at 0.0 and keeps the lowest cost, so no model ever beats it | any statistics with positive costs | the model with the lowest average cost wins | not executed | LlmTools.CostCriterionNeverWins | LlmTools.CheapestModelWins |
| src/rag/document_processor.py:129-149 | once a window reaches the end of the text, the next start is the end minus the overlap, which is still inside the text, so the loop never exits | any text longer than max_chunk_size with chunk_overlap > 0 | the loop stops once a window reaches the end of the text | not executed | DocumentProcessor.LoopNeverExits | DocumentProcessor.ChunksAreGood |
| src/rag/retrieval_engine.py:446-449 | without a reranker the merged results are sliced in merge order, not by score | two hits where the later one has the higher fused score and top_k = 1 | the top_k highest-scoring results | not executed | RetrievalEngine.HybridSliceUnsorted | RetrievalEngine.HybridSearchSortsThem |
| src/rag/retrieval_engine.py:339-341 | the keyword cache hands out a copy of its list but not of its hits, and the merge (:612) and the rerank (:487) overwrite their scores, so a later search reads the fused score as the keyword score | fallback mode, one document "alpha beta gamma delta" (keyword score 0.2 for "alpha", graph score 1.0), default weights, no reranker: repeated hybrid searches for "alpha" return 0.5, then 0.8 | repeated searches return the same scores | not executed | RetrievalCache.WrittenScoresDrift | RetrievalCache.CachedSearchRepeats |
| src/rag/retrieval_engine.py:164 | the raw hashtag pattern's class holds a backslash and the letter w instead of word characters | "#ab" | hashtags of word characters are found | not executed | RetrievalEngine.HashtagMissed | RetrievalEngine.FindHashtags |
| src/rag/retrieval_engine.py:168 | the raw split pattern's character class closes early, so whitespace and punctuation do not split the text | "a b" | the text splits into words at whitespace and punctuation | not executed | RetrievalEngine.TextNotTokenised | RetrievalEngine.ExtractedTokensAreWords |
| src/rag/retrieval_engine.py:180 | the raw pattern `\\d+` matches a backslash followed by d's, so plain numbers are not filtered out | "42" | all-digit tokens are dropped | not executed | RetrievalEngine.NumberTokenKept | RetrievalEngine.ExtractTags |
| src/tools/competency_tools.py:87-139 | with numpy, `not features` on an n-by-1 array raises for two or more responses, and the analysis reports failure | two responses | the numpy path scores the responses like the pure-Python path | not executed | CompetencyTools.NumpyAnalysisFails | CompetencyTools.Analyze |
| src/agents/data_collection_agent/__init__.py:649-679 | the `'response' in data` and `'items' in data` tests run before the list test, so a list holding the string "items" is returned unwrapped | the list ["items"] | a bare list is wrapped as items with its length as count | not executed | DataCollectionAgent.ListWithKeyWord | DataCollectionAgent.NormalizeResponseChecked |
| src/agents/data_collection_agent/__init__.py:1195-1198 | an invalid URL is meant only to warn, but slicing a non-string URL raises and the item is rejected | an item whose url is the number 42 | a bad URL only adds a warning | not executed | DataCollectionAgent.NumericUrlRejected | DataCollectionAgent.Validate |
| src/tools/vector_search_tools.py:79-98 | the Voyage branch sets the backend and then falls through to the reset, so Voyage is never selected | Voyage configured and available | a configured Voyage client is used | not executed | VectorSearchTools.VoyageNeverSelected | VectorSearchTools.ChosenBackend |
| src/tools/vector_search_tools.py:116-129 | the `documents` dictionary is created only when initialisation raises, so a normally started tool without a collection cannot store or find anything | a normal start, one added document, a search for its content | the fallback store exists after every start | not executed | VectorSearchTools.NormalStartNeverStores | VectorSearchTools.CheckedStartFindsAdded |
| src/services/creator_history/service.py:477-481 | in database mode the history query reads the in-memory list, which is never created there, and raises | any history query with a database | the database result, or the in-memory result when memory mode is used | not executed | CreatorHistory.DatabaseHistoryRaises | CreatorHistory.CheckedAgreesInMemory |
| src/services/audit/service.py:359-361 | a failed database query falls back to the in-memory query, whose list exists in database mode only after a failed write | a database query failure with no earlier write failure | the fallback answers from whatever memory holds | not executed | AuditService.DatabaseFallbackRaises | AuditService.CheckedAgrees |
| src/services/auth/service.py:210-230 | refresh blacklists the old refresh token but never checks the blacklist, so the same token refreshes again | one refresh token used twice | a refresh token is accepted once | not executed | AuthService.RefreshReplayAccepted | AuthService.CheckedRefreshSingleUse |
| src/mcp/servers/base_server.py:207-214 | a JSON line that is not an object raises at `data.get`, outside the parse-error handler, and the loop ends | the line `[]` followed by a valid request | an Invalid Request error (-32600, section 5.1 of the JSON-RPC 2.0 Specification) and the loop continues | not executed | McpServer.NonObjectStopsLoop | McpServer.CheckedAnswersAfterNonObject |
| src/mcp/servers/vector_search_server.py:259-269 | after a hybrid search the keyword weight is set to one minus the vector weight, not back to its saved value | weights 0.5 and 0.3 | both weights are restored to their saved values | not executed | VectorSearchServer.KeywordWeightNotRestored | VectorSearchServer.RestoringAgreesIffComplementary |

=== FILE: agents_analytics_agent.dfy ===
/**
 The learning analytics agent: metrics for learning progress, engagement or
 performance (from the database rows or the sample fallback), a summary
 figure per report type, threshold-driven insights and recommendations, and
 the external sources attached from the request context.
 */
module AnalyticsAgent {
  import opened Common

  /** The metrics dictionary; a field is `None` when the key is absent. */
  datatype Metrics = Metrics(
    completionRate: Option<real>,
    avgScore: Option<real>,
    timeSpentHours: Option<real>,
    modulesCompleted: Option<int>,
    modulesTotal: Option<int>,
    streakDays: Option<int>,
    loginFrequency: Option<real>,
    avgSessionDuration: Option<real>,
    interactionCount: Option<real>,
    participationRate: Option<real>,
    testScores: Option<seq<real>>,
    avgTestScore: Option<real>,
    improvementRate: Option<real>,
    skillLevels: Option<seq<(string, real)>>)

  const NoMetrics := Metrics(None, None, None, None, None, None, None, None, None, None, None, None, None, None)

  /** `_get_sample_learning_metrics`. */
  const SampleLearning := NoMetrics.(completionRate := Some(75.5), avgScore := Some(82.3), timeSpentHours := Some(24.5),
    modulesCompleted := Some(15), modulesTotal := Some(20), streakDays := Some(7))

  /** `_get_sample_engagement_metrics`. */
  const SampleEngagement := NoMetrics.(loginFrequency := Some(5.2), avgSessionDuration := Some(45.3),
    interactionCount := Some(124.0), participationRate := Some(85.0))

  /** `_get_sample_performance_metrics`. */
  const SamplePerformance := NoMetrics.(testScores := Some([78.0, 82.0, 85.0, 88.0, 90.0]), avgTestScore := Some(84.6),
    improvementRate := Some(15.4), skillLevels := Some([("기본", 95.0), ("중급", 80.0), ("고급", 65.0)]))

  /* ------------------------------------------------------------ data rows */

  /** The learning aggregate row: activity count, completed count, mean score, minutes spent. */
  datatype LearningRow = LearningRow(total: int, completed: int, avgScore: real, totalMinutes: real)

  /**
   `get_learning_metrics`: the sample when there is no database or no
   activity, otherwise the completion percentage and hours from the row.
   */
  function LearningMetrics(row: Option<LearningRow>, streak: int): (m: Metrics)
    ensures row.None? || row.value.total <= 0 ==> m == SampleLearning
    ensures row.Some? && 0 <= row.value.completed <= row.value.total && row.value.total > 0
            ==> m.completionRate.Some? && 0.0 <= m.completionRate.value <= 100.0 && m.modulesTotal == Some(row.value.total)
  {
    match row
    case None => SampleLearning
    case Some(r) =>
      if r.total <= 0 then SampleLearning
      else
        NoMetrics.(completionRate := Some(r.completed as real / r.total as real * 100.0), avgScore := Some(r.avgScore),
          timeSpentHours := Some(r.totalMinutes / 60.0), modulesCompleted := Some(r.completed), modulesTotal := Some(r.total),
          streakDays := Some(streak))
  }

  /** The session aggregate row: session count, mean duration, interactions, days in the date range. */
  datatype EngagementRow = EngagementRow(sessions: int, avgDuration: real, interactions: real, daysInRange: int)

  /** `get_engagement_metrics`: logins per week and participation as logins per five a week, capped at 100. */
  function EngagementMetrics(row: Option<EngagementRow>): (m: Metrics)
    ensures row.None? || row.value.sessions <= 0 ==> m == SampleEngagement
    ensures row.Some? && row.value.sessions > 0 ==>
      m.participationRate.Some? && 0.0 <= m.participationRate.value <= 100.0
      && m.loginFrequency.Some? && m.loginFrequency.value > 0.0
  {
    match row
    case None => SampleEngagement
    case Some(r) =>
      if r.sessions <= 0 then SampleEngagement
      else
        var days := if r.daysInRange != 0 then r.daysInRange else 1;
        var weeks := MaxR(days as real / 7.0, 1.0);
        var login := r.sessions as real / weeks;
        NoMetrics.(loginFrequency := Some(login), avgSessionDuration := Some(r.avgDuration),
          interactionCount := Some(r.interactions), participationRate := Some(MinR(login / 5.0 * 100.0, 100.0)))
  }

  /** One test result: the score and its skill category (a missing or empty one becomes "기타"). */
  datatype TestRow = TestRow(score: int, category: Option<string>)

  function Category(r: TestRow): string {
    if r.category.Some? && r.category.value != "" then r.category.value else "기타"
  }

  /** The test for rows of category `c`. */
  function InCategory(c: string): TestRow -> bool {
    (r: TestRow) => Category(r) == c
  }

  /** The scores of one category, in row order. */
  function ScoresIn(rows: seq<TestRow>, c: string): (s: seq<int>)
    ensures |s| <= |rows|
    ensures s != [] <==> exists i :: 0 <= i < |rows| && Category(rows[i]) == c
    ensures forall x :: x in s <==> exists i :: 0 <= i < |rows| && Category(rows[i]) == c && rows[i].score == x
  {
    if rows == [] then []
    else
      var rest := ScoresIn(rows[1..], c);
      assert forall i :: 1 <= i < |rows| ==> rows[i] == rows[1..][i - 1];
      (if Category(rows[0]) == c then [rows[0].score] else []) + rest
  }

  /** The scores of a category are the scores of its rows, each as often as it occurs, in row order. */
  lemma {:induction false} ScoresInFiltered(rows: seq<TestRow>, c: string)
    ensures ScoresIn(rows, c) == Scores(Filter(InCategory(c), rows))
    decreases |rows|
  {
    if rows != [] {
      ScoresInFiltered(rows[1..], c);
      var f := Filter(InCategory(c), rows[1..]);
      if Category(rows[0]) == c {
        assert Scores([rows[0]] + f) == [rows[0].score] + Scores(f);
      }
    }
  }

  /** The category of every row, in row order. */
  function RowCategories(rows: seq<TestRow>): (cs: seq<string>)
    ensures |cs| == |rows|
    ensures forall i :: 0 <= i < |rows| ==> cs[i] == Category(rows[i])
  {
    if rows == [] then [] else [Category(rows[0])] + RowCategories(rows[1..])
  }

  /** A category as its own key, for the first-occurrence loop. */
  function Itself(c: string): string {
    c
  }

  /** The categories in order of first appearance. */
  function Categories(rows: seq<TestRow>, seen: seq<string>): (cs: seq<string>)
    requires NoDuplicates(seen)
    ensures NoDuplicates(cs)
    ensures forall c :: c in cs <==> c in seen || c in RowCategories(rows)
  {
    if rows == [] then seen
    else
      var c := Category(rows[0]);
      var next := if c in seen then seen else seen + [c];
      assert RowCategories(rows) == [c] + RowCategories(rows[1..]);
      Categories(rows[1..], next)
  }

  /** The categories are `seen` followed by each row category not yet taken, at its first appearance. */
  lemma CategoriesInFirstOrder(rows: seq<TestRow>, seen: seq<string>)
    requires NoDuplicates(seen)
    ensures Categories(rows, seen) == seen + DedupBy(RowCategories(rows), Itself, set x | x in seen)
  {
    CategoriesDedup(rows, seen, set x | x in seen);
  }

  /** The induction behind `CategoriesInFirstOrder`, with the taken set given alongside `seen`. */
  lemma {:induction false} CategoriesDedup(rows: seq<TestRow>, seen: seq<string>, taken: set<string>)
    requires NoDuplicates(seen) && forall x :: x in taken <==> x in seen
    ensures Categories(rows, seen) == seen + DedupBy(RowCategories(rows), Itself, taken)
    decreases |rows|
  {
    if rows != [] {
      var c := Category(rows[0]);
      var rcs := RowCategories(rows);
      assert rcs[0] == c && rcs[1..] == RowCategories(rows[1..]);
      if c in seen {
        assert Categories(rows, seen) == Categories(rows[1..], seen);
        assert DedupBy(rcs, Itself, taken) == DedupBy(rcs[1..], Itself, taken);
        CategoriesDedup(rows[1..], seen, taken);
      } else {
        assert Categories(rows, seen) == Categories(rows[1..], seen + [c]);
        var d := DedupBy(rcs[1..], Itself, taken + {c});
        assert DedupBy(rcs, Itself, taken) == [c] + d;
        AppendFresh(seen, c);
        CategoriesDedup(rows[1..], seen + [c], taken + {c});
        AppendAssoc(seen, [c], d);
      }
    }
  }

  /** Appending a category not yet seen keeps the list free of duplicates. */
  lemma AppendFresh(seen: seq<string>, c: string)
    requires NoDuplicates(seen) && c !in seen
    ensures NoDuplicates(seen + [c])
  {
  }

  /** The mean of the scores (every category has at least one, so the empty case never arises). */
  function Mean(s: seq<int>): (r: real)
    ensures s != [] ==> r * |s| as real == Sum(s) as real
  {
    if s == [] then 0.0 else Sum(s) as real / |s| as real
  }

  function SkillAverages(rows: seq<TestRow>, cs: seq<string>): (r: seq<(string, real)>)
    ensures |r| == |cs|
    ensures forall i :: 0 <= i < |r| ==> r[i].0 == cs[i] && r[i].1 == Mean(ScoresIn(rows, cs[i]))
  {
    if cs == [] then [] else [(cs[0], Mean(ScoresIn(rows, cs[0])))] + SkillAverages(rows, cs[1..])
  }

  function Scores(rows: seq<TestRow>): (s: seq<int>)
    ensures |s| == |rows|
    ensures forall i :: 0 <= i < |s| ==> s[i] == rows[i].score
  {
    if rows == [] then [] else [rows[0].score] + Scores(rows[1..])
  }

  function AsReals(s: seq<int>): (r: seq<real>)
    ensures |r| == |s|
    ensures forall i :: 0 <= i < |r| ==> r[i] == s[i] as real
  {
    if s == [] then [] else [s[0] as real] + AsReals(s[1..])
  }

  /**
   `get_performance_metrics`: the sample without rows, otherwise the last five
   scores, the mean, the improvement from first to last relative to the first
   (at least 1), and the mean score per category.
   */
  function PerformanceMetrics(rows: Option<seq<TestRow>>): (m: Metrics)
    ensures rows.None? || rows.value == [] ==> m == SamplePerformance
    ensures rows.Some? && rows.value != [] ==> m.testScores.Some? && m.avgTestScore.Some? && m.skillLevels.Some?
  {
    match rows
    case None => SamplePerformance
    case Some(rs) =>
      if rs == [] then SamplePerformance
      else
        var scores := Scores(rs);
        var improvement := if |scores| >= 2 then scores[|scores| - 1] - scores[0] else 0;
        var cs := Categories(rs, []);
        NoMetrics.(testScores := Some(AsReals(TakeLast(scores, 5))), avgTestScore := Some(Mean(scores)),
          improvementRate := Some(improvement as real / Max(scores[0], 1) as real * 100.0),
          skillLevels := Some(SkillAverages(rs, cs)))
  }

  /** The fields the rows determine. */
  lemma PerformanceFields(rs: seq<TestRow>)
    requires rs != []
    ensures var m := PerformanceMetrics(Some(rs));
      m.testScores == Some(AsReals(TakeLast(Scores(rs), 5))) && m.avgTestScore == Some(Mean(Scores(rs)))
      && m.skillLevels == Some(SkillAverages(rs, Categories(rs, [])))
  {
  }

  /** The reported scores are the last five, the newest last. */
  lemma {:induction false} PerformanceFromRows(rs: seq<TestRow>)
    requires rs != []
    ensures var ts := AsReals(TakeLast(Scores(rs), 5));
      |ts| == Min(5, |rs|) && ts[|ts| - 1] == rs[|rs| - 1].score as real
  {
    var scores := Scores(rs);
    var last := TakeLast(scores, 5);
    assert last[|last| - 1] == scores[|scores| - 1];
  }

  /** The category names of a list of skill levels, in order. */
  function Names(levels: seq<(string, real)>): (ns: seq<string>)
    ensures |ns| == |levels|
    ensures forall i :: 0 <= i < |levels| ==> ns[i] == levels[i].0
  {
    if levels == [] then [] else [levels[0].0] + Names(levels[1..])
  }

  /**
   The reported skill levels name exactly the categories of the rows, each
   once, and each carries the mean of its own category's scores.
   */
  lemma {:induction false} SkillLevelsPerCategory(rs: seq<TestRow>)
    ensures var levels := SkillAverages(rs, Categories(rs, []));
      (forall c :: c in Names(levels) <==> c in RowCategories(rs))
      && NoDuplicates(Names(levels))
      && (forall i :: 0 <= i < |levels| ==> levels[i].1 == Mean(ScoresIn(rs, levels[i].0)))
  {
    var cs := Categories(rs, []);
    var levels := SkillAverages(rs, cs);
    var ns := Names(levels);
    assert ns == cs;
  }

  /** Every row's category is among the reported skill levels. */
  lemma {:induction false} EveryRowHasSkillLevel(rs: seq<TestRow>, r: TestRow)
    requires r in rs
    ensures Category(r) in Names(SkillAverages(rs, Categories(rs, [])))
  {
    SkillLevelsPerCategory(rs);
    var k :| 0 <= k < |rs| && rs[k] == r;
    assert RowCategories(rs)[k] == Category(r);
  }

  /* ------------------------------------------------------------- streak */

  /**
   `_calculate_streak` over the distinct activity days (as day numbers,
   newest first): the count of leading days that are today, yesterday and so
   on, stopping at the first gap.
   */
  method CalculateStreak(days: seq<int>, today: int) returns (streak: nat)
    ensures streak <= |days|
    ensures forall i :: 0 <= i < streak ==> days[i] == today - i
    ensures streak < |days| ==> days[streak] != today - streak
  {
    streak := 0;
    var i := 0;
    while i < |days|
      invariant 0 <= i <= |days| && streak == i
      invariant forall k :: 0 <= k < i ==> days[k] == today - k
    {
      if days[i] == today - i {
        streak := streak + 1;
      } else {
        return;
      }
      i := i + 1;
    }
  }

  /* ------------------------------------------------------------ summaries */

  datatype Trend = Excellent | Good | Moderate | NeedsImprovement

  /** `_calculate_trend` on the completion rate (0 when absent). */
  function TrendOf(m: Metrics): (t: Trend)
    ensures var c := m.completionRate.GetOr(0.0);
      (t == Excellent <==> c >= 80.0) && (t == NeedsImprovement <==> c < 40.0)
      && (t == Good <==> 60.0 <= c < 80.0)
  {
    var c := m.completionRate.GetOr(0.0);
    if c >= 80.0 then Excellent else if c >= 60.0 then Good else if c >= 40.0 then Moderate else NeedsImprovement
  }

  /** `_calculate_engagement_score` (the rounding to two decimals is not modelled). */
  function EngagementScore(m: Metrics): (s: real)
  {
    var login := MinR(m.loginFrequency.GetOr(0.0) / 7.0, 1.0);
    var participation := m.participationRate.GetOr(0.0) / 100.0;
    var interaction := MinR(m.interactionCount.GetOr(0.0) / 100.0, 1.0);
    (login * 0.3 + participation * 0.5 + interaction * 0.2) * 100.0
  }

  /** With non-negative counts and a participation rate in [0, 100] the engagement score lies in [0, 100]. */
  lemma EngagementScoreBounds(m: Metrics)
    requires m.loginFrequency.GetOr(0.0) >= 0.0 && m.interactionCount.GetOr(0.0) >= 0.0
    requires 0.0 <= m.participationRate.GetOr(0.0) <= 100.0
    ensures 0.0 <= EngagementScore(m) <= 100.0
  {
  }

  /** The engagement the database rows give always scores within [0, 100]. */
  lemma DatabaseEngagementScoreBounds(row: EngagementRow)
    requires row.interactions >= 0.0
    ensures 0.0 <= EngagementScore(EngagementMetrics(Some(row))) <= 100.0
  {
    var m := EngagementMetrics(Some(row));
    if row.sessions > 0 {
      assert m.loginFrequency.value > 0.0;
    }
    EngagementScoreBounds(m);
  }

  datatype Grade = GradeA | GradeB | GradeC | GradeD | GradeF

  /** `_calculate_performance_grade` on the mean test score (0 when absent). */
  function GradeOf(m: Metrics): (g: Grade)
    ensures var s := m.avgTestScore.GetOr(0.0);
      (g == GradeA <==> s >= 90.0) && (g == GradeF <==> s < 60.0)
      && (g == GradeB <==> 80.0 <= s < 90.0) && (g == GradeC <==> 70.0 <= s < 80.0)
  {
    var s := m.avgTestScore.GetOr(0.0);
    if s >= 90.0 then GradeA else if s >= 80.0 then GradeB else if s >= 70.0 then GradeC else if s >= 60.0 then GradeD else GradeF
  }

  /* ---------------------------------------------------- insights and advice */

  datatype Insight =
    | ProgressExcellent | ProgressGood | ProgressSlow
    | ScoresRising(delta: real) | ScoresFalling
    | HighParticipation | LowParticipation
    | ExternalSources(count: nat) | YoutubeChannel(title: string)
  {
    predicate IsProgress() { ProgressExcellent? || ProgressGood? || ProgressSlow? }
  }

  function ProgressInsight(m: Metrics): (r: seq<Insight>) {
    match m.completionRate
    case None => []
    case Some(rate) => if rate >= 80.0 then [ProgressExcellent] else if rate >= 60.0 then [ProgressGood] else [ProgressSlow]
  }

  function ScoreInsight(m: Metrics): (r: seq<Insight>) {
    match m.testScores
    case None => []
    case Some(s) =>
      if |s| < 2 then []
      else if s[|s| - 1] - s[0] > 0.0 then [ScoresRising(s[|s| - 1] - s[0])]
      else if s[|s| - 1] - s[0] < 0.0 then [ScoresFalling]
      else []
  }

  function ParticipationInsight(m: Metrics): (r: seq<Insight>) {
    match m.participationRate
    case None => []
    case Some(rate) => if rate >= 80.0 then [HighParticipation] else if rate < 50.0 then [LowParticipation] else []
  }

  /** `_generate_insights`: progress, then test-score trend, then participation. */
  function Insights(m: Metrics): (r: seq<Insight>)
  {
    ProgressInsight(m) + ScoreInsight(m) + ParticipationInsight(m)
  }

  /**
   One progress insight exactly when a completion rate is known, chosen by
   the 80 / 60 bands; a score trend only with two or more scores.
   */
  lemma InsightsBands(m: Metrics)
    ensures var r := Insights(m);
      |r| <= 3
      && (m.completionRate.None? ==> forall x :: x in r ==> !x.IsProgress())
      && (m.completionRate.Some? ==> r[0].IsProgress() && forall i :: 1 <= i < |r| ==> !r[i].IsProgress())
      && (m.completionRate.Some? ==> (r[0] == ProgressExcellent <==> m.completionRate.value >= 80.0))
      && (m.completionRate.Some? ==> (r[0] == ProgressSlow <==> m.completionRate.value < 60.0))
      && ((exists x :: x in r && (x.ScoresRising? || x.ScoresFalling?)) ==> m.testScores.Some? && |m.testScores.value| >= 2)
      && (HighParticipation in r <==> m.participationRate.Some? && m.participationRate.value >= 80.0)
      && (LowParticipation in r <==> m.participationRate.Some? && m.participationRate.value < 50.0)
  {
    var p := ProgressInsight(m);
    var s := ScoreInsight(m);
    var q := ParticipationInsight(m);
    assert Insights(m) == p + s + q;
    assert forall x :: x in Insights(m) <==> x in p || x in s || x in q;
  }

  datatype Advice = MoreStudyTime | ReviewBasics | RegularHabit | Strengthen(skills: seq<string>)

  /** The skills below 70, in their listed order. */
  function WeakSkills(levels: seq<(string, real)>): (r: seq<string>)
    ensures forall s :: s in r <==> exists l :: (s, l) in levels && l < 70.0
  {
    if levels == [] then []
    else
      var rest := WeakSkills(levels[1..]);
      assert forall p :: p in levels <==> p == levels[0] || p in levels[1..];
      (if levels[0].1 < 70.0 then [levels[0].0] else []) + rest
  }

  /** `_generate_recommendations`: study time, basics, habit, then the weak skills. */
  function Recommendations(m: Metrics): (r: seq<Advice>)
  {
    (if m.timeSpentHours.Some? && m.timeSpentHours.value < 10.0 then [MoreStudyTime] else [])
    + (if m.avgTestScore.Some? && m.avgTestScore.value < 70.0 then [ReviewBasics] else [])
    + (if m.loginFrequency.Some? && m.loginFrequency.value < 3.0 then [RegularHabit] else [])
    + (if m.skillLevels.Some? && WeakSkills(m.skillLevels.value) != [] then [Strengthen(WeakSkills(m.skillLevels.value))] else [])
  }

  /** Each piece of advice appears exactly when its threshold is crossed; the weak-skill one names exactly the skills below 70. */
  lemma RecommendationsThresholds(m: Metrics)
    ensures var r := Recommendations(m);
      |r| <= 4
      && (MoreStudyTime in r <==> m.timeSpentHours.Some? && m.timeSpentHours.value < 10.0)
      && (ReviewBasics in r <==> m.avgTestScore.Some? && m.avgTestScore.value < 70.0)
      && (RegularHabit in r <==> m.loginFrequency.Some? && m.loginFrequency.value < 3.0)
      && (forall a :: a in r && a.Strengthen? ==>
            a.skills != [] && m.skillLevels.Some?
            && forall s :: s in a.skills <==> exists l :: (s, l) in m.skillLevels.value && l < 70.0)
  {
  }

  /** The sample performance metrics advise strengthening the one skill below 70. */
  lemma SamplePerformanceAdvice()
    ensures Recommendations(SamplePerformance) == [Strengthen(["고급"])]
    ensures Insights(SamplePerformance) == [ScoresRising(12.0)]
  {
    var levels := SamplePerformance.skillLevels.value;
    assert WeakSkills(levels[2..]) == ["고급"];
    assert WeakSkills(levels[1..]) == ["고급"];
    assert WeakSkills(levels) == ["고급"];
  }

  /* --------------------------------------------------------------- execute */

  datatype ReportType = LearningProgress | Engagement | Performance

  /** A missing or unknown report type is treated as learning progress. */
  function ParseReportType(s: Option<string>): (t: ReportType)
    ensures t == Engagement <==> s == Some("engagement")
    ensures t == Performance <==> s == Some("performance")
  {
    if s == Some("engagement") then Engagement else if s == Some("performance") then Performance else LearningProgress
  }

  /** The summary figure of each analysis. */
  datatype Summary = TrendSummary(trend: Trend) | EngagementSummary(score: real) | GradeSummary(grade: Grade)

  /** A snippet of external context: a dictionary naming its site or url, or something else. */
  datatype Snippet = SiteSnippet(site: string) | OtherSnippet

  /** The request context of `_merge_external_enrichment`, direct keys first, then the MCP enrichment. */
  datatype Enrichment = Enrichment(
    snippets: seq<Snippet>,
    mcpSnippets: seq<Snippet>,
    youtubeTitle: Option<string>,
    mcpYoutubeTitle: Option<string>)

  /** The number of dictionary snippets. */
  function CountSites(s: seq<Snippet>): (n: nat)
    ensures n <= |s|
    ensures n == 0 <==> forall x :: x in s ==> !x.SiteSnippet?
  {
    if s == [] then 0 else (if s[0].SiteSnippet? then 1 else 0) + CountSites(s[1..])
  }

  /** The insights the external context adds: how many dictionary snippets, and the channel title. */
  function ExternalInsights(e: Enrichment): (r: seq<Insight>)
    ensures |r| <= 2
  {
    var snippets := if e.snippets != [] then e.snippets else e.mcpSnippets;
    var youtube := if e.youtubeTitle.Some? then e.youtubeTitle else e.mcpYoutubeTitle;
    var n := CountSites(snippets);
    (if n > 0 then [ExternalSources(n)] else [])
    + (if youtube.Some? && youtube.value != "" then [YoutubeChannel(youtube.value)] else [])
  }

  /**
   The direct context keys win over the MCP enrichment; a source-count
   insight appears exactly when the chosen snippets hold a dictionary, and a
   channel insight exactly when the chosen channel has a non-empty title.
   */
  lemma ExternalInsightsFromContext(e: Enrichment)
    ensures var r := ExternalInsights(e);
      var snippets := if e.snippets != [] then e.snippets else e.mcpSnippets;
      var youtube := if e.youtubeTitle.Some? then e.youtubeTitle else e.mcpYoutubeTitle;
      (forall n :: ExternalSources(n) in r <==> n == CountSites(snippets) && n > 0)
      && (forall t :: YoutubeChannel(t) in r <==> youtube == Some(t) && t != "")
      && ((exists x :: x in snippets && x.SiteSnippet?) ==> r[0] == ExternalSources(CountSites(snippets)))
  {
  }

  /** What the data provider returns for each report type. */
  datatype Provider = Provider(learning: Metrics, engagement: Metrics, performance: Metrics)

  datatype Analysis = Analysis(reportType: ReportType, metrics: Metrics, summary: Summary, insights: seq<Insight>, advice: seq<Advice>)

  /** `execute`: choose the analysis, then insights, advice and external context. */
  function Execute(reportType: Option<string>, p: Provider, e: Enrichment): (a: Analysis)
  {
    var t := ParseReportType(reportType);
    var m := match t
      case LearningProgress => p.learning
      case Engagement => p.engagement
      case Performance => p.performance;
    var summary := match t
      case LearningProgress => TrendSummary(TrendOf(m))
      case Engagement => EngagementSummary(EngagementScore(m))
      case Performance => GradeSummary(GradeOf(m));
    Analysis(t, m, summary, Insights(m) + ExternalInsights(e), Recommendations(m))
  }

  /** Without a known report type the learning analysis runs; the insights begin with those of the metrics. */
  lemma ExecuteDispatch(reportType: Option<string>, p: Provider, e: Enrichment)
    ensures var a := Execute(reportType, p, e);
      (reportType != Some("engagement") && reportType != Some("performance") ==>
         a.reportType == LearningProgress && a.metrics == p.learning && a.summary == TrendSummary(TrendOf(p.learning)))
      && (reportType == Some("engagement") ==> a.metrics == p.engagement && a.summary.EngagementSummary?)
      && (reportType == Some("performance") ==> a.metrics == p.performance && a.summary == GradeSummary(GradeOf(p.performance)))
      && a.insights[..|Insights(a.metrics)|] == Insights(a.metrics)
      && a.advice == Recommendations(a.metrics)
  {
  }
}

=== FILE: agents_competency_agent.dfy ===
/**
 The competency-diagnosis agent: it normalises and validates the responses,
 scores each competency area by a confidence-weighted mean, marks strengths
 and weaknesses at the upper and lower quartile of the area scores, reads
 the confidence pattern, grades the overall level, and turns the result
 into prioritised learning recommendations with an access level.
 */
module CompetencyAgent {
  import opened Common
  import opened CompetencyModels
  import CompetencyTools

  /* ------------------------------------------------- response preprocessing */

  /** An entry of `state.responses`: a response object, a dictionary, or anything else. */
  datatype ResponseInput = ResponseObject(r: Response) | ResponseDict(a: ResponseArgs) | OtherResponse

  /** Pydantic's `model_validate` on a dictionary: every required field, both identifiers included, must be present. */
  predicate Validates(a: ResponseArgs) {
    a.id.Some? && a.responseId.Some? && a.questionId.Some? && a.userId.Some? && a.answer.Some?
  }

  /**
   The normalisation loop of `_preprocess_data` for one entry: objects are
   kept, a dictionary that validates becomes a response, one that does not
   is patched (empty texts, the identifier taken from the response id, the
   question id, the user id or "resp"), and anything else is skipped.
   */
  function NormalizeResponse(x: ResponseInput): (r: Option<Response>)
    ensures r.None? <==> x.OtherResponse?
  {
    match x
    case OtherResponse => None
    case ResponseObject(r) => Some(r)
    case ResponseDict(a) =>
      if Validates(a) then
        Some(Response(a.id.value, a.responseId.value, a.questionId.value, a.userId.value, a.answer.value,
          a.value, a.time, a.confidence.GetOr(Some(0.5)), None))
      else
        var rid := OrText(a.responseId, OrText(a.id, ""));
        var qid := OrText(a.questionId, "");
        var uid := OrText(a.userId, "");
        var key := OrText(Some(rid), OrText(Some(qid), OrText(Some(uid), "resp")));
        Some(Response(key, key, qid, uid, OrText(a.answer, ""), a.value, a.time, a.confidence.GetOr(Some(0.5)), None))
  }

  /** Whichever path a dictionary takes, the analysis sees its question id (or ""), value, time and confidence. */
  lemma NormalizedDictKeepsAnswer(a: ResponseArgs)
    ensures var r := NormalizeResponse(ResponseDict(a)).value;
      r.questionId == a.questionId.GetOr("") && r.value == a.value && r.time == a.time
      && r.confidence == a.confidence.GetOr(Some(0.5))
  {
  }

  function NormalizeResponses(xs: seq<ResponseInput>): (rs: seq<Response>)
    ensures |rs| <= |xs|
    ensures forall x :: x in xs && !x.OtherResponse? ==> NormalizeResponse(x).value in rs
    ensures forall r :: r in rs ==> exists x :: x in xs && NormalizeResponse(x) == Some(r)
  {
    if xs == [] then []
    else
      var rest := NormalizeResponses(xs[1..]);
      assert forall x :: x in xs <==> x == xs[0] || x in xs[1..];
      match NormalizeResponse(xs[0])
      case None => rest
      case Some(r) => [r] + rest
  }

  /** `_validate_response`: a question id, a value, and no negative response time. */
  predicate ValidResponse(r: Response) {
    r.questionId != "" && r.value.Some? && !(r.time.Some? && r.time.value < 0.0)
  }

  /**
   `_preprocess_data`: normalise, pass through the security tool (which only
   rewrites dictionaries, so the response objects come back unchanged), and
   keep the valid responses in order.
   */
  function Preprocess(xs: seq<ResponseInput>): (rs: seq<Response>)
    ensures forall r :: r in rs ==> ValidResponse(r)
  {
    Filter(ValidResponse, NormalizeResponses(xs))
  }

  /** A response is dropped exactly when its question id is empty, its value missing or its time negative. */
  lemma PreprocessKeepsExactlyValid(xs: seq<ResponseInput>, x: ResponseInput)
    requires x in xs && !x.OtherResponse?
    ensures var r := NormalizeResponse(x).value;
      r in Preprocess(xs) <==> r.questionId != "" && r.value.Some? && !(r.time.Some? && r.time.value < 0.0)
  {
  }

  /* ---------------------------------------------------- question handling */

  /** A question as the analysis reads it: its identifier and competency area. */
  datatype AreaQuestion = AreaQuestion(id: string, area: string)

  /** A question dictionary's keys; `domain` is the raw text. */
  datatype QuestionDict = QuestionDict(id: Option<string>, questionId: Option<string>, text: Option<string>,
                                       domain: Option<string>, area: Option<string>)

  datatype QuestionInput = QuestionObject(q: Question) | QuestionFromDict(d: QuestionDict) | OtherQuestion

  /**
   The question normalisation of `_analyze_competency` for one entry:
   `Some(None)` skips it, `None` is the validation error that aborts the
   analysis (a patched dictionary whose domain is not a known one).
   */
  function NormalizeQuestion(x: QuestionInput): (r: Option<Option<AreaQuestion>>)
    ensures x.OtherQuestion? ==> r == Some(None)
    ensures x.QuestionObject? ==> r == Some(Some(AreaQuestion(x.q.id, x.q.area)))
  {
    match x
    case OtherQuestion => Some(None)
    case QuestionObject(q) => Some(Some(AreaQuestion(q.id, q.area)))
    case QuestionFromDict(d) =>
      if d.id.Some? && d.questionId.Some? && d.text.Some? && d.domain.Some? && ParseDomain(d.domain.value).Some? then
        Some(Some(AreaQuestion(d.id.value, d.area.GetOr("general"))))
      else
        var qid := OrText(d.questionId, OrText(d.id, ""));
        if ParseDomain(OrText(d.domain, "education")).None? then None
        else Some(Some(AreaQuestion(OrText(Some(qid), "q"), OrText(d.area, "general"))))
  }

  function NormalizeQuestions(xs: seq<QuestionInput>): (r: Option<seq<AreaQuestion>>)
    ensures r.None? <==> exists x :: x in xs && NormalizeQuestion(x).None?
  {
    if xs == [] then Some([])
    else
      assert forall x :: x in xs <==> x == xs[0] || x in xs[1..];
      match NormalizeQuestion(xs[0])
      case None => None
      case Some(head) =>
        match NormalizeQuestions(xs[1..])
        case None => None
        case Some(rest) => Some((if head.Some? then [head.value] else []) + rest)
  }

  /* ------------------------------------------------------ area scores */

  /** `{q.id: q.competency_area for q in questions}` read at `id`: the last question with that id wins. */
  function AreaOf(qs: seq<AreaQuestion>, id: string): (a: Option<string>)
    ensures a.None? <==> forall i :: 0 <= i < |qs| ==> qs[i].id != id
    ensures a.Some? ==> exists i :: 0 <= i < |qs| && qs[i].id == id && qs[i].area == a.value
  {
    if qs == [] then None
    else if qs[|qs| - 1].id == id then Some(qs[|qs| - 1].area)
    else AreaOf(qs[..|qs| - 1], id)
  }

  /** The areas of the mapping: those of the questions no later question overrides. */
  function AreaSet(qs: seq<AreaQuestion>): set<string> {
    set i | 0 <= i < |qs| && AreaOf(qs, qs[i].id) == Some(qs[i].area) :: qs[i].area
  }

  /** The responses of one area: their question maps to it. */
  predicate InArea(qs: seq<AreaQuestion>, area: string, r: Response) {
    AreaOf(qs, r.questionId) == Some(area)
  }

  function Weight(r: Response): real { r.confidence.GetOr(0.5) }
  function Value(r: Response): real { r.value.GetOr(0.0) }

  function WeightSum(rs: seq<Response>): real {
    if rs == [] then 0.0 else Weight(rs[0]) + WeightSum(rs[1..])
  }

  function WeightedSum(rs: seq<Response>): real {
    if rs == [] then 0.0 else Value(rs[0]) * Weight(rs[0]) + WeightedSum(rs[1..])
  }

  function ValueSum(rs: seq<Response>): real {
    if rs == [] then 0.0 else Value(rs[0]) + ValueSum(rs[1..])
  }

  /** One area's score: the confidence-weighted mean, or the plain mean when the weights do not sum above 0. */
  function AreaScore(rs: seq<Response>): (s: real)
    requires rs != []
  {
    if WeightSum(rs) > 0.0 then WeightedSum(rs) / WeightSum(rs) else ValueSum(rs) / |rs| as real
  }

  /** Values within [0, 1] and non-negative weights keep the weighted sum between 0 and the weight sum. */
  lemma {:induction false} WeightedSumBounds(rs: seq<Response>)
    requires forall r :: r in rs ==> 0.0 <= Value(r) <= 1.0 && Weight(r) >= 0.0
    ensures 0.0 <= WeightedSum(rs) <= WeightSum(rs)
  {
    if rs != [] {
      assert rs[0] in rs;
      assert forall r :: r in rs[1..] ==> r in rs;
      var v, w := Value(rs[0]), Weight(rs[0]);
      WeightedSumBounds(rs[1..]);
      UnitProduct(v, w);
      assert WeightedSum(rs) == v * w + WeightedSum(rs[1..]);
      assert WeightSum(rs) == w + WeightSum(rs[1..]);
    }
  }

  lemma UnitProduct(v: real, w: real)
    requires 0.0 <= v <= 1.0 && w >= 0.0
    ensures 0.0 <= v * w <= w
  {
    assert w - v * w == (1.0 - v) * w;
  }

  lemma {:induction false} ValueSumBounds(rs: seq<Response>)
    requires forall r :: r in rs ==> 0.0 <= Value(r) <= 1.0
    ensures 0.0 <= ValueSum(rs) <= |rs| as real
  {
    if rs != [] {
      assert rs[0] in rs;
      assert forall r :: r in rs[1..] ==> r in rs;
      ValueSumBounds(rs[1..]);
    }
  }

  lemma DivUnit(s: real, w: real)
    requires w > 0.0 && 0.0 <= s <= w
    ensures 0.0 <= s / w <= 1.0
  {
    var q := s / w;
    assert q * w == s;
    assert (q - 1.0) * w == s - w;
  }

  /** With values in [0, 1] and non-negative confidences, every area score lies in [0, 1]. */
  lemma AreaScoreInUnitRange(rs: seq<Response>)
    requires rs != []
    requires forall r :: r in rs ==> 0.0 <= Value(r) <= 1.0 && Weight(r) >= 0.0
    ensures 0.0 <= AreaScore(rs) <= 1.0
  {
    if WeightSum(rs) > 0.0 {
      WeightedSumBounds(rs);
      DivUnit(WeightedSum(rs), WeightSum(rs));
    } else {
      ValueSumBounds(rs);
      DivUnit(ValueSum(rs), |rs| as real);
    }
  }

  /** Equal confidences make the weighted mean the plain mean. */
  lemma {:induction false} EqualWeightsGivePlainMean(rs: seq<Response>, c: real)
    requires rs != [] && c > 0.0
    requires forall r :: r in rs ==> Weight(r) == c
    ensures AreaScore(rs) == ValueSum(rs) / |rs| as real
  {
    EqualWeightSums(rs, c);
    var n := |rs| as real;
    assert WeightSum(rs) == n * c && WeightedSum(rs) == c * ValueSum(rs);
    assert (c * ValueSum(rs)) / (n * c) == ValueSum(rs) / n;
  }

  lemma EqualWeightSums(rs: seq<Response>, c: real)
    requires forall r :: r in rs ==> Weight(r) == c
    ensures WeightSum(rs) == |rs| as real * c
    ensures WeightedSum(rs) == c * ValueSum(rs)
  {
    EqualWeightCount(rs, c);
    TimesIsProduct(|rs|, c);
    EqualWeightTotal(rs, c);
  }

  lemma {:induction false} EqualWeightCount(rs: seq<Response>, c: real)
    requires forall r :: r in rs ==> Weight(r) == c
    ensures WeightSum(rs) == Times(|rs|, c)
  {
    if rs != [] {
      var tail := rs[1..];
      assert Weight(rs[0]) == c by { assert rs[0] in rs; }
      assert forall r :: r in tail ==> r in rs;
      EqualWeightCount(tail, c);
    }
  }

  /** `n` copies of `c` added up. */
  function Times(n: nat, c: real): real {
    if n == 0 then 0.0 else c + Times(n - 1, c)
  }

  lemma {:induction false} TimesIsProduct(n: nat, c: real)
    ensures Times(n, c) == n as real * c
  {
    if n > 0 {
      TimesIsProduct(n - 1, c);
      assert n as real * c == (n - 1) as real * c + c;
    }
  }

  lemma {:induction false} EqualWeightTotal(rs: seq<Response>, c: real)
    requires forall r :: r in rs ==> Weight(r) == c
    ensures WeightedSum(rs) == c * ValueSum(rs)
  {
    if rs != [] {
      var tail := rs[1..];
      assert Weight(rs[0]) == c by { assert rs[0] in rs; }
      assert forall r :: r in tail ==> r in rs;
      EqualWeightTotal(tail, c);
      var v, rest := Value(rs[0]), ValueSum(tail);
      assert c * (v + rest) == c * v + c * rest;
    }
  }

  /** The responses of one area, in order. */
  function Mine(qs: seq<AreaQuestion>, area: string, rs: seq<Response>): (m: seq<Response>)
    ensures forall r :: r in m <==> r in rs && InArea(qs, area, r)
  {
    Filter((r: Response) => InArea(qs, area, r), rs)
  }

  /** The areas, in the set's iteration order `order`, that have responses. */
  function ScoredAreas(qs: seq<AreaQuestion>, order: seq<string>, rs: seq<Response>): (names: seq<string>)
    ensures forall a :: a in names <==> a in order && Mine(qs, a, rs) != []
  {
    Filter((a: string) => Mine(qs, a, rs) != [], order)
  }

  /**
   `_calculate_competency_scores`: for each area, in the iteration order
   `order` of the set of areas, the score of its responses; an area without
   responses is left out.
   */
  function AreaScores(qs: seq<AreaQuestion>, order: seq<string>, rs: seq<Response>): (scores: seq<(string, real)>)
    ensures |scores| == |ScoredAreas(qs, order, rs)|
    ensures forall i :: 0 <= i < |scores| ==>
      scores[i].0 == ScoredAreas(qs, order, rs)[i] && Mine(qs, scores[i].0, rs) != []
      && scores[i].1 == AreaScore(Mine(qs, scores[i].0, rs))
  {
    var names := ScoredAreas(qs, order, rs);
    assert forall i :: 0 <= i < |names| ==> Mine(qs, names[i], rs) != [] by {
      forall i | 0 <= i < |names| ensures Mine(qs, names[i], rs) != [] {
        assert names[i] in names;
      }
    }
    seq(|names|, i requires 0 <= i < |names| => (names[i], AreaScore(Mine(qs, names[i], rs))))
  }

  /** Each area with responses is scored exactly once, since the set's iteration lists each area once. */
  lemma AreaScoresDistinct(qs: seq<AreaQuestion>, order: seq<string>, rs: seq<Response>)
    requires NoDuplicates(order)
    ensures var s := AreaScores(qs, order, rs);
      (forall i, j :: 0 <= i < j < |s| ==> s[i].0 != s[j].0)
      && (forall a :: a in order && Mine(qs, a, rs) != [] <==> exists i :: 0 <= i < |s| && s[i].0 == a)
  {
    var names := ScoredAreas(qs, order, rs);
    FilterIsSubsequence((a: string) => Mine(qs, a, rs) != [], order);
    SubsequenceNoDuplicates(names, order);
    var s := AreaScores(qs, order, rs);
    forall a | a in order && Mine(qs, a, rs) != []
      ensures exists i :: 0 <= i < |s| && s[i].0 == a
    {
      var i :| 0 <= i < |names| && names[i] == a;
      assert s[i].0 == a;
    }
  }

  /* -------------------------------------------- strengths and weaknesses */

  /** Ascending order: a descending sort on the negated score. */
  function Ascending(xs: seq<real>): (a: seq<real>)
    ensures |a| == |xs|
    ensures forall x :: x in a <==> x in xs
  {
    SortDescMembers(xs, (x: real) => -x);
    SortDesc(xs, (x: real) => -x)
  }

  /** numpy's linear-interpolation percentile at `quarters` / 4 of a non-empty list. */
  function NumpyQuartile(xs: seq<real>, quarters: nat): (t: real)
    requires xs != [] && quarters <= 4
  {
    Interpolated(Ascending(xs), quarters)
  }

  /** The value at fractional index `quarters * (n - 1) / 4` of an ordered list, interpolating between neighbours. */
  function Interpolated(a: seq<real>, quarters: nat): (t: real)
    requires a != [] && quarters <= 4
  {
    var h := quarters * (|a| - 1);
    var lo := h / 4;
    var hi := Min(lo + 1, |a| - 1);
    var frac := (h % 4) as real / 4.0;
    a[lo] + frac * (a[hi] - a[lo])
  }

  /** The pure-Python fallback: the element at index `int(n * quarters / 4)` of the ascending list. */
  function FallbackQuartile(xs: seq<real>, quarters: nat): (t: real)
    requires xs != [] && quarters <= 3
  {
    Ascending(xs)[quarters * |xs| / 4]
  }

  /** Every element of the ascending list lies within bounds that hold of the scores. */
  lemma AscendingBounded(xs: seq<real>, lo: real, hi: real, i: nat)
    requires forall x :: x in xs ==> lo <= x <= hi
    requires i < |xs|
    ensures lo <= Ascending(xs)[i] <= hi
  {
    assert Ascending(xs)[i] in Ascending(xs);
  }

  /** Both quartile rules give a value between two of the scores, so between any bounds of the scores. */
  lemma QuartileBetween(xs: seq<real>, quarters: nat, numpy: bool, lo: real, hi: real)
    requires xs != [] && quarters <= 3
    requires forall x :: x in xs ==> lo <= x <= hi
    ensures lo <= Quartile(xs, quarters, numpy) <= hi
  {
    if numpy {
      NumpyQuartileBetween(xs, quarters, lo, hi);
    } else {
      FallbackIndex(quarters, |xs|);
      AscendingBounded(xs, lo, hi, quarters * |xs| / 4);
    }
  }

  lemma NumpyQuartileBetween(xs: seq<real>, quarters: nat, lo: real, hi: real)
    requires xs != [] && quarters <= 3
    requires forall x :: x in xs ==> lo <= x <= hi
    ensures lo <= NumpyQuartile(xs, quarters) <= hi
  {
    var a := Ascending(xs);
    forall i | 0 <= i < |a|
      ensures lo <= a[i] <= hi
    {
      AscendingBounded(xs, lo, hi, i);
    }
    InterpolatedBetween(a, quarters, lo, hi);
  }

  /** Interpolating between two elements stays within any bounds of the elements. */
  lemma InterpolatedBetween(a: seq<real>, quarters: nat, lo: real, hi: real)
    requires a != [] && quarters <= 4
    requires forall i :: 0 <= i < |a| ==> lo <= a[i] <= hi
    ensures lo <= Interpolated(a, quarters) <= hi
  {
    var h := quarters * (|a| - 1);
    QuarterIndex(quarters, |a|);
    var l := h / 4;
    var u := Min(l + 1, |a| - 1);
    var frac := (h % 4) as real / 4.0;
    Interpolate(a[l], a[u], frac, lo, hi);
  }

  /** The interpolation index `quarters * (n - 1) / 4` stays inside a list of length `n`. */
  lemma QuarterIndex(quarters: nat, n: nat)
    requires quarters <= 4 && n >= 1
    ensures quarters * (n - 1) / 4 <= n - 1
  {
    var m := n - 1;
    assert quarters * m <= 4 * m;
  }

  /** The fallback index `quarters * n / 4` stays inside a list of length `n`. */
  lemma FallbackIndex(quarters: nat, n: nat)
    requires quarters <= 3 && n >= 1
    ensures quarters * n / 4 < n
  {
    assert quarters * n <= 3 * n;
  }

  lemma MulMono(a: real, b: real, w: real)
    requires a <= b && w >= 0.0
    ensures a * w <= b * w
  {
    assert b * w - a * w == (b - a) * w;
  }

  /** A fraction of a non-negative distance lies between 0 and that distance. */
  lemma ScaleBetween(f: real, d: real)
    requires 0.0 <= f <= 1.0 && d >= 0.0
    ensures 0.0 <= f * d <= d
  {
    MulMono(0.0, f, d);
    MulMono(f, 1.0, d);
    assert 0.0 * d == 0.0 && 1.0 * d == d;
  }

  lemma Interpolate(x: real, y: real, f: real, lo: real, hi: real)
    requires lo <= x <= hi && lo <= y <= hi && 0.0 <= f <= 1.0
    ensures lo <= x + f * (y - x) <= hi
  {
    if x <= y {
      var d := y - x;
      ScaleBetween(f, d);
      var e := f * d;
      assert x + f * (y - x) == x + e;
      assert x <= x + e <= y;
    } else {
      var d := x - y;
      ScaleBetween(f, d);
      var e := f * d;
      assert f * (y - x) == -e;
      assert y <= x - e <= x;
    }
  }

  /** The quartile the installed libraries give. */
  function Quartile(xs: seq<real>, quarters: nat, numpy: bool): (t: real)
    requires xs != [] && quarters <= 3
  {
    if numpy then NumpyQuartile(xs, quarters) else FallbackQuartile(xs, quarters)
  }

  function ScoreValues(scores: seq<(string, real)>): (xs: seq<real>)
    ensures |xs| == |scores|
    ensures forall i :: 0 <= i < |scores| ==> xs[i] == scores[i].1
  {
    if scores == [] then [] else [scores[0].1] + ScoreValues(scores[1..])
  }

  function AreasAtLeast(scores: seq<(string, real)>, t: real): (r: seq<string>)
    ensures forall a :: a in r <==> exists p :: p in scores && p.0 == a && p.1 >= t
  {
    if scores == [] then []
    else
      assert forall p :: p in scores <==> p == scores[0] || p in scores[1..];
      (if scores[0].1 >= t then [scores[0].0] else []) + AreasAtLeast(scores[1..], t)
  }

  function AreasAtMost(scores: seq<(string, real)>, t: real): (r: seq<string>)
    ensures forall a :: a in r <==> exists p :: p in scores && p.0 == a && p.1 <= t
  {
    if scores == [] then []
    else
      assert forall p :: p in scores <==> p == scores[0] || p in scores[1..];
      (if scores[0].1 <= t then [scores[0].0] else []) + AreasAtMost(scores[1..], t)
  }

  /**
   `_identify_strengths_weaknesses`: the areas at or above the upper
   quartile and those at or below the lower quartile, in score order.
   */
  function StrengthsWeaknesses(scores: seq<(string, real)>, numpy: bool): (r: (seq<string>, seq<string>))
    ensures scores == [] ==> r == ([], [])
  {
    if scores == [] then ([], [])
    else
      var xs := ScoreValues(scores);
      (AreasAtLeast(scores, Quartile(xs, 3, numpy)), AreasAtMost(scores, Quartile(xs, 1, numpy)))
  }

  /** Under either quartile rule, an area with the greatest score is a strength and one with the least a weakness. */
  lemma ExtremesAreStrengthsAndWeaknesses(scores: seq<(string, real)>, numpy: bool, p: (string, real))
    requires p in scores
    ensures (forall q :: q in scores ==> q.1 <= p.1) ==> p.0 in StrengthsWeaknesses(scores, numpy).0
    ensures (forall q :: q in scores ==> p.1 <= q.1) ==> p.0 in StrengthsWeaknesses(scores, numpy).1
  {
    var xs := ScoreValues(scores);
    assert forall x :: x in xs ==> exists q :: q in scores && q.1 == x by {
      forall x | x in xs ensures exists q :: q in scores && q.1 == x {
        var i :| 0 <= i < |xs| && xs[i] == x;
        assert scores[i] in scores;
      }
    }
    if forall q :: q in scores ==> q.1 <= p.1 {
      QuartileBetweenMax(xs, p.1, numpy);
    }
    if forall q :: q in scores ==> p.1 <= q.1 {
      QuartileBetweenMin(xs, p.1, numpy);
    }
  }

  lemma QuartileBetweenMax(xs: seq<real>, top: real, numpy: bool)
    requires xs != []
    requires forall x :: x in xs ==> x <= top
    ensures Quartile(xs, 3, numpy) <= top
  {
    MinOf(xs);
    QuartileBetween(xs, 3, numpy, Least(xs), top);
  }

  lemma QuartileBetweenMin(xs: seq<real>, bottom: real, numpy: bool)
    requires xs != []
    requires forall x :: x in xs ==> bottom <= x
    ensures bottom <= Quartile(xs, 1, numpy)
  {
    MaxOf(xs);
    QuartileBetween(xs, 1, numpy, bottom, Greatest(xs));
  }

  function Least(xs: seq<real>): real
    requires xs != []
  {
    if |xs| == 1 then xs[0] else MinR(xs[0], Least(xs[1..]))
  }

  function Greatest(xs: seq<real>): real
    requires xs != []
  {
    if |xs| == 1 then xs[0] else MaxR(xs[0], Greatest(xs[1..]))
  }

  lemma {:induction false} MinOf(xs: seq<real>)
    requires xs != []
    ensures forall x :: x in xs ==> Least(xs) <= x
  {
    if |xs| > 1 {
      MinOf(xs[1..]);
      assert forall x :: x in xs ==> x == xs[0] || x in xs[1..];
    }
  }

  lemma {:induction false} MaxOf(xs: seq<real>)
    requires xs != []
    ensures forall x :: x in xs ==> x <= Greatest(xs)
  {
    if |xs| > 1 {
      MaxOf(xs[1..]);
      assert forall x :: x in xs ==> x == xs[0] || x in xs[1..];
    }
  }

  /* ------------------------------------------------------ learning pattern */

  datatype Pattern = Consistent | Variable

  function Confidences(rs: seq<Response>): (cs: seq<real>)
    ensures |cs| == |rs|
    ensures forall i :: 0 <= i < |rs| ==> cs[i] == Weight(rs[i])
  {
    if rs == [] then [] else [Weight(rs[0])] + Confidences(rs[1..])
  }

  /**
   The "response_pattern" of `_analyze_learning_patterns`: consistent when
   one minus the sample standard deviation of the confidences exceeds 0.8,
   that is when their sample variance is below 0.04. A single response has
   no sample deviation (pandas gives NaN, which compares false), so it is
   always variable.
   */
  function PatternOf(rs: seq<Response>): (p: Pattern)
  {
    var cs := Confidences(rs);
    if |cs| >= 2 && CompetencyTools.SquaredDeviation(cs, CompetencyTools.MeanR(cs)) / (|cs| - 1) as real < 0.04
    then Consistent else Variable
  }

  /** Two or more responses of one confidence are consistent; a single response is variable. */
  lemma PatternOfUniform(rs: seq<Response>, c: real)
    requires forall r :: r in rs ==> Weight(r) == c
    ensures |rs| >= 2 ==> PatternOf(rs) == Consistent
    ensures |rs| <= 1 ==> PatternOf(rs) == Variable
  {
    if |rs| >= 2 {
      var cs := Confidences(rs);
      assert forall i :: 0 <= i < |cs| ==> cs[i] == c by {
        forall i | 0 <= i < |cs| ensures cs[i] == c {
          assert rs[i] in rs;
        }
      }
      CompetencyTools.UniformSum(cs, c);
      var n := |cs| as real;
      assert CompetencyTools.MeanR(cs) == c by {
        assert SumR(cs) / n == c by {
          assert SumR(cs) == n * c;
        }
      }
      CompetencyTools.UniformDeviation(cs, c);
    }
  }

  /* ------------------------------------------------------- overall level */

  datatype Overall = Unassessed | Assessed(level: CompetencyTools.Level)

  const Epsilon: real := 0.000000001

  /** `_calculate_overall_level`: "미평가" without scores, otherwise the mean banded at 0.8, 0.6 and 0.4 less an epsilon. */
  function OverallLevel(scores: seq<(string, real)>): (o: Overall)
    ensures scores == [] <==> o == Unassessed
    ensures scores != [] ==> var avg := SumR(ScoreValues(scores)) / |scores| as real;
      (o == Assessed(CompetencyTools.Advanced) <==> avg >= 0.8 - Epsilon)
      && (o == Assessed(CompetencyTools.Basic) <==> avg < 0.4 - Epsilon)
  {
    if scores == [] then Unassessed
    else
      var avg := SumR(ScoreValues(scores)) / |scores| as real;
      if avg >= 0.8 - Epsilon then Assessed(CompetencyTools.Advanced)
      else if avg >= 0.6 - Epsilon then Assessed(CompetencyTools.Intermediate)
      else if avg >= 0.4 - Epsilon then Assessed(CompetencyTools.Novice)
      else Assessed(CompetencyTools.Basic)
  }

  /** The epsilon only widens the bands: the overall level is never below the analyser's level of the same mean. */
  lemma OverallAtLeastAnalyserLevel(scores: seq<(string, real)>)
    requires scores != []
    ensures var avg := SumR(ScoreValues(scores)) / |scores| as real;
      CompetencyTools.LevelRank(CompetencyTools.LevelOf(avg)) <= CompetencyTools.LevelRank(OverallLevel(scores).level)
  {
  }

  /* ------------------------------------------------------- recommendations */

  datatype RecKind = WeaknessImprovement | StrengthExpansion | LearningPattern

  /** A recommendation: its kind, area, and priority text (`None` when the key is missing). */
  datatype Rec = Rec(kind: RecKind, area: Option<string>, priority: Option<string>)

  function WeaknessRecs(ws: seq<string>): (r: seq<Rec>)
    ensures |r| == |ws|
    ensures forall i :: 0 <= i < |ws| ==> r[i] == Rec(WeaknessImprovement, Some(ws[i]), Some("high"))
  {
    if ws == [] then [] else [Rec(WeaknessImprovement, Some(ws[0]), Some("high"))] + WeaknessRecs(ws[1..])
  }

  function StrengthRecs(ss: seq<string>): (r: seq<Rec>)
    ensures |r| == |ss|
    ensures forall i :: 0 <= i < |ss| ==> r[i] == Rec(StrengthExpansion, Some(ss[i]), Some("medium"))
  {
    if ss == [] then [] else [Rec(StrengthExpansion, Some(ss[0]), Some("medium"))] + StrengthRecs(ss[1..])
  }

  function PatternRecs(p: Pattern): (r: seq<Rec>)
    ensures |r| <= 1
    ensures r != [] <==> p == Variable
  {
    if p == Variable then [Rec(LearningPattern, None, Some("medium"))] else []
  }

  /** `priority_order.get(x.get("priority", "low"), 3)`. */
  function Rank(r: Rec): (n: nat)
    ensures 1 <= n <= 3
  {
    if r.priority == Some("high") then 1 else if r.priority == Some("medium") then 2 else 3
  }

  function NegRank(r: Rec): real { -(Rank(r) as real) }

  /** `_prioritize_recommendations`: Python's stable `sorted` by rank. */
  function Prioritize(recs: seq<Rec>): (r: seq<Rec>)
    ensures |r| == |recs|
  {
    SortDesc(recs, NegRank)
  }

  function OfRank(recs: seq<Rec>, k: nat): (r: seq<Rec>) {
    Filter((x: Rec) => Rank(x) == k, recs)
  }

  /** Inserting past a block of strictly better-ranked items leaves the block in front. */
  lemma {:induction false} InsertPast(x: Rec, a: seq<Rec>, c: seq<Rec>)
    requires SortedDesc(a + c, NegRank) && SortedDesc(c, NegRank)
    requires forall y :: y in a ==> Rank(y) < Rank(x)
    ensures InsertDesc(x, a + c, NegRank) == a + InsertDesc(x, c, NegRank)
  {
    if a != [] {
      assert (a + c)[0] == a[0] && (a + c)[1..] == a[1..] + c;
      assert a[0] in a;
      assert forall y :: y in a[1..] ==> y in a;
      SortedTail(a + c);
      InsertPast(x, a[1..], c);
      assert NegRank(x) < NegRank(a[0]);
      assert InsertDesc(x, a + c, NegRank) == [a[0]] + InsertDesc(x, a[1..] + c, NegRank);
      assert a == [a[0]] + a[1..];
    } else {
      assert a + c == c;
    }
  }

  lemma SortedTail(s: seq<Rec>)
    requires SortedDesc(s, NegRank) && s != []
    ensures SortedDesc(s[1..], NegRank)
  {
  }

  /** A list of one rank is in priority order. */
  lemma UniformSorted(c: seq<Rec>, k: nat)
    requires forall y :: y in c ==> Rank(y) == k
    ensures SortedDesc(c, NegRank)
  {
    forall i, j | 0 <= i < j < |c| ensures NegRank(c[i]) >= NegRank(c[j]) {
      assert c[i] in c && c[j] in c;
    }
  }

  /** A block of one rank in front of a sorted list of no better rank is in priority order. */
  lemma BlocksSorted(b: seq<Rec>, c: seq<Rec>, kb: nat)
    requires SortedDesc(c, NegRank)
    requires forall y :: y in b ==> Rank(y) == kb
    requires forall y :: y in c ==> Rank(y) >= kb
    ensures SortedDesc(b + c, NegRank)
  {
    forall i, j | 0 <= i < j < |b + c| ensures NegRank((b + c)[i]) >= NegRank((b + c)[j]) {
      if j < |b| {
        assert (b + c)[i] in b && (b + c)[j] in b;
      } else if i < |b| {
        assert (b + c)[i] in b && (b + c)[j] in c;
      } else {
        assert (b + c)[i] == c[i - |b|] && (b + c)[j] == c[j - |b|];
      }
    }
  }

  /** An item goes in front of a list none of whose items it outranks. */
  lemma InsertFront(x: Rec, t: seq<Rec>)
    requires SortedDesc(t, NegRank)
    requires forall y :: y in t ==> Rank(x) <= Rank(y)
    ensures InsertDesc(x, t, NegRank) == [x] + t
  {
    if t != [] {
      assert t[0] in t;
    }
  }

  lemma OfRankCons(recs: seq<Rec>, k: nat)
    requires recs != []
    ensures OfRank(recs, k) == (if Rank(recs[0]) == k then [recs[0]] else []) + OfRank(recs[1..], k)
  {
  }

  /** The stable sort lists the high items, then the medium ones, then the rest, each in its original order. */
  lemma {:induction false} PrioritizeIsStable(recs: seq<Rec>)
    ensures Prioritize(recs) == OfRank(recs, 1) + OfRank(recs, 2) + OfRank(recs, 3)
  {
    if recs != [] {
      var x, tail := recs[0], recs[1..];
      PrioritizeIsStable(tail);
      var a, b, c := OfRank(tail, 1), OfRank(tail, 2), OfRank(tail, 3);
      assert Prioritize(recs) == InsertDesc(x, a + b + c, NegRank);
      OfRankCons(recs, 1);
      OfRankCons(recs, 2);
      OfRankCons(recs, 3);
      StableStep(x, a, b, c);
    }
  }

  /** One insertion step of the sort, on a list already split into its three rank blocks. */
  lemma StableStep(x: Rec, a: seq<Rec>, b: seq<Rec>, c: seq<Rec>)
    requires forall y :: y in a ==> Rank(y) == 1
    requires forall y :: y in b ==> Rank(y) == 2
    requires forall y :: y in c ==> Rank(y) == 3
    ensures InsertDesc(x, a + b + c, NegRank) ==
      (if Rank(x) == 1 then [x] else []) + a + ((if Rank(x) == 2 then [x] else []) + b) + ((if Rank(x) == 3 then [x] else []) + c)
  {
    BlocksInOrder(a, b, c);
    if Rank(x) == 1 {
      StepHigh(x, a, b, c);
    } else if Rank(x) == 2 {
      StepMedium(x, a, b, c);
    } else {
      StepLow(x, a, b, c);
    }
  }

  /** Three rank blocks in rank order are in priority order. */
  lemma BlocksInOrder(a: seq<Rec>, b: seq<Rec>, c: seq<Rec>)
    requires forall y :: y in a ==> Rank(y) == 1
    requires forall y :: y in b ==> Rank(y) == 2
    requires forall y :: y in c ==> Rank(y) == 3
    ensures SortedDesc(c, NegRank) && SortedDesc(b + c, NegRank) && SortedDesc(a + (b + c), NegRank)
    ensures a + b + c == a + (b + c)
  {
    UniformSorted(c, 3);
    BlocksSorted(b, c, 2);
    assert forall y :: y in b + c ==> y in b || y in c;
    BlocksSorted(a, b + c, 1);
  }

  lemma StepHigh(x: Rec, a: seq<Rec>, b: seq<Rec>, c: seq<Rec>)
    requires Rank(x) == 1
    requires forall y :: y in a ==> Rank(y) == 1
    requires forall y :: y in b ==> Rank(y) == 2
    requires forall y :: y in c ==> Rank(y) == 3
    requires SortedDesc(a + (b + c), NegRank)
    ensures InsertDesc(x, a + (b + c), NegRank) == [x] + a + b + c
  {
    var t := a + (b + c);
    forall y | y in t
      ensures Rank(x) <= Rank(y)
    {
      assert y in a || y in b + c;
    }
    InsertFront(x, t);
    assert [x] + t == [x] + a + b + c;
  }

  lemma StepMedium(x: Rec, a: seq<Rec>, b: seq<Rec>, c: seq<Rec>)
    requires Rank(x) == 2
    requires forall y :: y in a ==> Rank(y) == 1
    requires forall y :: y in b ==> Rank(y) == 2
    requires forall y :: y in c ==> Rank(y) == 3
    requires SortedDesc(b + c, NegRank) && SortedDesc(a + (b + c), NegRank)
    ensures InsertDesc(x, a + (b + c), NegRank) == a + ([x] + b) + c
  {
    InsertPast(x, a, b + c);
    assert forall y :: y in b + c ==> y in b || y in c;
    InsertFront(x, b + c);
  }

  lemma StepLow(x: Rec, a: seq<Rec>, b: seq<Rec>, c: seq<Rec>)
    requires Rank(x) == 3
    requires forall y :: y in a ==> Rank(y) == 1
    requires forall y :: y in b ==> Rank(y) == 2
    requires forall y :: y in c ==> Rank(y) == 3
    requires SortedDesc(c, NegRank) && SortedDesc(a + (b + c), NegRank)
    ensures InsertDesc(x, a + (b + c), NegRank) == a + b + ([x] + c)
  {
    assert forall y :: y in a + b ==> y in a || y in b;
    assert a + (b + c) == (a + b) + c;
    InsertPast(x, a + b, c);
    InsertFront(x, c);
  }

  /** The prioritised list is a reordering of the given one, highest priority first. */
  lemma PrioritizeSortsAndPermutes(recs: seq<Rec>)
    ensures multiset(Prioritize(recs)) == multiset(recs)
    ensures forall i, j :: 0 <= i < j < |recs| ==> Rank(Prioritize(recs)[i]) <= Rank(Prioritize(recs)[j])
  {
    SortDescPermutes(recs, NegRank);
    var r := Prioritize(recs);
    assert forall i, j :: 0 <= i < j < |r| ==> NegRank(r[i]) >= NegRank(r[j]);
  }

  /** `_generate_recommendations`: weaknesses, strengths and the pattern advice, prioritised. */
  function Recommendations(strengths: seq<string>, weaknesses: seq<string>, p: Pattern): (r: seq<Rec>)
  {
    Prioritize(WeaknessRecs(weaknesses) + StrengthRecs(strengths) + PatternRecs(p))
  }

  /** Exactly one high-priority recommendation per weakness, in the weaknesses' order, and they come first. */
  lemma OneHighPerWeakness(strengths: seq<string>, weaknesses: seq<string>, p: Pattern)
    ensures var r := Recommendations(strengths, weaknesses, p);
      r[..|weaknesses|] == WeaknessRecs(weaknesses)
      && forall i :: |weaknesses| <= i < |r| ==> r[i].priority == Some("medium")
  {
    var w, m := WeaknessRecs(weaknesses), StrengthRecs(strengths) + PatternRecs(p);
    RecommendationsInBlocks(strengths, weaknesses, p);
    OtherRecsMedium(strengths, p);
    var r := Recommendations(strengths, weaknesses, p);
    assert r[..|w|] == w;
    forall i | |w| <= i < |r|
      ensures r[i].priority == Some("medium")
    {
      assert r[i] == m[i - |w|];
    }
  }

  /** The prioritised list is the weakness block followed by the strength and pattern block. */
  lemma RecommendationsInBlocks(strengths: seq<string>, weaknesses: seq<string>, p: Pattern)
    ensures Recommendations(strengths, weaknesses, p)
      == WeaknessRecs(weaknesses) + (StrengthRecs(strengths) + PatternRecs(p))
  {
    var w, s, q := WeaknessRecs(weaknesses), StrengthRecs(strengths), PatternRecs(p);
    WeaknessRecsHigh(weaknesses);
    OtherRecsMedium(strengths, p);
    HighThenMedium(w, s + q);
    assert w + s + q == w + (s + q);
  }

  /** A block of high-priority items followed by one of medium-priority items is already prioritised. */
  lemma HighThenMedium(w: seq<Rec>, m: seq<Rec>)
    requires forall x :: x in w ==> x.priority == Some("high")
    requires forall x :: x in m ==> x.priority == Some("medium")
    ensures Prioritize(w + m) == w + m
  {
    AllHigh(w);
    AllMedium(m);
    OfRankAppend(w, m, 1);
    OfRankAppend(w, m, 2);
    OfRankAppend(w, m, 3);
    PrioritizeIsStable(w + m);
  }

  lemma WeaknessRecsHigh(weaknesses: seq<string>)
    ensures forall x: Rec :: x in WeaknessRecs(weaknesses) ==> x.priority == Some("high")
  {
    var w := WeaknessRecs(weaknesses);
    forall x | x in w
      ensures x.priority == Some("high")
    {
      var i :| 0 <= i < |w| && w[i] == x;
    }
  }

  lemma OtherRecsMedium(strengths: seq<string>, p: Pattern)
    ensures forall x: Rec :: x in StrengthRecs(strengths) + PatternRecs(p) ==> x.priority == Some("medium")
  {
    var s, q := StrengthRecs(strengths), PatternRecs(p);
    forall x: Rec | x in s + q
      ensures x.priority == Some("medium")
    {
      if x in s {
        var i :| 0 <= i < |s| && s[i] == x;
      }
    }
  }

  lemma {:induction false} OfRankAppend(a: seq<Rec>, b: seq<Rec>, k: nat)
    ensures OfRank(a + b, k) == OfRank(a, k) + OfRank(b, k)
  {
    if a != [] {
      assert (a + b)[0] == a[0] && (a + b)[1..] == a[1..] + b;
      OfRankAppend(a[1..], b, k);
    } else {
      assert a + b == b;
    }
  }

  lemma {:induction false} AllHigh(w: seq<Rec>)
    requires forall x :: x in w ==> x.priority == Some("high")
    ensures OfRank(w, 1) == w && OfRank(w, 2) == [] && OfRank(w, 3) == []
  {
    if w != [] {
      assert w[0] in w;
      assert forall x :: x in w[1..] ==> x in w;
      AllHigh(w[1..]);
    }
  }

  lemma {:induction false} AllMedium(m: seq<Rec>)
    requires forall x :: x in m ==> x.priority == Some("medium")
    ensures OfRank(m, 1) == [] && OfRank(m, 2) == m && OfRank(m, 3) == []
  {
    if m != [] {
      assert m[0] in m;
      assert forall x :: x in m[1..] ==> x in m;
      AllMedium(m[1..]);
    }
  }

  /* ------------------------------------------------------ access and run */

  datatype Access = Restricted | Authorized | Anonymous

  /** `_determine_access_level`. */
  function AccessLevel(security: string, userId: Option<string>, sessionId: Option<string>): (a: Access)
    ensures a == Restricted <==> security == "high"
    ensures a == Authorized <==> security != "high" && OrText(userId, "") != "" && OrText(sessionId, "") != ""
  {
    if security == "high" then Restricted
    else if OrText(userId, "") != "" && OrText(sessionId, "") != "" then Authorized
    else Anonymous
  }

  datatype State = State(
    responses: seq<ResponseInput>,
    questions: seq<QuestionInput>,
    securityLevel: string,
    userId: Option<string>,
    sessionId: Option<string>)

  datatype Error = NoResponses | AnalysisFailed | NoAnalysis

  datatype AnalysisResult = AnalysisResult(
    scores: seq<(string, real)>,
    strengths: seq<string>,
    weaknesses: seq<string>,
    pattern: Pattern,
    overall: Overall)

  /** The analysis step's result: the analysis, or the error it records. */
  datatype Analyzed = Analysed(result: AnalysisResult) | NotAnalysed(error: Error)

  datatype Outcome = Outcome(
    responses: seq<Response>,
    analysis: Option<AnalysisResult>,
    recommendations: seq<Rec>,
    errors: seq<Error>,
    access: Access,
    encrypted: Option<string>)

  /** The areas of the normalised questions, when they normalise. */
  function QuestionAreas(xs: seq<QuestionInput>): set<string> {
    match NormalizeQuestions(xs)
    case None => {}
    case Some(qs) => AreaSet(qs)
  }

  /**
   `_analyze_competency` on the valid responses: none is an error, a
   question that fails validation aborts with an error, and otherwise the
   scores, strengths, weaknesses, pattern and overall level.
   */
  function Analyze(rs: seq<Response>, xs: seq<QuestionInput>, order: seq<string>, numpy: bool): (r: Analyzed)
    ensures rs == [] ==> r == NotAnalysed(NoResponses)
    ensures rs != [] && NormalizeQuestions(xs).None? ==> r == NotAnalysed(AnalysisFailed)
    ensures r.Analysed? ==> r.result.overall == OverallLevel(r.result.scores)
  {
    if rs == [] then NotAnalysed(NoResponses)
    else
      match NormalizeQuestions(xs)
      case None => NotAnalysed(AnalysisFailed)
      case Some(qs) =>
        var scores := AreaScores(qs, order, rs);
        var sw := StrengthsWeaknesses(scores, numpy);
        Analysed(AnalysisResult(scores, sw.0, sw.1, PatternOf(rs), OverallLevel(scores)))
  }

  /**
   `execute`: preprocess, analyse, recommend, post-process. The digest of
   the analysis (a SHA-256 of its JSON text) is the parameter `digest`; the
   set iteration order of the area names is the parameter `order`.
   */
  function Execute(st: State, order: seq<string>, numpy: bool, digest: AnalysisResult -> string): (o: Outcome)
    requires NoDuplicates(order) && forall a :: a in order <==> a in QuestionAreas(st.questions)
    ensures forall r :: r in o.responses ==> ValidResponse(r)
    ensures o.access == AccessLevel(st.securityLevel, st.userId, st.sessionId)
    ensures o.analysis.None? <==> o.recommendations == [] && o.errors != []
  {
    var rs := Preprocess(st.responses);
    var access := AccessLevel(st.securityLevel, st.userId, st.sessionId);
    match Analyze(rs, st.questions, order, numpy)
    case NotAnalysed(e) => Outcome(rs, None, [], [e, NoAnalysis], access, None)
    case Analysed(a) =>
      Outcome(rs, Some(a), Recommendations(a.strengths, a.weaknesses, a.pattern), [], access, Some(digest(a)))
  }

  /** Without a valid response the run reports both the missing data and the missing analysis, and recommends nothing. */
  lemma NoValidResponses(st: State, order: seq<string>, numpy: bool, digest: AnalysisResult -> string)
    requires NoDuplicates(order) && forall a :: a in order <==> a in QuestionAreas(st.questions)
    requires Preprocess(st.responses) == []
    ensures Execute(st, order, numpy, digest).errors == [NoResponses, NoAnalysis]
    ensures Execute(st, order, numpy, digest).recommendations == []
  {
  }

  /** A successful run records no error, carries the digest of its analysis, and recommends one high-priority item per weakness first. */
  lemma ExecuteRecommendsWeaknessesFirst(st: State, order: seq<string>, numpy: bool, digest: AnalysisResult -> string)
    requires NoDuplicates(order) && forall a :: a in order <==> a in QuestionAreas(st.questions)
    ensures var o := Execute(st, order, numpy, digest);
      o.analysis.Some? ==>
        o.errors == [] && o.encrypted == Some(digest(o.analysis.value))
        && o.recommendations[..|o.analysis.value.weaknesses|] == WeaknessRecs(o.analysis.value.weaknesses)
  {
    var o := Execute(st, order, numpy, digest);
    if o.analysis.Some? {
      var a := o.analysis.value;
      OneHighPerWeakness(a.strengths, a.weaknesses, a.pattern);
    }
  }
}

=== FILE: agents_creator_onboarding_agent.dfy ===
/**
 The creator onboarding evaluator: signals derived from a creator's public
 metrics, a heuristic 0-100 score with risk penalties, a grade and an
 accept / hold / reject decision, and the optional retrieval-backed context
 (similar creators, category, risk and market snippets).
 */
module CreatorOnboarding {
  import opened Common
  import PyScalars
  import PyFloat
  import MissionAgent

  /** `_safe_div`: the quotient, or 0 when the divisor is 0. */
  function SafeDiv(a: real, b: real): (r: real)
    ensures b != 0.0 ==> r * b == a
    ensures b == 0.0 ==> r == 0.0
  {
    if b != 0.0 then a / b else 0.0
  }

  /** `_zclip`: `lo` below the range, `hi` above it, `x` inside. */
  function ZClip(x: real, lo: real, hi: real): (r: real)
    ensures r == x || r == lo || r == hi
    ensures x < lo ==> r == lo
    ensures lo <= hi ==> lo <= r <= hi
  {
    if x < lo then lo else if x > hi then hi else x
  }

  /** On a proper range `_zclip` is the usual clamp. */
  lemma ZClipIsClamp(x: real, lo: real, hi: real)
    requires lo <= hi
    ensures ZClip(x, lo, hi) == ClampR(x, lo, hi)
  {
  }

  datatype Risk = HighReports | LowEngagement | LowActivity {
    function Name(): string {
      match this
      case HighReports => "high_reports"
      case LowEngagement => "low_engagement"
      case LowActivity => "low_activity"
    }
  }

  datatype Grade = S | A | B | C {
    function Name(): string {
      match this
      case S => "S"
      case A => "A"
      case B => "B"
      case C => "C"
    }
    function Rank(): nat {
      match this
      case S => 4
      case A => 3
      case B => 2
      case C => 1
    }
  }

  datatype Decision = Accept | Hold | Reject

  datatype Tag = TopCandidate | NeedsAwarenessCampaign | NeedsActivation | HasSimilarCreators | CategoryInsightsAvailable

  /** The metrics of the request, before conversion; `brandFit` is `None` when the key is absent. */
  datatype Metrics = Metrics(
    followers: PyScalars.Scalar,
    followersCount: PyScalars.Scalar,
    avgLikes: PyScalars.Scalar,
    avgComments: PyScalars.Scalar,
    posts30d: PyScalars.Scalar,
    reports90d: PyScalars.Scalar,
    brandFit: Option<PyScalars.Scalar>,
    tags: seq<string>)

  /** The derived signals of step 2. */
  datatype Signals = Signals(followers: int, engagementRate: real, frequency: real, posts30d: int, reports90d: int, brandFit: real)

  /**
   Step 2, `None` where it raises: the counts are read leniently, but the
   brand fit goes through a bare `float`, which raises on `None` and on text
   that is not a number.
   */
  function ReadSignals(m: Metrics): (s: Option<Signals>)
    ensures s.None? <==> m.brandFit.Some? && PyFloat.ToFloat(m.brandFit.value).None?
    ensures s.Some? ==> s.value.brandFit == if m.brandFit.None? then 0.0 else PyFloat.ToFloat(m.brandFit.value).value
    ensures s.Some? ==> s.value.followers == PyScalars.ToInt(if PyScalars.Truthy(m.followers) then m.followers else m.followersCount, 0)
    ensures s.Some? && s.value.followers <= 1 ==>
      s.value.engagementRate == (PyScalars.ToInt(m.avgLikes, 0) + 2 * PyScalars.ToInt(m.avgComments, 0)) as real
    ensures s.Some? ==> s.value.frequency * 30.0 == s.value.posts30d as real
  {
    var followers := PyScalars.ToInt(PyScalars.Or(m.followers, m.followersCount), 0);
    var likes := PyScalars.ToInt(m.avgLikes, 0);
    var comments := PyScalars.ToInt(m.avgComments, 0);
    var posts := PyScalars.ToInt(m.posts30d, 0);
    var fit := if m.brandFit.None? then Some(0.0) else PyFloat.ToFloat(m.brandFit.value);
    if fit.None? then None
    else Some(Signals(followers, SafeDiv((likes + 2 * comments) as real, Max(1, followers) as real), posts as real / 30.0,
                      posts, PyScalars.ToInt(m.reports90d, 0), fit.value))
  }

  /** A brand fit of `None` or of text like "high" makes the evaluation raise; a number, or no key at all, does not. */
  lemma BrandFitReads(m: Metrics, x: real)
    ensures m.brandFit == Some(PyScalars.SNone) ==> ReadSignals(m).None?
    ensures m.brandFit == Some(PyScalars.SStr("high")) ==> ReadSignals(m).None?
    ensures m.brandFit == Some(PyScalars.SFloat(x)) ==> ReadSignals(m).Some? && ReadSignals(m).value.brandFit == x
    ensures m.brandFit.None? ==> ReadSignals(m).Some? && ReadSignals(m).value.brandFit == 0.0
  {
    if m.brandFit == Some(PyScalars.SStr("high")) {
      PyScalars.NoParseWithStrayChar(Strip("high"), 0);
    }
  }

  /** The four score components, each a fraction of the whole. */
  datatype Breakdown = Breakdown(followers: real, engagement: real, frequency: real, brandFit: real)

  function Components(s: Signals): (b: Breakdown)
    ensures 0.0 <= b.followers <= 0.4 && 0.0 <= b.engagement <= 0.3
    ensures 0.0 <= b.frequency <= 0.15 && 0.0 <= b.brandFit <= 0.15
  {
    Breakdown(ZClip(s.followers as real / 1000000.0, 0.0, 0.4), ZClip(s.engagementRate * 10.0, 0.0, 0.3),
              ZClip(s.frequency, 0.0, 0.15), ZClip(s.brandFit * 0.15, 0.0, 0.15))
  }

  /** The rule-based risks, in the order they are tagged. */
  function Risks(s: Signals): (r: seq<Risk>)
    ensures HighReports in r <==> s.reports90d >= 3
    ensures LowEngagement in r <==> s.engagementRate < 0.002
    ensures LowActivity in r <==> s.posts30d < 4
    ensures NoDuplicates(r)
  {
    (if s.reports90d >= 3 then [HighReports] else [])
    + (if s.engagementRate < 0.002 then [LowEngagement] else [])
    + (if s.posts30d < 4 then [LowActivity] else [])
  }

  function PenaltyOf(r: Risk): real {
    match r
    case HighReports => 0.15
    case LowEngagement => 0.1
    case LowActivity => 0.05
  }

  function Penalties(rs: seq<Risk>): real {
    if rs == [] then 0.0 else PenaltyOf(rs[0]) + Penalties(rs[1..])
  }

  function BaseScore(s: Signals): real {
    var b := Components(s);
    b.followers + b.engagement + b.frequency + b.brandFit - Penalties(Risks(s))
  }

  /** The score out of 100 (the rounding to one decimal is not modelled). */
  function Score(s: Signals): (score: real)
    ensures 0.0 <= score <= 100.0
  {
    MaxR(0.0, MinR(1.0, BaseScore(s))) * 100.0
  }

  /** The components sum to at most 1, so the upper clamp never binds and the score is the floored base. */
  lemma ScoreIsFlooredBase(s: Signals)
    ensures BaseScore(s) <= 1.0
    ensures Score(s) == MaxR(0.0, BaseScore(s)) * 100.0
    ensures Risks(s) == [] ==> Score(s) == BaseScore(s) * 100.0
  {
    PenaltiesNonNegative(Risks(s));
  }

  lemma {:induction false} PenaltiesNonNegative(rs: seq<Risk>)
    ensures Penalties(rs) >= 0.0
    ensures HighReports in rs ==> Penalties(rs) >= 0.15
  {
    if rs != [] {
      PenaltiesNonNegative(rs[1..]);
      if HighReports in rs && rs[0] != HighReports {
        assert HighReports in rs[1..];
      }
    }
  }

  /** Many reports cap the score at 85. */
  lemma HighReportsCapScore(s: Signals)
    requires s.reports90d >= 3
    ensures Score(s) <= 85.0
  {
    PenaltiesNonNegative(Risks(s));
  }

  /** `_grade_and_decide`, the grade: S from 85, A from 70, B from 55, else C. */
  function GradeOf(score: real): (g: Grade)
    ensures g == S <==> score >= 85.0
    ensures g in {S, A} <==> score >= 70.0
    ensures g != C <==> score >= 55.0
  {
    if score >= 85.0 then S else if score >= 70.0 then A else if score >= 55.0 then B else C
  }

  /** A higher score never earns a lower grade. */
  lemma GradeMonotone(x: real, y: real)
    requires x <= y
    ensures GradeOf(x).Rank() <= GradeOf(y).Rank()
  {
  }

  /** The decision: reject on many reports or a score under 50, hold a low-activity creator under 70, else accept. */
  function DecisionOf(score: real, risks: seq<Risk>): (d: Decision)
    ensures d == Reject <==> HighReports in risks || score < 50.0
    ensures d == Hold <==> HighReports !in risks && score >= 50.0 && LowActivity in risks && score < 70.0
    ensures d == Accept ==> score >= 50.0 && HighReports !in risks && (LowActivity !in risks || score >= 70.0)
  {
    if HighReports in risks || score < 50.0 then Reject
    else if LowActivity in risks && score < 70.0 then Hold
    else Accept
  }

  /** The tags of the decision step, in order. */
  function DecisionTags(g: Grade, risks: seq<Risk>): (t: seq<Tag>)
    ensures TopCandidate in t <==> g in {S, A}
    ensures NeedsAwarenessCampaign in t <==> LowEngagement in risks
    ensures NeedsActivation in t <==> LowActivity in risks
    ensures HasSimilarCreators !in t && CategoryInsightsAvailable !in t
  {
    (if g in {S, A} then [TopCandidate] else [])
    + (if LowEngagement in risks then [NeedsAwarenessCampaign] else [])
    + (if LowActivity in risks then [NeedsActivation] else [])
  }

  /** The onboarding grade is always one the mission recommender ranks at C or better. */
  lemma GradeMeetsMissionDefault(g: Grade)
    ensures MissionAgent.GradeRank(g.Name()) == g.Rank()
    ensures MissionAgent.GradeRank(g.Name()) >= MissionAgent.GradeRank("C")
  {
    assert Upper("C") == "C";
    match g
    case S => assert Upper("S") == "S";
    case A => assert Upper("A") == "A";
    case B => assert Upper("B") == "B";
    case C =>
  }

  /* ------------------------------------------------------ retrieval context */

  /** One hit of the similar-creator search, with the metadata it carries. */
  datatype Hit = Hit(id: string, handle: string, platform: string, score: real, followers: int, grade: string, tags: seq<string>)

  /** The follower tiers used to phrase the similar-creator and market queries. */
  datatype Tier = Mega | Macro | Micro | Nano {
    function Phrase(): string {
      match this
      case Mega => "mega influencer"
      case Macro => "macro influencer"
      case Micro => "micro influencer"
      case Nano => "nano influencer"
    }
  }

  function TierOf(followers: int): (t: Tier)
    ensures t == Mega <==> followers >= 1000000
    ensures t == Nano <==> followers < 10000
    ensures t == Macro <==> 100000 <= followers < 1000000
  {
    if followers >= 1000000 then Mega else if followers >= 100000 then Macro else if followers >= 10000 then Micro else Nano
  }

  /** The query of `_find_similar_creators`: platform, category, the first three tags and the tier, space-joined. */
  function SimilarQuery(platform: string, category: string, tags: seq<string>, followers: int): (q: string)
  {
    Join(" ", ["platform:" + platform] + (if category != "" then [category] else []) + Take(tags, 3) + [TierOf(followers).Phrase()])
  }

  /** The query names the platform first, ends with the follower tier, and holds the category and leading tags. */
  lemma SimilarQueryShape(platform: string, category: string, tags: seq<string>, followers: int)
    ensures var q := SimilarQuery(platform, category, tags, followers);
      var head := "platform:" + platform; var tier := TierOf(followers).Phrase();
      |head| <= |q| && q[..|head|] == head
      && |tier| <= |q| && q[|q| - |tier|..] == tier
      && (category != "" ==> Contains(q, category))
      && forall i :: 0 <= i < Min(3, |tags|) ==> Contains(q, tags[i])
  {
    var catPart := if category != "" then [category] else [];
    var parts := ["platform:" + platform] + catPart + Take(tags, 3) + [TierOf(followers).Phrase()];
    JoinStartsWithFirst(" ", parts);
    JoinEndsWithLast(" ", parts);
    if category != "" {
      assert parts[1] == category;
      JoinContainsParts(" ", parts, 1);
    }
    forall i | 0 <= i < Min(3, |tags|)
      ensures Contains(SimilarQuery(platform, category, tags, followers), tags[i])
    {
      var k := 1 + |catPart| + i;
      assert parts[k] == tags[i];
      JoinContainsParts(" ", parts, k);
    }
  }

  /** A hit for the evaluated creator themself: a non-empty handle equal to theirs, ignoring case. */
  predicate IsSelf(h: Hit, own: string) {
    Lower(h.handle) != "" && Lower(h.handle) == Lower(own)
  }

  /** The loop of `_find_similar_creators`: skip the creator's own hit, stop after five. */
  function CollectSimilar(results: seq<Hit>, own: string, acc: seq<Hit>): (r: seq<Hit>)
    requires |acc| < 5
    decreases |results|
  {
    if results == [] then acc
    else if IsSelf(results[0], own) then CollectSimilar(results[1..], own, acc)
    else if |acc| + 1 >= 5 then acc + [results[0]]
    else CollectSimilar(results[1..], own, acc + [results[0]])
  }

  /** The loop keeps the first five hits that are not the creator's own. */
  lemma {:induction false} CollectSimilarIsFilteredPrefix(results: seq<Hit>, own: string, acc: seq<Hit>)
    requires |acc| < 5
    ensures CollectSimilar(results, own, acc) == Take(acc + Filter((h: Hit) => !IsSelf(h, own), results), 5)
    decreases |results|
  {
    var p := (h: Hit) => !IsSelf(h, own);
    if results == [] {
    } else if IsSelf(results[0], own) {
      CollectSimilarIsFilteredPrefix(results[1..], own, acc);
    } else if |acc| + 1 >= 5 {
      var rest := Filter(p, results[1..]);
      assert acc + Filter(p, results) == (acc + [results[0]]) + rest;
    } else {
      CollectSimilarIsFilteredPrefix(results[1..], own, acc + [results[0]]);
      assert acc + Filter(p, results) == (acc + [results[0]]) + Filter(p, results[1..]);
    }
  }

  /**
   `_find_similar_creators`: nothing without a search engine or when the
   search fails, otherwise the collected hits.
   */
  function SimilarCreators(engine: bool, results: Option<seq<Hit>>, own: string): (r: seq<Hit>)
  {
    if !engine || results.None? then [] else CollectSimilar(results.value, own, [])
  }

  /**
   At most five similar creators, none of them the creator, all among the
   search hits in their order; when fewer than five come back, every other
   hit is among them.
   */
  lemma SimilarCreatorsSound(engine: bool, results: Option<seq<Hit>>, own: string)
    ensures var r := SimilarCreators(engine, results, own);
      |r| <= 5
      && (forall h :: h in r ==> !IsSelf(h, own))
      && (engine && results.Some? ==> IsSubsequence(r, results.value))
      && (engine && results.Some? && |r| < 5 ==> forall h :: h in results.value && !IsSelf(h, own) ==> h in r)
      && (!engine || results.None? ==> r == [])
  {
    if engine && results.Some? {
      var p := (h: Hit) => !IsSelf(h, own);
      var f := Filter(p, results.value);
      CollectSimilarIsFilteredPrefix(results.value, own, []);
      assert [] + f == f;
      FilterIsSubsequence(p, results.value);
      TakeIsSubsequence(f, 5);
      SubsequenceTrans(Take(f, 5), f, results.value);
    }
  }

  lemma {:induction false} TakeIsSubsequence<T>(s: seq<T>, n: nat)
    ensures IsSubsequence(Take(s, n), s)
  {
    SubsequenceOfPrefix(Take(s, n), s);
  }

  lemma SubsequenceTrans<T>(xs: seq<T>, ys: seq<T>, zs: seq<T>)
    requires IsSubsequence(xs, ys) && IsSubsequence(ys, zs)
    ensures IsSubsequence(xs, zs)
  {
  }

  /** The snippets of a context search: each content cut to `width`, empty ones dropped, joined with " | ". */
  function Snippets(contents: seq<string>, width: nat): (r: string)
  {
    Join(" | ", Filter((t: string) => t != "", Cuts(contents, width)))
  }

  function Cuts(contents: seq<string>, width: nat): (r: seq<string>)
    ensures |r| == |contents|
    ensures forall i :: 0 <= i < |r| ==> r[i] == Take(contents[i], width)
  {
    if contents == [] then [] else [Take(contents[0], width)] + Cuts(contents[1..], width)
  }

  /** With a positive width the snippets are empty exactly when every content is. */
  lemma SnippetsEmptyIff(contents: seq<string>, width: nat)
    requires width > 0
    ensures Snippets(contents, width) == "" <==> forall i :: 0 <= i < |contents| ==> contents[i] == ""
  {
    var p := (t: string) => t != "";
    var kept := Filter(p, Cuts(contents, width));
    if kept != [] {
      JoinStartsWithFirst(" | ", kept);
      assert kept[0] in kept;
      var i :| 0 <= i < |contents| && Cuts(contents, width)[i] == kept[0];
    } else {
      forall i | 0 <= i < |contents|
        ensures contents[i] == ""
      {
        assert Cuts(contents, width)[i] in Cuts(contents, width);
      }
    }
  }

  /** The search results the retrieval engine would give; `None` for a search that raises. */
  datatype Searches = Searches(
    engine: bool,
    similar: Option<seq<Hit>>,
    category: Option<seq<string>>,
    risk: Option<seq<string>>,
    market: Option<seq<string>>)

  /** What the retrieval step adds to the evaluation. */
  datatype RagData = RagData(
    similarCreators: seq<Hit>,
    categoryInsights: string,
    riskAnalysis: string,
    marketContext: string,
    recommendationContext: string)

  /** The similarity scores of the hits. */
  function HitScores(hs: seq<Hit>): (r: seq<real>)
    ensures |r| == |hs| && forall i :: 0 <= i < |hs| ==> r[i] == hs[i].score
  {
    if hs == [] then [] else [hs[0].score] + HitScores(hs[1..])
  }

  /** The mean similarity of a non-empty list of hits. */
  function MeanScore(hs: seq<Hit>): real
    requires hs != []
  {
    SumR(HitScores(hs)) / |hs| as real
  }

  /** A sum of values within bounds lies within the bounds times the count. */
  lemma {:induction false} SumWithin(xs: seq<real>, lo: real, hi: real)
    requires forall i :: 0 <= i < |xs| ==> lo <= xs[i] <= hi
    ensures |xs| as real * lo <= SumR(xs) <= |xs| as real * hi
  {
    if xs != [] {
      SumWithin(xs[1..], lo, hi);
    }
  }

  /** The mean similarity lies between the lowest and the highest score. */
  lemma MeanWithin(hs: seq<Hit>, lo: real, hi: real)
    requires hs != [] && forall h :: h in hs ==> lo <= h.score <= hi
    ensures lo <= MeanScore(hs) <= hi
  {
    var xs := HitScores(hs);
    assert forall i :: 0 <= i < |xs| ==> lo <= xs[i] <= hi by {
      forall i | 0 <= i < |xs| ensures lo <= xs[i] <= hi {
        assert hs[i] in hs;
      }
    }
    SumWithin(xs, lo, hi);
    QuotientWithin(SumR(xs), |hs| as real, lo, hi);
  }

  lemma QuotientWithin(sum: real, n: real, lo: real, hi: real)
    requires n > 0.0 && n * lo <= sum <= n * hi
    ensures lo <= sum / n <= hi
  {
  }

  /** A similar creator graded S or A, a success case to learn from. */
  predicate Successful(h: Hit) { h.grade == "S" || h.grade == "A" }

  function RecommendationLead(n: nat): string {
    "유사 크리에이터 " + NatToString(n) + "명 발견 (평균 유사도: "
  }

  function RecommendationTrailer(successes: nat): string {
    if successes == 0 then ")" else ") | 성공 사례 " + NatToString(successes) + "건 참고 가능"
  }

  /**
   The recommendation context of step 4: the number of similar creators and
   their mean similarity, rendered by `fixed2` (Python's `:.2f`), then the
   number of success cases among them when there are any.
   */
  function Recommendation(similar: seq<Hit>, fixed2: real -> string): (r: string)
    ensures similar == [] <==> r == ""
    ensures similar != [] ==>
      var lead, avg := RecommendationLead(|similar|), fixed2(MeanScore(similar));
      |lead| + |avg| <= |r| && r[..|lead|] == lead && r[|lead|..|lead| + |avg|] == avg
      && r[|lead| + |avg|..] == RecommendationTrailer(|Filter(Successful, similar)|)
  {
    if similar == [] then ""
    else
      var lead, avg, trailer := RecommendationLead(|similar|), fixed2(MeanScore(similar)), RecommendationTrailer(Count(Successful, similar));
      FilterCount(Successful, similar);
      assert (lead + avg + trailer)[..|lead|] == lead;
      assert (lead + avg + trailer)[|lead|..|lead| + |avg|] == avg;
      assert (lead + avg + trailer)[|lead| + |avg|..] == trailer;
      lead + avg + trailer
  }

  /** The recommendation mentions success cases exactly when some similar creator is graded S or A. */
  lemma RecommendationNamesSuccesses(similar: seq<Hit>, fixed2: real -> string)
    requires similar != []
    ensures var r := Recommendation(similar, fixed2); var tail := "건 참고 가능";
      |tail| <= |r| && (r[|r| - |tail|..] == tail <==> exists h :: h in similar && Successful(h))
  {
    var r := Recommendation(similar, fixed2);
    var k := |Filter(Successful, similar)|;
    var n := |r| - |RecommendationTrailer(k)|;
    assert r == r[..n] + RecommendationTrailer(k);
    SuccessesExist(similar);
    TrailerEnds(r[..n], k);
  }

  /** Some similar creator is a success case exactly when the filter keeps one. */
  lemma SuccessesExist(similar: seq<Hit>)
    ensures |Filter(Successful, similar)| > 0 <==> exists h :: h in similar && Successful(h)
  {
    var f := Filter(Successful, similar);
    if |f| > 0 {
      assert f[0] in f;
    }
  }

  /** A text ending in the trailer ends with the success note exactly when there are successes. */
  lemma TrailerEnds(prefix: string, k: nat)
    ensures var r, tail := prefix + RecommendationTrailer(k), "건 참고 가능";
      |tail| <= |r| || k == 0
    ensures var r, tail := prefix + RecommendationTrailer(k), "건 참고 가능";
      |tail| <= |r| ==> (r[|r| - |tail|..] == tail <==> k > 0)
  {
    var r, tail := prefix + RecommendationTrailer(k), "건 참고 가능";
    if k > 0 {
      var t := RecommendationTrailer(k);
      assert t == ") | 성공 사례 " + NatToString(k) + tail;
      assert r[|r| - |tail|..] == tail;
    } else if |tail| <= |r| {
      assert r[|r| - 1] == ')';
      assert r[|r| - |tail|..][|tail| - 1] == r[|r| - 1];
    }
  }

  /** `_get_category_insights`, `_analyze_risks_with_rag`, `_get_market_context` on the given results. */
  function ContextOf(enabled: bool, results: Option<seq<string>>, width: nat): (r: string)
    ensures !enabled || results.None? ==> r == ""
  {
    if !enabled || results.None? then "" else Snippets(results.value, width)
  }

  function Enhance(se: Searches, handle: string, category: string, risks: seq<Risk>, fixed2: real -> string): (d: RagData)
    ensures d.recommendationContext == "" <==> d.similarCreators == []
  {
    var similar := SimilarCreators(se.engine, se.similar, handle);
    RagData(
      similar,
      ContextOf(se.engine && category != "", se.category, 200),
      ContextOf(se.engine && risks != [], se.risk, 150),
      ContextOf(se.engine, se.market, 150),
      Recommendation(similar, fixed2))
  }

  function RagTags(d: RagData): (t: seq<Tag>)
    ensures HasSimilarCreators in t <==> |d.similarCreators| >= 3
    ensures CategoryInsightsAvailable in t <==> d.categoryInsights != ""
    ensures forall x :: x in t ==> x in {HasSimilarCreators, CategoryInsightsAvailable}
  {
    (if |d.similarCreators| >= 3 then [HasSimilarCreators] else [])
    + (if d.categoryInsights != "" then [CategoryInsightsAvailable] else [])
  }

  /** The request of `execute`, after the profile fetch (which is not modelled). */
  datatype Request = Request(platform: string, handle: string, category: string, metrics: Metrics)

  datatype Evaluation = Evaluation(
    platform: string,
    handle: string,
    decision: Decision,
    grade: Grade,
    score: real,
    breakdown: Breakdown,
    tags: seq<Tag>,
    risks: seq<Risk>,
    rag: Option<RagData>)

  /**
   `execute` without the report text; `None` where it raises, which is when
   the brand fit cannot be read as a float. `fixed2` renders the mean
   similarity with two decimals.
   */
  function Execute(req: Request, useRag: bool, se: Searches, fixed2: real -> string): (e: Option<Evaluation>)
    ensures e.None? <==> ReadSignals(req.metrics).None?
    ensures e.Some? ==> 0.0 <= e.value.score <= 100.0
  {
    var handle := Strip(req.handle);
    match ReadSignals(req.metrics)
    case None => None
    case Some(s) =>
      var score := Score(s);
      var risks := Risks(s);
      var grade := GradeOf(score);
      var base := DecisionTags(grade, risks);
      var rag := if useRag then Some(Enhance(se, handle, req.category, risks, fixed2)) else None;
      Some(Evaluation(Lower(req.platform), handle, DecisionOf(score, risks), grade, score, Components(s),
                      base + (if useRag then RagTags(rag.value) else []), risks, rag))
  }

  /** Grade and decision follow the score and the risks, and many reports always mean rejection. */
  lemma EvaluationFollowsScore(req: Request, useRag: bool, se: Searches, fixed2: real -> string)
    ensures var e := Execute(req, useRag, se, fixed2); var s := ReadSignals(req.metrics);
      e.Some? ==>
        e.value.score == Score(s.value) && e.value.grade == GradeOf(e.value.score)
        && e.value.decision == DecisionOf(e.value.score, e.value.risks)
        && e.value.risks == Risks(s.value) && e.value.breakdown == Components(s.value)
        && (e.value.decision == Reject <==> s.value.reports90d >= 3 || e.value.score < 50.0)
        && (e.value.rag.Some? <==> useRag)
  {
  }

  /** Each tag of the evaluation has its cause, and each cause its tag. */
  lemma EvaluationTags(req: Request, useRag: bool, se: Searches, fixed2: real -> string)
    ensures var e := Execute(req, useRag, se, fixed2); var s := ReadSignals(req.metrics);
      e.Some? ==>
        (TopCandidate in e.value.tags <==> e.value.score >= 70.0)
        && (NeedsActivation in e.value.tags <==> s.value.posts30d < 4)
        && (NeedsAwarenessCampaign in e.value.tags <==> s.value.engagementRate < 0.002)
        && (HasSimilarCreators in e.value.tags <==> useRag && |e.value.rag.value.similarCreators| >= 3)
        && (CategoryInsightsAvailable in e.value.tags <==> useRag && e.value.rag.value.categoryInsights != "")
  {
    var e := Execute(req, useRag, se, fixed2);
    if e.Some? {
      var ev := e.value;
      var s := ReadSignals(req.metrics).value;
      var risks := Risks(s);
      var base := DecisionTags(GradeOf(Score(s)), risks);
      var extra := if useRag then RagTags(ev.rag.value) else [];
      assert ev.tags == base + extra;
      TagsOfJoin(base, extra);
      assert TopCandidate in base <==> ev.score >= 70.0;
      assert NeedsActivation in base <==> s.posts30d < 4;
      assert NeedsAwarenessCampaign in base <==> s.engagementRate < 0.002;
    }
  }

  /** The tags of a join: the decision tags and the retrieval tags, which share none. */
  lemma TagsOfJoin(base: seq<Tag>, extra: seq<Tag>)
    requires HasSimilarCreators !in base && CategoryInsightsAvailable !in base
    requires forall x :: x in extra ==> x in {HasSimilarCreators, CategoryInsightsAvailable}
    ensures forall t :: t in base + extra <==> t in base || t in extra
    ensures TopCandidate in base + extra <==> TopCandidate in base
    ensures NeedsActivation in base + extra <==> NeedsActivation in base
    ensures NeedsAwarenessCampaign in base + extra <==> NeedsAwarenessCampaign in base
    ensures HasSimilarCreators in base + extra <==> HasSimilarCreators in extra
    ensures CategoryInsightsAvailable in base + extra <==> CategoryInsightsAvailable in extra
  {
  }

  /** Without retrieval, or without a search engine, no retrieval tag is added. */
  lemma NoEngineNoRagTags(req: Request, se: Searches, fixed2: real -> string)
    requires !se.engine
    ensures var e := Execute(req, true, se, fixed2);
      e.Some? ==>
        e.value.rag == Some(RagData([], "", "", "", "")) && HasSimilarCreators !in e.value.tags
        && CategoryInsightsAvailable !in e.value.tags
  {
  }
}

=== FILE: agents_data_collection_agent.dfy ===
/**
 The data-collection agent: items fetched from one public-data source are
 validated, cleaned and scored, turned into content metadata, and stored.
 Items are dictionaries of loosely typed values; the network requests, the
 regular-expression text cleaning, date parsing, the metadata model's field
 coercion and the storage back ends are parameters.
 */
module DataCollectionAgent {
  import opened Common

  /* ------------------------------------------------------------- values */

  /**
   A value in a collected item. A dictionary value is its entries (values as
   their text); a date is a parsed timestamp, which only the processing step
   produces.
   */
  datatype Value =
    | Null
    | Text(s: string)
    | Number(n: int)
    | TextList(items: seq<string>)
    | Mapping(entries: seq<(string, string)>)
    | Moment(t: int)

  type Item = map<string, Value>

  /** Python's truth value. */
  predicate Truthy(v: Value) {
    match v
    case Null => false
    case Text(s) => s != ""
    case Number(n) => n != 0
    case TextList(xs) => xs != []
    case Mapping(es) => es != []
    case Moment(_) => true
  }

  function Quoted(x: string): string { "'" + x + "'" }

  function QuotedAll(xs: seq<string>): (r: seq<string>)
    ensures |r| == |xs|
  {
    seq(|xs|, i requires 0 <= i < |xs| => Quoted(xs[i]))
  }

  function EntryTexts(es: seq<(string, string)>): (r: seq<string>)
    ensures |r| == |es|
  {
    seq(|es|, i requires 0 <= i < |es| => Quoted(es[i].0) + ": " + Quoted(es[i].1))
  }

  /** `str(v)` (quotes inside texts are not escaped; a date renders as its timestamp). */
  function Repr(v: Value): (r: string)
    ensures Truthy(v) ==> r != ""
  {
    match v
    case Null => "None"
    case Text(s) => s
    case Number(n) => IntToString(n)
    case TextList(xs) => "[" + Join(", ", QuotedAll(xs)) + "]"
    case Mapping(es) => "{" + Join(", ", EntryTexts(es)) + "}"
    case Moment(t) => IntToString(t)
  }

  /** `len(v)`; `None` where Python raises. */
  function Len(v: Value): (n: Option<nat>)
    ensures n.None? <==> v.Null? || v.Number? || v.Moment?
  {
    match v
    case Text(s) => Some(|s|)
    case TextList(xs) => Some(|xs|)
    case Mapping(es) => Some(|es|)
    case _ => None
  }

  /** `item.get(k, d)`. */
  function GetOr(item: Item, k: string, d: Value): (v: Value)
    ensures k in item ==> v == item[k]
    ensures k !in item ==> v == d
  {
    if k in item then item[k] else d
  }

  /** Python's `a or b`. */
  function Or(a: Value, b: Value): (v: Value)
    ensures Truthy(a) ==> v == a
    ensures !Truthy(a) ==> v == b
  {
    if Truthy(a) then a else b
  }

  /* ---------------------------------------------------------- validation */

  const MaxIdLength := 255
  const MaxTitleLength := 500
  const MaxDescriptionLength := 10000

  /**
   `DataValidator.validate` as intended: the required fields, then the id,
   title and description lengths. A malformed URL, an unknown source or an
   unparsable date only log a warning, so they are not consulted.
   */
  function Validate(item: Item): (ok: bool)
  {
    if !Truthy(GetOr(item, "id", Text(""))) || !Truthy(GetOr(item, "title", Text("")))
      || !Truthy(GetOr(item, "source", Text(""))) then false
    else
      var id := Repr(GetOr(item, "id", Text("")));
      if id == "" || |id| > MaxIdLength then false
      else
        var title := Repr(GetOr(item, "title", Text("")));
        if IsBlank(title) || |title| > MaxTitleLength then false
        else |Repr(Or(GetOr(item, "description", Text("")), Text("")))| <= MaxDescriptionLength
  }

  /** The URL warning slices the URL, which raises for anything but a text or a list. */
  predicate UrlWarningRaises(item: Item, validUrl: string -> bool) {
    var url := GetOr(item, "url", Text(""));
    Truthy(url) && !validUrl(Repr(url)) && !url.Text? && !url.TextList?
  }

  /**
   `DataValidator.validate` as written: the raise inside the URL warning is
   caught by the method's own handler, which rejects the item.
   */
  function ValidateAsWritten(item: Item, validUrl: string -> bool): (ok: bool)
    ensures ok ==> Validate(item)
  {
    Validate(item) && !UrlWarningRaises(item, validUrl)
  }

  /** An otherwise valid item whose URL is the number 42 is rejected, though an invalid URL is meant only to warn. */
  lemma NumericUrlRejected(validUrl: string -> bool)
    requires !validUrl("42")
    ensures var item := map["id" := Text("c1"), "title" := Text("Course"), "source" := Text("NILE"), "url" := Number(42)];
      Validate(item) && !ValidateAsWritten(item, validUrl)
  {
    var item := map["id" := Text("c1"), "title" := Text("Course"), "source" := Text("NILE"), "url" := Number(42)];
    ExampleItemValid(item);
    var url := GetOr(item, "url", Text(""));
    assert url == Number(42);
    assert Repr(url) == "42" by {
      assert 42 / 10 == 4 && 42 % 10 == 2;
      assert NatToString(4) == "4";
      assert NatToString(42) == NatToString(4) + "2";
      assert IntToString(42) == NatToString(42);
    }
    assert Truthy(url) && !url.Text? && !url.TextList?;
    assert UrlWarningRaises(item, validUrl);
  }

  lemma ExampleItemValid(item: Item)
    requires item == map["id" := Text("c1"), "title" := Text("Course"), "source" := Text("NILE"), "url" := Number(42)]
    ensures Validate(item)
  {
    assert GetOr(item, "id", Text("")) == Text("c1");
    assert GetOr(item, "title", Text("")) == Text("Course");
    assert GetOr(item, "source", Text("")) == Text("NILE");
    assert GetOr(item, "description", Text("")) == Text("");
    assert !IsBlank("Course") by {
      StripOfUnspaced("Course");
    }
  }

  /** The two versions agree whenever the URL is missing, text or a list. */
  lemma AsWrittenAgreesOnTextUrls(item: Item, validUrl: string -> bool)
    requires var url := GetOr(item, "url", Text("")); url.Text? || url.TextList? || url.Null?
    ensures ValidateAsWritten(item, validUrl) == Validate(item)
  {
  }

  /** An item is rejected exactly when a required field is falsy or the id, title or description breaks its bound. */
  lemma ValidateIff(item: Item)
    ensures var id, title, desc := GetOr(item, "id", Text("")), GetOr(item, "title", Text("")), GetOr(item, "description", Text(""));
      !Validate(item) <==>
        !Truthy(id) || !Truthy(title) || !Truthy(GetOr(item, "source", Text("")))
        || |Repr(id)| > 255 || IsBlank(Repr(title)) || |Repr(title)| > 500
        || (Truthy(desc) && |Repr(desc)| > 10000)
  {
  }

  /** A bad URL, an unknown source or a bad date never decides validity. */
  lemma WarningsDoNotReject(item: Item, url: Value, source: string, created: Value)
    requires Truthy(GetOr(item, "source", Text(""))) ==> source != ""
    ensures Validate(item["url" := url]["created_at" := created]) == Validate(item)
  {
  }

  datatype Failure = Failure(item: Item, error: string)

  /** `_validate_data`: the valid items in order, and a failure record for each other one. */
  function ValidateAll(items: seq<Item>): (r: (seq<Item>, seq<Failure>))
    ensures forall x :: x in r.0 <==> x in items && Validate(x)
    ensures forall f :: f in r.1 ==> f.item in items && !Validate(f.item) && f.error == "Validation failed"
  {
    (Filter(Validate, items), FailuresOf(Filter(Invalid, items)))
  }

  function FailuresOf(xs: seq<Item>): (r: seq<Failure>)
    ensures |r| == |xs|
    ensures forall i :: 0 <= i < |xs| ==> r[i] == Failure(xs[i], "Validation failed")
  {
    seq(|xs|, i requires 0 <= i < |xs| => Failure(xs[i], "Validation failed"))
  }

  predicate Invalid(item: Item) { !Validate(item) }

  /** Validation partitions the items: every item lands on exactly one side. */
  lemma ValidatePartitions(items: seq<Item>)
    ensures |ValidateAll(items).0| + |ValidateAll(items).1| == |items|
    ensures multiset(ValidateAll(items).0) + multiset(Filter(Invalid, items)) == multiset(items)
  {
    FilterPartition(Validate, Invalid, items);
  }

  /** Filtering by a predicate and by its negation splits a list. */
  lemma {:induction false} FilterPartition<T>(p: T -> bool, q: T -> bool, s: seq<T>)
    requires forall x :: q(x) == !p(x)
    ensures |Filter(p, s)| + |Filter(q, s)| == |s|
    ensures multiset(Filter(p, s)) + multiset(Filter(q, s)) == multiset(s)
    decreases |s|
  {
    if |s| > 0 {
      FilterPartition(p, q, s[1..]);
      assert s == [s[0]] + s[1..];
    }
  }

  /* ---------------------------------------------------------- content type */

  datatype ContentType = Video | Document | Interactive | Audio | Image | OtherType

  /** `_determine_content_type`: substring tests on the lowered text; `None` where a non-text type raises. */
  function ContentTypeOf(item: Item): (t: Option<ContentType>)
    ensures t.None? <==> !GetOr(item, "content_type", Text("")).Text?
  {
    match GetOr(item, "content_type", Text(""))
    case Text(s) =>
      var c := Lower(s);
      if Contains(c, "video") || Contains(c, "mp4") then Some(Video)
      else if Contains(c, "document") || Contains(c, "pdf") then Some(Document)
      else if Contains(c, "lecture") || Contains(c, "course") then Some(Document)
      else if Contains(c, "interactive") || Contains(c, "quiz") then Some(Interactive)
      else if Contains(c, "audio") || Contains(c, "mp3") then Some(Audio)
      else if Contains(c, "image") || Contains(c, "png") || Contains(c, "jpg") then Some(Image)
      else Some(OtherType)
    case _ => None
  }

  /** The classification ignores letter case: a type name and its lowered form are classified alike. */
  lemma ContentTypeIgnoresCase(item: Item, s: string)
    ensures ContentTypeOf(item["content_type" := Text(Lower(s))]) == ContentTypeOf(item["content_type" := Text(s)])
  {
    LowerIdempotent(s);
  }

  /** A video marker wins over every other marker, and a lecture or course with no video marker is a document. */
  lemma ContentTypePrecedence(item: Item, s: string)
    requires GetOr(item, "content_type", Text("")) == Text(s)
    ensures Contains(Lower(s), "mp4") ==> ContentTypeOf(item) == Some(Video)
    ensures !Contains(Lower(s), "video") && !Contains(Lower(s), "mp4") && Contains(Lower(s), "course") ==>
      ContentTypeOf(item) == Some(Document)
  {
  }

  /* ------------------------------------------------------------ processing */

  const TextFields: seq<string> := ["title", "description", "author"]

  /**
   `_clean_text_fields`: each truthy title, description and author becomes
   its text with markup and whitespace runs cleaned (the parameter `clean`,
   which stands for the two regular-expression substitutions), then stripped.
   */
  function CleanTextFields(item: Item, clean: string -> string): (r: Item)
    ensures r.Keys == item.Keys
    ensures forall k :: k in item && (k !in TextFields || !Truthy(item[k])) ==> r[k] == item[k]
    ensures forall k :: k in item && k in TextFields && Truthy(item[k]) ==> r[k] == Text(Strip(clean(Repr(item[k]))))
  {
    map k | k in item :: if k in TextFields && Truthy(item[k]) then Text(Strip(clean(Repr(item[k])))) else item[k]
  }

  /**
   `_normalize_dates`: a truthy text creation or update date becomes the
   parsed date, or `now` when no format parses it.
   */
  function NormalizeDates(item: Item, parse: string -> Option<int>, now: int): (r: Item)
    ensures r.Keys == item.Keys
    ensures forall k :: k in item ==> (Truthy(r[k]) <==> Truthy(item[k]))
    ensures forall k :: k in item && k != "created_at" && k != "updated_at" ==> r[k] == item[k]
  {
    map k | k in item ::
      if (k == "created_at" || k == "updated_at") && item[k].Text? && Truthy(item[k]) then
        match parse(item[k].s)
        case Some(t) => Moment(t)
        case None => Moment(now)
      else item[k]
  }

  /** The raw tags: a comma-separated text split and stripped, a list, or a dictionary's keys; `None` where iterating raises. */
  function RawTags(v: Value): (r: Option<seq<string>>)
    ensures r.None? <==> v.Null? || v.Number? || v.Moment?
  {
    match v
    case Text(s) =>
      var parts := SplitOn(s, c => c == ',');
      Some(seq(|parts|, i requires 0 <= i < |parts| => Strip(parts[i])))
    case TextList(xs) => Some(xs)
    case Mapping(es) => Some(seq(|es|, i requires 0 <= i < |es| => es[i].0))
    case _ => None
  }

  predicate AcceptableTag(t: string) { t != "" && |t| <= 50 }

  /** Each raw tag stripped and lowered. */
  function Lowered(xs: seq<string>): (r: seq<string>)
    ensures |r| == |xs|
    ensures forall i :: 0 <= i < |xs| ==> r[i] == Lower(Strip(xs[i]))
  {
    seq(|xs|, i requires 0 <= i < |xs| => Lower(Strip(xs[i])))
  }

  /**
   The cleaning of `_clean_tags`: stripped, lowered, non-empty, at most 50
   characters, duplicates removed (kept here in first-occurrence order).
   */
  function CleanTagList(raw: seq<string>): (r: seq<string>)
    ensures forall t :: t in r <==> t in Lowered(raw) && AcceptableTag(t)
    ensures NoDuplicates(r)
  {
    var kept := Filter(AcceptableTag, Lowered(raw));
    var r := DedupBy(kept, (t: string) => t, {});
    DedupByFirst(kept, (t: string) => t, {});
    r
  }

  /** Lowering a stripped text keeps it stripped. */
  lemma LowerKeepsStripped(s: string)
    requires |s| > 0 ==> !IsSpace(s[0]) && !IsSpace(s[|s| - 1])
    ensures Strip(Lower(s)) == Lower(s)
  {
    StripOfUnspaced(Lower(s));
  }

  /** Every cleaned tag is lower-case, stripped, non-empty, at most 50 characters, and they are distinct. */
  lemma CleanTagsAreClean(raw: seq<string>)
    ensures var r := CleanTagList(raw);
      NoDuplicates(r)
      && forall t :: t in r ==> t != "" && |t| <= 50 && Strip(t) == t && forall c :: c in t ==> !IsUpper(c)
  {
    var low := Lowered(raw);
    forall t | t in CleanTagList(raw)
      ensures Strip(t) == t && forall c :: c in t ==> !IsUpper(c)
    {
      var i :| 0 <= i < |low| && low[i] == t;
      LoweredTagIsClean(raw[i]);
    }
  }

  /** One tag after stripping and lowering is stripped and has no upper-case letter. */
  lemma LoweredTagIsClean(x: string)
    ensures var t := Lower(Strip(x)); Strip(t) == t && forall c :: c in t ==> !IsUpper(c)
  {
    LowerKeepsStripped(Strip(x));
  }

  /** `_clean_tags`: truthy tags are replaced by their cleaned list; `None` where iterating them raises. */
  function CleanTags(item: Item): (r: Option<Item>)
    ensures r.Some? ==> r.value.Keys == item.Keys
    ensures r.None? <==> "tags" in item && Truthy(item["tags"]) && RawTags(item["tags"]).None?
    ensures r.Some? && "tags" in item && Truthy(item["tags"]) ==> r.value["tags"] == TextList(CleanTagList(RawTags(item["tags"]).value))
  {
    if "tags" in item && Truthy(item["tags"]) then
      match RawTags(item["tags"])
      case None => None
      case Some(raw) => Some(item["tags" := TextList(CleanTagList(raw))])
    else Some(item)
  }

  /** Tenths earned by the title: one at 10 characters, one more at 20. */
  function TitlePoints(title: Value): (n: Option<nat>)
    ensures n.Some? ==> n.value <= 2
  {
    if !Truthy(title) then Some(0)
    else match Len(title)
      case None => None
      case Some(l) => Some((if l >= 10 then 1 else 0) + (if l >= 20 then 1 else 0))
  }

  function DescriptionPoints(d: Value): (n: nat)
    ensures n <= 3
  {
    if !Truthy(d) then 0
    else
      var l := |Repr(d)|;
      (if l >= 50 then 1 else 0) + (if l >= 100 then 1 else 0) + (if l >= 200 then 1 else 0)
  }

  function TagPoints(tags: Value): (n: Option<nat>)
    ensures n.Some? ==> n.value <= 2
  {
    if !Truthy(tags) then Some(0)
    else match Len(tags)
      case None => None
      case Some(l) => Some((if l >= 1 then 1 else 0) + (if l >= 3 then 1 else 0))
  }

  function MetadataPoints(m: Value): (n: Option<nat>)
    ensures n.Some? ==> n.value <= 1
  {
    if !Truthy(m) then Some(0)
    else match Len(m)
      case None => None
      case Some(l) => Some(if l >= 3 then 1 else 0)
  }

  /**
   `_calculate_quality_score` in tenths: title up to 2, description up to 3,
   URL 1, author 1, tags up to 2, a metadata dictionary of three or more
   entries 1; `None` where taking a length raises.
   */
  function QualityTenths(item: Item): (n: Option<nat>)
    ensures n.Some? ==> n.value <= 10
  {
    var t := TitlePoints(GetOr(item, "title", Text("")));
    var g := TagPoints(GetOr(item, "tags", TextList([])));
    var m := MetadataPoints(GetOr(item, "metadata", Mapping([])));
    if t.None? || g.None? || m.None? then None
    else
      Some(t.value + DescriptionPoints(GetOr(item, "description", Text("")))
        + (if Truthy(GetOr(item, "url", Null)) then 1 else 0)
        + (if Truthy(GetOr(item, "author", Null)) then 1 else 0)
        + g.value + m.value)
  }

  /** The quality score lies in [0, 1]: the tenths add up to at most 10, so the cap at 1.0 never bites. */
  lemma QualityInUnitRange(item: Item)
    requires QualityTenths(item).Some?
    ensures 0.0 <= QualityTenths(item).value as real / 10.0 <= 1.0
  {
  }

  const CompletenessFields: seq<string> := ["id", "title", "description", "content_type", "source", "url", "author", "tags", "created_at"]

  /** The number of the nine listed fields that are filled. */
  function Filled(item: Item): (n: nat)
    ensures n <= 9
  {
    Count((f: string) => Truthy(GetOr(item, f, Null)), CompletenessFields)
  }

  /** Rounding a ninth to hundredths stays within half a hundredth and keeps 0 and 1 exact. */
  lemma NinthsToHundredths(f: nat)
    requires f <= 9
    ensures var h := (200 * f + 9) / 18;
      0 <= h <= 100 && (h == 100 <==> f == 9) && (h == 0 <==> f == 0)
      && -0.005 <= h as real / 100.0 - f as real / 9.0 <= 0.005
  {
    var h := (200 * f + 9) / 18;
    assert 18 * h <= 200 * f + 9 < 18 * h + 18;
    var d := 18 * h - 200 * f;
    assert -9 <= d <= 9;
    assert h as real / 100.0 - f as real / 9.0 == d as real / 1800.0;
  }

  /**
   `_calculate_completeness_score`: the filled fraction of the nine listed
   fields rounded to two decimals (no ninth lies on a rounding tie, so
   rounding half up is exact).
   */
  function Completeness(item: Item): (c: real)
    ensures 0.0 <= c <= 1.0
    ensures -0.005 <= c - Filled(item) as real / 9.0 <= 0.005
    ensures c == 1.0 <==> Filled(item) == 9
    ensures c == 0.0 <==> Filled(item) == 0
  {
    var f := Filled(item);
    var hundredths := (200 * f + 9) / 18;
    NinthsToHundredths(f);
    hundredths as real / 100.0
  }

  /** An item with all nine fields filled is complete; one with none is empty. */
  lemma CompletenessExtremes(item: Item)
    ensures (forall f :: f in CompletenessFields ==> Truthy(GetOr(item, f, Null))) ==> Completeness(item) == 1.0
    ensures (forall f :: f in CompletenessFields ==> !Truthy(GetOr(item, f, Null))) ==> Completeness(item) == 0.0
  {
    CountUniform((f: string) => Truthy(GetOr(item, f, Null)), CompletenessFields);
  }

  predicate SentenceEnd(c: char) { c == '.' || c == '!' || c == '?' || c == '。' }

  function StrippedAll(xs: seq<string>): (r: seq<string>)
    ensures |r| == |xs|
    ensures forall i :: 0 <= i < |xs| ==> r[i] == Strip(xs[i])
  {
    seq(|xs|, i requires 0 <= i < |xs| => Strip(xs[i]))
  }

  predicate LongSentence(s: string) { s != "" && |s| >= 20 }

  /** Whatever is kept of a list of stripped texts is stripped. */
  lemma StrippedStayStripped(xs: seq<string>, keep: string -> bool)
    ensures forall s :: s in Filter(keep, StrippedAll(xs)) ==> Strip(s) == s
  {
    forall s | s in Filter(keep, StrippedAll(xs)) ensures Strip(s) == s {
      var i :| 0 <= i < |xs| && StrippedAll(xs)[i] == s;
      StripIdempotent(xs[i]);
    }
  }

  /** `_extract_key_sentences`: the first three stripped pieces between sentence ends that have at least 20 characters. */
  function KeySentences(item: Item): (r: seq<string>)
    ensures |r| <= 3
    ensures forall s :: s in r ==> |s| >= 20 && Strip(s) == s
    ensures !Truthy(GetOr(item, "description", Text(""))) ==> r == []
  {
    var d := GetOr(item, "description", Text(""));
    if !Truthy(d) then []
    else
      var pieces := StrippedAll(SplitOn(Repr(d), SentenceEnd));
      var kept := Filter(LongSentence, pieces);
      StrippedStayStripped(SplitOn(Repr(d), SentenceEnd), LongSentence);
      assert forall s :: s in Take(kept, 3) ==> s in kept;
      Take(kept, 3)
  }

  /** The key sentences are the first long sentences in order: none is skipped before the third. */
  lemma KeySentencesArePrefix(item: Item)
    requires Truthy(GetOr(item, "description", Text("")))
    ensures var d := GetOr(item, "description", Text(""));
      var kept := Filter(LongSentence, StrippedAll(SplitOn(Repr(d), SentenceEnd)));
      KeySentences(item) == kept[..Min(3, |kept|)]
  {
  }

  /** The outcome of `ContentProcessor.process`: the enhanced copy, or the original item after an exception. */
  datatype Processed =
    | Enhanced(item: Item, quality: real, completeness: real, sentences: seq<string>)
    | Unprocessed(item: Item)

  /**
   `ContentProcessor.process`: clean the texts, normalise the dates, clean
   the tags, then score. The keyword extraction is left out. Any exception
   returns the item unchanged.
   */
  function Process(item: Item, clean: string -> string, parse: string -> Option<int>, now: int): (p: Processed)
    ensures p.Unprocessed? ==> p.item == item
    ensures p.Enhanced? ==> 0.0 <= p.quality <= 1.0 && 0.0 <= p.completeness <= 1.0 && |p.sentences| <= 3
    ensures p.Enhanced? ==> p.item.Keys == item.Keys
  {
    var a := NormalizeDates(CleanTextFields(item, clean), parse, now);
    match CleanTags(a)
    case None => Unprocessed(item)
    case Some(b) =>
      match QualityTenths(b)
      case None => Unprocessed(item)
      case Some(q) => Enhanced(b, q as real / 10.0, Completeness(b), KeySentences(b))
  }

  /** Processing fails, returning the original, exactly when the tags or the metadata raise. */
  lemma ProcessFailsOnlyOnTagsOrMetadata(item: Item, clean: string -> string, parse: string -> Option<int>, now: int)
    ensures var a := NormalizeDates(CleanTextFields(item, clean), parse, now);
      Process(item, clean, parse, now).Unprocessed? <==>
        CleanTags(a).None? || QualityTenths(CleanTags(a).value).None?
  {
  }

  /* -------------------------------------------------------------- metadata */

  /** The content metadata of one item (the fields the model keeps). */
  datatype Meta = Meta(
    id: Value,
    title: Value,
    contentType: ContentType,
    source: Value,
    url: Value,
    description: Value,
    tags: Value,
    quality: Option<real>,
    completeness: Option<real>)

  /**
   `_generate_metadata`: `None` where it raises, that is when the content
   type is not text or the metadata model rejects a field (`accepts`).
   */
  function MakeMeta(p: Processed, accepts: Item -> bool): (m: Option<Meta>)
    ensures m.Some? <==> ContentTypeOf(p.item).Some? && accepts(p.item)
    ensures m.Some? ==> m.value.contentType == ContentTypeOf(p.item).value
    ensures m.Some? ==> m.value.url == Or(GetOr(p.item, "file_url", Null), Or(GetOr(p.item, "url", Null), Null))
    ensures m.Some? ==> (m.value.quality.Some? <==> p.Enhanced?)
  {
    var item := p.item;
    match ContentTypeOf(item)
    case None => None
    case Some(t) =>
      if !accepts(item) then None
      else
        Some(Meta(
          GetOr(item, "id", Text("")),
          GetOr(item, "title", Text("")),
          t,
          GetOr(item, "source", Text("")),
          Or(GetOr(item, "file_url", Null), Or(GetOr(item, "url", Null), Null)),
          Or(GetOr(item, "summary", Null), Or(GetOr(item, "description", Null), Null)),
          Or(GetOr(item, "tags", Null), Or(GetOr(item, "keywords", Null), TextList([]))),
          if p.Enhanced? then Some(p.quality) else None,
          if p.Enhanced? then Some(p.completeness) else None))
  }

  /** The oracles of one run. */
  datatype Env = Env(
    clean: string -> string,
    parse: string -> Option<int>,
    now: int,
    accepts: Item -> bool,
    metaError: Item -> string)

  /** `_process_content`: the metadata of each item that gets through, and a failure for each that raises. */
  function ProcessAll(items: seq<Item>, env: Env): (r: (seq<Meta>, seq<Failure>))
    ensures |r.0| + |r.1| == |items|
    ensures forall f :: f in r.1 ==> f.item in items
  {
    if items == [] then ([], [])
    else
      var rest := ProcessAll(items[1..], env);
      assert forall f :: f in rest.1 ==> f.item in items;
      match MakeMeta(Process(items[0], env.clean, env.parse, env.now), env.accepts)
      case Some(m) => ([m] + rest.0, rest.1)
      case None => (rest.0, [Failure(items[0], env.metaError(items[0]))] + rest.1)
  }

  /* ------------------------------------------------------------ the agent */

  datatype Source = Nile | Mohw | Kicce | Manual

  /** `str(DataSourceType.X)`. */
  function SourceName(s: Source): string {
    match s
    case Nile => "DataSourceType.NILE"
    case Mohw => "DataSourceType.MOHW"
    case Kicce => "DataSourceType.KICCE"
    case Manual => "DataSourceType.MANUAL"
  }

  /** `_initialize_api_clients`: a client for each public source whose API key is configured and non-empty. */
  function Clients(config: map<string, string>): (cs: set<Source>)
    ensures Manual !in cs
    ensures Nile in cs <==> "nile_api_key" in config && config["nile_api_key"] != ""
    ensures Mohw in cs <==> "mohw_api_key" in config && config["mohw_api_key"] != ""
    ensures Kicce in cs <==> "kicce_api_key" in config && config["kicce_api_key"] != ""
  {
    (if "nile_api_key" in config && config["nile_api_key"] != "" then {Nile} else {})
    + (if "mohw_api_key" in config && config["mohw_api_key"] != "" then {Mohw} else {})
    + (if "kicce_api_key" in config && config["kicce_api_key"] != "" then {Kicce} else {})
  }

  datatype Status = Pending | InProgress | Completed | Failed | Partial

  datatype State = State(
    source: Option<Source>,
    collected: seq<Item>,
    processed: seq<Meta>,
    failed: seq<Failure>,
    status: Status,
    totalItems: nat,
    successCount: nat,
    errorCount: nat,
    errors: seq<string>)

  /**
   `_collect_data`: a configured source replaces the collected items by the
   concatenation of its three endpoints' items (`fetched`, each endpoint
   already giving [] on failure); any other source records an error and
   leaves the items as they were.
   */
  function Collect(st: State, clients: set<Source>, fetched: Source -> seq<Item>): (o: State)
    ensures st.source.Some? && st.source.value in clients ==>
      o == st.(collected := fetched(st.source.value), totalItems := |fetched(st.source.value)|)
    ensures !(st.source.Some? && st.source.value in clients) ==>
      o == st.(errors := st.errors + [UnsupportedMessage(st.source)])
  {
    if st.source.Some? && st.source.value in clients then
      var items := fetched(st.source.value);
      st.(collected := items, totalItems := |items|)
    else
      st.(errors := st.errors + [UnsupportedMessage(st.source)])
  }

  /** The error recorded for a source without a client. */
  function UnsupportedMessage(source: Option<Source>): string {
    "데이터 수집 실패: Unsupported data source: " + (if source.Some? then SourceName(source.value) else "None")
  }

  /** `_validate_data`. */
  function ValidateStep(st: State): (o: State)
    ensures o.errorCount == |o.failed|
    ensures forall x :: x in o.collected <==> x in st.collected && Validate(x)
    ensures |o.collected| + o.errorCount == |st.collected|
    ensures o.errors == st.errors && o.totalItems == st.totalItems
  {
    var r := ValidateAll(st.collected);
    ValidatePartitions(st.collected);
    st.(collected := r.0, failed := r.1, errorCount := |r.1|)
  }

  /** `_process_content`: processing failures join the failed list; the success count is the number of metadata records. */
  function ProcessStep(st: State, env: Env): (o: State)
    ensures o.successCount == |o.processed|
    ensures |o.processed| + (|o.failed| - |st.failed|) == |st.collected|
    ensures |o.failed| >= |st.failed| && o.failed[..|st.failed|] == st.failed
    ensures o.errorCount == st.errorCount && o.errors == st.errors && o.totalItems == st.totalItems
  {
    var r := ProcessAll(st.collected, env);
    st.(processed := r.0, failed := st.failed + r.1, successCount := |r.0|)
  }

  /**
   `execute`: collect, validate, process, store (`storeError` is the
   storage failure, if any), and finish as completed; every stage handles its
   own exceptions, so the run always completes.
   */
  function Execute(st: State, clients: set<Source>, fetched: Source -> seq<Item>, env: Env, storeError: Option<string>): (o: State)
    ensures o.status == Completed
    ensures o.successCount == |o.processed| && o.errorCount <= |o.failed|
    ensures st.source.Some? && st.source.value in clients ==>
      o.successCount + |o.failed| == |fetched(st.source.value)| && o.totalItems == |fetched(st.source.value)|
    ensures storeError.Some? ==> |o.errors| > 0 && o.errors[|o.errors| - 1] == "데이터 저장 실패: " + storeError.value
  {
    var s1 := Collect(st.(status := InProgress), clients, fetched);
    var s2 := ValidateStep(s1);
    var s3 := ProcessStep(s2, env);
    var s4 := if storeError.Some? then s3.(errors := s3.errors + ["데이터 저장 실패: " + storeError.value]) else s3;
    s4.(status := Completed)
  }

  /** The failed list holds the validation failures, counted by `error_count`, followed by the processing failures, which it does not count. */
  lemma ErrorCountIsValidationFailures(st: State, clients: set<Source>, fetched: Source -> seq<Item>, env: Env, storeError: Option<string>)
    requires st.source.Some? && st.source.value in clients
    ensures var o := Execute(st, clients, fetched, env, storeError);
      var items := fetched(st.source.value);
      o.errorCount == |items| - |Filter(Validate, items)|
      && |o.failed| - o.errorCount == |Filter(Validate, items)| - o.successCount
  {
    ValidatePartitions(fetched(st.source.value));
  }

  /** An unsupported source leaves the earlier items to be validated and records one collection error. */
  lemma UnsupportedSource(st: State, clients: set<Source>, fetched: Source -> seq<Item>, env: Env)
    requires st.source == Some(Manual) && Manual !in clients
    ensures var o := Execute(st, clients, fetched, env, None);
      o.errors == st.errors + ["데이터 수집 실패: Unsupported data source: DataSourceType.MANUAL"]
      && o.totalItems == st.totalItems
  {
    var s1 := Collect(st.(status := InProgress), clients, fetched);
    assert UnsupportedMessage(st.source) == "데이터 수집 실패: Unsupported data source: DataSourceType.MANUAL";
    assert s1.errors == st.errors + ["데이터 수집 실패: Unsupported data source: DataSourceType.MANUAL"];
    var s2 := ValidateStep(s1);
    assert s2.errors == s1.errors && s2.totalItems == st.totalItems;
    var s3 := ProcessStep(s2, env);
    assert s3.errors == s1.errors && s3.totalItems == st.totalItems;
    assert Execute(st, clients, fetched, env, None) == s3.(status := Completed);
  }

  /* --------------------------------------------------- response envelopes */

  /** A decoded JSON document. */
  datatype Json = JNull | JBool(b: bool) | JNum(x: real) | JStr(s: string) | JList(xs: seq<Json>) | JObj(m: map<string, Json>)

  /** The normalised response: an envelope of items and total, the data passed through, or an exception. */
  datatype Normalized = Envelope(items: Json, totalCount: Json) | AsGiven(data: Json) | Raised

  /** Python's `key in data`: dictionary keys, list elements, substrings; other types raise. */
  function HasMember(data: Json, key: string): (r: Option<bool>)
    ensures r.None? <==> !(data.JObj? || data.JList? || data.JStr?)
  {
    match data
    case JObj(m) => Some(key in m)
    case JList(xs) => Some(JStr(key) in xs)
    case JStr(s) => Some(Contains(s, key))
    case _ => None
  }

  function JGet(m: map<string, Json>, k: string, d: Json): Json {
    if k in m then m[k] else d
  }

  /** The `response` envelope: `response.body.items[.item]`, a single object wrapped in a list. */
  function Unwrap(data: Json): (r: Normalized)
    requires data.JObj? && "response" in data.m
  {
    match data.m["response"]
    case JObj(resp) =>
      (match JGet(resp, "body", JObj(map[]))
       case JObj(body) =>
         var items := JGet(body, "items", JObj(map[]));
         var list0 := if items.JObj? then JGet(items.m, "item", JList([])) else if items.JList? then items else JList([]);
         var list := if list0.JObj? then JList([list0]) else list0;
         (match list
          case JList(xs) => Envelope(list, JGet(body, "totalCount", JNum(|xs| as real)))
          case JStr(s) => Envelope(list, JGet(body, "totalCount", JNum(|s| as real)))
          case _ => Raised)
       case _ => Raised)
    case _ => Raised
  }

  /**
   `BaseAPIClient._normalize_response` as written: the membership tests run
   before the list test, so they apply to lists and strings too.
   */
  function NormalizeResponse(data: Json): (r: Normalized)
  {
    match HasMember(data, "response")
    case None => Raised
    case Some(true) => if data.JObj? then Unwrap(data) else Raised
    case Some(false) =>
      match HasMember(data, "items")
      case None => Raised
      case Some(true) => AsGiven(data)
      case Some(false) => if data.JList? then Envelope(data, JNum(|data.xs| as real)) else Envelope(JList([]), JNum(0.0))
  }

  /** The envelope cases: a single item object becomes a one-item list, a list stays, and the total defaults to the item count. */
  lemma EnvelopeItems(body: map<string, Json>, inner: map<string, Json>)
    requires "items" in body && body["items"] == JObj(inner) && "item" in inner
    ensures var data := JObj(map["response" := JObj(map["body" := JObj(body)])]);
      (inner["item"].JObj? ==> NormalizeResponse(data).items == JList([inner["item"]]))
      && (inner["item"].JList? ==> NormalizeResponse(data).items == inner["item"])
      && (inner["item"].JList? && "totalCount" !in body ==> NormalizeResponse(data).totalCount == JNum(|inner["item"].xs| as real))
  {
  }

  /** A dictionary already carrying `items` passes through; one with neither key gives an empty envelope. */
  lemma ObjectCases(m: map<string, Json>)
    requires "response" !in m
    ensures "items" in m ==> NormalizeResponse(JObj(m)) == AsGiven(JObj(m))
    ensures "items" !in m ==> NormalizeResponse(JObj(m)) == Envelope(JList([]), JNum(0.0))
  {
  }

  /** A list that happens to contain the text "items" comes back as the bare list, and one containing "response" raises. */
  lemma ListWithKeyWord()
    ensures NormalizeResponse(JList([JStr("items")])) == AsGiven(JList([JStr("items")]))
    ensures NormalizeResponse(JList([JStr("response")])) == Raised
  {
    assert JStr("items") in [JStr("items")];
    assert JStr("response") !in [JStr("items")];
    assert JStr("response") in [JStr("response")];
  }

  /** The evidently intended normalisation: a list is always wrapped with its length; only dictionaries are searched for keys. */
  function NormalizeResponseChecked(data: Json): (r: Normalized)
    ensures data.JList? ==> r == Envelope(data, JNum(|data.xs| as real))
    ensures r.AsGiven? ==> r.data.JObj?
  {
    match data
    case JList(xs) => Envelope(data, JNum(|xs| as real))
    case JObj(m) =>
      if "response" in m then Unwrap(data)
      else if "items" in m then AsGiven(data)
      else Envelope(JList([]), JNum(0.0))
    case _ => Envelope(JList([]), JNum(0.0))
  }

  /** On dictionaries the two versions agree; they differ only on lists and scalars. */
  lemma CheckedAgreesOnObjects(m: map<string, Json>)
    ensures NormalizeResponseChecked(JObj(m)) == NormalizeResponse(JObj(m))
  {
  }

  /* ------------------------------------------------------- source tags */

  predicate NonEmpty(t: string) { t != "" }

  /** `NileAPIClient._extract_tags`: category, subject and comma-separated keywords, stripped, blanks dropped; `None` where a non-text value raises. */
  function NileTags(item: Item): (r: Option<seq<string>>)
    ensures r.Some? ==> forall t :: t in r.value ==> t != "" && Strip(t) == t
  {
    var cat := GetOr(item, "category", Null);
    var sub := GetOr(item, "subject", Null);
    var kw := GetOr(item, "keywords", Null);
    if (Truthy(cat) && !cat.Text?) || (Truthy(sub) && !sub.Text?) || (Truthy(kw) && !kw.Text?) then None
    else
      var tags := (if Truthy(cat) then [cat.s] else []) + (if Truthy(sub) then [sub.s] else [])
        + (if Truthy(kw) then SplitOn(kw.s, c => c == ',') else []);
      var stripped := StrippedAll(tags);
      var kept := Filter(NonEmpty, stripped);
      StrippedStayStripped(tags, NonEmpty);
      Some(kept)
  }

  /** `MohwAPIClient._extract_policy_tags`: "정책", then the truthy category and target. */
  function PolicyTags(item: Item): (r: seq<Value>)
    ensures |r| >= 1 && r[0] == Text("정책")
    ensures forall i :: 1 <= i < |r| ==> Truthy(r[i])
  {
    var cat := GetOr(item, "category", Null);
    var target := GetOr(item, "target", Null);
    [Text("정책")] + (if Truthy(cat) then [cat] else []) + (if Truthy(target) then [target] else [])
  }

  predicate IsComma(c: char) { c == ',' }

  /** The keyword tags of a report: the stripped comma-separated parts of a text, the entries of a list, else none. */
  function KeywordValues(kw: Value): (r: seq<Value>)
    ensures kw.Text? ==> forall p :: p in SplitOn(kw.s, IsComma) ==> Text(Strip(p)) in r
    ensures kw.TextList? ==> forall t :: t in kw.items ==> Text(t) in r
    ensures !kw.Text? && !kw.TextList? ==> r == []
    ensures forall v :: v in r ==> v.Text?
  {
    if kw.Text? then
      var parts := SplitOn(kw.s, IsComma);
      var r := seq(|parts|, i requires 0 <= i < |parts| => Text(Strip(parts[i])));
      assert forall p :: p in parts ==> Text(Strip(p)) in r by {
        forall p | p in parts ensures Text(Strip(p)) in r {
          var k :| 0 <= k < |parts| && parts[k] == p;
          assert r[k] == Text(Strip(p));
        }
      }
      r
    else if kw.TextList? then
      var r := seq(|kw.items|, i requires 0 <= i < |kw.items| => Text(kw.items[i]));
      assert forall t :: t in kw.items ==> Text(t) in r by {
        forall t | t in kw.items ensures Text(t) in r {
          var k :| 0 <= k < |kw.items| && kw.items[k] == t;
          assert r[k] == Text(t);
        }
      }
      r
    else []
  }

  /**
   `KicceAPIClient._extract_research_tags`: "연구보고서", the report type, the
   keywords (split and stripped when text), keeping the truthy ones only.
   */
  function ResearchTags(item: Item): (r: seq<Value>)
    ensures |r| >= 1 && r[0] == Text("연구보고서")
    ensures forall v :: v in r ==> Truthy(v)
    ensures Truthy(GetOr(item, "reportType", Null)) ==> GetOr(item, "reportType", Null) in r
    ensures Truthy(GetOr(item, "keywords", Null)) ==>
      forall v :: v in KeywordValues(GetOr(item, "keywords", Null)) && Truthy(v) ==> v in r
    ensures forall v :: v in r ==>
      v == Text("연구보고서") || v == GetOr(item, "reportType", Null)
      || (Truthy(GetOr(item, "keywords", Null)) && v in KeywordValues(GetOr(item, "keywords", Null)))
  {
    var rt := GetOr(item, "reportType", Null);
    var kw := GetOr(item, "keywords", Null);
    var keywords := if Truthy(kw) then KeywordValues(kw) else [];
    [Text("연구보고서")] + Filter(Truthy, (if Truthy(rt) then [rt] else []) + keywords)
  }
}

=== FILE: agents_integration_agent.dfy ===
/**
 The integration agent: the integration type comes from the state, else
 from the context, else "default", and selects one of four handlers, each of
 which reports itself completed with the matching data from the context.
 */
module IntegrationAgent {
  import opened Common

  /** A context value: text, a dictionary of text, or anything else. */
  datatype Val = Text(s: string) | Dict(d: map<string, string>) | OtherVal(tag: nat)

  datatype Kind = Api | Webhook | Batch | Default

  datatype IntegrationResult = IntegrationResult(kind: Kind, status: string, data: Val)

  datatype State = State(
    integrationType: Option<string>,
    context: map<string, Val>,
    results: Option<IntegrationResult>,
    success: bool,
    errors: seq<string>)

  /** `context.get(key, default)`. */
  function Get(ctx: map<string, Val>, key: string, default: Val): (v: Val)
    ensures key in ctx ==> v == ctx[key]
    ensures key !in ctx ==> v == default
  {
    if key in ctx then ctx[key] else default
  }

  /** `state.integration_type or context.get("integration_type", "default")`. */
  function ChosenType(st: State): (t: Val)
    ensures st.integrationType.Some? && st.integrationType.value != "" ==> t == Text(st.integrationType.value)
    ensures (st.integrationType.None? || st.integrationType.value == "") && "integration_type" !in st.context ==> t == Text("default")
    ensures (st.integrationType.None? || st.integrationType.value == "") && "integration_type" in st.context ==> t == st.context["integration_type"]
  {
    if st.integrationType.Some? && st.integrationType.value != "" then Text(st.integrationType.value)
    else Get(st.context, "integration_type", Text("default"))
  }

  /** The handler a type selects: only the exact texts "api", "webhook" and "batch" pick their own. */
  function KindOf(t: Val): (k: Kind)
    ensures k == Api <==> t == Text("api")
    ensures k == Webhook <==> t == Text("webhook")
    ensures k == Batch <==> t == Text("batch")
  {
    if t == Text("api") then Api
    else if t == Text("webhook") then Webhook
    else if t == Text("batch") then Batch
    else Default
  }

  /** The context key each handler reads its data from. */
  function DataKey(k: Kind): (key: string)
    ensures k == Default <==> key == "data"
  {
    match k
    case Api => "api_data"
    case Webhook => "webhook_data"
    case Batch => "batch_data"
    case Default => "data"
  }

  /** Each handler reads its own key: two handlers never share one. */
  lemma DataKeysDistinct(k: Kind, j: Kind)
    requires k != j
    ensures DataKey(k) != DataKey(j)
  {
  }

  /** The four `_process_*_integration` handlers. */
  function Process(k: Kind, ctx: map<string, Val>): (r: IntegrationResult)
    ensures r.kind == k && r.status == "completed"
    ensures DataKey(k) in ctx ==> r.data == ctx[DataKey(k)]
    ensures DataKey(k) !in ctx ==> r.data == Dict(map[])
  {
    IntegrationResult(k, "completed", Get(ctx, DataKey(k), Dict(map[])))
  }

  /** A handler's result depends only on its own context key. */
  lemma ProcessReadsOnlyItsKey(k: Kind, c1: map<string, Val>, c2: map<string, Val>)
    requires (DataKey(k) in c1 <==> DataKey(k) in c2)
    requires DataKey(k) in c1 ==> c1[DataKey(k)] == c2[DataKey(k)]
    ensures Process(k, c1) == Process(k, c2)
  {
  }

  /**
   `execute`; `raised` is an exception raised while handling (the handlers
   themselves cannot raise), which records an error and clears the success flag.
   */
  function Execute(st: State, raised: Option<string>): (o: State)
    ensures o.success <==> raised.None?
    ensures raised.None? ==> o.results.Some? && o.results.value.kind == KindOf(ChosenType(st)) && o.errors == st.errors
    ensures raised.Some? ==> o.results == st.results && o.errors == st.errors + ["통합 처리 실패: " + raised.value]
    ensures o.integrationType == st.integrationType && o.context == st.context
  {
    match raised
    case Some(e) => st.(errors := st.errors + ["통합 처리 실패: " + e], success := false)
    case None => st.(results := Some(Process(KindOf(ChosenType(st)), st.context)), success := true)
  }

  /** The state's own type wins over the context's, and an absent type in both runs the default handler. */
  lemma TypePrecedence(st: State, t: string)
    requires st.integrationType == Some(t) && t != ""
    ensures Execute(st, None).results.value.kind == KindOf(Text(t))
    ensures t != "api" && t != "webhook" && t != "batch" ==> Execute(st, None).results.value.kind == Default
  {
  }

  /** An absent or empty state type defers to the context's type, whatever value it holds. */
  lemma ContextTypeFallback(st: State, v: Val)
    requires st.integrationType.None? || st.integrationType.value == ""
    requires "integration_type" in st.context && st.context["integration_type"] == v
    ensures Execute(st, None).results.value.kind == KindOf(v)
    ensures v != Text("api") && v != Text("webhook") && v != Text("batch") ==> Execute(st, None).results.value.kind == Default
  {
  }

  /** Without a type anywhere, the default handler runs and reads the context's "data". */
  lemma DefaultWhenUntyped(st: State)
    requires st.integrationType.None? && "integration_type" !in st.context
    ensures var r := Execute(st, None).results.value;
      r.kind == Default && r.data == Get(st.context, "data", Dict(map[]))
  {
  }
}

=== FILE: agents_llm_manager_agent.dfy ===
/**
 The LLM-manager agent: it reads the plan the planner left in the context,
 normalises the cost preference and complexity, builds selection criteria and
 asks the model selector for a model.
 */
module LlmManagerAgent {
  import opened Common
  import LlmTools

  /**
   The inputs `execute` reads. A missing or falsy value is "", and a plan
   that is not a dictionary is the empty plan.
   */
  datatype Plan = Plan(costPreference: string, complexity: string, workflowType: string)

  datatype Input = Input(taskType: string, latestText: string, plan: Plan, contextCostPreference: string)

  datatype Selection = Selection(
    selectedModel: string,
    costPreference: string,
    complexity: string,
    maxTokens: int,
    criteria: LlmTools.Criteria)

  /** Python's `a or b` on strings. */
  function Or(a: string, b: string): string { if a != "" then a else b }

  /** The cost preference: plan, then context, then "balanced"; values outside the four known ones become "balanced". */
  function CostPreference(i: Input): (r: string)
    ensures r in {"budget", "balanced", "performance", "speed"}
    ensures Or(Or(i.plan.costPreference, i.contextCostPreference), "balanced") in {"budget", "balanced", "performance", "speed"}
            ==> r == Or(Or(i.plan.costPreference, i.contextCostPreference), "balanced")
  {
    var c := Or(Or(i.plan.costPreference, i.contextCostPreference), "balanced");
    if c in {"budget", "balanced", "performance", "speed"} then c else "balanced"
  }

  /** The complexity: the plan's, else "high" beyond 200 characters of message, else "medium"; unknown values become "medium". */
  function Complexity(i: Input): (r: string)
    ensures r in {"simple", "medium", "high"}
    ensures i.plan.complexity == "" ==> r == (if |i.latestText| > 200 then "high" else "medium")
    ensures i.plan.complexity in {"simple", "medium", "high"} ==> r == i.plan.complexity
  {
    var c := Or(i.plan.complexity, if |i.latestText| > 200 then "high" else "medium");
    if c in {"simple", "medium", "high"} then c else "medium"
  }

  /** The token budget for a complexity. */
  function MaxTokensFor(complexity: string): int {
    if complexity == "simple" then 1200 else if complexity == "medium" then 2400 else 6000
  }

  /** The selector priority for a cost preference. */
  function PriorityFor(costPreference: string): string {
    if costPreference == "budget" then "cost" else if costPreference == "speed" then "speed" else "balanced"
  }

  /** The success path of `execute`. */
  function Execute(i: Input, monitor: LlmTools.Monitor): (s: Selection)
    requires monitor.Valid()
    ensures s.criteria.taskType == Or(Or(i.taskType, i.plan.workflowType), "general")
    ensures s.selectedModel == LlmTools.SelectModel(s.criteria, monitor).Name()
  {
    var cost := CostPreference(i);
    var complexity := Complexity(i);
    var maxTokens := MaxTokensFor(complexity);
    var criteria := LlmTools.Criteria(Or(Or(i.taskType, i.plan.workflowType), "general"), PriorityFor(cost), maxTokens);
    Selection(LlmTools.SelectModel(criteria, monitor).Name(), cost, complexity, maxTokens, criteria)
  }

  /**
   The normalised fields stay in their vocabularies, the budget follows the
   complexity table, and the priority is "cost" for a budget preference,
   "speed" for a speed preference and "balanced" otherwise.
   */
  lemma ExecuteNormalises(i: Input, monitor: LlmTools.Monitor)
    requires monitor.Valid()
    ensures var s := Execute(i, monitor);
      s.costPreference in {"budget", "balanced", "performance", "speed"}
      && s.complexity in {"simple", "medium", "high"}
      && s.maxTokens == (if s.complexity == "simple" then 1200 else if s.complexity == "medium" then 2400 else 6000)
      && s.maxTokens in {1200, 2400, 6000}
      && s.criteria.maxTokens == s.maxTokens
      && (s.criteria.priority == "cost" <==> s.costPreference == "budget")
      && (s.criteria.priority == "speed" <==> s.costPreference == "speed")
      && (s.criteria.priority == "balanced" <==> s.costPreference in {"balanced", "performance"})
  {
  }

  /** A request outside the selector's fixed task types. */
  predicate OpenTask(s: Selection) {
    s.criteria.taskType !in {"tool_execution", "coding", "planning", "reasoning", "routing"}
  }

  /** A speed preference selects the local llama model. */
  lemma SpeedPreferenceGetsLlama(i: Input, monitor: LlmTools.Monitor)
    requires monitor.Valid()
    ensures var s := Execute(i, monitor); OpenTask(s) && s.costPreference == "speed" ==> s.selectedModel == "llama-3-8b-instruct"
  {
  }

  /**
   Since the priority is never "performance", the selector's success-rate
   leader plays no part: balanced and performance preferences get gpt-5-mini.
   */
  lemma BalancedPreferencesGetMini(i: Input, monitor: LlmTools.Monitor)
    requires monitor.Valid()
    ensures var s := Execute(i, monitor);
      OpenTask(s) && s.costPreference in {"balanced", "performance"} ==> s.selectedModel == "gpt-5-mini"
  {
    var s := Execute(i, monitor);
    if OpenTask(s) && s.costPreference in {"balanced", "performance"} {
      assert s.criteria.priority == "balanced" && s.maxTokens <= 6000;
      LlmTools.BalancedPriorityGetsMini(s.criteria, monitor);
    }
  }

  /**
   A budget preference gets the cheapest model holding the request; as every
   budget (at most 6000 tokens) fits the 8000-token local model, that is llama.
   */
  lemma BudgetPreferenceGetsCheapest(i: Input, monitor: LlmTools.Monitor)
    requires monitor.Valid()
    ensures var s := Execute(i, monitor);
      OpenTask(s) && s.costPreference == "budget" ==>
        (forall x: LlmTools.Model :: x.MaxTokens() >= s.maxTokens ==>
          LlmTools.SelectModel(s.criteria, monitor).CostPer1k() <= x.CostPer1k())
        && s.selectedModel == "llama-3-8b-instruct"
  {
    var s := Execute(i, monitor);
    if OpenTask(s) && s.costPreference == "budget" {
      ExecuteNormalises(i, monitor);
      CostCriteriaGetLlama(s.criteria, monitor);
    }
  }

  /** The selector's cost priority on a budget the local model holds picks that model, the cheapest of all. */
  lemma CostCriteriaGetLlama(c: LlmTools.Criteria, monitor: LlmTools.Monitor)
    requires monitor.Valid()
    requires c.taskType !in {"tool_execution", "coding", "planning", "reasoning", "routing"}
    requires c.priority == "cost" && c.maxTokens <= 8000
    ensures var r := LlmTools.SelectModel(c, monitor);
      r == LlmTools.Model.Llama3
      && forall x: LlmTools.Model :: x.MaxTokens() >= c.maxTokens ==> r.CostPer1k() <= x.CostPer1k()
  {
    LlmTools.CheapestChosenForCost(c, monitor);
    var ms := LlmTools.SuitableModels(c.maxTokens);
    assert LlmTools.Model.Llama3 in ms;
    CheapestIsLocalWhenPresent(ms);
    assert LlmTools.SelectModel(c, monitor) == LlmTools.Cheapest(ms);
  }

  /** Any list that offers the local model has it as its cheapest entry, since it alone is free. */
  lemma CheapestIsLocalWhenPresent(ms: seq<LlmTools.Model>)
    requires LlmTools.Model.Llama3 in ms
    ensures LlmTools.Cheapest(ms) == LlmTools.Model.Llama3
  {
    var r := LlmTools.Cheapest(ms);
    assert r.CostPer1k() <= LlmTools.Model.Llama3.CostPer1k();
    OnlyLocalModelIsFree(r);
  }

  lemma OnlyLocalModelIsFree(m: LlmTools.Model)
    ensures m.CostPer1k() <= 0.0 ==> m == LlmTools.Model.Llama3
  {
  }

  /** What `execute` leaves behind: the selection on success, or the previous or default model on an exception. */
  datatype Outcome = Outcome(selectedModel: string, contextModel: string, costPreference: Option<string>, complexity: Option<string>)

  /**
   `execute` with its exception handler; `raised` says whether a step threw.
   On an exception the previously selected model (if any) or the configured
   default stands, and nothing is re-raised.
   */
  function ExecuteOrFallback(i: Input, monitor: LlmTools.Monitor, raised: bool, previous: Option<string>, defaultModel: string)
    : (o: Outcome)
    requires monitor.Valid()
    ensures o.contextModel == o.selectedModel
    ensures raised ==> o.selectedModel == (if previous.Some? && previous.value != "" then previous.value else defaultModel)
                       && o.costPreference.None? && o.complexity.None?
    ensures !raised ==> o.selectedModel == Execute(i, monitor).selectedModel && o.costPreference.Some? && o.complexity.Some?
  {
    if raised then
      var m := if previous.Some? && previous.value != "" then previous.value else defaultModel;
      Outcome(m, m, None, None)
    else
      var s := Execute(i, monitor);
      Outcome(s.selectedModel, s.selectedModel, Some(s.costPreference), Some(s.complexity))
  }
}

=== FILE: agents_mission_agent.dfy ===
/**
 The rule-based mission recommender: hard eligibility filters, a weighted
 0-100 fit score with risk penalties, and the ranked top-k recommendations
 for one creator.
 */
module MissionAgent {
  import opened Common
  import opened MissionModels
  import PyScalars

  /** `_grade_rank`: S, A, B, C rank 4 to 1 regardless of case; anything else ranks 0. */
  function GradeRank(grade: string): (n: nat)
    ensures n <= 4
    ensures n > 0 <==> Upper(grade) in {"S", "A", "B", "C"}
  {
    var g := Upper(grade);
    if g == "S" then 4 else if g == "A" then 3 else if g == "B" then 2 else if g == "C" then 1 else 0
  }

  /** Case does not matter to the rank. */
  lemma GradeRankIgnoresCase(grade: string)
    ensures GradeRank(grade) == GradeRank(Upper(grade)) && GradeRank(grade) == GradeRank(Lower(grade))
  {
    UpperIdempotent(grade);
    UpperOfLower(grade);
  }

  lemma {:induction false} UpperIdempotent(s: string)
    ensures Upper(Upper(s)) == Upper(s)
  {
    if |s| > 0 {
      UpperIdempotent(s[1..]);
      assert Upper(s)[1..] == Upper(s[1..]);
    }
  }

  lemma {:induction false} UpperOfLower(s: string)
    ensures Upper(Lower(s)) == Upper(s)
  {
    if |s| > 0 {
      UpperOfLower(s[1..]);
      assert Lower(s)[1..] == Lower(s[1..]);
    }
  }

  /** The creator signals the scorer reads, after conversion. */
  datatype Creator = Creator(
    followers: int,
    engagementRate: real,
    posts30d: int,
    reports90d: int,
    platform: string,
    grade: string,
    tags: seq<string>,
    risks: seq<string>,
    category: string,
    completedMissions: int,
    avgQualityScore: real,
    currentActiveMissions: int,
    recentMissionTypes: seq<string>)

  /** The profile and onboarding values as the request carries them. */
  datatype RawCreator = RawCreator(
    followers: PyScalars.Scalar,
    followersCount: PyScalars.Scalar,
    engagementRate: real,
    posts30d: PyScalars.Scalar,
    reports90d: PyScalars.Scalar,
    platform: string,
    category: string,
    completedMissions: PyScalars.Scalar,
    avgQualityScore: real,
    currentActiveMissions: PyScalars.Scalar,
    recentMissionTypes: seq<string>,
    grade: string,
    tags: seq<string>,
    risks: seq<string>)

  /**
   The conversions at the top of `execute`: counts through `_to_int` with
   default 0 (followers falling back to followers_count), platform and
   category lowercased, grade uppercased.
   */
  function ReadCreator(raw: RawCreator): (c: Creator)
    ensures c.followers == PyScalars.ToInt(if PyScalars.Truthy(raw.followers) then raw.followers else raw.followersCount, 0)
    ensures Lower(c.platform) == c.platform && Lower(c.category) == c.category && Upper(c.grade) == c.grade
  {
    LowerIdempotent(raw.platform);
    LowerIdempotent(raw.category);
    UpperIdempotent(raw.grade);
    Creator(PyScalars.ToInt(PyScalars.Or(raw.followers, raw.followersCount), 0), raw.engagementRate,
            PyScalars.ToInt(raw.posts30d, 0), PyScalars.ToInt(raw.reports90d, 0), Lower(raw.platform),
            Upper(raw.grade), raw.tags, raw.risks, Lower(raw.category), PyScalars.ToInt(raw.completedMissions, 0),
            raw.avgQualityScore, PyScalars.ToInt(raw.currentActiveMissions, 0), raw.recentMissionTypes)
  }

  /** The first of `risks` that the mission excludes. */
  function FirstExcluded(risks: seq<string>, excluded: seq<string>): (r: Option<string>)
    ensures r.Some? ==> r.value in risks && r.value in excluded
    ensures r.None? <==> forall x :: x in risks ==> x !in excluded
  {
    if |risks| == 0 then None
    else if risks[0] in excluded then Some(risks[0])
    else FirstExcluded(risks[1..], excluded)
  }

  /** The hard filters of `_score_mission_for_creator`, in order: the reason of the first that fails. */
  function Rejection(req: Requirement, c: Creator): Option<Reason> {
    if |req.allowedPlatforms| > 0 && c.platform != "" && c.platform !in req.allowedPlatforms then Some(PlatformMismatch)
    else if c.followers < req.minFollowers then Some(TooFewFollowers)
    else if req.maxFollowers.Some? && c.followers > req.maxFollowers.value then Some(TooManyFollowers)
    else if c.posts30d < req.minPosts30d then Some(TooFewPosts)
    else if req.disallowHighReports && c.reports90d >= 3 then Some(HighReports)
    else if c.reports90d > req.maxReports90d then Some(TooManyReports)
    else if req.minGrade != "" && GradeRank(c.grade) < GradeRank(req.minGrade) then Some(GradeBelow(req.minGrade))
    else if |req.excludedCategories| > 0 && c.category in req.excludedCategories then Some(CategoryExcluded)
    else if |req.allowedCategories| > 0 && c.category != "" && c.category !in req.allowedCategories then Some(CategoryNotAllowed)
    else if |req.excludeRisks| > 0 && FirstExcluded(c.risks, req.excludeRisks).Some? then
      Some(RiskExcluded(FirstExcluded(c.risks, req.excludeRisks).value))
    else None
  }

  /** Eligibility stated as one conjunction, independent of the filter order. */
  predicate Eligible(req: Requirement, c: Creator) {
    (req.allowedPlatforms == [] || c.platform == "" || c.platform in req.allowedPlatforms)
    && req.minFollowers <= c.followers
    && (req.maxFollowers.None? || c.followers <= req.maxFollowers.value)
    && req.minPosts30d <= c.posts30d
    && !(req.disallowHighReports && c.reports90d >= 3)
    && c.reports90d <= req.maxReports90d
    && (req.minGrade == "" || GradeRank(c.grade) >= GradeRank(req.minGrade))
    && c.category !in req.excludedCategories
    && (req.allowedCategories == [] || c.category == "" || c.category in req.allowedCategories)
    && (forall r :: r in c.risks ==> r !in req.excludeRisks)
  }

  /** The filters let a creator through exactly when every condition holds, and a refusal always says why. */
  lemma RejectionIffIneligible(req: Requirement, c: Creator)
    ensures Rejection(req, c).None? <==> Eligible(req, c)
    ensures Rejection(req, c).Some? ==> Rejection(req, c).value.IsRejection()
  {
  }

  /** The tags of the creator that the mission asks for, in the creator's order. */
  function MatchedTags(tags: seq<string>, required: seq<string>): (r: seq<string>)
    ensures forall t :: t in r <==> t in tags && t in required
  {
    Filter((t: string) => t in required, tags)
  }

  function GradeFit(req: Requirement, c: Creator): real {
    if req.minGrade != "" && GradeRank(c.grade) >= GradeRank(req.minGrade) then
      0.25 * MinR((GradeRank(c.grade) - GradeRank(req.minGrade)) as real / 3.0, 1.0) * 100.0
    else 0.0
  }

  function EngagementFit(req: Requirement, c: Creator): real {
    if c.engagementRate > 0.0 && req.minEngagementRate > 0.0 then
      0.20 * MinR(c.engagementRate / MaxR(req.minEngagementRate, 0.01), 2.0) * 50.0
    else 0.0
  }

  function CategoryFit(req: Requirement, c: Creator): real {
    var base := if |req.allowedCategories| > 0 then (if c.category in req.allowedCategories then 100.0 else 0.0) else 50.0;
    var withTags := if |req.requiredTags| > 0 && MatchedTags(c.tags, req.requiredTags) != [] then MaxR(base, 80.0) else base;
    0.20 * withTags
  }

  function HistoryFit(c: Creator): real {
    0.15 * (MinR(c.completedMissions as real / 10.0, 1.0) * 50.0 + MinR(c.avgQualityScore / 100.0, 1.0) * 50.0)
  }

  function Availability(c: Creator): real {
    0.10 * (if c.currentActiveMissions < 3 then 100.0 else 50.0)
  }

  function Diversity(m: Mission, c: Creator): real {
    0.10 * (if m.missionType.Value() != "" && m.missionType.Value() !in c.recentMissionTypes then 100.0 else 0.0)
  }

  function Penalty(m: Mission, c: Creator): real {
    (if "high_reports" in c.risks then 20.0 else 0.0)
    + (if "low_engagement" in c.risks && m.rewardType in {Performance, Hybrid} then 10.0 else 0.0)
    + (if "low_activity" in c.risks then 5.0 else 0.0)
  }

  /** The weighted sum before clamping. */
  function RawScore(m: Mission, c: Creator): real {
    GradeFit(m.requirement, c) + EngagementFit(m.requirement, c) + CategoryFit(m.requirement, c)
    + HistoryFit(c) + Availability(c) + Diversity(m, c) - Penalty(m, c)
  }

  /** The weights sum to one, so the raw score never exceeds 100 and the upper clamp never binds. */
  lemma RawScoreAtMost100(m: Mission, c: Creator)
    ensures RawScore(m, c) <= 100.0
  {
    var req := m.requirement;
    assert GradeFit(req, c) <= 25.0;
    assert EngagementFit(req, c) <= 20.0;
    assert CategoryFit(req, c) <= 20.0;
    assert HistoryFit(c) <= 15.0;
  }

  /** The single reason `x` where `b` holds, else none. */
  function When(b: bool, x: Reason): (r: seq<Reason>)
    ensures forall y :: y in r ==> y == x
  {
    if b then [x] else []
  }

  /** The reasons a passing mission earns, then its penalty notes. */
  function FitReasons(m: Mission, c: Creator): (r: seq<Reason>)
    ensures forall x :: x in r ==> !x.IsRejection()
  {
    var req := m.requirement;
    var matched := MatchedTags(c.tags, req.requiredTags);
    var gradeFits := req.minGrade != "" && GradeRank(c.grade) >= GradeRank(req.minGrade);
    var engagementMeets := c.engagementRate > 0.0 && req.minEngagementRate > 0.0 && c.engagementRate >= req.minEngagementRate;
    var tagsMatch := |req.requiredTags| > 0 && matched != [];
    var highReports := "high_reports" in c.risks;
    var lowEngagement := "low_engagement" in c.risks && m.rewardType in {Performance, Hybrid};
    var lowActivity := "low_activity" in c.risks;
    Fits(gradeFits, engagementMeets, tagsMatch, matched) + Notes(highReports, lowEngagement, lowActivity)
  }

  /** The earned reasons, in order: grade, engagement, matched tags. */
  function Fits(gradeFits: bool, engagementMeets: bool, tagsMatch: bool, matched: seq<string>): (r: seq<Reason>)
    ensures forall x :: x in r ==> x in {GradeFits, EngagementMeets, TagsMatch(matched)}
    ensures forall x :: x in r ==> !x.IsRejection()
  {
    When(gradeFits, GradeFits) + When(engagementMeets, EngagementMeets) + When(tagsMatch, TagsMatch(matched))
  }

  /** The penalty notes, in order: reports, low engagement, low activity. */
  function Notes(highReports: bool, lowEngagement: bool, lowActivity: bool): (r: seq<Reason>)
    ensures forall x :: x in r ==> x in {ReportPenalty, LowEngagementPenalty, LowActivityPenalty}
    ensures forall x :: x in r ==> !x.IsRejection()
  {
    When(highReports, ReportPenalty) + When(lowEngagement, LowEngagementPenalty) + When(lowActivity, LowActivityPenalty)
  }

  /**
   `_score_mission_for_creator`: 0 with the single reason of the first failed
   filter, otherwise the raw score clamped to [0, 100] with the fit reasons.
   The rounding to one decimal is not modelled.
   */
  function ScoreMission(m: Mission, c: Creator): (r: (real, seq<Reason>))
    ensures 0.0 <= r.0 <= 100.0
    ensures Rejection(m.requirement, c).Some? ==> r.0 == 0.0 && r.1 == [Rejection(m.requirement, c).value]
    ensures Rejection(m.requirement, c).None? ==> r.0 == MaxR(0.0, RawScore(m, c)) && forall x :: x in r.1 ==> !x.IsRejection()
  {
    match Rejection(m.requirement, c)
    case Some(reason) => (0.0, [reason])
    case None =>
      RawScoreAtMost100(m, c);
      (ClampR(RawScore(m, c), 0.0, 100.0), FitReasons(m, c))
  }

  /** A creator who fails a filter scores 0 whatever their other merits. */
  lemma IneligibleScoresZero(m: Mission, c: Creator)
    ensures !Eligible(m.requirement, c) ==> ScoreMission(m, c).0 == 0.0 && |ScoreMission(m, c).1| == 1
  {
    RejectionIffIneligible(m.requirement, c);
  }

  /** Without penalties every component is non-negative and availability alone is worth at least 5. */
  lemma RawScoreAtLeastFive(m: Mission, c: Creator)
    requires Penalty(m, c) == 0.0 && c.completedMissions >= 0 && c.avgQualityScore >= 0.0
    requires m.requirement.minGrade == "" || GradeRank(c.grade) >= GradeRank(m.requirement.minGrade)
    ensures RawScore(m, c) >= 5.0
  {
    var req := m.requirement;
    assert GradeFit(req, c) >= 0.0;
    if c.engagementRate > 0.0 && req.minEngagementRate > 0.0 {
      assert c.engagementRate / MaxR(req.minEngagementRate, 0.01) > 0.0;
    }
    assert EngagementFit(req, c) >= 0.0;
    assert CategoryFit(req, c) >= 0.0;
    assert HistoryFit(c) >= 0.0;
    assert Availability(c) >= 5.0;
  }

  /** A creator who passes every filter and carries no penalised risk scores at least 5. */
  lemma EligibleWithoutPenaltyScoresPositive(m: Mission, c: Creator)
    requires Eligible(m.requirement, c)
    requires Penalty(m, c) == 0.0 && c.completedMissions >= 0 && c.avgQualityScore >= 0.0
    ensures ScoreMission(m, c).0 >= 5.0
  {
    RejectionIffIneligible(m.requirement, c);
    RawScoreAtLeastFive(m, c);
  }

  /** The request filters of `execute`: mission type list and minimum reward (0 means none). */
  datatype RequestFilters = RequestFilters(missionTypes: seq<string>, minReward: real)

  predicate PassesRequestFilters(m: Mission, f: RequestFilters) {
    !(|f.missionTypes| > 0 && m.missionType.Value() !in f.missionTypes)
    && !(f.minReward != 0.0 && m.rewardAmount.GetOr(0.0) < f.minReward)
  }

  datatype AgentConfig = AgentConfig(minScoreForRecommendation: real, topK: int)

  const DefaultAgentConfig := AgentConfig(50.0, 5)

  /** `state.creator_id or 'creator'`, joined to the mission id. */
  function AssignmentId(creatorId: string, missionId: string): string {
    (if creatorId != "" then creatorId else "creator") + "::" + missionId
  }

  /** The assignment a mission earns, when it passes the request filters and reaches the minimum score. */
  predicate Qualifies(m: Mission, c: Creator, f: RequestFilters, cfg: AgentConfig) {
    PassesRequestFilters(m, f) && ScoreMission(m, c).0 >= cfg.minScoreForRecommendation
  }

  function AssignmentFor(m: Mission, c: Creator, creatorId: string): (a: Assignment)
    ensures a.Valid() && a.status == Recommended && a.missionId == m.id
  {
    var sr := ScoreMission(m, c);
    Assignment(AssignmentId(creatorId, m.id), m.id, creatorId, Recommended, sr.0, sr.1)
  }

  /** The loop of `execute`: one assignment per qualifying mission, in mission order. */
  function Candidates(missions: seq<Mission>, c: Creator, f: RequestFilters, cfg: AgentConfig, creatorId: string)
    : (r: seq<Assignment>)
    ensures |r| <= |missions|
    ensures forall a :: a in r ==> exists m :: m in missions && Qualifies(m, c, f, cfg) && a == AssignmentFor(m, c, creatorId)
    ensures forall m :: m in missions && Qualifies(m, c, f, cfg) ==> AssignmentFor(m, c, creatorId) in r
  {
    if |missions| == 0 then []
    else
      var rest := Candidates(missions[1..], c, f, cfg, creatorId);
      assert forall m :: m in missions[1..] ==> m in missions;
      if Qualifies(missions[0], c, f, cfg) then [AssignmentFor(missions[0], c, creatorId)] + rest else rest
  }

  function Score(a: Assignment): real { a.score }

  /**
   `execute`: `None` when there are no candidate missions (an error is
   recorded), otherwise the qualifying assignments sorted by score, highest
   first, cut at `top_k`.
   */
  function Execute(missions: seq<Mission>, c: Creator, f: RequestFilters, cfg: AgentConfig, creatorId: string)
    : (r: Option<seq<Assignment>>)
    ensures r.None? <==> missions == []
  {
    if missions == [] then None else Some(SortedTop(Candidates(missions, c, f, cfg, creatorId), Score, cfg.topK))
  }

  /**
   The recommendations are sorted by score, highest first; with `top_k` not
   negative they are the best `top_k` qualifying assignments: as many as
   there are up to `top_k`, and no qualifying mission left out scores above
   one kept.
   */
  lemma RecommendationsRanked(missions: seq<Mission>, c: Creator, f: RequestFilters, cfg: AgentConfig, creatorId: string)
    requires missions != []
    ensures SortedDesc(Execute(missions, c, f, cfg, creatorId).value, Score)
    ensures cfg.topK >= 0 ==> |Execute(missions, c, f, cfg, creatorId).value| <= cfg.topK
    ensures var all := Candidates(missions, c, f, cfg, creatorId);
      var r := Execute(missions, c, f, cfg, creatorId).value;
      cfg.topK >= 0 ==>
        |r| == Min(cfg.topK, |all|)
        && forall m, a :: m in missions && Qualifies(m, c, f, cfg) && AssignmentFor(m, c, creatorId) !in r && a in r ==>
             a.score >= AssignmentFor(m, c, creatorId).score
  {
    var all := Candidates(missions, c, f, cfg, creatorId);
    var r := Execute(missions, c, f, cfg, creatorId).value;
    assert r == SortedTop(all, Score, cfg.topK);
    if cfg.topK >= 0 {
      SortedTopIsTop(all, Score, cfg.topK);
    }
  }

  /**
   Every recommendation is the valid assignment of a mission that passed the
   request filters and reached the minimum score; with a positive minimum the
   mission also passed every hard filter.
   */
  lemma RecommendationsQualify(missions: seq<Mission>, c: Creator, f: RequestFilters, cfg: AgentConfig, creatorId: string, a: Assignment)
    requires missions != []
    requires a in Execute(missions, c, f, cfg, creatorId).value
    ensures a.Valid() && a.status == Recommended && a.score >= cfg.minScoreForRecommendation
    ensures exists m :: m in missions && PassesRequestFilters(m, f) && m.id == a.missionId
              && (cfg.minScoreForRecommendation > 0.0 ==> Eligible(m.requirement, c))
  {
    var m :| m in missions && Qualifies(m, c, f, cfg) && a == AssignmentFor(m, c, creatorId);
    IneligibleScoresZero(m, c);
  }

  /** When no more than `top_k` missions qualify, every one of them is recommended. */
  lemma AllQualifyingRecommended(missions: seq<Mission>, c: Creator, f: RequestFilters, cfg: AgentConfig, creatorId: string)
    requires missions != []
    requires |Candidates(missions, c, f, cfg, creatorId)| <= cfg.topK
    ensures forall m :: m in missions && Qualifies(m, c, f, cfg) ==>
      AssignmentFor(m, c, creatorId) in Execute(missions, c, f, cfg, creatorId).value
  {
    var cands := Candidates(missions, c, f, cfg, creatorId);
    SortDescMembers(cands, Score);
    var sorted := SortDesc(cands, Score);
    assert PrefixTo(sorted, cfg.topK) == sorted;
  }
}

=== FILE: agents_orchestrator.dfy ===
/**
 The older orchestration graph: keyword routing from the entry node straight
 to one workflow, an optional RAG step with its follow-up routing, and final
 synthesis. It has no back edges, so a run is bounded by the rank of its
 entry node.

 What the agents and the RAG pipeline return is read from oracles indexed by
 step, as in the current graph.
 */
module LegacyOrchestrator {
  import opened Common
  import DeepAgents
  import PromptTemplates
  import opened Routing

  /* ------------------------------------------------------- keyword routing */

  const CompetencyKeys: seq<string> := ["역량", "진단", "평가", "competency"]
  const RecommendationKeys: seq<string> := ["추천", "학습자료", "recommend"]
  const MissionKeys: seq<string> := ["미션", "mission"]
  const SearchKeys: seq<string> := ["검색", "찾기", "search"]
  const AnalyticsKeys: seq<string> := ["분석", "리포트", "analytics"]
  const CollectionKeys: seq<string> := ["수집", "데이터", "collection", "api"]

  /**
   The keyword stage of `_route_request` on the lowered message: the first
   keyword group that matches names the workflow, and "general" answers when
   none does.
   */
  function KeywordWorkflow(text: string): (wf: string)
    ensures wf == "competency" <==> ContainsAny(text, CompetencyKeys)
    ensures wf == "recommendation" <==> !ContainsAny(text, CompetencyKeys) && ContainsAny(text, RecommendationKeys)
    ensures wf == "mission"
      <==> !ContainsAny(text, CompetencyKeys) && !ContainsAny(text, RecommendationKeys) && ContainsAny(text, MissionKeys)
    ensures wf == "search"
      <==> !ContainsAny(text, CompetencyKeys) && !ContainsAny(text, RecommendationKeys) && !ContainsAny(text, MissionKeys)
           && ContainsAny(text, SearchKeys)
    ensures wf == "analytics"
      <==> !ContainsAny(text, CompetencyKeys) && !ContainsAny(text, RecommendationKeys) && !ContainsAny(text, MissionKeys)
           && !ContainsAny(text, SearchKeys) && ContainsAny(text, AnalyticsKeys)
    ensures wf == "data_collection"
      <==> !ContainsAny(text, CompetencyKeys) && !ContainsAny(text, RecommendationKeys) && !ContainsAny(text, MissionKeys)
           && !ContainsAny(text, SearchKeys) && !ContainsAny(text, AnalyticsKeys) && ContainsAny(text, CollectionKeys)
    ensures wf == "general"
      <==> !ContainsAny(text, CompetencyKeys) && !ContainsAny(text, RecommendationKeys) && !ContainsAny(text, MissionKeys)
           && !ContainsAny(text, SearchKeys) && !ContainsAny(text, AnalyticsKeys) && !ContainsAny(text, CollectionKeys)
    ensures wf in {"competency", "recommendation", "mission", "search", "analytics", "data_collection", "general"}
  {
    if ContainsAny(text, CompetencyKeys) then "competency"
    else if ContainsAny(text, RecommendationKeys) then "recommendation"
    else if ContainsAny(text, MissionKeys) then "mission"
    else if ContainsAny(text, SearchKeys) then "search"
    else if ContainsAny(text, AnalyticsKeys) then "analytics"
    else if ContainsAny(text, CollectionKeys) then "data_collection"
    else "general"
  }

  /** `_route_request` on a message: deep agents, then RAG, then the keyword groups. */
  function RouteMessage(message: string): (wf: string)
    ensures wf in {"deep_agents", "rag", "competency", "recommendation", "mission", "search",
                   "analytics", "data_collection", "general"}
    ensures DeepAgents.ShouldUseDeepAgents(message) ==> wf == "deep_agents"
    ensures !DeepAgents.ShouldUseDeepAgents(message) && ShouldUseRag(message) ==> wf == "rag"
    ensures !DeepAgents.ShouldUseDeepAgents(message) && !ShouldUseRag(message) ==> wf == KeywordWorkflow(Lower(message))
  {
    if DeepAgents.ShouldUseDeepAgents(message) then "deep_agents"
    else if ShouldUseRag(message) then "rag"
    else KeywordWorkflow(Lower(message))
  }

  /* ------------------------------------------------------- state */

  datatype State = State(
    messages: seq<Message>,
    workflowType: string,
    useDeepAgents: bool,
    ragResponse: Option<string>,
    retrieved: seq<RetrievedDoc>,
    deepResult: Option<DeepAgents.DeepResult>,
    competencyData: Option<string>,
    recommendationData: Option<string>,
    searchCount: nat,
    analyticsResults: Option<string>,
    collectedCount: Option<nat>,
    selectedModel: Option<string>,
    missionCount: nat,
    errors: seq<string>)

  /** The state `run` builds from one user message; the workflow type starts as "default". */
  function InitialState(message: string): (s: State)
    ensures |s.messages| == 1 && s.messages[0].role == Human && s.workflowType == "default"
  {
    State([Message(Human, message)], "default", false, None, [], None, None, None, 0, None, None, None, 0, [])
  }

  function AddError(s: State, e: string): (t: State)
    ensures t.errors == s.errors + [e] && t.messages == s.messages
  {
    s.(errors := s.errors + [e])
  }

  /** The RAG pipeline's answer: `RagOk` carries the `response` field ("" when missing). */
  datatype RagReply = RagOk(response: string, docs: seq<RetrievedDoc>) | RagFailed

  /** A worker agent's outcome: a rendering of its data and a count of items. */
  datatype WorkerReply = WorkerOk(repr: string, count: nat) | WorkerFailed(reason: string)

  datatype Env = Env(
    deep: nat -> Option<DeepAgents.DeepResult>,
    rag: (nat, PromptTemplates.PromptType) -> RagReply,
    worker: nat -> WorkerReply)

  /* ------------------------------------------------------- nodes and edges */

  datatype Node =
    | RouteRequest | DeepAgentsProcessing | RagProcessing | LlmManager | CompetencyDiagnosis
    | RecommendationNode | MissionRecommendation | VectorSearch | ExternalIntegration
    | AnalyticsNode | DataCollectionNode | FinalSynthesis

  function RouteEdges(key: string): Option<Node> {
    if key == "deep_agents" then Some(DeepAgentsProcessing)
    else if key == "rag" then Some(RagProcessing)
    else if key == "competency" then Some(CompetencyDiagnosis)
    else if key == "recommendation" then Some(RecommendationNode)
    else if key == "mission" then Some(MissionRecommendation)
    else if key == "search" then Some(VectorSearch)
    else if key == "analytics" then Some(AnalyticsNode)
    else if key == "data_collection" then Some(DataCollectionNode)
    else if key == "general" then Some(LlmManager)
    else None
  }

  function RagEdges(key: string): Option<Node> {
    if key == "competency" then Some(CompetencyDiagnosis)
    else if key == "recommendation" then Some(RecommendationNode)
    else if key == "search" then Some(VectorSearch)
    else if key == "analytics" then Some(AnalyticsNode)
    else if key == "final" then Some(FinalSynthesis)
    else None
  }

  function DeepEdges(key: string): Option<Node> {
    if key == "final" then Some(FinalSynthesis)
    else if key == "rag" then Some(RagProcessing)
    else if key == "competency" then Some(CompetencyDiagnosis)
    else if key == "recommendation" then Some(RecommendationNode)
    else None
  }

  /** A rank every edge of the graph strictly decreases. */
  function Rank(n: Node): nat {
    match n
    case RouteRequest => 6
    case DeepAgentsProcessing => 5
    case RagProcessing => 4
    case CompetencyDiagnosis => 3
    case VectorSearch => 3
    case RecommendationNode => 2
    case ExternalIntegration => 2
    case AnalyticsNode => 2
    case DataCollectionNode => 2
    case LlmManager => 1
    case MissionRecommendation => 1
    case FinalSynthesis => 1
  }

  datatype Next = Goto(node: Node, st: State) | End(st: State) | NoEdge(key: string, st: State) | DeadEnd(st: State)

  function Follow(edges: string -> Option<Node>, key: string, s: State): (x: Next)
    ensures x.Goto? ==> Some(x.node) == edges(key) && x.st == s
    ensures x.NoEdge? ==> x.key == key && x.st == s
    ensures x.Goto? || x.NoEdge?
  {
    match edges(key)
    case Some(m) => Goto(m, s)
    case None => NoEdge(key, s)
  }

  /**
   The edges as the graph declares them. `llm_manager` and
   `mission_recommendation` have no outgoing edge: a run that reaches them
   stops there, before final synthesis.
   */
  function Edges(n: Node, s: State): (x: Next)
    ensures x.st == s
    ensures x.Goto? ==> Rank(x.node) < Rank(n)
    ensures x.End? <==> n == FinalSynthesis
    ensures x.DeadEnd? <==> n == LlmManager || n == MissionRecommendation
    ensures x.NoEdge? ==> n in {RouteRequest, RagProcessing, DeepAgentsProcessing}
  {
    match n
    case RouteRequest => Follow(RouteEdges, s.workflowType, s)
    case RagProcessing => Follow(RagEdges, s.workflowType, s)
    case DeepAgentsProcessing => Follow(DeepEdges, DeepExitKey(s.deepResult), s)
    case CompetencyDiagnosis => Goto(RecommendationNode, s)
    case RecommendationNode => Goto(FinalSynthesis, s)
    case VectorSearch => Goto(ExternalIntegration, s)
    case ExternalIntegration => Goto(FinalSynthesis, s)
    case AnalyticsNode => Goto(FinalSynthesis, s)
    case DataCollectionNode => Goto(FinalSynthesis, s)
    case LlmManager => DeadEnd(s)
    case MissionRecommendation => DeadEnd(s)
    case FinalSynthesis => End(s)
  }

  /** The edges with the two missing ones added: `llm_manager` and `mission_recommendation` lead to synthesis. */
  function EdgesCompleted(n: Node, s: State): (x: Next)
    ensures x.st == s
    ensures x.Goto? ==> Rank(x.node) < Rank(n) || (x.node == FinalSynthesis && Rank(n) == 1)
    ensures x.End? <==> n == FinalSynthesis
    ensures !x.DeadEnd?
    ensures x.NoEdge? ==> n in {RouteRequest, RagProcessing, DeepAgentsProcessing}
  {
    match n
    case LlmManager => Goto(FinalSynthesis, s)
    case MissionRecommendation => Goto(FinalSynthesis, s)
    case _ => Edges(n, s)
  }

  /* ------------------------------------------------------- node bodies */

  /** `_route_request`. */
  function RouteNode(s: State): (t: State)
    ensures |s.messages| > 0 ==> t.workflowType == RouteMessage(s.messages[|s.messages| - 1].content)
    ensures |s.messages| == 0 ==> t.workflowType == s.workflowType && |t.errors| == |s.errors| + 1
    ensures t.messages == s.messages
  {
    if |s.messages| == 0 then AddError(s, "처리할 메시지가 없습니다")
    else
      var wf := RouteMessage(s.messages[|s.messages| - 1].content);
      s.(workflowType := wf, useDeepAgents := s.useDeepAgents || wf == "deep_agents")
  }

  /**
   `_rag_processing`: on success the answer is stored, appended as one AI
   message when it is not empty, and the next workflow is chosen from the
   retrieved documents and the message; on failure an error is recorded and
   the workflow type is left as it was.
   */
  function RagNode(s: State, env: Env, k: nat): (t: State)
    ensures |s.messages| > 0 && env.rag(k, DetermineQueryType(s.messages[|s.messages| - 1].content)).RagOk? ==>
      var reply := env.rag(k, DetermineQueryType(s.messages[|s.messages| - 1].content));
      t.messages == s.messages + (if reply.response != "" then [Message(AI, reply.response)] else [])
      && t.workflowType == PostRagWorkflow(reply.docs, s.messages[|s.messages| - 1].content)
    ensures |s.messages| == 0 || env.rag(k, DetermineQueryType(s.messages[|s.messages| - 1].content)).RagFailed? ==>
      t.messages == s.messages && t.workflowType == s.workflowType && |t.errors| == |s.errors| + 1
  {
    if |s.messages| == 0 then AddError(s, "처리할 메시지가 없습니다")
    else
      var text := s.messages[|s.messages| - 1].content;
      match env.rag(k, DetermineQueryType(text))
      case RagFailed => AddError(s, "RAG 처리 실패")
      case RagOk(response, docs) =>
        var extra := if response != "" then [Message(AI, response)] else [];
        s.(ragResponse := Some(response), retrieved := docs, messages := s.messages + extra,
           workflowType := PostRagWorkflow(docs, text))
  }

  function DeepNode(s: State, env: Env, k: nat): State {
    if |s.messages| == 0 then
      AddError(s, "Deep Agents 처리 오류").(deepResult := Some(DeepAgents.FailureResult()))
    else
      match env.deep(k)
      case Some(r) => s.(deepResult := Some(r), useDeepAgents := true)
      case None => AddError(s, "Deep Agents 처리 오류").(deepResult := Some(DeepAgents.FailureResult()))
  }

  function WorkerNode(n: Node, s: State, env: Env, k: nat): (t: State)
    ensures t.messages == s.messages && t.workflowType == s.workflowType
  {
    match env.worker(k)
    case WorkerFailed(reason) => AddError(s, reason)
    case WorkerOk(repr, count) =>
      match n
      case CompetencyDiagnosis => s.(competencyData := Some(repr))
      case RecommendationNode => s.(recommendationData := Some(repr))
      case VectorSearch => s.(searchCount := count)
      case AnalyticsNode => s.(analyticsResults := Some(repr))
      case DataCollectionNode => s.(collectedCount := Some(count))
      case LlmManager => s.(selectedModel := Some(repr))
      case MissionRecommendation => s.(missionCount := count)
      case _ => s
  }

  /* ------------------------------------------------------- synthesis */

  /** The four characters backslash, n, backslash, n: the separator the source writes. */
  const LiteralSeparator: string := ['\\', 'n', '\\', 'n']

  const BlankLine: string := "\n\n"

  /** The parts `_synthesize_results` collects, in its order. */
  function SynthesisParts(s: State): (parts: seq<string>)
    ensures |parts| <= 6
    ensures forall p :: p in parts ==> p != ""
  {
    (if s.competencyData.Some? then ["역량진단 분석: " + s.competencyData.value] else [])
    + (if s.recommendationData.Some? then ["맞춤형 추천: " + s.recommendationData.value] else [])
    + (if s.searchCount > 0 then ["검색 결과: " + NatToString(s.searchCount) + "개 항목 발견"] else [])
    + (if s.analyticsResults.Some? then ["분석 리포트: " + s.analyticsResults.value] else [])
    + (if s.collectedCount.Some? then ["데이터 수집: " + NatToString(s.collectedCount.value) + "개 항목 수집 완료"] else [])
    + (if s.selectedModel.Some? && s.selectedModel.value != "" then ["사용된 LLM: " + s.selectedModel.value] else [])
  }

  /** `_synthesize_results` as written: the parts joined by the literal four-character separator. */
  function SynthesizeAsWritten(s: State): (r: string)
    ensures |SynthesisParts(s)| == 0 ==> r == CompletionNotice
    ensures |SynthesisParts(s)| > 0 ==> r == Join(LiteralSeparator, SynthesisParts(s))
  {
    var parts := SynthesisParts(s);
    if |parts| == 0 then CompletionNotice else Join(LiteralSeparator, parts)
  }

  /**
   With two parts the answer holds the backslash sequence and no line break
   between them: the separator is shown to the user as text.
   */
  lemma TwoPartsShowBackslashes(s: State)
    requires s.competencyData.Some? && s.recommendationData.Some?
    ensures Contains(SynthesizeAsWritten(s), LiteralSeparator)
  {
    var parts := SynthesisParts(s);
    var a := parts[0];
    var rest := Join(LiteralSeparator, parts[1..]);
    assert SynthesizeAsWritten(s) == a + (LiteralSeparator + rest);
    ContainsInPrefix(LiteralSeparator, rest);
    ContainsInSuffix(a, LiteralSeparator + rest, LiteralSeparator);
  }

  /** The same answer joined by real blank lines, as the current graph's fallback does. */
  function Synthesize(s: State): (r: string)
    ensures |SynthesisParts(s)| == 0 ==> r == CompletionNotice
    ensures forall p :: p in SynthesisParts(s) ==> Contains(r, p)
    ensures (forall p :: p in SynthesisParts(s) ==> !Contains(p, "\\")) ==> !Contains(r, "\\")
  {
    JoinedAnswer(SynthesisParts(s))
  }

  /** The parts joined by blank lines, or the completion notice when there are none. */
  function JoinedAnswer(parts: seq<string>): (r: string)
    ensures |parts| == 0 ==> r == CompletionNotice
    ensures forall p :: p in parts ==> Contains(r, p)
    ensures (forall p :: p in parts ==> !Contains(p, "\\")) ==> !Contains(r, "\\")
  {
    if |parts| == 0 then
      NoticeHasNoBackslash();
      CompletionNotice
    else
      JoinBlankLinesFacts(parts);
      Join(BlankLine, parts)
  }

  lemma NoticeHasNoBackslash()
    ensures !Contains(CompletionNotice, "\\")
  {
    CharContained(CompletionNotice, '\\');
  }

  lemma JoinBlankLinesFacts(parts: seq<string>)
    ensures forall p :: p in parts ==> Contains(Join(BlankLine, parts), p)
    ensures (forall p :: p in parts ==> !Contains(p, "\\")) ==> !Contains(Join(BlankLine, parts), "\\")
  {
    forall i | 0 <= i < |parts| ensures Contains(Join(BlankLine, parts), parts[i]) {
      JoinContainsParts(BlankLine, parts, i);
    }
    if forall p :: p in parts ==> !Contains(p, "\\") {
      CharContained(BlankLine, '\\');
      JoinAvoidsChar(BlankLine, parts, '\\');
    }
  }

  /** A join whose separator and parts lack a character lacks it too. */
  lemma {:induction false} JoinAvoidsChar(sep: string, parts: seq<string>, c: char)
    requires !Contains(sep, [c])
    requires forall p :: p in parts ==> !Contains(p, [c])
    ensures !Contains(Join(sep, parts), [c])
    decreases |parts|
  {
    if |parts| <= 1 {
    } else {
      assert forall p :: p in parts[1..] ==> p in parts;
      JoinAvoidsChar(sep, parts[1..], c);
      NoCharInConcat(parts[0], sep, c);
      NoCharInConcat(parts[0] + sep, Join(sep, parts[1..]), c);
    }
  }

  lemma NoCharInConcat(a: string, b: string, c: char)
    requires !Contains(a, [c]) && !Contains(b, [c])
    ensures !Contains(a + b, [c])
  {
    CharContained(a, c);
    CharContained(b, c);
    CharContained(a + b, c);
    assert forall i :: 0 <= i < |a + b| ==> (a + b)[i] == (if i < |a| then a[i] else b[i - |a|]);
  }

  /** A one-character text occurs exactly when the character does. */
  lemma CharContained(s: string, c: char)
    ensures Contains(s, [c]) <==> c in s
  {
    ContainsMeansOccurs(s, [c]);
    if c in s {
      var i :| 0 <= i < |s| && s[i] == c;
      assert s[i..i + 1] == [c];
      assert OccursAt(s, [c], i);
    }
    forall i | OccursAt(s, [c], i) ensures s[i] == c {
      assert s[i..i + 1][0] == s[i];
    }
  }

  /** `_final_synthesis`: the answer is appended as one AI message. */
  function SynthesisNode(s: State): (t: State)
    ensures t.messages == s.messages + [Message(AI, SynthesizeAsWritten(s))]
  {
    s.(messages := s.messages + [Message(AI, SynthesizeAsWritten(s))])
  }

  /* ------------------------------------------------------- runs */

  function Body(n: Node, s: State, env: Env, k: nat): (t: State)
    ensures n == FinalSynthesis ==> |t.messages| > 0 && t.messages[|t.messages| - 1].role == AI
  {
    match n
    case RouteRequest => RouteNode(s)
    case DeepAgentsProcessing => DeepNode(s, env, k)
    case RagProcessing => RagNode(s, env, k)
    case ExternalIntegration => s
    case FinalSynthesis => SynthesisNode(s)
    case _ => WorkerNode(n, s, env, k)
  }

  datatype Outcome =
    | Finished(st: State, steps: nat)
    | Stuck(at: Node, key: string, st: State, steps: nat)
    | Halted(at: Node, st: State, steps: nat)

  /** The same outcome, one step later. */
  function Later(o: Outcome): (p: Outcome)
    ensures p.steps == o.steps + 1 && p.st == o.st
    ensures p.Finished? == o.Finished? && p.Stuck? == o.Stuck? && p.Halted? == o.Halted?
    ensures !o.Finished? ==> p.at == o.at
    ensures o.Stuck? ==> p.key == o.key
  {
    match o
    case Finished(v, c) => Finished(v, c + 1)
    case Stuck(at, key, v, c) => Stuck(at, key, v, c + 1)
    case Halted(at, v, c) => Halted(at, v, c + 1)
  }

  /** A whole run as the graph is declared: it ends in synthesis, at a missing key, or at a node without edges. */
  function Run(n: Node, s: State, env: Env, k: nat): (o: Outcome)
    ensures 1 <= o.steps <= Rank(n)
    ensures o.Halted? ==> o.at == LlmManager || o.at == MissionRecommendation
    ensures o.Stuck? ==> o.at in {RouteRequest, RagProcessing, DeepAgentsProcessing}
    ensures o.Finished? ==> |o.st.messages| > 0 && o.st.messages[|o.st.messages| - 1].role == AI
    decreases Rank(n)
  {
    var t := Body(n, s, env, k);
    match Edges(n, t)
    case End(u) => Finished(u, 1)
    case DeadEnd(u) => Halted(n, u, 1)
    case NoEdge(key, u) => Stuck(n, key, u, 1)
    case Goto(m, u) => Later(Run(m, u, env, k + 1))
  }

  /**
   A plain message (no deep-agent, RAG or workflow keyword) is routed to
   `llm_manager` and the run halts there: no answer is appended.
   */
  lemma PlainMessageGetsNoAnswer(message: string, env: Env)
    requires RouteMessage(message) == "general"
    ensures var o := Run(RouteRequest, InitialState(message), env, 0);
      o.Halted? && o.at == LlmManager && o.st.messages == InitialState(message).messages
  {
    GeneralRouteHalts(InitialState(message), env);
  }

  /** A state the route node sends to "general" halts at `llm_manager` with its messages unchanged. */
  lemma GeneralRouteHalts(s: State, env: Env)
    requires RouteNode(s).workflowType == "general"
    ensures var o := Run(RouteRequest, s, env, 0);
      o.Halted? && o.at == LlmManager && o.st.messages == s.messages
  {
    var t := RouteNode(s);
    assert Body(RouteRequest, s, env, 0) == t;
    RoutedTo(t, LlmManager);
    LlmManagerHalts(t, env, 1);
  }

  /** The route node's edge follows the workflow type it stored. */
  lemma RoutedTo(t: State, m: Node)
    requires RouteEdges(t.workflowType) == Some(m)
    ensures Edges(RouteRequest, t) == Goto(m, t)
  {
  }

  /** `llm_manager` has no outgoing edge: a run that reaches it halts there with the messages unchanged. */
  lemma LlmManagerHalts(t: State, env: Env, k: nat)
    ensures Run(LlmManager, t, env, k).Halted? && Run(LlmManager, t, env, k).at == LlmManager
    ensures Run(LlmManager, t, env, k).st.messages == t.messages
  {
    assert Edges(LlmManager, Body(LlmManager, t, env, k)) == DeadEnd(Body(LlmManager, t, env, k));
  }

  /** A run over the completed edges: whatever the oracles say, it ends in synthesis or at a missing key. */
  function RunCompleted(n: Node, s: State, env: Env, k: nat): (o: Outcome)
    ensures 1 <= o.steps <= Rank(n) + 1
    ensures !o.Halted?
    ensures o.Finished? ==> |o.st.messages| > 0 && o.st.messages[|o.st.messages| - 1].role == AI
    ensures o.Stuck? ==> o.at in {RouteRequest, RagProcessing, DeepAgentsProcessing} && Rank(o.at) <= Rank(n)
    decreases Rank(n), if n == FinalSynthesis then 0 else 1, 1
  {
    LeaveCompleted(n, Body(n, s, env, k), env, k)
  }

  /** The rest of a completed run once node `n` has produced state `t`. */
  function LeaveCompleted(n: Node, t: State, env: Env, k: nat): (o: Outcome)
    requires n == FinalSynthesis ==> |t.messages| > 0 && t.messages[|t.messages| - 1].role == AI
    ensures 1 <= o.steps <= Rank(n) + 1
    ensures !o.Halted?
    ensures o.Finished? ==> |o.st.messages| > 0 && o.st.messages[|o.st.messages| - 1].role == AI
    ensures o.Stuck? ==> o.at in {RouteRequest, RagProcessing, DeepAgentsProcessing} && Rank(o.at) <= Rank(n)
    decreases Rank(n), if n == FinalSynthesis then 0 else 1, 0
  {
    match EdgesCompleted(n, t)
    case End(u) => Finished(u, 1)
    case NoEdge(key, u) => Stuck(n, key, u, 1)
    case Goto(m, u) => Later(RunCompleted(m, u, env, k + 1))
  }

  /** From the entry point with a message, every completed run that reaches a known key finishes with an answer. */
  lemma CompletedRunsAnswer(message: string, env: Env)
    ensures var o := RunCompleted(RouteRequest, InitialState(message), env, 0);
      o.Finished? || (o.Stuck? && o.at in {RagProcessing, DeepAgentsProcessing})
  {
    CompletedFromRoute(InitialState(message), env);
  }

  lemma CompletedFromRoute(s: State, env: Env)
    requires |s.messages| > 0
    ensures var o := RunCompleted(RouteRequest, s, env, 0);
      o.Finished? || (o.Stuck? && o.at in {RagProcessing, DeepAgentsProcessing})
  {
    var t := RouteNode(s);
    assert Body(RouteRequest, s, env, 0) == t;
    var m := RouteKeyKnown(t.workflowType);
    assert EdgesCompleted(RouteRequest, t) == Goto(m, t);
    assert LeaveCompleted(RouteRequest, t, env, 0) == Later(RunCompleted(m, t, env, 1));
  }

  /** Every workflow the router can choose has an edge, to a node below the router. */
  lemma RouteKeyKnown(key: string) returns (m: Node)
    requires key in {"deep_agents", "rag", "competency", "recommendation", "mission", "search",
                     "analytics", "data_collection", "general"}
    ensures RouteEdges(key) == Some(m) && Rank(m) < Rank(RouteRequest)
  {
    m := RouteEdges(key).value;
  }

  /** A failed RAG step keeps the workflow type "rag", which the RAG edge map lacks. */
  lemma FailedRagSticks(s: State, env: Env, k: nat)
    requires |s.messages| > 0 && s.workflowType == "rag"
    requires env.rag(k, DetermineQueryType(s.messages[|s.messages| - 1].content)) == RagFailed
    ensures Run(RagProcessing, s, env, k).Stuck? && Run(RagProcessing, s, env, k).key == "rag"
  {
    var t := RagNode(s, env, k);
    assert Body(RagProcessing, s, env, k) == t;
    assert t.workflowType == "rag";
    assert Edges(RagProcessing, t) == NoEdge("rag", t);
  }
}

=== FILE: agents_recommendation_agent.dfy ===
/**
 The learning-material recommender: each catalogue material is scored
 against the user's competency level, learning style and interests, and the
 three best are returned with a confidence that grows with what is known
 about the user.
 */
module RecommendationAgent {
  import opened Common

  datatype Level = Beginner | Intermediate | Advanced {
    function Num(): int {
      match this
      case Beginner => 1
      case Intermediate => 2
      case Advanced => 3
    }
  }

  datatype MaterialType = Video | Interactive | Workshop | Article

  /** A learning style; styles outside the table are `OtherStyle`. */
  datatype Style = Visual | Auditory | Kinesthetic | Balanced | OtherStyle

  datatype Material = Material(
    id: string,
    materialType: MaterialType,
    difficulty: Level,
    duration: nat,
    topics: seq<string>,
    rating: real)
  {
    predicate Valid() { 0.0 <= rating <= 5.0 }
  }

  /** The fixed catalogue of `_initialize_learning_materials`. */
  function Catalogue(): (c: seq<Material>)
    ensures |c| == 5
    ensures forall m :: m in c ==> m.Valid()
  {
    [Material("mat_001", Video, Beginner, 30, ["육아기초", "발달이론"], 4.5),
     Material("mat_002", Interactive, Intermediate, 45, ["발달단계", "인지발달"], 4.7),
     Material("mat_003", Workshop, Advanced, 60, ["소통", "심리학"], 4.8),
     Material("mat_004", Article, Intermediate, 20, ["디지털육아", "미디어"], 4.3),
     Material("mat_005", Video, Beginner, 25, ["안전", "응급처치"], 4.6)]
  }

  /** The competency data: whether any was given, and its `competency_score` when present. */
  datatype CompetencyData = CompetencyData(given: bool, competencyScore: Option<real>)

  /** `_assess_competency_level`. */
  function AssessLevel(d: CompetencyData): (l: Level)
    ensures !d.given ==> l == Beginner
    ensures d.given ==> (l == Advanced <==> d.competencyScore.GetOr(0.0) >= 0.8)
    ensures d.given ==> (l == Beginner <==> d.competencyScore.GetOr(0.0) < 0.6)
  {
    if !d.given then Beginner
    else
      var score := d.competencyScore.GetOr(0.0);
      if score >= 0.8 then Advanced else if score >= 0.6 then Intermediate else Beginner
  }

  /** `_get_difficulty_match_score`: 1 on the user's level, 0.8 one level away, 0.3 further. */
  function DifficultyMatch(material: Level, user: Level): (r: real)
    ensures r == 1.0 <==> material == user
    ensures r == 0.8 <==> (material.Num() - user.Num() == 1 || user.Num() - material.Num() == 1)
    ensures r == 0.3 <==> (material == Beginner && user == Advanced) || (material == Advanced && user == Beginner)
  {
    var diff := material.Num() - user.Num();
    var d := if diff < 0 then -diff else diff;
    if d == 0 then 1.0 else if d == 1 then 0.8 else 0.3
  }

  /** `_get_style_match_score`: the preference table, 0.5 for an unknown style. */
  function StyleMatch(t: MaterialType, s: Style): (r: real)
    ensures 0.2 <= r <= 1.0
    ensures s == OtherStyle ==> r == 0.5
  {
    match s
    case Visual => (match t case Video => 1.0 case Interactive => 0.8 case Article => 0.3 case Workshop => 0.6)
    case Auditory => (match t case Video => 0.8 case Interactive => 0.6 case Article => 0.2 case Workshop => 1.0)
    case Kinesthetic => (match t case Video => 0.4 case Interactive => 1.0 case Article => 0.2 case Workshop => 0.9)
    case Balanced => (match t case Video => 0.7 case Interactive => 0.8 case Article => 0.6 case Workshop => 0.8)
    case OtherStyle => 0.5
  }

  /** Each style has a material type it rates highest, except the balanced and unknown ones. */
  lemma PreferredTypes()
    ensures forall t :: StyleMatch(t, Visual) <= StyleMatch(Video, Visual) == 1.0
    ensures forall t :: StyleMatch(t, Auditory) <= StyleMatch(Workshop, Auditory) == 1.0
    ensures forall t :: StyleMatch(t, Kinesthetic) <= StyleMatch(Interactive, Kinesthetic) == 1.0
    ensures forall t :: StyleMatch(t, Balanced) <= 0.8
  {
  }

  /** The distinct topics that are also interests. */
  function Shared(topics: seq<string>, interests: seq<string>): set<string> {
    set t | t in topics && t in interests
  }

  /** `len(set(topics) & set(interests))`. */
  function Matches(topics: seq<string>, interests: seq<string>): (n: nat) {
    |Shared(topics, interests)|
  }

  /** No distinct match exactly when no topic is an interest. */
  lemma MatchesZeroIff(topics: seq<string>, interests: seq<string>)
    ensures Matches(topics, interests) == 0 <==> forall t :: t in topics ==> t !in interests
  {
    var sh := Shared(topics, interests);
    if Matches(topics, interests) == 0 {
      assert sh == {};
      forall t | t in topics
        ensures t !in interests
      {
        assert t in interests ==> t in sh;
      }
    } else {
      var t :| t in sh;
    }
  }

  /** `_get_interest_match_score`: 0.5 with no interests, else the matched share capped at 1. */
  function InterestMatch(topics: seq<string>, interests: seq<string>): (r: real)
    ensures 0.0 <= r <= 1.0
    ensures interests == [] ==> r == 0.5
    ensures interests != [] ==> (r == 0.0 <==> forall t :: t in topics ==> t !in interests)
  {
    if interests == [] then 0.5
    else
      var n := Matches(topics, interests);
      MatchesZeroIff(topics, interests);
      MinR(n as real / |interests| as real, 1.0)
  }

  /** `_calculate_recommendation_score`: weights 0.4, 0.3, 0.2 and 0.1, capped at 1. */
  function RecommendationScore(m: Material, level: Level, style: Style, interests: seq<string>): (r: real)
    ensures r <= 1.0
  {
    MinR(DifficultyMatch(m.difficulty, level) * 0.4 + StyleMatch(m.materialType, style) * 0.3
         + InterestMatch(m.topics, interests) * 0.2 + m.rating / 5.0 * 0.1, 1.0)
  }

  /** A valid material scores in [0, 1], and at least 0.3 * 0.4 + 0.2 * 0.3 from difficulty and style alone. */
  lemma ScoreInUnitRange(m: Material, level: Level, style: Style, interests: seq<string>)
    requires m.Valid()
    ensures 0.18 <= RecommendationScore(m, level, style, interests) <= 1.0
  {
  }

  /** Why a material is recommended. */
  datatype Why = FitsLevel | NextStep | VisualLearning | HandsOn | WellRated | Personalised

  /** `_generate_recommendation_reason`, as the list of reasons joined in the text. */
  function Reasons(m: Material, level: Level, style: Style): (r: seq<Why>)
    ensures r != []
    ensures Personalised in r <==> r == [Personalised]
    ensures FitsLevel in r <==> m.difficulty == level
    ensures WellRated in r <==> m.rating >= 4.5
  {
    var found :=
      (if m.difficulty == level then [FitsLevel]
       else if m.difficulty == Intermediate && level == Beginner then [NextStep] else [])
      + (if m.materialType == Video && style in {Visual, Balanced} then [VisualLearning]
         else if m.materialType == Workshop && style in {Kinesthetic, Auditory} then [HandsOn] else [])
      + (if m.rating >= 4.5 then [WellRated] else []);
    if found == [] then [Personalised] else found
  }

  datatype Scored = Scored(material: Material, score: real)

  function ScoreOf(s: Scored): real { s.score }

  /** Each material with its score under `f`, in catalogue order. */
  function ScoreAll(ms: seq<Material>, f: Material -> real): (r: seq<Scored>)
    ensures |r| == |ms|
    ensures forall i :: 0 <= i < |r| ==> r[i] == Scored(ms[i], f(ms[i]))
  {
    if ms == [] then [] else [Scored(ms[0], f(ms[0]))] + ScoreAll(ms[1..], f)
  }

  datatype Recommendation = Recommendation(material: Material, score: real, reasons: seq<Why>)

  function Present(s: Scored, level: Level, style: Style): Recommendation {
    Recommendation(s.material, s.score, Reasons(s.material, level, style))
  }

  function PresentAll(ss: seq<Scored>, level: Level, style: Style): (r: seq<Recommendation>)
    ensures |r| == |ss|
    ensures forall i :: 0 <= i < |r| ==> r[i] == Present(ss[i], level, style)
    ensures forall i :: 0 <= i < |r| ==> r[i].material == ss[i].material && r[i].score == ss[i].score
  {
    if ss == [] then [] else [Present(ss[0], level, style)] + PresentAll(ss[1..], level, style)
  }

  /** The top three of the scored catalogue, best first. */
  function Top(ms: seq<Material>, f: Material -> real): seq<Scored> {
    SortedTop(ScoreAll(ms, f), ScoreOf, 3)
  }

  /** The score of a material for this user. */
  function ScorerFor(level: Level, style: Style, interests: seq<string>): Material -> real {
    m => RecommendationScore(m, level, style, interests)
  }

  /** `_generate_recommendations` over a catalogue; the style defaults to balanced. */
  function GenerateRecommendations(ms: seq<Material>, d: CompetencyData, style: Style, interests: seq<string>)
    : (r: seq<Recommendation>)
    ensures |r| == Min(3, |ms|)
  {
    var level := AssessLevel(d);
    SortedTopIsTop(ScoreAll(ms, ScorerFor(level, style, interests)), ScoreOf, 3);
    PresentAll(Top(ms, ScorerFor(level, style, interests)), level, style)
  }

  /** The top three are scored materials, best first, and none left out outranks one kept. */
  lemma TopIsTop(ms: seq<Material>, f: Material -> real)
    ensures var top := Top(ms, f);
      SortedDesc(top, ScoreOf)
      && (forall x :: x in top ==> x.material in ms && x.score == f(x.material))
      && (forall m, x :: m in ms && x in top && (forall y :: y in top ==> y.material != m) ==> f(m) <= x.score)
  {
    var all := ScoreAll(ms, f);
    var top := Top(ms, f);
    SortedTopIsTop(all, ScoreOf, 3);
    forall x | x in top
      ensures x.material in ms && x.score == f(x.material)
    {
      var k :| 0 <= k < |all| && all[k] == x;
    }
    forall m, x | m in ms && x in top && (forall y :: y in top ==> y.material != m)
      ensures f(m) <= x.score
    {
      var k :| 0 <= k < |ms| && ms[k] == m;
      var a := all[k];
      assert a == Scored(m, f(m));
      assert a.material == m;
      assert a !in top;
      assert ScoreOf(x) >= ScoreOf(a);
    }
  }

  /** Presenting the top three keeps their order and scores. */
  lemma PresentedTopIsTop(ms: seq<Material>, f: Material -> real, level: Level, style: Style)
    ensures var r := PresentAll(Top(ms, f), level, style);
      (forall i, j :: 0 <= i < j < |r| ==> r[i].score >= r[j].score)
      && (forall i :: 0 <= i < |r| ==> r[i].material in ms && r[i].score == f(r[i].material))
      && (forall m, i :: m in ms && 0 <= i < |r| && (forall j :: 0 <= j < |r| ==> r[j].material != m) ==>
            f(m) <= r[i].score)
  {
    TopIsTop(ms, f);
    PresentedKeepsTop(ms, f, Top(ms, f), level, style);
  }

  /** Presenting keeps whatever ranking facts held of the scored list. */
  lemma PresentedKeepsTop(ms: seq<Material>, f: Material -> real, top: seq<Scored>, level: Level, style: Style)
    requires SortedDesc(top, ScoreOf)
    requires forall x :: x in top ==> x.material in ms && x.score == f(x.material)
    requires forall m, x :: m in ms && x in top && (forall y :: y in top ==> y.material != m) ==> f(m) <= x.score
    ensures var r := PresentAll(top, level, style);
      (forall i, j :: 0 <= i < j < |r| ==> r[i].score >= r[j].score)
      && (forall i :: 0 <= i < |r| ==> r[i].material in ms && r[i].score == f(r[i].material))
      && (forall m, i :: m in ms && 0 <= i < |r| && (forall j :: 0 <= j < |r| ==> r[j].material != m) ==>
            f(m) <= r[i].score)
  {
    var r := PresentAll(top, level, style);
    assert forall i :: 0 <= i < |r| ==> top[i] in top;
    forall m, i | m in ms && 0 <= i < |r| && (forall j :: 0 <= j < |r| ==> r[j].material != m)
      ensures f(m) <= r[i].score
    {
      LeftOutOfPresented(top, r, m, level, style);
    }
  }

  lemma LeftOutOfPresented(top: seq<Scored>, r: seq<Recommendation>, m: Material, level: Level, style: Style)
    requires r == PresentAll(top, level, style)
    requires forall j :: 0 <= j < |r| ==> r[j].material != m
    ensures forall y :: y in top ==> y.material != m
  {
    forall y | y in top
      ensures y.material != m
    {
      var j :| 0 <= j < |top| && top[j] == y;
      assert r[j].material == y.material;
    }
  }

  /**
   The recommendations are catalogue materials in descending score order, and
   no material left out scores higher than one recommended.
   */
  lemma RecommendationsAreTop(ms: seq<Material>, d: CompetencyData, style: Style, interests: seq<string>)
    ensures var r := GenerateRecommendations(ms, d, style, interests);
      var score := ScorerFor(AssessLevel(d), style, interests);
      (forall i, j :: 0 <= i < j < |r| ==> r[i].score >= r[j].score)
      && (forall i :: 0 <= i < |r| ==> r[i].material in ms && r[i].score == score(r[i].material))
      && (forall m, i :: m in ms && 0 <= i < |r| && (forall j :: 0 <= j < |r| ==> r[j].material != m) ==>
            score(m) <= r[i].score)
  {
    var f := ScorerFor(AssessLevel(d), style, interests);
    assert GenerateRecommendations(ms, d, style, interests) == PresentAll(Top(ms, f), AssessLevel(d), style);
    PresentedTopIsTop(ms, f, AssessLevel(d), style);
  }

  /** The default catalogue always yields exactly three recommendations. */
  lemma CatalogueGivesThree(d: CompetencyData, style: Style, interests: seq<string>)
    ensures |GenerateRecommendations(Catalogue(), d, style, interests)| == 3
  {
  }

  /** `_calculate_confidence`: 0.5, plus up to 0.2 for profile completeness, 0.2 for preferences, 0.1 for competency data. */
  function Confidence(profileValues: seq<bool>, hasPreferences: bool, hasCompetency: bool): (r: real)
    ensures 0.5 <= r <= 1.0
    ensures profileValues == [] && !hasPreferences && !hasCompetency ==> r == 0.5
  {
    var filled := Count((v: bool) => v, profileValues);
    var c := 0.5
      + (if profileValues != [] then filled as real / Max(|profileValues|, 1) as real * 0.2 else 0.0)
      + (if hasPreferences then 0.2 else 0.0)
      + (if hasCompetency then 0.1 else 0.0);
    MinR(c, 1.0)
  }

  /** A complete profile with preferences and competency data gives full confidence. */
  lemma FullInformationFullConfidence(profileValues: seq<bool>)
    requires profileValues != [] && forall i :: 0 <= i < |profileValues| ==> profileValues[i]
    ensures Confidence(profileValues, true, true) == 1.0
  {
    CountUniform((v: bool) => v, profileValues);
  }

  /** Knowing more never lowers the confidence. */
  lemma ConfidenceMonotone(profileValues: seq<bool>, p1: bool, p2: bool, c1: bool, c2: bool)
    requires (p1 ==> p2) && (c1 ==> c2)
    ensures Confidence(profileValues, p1, c1) <= Confidence(profileValues, p2, c2)
  {
  }

  /** The outcome of `execute`: the recommendations and the confidence. */
  datatype Result = Result(recommendations: seq<Recommendation>, confidence: real)

  function Execute(profileValues: seq<bool>, interests: seq<string>, preferences: bool, style: Option<Style>, d: CompetencyData)
    : (r: Result)
    ensures |r.recommendations| == 3 && 0.5 <= r.confidence <= 1.0
  {
    CatalogueGivesThree(d, style.GetOr(Balanced), interests);
    Result(GenerateRecommendations(Catalogue(), d, style.GetOr(Balanced), interests), Confidence(profileValues, preferences, d.given))
  }
}

=== FILE: agents_search_agent.dfy ===
/**
 The search agent: an empty query gives no results; otherwise the results of
 the retrieval engine when a RAG pipeline is attached, else two canned
 fallback documents filtered by metadata and cut to the limit. Metadata and
 filter values are modelled as text.
 */
module SearchAgent {
  import opened Common

  datatype SearchResult = SearchResult(id: string, content: string, metadata: map<string, string>, score: real, source: string)

  /** A retrieved document: a dictionary whose keys may be missing, or something else. */
  datatype Doc =
    | DocDict(id: Option<string>, content: Option<string>, metadata: Option<map<string, string>>,
              score: Option<real>, source: Option<string>)
    | NotADict

  /**
   What the attached pipeline does: nothing attached, a pipeline without a
   retrieval engine, documents retrieved, a retrieval that raises, or an
   exception raised outside the retrieval's own handler.
   */
  datatype Retrieval = NoPipeline | NoEngine | Retrieved(docs: seq<Doc>) | RetrieveRaised | Escaped(message: string)

  datatype State = State(query: Option<string>, results: seq<SearchResult>, totalCount: int,
                         filters: map<string, string>, limit: int, errors: seq<string>)

  /** A result survives the filters unless its metadata holds a filtered key with another value. */
  predicate Matches(filters: map<string, string>, r: SearchResult) {
    forall k :: k in filters && k in r.metadata ==> r.metadata[k] == filters[k]
  }

  /** `_apply_filters`: no filters keep everything; otherwise the matching results in order. */
  function ApplyFilters(results: seq<SearchResult>, filters: map<string, string>): (r: seq<SearchResult>)
    ensures filters == map[] ==> r == results
    ensures forall x :: x in r <==> x in results && Matches(filters, x)
    ensures IsSubsequence(r, results)
  {
    FilterIsSubsequence(x => Matches(filters, x), results);
    assert results == results[..|results|];
    SubsequenceOfPrefix(results, results);
    if filters == map[] then results else Filter(x => Matches(filters, x), results)
  }

  /** A result is dropped exactly when some filtered key is in its metadata with a different value. */
  lemma DroppedExactly(results: seq<SearchResult>, filters: map<string, string>, x: SearchResult)
    requires x in results
    ensures x !in ApplyFilters(results, filters) <==>
      exists k :: k in filters && k in x.metadata && x.metadata[k] != filters[k]
  {
  }

  /** Filter keys absent from every result's metadata never exclude anything. */
  lemma {:induction false} AbsentKeysKeepAll(results: seq<SearchResult>, filters: map<string, string>)
    requires forall x, k :: x in results && k in filters ==> k !in x.metadata
    ensures ApplyFilters(results, filters) == results
    decreases |results|
  {
    if filters != map[] && results != [] {
      assert Matches(filters, results[0]);
      assert forall x :: x in results[1..] ==> x in results;
      AbsentKeysKeepAll(results[1..], filters);
      assert ApplyFilters(results[1..], filters) == Filter(x => Matches(filters, x), results[1..]);
    }
  }

  /** The two canned documents of `_fallback_search`, quoting the query. */
  function SampleResults(q: string): (r: seq<SearchResult>)
    ensures |r| == 2 && r[0].id == "doc_001" && r[1].id == "doc_002"
    ensures forall x :: x in r ==> x.source == "fallback" && "category" in x.metadata
  {
    [ SearchResult("doc_001", "'" + q + "'에 대한 검색 결과입니다.",
        map["title" := "검색 결과 1", "category" := "general", "date" := "2025-01-01"], 0.85, "fallback"),
      SearchResult("doc_002", "'" + q + "' 관련 문서입니다.",
        map["title" := "검색 결과 2", "category" := "reference", "date" := "2025-01-02"], 0.72, "fallback") ]
  }

  /** `_fallback_search`: the canned documents, filtered, then `[:limit]` (a negative limit drops from the end). */
  function FallbackSearch(q: string, filters: map<string, string>, limit: int): (r: seq<SearchResult>)
    ensures limit >= 0 ==> |r| <= limit
    ensures |r| <= 2
    ensures forall x :: x in r ==> x in SampleResults(q) && Matches(filters, x)
  {
    PrefixTo(ApplyFilters(SampleResults(q), filters), limit)
  }

  /** A "category" filter keeps exactly the canned document of that category, so at most one result. */
  lemma CategoryFilter(q: string, c: string, limit: int)
    requires limit >= 1
    ensures var r := FallbackSearch(q, map["category" := c], limit);
      (c == "general" ==> |r| == 1 && r[0].id == "doc_001")
      && (c == "reference" ==> |r| == 1 && r[0].id == "doc_002")
      && (c != "general" && c != "reference" ==> r == [])
  {
    var s := SampleResults(q);
    var f := map["category" := c];
    assert s[0].metadata["category"] == "general" && s[1].metadata["category"] == "reference";
    assert Filter(x => Matches(f, x), s[1..]) == (if Matches(f, s[1]) then [s[1]] else []) by {
      assert s[1..][1..] == [];
    }
  }

  /** The formatting of one retrieved document with the documented defaults; a non-dictionary raises. */
  function Format(d: Doc): (r: Option<SearchResult>)
    ensures r.None? <==> d.NotADict?
    ensures r.Some? ==> (r.value.source == d.source.GetOr("unknown") && r.value.score == d.score.GetOr(0.0)
      && r.value.metadata == d.metadata.GetOr(map[]) && r.value.id == d.id.GetOr(""))
  {
    match d
    case NotADict => None
    case DocDict(id, content, metadata, score, source) =>
      Some(SearchResult(id.GetOr(""), content.GetOr(""), metadata.GetOr(map[]), score.GetOr(0.0), source.GetOr("unknown")))
  }

  /** The formatting loop: every document formatted, or `None` when one raises. */
  function FormatAll(docs: seq<Doc>): (r: Option<seq<SearchResult>>)
    ensures r.None? <==> exists d :: d in docs && d.NotADict?
    ensures r.Some? ==> |r.value| == |docs| && forall i :: 0 <= i < |docs| ==> Format(docs[i]) == Some(r.value[i])
  {
    if docs == [] then Some([])
    else
      assert forall d :: d in docs <==> d == docs[0] || d in docs[1..];
      match Format(docs[0])
      case None => None
      case Some(x) =>
        match FormatAll(docs[1..])
        case None => None
        case Some(rest) => Some([x] + rest)
  }

  /** `_search_with_rag` (once the pipeline is known to be attached): formatted documents, the fallback after a failure, or nothing without an engine. */
  function SearchWithRag(st: State, q: string, rv: Retrieval): (r: seq<SearchResult>)
    requires rv.NoEngine? || rv.Retrieved? || rv.RetrieveRaised?
    ensures rv.NoEngine? ==> r == []
    ensures rv.RetrieveRaised? ==> r == FallbackSearch(q, st.filters, st.limit)
    ensures rv.Retrieved? && FormatAll(rv.docs).Some? ==> r == FormatAll(rv.docs).value
    ensures rv.Retrieved? && FormatAll(rv.docs).None? ==> r == FallbackSearch(q, st.filters, st.limit)
  {
    match rv
    case NoEngine => []
    case RetrieveRaised => FallbackSearch(q, st.filters, st.limit)
    case Retrieved(docs) =>
      match FormatAll(docs)
      case Some(rs) => rs
      case None => FallbackSearch(q, st.filters, st.limit)
  }

  /** `execute`. */
  function Execute(st: State, rv: Retrieval): (o: State)
    ensures o.totalCount == |o.results|
    ensures st.query.None? || st.query == Some("") ==> o.results == [] && o.errors == st.errors
    ensures o.query == st.query && o.filters == st.filters && o.limit == st.limit
    ensures |st.errors| <= |o.errors| <= |st.errors| + 1 && o.errors[..|st.errors|] == st.errors
  {
    if st.query.None? || st.query.value == "" then st.(results := [], totalCount := 0)
    else
      var q := st.query.value;
      match rv
      case Escaped(msg) => st.(results := [], totalCount := 0, errors := st.errors + ["검색 오류: " + msg])
      case NoPipeline =>
        var rs := FallbackSearch(q, st.filters, st.limit);
        st.(results := rs, totalCount := |rs|)
      case _ =>
        var rs := SearchWithRag(st, q, rv);
        st.(results := rs, totalCount := |rs|)
  }

  /** An error appends exactly one message and empties the results; any other outcome adds no error. */
  lemma ExecuteErrors(st: State, rv: Retrieval)
    requires st.query.Some? && st.query.value != ""
    ensures var o := Execute(st, rv);
      (rv.Escaped? <==> |o.errors| == |st.errors| + 1)
      && (rv.Escaped? ==> o.results == [] && o.totalCount == 0)
  {
  }

  /** Without a pipeline the results are the filtered fallback documents, never more than a non-negative limit. */
  lemma FallbackWithoutPipeline(st: State)
    requires st.query.Some? && st.query.value != ""
    ensures var o := Execute(st, NoPipeline);
      (st.limit >= 0 ==> o.totalCount <= st.limit)
      && forall x :: x in o.results ==> x.source == "fallback" && Matches(st.filters, x)
  {
  }
}

=== FILE: api_middleware_auth.dfy ===
/**
 The authentication middleware and the route dependencies built on it.

 The middleware lets exempt paths through, and otherwise demands an
 `Authorization: Bearer <token>` header whose token decodes. The route
 dependency decodes the token into the full token record and checks one
 permission. Decoding (signature and expiry) is a parameter: it yields the
 payload, or says the token expired or is invalid.
 */
module AuthMiddleware {
  import opened Common
  import opened UserModels
  import opened AuthService

  /** Paths that need no token, matched as prefixes. */
  const ExemptPaths: seq<string> := [
    "/health", "/docs", "/openapi.json", "/redoc",
    "/api/v1/creator", "/api/v1/missions", "/api/v1/analytics", "/api/v1/search",
    "/api/v1/competency", "/api/v1/recommendations", "/metrics",
    "/api/v1/auth/login", "/api/v1/auth/login/json", "/api/v1/auth/register", "/api/v1/auth/refresh"]

  /** What decoding a token string gives. */
  datatype Decoded = Payload(claims: Claims) | Expired | Invalid

  /* ------------------------------------------------- whitespace splitting */

  /** A single run of non-space characters splits into itself. */
  lemma {:induction false} WordsOfWord(w: string)
    requires |w| > 0 && forall i :: 0 <= i < |w| ==> !IsSpace(w[i])
    ensures Words(w) == [w]
  {
    assert LeadingSpace(w) == 0;
    WordLengthOfWord(w, "");
    assert w + "" == w;
    assert Words(w[|w|..]) == [];
  }

  /** The first word's length is the length of the run before the next space. */
  lemma {:induction false} WordLengthOfWord(w: string, rest: string)
    requires |w| > 0 && forall i :: 0 <= i < |w| ==> !IsSpace(w[i])
    requires |rest| == 0 || IsSpace(rest[0])
    ensures WordLength(w + rest) == |w|
    decreases |w|
  {
    var t := w + rest;
    if |w| > 1 {
      assert t[1..] == w[1..] + rest;
      WordLengthOfWord(w[1..], rest);
    }
  }

  /** `(a + " " + b).split()` is `a` followed by the words of `b`. */
  lemma WordsOfSpaced(a: string, b: string)
    requires |a| > 0 && forall i :: 0 <= i < |a| ==> !IsSpace(a[i])
    ensures Words(a + " " + b) == [a] + Words(b)
  {
    var s := a + " " + b;
    assert LeadingSpace(s) == 0;
    WordLengthOfWord(a, " " + b);
    assert s == a + (" " + b);
    assert s[..|a|] == a;
    var t := s[|a|..];
    assert t == " " + b;
    assert LeadingSpace(t) == 1 + LeadingSpace(b);
    assert LStrip(t) == LStrip(b);
  }

  /** A header made of a scheme, one space and a token splits into exactly those two. */
  lemma HeaderWords(scheme: string, token: string)
    requires |scheme| > 0 && forall i :: 0 <= i < |scheme| ==> !IsSpace(scheme[i])
    requires |token| > 0 && forall i :: 0 <= i < |token| ==> !IsSpace(token[i])
    ensures SplitHeader(scheme + " " + token) == Some((scheme, token))
  {
    WordsOfSpaced(scheme, token);
    WordsOfWord(token);
  }

  /** A single word does not unpack into a scheme and a token. */
  lemma BareSplit(token: string)
    requires |token| > 0 && forall i :: 0 <= i < |token| ==> !IsSpace(token[i])
    ensures SplitHeader(token).None?
  {
    WordsOfWord(token);
  }

  /* ----------------------------------------------------------- middleware */

  /** The middleware's answer: the request goes on (with the token's user id, if one was checked), or a 401 body. */
  datatype Response = Forwarded(checked: bool, userId: Option<string>) | Unauthorized(error: string)

  /** `scheme, token = header.split()`: `None` where the unpacking raises. */
  function SplitHeader(header: string): (r: Option<(string, string)>)
    ensures r.Some? <==> |Words(header)| == 2
    ensures r.Some? ==> r.value.0 == Words(header)[0] && r.value.1 == Words(header)[1]
  {
    var ws := Words(header);
    if |ws| == 2 then Some((ws[0], ws[1])) else None
  }

  /** `AuthMiddleware.dispatch`. */
  function Dispatch(enabled: bool, path: string, header: Option<string>, decode: string -> Decoded): (r: Response)
    ensures !enabled || AnyPrefix(ExemptPaths, path) ==> r == Forwarded(false, None)
    ensures r.Forwarded? && r.checked ==>
      (header.Some? && SplitHeader(header.value).Some? && Lower(SplitHeader(header.value).value.0) == "bearer"
       && decode(SplitHeader(header.value).value.1).Payload?
       && r.userId == decode(SplitHeader(header.value).value.1).claims.userId)
    ensures r == Unauthorized("Missing authorization header") <==>
      enabled && !AnyPrefix(ExemptPaths, path) && (header.None? || header.value == "")
    ensures r == Unauthorized("Invalid authorization header format") ==>
      header.Some? && SplitHeader(header.value).None?
  {
    if !enabled || AnyPrefix(ExemptPaths, path) then Forwarded(false, None)
    else if header.None? || header.value == "" then Unauthorized("Missing authorization header")
    else match SplitHeader(header.value)
      case None => Unauthorized("Invalid authorization header format")
      case Some((scheme, token)) =>
        if Lower(scheme) != "bearer" then Unauthorized("Invalid authentication scheme")
        else match decode(token)
          case Expired => Unauthorized("Token has expired")
          case Invalid => Unauthorized("Invalid token")
          case Payload(c) => Forwarded(true, c.userId)
  }

  /** Every path under "/api/v1/creators" is exempt too, because "/api/v1/creator" is one of its prefixes. */
  lemma CreatorsPathsExempt(rest: string, header: Option<string>, decode: string -> Decoded)
    ensures Dispatch(true, "/api/v1/creators" + rest, header, decode) == Forwarded(false, None)
  {
    var path := "/api/v1/creators" + rest;
    assert IsPrefix(ExemptPaths[4], path) by { assert path[..|ExemptPaths[4]|] == ExemptPaths[4]; }
  }

  /** A well-formed bearer header with a decodable token is forwarded with the token's user id. */
  lemma BearerForwarded(path: string, scheme: string, token: string, decode: string -> Decoded)
    requires !AnyPrefix(ExemptPaths, path)
    requires |scheme| > 0 && forall i :: 0 <= i < |scheme| ==> !IsSpace(scheme[i])
    requires |token| > 0 && forall i :: 0 <= i < |token| ==> !IsSpace(token[i])
    requires Lower(scheme) == "bearer" && decode(token).Payload?
    ensures Dispatch(true, path, Some(scheme + " " + token), decode) == Forwarded(true, decode(token).claims.userId)
  {
    HeaderWords(scheme, token);
  }

  /** Any scheme other than bearer, in any letter case, is refused. */
  lemma OtherSchemeRefused(path: string, scheme: string, token: string, decode: string -> Decoded)
    requires !AnyPrefix(ExemptPaths, path)
    requires |scheme| > 0 && forall i :: 0 <= i < |scheme| ==> !IsSpace(scheme[i])
    requires |token| > 0 && forall i :: 0 <= i < |token| ==> !IsSpace(token[i])
    requires Lower(scheme) != "bearer"
    ensures Dispatch(true, path, Some(scheme + " " + token), decode) == Unauthorized("Invalid authentication scheme")
  {
    HeaderWords(scheme, token);
  }

  /** A bare token without a scheme is a format error. */
  lemma BareTokenRefused(path: string, token: string, decode: string -> Decoded)
    requires !AnyPrefix(ExemptPaths, path)
    requires |token| > 0 && forall i :: 0 <= i < |token| ==> !IsSpace(token[i])
    ensures Dispatch(true, path, Some(token), decode) == Unauthorized("Invalid authorization header format")
  {
    BareSplit(token);
  }

  /* --------------------------------------------------- route dependencies */

  /** A dependency's verdict: the caller's token record, or an HTTP error. */
  datatype Guard = Granted(user: TokenData) | Denied(status: int, detail: string)

  /**
   `_decode_token`: expiry and bad tokens are 401s with their own details,
   and so is a payload missing any field of the token record or naming an
   unknown role.
   */
  function DecodeToken(d: Decoded): (g: Guard)
    ensures g.Denied? ==> g.status == 401
    ensures d.Expired? ==> g == Denied(401, "Token has expired")
    ensures d.Invalid? ==> g == Denied(401, "Invalid token")
    ensures g.Granted? ==>
      (d.Payload? && d.claims.userId == Some(g.user.userId)
       && d.claims.permissions == Some(g.user.permissions)
       && d.claims.role == Some(RoleValue(g.user.role)))
  {
    match d
    case Expired => Denied(401, "Token has expired")
    case Invalid => Denied(401, "Invalid token")
    case Payload(c) =>
      if c.userId.None? || c.username.None? || c.email.None? || c.role.None? || c.permissions.None? || c.jti.None? then
        Denied(401, "Invalid token payload")
      else match ParseRole(c.role.value)
        case None => Denied(401, "Invalid token payload")
        case Some(role) =>
          Granted(TokenData(c.userId.value, c.username.value, c.email.value, role, c.permissions.value,
                            c.exp, c.iat, c.jti.value))
  }

  /** An access token's payload decodes to its user's id, role and role permissions. */
  lemma AccessPayloadAccepted(u: User, secret: string, now: int, jti: string)
    ensures var g := DecodeToken(Payload(AccessToken(u, secret, now, jti, None).claims));
      g.Granted? && g.user.userId == u.id && g.user.role == u.role
      && g.user.permissions == Values(RolePermissions(u.role))
  {
    RoleRoundTrip(u.role);
  }

  /** A refresh token's payload lacks the identity fields and is refused here, unlike in `verify_token`. */
  lemma RefreshPayloadRefused(u: User, secret: string, now: int, jti: string)
    ensures DecodeToken(Payload(RefreshToken(u, secret, now, jti).claims)) == Denied(401, "Invalid token payload")
  {
  }

  /** `require_permission`: the decoded user when the token lists the permission, else 403. */
  function RequirePermission(d: Decoded, p: Permission): (g: Guard)
    ensures g.Granted? <==> DecodeToken(d).Granted? && PermissionValue(p) in DecodeToken(d).user.permissions
    ensures g.Granted? ==> g == DecodeToken(d)
    ensures DecodeToken(d).Denied? ==> g == DecodeToken(d)
    ensures g.Denied? && DecodeToken(d).Granted? ==>
      g == Denied(403, "Permission '" + PermissionValue(p) + "' required")
  {
    match DecodeToken(d)
    case Denied(s, m) => Denied(s, m)
    case Granted(user) =>
      if PermissionValue(p) in user.permissions then Granted(user)
      else Denied(403, "Permission '" + PermissionValue(p) + "' required")
  }

  /** With an access token, a route guarded by a permission admits exactly the roles granting it. */
  lemma GuardFollowsRole(u: User, secret: string, now: int, jti: string, p: Permission)
    ensures RequirePermission(Payload(AccessToken(u, secret, now, jti, None).claims), p).Granted? <==> Grants(u.role, p)
  {
    AccessPayloadAccepted(u, secret, now, jti);
    ValuesMember(RolePermissions(u.role), p);
  }
}

=== FILE: api_middleware_error_handler.dfy ===
/**
 The global error handlers and the circuit-breaker bookkeeping.

 An application exception is answered with a status chosen by its class,
 checked in a fixed order; request-validation failures become a 422 listing
 each field path; HTTP exceptions keep their status; anything else is a
 500 whose message is hidden outside debug mode. The circuit breaker counts
 failures per service and reports the circuit open at five, letting one
 attempt through again once sixty seconds have passed since the last
 failure. Time is an input, in seconds.
 */
module ErrorHandler {
  import opened Common
  import opened Exceptions

  /** `application_exception_handler`: the status for an exception's class, tested in this order. */
  function StatusFor(k: Kind): (status: int)
    ensures status in {400, 401, 403, 404, 429, 502, 503, 500}
    ensures status == 400 <==> IsA(k, ValidationKind)
    ensures status == 401 <==> IsA(k, AuthenticationKind)
    ensures status == 403 <==> IsA(k, AuthorizationKind)
  {
    if IsA(k, ValidationKind) then 400
    else if IsA(k, AuthenticationKind) then 401
    else if IsA(k, AuthorizationKind) then 403
    else if IsA(k, RecordNotFoundKind) then 404
    else if IsA(k, ApiRateLimitKind) then 429
    else if IsA(k, ApiTimeoutKind) || IsA(k, ExternalApiKind) then 502
    else if IsA(k, DatabaseKind) then 503
    else 500
  }

  /** A missing record is a 404 although it is a database error. */
  lemma NotFoundBeforeDatabase()
    ensures IsA(RecordNotFoundKind, DatabaseKind) && StatusFor(RecordNotFoundKind) == 404
  {
  }

  /** Every other database error is a 503. */
  lemma DatabaseUnavailable(k: Kind)
    requires IsA(k, DatabaseKind) && k != RecordNotFoundKind
    ensures StatusFor(k) == 503
  {
    assert k == DatabaseKind || k == DuplicateRecordKind;
  }

  /** A rate limit is a 429 although it is an external-API error. */
  lemma RateLimitBeforeExternal()
    ensures IsA(ApiRateLimitKind, ExternalApiKind) && StatusFor(ApiRateLimitKind) == 429
  {
  }

  /** Every other external-API error, timeouts included, is a 502. */
  lemma ExternalBadGateway(k: Kind)
    requires IsA(k, ExternalApiKind) && k != ApiRateLimitKind
    ensures StatusFor(k) == 502
  {
    assert k == ExternalApiKind || k == ApiTimeoutKind;
  }

  /** Subclasses answer as their family: a missing field is a 400, an expired token a 401. */
  lemma SubclassesFollowFamily()
    ensures StatusFor(MissingFieldKind) == 400 && StatusFor(InvalidFormatKind) == 400
    ensures StatusFor(TokenExpiredKind) == 401 && StatusFor(InvalidTokenKind) == 401
  {
  }

  /** Classes outside the validation, auth, database and external-API families are all answered with 500, whatever their severity. */
  lemma OtherFamiliesAre500(k: Kind)
    requires !IsA(k, ValidationKind) && !IsA(k, AuthenticationKind) && !IsA(k, AuthorizationKind)
    requires !IsA(k, DatabaseKind) && !IsA(k, ExternalApiKind)
    ensures StatusFor(k) == 500
    ensures k in {BaseKind, AgentKind, AgentExecutionKind, AgentStateKind, DataCollectionKind,
                  DataProcessingKind, ConfigurationKind}
  {
  }

  /** The statuses the exception constructors' errors are answered with, client errors first. */
  lemma ConstructedClientStatuses(field: string, reason: string, entity: string, identifier: string,
                                  message: string, permission: Option<string>, details: map<string, Detail>)
    ensures StatusFor(NewMissingField(field).kind) == 400
    ensures StatusFor(NewInvalidToken(reason).kind) == 401 && StatusFor(NewTokenExpired().kind) == 401
    ensures StatusFor(NewAuthorization(message, permission, details).kind) == 403
    ensures StatusFor(NewRecordNotFound(entity, identifier).kind) == 404
  {
    var missing, notFound := NewMissingField(field), NewRecordNotFound(entity, identifier);
    NotFoundBeforeDatabase();
    assert StatusFor(missing.kind) == 400;
    assert StatusFor(notFound.kind) == 404;
  }

  /** A constructed rate-limit error is a 429 and a constructed timeout a 502. */
  lemma ConstructedApiStatuses(apiName: string, seconds: int, retryAfter: Option<int>)
    ensures StatusFor(NewApiRateLimit(apiName, retryAfter).kind) == 429
    ensures StatusFor(NewApiTimeout(apiName, seconds).kind) == 502
  {
    var rate, timeout := NewApiRateLimit(apiName, retryAfter), NewApiTimeout(apiName, seconds);
    RateLimitBeforeExternal();
    ExternalBadGateway(ApiTimeoutKind);
    assert StatusFor(rate.kind) == 429;
  }

  /** A JSON error answer: status, code, message, category and optional details. */
  datatype Answer = Answer(status: int, code: string, message: string, category: string,
                           details: Option<map<string, Detail>>, traceback: bool)

  /** The handler for application exceptions. */
  function ApplicationAnswer(e: AppError, debug: bool): (a: Answer)
    ensures a.status == StatusFor(e.kind)
    ensures a.code == e.code && a.message == e.message && a.category == CategoryValue(e.category)
    ensures a.details.Some? <==> debug
  {
    var b := CreateErrorResponse(e, debug);
    Answer(StatusFor(e.kind), b.code, b.message, b.category, b.details, b.traceback)
  }

  /** Debug mode changes only the details and the traceback of an application error's answer. */
  lemma DebugOnlyAddsDetails(e: AppError)
    ensures var a, b := ApplicationAnswer(e, true), ApplicationAnswer(e, false);
      a.status == b.status && a.code == b.code && a.message == b.message && a.category == b.category
      && a.details.Some? && b.details.None?
  {
  }

  /** One field problem from request validation: its location path, message and type. */
  datatype FieldProblem = FieldProblem(loc: seq<string>, msg: string, kind: string)

  /** One entry of the 422 body. */
  datatype FieldError = FieldError(field: string, message: string, kind: string)

  /** `".".join(str(loc) for loc in error["loc"])`. */
  function FieldPath(loc: seq<string>): (f: string)
    ensures |loc| == 1 ==> f == loc[0]
    ensures |loc| > 1 ==> f == loc[0] + "." + FieldPath(loc[1..])
    ensures loc == [] ==> f == ""
  {
    if loc == [] then "" else if |loc| == 1 then loc[0] else loc[0] + "." + FieldPath(loc[1..])
  }

  predicate IsDot(c: char) { c == '.' }

  /** Joining dot-free segments with dots and splitting at the dots gives the segments back. */
  lemma {:induction false} FieldPathSplits(loc: seq<string>)
    requires |loc| > 0
    requires forall i :: 0 <= i < |loc| ==> '.' !in loc[i]
    ensures SplitOn(FieldPath(loc), IsDot) == loc
  {
    if |loc| == 1 {
      SplitOnNoDelim(loc[0], IsDot);
    } else {
      FieldPathSplits(loc[1..]);
      SplitOnAtDelim(loc[0], '.', FieldPath(loc[1..]), IsDot);
      assert loc[0] + "." + FieldPath(loc[1..]) == loc[0] + ['.'] + FieldPath(loc[1..]);
      assert [loc[0]] + loc[1..] == loc;
    }
  }

  /** `validation_exception_handler`: 422 listing each problem with its dotted field path. */
  function ValidationAnswer(problems: seq<FieldProblem>): (r: (int, string, seq<FieldError>))
    ensures r.0 == 422 && r.1 == "VALIDATION_ERROR" && |r.2| == |problems|
    ensures forall i :: 0 <= i < |problems| ==>
      r.2[i] == FieldError(FieldPath(problems[i].loc), problems[i].msg, problems[i].kind)
  {
    (422, "VALIDATION_ERROR", seq(|problems|, i requires 0 <= i < |problems| => ToFieldError(problems[i])))
  }

  function ToFieldError(p: FieldProblem): FieldError {
    FieldError(FieldPath(p.loc), p.msg, p.kind)
  }

  /** `http_exception_handler`: the status is kept and the code is HTTP_ followed by it. */
  function HttpAnswer(status: nat, detail: string): (a: Answer)
    ensures a.status == status && a.code == "HTTP_" + NatToString(status) && a.message == detail
    ensures a.category == "http" && a.details.None?
  {
    Answer(status, "HTTP_" + NatToString(status), detail, "http", None, false)
  }

  const HiddenMessage := "내부 서버 오류가 발생했습니다"

  /** `general_exception_handler`: 500 INTERNAL_ERROR, the exception text only in debug mode. */
  function GeneralAnswer(text: string, debug: bool): (a: Answer)
    ensures a.status == 500 && a.code == "INTERNAL_ERROR" && a.category == "system"
    ensures debug ==> a.message == text
    ensures !debug ==> a.message == HiddenMessage
  {
    Answer(500, "INTERNAL_ERROR", if debug then text else HiddenMessage, "system", None, false)
  }

  /** Outside debug mode the answer to an unexpected exception does not depend on its text. */
  lemma GeneralHidesText(t1: string, t2: string)
    ensures GeneralAnswer(t1, false) == GeneralAnswer(t2, false)
  {
  }

  /* ------------------------------------------------------ circuit breaker */

  const Threshold := 5
  const ResetTimeout := 60

  datatype Breaker = Breaker(failures: map<string, int>, lastFailure: map<string, real>)

  const NewBreaker := Breaker(map[], map[])

  /** Every service with a failure time has a count. */
  ghost predicate Tracked(b: Breaker) {
    b.lastFailure.Keys <= b.failures.Keys
  }

  /** `record_failure`: one more failure, stamped now. */
  function RecordFailure(b: Breaker, service: string, now: real): (r: Breaker)
    ensures service in r.failures && r.failures[service] == Lookup(b.failures, service).GetOr(0) + 1
    ensures service in r.lastFailure && r.lastFailure[service] == now
    ensures forall s :: s != service ==> Lookup(r.failures, s) == Lookup(b.failures, s)
    ensures Tracked(b) ==> Tracked(r)
  {
    var n := if service in b.failures then b.failures[service] else 0;
    Breaker(b.failures[service := n + 1], b.lastFailure[service := now])
  }

  function Lookup(m: map<string, int>, k: string): (r: Option<int>)
    ensures r.Some? <==> k in m
    ensures r.Some? ==> r.value == m[k]
  {
    if k in m then Some(m[k]) else None
  }

  /** `record_success`: the count goes back to zero; the failure time is kept. */
  function RecordSuccess(b: Breaker, service: string): (r: Breaker)
    ensures service in r.failures && r.failures[service] == 0 && r.lastFailure == b.lastFailure
    ensures forall s :: s != service ==> Lookup(r.failures, s) == Lookup(b.failures, s)
    ensures Tracked(b) ==> Tracked(r)
  {
    b.(failures := b.failures[service := 0])
  }

  /**
   `is_circuit_open`: closed for an unknown service or below the threshold;
   at or past it, open unless more than the reset timeout has passed since
   the last failure, in which case the count drops to one below the
   threshold (half-open) and the call is let through.
   */
  function IsCircuitOpen(b: Breaker, service: string, now: real): (r: (Breaker, bool))
    ensures r.1 <==>
      (service in b.failures && b.failures[service] >= Threshold
       && !(service in b.lastFailure && now - b.lastFailure[service] > ResetTimeout as real))
    ensures r.0 != b ==>
      (service in b.failures && b.failures[service] >= Threshold && service in b.lastFailure
       && r.0 == b.(failures := b.failures[service := Threshold - 1]))
  {
    if service !in b.failures then (b, false)
    else if b.failures[service] < Threshold then (b, false)
    else if service in b.lastFailure && now - b.lastFailure[service] > ResetTimeout as real then
      (b.(failures := b.failures[service := Threshold - 1]), false)
    else (b, true)
  }

  /** Five failures in a row at one moment open the circuit; four do not. */
  lemma FiveFailuresOpen(service: string, t: real)
    ensures var b4 := RecordFailure(RecordFailure(RecordFailure(RecordFailure(NewBreaker, service, t), service, t), service, t), service, t);
      !IsCircuitOpen(b4, service, t).1 && IsCircuitOpen(RecordFailure(b4, service, t), service, t).1
  {
  }

  /** A success closes an open circuit. */
  lemma SuccessCloses(b: Breaker, service: string, now: real)
    ensures !IsCircuitOpen(RecordSuccess(b, service), service, now).1
  {
  }

  /**
   Half-open: once the timeout has passed the call is let through, and a
   single further failure, within the timeout of it, opens the circuit again.
   */
  lemma HalfOpenReopensOnFailure(b: Breaker, service: string, now: real, later: real)
    requires service in b.failures && b.failures[service] >= Threshold
    requires service in b.lastFailure && now - b.lastFailure[service] > ResetTimeout as real
    requires now <= later <= now + ResetTimeout as real
    ensures var (b1, open1) := IsCircuitOpen(b, service, now);
      !open1 && b1.failures[service] == Threshold - 1
      && IsCircuitOpen(RecordFailure(b1, service, now), service, later).1
  {
  }

  /** Checking a service never changes another service's count. */
  lemma CheckIsolated(b: Breaker, service: string, other: string, now: real)
    requires other != service
    ensures Lookup(IsCircuitOpen(b, service, now).0.failures, other) == Lookup(b.failures, other)
  {
  }
}

=== FILE: api_middleware_rate_limit.dfy ===
/**
 The in-memory rate limiter: a fixed window per client address. The first
 request of a window opens it with a count of one; later requests in the
 window are counted until the limit, after which they are refused with the
 seconds left in the window. Time is an input, in seconds.
 */
module RateLimit {
  import opened Common
  import AuditMiddleware

  /** A client's window: requests counted so far and when the window opened. */
  datatype Entry = Entry(count: int, windowStart: real)

  datatype Limiter = Limiter(maxRequests: int, windowSeconds: int, counts: map<string, Entry>)

  /** A fresh limiter; the defaults are 100 requests per 60 seconds. */
  function New(maxRequests: int, windowSeconds: int): (l: Limiter)
    ensures l.counts == map[] && l.maxRequests == maxRequests && l.windowSeconds == windowSeconds
  {
    Limiter(maxRequests, windowSeconds, map[])
  }

  /** Every counted window holds at least one request and never more than the limit (one, if the limit is below one). */
  ghost predicate Valid(l: Limiter) {
    forall ip :: ip in l.counts ==> 1 <= l.counts[ip].count <= Max(l.maxRequests, 1)
  }

  /** `_get_client_ip`: the first X-Forwarded-For element, stripped, else the peer host, else "unknown". */
  function ClientIp(forwarded: Option<string>, host: Option<string>): (ip: string)
    ensures forwarded.Some? && forwarded.value != "" ==> ip == Strip(BeforeFirst(forwarded.value, ','))
    ensures (forwarded.None? || forwarded.value == "") && host.Some? ==> ip == host.value
    ensures (forwarded.None? || forwarded.value == "") && host.None? ==> ip == "unknown"
  {
    if forwarded.Some? && forwarded.value != "" then Strip(BeforeFirst(forwarded.value, ','))
    else if host.Some? then host.value
    else "unknown"
  }

  /** Without an X-Real-IP header, the limiter and the audit log attribute a request to the same client. */
  lemma SameClientAsAudit(forwarded: Option<string>, host: Option<string>)
    ensures ClientIp(forwarded, host) == AuditMiddleware.ClientIp(forwarded, None, host)
  {
  }

  /**
   `_check_rate_limit`: whether the request is allowed, and either the
   requests left in the window or, when refused, the whole seconds left.
   */
  function Check(l: Limiter, ip: string, now: real): (r: (Limiter, bool, int))
    ensures r.0.maxRequests == l.maxRequests && r.0.windowSeconds == l.windowSeconds
    ensures r.0.counts.Keys == l.counts.Keys + {ip}
    ensures forall other :: other in l.counts && other != ip ==> r.0.counts[other] == l.counts[other]
    ensures !r.1 <==>
      (ip in l.counts && now - l.counts[ip].windowStart <= l.windowSeconds as real
       && l.counts[ip].count >= l.maxRequests)
    ensures !r.1 ==> r.0 == l && r.2 == Trunc(l.windowSeconds as real - (now - l.counts[ip].windowStart))
    ensures r.1 && ip in l.counts && now - l.counts[ip].windowStart <= l.windowSeconds as real ==>
      r.0.counts[ip] == l.counts[ip].(count := l.counts[ip].count + 1)
      && r.2 == l.maxRequests - l.counts[ip].count - 1
    ensures r.1 && (ip !in l.counts || now - l.counts[ip].windowStart > l.windowSeconds as real) ==>
      r.0.counts[ip] == Entry(1, now) && r.2 == l.maxRequests - 1
  {
    if ip !in l.counts then (l.(counts := l.counts[ip := Entry(1, now)]), true, l.maxRequests - 1)
    else
      var e := l.counts[ip];
      var elapsed := now - e.windowStart;
      if elapsed > l.windowSeconds as real then (l.(counts := l.counts[ip := Entry(1, now)]), true, l.maxRequests - 1)
      else if e.count >= l.maxRequests then (l, false, Trunc(l.windowSeconds as real - elapsed))
      else (l.(counts := l.counts[ip := e.(count := e.count + 1)]), true, l.maxRequests - e.count - 1)
  }

  /** Checking keeps every window within the limit, and an allowed request never reports a negative remainder when the limit is at least one. */
  lemma CheckKeepsValid(l: Limiter, ip: string, now: real)
    requires Valid(l)
    ensures Valid(Check(l, ip, now).0)
    ensures l.maxRequests >= 1 && Check(l, ip, now).1 ==> Check(l, ip, now).2 >= 0
  {
  }

  /** With a limit of two, the third request inside one window is refused. */
  lemma ThirdRequestRefused(ip: string, t: real, window: nat)
    ensures var l0 := New(2, window);
      var c1 := Check(l0, ip, t);
      var c2 := Check(c1.0, ip, t);
      var c3 := Check(c2.0, ip, t);
      c1.1 && c1.2 == 1 && c2.1 && c2.2 == 0 && !c3.1 && c3.2 == window
  {
  }

  /** Once the window has passed, the client starts afresh. */
  lemma ExpiredWindowResets(l: Limiter, ip: string, now: real)
    requires ip in l.counts && now - l.counts[ip].windowStart > l.windowSeconds as real
    ensures var r := Check(l, ip, now);
      r.1 && r.0.counts[ip] == Entry(1, now) && r.2 == l.maxRequests - 1
  {
  }

  /** `_cleanup_old_entries`: forget the windows older than twice the window length. */
  function Cleanup(l: Limiter, now: real): (r: Limiter)
    ensures r.maxRequests == l.maxRequests && r.windowSeconds == l.windowSeconds
    ensures forall ip :: ip in r.counts <==>
      ip in l.counts && now - l.counts[ip].windowStart <= (l.windowSeconds * 2) as real
    ensures forall ip :: ip in r.counts ==> r.counts[ip] == l.counts[ip]
  {
    l.(counts := map ip | ip in l.counts && now - l.counts[ip].windowStart <= (l.windowSeconds * 2) as real :: l.counts[ip])
  }

  /** Cleaning up keeps the limiter valid, and a window still open is never forgotten. */
  lemma CleanupKeepsOpenWindows(l: Limiter, ip: string, now: real)
    requires Valid(l) && l.windowSeconds >= 0
    requires ip in l.counts && now - l.counts[ip].windowStart <= l.windowSeconds as real
    ensures Valid(Cleanup(l, now)) && ip in Cleanup(l, now).counts
  {
  }

  /** What the middleware answers. */
  datatype Response =
    | Bypassed
    | TooManyRequests(limit: int, retryAfter: int)
    | Forwarded(limit: int, remaining: int, backend: string)

  /**
   `dispatch`: a disabled limiter forwards untouched; a refused request is a
   429 with the retry delay; an allowed one is forwarded with the limit and
   the remaining count (never below zero). When more than 1000 clients are
   tracked and the random draw is below 0.1, old windows are cleaned up.
   */
  function Dispatch(l: Limiter, enabled: bool, forwarded: Option<string>, host: Option<string>, now: real, draw: real)
    : (r: (Limiter, Response))
    ensures !enabled ==> r == (l, Bypassed)
    ensures r.1.TooManyRequests? ==> r.0 == l && r.1.limit == l.maxRequests
    ensures r.1.TooManyRequests? <==> enabled && !Check(l, ClientIp(forwarded, host), now).1
    ensures r.1.Forwarded? ==> r.1.remaining >= 0 && r.1.backend == "memory"
  {
    if !enabled then (l, Bypassed)
    else
      var c := Check(l, ClientIp(forwarded, host), now);
      if !c.1 then (c.0, TooManyRequests(l.maxRequests, c.2))
      else
        var l' := if |c.0.counts| > 1000 && draw < 0.1 then Cleanup(c.0, now) else c.0;
        (l', Forwarded(l.maxRequests, Max(0, c.2), "memory"))
  }
}

=== FILE: api_middleware_security_utils.dfy ===
/**
 Security helpers: the log filter that tags personal-data keys, the role
 guard for handlers, and the prompt and output sanitisers.

 The regular expressions that block jailbreak phrases, mask secrets and mask
 e-mail addresses, phone numbers and resident numbers are a `mask`
 parameter; what is modelled is the whitespace normalisation, the
 truncation and the recursive walk that preserves structure.
 */
module SecurityUtils {
  import opened Common

  /* ---------------------------------------------------------- log filter */

  const DefaultPiiKeys: seq<string> := ["resident_reg_no", "phone", "email"]

  const MaskTag := "[*masked*]"

  /** `s.replace("", rep)`: the replacement before every character and at the end. */
  function Intersperse(s: string, rep: string): (r: string)
    ensures |r| == |s| + (|s| + 1) * |rep|
  {
    if s == "" then rep else rep + [s[0]] + Intersperse(s[1..], rep)
  }

  /** Python's `s.replace(pat, rep)`, including the empty pattern. */
  function Replace(s: string, pat: string, rep: string): string {
    if pat == "" then Intersperse(s, rep) else ReplaceAll(s, pat, rep)
  }

  /** Tag each key of the list that occurs in the message, key by key. */
  function MaskKeys(msg: string, keys: seq<string>): (r: string)
    ensures (forall i :: 0 <= i < |keys| ==> keys[i] != "" && !Contains(msg, keys[i])) ==> r == msg
    decreases |keys|
  {
    if keys == [] then msg
    else
      var k := keys[0];
      var m := if Contains(msg, k) then Replace(msg, k, k + MaskTag) else msg;
      assert forall i :: 1 <= i < |keys| ==> keys[i] == keys[1..][i - 1];
      MaskKeys(m, keys[1..])
  }

  /** `PIILogFilter.filter`: the record is always kept; its message gets the keys tagged (defaults when none are given). */
  function PiiFilter(patterns: seq<string>, msg: string): (r: (bool, string))
    ensures r.0
    ensures |patterns| > 0 && (forall i :: 0 <= i < |patterns| ==> patterns[i] != "" && !Contains(msg, patterns[i])) ==>
      r.1 == msg
    ensures patterns == [] ==> r.1 == MaskKeys(msg, DefaultPiiKeys)
  {
    var keys := if patterns == [] then DefaultPiiKeys else patterns;
    (true, MaskKeys(msg, keys))
  }

  /** The replacement text occurs in the result wherever the pattern occurred in the input. */
  lemma {:induction false} ReplaceShowsRep(s: string, pat: string, rep: string)
    requires |pat| > 0 && Contains(s, pat)
    ensures Contains(ReplaceAll(s, pat, rep), rep)
    decreases |s|
  {
    if |s| < |pat| {
      ShortNotContains(s, pat);
    } else if s[..|pat|] == pat {
      ContainsInPrefix(rep, ReplaceAll(s[|pat|..], pat, rep));
    } else {
      assert !IsPrefix(pat, s);
      ReplaceShowsRep(s[1..], pat, rep);
      ContainsInSuffix([s[0]], ReplaceAll(s[1..], pat, rep), rep);
    }
  }

  /** With one key, a message mentioning it comes out with the key followed by the tag. */
  lemma SingleKeyTagged(key: string, msg: string)
    requires key != "" && Contains(msg, key)
    ensures Contains(PiiFilter([key], msg).1, key + MaskTag)
  {
    ReplaceShowsRep(msg, key, key + MaskTag);
    assert MaskKeys(msg, [key]) == MaskKeys(Replace(msg, key, key + MaskTag), []);
  }

  /* ---------------------------------------------------------- role guard */

  /** `require_roles`: a handler with allowed roles admits only a caller whose role is listed; with none it admits all. */
  predicate RolesAdmit(allowed: seq<string>, role: Option<string>) {
    |allowed| == 0 || (role.Some? && role.value in allowed)
  }

  /** The guard's verdict: proceed, or the 403 "Forbidden: insufficient role". */
  function RequireRoles(allowed: seq<string>, role: Option<string>): (r: Option<int>)
    ensures r.None? <==> RolesAdmit(allowed, role)
    ensures r.Some? ==> r.value == 403
    ensures |allowed| > 0 && role.None? ==> r == Some(403)
  {
    if |allowed| > 0 && (role.None? || role.value !in allowed) then Some(403) else None
  }

  /** Widening the allowed list never locks out a caller who was admitted. */
  lemma WiderRolesAdmitMore(allowed: seq<string>, wider: seq<string>, role: Option<string>)
    requires |allowed| > 0 && forall x :: x in allowed ==> x in wider
    ensures RequireRoles(allowed, role).None? ==> RequireRoles(wider, role).None?
  {
  }

  /* ------------------------------------------------------ prompt sanitiser */

  /** No two whitespace characters in a row. */
  predicate NoDoubleSpace(s: string) {
    forall i :: 0 <= i < |s| - 1 ==> !(IsSpace(s[i]) && IsSpace(s[i + 1]))
  }

  /** `re.sub(r"\s+", " ", s)`: every run of whitespace becomes one space. */
  function Collapse(s: string): (r: string)
    ensures |r| <= |s|
    ensures |s| > 0 ==> |r| > 0 && (IsSpace(r[0]) <==> IsSpace(s[0]))
    ensures forall i :: 0 <= i < |r| && IsSpace(r[i]) ==> r[i] == ' '
    ensures NoDoubleSpace(r)
    decreases |s|
  {
    if s == "" then ""
    else if IsSpace(s[0]) then
      var rest := Collapse(s[LeadingSpace(s)..]);
      " " + rest
    else
      var rest := Collapse(s[1..]);
      [s[0]] + rest
  }

  /** The non-whitespace characters of a string, in order. */
  function Text(s: string): string {
    if s == "" then "" else (if IsSpace(s[0]) then "" else [s[0]]) + Text(s[1..])
  }

  lemma {:induction false} TextAppend(a: string, b: string)
    ensures Text(a + b) == Text(a) + Text(b)
    decreases |a|
  {
    if a == "" {
      assert a + b == b;
    } else {
      var h := if IsSpace(a[0]) then "" else [a[0]];
      assert (a + b)[0] == a[0] && (a + b)[1..] == a[1..] + b;
      TextAppend(a[1..], b);
      calc {
        Text(a + b);
        h + Text(a[1..] + b);
        h + (Text(a[1..]) + Text(b));
        (h + Text(a[1..])) + Text(b);
        Text(a) + Text(b);
      }
    }
  }

  lemma {:induction false} TextOfSpaces(s: string)
    requires forall i :: 0 <= i < |s| ==> IsSpace(s[i])
    ensures Text(s) == ""
    decreases |s|
  {
    if s != "" {
      TextOfSpaces(s[1..]);
    }
  }

  /** Collapsing whitespace keeps every other character, in order. */
  lemma {:induction false} CollapseKeepsText(s: string)
    ensures Text(Collapse(s)) == Text(s)
    decreases |s|
  {
    if s == "" {
    } else if IsSpace(s[0]) {
      var n := LeadingSpace(s);
      CollapseKeepsText(s[n..]);
      TextAppend(" ", Collapse(s[n..]));
      assert s == s[..n] + s[n..];
      TextAppend(s[..n], s[n..]);
      TextOfSpaces(s[..n]);
    } else {
      CollapseKeepsText(s[1..]);
      TextAppend([s[0]], Collapse(s[1..]));
    }
  }

  /** Dropping leading whitespace keeps the text. */
  lemma LStripKeepsText(s: string)
    ensures Text(LStrip(s)) == Text(s)
  {
    var i := LeadingSpace(s);
    assert s == s[..i] + s[i..];
    TextAppend(s[..i], s[i..]);
    TextOfSpaces(s[..i]);
  }

  /** Dropping trailing whitespace keeps the text. */
  lemma RStripKeepsText(s: string)
    ensures Text(RStrip(s)) == Text(s)
  {
    var j := |s| - TrailingSpace(s);
    assert s == s[..j] + s[j..];
    TextAppend(s[..j], s[j..]);
    TextOfSpaces(s[j..]);
  }

  /** A slice of a string without double whitespace has none either. */
  lemma SliceNoDoubleSpace(s: string, i: nat, j: nat)
    requires i <= j <= |s| && NoDoubleSpace(s)
    ensures NoDoubleSpace(s[i..j])
  {
    assert forall k :: 0 <= k < j - i ==> s[i..j][k] == s[i + k];
  }

  /** Stripping keeps the text and adds no double whitespace. */
  lemma StripKeepsShape(s: string)
    ensures Text(Strip(s)) == Text(s)
    ensures NoDoubleSpace(s) ==> NoDoubleSpace(Strip(s))
  {
    LStripKeepsText(s);
    RStripKeepsText(LStrip(s));
    var i := LeadingSpace(s);
    var t := s[i..];
    if NoDoubleSpace(s) {
      SliceNoDoubleSpace(s, i, |s|);
      SliceNoDoubleSpace(t, 0, |t| - TrailingSpace(t));
    }
  }

  /** `re.sub(r"\s+", " ", p).strip()`. */
  function Normalize(p: string): (r: string)
    ensures NoDoubleSpace(r) && Text(r) == Text(p)
    ensures |r| > 0 ==> !IsSpace(r[0]) && !IsSpace(r[|r| - 1])
  {
    CollapseKeepsText(p);
    StripKeepsShape(Collapse(p));
    Strip(Collapse(p))
  }

  /**
   `sanitize_prompt`: normalise whitespace, apply the masking patterns, and
   cut to `maxLen` characters plus "..."; a missing prompt is "".
   */
  function SanitizePrompt(prompt: Option<string>, maxLen: int, mask: string -> string): (r: string)
    ensures maxLen >= 0 ==> |r| <= maxLen + 3
    ensures |mask(Normalize(prompt.GetOr("")))| <= maxLen ==> r == mask(Normalize(prompt.GetOr("")))
  {
    Ellipsis(mask(Normalize(prompt.GetOr(""))), maxLen)
  }

  /** A short prompt with nothing to mask keeps all its text, with single spaces between words. */
  lemma CleanPromptKeepsText(prompt: string, maxLen: int)
    requires |Normalize(prompt)| <= maxLen
    ensures var r := SanitizePrompt(Some(prompt), maxLen, s => s);
      NoDoubleSpace(r) && Text(r) == Text(prompt)
  {
  }

  /* ------------------------------------------------------ output sanitiser */

  /** A JSON-like value as the API returns it. */
  datatype Json = Null | Str(s: string) | Num(n: real) | Flag(b: bool) | List(items: seq<Json>) | Dict(entries: seq<(string, Json)>)

  /** Same constructors, list lengths, dictionary keys and non-string scalars. */
  predicate SameShape(a: Json, b: Json) {
    match a
    case Null => b.Null?
    case Str(_) => b.Str?
    case Num(n) => b == Num(n)
    case Flag(f) => b == Flag(f)
    case List(xs) => b.List? && |b.items| == |xs| && forall i :: 0 <= i < |xs| ==> SameShape(xs[i], b.items[i])
    case Dict(es) =>
      b.Dict? && |b.entries| == |es|
      && forall i :: 0 <= i < |es| ==> es[i].0 == b.entries[i].0 && SameShape(es[i].1, b.entries[i].1)
  }

  /** Every string inside is at most `n + 3` characters long. */
  predicate StringsWithin(j: Json, n: int) {
    match j
    case Str(s) => |s| <= n + 3
    case List(xs) => forall i :: 0 <= i < |xs| ==> StringsWithin(xs[i], n)
    case Dict(es) => forall i :: 0 <= i < |es| ==> StringsWithin(es[i].1, n)
    case _ => true
  }

  /** `sanitize_output`: mask and cut every string, recursing through lists and dictionaries. */
  function SanitizeOutput(obj: Json, maxLen: int, mask: string -> string): (r: Json)
    ensures SameShape(obj, r)
    ensures maxLen >= 0 ==> StringsWithin(r, maxLen)
    ensures obj.Str? ==> r == Str(Ellipsis(mask(obj.s), maxLen))
  {
    match obj
    case Str(s) => Str(Ellipsis(mask(s), maxLen))
    case List(xs) => List(seq(|xs|, i requires 0 <= i < |xs| => SanitizeOutput(xs[i], maxLen, mask)))
    case Dict(es) => Dict(seq(|es|, i requires 0 <= i < |es| => (es[i].0, SanitizeOutput(es[i].1, maxLen, mask))))
    case _ => obj
  }

  /** Cutting twice cuts once: a cut string already ends in the marker at the limit. */
  lemma EllipsisIdempotent(s: string, limit: nat)
    ensures Ellipsis(Ellipsis(s, limit), limit) == Ellipsis(s, limit)
  {
    if |s| > limit {
      assert (s[..limit] + "...")[..limit] == s[..limit];
    }
  }
}

=== FILE: api_schemas_request_schemas.dfy ===
/**
 The API request schemas' validation. Declared length bounds are checked on
 the value as sent; the field validators then reject blank text and keep
 the value stripped of surrounding whitespace. A rejected request is `None`.
 */
module RequestSchemas {
  import opened Common

  /** A required text field: within its length bounds as sent, not blank, and kept stripped. */
  function NonBlank(v: string, maxLen: nat): (r: Option<string>)
    ensures r.Some? <==> 1 <= |v| <= maxLen && Strip(v) != ""
    ensures r.Some? ==> r.value == Strip(v) && |r.value| <= maxLen
    ensures r.Some? ==> !IsSpace(r.value[0]) && !IsSpace(r.value[|r.value| - 1])
  {
    if |v| < 1 || |v| > maxLen then None
    else if Strip(v) == "" then None
    else Some(Strip(v))
  }

  /** An accepted value is accepted again unchanged. */
  lemma NonBlankIdempotent(v: string, maxLen: nat)
    requires NonBlank(v, maxLen).Some?
    ensures NonBlank(NonBlank(v, maxLen).value, maxLen) == NonBlank(v, maxLen)
  {
    StripIdempotent(v);
  }

  /** Whitespace around an accepted value does not change it. */
  lemma PaddingIgnored(v: string, maxLen: nat)
    requires NonBlank(v, maxLen).Some? && |v| + 2 <= maxLen
    ensures NonBlank(" " + v + " ", maxLen) == NonBlank(v, maxLen)
  {
    PadStrip(v);
  }

  lemma PadStrip(v: string)
    ensures Strip(" " + v + " ") == Strip(v)
  {
    var w := v + " ";
    assert (" " + v + " ")[1..] == w;
    assert LStrip(" " + v + " ") == LStrip(w);
    LeadingOfPadded(v);
    if LStrip(v) != "" {
      TrailingOfPadded(LStrip(v));
    }
  }

  lemma {:induction false} LeadingOfPadded(v: string)
    ensures LeadingSpace(v + " ") == LeadingSpace(v) || (LeadingSpace(v) == |v| && LeadingSpace(v + " ") == |v| + 1)
    ensures LStrip(v + " ") == LStrip(v) + " " || (LStrip(v) == "" && LStrip(v + " ") == "")
    decreases |v|
  {
    if |v| > 0 {
      assert (v + " ")[1..] == v[1..] + " ";
      LeadingOfPadded(v[1..]);
    }
  }

  lemma TrailingOfPadded(w: string)
    ensures RStrip(w + " ") == RStrip(w)
  {
    var t := w + " ";
    assert t[..|t| - 1] == w;
  }

  /** The report types an analytics request may ask for. */
  const ReportTypes: seq<string> := [
    "competency", "learning_progress", "recommendations", "engagement", "performance",
    "creator_mission_performance", "reward_efficiency"]

  /** `report_type`: non-blank within 50 characters, then stripped and lower-cased, and one of the report types. */
  function ReportType(v: string): (r: Option<string>)
    ensures r.Some? <==> NonBlank(v, 50).Some? && Lower(Strip(v)) in ReportTypes
    ensures r.Some? ==> r.value == Lower(Strip(v)) && r.value in ReportTypes
  {
    match NonBlank(v, 50)
    case None => None
    case Some(_) => if Lower(Strip(v)) in ReportTypes then Some(Lower(Strip(v))) else None
  }

  /** Every report type is accepted as it is, and in upper case too. */
  lemma ReportTypesAccepted(t: string)
    requires t in ReportTypes
    ensures ReportType(t) == Some(t)
    ensures ReportType(Upper(t)) == Some(t)
  {
    ReportTypeShape(t);
    StripOfUnspaced(t);
    UpperShape(t);
    StripOfUnspaced(Upper(t));
    LowerUpper(t);
  }

  lemma ReportTypeShape(t: string)
    requires t in ReportTypes
    ensures 1 <= |t| <= 50 && forall i :: 0 <= i < |t| ==> 'a' <= t[i] <= 'z' || t[i] == '_'
  {
  }

  function Upper(s: string): (r: string)
    ensures |r| == |s|
  {
    seq(|s|, i requires 0 <= i < |s| => if 'a' <= s[i] <= 'z' then (s[i] as int - 32) as char else s[i])
  }

  lemma UpperShape(t: string)
    requires forall i :: 0 <= i < |t| ==> 'a' <= t[i] <= 'z' || t[i] == '_'
    ensures forall i :: 0 <= i < |t| ==> !IsSpace(Upper(t)[i]) && !IsSpace(t[i])
  {
  }

  lemma LowerUpper(t: string)
    requires forall i :: 0 <= i < |t| ==> 'a' <= t[i] <= 'z' || t[i] == '_'
    ensures Lower(Upper(t)) == t && Lower(t) == t
  {
  }

  /** An accepted report type is accepted again unchanged. */
  lemma ReportTypeIdempotent(v: string)
    requires ReportType(v).Some?
    ensures ReportType(ReportType(v).value) == ReportType(v)
  {
    ReportTypesAccepted(ReportType(v).value);
  }

  /** An optional session id: absent, or at most 100 characters, kept as sent. */
  function OptionalId(v: Option<string>): (r: Option<Option<string>>)
    ensures r.Some? <==> v.None? || |v.value| <= 100
    ensures r.Some? ==> r.value == v
  {
    if v.Some? && |v.value| > 100 then None else Some(v)
  }

  datatype CompetencyAssessment = CompetencyAssessment(userId: string, sessionId: string)

  /** `CompetencyAssessmentRequest`: both ids required and non-blank. */
  function ValidateCompetencyAssessment(userId: string, sessionId: string): (r: Option<CompetencyAssessment>)
    ensures r.Some? <==> NonBlank(userId, 100).Some? && NonBlank(sessionId, 100).Some?
    ensures r.Some? ==> r.value.userId == Strip(userId) && r.value.sessionId == Strip(sessionId)
  {
    match (NonBlank(userId, 100), NonBlank(sessionId, 100))
    case (Some(u), Some(s)) => Some(CompetencyAssessment(u, s))
    case _ => None
  }

  /** A blank user id, all spaces, is refused whatever the session id. */
  lemma BlankUserIdRefused(sessionId: string)
    ensures ValidateCompetencyAssessment("   ", sessionId).None?
  {
    var s := "   ";
    assert LeadingSpace(s[2..]) == 1;
    assert LeadingSpace(s[1..]) == 2;
    assert LStrip(s) == "";
  }

  datatype Recommendation = Recommendation(userId: string, sessionId: Option<string>)

  /** `RecommendationRequest`: a non-blank user id and an optional session id. */
  function ValidateRecommendation(userId: string, sessionId: Option<string>): (r: Option<Recommendation>)
    ensures r.Some? <==> NonBlank(userId, 100).Some? && OptionalId(sessionId).Some?
    ensures r.Some? ==> r.value.userId == Strip(userId) && r.value.sessionId == sessionId
  {
    match (NonBlank(userId, 100), OptionalId(sessionId))
    case (Some(u), Some(s)) => Some(Recommendation(u, s))
    case _ => None
  }

  datatype Search = Search(query: string, userId: string, sessionId: Option<string>, limit: int)

  /** `SearchRequest`: a non-blank query of at most 500 characters and user id; the limit defaults to 10 and lies in [1, 100]. */
  function ValidateSearch(query: string, userId: string, sessionId: Option<string>, limit: Option<int>): (r: Option<Search>)
    ensures r.Some? <==>
      (NonBlank(query, 500).Some? && NonBlank(userId, 100).Some? && OptionalId(sessionId).Some?
       && (limit.None? || 1 <= limit.value <= 100))
    ensures r.Some? ==> 1 <= r.value.limit <= 100 && r.value.query == Strip(query)
    ensures r.Some? && limit.None? ==> r.value.limit == 10
    ensures r.Some? && limit.Some? ==> r.value.limit == limit.value
  {
    var n := limit.GetOr(10);
    match (NonBlank(query, 500), NonBlank(userId, 100), OptionalId(sessionId))
    case (Some(q), Some(u), Some(s)) => if 1 <= n <= 100 then Some(Search(q, u, s, n)) else None
    case _ => None
  }

  datatype Analytics = Analytics(userId: string, sessionId: Option<string>, reportType: string,
                                 externalSources: map<string, string>)

  /** `AnalyticsRequest`: a non-blank user id, a known report type, and external sources defaulting to none. */
  function ValidateAnalytics(userId: string, sessionId: Option<string>, reportType: string,
                             externalSources: Option<map<string, string>>): (r: Option<Analytics>)
    ensures r.Some? <==> NonBlank(userId, 100).Some? && OptionalId(sessionId).Some? && ReportType(reportType).Some?
    ensures r.Some? ==> r.value.reportType in ReportTypes && r.value.reportType == Lower(Strip(reportType))
    ensures r.Some? && externalSources.None? ==> r.value.externalSources == map[]
  {
    match (NonBlank(userId, 100), OptionalId(sessionId), ReportType(reportType))
    case (Some(u), Some(s), Some(t)) => Some(Analytics(u, s, t, externalSources.GetOr(map[])))
    case _ => None
  }

  datatype CreatorEvaluation = CreatorEvaluation(platform: string, handle: string, profileUrl: Option<string>)

  /** `CreatorEvaluationRequest`: a non-blank platform (no length bound) and a non-blank handle of at most 100 characters. */
  function ValidateCreatorEvaluation(platform: string, handle: string, profileUrl: Option<string>): (r: Option<CreatorEvaluation>)
    ensures r.Some? <==> Strip(platform) != "" && NonBlank(handle, 100).Some?
    ensures r.Some? ==> r.value.platform == Strip(platform) && r.value.handle == Strip(handle)
  {
    if Strip(platform) == "" then None
    else match NonBlank(handle, 100)
      case None => None
      case Some(h) => Some(CreatorEvaluation(Strip(platform), h, profileUrl))
  }

  datatype MissionRecommend = MissionRecommend(creatorId: string, externalSources: map<string, string>)

  /** `MissionRecommendRequest`: a non-blank creator id; external sources default to none. */
  function ValidateMissionRecommend(creatorId: string, externalSources: Option<map<string, string>>): (r: Option<MissionRecommend>)
    ensures r.Some? <==> NonBlank(creatorId, 100).Some?
    ensures r.Some? ==> r.value.creatorId == Strip(creatorId)
    ensures r.Some? && externalSources.None? ==> r.value.externalSources == map[]
  {
    match NonBlank(creatorId, 100)
    case None => None
    case Some(c) => Some(MissionRecommend(c, externalSources.GetOr(map[])))
  }

  /** A validated search request, sent again as validated, is accepted unchanged. */
  lemma SearchRevalidates(query: string, userId: string, sessionId: Option<string>, limit: Option<int>)
    requires ValidateSearch(query, userId, sessionId, limit).Some?
    ensures var v := ValidateSearch(query, userId, sessionId, limit).value;
      ValidateSearch(v.query, v.userId, v.sessionId, Some(v.limit)) == Some(v)
  {
    NonBlankIdempotent(query, 500);
    NonBlankIdempotent(userId, 100);
  }

  /** A validated analytics request, sent again as validated, is accepted unchanged. */
  lemma AnalyticsRevalidates(userId: string, sessionId: Option<string>, reportType: string,
                             externalSources: Option<map<string, string>>)
    requires ValidateAnalytics(userId, sessionId, reportType, externalSources).Some?
    ensures var v := ValidateAnalytics(userId, sessionId, reportType, externalSources).value;
      ValidateAnalytics(v.userId, v.sessionId, v.reportType, Some(v.externalSources)) == Some(v)
  {
    NonBlankIdempotent(userId, 100);
    ReportTypeIdempotent(reportType);
  }

  /** A validated creator evaluation, sent again as validated, is accepted unchanged. */
  lemma CreatorEvaluationRevalidates(platform: string, handle: string, profileUrl: Option<string>)
    requires ValidateCreatorEvaluation(platform, handle, profileUrl).Some?
    ensures var v := ValidateCreatorEvaluation(platform, handle, profileUrl).value;
      ValidateCreatorEvaluation(v.platform, v.handle, v.profileUrl) == Some(v)
  {
    StripIdempotent(platform);
    NonBlankIdempotent(handle, 100);
  }
}

=== FILE: common.dfy ===
/**
 Shared vocabulary for the whole model: an `Option` type, and the handful of
 Python string operations the service leans on everywhere (`strip`, `lower`,
 `in` for substrings, `split`, `"sep".join`, slicing with clamped bounds).

 Only the ASCII behaviour of `lower` and of the whitespace class is modelled;
 Korean text, which the service matches heavily, has no case, so substring
 tests on it are unaffected.
 */
module Common {

  datatype Option<+T> = None | Some(value: T) {
    function GetOr(default: T): T {
      match this
      case Some(v) => v
      case None => default
    }
  }

  /* ---------------------------------------------------------------- numbers */

  function Min(a: int, b: int): int { if a <= b then a else b }
  function Max(a: int, b: int): int { if a >= b then a else b }
  function MinR(a: real, b: real): real { if a <= b then a else b }
  function MaxR(a: real, b: real): real { if a >= b then a else b }

  /** Python's `max(lo, min(x, hi))` on reals. */
  function ClampR(x: real, lo: real, hi: real): (r: real)
    requires lo <= hi
    ensures lo <= r <= hi
    ensures lo <= x <= hi ==> r == x
  {
    MaxR(lo, MinR(x, hi))
  }

  /** Python's `max(lo, min(x, hi))` on integers. */
  function Clamp(x: int, lo: int, hi: int): (r: int)
    requires lo <= hi
    ensures lo <= r <= hi
    ensures lo <= x <= hi ==> r == x
  {
    Max(lo, Min(x, hi))
  }

  /* -------------------------------------------------------------- characters */

  /** The ASCII part of Python's `str.isspace`. */
  predicate IsSpace(c: char) {
    c == ' ' || c == '\t' || c == '\n' || c == '\r' || c == '\U{0B}' || c == '\U{0C}'
    || c == '\U{1C}' || c == '\U{1D}' || c == '\U{1E}' || c == '\U{1F}'
  }

  predicate IsUpper(c: char) { 'A' <= c <= 'Z' }

  /** The precomposed Hangul syllables, the regex class `[가-힣]`. */
  predicate HangulSyllable(c: char) { '가' <= c <= '힣' }

  predicate AsciiLetter(c: char) { 'a' <= c <= 'z' || 'A' <= c <= 'Z' }

  /** The regex class `\w`, restricted to ASCII word characters and Hangul syllables. */
  predicate WordChar(c: char) {
    AsciiLetter(c) || '0' <= c <= '9' || c == '_' || HangulSyllable(c)
  }

  function LowerChar(c: char): (d: char)
    ensures !IsUpper(d)
    ensures !IsUpper(c) ==> d == c
  {
    if IsUpper(c) then (c as int + 32) as char else c
  }

  function UpperChar(c: char): char {
    if 'a' <= c <= 'z' then (c as int - 32) as char else c
  }

  /** `s.lower()` restricted to ASCII letters. */
  function Lower(s: string): (r: string)
    ensures |r| == |s|
    ensures forall i :: 0 <= i < |s| ==> r[i] == LowerChar(s[i])
  {
    seq(|s|, i requires 0 <= i < |s| => LowerChar(s[i]))
  }

  /** `s.upper()` restricted to ASCII letters. */
  function Upper(s: string): (r: string)
    ensures |r| == |s|
    ensures forall i :: 0 <= i < |s| ==> r[i] == UpperChar(s[i])
  {
    seq(|s|, i requires 0 <= i < |s| => UpperChar(s[i]))
  }

  lemma LowerIdempotent(s: string)
    ensures Lower(Lower(s)) == Lower(s)
  {
  }

  /* ------------------------------------------------------------------- strip */

  /** Number of leading whitespace characters. */
  function LeadingSpace(s: string): (n: nat)
    ensures n <= |s|
    ensures forall i :: 0 <= i < n ==> IsSpace(s[i])
    ensures n < |s| ==> !IsSpace(s[n])
  {
    if |s| == 0 || !IsSpace(s[0]) then 0 else 1 + LeadingSpace(s[1..])
  }

  /** Number of trailing whitespace characters. */
  function TrailingSpace(s: string): (n: nat)
    ensures n <= |s|
    ensures forall i :: |s| - n <= i < |s| ==> IsSpace(s[i])
    ensures n < |s| ==> !IsSpace(s[|s| - n - 1])
  {
    if |s| == 0 || !IsSpace(s[|s| - 1]) then 0 else 1 + TrailingSpace(s[..|s| - 1])
  }

  /** `s.lstrip()`: drop the leading whitespace counted by `LeadingSpace`. */
  function LStrip(s: string): (r: string)
    ensures |r| <= |s|
    ensures r == s[LeadingSpace(s)..]
    ensures |r| > 0 ==> !IsSpace(r[0])
  {
    s[LeadingSpace(s)..]
  }

  /** `s.rstrip()`: drop the trailing whitespace counted by `TrailingSpace`. */
  function RStrip(s: string): (r: string)
    ensures |r| <= |s|
    ensures r == s[..|s| - TrailingSpace(s)]
    ensures |r| > 0 ==> !IsSpace(r[|r| - 1])
  {
    s[..|s| - TrailingSpace(s)]
  }

  /** `s.strip()`: drop whitespace at both ends. */
  function Strip(s: string): (r: string)
    ensures |r| <= |s|
    ensures |r| > 0 ==> !IsSpace(r[0]) && !IsSpace(r[|r| - 1])
  {
    RStrip(LStrip(s))
  }

  /** Stripping keeps a contiguous block of the input. */
  lemma StripIsInfix(s: string)
    ensures exists i, j :: 0 <= i <= j <= |s| && Strip(s) == s[i..j]
  {
    var i := LeadingSpace(s);
    var t := s[i..];
    var j := i + |t| - TrailingSpace(t);
    assert Strip(s) == s[i..j];
  }

  /** Stripping keeps only characters of the input. */
  lemma StripKeepsChars(s: string)
    ensures forall c :: c in Strip(s) ==> c in s
  {
    StripIsInfix(s);
    var i, j :| 0 <= i <= j <= |s| && Strip(s) == s[i..j];
    assert forall k :: 0 <= k < j - i ==> s[i..j][k] == s[i + k];
  }

  /** An all-whitespace string strips to "". */
  predicate IsBlank(s: string) { Strip(s) == "" }

  lemma StripOfUnspaced(s: string)
    requires |s| > 0 ==> !IsSpace(s[0]) && !IsSpace(s[|s| - 1])
    ensures Strip(s) == s
  {
    assert LeadingSpace(s) == 0;
    assert TrailingSpace(s) == 0;
  }

  lemma StripIdempotent(s: string)
    ensures Strip(Strip(s)) == Strip(s)
  {
    StripOfUnspaced(Strip(s));
  }

  /* --------------------------------------------------------------- substrings */

  predicate IsPrefix(p: string, s: string) {
    |p| <= |s| && s[..|p|] == p
  }

  /** `any(s.startswith(p) for p in prefixes)`. */
  predicate AnyPrefix(prefixes: seq<string>, s: string) {
    exists i :: 0 <= i < |prefixes| && IsPrefix(prefixes[i], s)
  }

  /** Python's `t in s` for strings. */
  predicate Contains(s: string, t: string)
    decreases |s|
  {
    IsPrefix(t, s) || (|s| > 0 && Contains(s[1..], t))
  }

  /** The declarative reading of `Contains`. */
  ghost predicate OccursAt(s: string, t: string, i: int) {
    0 <= i && i + |t| <= |s| && s[i..i + |t|] == t
  }

  lemma {:induction false} ContainsMeansOccurs(s: string, t: string)
    ensures Contains(s, t) <==> exists i :: OccursAt(s, t, i)
    decreases |s|
  {
    if IsPrefix(t, s) {
      assert OccursAt(s, t, 0);
    } else if |s| == 0 {
      assert |t| > 0;
    } else {
      ContainsMeansOccurs(s[1..], t);
      if Contains(s[1..], t) {
        var i :| OccursAt(s[1..], t, i);
        assert s[i + 1..i + 1 + |t|] == s[1..][i..i + |t|];
        assert OccursAt(s, t, i + 1);
      }
      forall i | OccursAt(s, t, i)
        ensures OccursAt(s[1..], t, i - 1)
      {
        assert i != 0 by { assert !IsPrefix(t, s); }
        assert s[1..][i - 1..i - 1 + |t|] == s[i..i + |t|];
      }
    }
  }

  /** A lowered string never contains a text with an upper-case letter. */
  lemma LowerMissesUpper(s: string, t: string, j: nat)
    requires j < |t| && IsUpper(t[j])
    ensures !Contains(Lower(s), t)
  {
    var low := Lower(s);
    ContainsMeansOccurs(low, t);
    forall i | 0 <= i && i + |t| <= |low|
      ensures !OccursAt(low, t, i)
    {
      assert low[i..i + |t|][j] == low[i + j] != t[j];
    }
  }

  /** A text with a character that `s` lacks does not occur in `s`. */
  lemma MissingCharNotContained(s: string, t: string, j: nat)
    requires j < |t| && t[j] !in s
    ensures !Contains(s, t)
  {
    ContainsMeansOccurs(s, t);
    forall i | 0 <= i && i + |t| <= |s|
      ensures !OccursAt(s, t, i)
    {
      assert s[i..i + |t|][j] == s[i + j];
    }
  }

  lemma ContainsEmpty(s: string)
    ensures Contains(s, "")
  {
    assert IsPrefix("", s);
  }

  lemma {:induction false} ContainsSelf(s: string)
    ensures Contains(s, s)
  {
    assert s[..|s|] == s;
  }

  /** `any(k in s for k in keys)`. */
  predicate ContainsAny(s: string, keys: seq<string>) {
    exists k :: k in keys && Contains(s, k)
  }

  /** The first key of `keys` that occurs in `s`, by position in `keys`. */
  function FirstContained(s: string, keys: seq<string>): (r: Option<nat>)
    ensures r.Some? ==> r.value < |keys| && Contains(s, keys[r.value])
    ensures r.Some? ==> forall j :: 0 <= j < r.value ==> !Contains(s, keys[j])
    ensures r.None? <==> !ContainsAny(s, keys)
  {
    if |keys| == 0 then None
    else if Contains(s, keys[0]) then Some(0)
    else
      match FirstContained(s, keys[1..])
      case None => None
      case Some(j) => Some(j + 1)
  }

  /** The number of keys that occur in `s` (Python `sum(1 for k in keys if k in s)`). */
  function CountContained(s: string, keys: seq<string>): (n: nat)
    ensures n <= |keys|
    ensures n == 0 <==> !ContainsAny(s, keys)
  {
    if |keys| == 0 then 0
    else (if Contains(s, keys[0]) then 1 else 0) + CountContained(s, keys[1..])
  }

  /** `str(n)` for a natural number: its decimal digits, most significant first. */
  function NatToString(n: nat): (r: string)
    ensures |r| >= 1 && forall c :: c in r ==> '0' <= c <= '9'
    decreases n
  {
    var d := [('0' as int + n % 10) as char];
    if n < 10 then d else NatToString(n / 10) + d
  }

  /** `str(i)` for any integer. */
  function IntToString(i: int): (r: string)
    ensures |r| >= 1
    ensures i < 0 <==> r[0] == '-'
  {
    if i < 0 then "-" + NatToString(-i)
    else
      var r := NatToString(i);
      assert r[0] in r;
      r
  }

  /** Python's `int(x)` on a float: truncation toward zero. */
  function Trunc(x: real): (r: int)
    ensures x >= 0.0 ==> r == x.Floor
    ensures r as real <= x < r as real + 1.0 || r as real - 1.0 < x <= r as real
  {
    if x >= 0.0 then x.Floor else -((-x).Floor)
  }

  /* ----------------------------------------------------------- split and join */

  /** `s.split()`: the maximal runs of non-whitespace characters. */
  function Words(s: string): (ws: seq<string>)
    ensures forall w :: w in ws ==> |w| > 0 && forall c :: c in w ==> !IsSpace(c)
    decreases |s|
  {
    var t := LStrip(s);
    if |t| == 0 then []
    else
      var n := WordLength(t);
      [t[..n]] + Words(t[n..])
  }

  /** Length of the non-whitespace run at the start of `t`. */
  function WordLength(t: string): (n: nat)
    requires |t| > 0 && !IsSpace(t[0])
    ensures 0 < n <= |t|
    ensures forall i :: 0 <= i < n ==> !IsSpace(t[i])
  {
    if |t| == 1 || IsSpace(t[1]) then 1 else 1 + WordLength(t[1..])
  }

  /** `sep.join(parts)`. */
  function Join(sep: string, parts: seq<string>): (r: string)
    ensures |parts| == 0 ==> r == ""
    ensures |parts| == 1 ==> r == parts[0]
  {
    if |parts| == 0 then ""
    else if |parts| == 1 then parts[0]
    else parts[0] + sep + Join(sep, parts[1..])
  }

  lemma {:induction false} ContainsInSuffix(a: string, b: string, t: string)
    requires Contains(b, t)
    ensures Contains(a + b, t)
    decreases |a|
  {
    if |a| == 0 {
      assert a + b == b;
    } else {
      ContainsInSuffix(a[1..], b, t);
      assert (a + b)[1..] == a[1..] + b;
    }
  }

  lemma ContainsInPrefix(a: string, b: string)
    ensures Contains(a + b, a)
  {
    assert (a + b)[..|a|] == a;
  }

  lemma {:induction false} ContainsExtend(b: string, c: string, t: string)
    requires Contains(b, t)
    ensures Contains(b + c, t)
    decreases |b|
  {
    if IsPrefix(t, b) {
      assert (b + c)[..|t|] == b[..|t|];
    } else {
      ContainsExtend(b[1..], c, t);
      assert (b + c)[1..] == b[1..] + c;
    }
  }

  /** A text that occurs in the middle piece occurs in the whole. */
  lemma ContainsInMiddle(a: string, b: string, c: string, t: string)
    requires Contains(b, t)
    ensures Contains(a + b + c, t)
  {
    ContainsExtend(b, c, t);
    ContainsInSuffix(a, b + c, t);
    assert a + b + c == a + (b + c);
  }

  /** Every slice of a string occurs in it. */
  lemma SliceContained(s: string, lo: nat, hi: nat, t: string)
    requires lo <= hi <= |s| && t == s[lo..hi]
    ensures Contains(s, t)
  {
    ContainsSelf(t);
    ContainsInMiddle(s[..lo], t, s[hi..], t);
    assert s[..lo] + t + s[hi..] == s;
  }

  /** Every part of a join occurs in the joined string. */
  lemma {:induction false} JoinContainsParts(sep: string, parts: seq<string>, i: nat)
    requires i < |parts|
    ensures Contains(Join(sep, parts), parts[i])
    decreases |parts|
  {
    if |parts| == 1 {
      ContainsSelf(parts[0]);
    } else if i == 0 {
      ContainsInPrefix(parts[0], sep + Join(sep, parts[1..]));
      assert parts[0] + sep + Join(sep, parts[1..]) == parts[0] + (sep + Join(sep, parts[1..]));
    } else {
      JoinContainsParts(sep, parts[1..], i - 1);
      ContainsInSuffix(parts[0] + sep, Join(sep, parts[1..]), parts[i]);
    }
  }

  /** A join splits at any inner part boundary into the two joins around one separator. */
  lemma {:induction false} JoinSplit(sep: string, parts: seq<string>, j: nat)
    requires 0 < j < |parts|
    ensures Join(sep, parts) == Join(sep, parts[..j]) + sep + Join(sep, parts[j..])
    decreases j
  {
    if j > 1 {
      JoinSplit(sep, parts[1..], j - 1);
      assert parts[1..][..j - 1] == parts[..j][1..];
      assert parts[1..][j - 1..] == parts[j..];
    } else {
      assert parts[..1] == [parts[0]];
      assert parts[1..] == parts[j..];
    }
  }

  /** Parts appear in a join in their order: an earlier part lies before a cut, a later one after it. */
  lemma JoinKeepsOrder(sep: string, parts: seq<string>, i: nat, j: nat)
    requires i < j < |parts|
    ensures var r := Join(sep, parts);
      exists k :: 0 <= k <= |r| && Contains(r[..k], parts[i]) && Contains(r[k..], parts[j])
  {
    var r := Join(sep, parts);
    JoinSplit(sep, parts, j);
    var a, b := Join(sep, parts[..j]), Join(sep, parts[j..]);
    JoinContainsParts(sep, parts[..j], i);
    JoinContainsParts(sep, parts[j..], 0);
    ContainsInSuffix(sep, b, parts[j]);
    assert r == a + (sep + b);
    assert r[..|a|] == a && r[|a|..] == sep + b;
  }

  /** A join begins with its first part. */
  lemma JoinStartsWithFirst(sep: string, parts: seq<string>)
    requires |parts| > 0
    ensures |parts[0]| <= |Join(sep, parts)| && Join(sep, parts)[..|parts[0]|] == parts[0]
  {
    if |parts| > 1 {
      assert Join(sep, parts) == parts[0] + (sep + Join(sep, parts[1..]));
    }
  }

  /** A join ends with its last part. */
  lemma {:induction false} JoinEndsWithLast(sep: string, parts: seq<string>)
    requires |parts| > 0
    ensures var j := Join(sep, parts); var last := parts[|parts| - 1];
      |last| <= |j| && j[|j| - |last|..] == last
    decreases |parts|
  {
    if |parts| > 1 {
      JoinEndsWithLast(sep, parts[1..]);
      var rest := Join(sep, parts[1..]);
      var j := Join(sep, parts);
      assert j == (parts[0] + sep) + rest;
      assert j[|j| - |rest|..] == rest;
    }
  }

  /** `s[:n]` for a non-negative `n`. */
  function Take<T>(s: seq<T>, n: nat): (r: seq<T>)
    ensures |r| == Min(n, |s|)
    ensures r == s[..Min(n, |s|)]
  {
    if n <= |s| then s[..n] else s
  }

  /** Python's `s[:stop]` for any integer `stop` (a negative stop counts from the end). */
  function PrefixTo<T>(s: seq<T>, stop: int): (r: seq<T>)
    ensures stop >= 0 ==> r == Take(s, stop)
    ensures stop < 0 ==> r == s[..Max(0, |s| + stop)]
  {
    if stop >= 0 then Take(s, stop) else s[..Max(0, |s| + stop)]
  }

  /** `s[:limit] + "..."` when `len(s) > limit`, else `s` (a negative limit counts from the end). */
  function Ellipsis(s: string, limit: int): (r: string)
    ensures |s| <= limit ==> r == s
    ensures 0 <= limit < |s| ==> r == s[..limit] + "..."
    ensures limit >= 0 ==> |r| <= limit + 3
  {
    if |s| > limit then PrefixTo(s, limit) + "..." else s
  }

  /** Python's `s[-n:]`: the last n items for positive n, everything for zero, and all but the first -n for negative n. */
  function FromEnd<T>(s: seq<T>, n: int): (r: seq<T>)
    ensures n > 0 ==> r == TakeLast(s, n)
    ensures n == 0 ==> r == s
    ensures n < 0 ==> r == s[Min(-n, |s|)..]
  {
    if n > 0 then TakeLast(s, n)
    else if n == 0 then s
    else s[Min(-n, |s|)..]
  }

  /** `s[-n:]` for `n > 0`, and the whole list when it is shorter. */
  function TakeLast<T>(s: seq<T>, n: nat): (r: seq<T>)
    ensures |r| == Min(n, |s|)
    ensures r == s[|s| - Min(n, |s|)..]
  {
    if n <= |s| then s[|s| - n..] else s
  }

  /** `s[a:b]` with Python's clamping of out-of-range bounds (both non-negative). */
  function Slice<T>(s: seq<T>, a: nat, b: nat): (r: seq<T>)
    ensures |r| <= |s|
    ensures a <= b && b <= |s| ==> r == s[a..b]
    ensures a >= |s| || b <= a ==> r == []
  {
    var hi := Min(b, |s|);
    var lo := Min(a, hi);
    s[lo..hi]
  }

  /* ----------------------------------------------------------- sequence facts */

  predicate NoDuplicates<T(==)>(s: seq<T>) {
    forall i, j :: 0 <= i < j < |s| ==> s[i] != s[j]
  }

  /** `xs` can be obtained from `ys` by deleting elements. */
  predicate IsSubsequence<T(==)>(xs: seq<T>, ys: seq<T>)
    decreases |ys|
  {
    |xs| == 0 || (|ys| > 0 && ((xs[0] == ys[0] && IsSubsequence(xs[1..], ys[1..])) || IsSubsequence(xs, ys[1..])))
  }

  lemma {:induction false} SubsequenceElements<T>(xs: seq<T>, ys: seq<T>)
    requires IsSubsequence(xs, ys)
    ensures forall x :: x in xs ==> x in ys
    ensures |xs| <= |ys|
    decreases |ys|
  {
    if |xs| == 0 {
    } else if xs[0] == ys[0] && IsSubsequence(xs[1..], ys[1..]) {
      SubsequenceElements(xs[1..], ys[1..]);
      assert forall x :: x in xs ==> x == xs[0] || x in xs[1..];
    } else {
      SubsequenceElements(xs, ys[1..]);
    }
  }

  lemma {:induction false} SubsequenceOfPrefix<T>(xs: seq<T>, ys: seq<T>)
    requires exists n :: 0 <= n <= |ys| && xs == ys[..n]
    ensures IsSubsequence(xs, ys)
    decreases |ys|
  {
    var n :| 0 <= n <= |ys| && xs == ys[..n];
    if n == 0 {
    } else {
      assert xs[1..] == ys[1..][..n - 1];
      SubsequenceOfPrefix(xs[1..], ys[1..]);
    }
  }

  /** Filtering with a predicate: the standard `[x for x in s if p(x)]`. */
  function Filter<T>(p: T -> bool, s: seq<T>): (r: seq<T>)
    ensures |r| <= |s|
    ensures forall x :: x in r ==> x in s && p(x)
    ensures forall x :: x in s && p(x) ==> x in r
  {
    if |s| == 0 then []
    else if p(s[0]) then [s[0]] + Filter(p, s[1..])
    else Filter(p, s[1..])
  }

  lemma {:induction false} FilterIsSubsequence<T>(p: T -> bool, s: seq<T>)
    ensures IsSubsequence(Filter(p, s), s)
    decreases |s|
  {
    if |s| == 0 {
    } else {
      FilterIsSubsequence(p, s[1..]);
      if p(s[0]) {
        assert Filter(p, s)[1..] == Filter(p, s[1..]);
      } else {
        var f := Filter(p, s);
        if |f| > 0 {
          assert IsSubsequence(f, s[1..]);
        }
      }
    }
  }

  /** Sum of a sequence of reals. */
  function SumR(s: seq<real>): real {
    if |s| == 0 then 0.0 else s[0] + SumR(s[1..])
  }

  function Sum(s: seq<int>): int {
    if |s| == 0 then 0 else s[0] + Sum(s[1..])
  }

  /** Sorted by a key, largest first (Python `sorted(..., reverse=True)`). */
  predicate SortedDesc<T>(s: seq<T>, key: T -> real) {
    forall i, j :: 0 <= i < j < |s| ==> key(s[i]) >= key(s[j])
  }

  /** The first item of `s` whose key is `k`. */
  function FirstWithKey<T, K(==)>(s: seq<T>, key: T -> K, k: K): (r: Option<T>)
    ensures r.Some? ==> r.value in s && key(r.value) == k
    ensures r.None? <==> forall x :: x in s ==> key(x) != k
  {
    if |s| == 0 then None
    else if key(s[0]) == k then Some(s[0])
    else
      assert forall x :: x in s ==> x == s[0] || x in s[1..];
      FirstWithKey(s[1..], key, k)
  }

  /**
   The first-occurrence loop `for x in s: if key(x) not in seen: seen.add(key(x)); out.append(x)`,
   started with the keys in `seen` already taken.
   */
  function DedupBy<T, K(==)>(s: seq<T>, key: T -> K, seen: set<K>): (r: seq<T>)
    ensures forall i, j :: 0 <= i < j < |r| ==> key(r[i]) != key(r[j])
    ensures forall y :: y in r ==> y in s && key(y) !in seen
    ensures |r| <= |s|
  {
    if |s| == 0 then []
    else if key(s[0]) in seen then DedupBy(s[1..], key, seen)
    else
      var rest := DedupBy(s[1..], key, seen + {key(s[0])});
      assert forall i :: 0 < i <= |rest| ==> ([s[0]] + rest)[i] == rest[i - 1];
      [s[0]] + rest
  }

  /** Each kept item is the first of its key, and every key not already taken is kept. */
  lemma {:induction false} DedupByFirst<T, K>(s: seq<T>, key: T -> K, seen: set<K>)
    ensures forall y :: y in DedupBy(s, key, seen) ==> FirstWithKey(s, key, key(y)) == Some(y)
    ensures forall x :: x in s ==> key(x) in seen || exists y :: y in DedupBy(s, key, seen) && key(y) == key(x)
    decreases |s|
  {
    if |s| > 0 {
      var r := DedupBy(s, key, seen);
      assert forall x :: x in s ==> x == s[0] || x in s[1..];
      if key(s[0]) in seen {
        DedupByFirst(s[1..], key, seen);
      } else {
        var rest := DedupBy(s[1..], key, seen + {key(s[0])});
        DedupByFirst(s[1..], key, seen + {key(s[0])});
        assert r == [s[0]] + rest;
        assert forall y :: y in r ==> y == s[0] || y in rest;
      }
    }
  }

  /** The keys occurring in `s`. */
  function KeysOf<T(==), K>(s: seq<T>, key: T -> K): set<K> {
    set x | x in s :: key(x)
  }

  lemma KeysOfCons<T, K>(a: seq<T>, key: T -> K)
    requires |a| > 0
    ensures KeysOf(a, key) == {key(a[0])} + KeysOf(a[1..], key)
  {
    assert forall y :: y in a <==> y == a[0] || y in a[1..] by {
      assert a == [a[0]] + a[1..];
    }
  }

  /** Deduplicating a concatenation is deduplicating each part, the second with the first's keys taken. */
  lemma {:induction false} DedupByAppend<T, K>(a: seq<T>, b: seq<T>, key: T -> K, seen: set<K>)
    ensures DedupBy(a + b, key, seen) == DedupBy(a, key, seen) + DedupBy(b, key, seen + KeysOf(a, key))
    decreases |a|
  {
    if |a| == 0 {
      assert a + b == b;
      assert seen + KeysOf(a, key) == seen;
    } else {
      var x := a[0];
      var seen' := if key(x) in seen then seen else seen + {key(x)};
      DedupByAppend(a[1..], b, key, seen');
      DedupByStep(a, b, key, seen);
      SeenAfterHead(a, key, seen);
      var head := if key(x) in seen then [] else [x];
      AppendAssoc(head, DedupBy(a[1..], key, seen'), DedupBy(b, key, seen + KeysOf(a, key)));
    }
  }

  /** A non-empty sequence is its head followed by its tail. */
  lemma HeadTail<T>(s: seq<T>)
    requires |s| > 0
    ensures [s[0]] + s[1..] == s
  {
  }

  lemma AppendAssoc<T>(x: seq<T>, y: seq<T>, z: seq<T>)
    ensures x + (y + z) == (x + y) + z
  {
  }

  lemma SeenAfterHead<T, K>(a: seq<T>, key: T -> K, seen: set<K>)
    requires |a| > 0
    ensures (if key(a[0]) in seen then seen else seen + {key(a[0])}) + KeysOf(a[1..], key) == seen + KeysOf(a, key)
  {
    KeysOfCons(a, key);
  }

  /** One step of the loop over `a + b` is one step of the loop over `a`. */
  lemma DedupByStep<T, K>(a: seq<T>, b: seq<T>, key: T -> K, seen: set<K>)
    requires |a| > 0
    ensures var seen' := if key(a[0]) in seen then seen else seen + {key(a[0])};
      var head := if key(a[0]) in seen then [] else [a[0]];
      DedupBy(a + b, key, seen) == head + DedupBy(a[1..] + b, key, seen')
      && DedupBy(a, key, seen) == head + DedupBy(a[1..], key, seen')
  {
    assert (a + b)[0] == a[0] && (a + b)[1..] == a[1..] + b;
  }

  /** The deduplicated list keeps the input order: it is a subsequence. */
  lemma {:induction false} DedupByIsSubsequence<T, K>(s: seq<T>, key: T -> K, seen: set<K>)
    ensures IsSubsequence(DedupBy(s, key, seen), s)
    decreases |s|
  {
    if |s| > 0 {
      if key(s[0]) in seen {
        DedupByIsSubsequence(s[1..], key, seen);
        var r := DedupBy(s, key, seen);
        if |r| > 0 {
          assert IsSubsequence(r, s[1..]);
        }
      } else {
        DedupByIsSubsequence(s[1..], key, seen + {key(s[0])});
        var r := DedupBy(s, key, seen);
        assert r[0] == s[0] && r[1..] == DedupBy(s[1..], key, seen + {key(s[0])});
      }
    }
  }

  /** The position of the first `x` in `s`, or `|s|` when there is none. */
  function FirstIndex<T(==)>(s: seq<T>, x: T): (i: nat)
    ensures i <= |s|
    ensures i < |s| <==> x in s
    ensures i < |s| ==> s[i] == x
    ensures forall j :: 0 <= j < i ==> s[j] != x
  {
    if |s| == 0 then 0
    else if s[0] == x then 0
    else
      var k := FirstIndex(s[1..], x);
      assert forall y :: y in s[1..] ==> y in s;
      assert x in s ==> x in s[1..] by {
        if x in s {
          var j :| 0 <= j < |s| && s[j] == x;
          assert s[1..][j - 1] == x;
        }
      }
      1 + k
  }

  /** `out` lists its items in the order in which they first occur in `src`. */
  predicate InFirstOccurrenceOrder<T(==)>(out: seq<T>, src: seq<T>) {
    forall i, j :: 0 <= i < j < |out| ==> FirstIndex(src, out[i]) < FirstIndex(src, out[j])
  }

  /** Appending to `s` moves no first occurrence, and a new item first occurs at the end. */
  lemma FirstIndexAppend<T>(s: seq<T>, y: T, x: T)
    ensures x in s ==> FirstIndex(s + [y], x) == FirstIndex(s, x)
    ensures x !in s && x == y ==> FirstIndex(s + [y], x) == |s|
  {
    var t := s + [y];
    assert forall j :: 0 <= j < |s| ==> t[j] == s[j];
    if x in s {
      var m, k := FirstIndex(s, x), FirstIndex(t, x);
      assert t[m] == x;
    } else if x == y {
      assert t[|s|] == x;
    }
  }

  /**
   Appending `n` to the source keeps `out` in first-occurrence order, and so
   does appending `n` to both when it is new to the source.
   */
  lemma OrderAfterAppend<T>(out: seq<T>, src: seq<T>, n: T)
    requires forall x :: x in out ==> x in src
    requires InFirstOccurrenceOrder(out, src)
    ensures InFirstOccurrenceOrder(out, src + [n])
    ensures n !in src ==> InFirstOccurrenceOrder(out + [n], src + [n])
  {
    forall x | x in out ensures FirstIndex(src + [n], x) == FirstIndex(src, x) && FirstIndex(src, x) < |src| {
      FirstIndexAppend(src, n, x);
    }
    if n !in src {
      FirstIndexAppend(src, n, n);
      var r := out + [n];
      assert forall i :: 0 <= i < |out| ==> r[i] == out[i] && r[i] in out;
    }
  }

  /** A first-occurrence loop keeps the order in which its items first occur. */
  lemma {:induction false} DedupByOrder<T, K>(s: seq<T>, key: T -> K, seen: set<K>)
    ensures InFirstOccurrenceOrder(DedupBy(s, key, seen), s)
    decreases |s|
  {
    if |s| > 0 {
      var r := DedupBy(s, key, seen);
      var seen' := if key(s[0]) in seen then seen else seen + {key(s[0])};
      var rest := DedupBy(s[1..], key, seen');
      DedupByOrder(s[1..], key, seen');
      assert forall y :: y in rest ==> key(y) != key(s[0]);
      OrderAfterHead(s, rest);
      if key(s[0]) in seen {
        assert r == rest;
      } else {
        assert r == [s[0]] + rest;
      }
    }
  }

  /** Items ordered by first occurrence in the tail, none of them the head, stay ordered with or without the head in front. */
  lemma OrderAfterHead<T>(s: seq<T>, rest: seq<T>)
    requires |s| > 0 && InFirstOccurrenceOrder(rest, s[1..])
    requires forall y :: y in rest ==> y != s[0]
    ensures InFirstOccurrenceOrder(rest, s)
    ensures InFirstOccurrenceOrder([s[0]] + rest, s)
  {
    assert forall y :: y in rest ==> FirstIndex(s, y) == 1 + FirstIndex(s[1..], y);
    var r := [s[0]] + rest;
    assert forall i :: 0 < i < |r| ==> r[i] == rest[i - 1] && r[i] in rest;
  }

  /** Insert `x` before the first item with a smaller key: the step of a stable sort. */
  function InsertDesc<T>(x: T, s: seq<T>, key: T -> real): (r: seq<T>)
    requires SortedDesc(s, key)
    ensures SortedDesc(r, key)
    ensures forall y :: y in r ==> y == x || y in s
    ensures |r| == |s| + 1
  {
    if |s| == 0 || key(x) >= key(s[0]) then [x] + s
    else
      var rest := InsertDesc(x, s[1..], key);
      assert forall y :: y in s[1..] ==> y in s;
      forall y | y in rest
        ensures key(y) <= key(s[0])
      {
        if y != x {
          var j :| 0 <= j < |s[1..]| && s[1..][j] == y;
          assert y == s[j + 1];
        }
      }
      assert forall i :: 0 < i <= |rest| ==> ([s[0]] + rest)[i] == rest[i - 1];
      [s[0]] + rest
  }

  lemma {:induction false} InsertDescPermutes<T>(x: T, s: seq<T>, key: T -> real)
    requires SortedDesc(s, key)
    ensures multiset(InsertDesc(x, s, key)) == multiset(s) + multiset{x}
    decreases |s|
  {
    if |s| > 0 && key(x) < key(s[0]) {
      InsertDescPermutes(x, s[1..], key);
      assert s == [s[0]] + s[1..];
    }
  }

  /** `sorted(s, key=key, reverse=True)`: a stable sort, largest key first. */
  function SortDesc<T>(s: seq<T>, key: T -> real): (r: seq<T>)
    ensures SortedDesc(r, key)
    ensures |r| == |s|
  {
    if |s| == 0 then [] else InsertDesc(s[0], SortDesc(s[1..], key), key)
  }

  /** Sorting only reorders. */
  lemma {:induction false} SortDescPermutes<T>(s: seq<T>, key: T -> real)
    ensures multiset(SortDesc(s, key)) == multiset(s)
    decreases |s|
  {
    if |s| > 0 {
      SortDescPermutes(s[1..], key);
      InsertDescPermutes(s[0], SortDesc(s[1..], key), key);
      assert s == [s[0]] + s[1..];
    }
  }

  /** Sorting keeps exactly the items it was given. */
  lemma SortDescMembers<T>(s: seq<T>, key: T -> real)
    ensures forall x :: x in SortDesc(s, key) <==> x in s
  {
    SortDescPermutes(s, key);
    assert forall x :: x in SortDesc(s, key) <==> x in multiset(SortDesc(s, key));
    assert forall x :: x in s <==> x in multiset(s);
  }

  /** A single sorted item was among those given. */
  lemma SortedItemIsGiven<T>(s: seq<T>, key: T -> real, y: T)
    requires y in SortDesc(s, key)
    ensures y in s
  {
    SortDescMembers(s, key);
  }

  /** No two items share a key. */
  predicate DistinctKeys<T, K(==)>(s: seq<T>, key: T -> K) {
    forall i, j :: 0 <= i < j < |s| ==> key(s[i]) != key(s[j])
  }

  /** The head's key is not repeated in the tail, whose keys stay distinct. */
  lemma TailKeysDiffer<T, K>(s: seq<T>, id: T -> K)
    requires |s| > 0 && DistinctKeys(s, id)
    ensures DistinctKeys(s[1..], id)
    ensures forall y :: y in s[1..] ==> id(y) != id(s[0])
  {
    forall y | y in s[1..]
      ensures id(y) != id(s[0])
    {
      var j :| 0 <= j < |s[1..]| && s[1..][j] == y;
      assert y == s[j + 1];
    }
    forall i, j | 0 <= i < j < |s[1..]|
      ensures id(s[1..][i]) != id(s[1..][j])
    {
      assert s[1..][i] == s[i + 1] && s[1..][j] == s[j + 1];
    }
  }

  /** Putting an item with a fresh key in front keeps the keys distinct. */
  lemma ConsDistinct<T, K>(a: T, rest: seq<T>, id: T -> K)
    requires DistinctKeys(rest, id)
    requires forall y :: y in rest ==> id(y) != id(a)
    ensures DistinctKeys([a] + rest, id)
  {
    var r := [a] + rest;
    forall i, j | 0 <= i < j < |r|
      ensures id(r[i]) != id(r[j])
    {
      assert r[j] == rest[j - 1];
      if i > 0 {
        assert r[i] == rest[i - 1];
      }
    }
  }

  /** Inserting an item with a fresh key keeps the keys distinct. */
  lemma {:induction false} InsertDescDistinct<T, K>(x: T, s: seq<T>, key: T -> real, id: T -> K)
    requires SortedDesc(s, key) && DistinctKeys(s, id)
    requires forall y :: y in s ==> id(y) != id(x)
    ensures DistinctKeys(InsertDesc(x, s, key), id)
    decreases |s|
  {
    if |s| == 0 || key(x) >= key(s[0]) {
      ConsDistinct(x, s, id);
    } else {
      TailKeysDiffer(s, id);
      assert forall y :: y in s[1..] ==> y in s;
      InsertDescDistinct(x, s[1..], key, id);
      var rest := InsertDesc(x, s[1..], key);
      assert s[0] in s;
      ConsDistinct(s[0], rest, id);
    }
  }

  /** Sorting keeps distinct keys distinct. */
  lemma {:induction false} SortDescDistinct<T, K>(s: seq<T>, key: T -> real, id: T -> K)
    requires DistinctKeys(s, id)
    ensures DistinctKeys(SortDesc(s, key), id)
    decreases |s|
  {
    if |s| > 0 {
      TailKeysDiffer(s, id);
      SortDescDistinct(s[1..], key, id);
      forall y | y in SortDesc(s[1..], key)
        ensures id(y) != id(s[0])
      {
        SortedItemIsGiven(s[1..], key, y);
      }
      InsertDescDistinct(s[0], SortDesc(s[1..], key), key, id);
    }
  }

  /** `sorted(s, key=key, reverse=True)[:stop]`: the best items first, cut at `stop`. */
  function SortedTop<T>(s: seq<T>, key: T -> real, stop: int): (r: seq<T>)
    ensures SortedDesc(r, key)
    ensures |r| <= |s| && (stop >= 0 ==> |r| <= stop)
    ensures forall x :: x in r ==> x in s
  {
    var sorted := SortDesc(s, key);
    SortDescMembers(s, key);
    var r := PrefixTo(sorted, stop);
    assert r == sorted[..|r|];
    assert forall x :: x in r ==> x in sorted;
    r
  }

  /** The top `stop` items: as many as there are up to `stop`, and none left out outranks one kept. */
  lemma SortedTopIsTop<T>(s: seq<T>, key: T -> real, stop: nat)
    ensures |SortedTop(s, key, stop)| == Min(stop, |s|)
    ensures forall x, y :: x in s && x !in SortedTop(s, key, stop) && y in SortedTop(s, key, stop) ==> key(y) >= key(x)
  {
    var sorted := SortDesc(s, key);
    var r := SortedTop(s, key, stop);
    SortDescMembers(s, key);
    assert r == sorted[..|r|];
    forall x, y | x in s && x !in r && y in r
      ensures key(y) >= key(x)
    {
      var j :| 0 <= j < |sorted| && sorted[j] == x;
      var i :| 0 <= i < |r| && r[i] == y;
      assert sorted[i] == y;
    }
  }

  /** `part / max(whole, 1)`: a fraction in [0, 1] whenever the part fits in the whole. */
  function Fraction(part: nat, whole: nat): (r: real)
    ensures 0.0 <= r
    ensures part <= Max(whole, 1) ==> r <= 1.0
    ensures whole > 0 ==> r * whole as real == part as real
    ensures part == 0 <==> r == 0.0
  {
    var d := Max(whole, 1) as real;
    var r := part as real / d;
    assert r * d == part as real;
    r
  }

  /** `sorted(s, key=key, reverse=True)[offset:offset + limit]`: one page, largest key first. */
  function PageDesc<T>(s: seq<T>, key: T -> real, offset: nat, limit: nat): (r: seq<T>)
    ensures |r| <= limit && SortedDesc(r, key)
    ensures forall x :: x in r ==> x in s
    ensures r == Slice(SortDesc(s, key), offset, offset + limit)
    ensures |r| == if offset >= |s| then 0 else Min(limit, |s| - offset)
  {
    var sorted := SortDesc(s, key);
    SortDescMembers(s, key);
    var hi := Min(offset + limit, |sorted|);
    var lo := Min(offset, hi);
    assert Slice(sorted, offset, offset + limit) == sorted[lo..hi];
    assert forall x :: x in sorted[lo..hi] ==> x in sorted;
    sorted[lo..hi]
  }

  /** A first page at least as long as the list holds all of it, reordered. */
  lemma PageDescFull<T>(s: seq<T>, key: T -> real, limit: nat)
    requires limit >= |s|
    ensures multiset(PageDesc(s, key, 0, limit)) == multiset(s)
  {
    SortDescPermutes(s, key);
    assert PageDesc(s, key, 0, limit) == SortDesc(s, key)[0..|s|];
    assert SortDesc(s, key)[0..|s|] == SortDesc(s, key);
  }

  /** `s.count(t)` for a non-empty `t`: non-overlapping occurrences, left to right. */
  function CountOccurrences(s: string, t: string): (n: nat)
    requires |t| > 0
    ensures n > 0 <==> Contains(s, t)
    decreases |s|
  {
    if |s| < |t| then
      ShortNotContains(s, t);
      0
    else if s[..|t|] == t then 1 + CountOccurrences(s[|t|..], t)
    else CountOccurrences(s[1..], t)
  }

  lemma {:induction false} ShortNotContains(s: string, t: string)
    requires |s| < |t|
    ensures !Contains(s, t)
    decreases |s|
  {
    if |s| > 0 {
      ShortNotContains(s[1..], t);
    }
  }

  /** An unsigned byte. */
  type Byte = b: int | 0 <= b < 256

  /**
   A Python dictionary with string keys: the mapping plus the insertion order
   that iteration follows.
   */
  datatype ODict<V> = ODict(m: map<string, V>, order: seq<string>) {
    ghost predicate Valid() {
      NoDuplicates(order) && forall k :: k in order <==> k in m
    }

    /** `d[k] = v`: a new key goes to the end, an existing key keeps its place. */
    function Set(k: string, v: V): (r: ODict<V>)
      requires Valid()
      ensures r.Valid()
      ensures r.m == m[k := v]
      ensures r.order == if k in m then order else order + [k]
    {
      ODict(m[k := v], if k in m then order else order + [k])
    }

    /** `d.pop(k, None)`. */
    function Remove(k: string): (r: ODict<V>)
      requires Valid()
      ensures r.Valid()
      ensures r.m == m - {k}
      ensures k !in m ==> r == this
    {
      var rest := Filter((x: string) => x != k, order);
      FilterIsSubsequence((x: string) => x != k, order);
      SubsequenceNoDuplicates(rest, order);
      if k !in m then
        FilterKeepsAll((x: string) => x != k, order);
        this
      else ODict(m - {k}, rest)
    }

    /** The values in iteration order. */
    function Values(): (r: seq<V>)
      requires Valid()
      ensures |r| == |order|
      ensures forall i :: 0 <= i < |r| ==> r[i] == m[order[i]]
    {
      seq(|order|, i requires 0 <= i < |order| => m[order[i]])
    }
  }

  function EmptyDict<V>(): (d: ODict<V>)
    ensures d.Valid() && d.m == map[]
  {
    ODict(map[], [])
  }

  /** Deleting items keeps the remaining ones distinct. */
  lemma {:induction false} SubsequenceNoDuplicates<T>(xs: seq<T>, ys: seq<T>)
    requires IsSubsequence(xs, ys) && NoDuplicates(ys)
    ensures NoDuplicates(xs)
    decreases |ys|
  {
    if |xs| > 0 {
      assert NoDuplicates(ys[1..]) by {
        assert forall i :: 0 <= i < |ys| - 1 ==> ys[1..][i] == ys[i + 1];
      }
      if xs[0] == ys[0] && IsSubsequence(xs[1..], ys[1..]) {
        SubsequenceNoDuplicates(xs[1..], ys[1..]);
        SubsequenceElements(xs[1..], ys[1..]);
        assert forall i :: 0 < i < |xs| ==> xs[i] == xs[1..][i - 1] && xs[i] in ys[1..];
        assert forall y :: y in ys[1..] ==> y != ys[0];
      } else {
        SubsequenceNoDuplicates(xs, ys[1..]);
      }
    }
  }

  /** A filter that every item passes changes nothing. */
  lemma {:induction false} FilterKeepsAll<T>(p: T -> bool, s: seq<T>)
    requires forall x :: x in s ==> p(x)
    ensures Filter(p, s) == s
    decreases |s|
  {
    if |s| > 0 {
      assert forall x :: x in s[1..] ==> x in s;
      FilterKeepsAll(p, s[1..]);
      assert [s[0]] + s[1..] == s;
    }
  }

  /** `s.split(c)[0]`: the text before the first `c`, or all of `s` without one. */
  function BeforeFirst(s: string, c: char): (r: string)
    ensures IsPrefix(r, s) && c !in r
    ensures |r| < |s| ==> s[|r|] == c
    decreases |s|
  {
    if |s| == 0 || s[0] == c then ""
    else [s[0]] + BeforeFirst(s[1..], c)
  }

  /** `re.split("[...]", s)` for a single-character class: the pieces between delimiters. */
  function SplitOn(s: string, isDelim: char -> bool): (r: seq<string>)
    ensures |r| >= 1
    ensures forall piece :: piece in r ==> forall c :: c in piece ==> !isDelim(c)
    decreases |s|
  {
    if |s| == 0 then [""]
    else
      var rest := SplitOn(s[1..], isDelim);
      if isDelim(s[0]) then
        assert forall piece :: piece in [""] + rest ==> piece == "" || piece in rest;
        [""] + rest
      else
        assert rest[0] in rest;
        var head := [s[0]] + rest[0];
        assert forall c :: c in head ==> c == s[0] || c in rest[0];
        assert forall piece :: piece in rest[1..] ==> piece in rest;
        [head] + rest[1..]
  }

  /** A string without delimiters is one piece. */
  lemma {:induction false} SplitOnNoDelim(s: string, isDelim: char -> bool)
    requires forall c :: c in s ==> !isDelim(c)
    ensures SplitOn(s, isDelim) == [s]
    decreases |s|
  {
    if |s| > 0 {
      assert forall c :: c in s[1..] ==> c in s;
      SplitOnNoDelim(s[1..], isDelim);
      assert [s[0]] + s[1..] == s;
    }
  }

  /** A delimiter after an undelimited prefix ends the first piece. */
  lemma {:induction false} SplitOnAtDelim(a: string, c: char, b: string, isDelim: char -> bool)
    requires forall x :: x in a ==> !isDelim(x)
    requires isDelim(c)
    ensures SplitOn(a + [c] + b, isDelim) == [a] + SplitOn(b, isDelim)
    decreases |a|
  {
    var s := a + [c] + b;
    if |a| == 0 {
      assert s[0] == c && s[1..] == b;
    } else {
      assert s[0] == a[0] && s[1..] == a[1..] + [c] + b;
      assert forall x :: x in a[1..] ==> x in a;
      SplitOnAtDelim(a[1..], c, b, isDelim);
      assert [a[0]] + a[1..] == a;
    }
  }

  /** Number of items of `s` that satisfy `p`. */
  function Count<T>(p: T -> bool, s: seq<T>): (n: nat)
    ensures n <= |s|
  {
    if |s| == 0 then 0 else (if p(s[0]) then 1 else 0) + Count(p, s[1..])
  }

  /** Filtering keeps exactly the items that are counted. */
  lemma {:induction false} FilterCount<T>(p: T -> bool, s: seq<T>)
    ensures |Filter(p, s)| == Count(p, s)
    decreases |s|
  {
    if |s| > 0 {
      FilterCount(p, s[1..]);
    }
  }

  /** Counting over a concatenation adds up. */
  lemma {:induction false} CountAppend<T>(p: T -> bool, a: seq<T>, b: seq<T>)
    ensures Count(p, a + b) == Count(p, a) + Count(p, b)
    decreases |a|
  {
    if |a| > 0 {
      assert (a + b)[0] == a[0];
      assert (a + b)[1..] == a[1..] + b;
      CountAppend(p, a[1..], b);
    } else {
      assert a + b == b;
    }
  }

  /** When every item satisfies `p`, all are counted; when none does, none is. */
  lemma {:induction false} CountUniform<T>(p: T -> bool, s: seq<T>)
    ensures (forall x :: x in s ==> p(x)) ==> Count(p, s) == |s|
    ensures (forall x :: x in s ==> !p(x)) ==> Count(p, s) == 0
    decreases |s|
  {
    if |s| > 0 {
      assert forall x :: x in s[1..] ==> x in s;
      CountUniform(p, s[1..]);
    }
  }

  /** `s.replace(pat, rep)`: left-to-right, non-overlapping occurrences of a non-empty `pat`. */
  function ReplaceAll(s: string, pat: string, rep: string): (r: string)
    requires |pat| > 0
    ensures rep == "" ==> |r| <= |s|
    decreases |s|
  {
    if |s| < |pat| then s
    else if s[..|pat|] == pat then rep + ReplaceAll(s[|pat|..], pat, rep)
    else [s[0]] + ReplaceAll(s[1..], pat, rep)
  }

  lemma {:induction false} ReplaceAbsent(s: string, pat: string, rep: string)
    requires |pat| > 0
    requires !Contains(s, pat)
    ensures ReplaceAll(s, pat, rep) == s
    decreases |s|
  {
    if |s| >= |pat| {
      assert !IsPrefix(pat, s);
      ReplaceAbsent(s[1..], pat, rep);
      assert [s[0]] + s[1..] == s;
    }
  }
}

=== FILE: core_exceptions.dfy ===
/**
 The application's exception hierarchy, the helper that standardises any
 exception, the API error body, and the aggregator that summarises many
 errors.

 An exception is a record of its class, message, error code, category,
 severity and details; each class's constructor is a function that fills
 the record as that class does. The wall-clock timestamp is not modelled;
 a captured traceback is reduced to whether one exists.
 */
module Exceptions {
  import opened Common

  datatype Severity = Low | Medium | High | Critical

  datatype Category = Validation | Authentication | Authorization | Database | ExternalApi
                    | BusinessLogic | System | Network | Timeout

  const AllCategories: seq<Category> :=
    [Validation, Authentication, Authorization, Database, ExternalApi, BusinessLogic, System, Network, Timeout]

  function SeverityValue(s: Severity): string {
    match s
    case Low => "low"
    case Medium => "medium"
    case High => "high"
    case Critical => "critical"
  }

  function CategoryValue(c: Category): string {
    match c
    case Validation => "validation"
    case Authentication => "auth"
    case Authorization => "authz"
    case Database => "database"
    case ExternalApi => "external_api"
    case BusinessLogic => "business"
    case System => "system"
    case Network => "network"
    case Timeout => "timeout"
  }

  /** The exception classes. */
  datatype Kind =
    | BaseKind
    | ValidationKind | MissingFieldKind | InvalidFormatKind
    | AuthenticationKind | InvalidTokenKind | TokenExpiredKind
    | AuthorizationKind
    | DatabaseKind | RecordNotFoundKind | DuplicateRecordKind
    | ExternalApiKind | ApiTimeoutKind | ApiRateLimitKind
    | AgentKind | AgentExecutionKind | AgentStateKind
    | DataCollectionKind | DataProcessingKind | ConfigurationKind

  /** Each class's base class; the root has none. */
  function Parent(k: Kind): Option<Kind> {
    match k
    case BaseKind => None
    case MissingFieldKind | InvalidFormatKind => Some(ValidationKind)
    case InvalidTokenKind | TokenExpiredKind => Some(AuthenticationKind)
    case RecordNotFoundKind | DuplicateRecordKind => Some(DatabaseKind)
    case ApiTimeoutKind | ApiRateLimitKind => Some(ExternalApiKind)
    case AgentExecutionKind | AgentStateKind => Some(AgentKind)
    case _ => Some(BaseKind)
  }

  /** `isinstance`: the class is `a`, or `a` is its parent or grandparent (the hierarchy is at most two deep). */
  predicate IsA(k: Kind, a: Kind) {
    k == a || (Parent(k).Some? && (Parent(k).value == a || Parent(Parent(k).value) == Some(a)))
  }

  /** Every class is an application exception, and the hierarchy ends there. */
  lemma AllAreBase(k: Kind)
    ensures IsA(k, BaseKind)
    ensures Parent(k).Some? && Parent(Parent(k).value).Some? ==> Parent(Parent(k).value) == Some(BaseKind)
  {
  }

  /** A detail value. */
  datatype Detail = Text(s: string) | Number(n: int) | Record(fields: map<string, string>)

  datatype AppError = AppError(
    kind: Kind,
    message: string,
    code: string,
    category: Category,
    severity: Severity,
    details: map<string, Detail>,
    traced: bool)

  /** `BaseApplicationException(...)`; a traceback is captured exactly when an original exception is given. */
  function Base(message: string, code: string, category: Category, severity: Severity,
                details: map<string, Detail>, hasOriginal: bool): (e: AppError)
    ensures e.kind == BaseKind && e.message == message && e.code == code
    ensures e.category == category && e.severity == severity && e.details == details && e.traced == hasOriginal
  {
    AppError(BaseKind, message, code, category, severity, details, hasOriginal)
  }

  /** The optional text detail `key`, stored only when the value is a non-empty string. */
  function WithText(d: map<string, Detail>, key: string, value: Option<string>): (r: map<string, Detail>)
    ensures value.Some? && value.value != "" ==> r == d[key := Text(value.value)]
    ensures value.None? || value.value == "" ==> r == d
  {
    if value.Some? && value.value != "" then d[key := Text(value.value)] else d
  }

  /**
   `ValidationError`: low severity, code VALIDATION_ERROR; a non-empty field
   is recorded, and a given value is recorded as its first 100 characters.
   */
  function NewValidation(message: string, field: Option<string>, value: Option<string>,
                         details: map<string, Detail>): (e: AppError)
    ensures e.kind == ValidationKind && e.code == "VALIDATION_ERROR"
    ensures e.category == Validation && e.severity == Low
    ensures value.Some? ==> "value" in e.details && e.details["value"] == Text(Take(value.value, 100))
    ensures field.Some? && field.value != "" ==> "field" in e.details && e.details["field"] == Text(field.value)
  {
    var d := WithText(details, "field", field);
    var d := if value.Some? then d["value" := Text(Take(value.value, 100))] else d;
    AppError(ValidationKind, message, "VALIDATION_ERROR", Validation, Low, d, false)
  }

  /** `MissingFieldError`: a validation error with code MISSING_FIELD naming the field. */
  function NewMissingField(field: string): (e: AppError)
    ensures e.kind == MissingFieldKind && IsA(e.kind, ValidationKind) && e.code == "MISSING_FIELD" && e.severity == Low
    ensures e.message == "필수 필드가 누락되었습니다: " + field
    ensures field != "" ==> e.details == map["field" := Text(field)]
  {
    NewValidation("필수 필드가 누락되었습니다: " + field, Some(field), None, map[]).(kind := MissingFieldKind, code := "MISSING_FIELD")
  }

  /** `InvalidFormatError`: code INVALID_FORMAT, with the expected format among the details. */
  function NewInvalidFormat(field: string, expectedFormat: string, value: Option<string>): (e: AppError)
    ensures e.kind == InvalidFormatKind && IsA(e.kind, ValidationKind) && e.code == "INVALID_FORMAT" && e.severity == Low
    ensures "expected_format" in e.details && e.details["expected_format"] == Text(expectedFormat)
  {
    var e := NewValidation("'" + field + "' 필드의 형식이 올바르지 않습니다. 예상 형식: " + expectedFormat,
                           Some(field), value, map["expected_format" := Text(expectedFormat)]);
    e.(kind := InvalidFormatKind, code := "INVALID_FORMAT")
  }

  /** `AuthenticationError`: medium severity, code AUTH_ERROR. */
  function NewAuthentication(message: string, details: map<string, Detail>): (e: AppError)
    ensures e.kind == AuthenticationKind && e.code == "AUTH_ERROR"
    ensures e.category == Authentication && e.severity == Medium && e.details == details
  {
    AppError(AuthenticationKind, message, "AUTH_ERROR", Authentication, Medium, details, false)
  }

  const DefaultAuthenticationMessage := "인증에 실패했습니다"

  /** `InvalidTokenError`: code INVALID_TOKEN, the reason as message and detail. */
  function NewInvalidToken(reason: string): (e: AppError)
    ensures e.kind == InvalidTokenKind && IsA(e.kind, AuthenticationKind) && e.code == "INVALID_TOKEN" && e.message == reason
    ensures e.details == map["reason" := Text(reason)]
  {
    NewAuthentication(reason, map["reason" := Text(reason)]).(kind := InvalidTokenKind, code := "INVALID_TOKEN")
  }

  /** `TokenExpiredError`: code TOKEN_EXPIRED, reason "expired". */
  function NewTokenExpired(): (e: AppError)
    ensures e.kind == TokenExpiredKind && IsA(e.kind, AuthenticationKind) && e.code == "TOKEN_EXPIRED"
    ensures e.details == map["reason" := Text("expired")]
  {
    NewAuthentication("토큰이 만료되었습니다", map["reason" := Text("expired")]).(kind := TokenExpiredKind, code := "TOKEN_EXPIRED")
  }

  /** `AuthorizationError`: medium severity, code AUTHZ_ERROR; a non-empty required permission is recorded. */
  function NewAuthorization(message: string, requiredPermission: Option<string>, details: map<string, Detail>): (e: AppError)
    ensures e.kind == AuthorizationKind && e.code == "AUTHZ_ERROR"
    ensures e.category == Authorization && e.severity == Medium
    ensures requiredPermission.Some? && requiredPermission.value != "" ==>
      e.details == details["required_permission" := Text(requiredPermission.value)]
  {
    AppError(AuthorizationKind, message, "AUTHZ_ERROR", Authorization, Medium,
             WithText(details, "required_permission", requiredPermission), false)
  }

  /** `DatabaseError`: high severity, code DB_ERROR, with the non-empty operation and table. */
  function NewDatabase(message: string, operation: Option<string>, table: Option<string>, hasOriginal: bool): (e: AppError)
    ensures e.kind == DatabaseKind && e.code == "DB_ERROR"
    ensures e.category == Database && e.severity == High && e.traced == hasOriginal
    ensures e.details.Keys <= {"operation", "table"}
  {
    AppError(DatabaseKind, message, "DB_ERROR", Database, High,
             WithText(WithText(map[], "operation", operation), "table", table), hasOriginal)
  }

  /** `RecordNotFoundError`: a SELECT failure with code NOT_FOUND, lowered to low severity. */
  function NewRecordNotFound(entity: string, identifier: string): (e: AppError)
    ensures e.kind == RecordNotFoundKind && IsA(e.kind, DatabaseKind) && e.code == "NOT_FOUND" && e.severity == Low && e.category == Database
    ensures e.details == map["operation" := Text("SELECT")]
  {
    NewDatabase(entity + "을(를) 찾을 수 없습니다: " + identifier, Some("SELECT"), None, false)
      .(kind := RecordNotFoundKind, code := "NOT_FOUND", severity := Low)
  }

  /** `DuplicateRecordError`: an INSERT failure with code DUPLICATE_RECORD, low severity. */
  function NewDuplicateRecord(entity: string, field: string, value: string): (e: AppError)
    ensures e.kind == DuplicateRecordKind && IsA(e.kind, DatabaseKind) && e.code == "DUPLICATE_RECORD" && e.severity == Low
    ensures e.details == map["operation" := Text("INSERT")]
  {
    NewDatabase(entity + "의 " + field + " 값이 이미 존재합니다: " + value, Some("INSERT"), None, false)
      .(kind := DuplicateRecordKind, code := "DUPLICATE_RECORD", severity := Low)
  }

  /** `ExternalAPIError`: medium severity; a non-zero status and the first 500 characters of a non-empty body are recorded. */
  function NewExternalApi(message: string, apiName: string, status: Option<int>, body: Option<string>,
                          hasOriginal: bool): (e: AppError)
    ensures e.kind == ExternalApiKind && e.code == "EXTERNAL_API_ERROR"
    ensures e.category == ExternalApi && e.severity == Medium
    ensures "api_name" in e.details && e.details["api_name"] == Text(apiName)
    ensures body.Some? && body.value != "" ==> "response_body" in e.details && e.details["response_body"] == Text(Take(body.value, 500))
    ensures status.Some? && status.value != 0 ==> "status_code" in e.details && e.details["status_code"] == Number(status.value)
  {
    var d := map["api_name" := Text(apiName)];
    var d := if status.Some? && status.value != 0 then d["status_code" := Number(status.value)] else d;
    var d := if body.Some? && body.value != "" then d["response_body" := Text(Take(body.value, 500))] else d;
    AppError(ExternalApiKind, message, "EXTERNAL_API_ERROR", ExternalApi, Medium, d, hasOriginal)
  }

  /** `APITimeoutError`: an external-API error re-categorised as a timeout, recording the timeout. */
  function NewApiTimeout(apiName: string, timeoutSeconds: int): (e: AppError)
    ensures e.kind == ApiTimeoutKind && IsA(e.kind, ExternalApiKind) && e.code == "API_TIMEOUT" && e.category == Timeout
    ensures "timeout_seconds" in e.details && e.details["timeout_seconds"] == Number(timeoutSeconds)
  {
    var e := NewExternalApi(apiName + " API 요청이 " + IntToString(timeoutSeconds) + "초 후 타임아웃되었습니다",
                            apiName, None, None, false);
    e.(kind := ApiTimeoutKind, code := "API_TIMEOUT", category := Timeout,
       details := e.details["timeout_seconds" := Number(timeoutSeconds)])
  }

  /** `APIRateLimitError`: status 429 and, when non-zero, the retry delay. */
  function NewApiRateLimit(apiName: string, retryAfter: Option<int>): (e: AppError)
    ensures e.kind == ApiRateLimitKind && IsA(e.kind, ExternalApiKind) && e.code == "API_RATE_LIMIT" && e.category == ExternalApi
    ensures "status_code" in e.details && e.details["status_code"] == Number(429)
    ensures retryAfter.Some? && retryAfter.value != 0 ==> "retry_after_seconds" in e.details
  {
    var e := NewExternalApi(apiName + " API 요청 속도 제한에 도달했습니다", apiName, Some(429), None, false);
    var d := if retryAfter.Some? && retryAfter.value != 0 then e.details["retry_after_seconds" := Number(retryAfter.value)] else e.details;
    e.(kind := ApiRateLimitKind, code := "API_RATE_LIMIT", details := d)
  }

  /** The state entries whose names do not start with an underscore. */
  function SafeState(state: map<string, string>): (r: map<string, string>)
    ensures forall k :: k in r <==> k in state && !IsPrefix("_", k)
    ensures forall k :: k in r ==> r[k] == state[k]
  {
    map k | k in state && !IsPrefix("_", k) :: state[k]
  }

  /** `AgentError`: business-logic, medium severity, code AGENT_ERROR, with the non-private state when one is given. */
  function NewAgent(message: string, agentName: string, state: map<string, string>, hasOriginal: bool): (e: AppError)
    ensures e.kind == AgentKind && e.code == "AGENT_ERROR" && e.category == BusinessLogic && e.severity == Medium
    ensures state != map[] ==> "state" in e.details && e.details["state"] == Record(SafeState(state))
    ensures state == map[] ==> e.details == map["agent_name" := Text(agentName)]
  {
    var d := map["agent_name" := Text(agentName)];
    var d := if state != map[] then d["state" := Record(SafeState(state))] else d;
    AppError(AgentKind, message, "AGENT_ERROR", BusinessLogic, Medium, d, hasOriginal)
  }

  /** `AgentExecutionError`: code AGENT_EXECUTION_ERROR recording the failed step. */
  function NewAgentExecution(agentName: string, step: string, hasOriginal: bool): (e: AppError)
    ensures e.kind == AgentExecutionKind && IsA(e.kind, AgentKind) && e.code == "AGENT_EXECUTION_ERROR"
    ensures e.details == map["agent_name" := Text(agentName), "step" := Text(step)]
  {
    var e := NewAgent(agentName + "의 '" + step + "' 단계에서 실행 오류가 발생했습니다", agentName, map[], hasOriginal);
    e.(kind := AgentExecutionKind, code := "AGENT_EXECUTION_ERROR", details := e.details["step" := Text(step)])
  }

  /** `AgentStateError`: code AGENT_STATE_ERROR. */
  function NewAgentState(agentName: string, reason: string): (e: AppError)
    ensures e.kind == AgentStateKind && IsA(e.kind, AgentKind) && e.code == "AGENT_STATE_ERROR"
    ensures e.message == agentName + "의 상태가 올바르지 않습니다: " + reason
  {
    NewAgent(agentName + "의 상태가 올바르지 않습니다: " + reason, agentName, map[], false)
      .(kind := AgentStateKind, code := "AGENT_STATE_ERROR")
  }

  /** `DataCollectionError`: an external-API category error recording source and item counts. */
  function NewDataCollection(message: string, source: string, collected: int, failed: int, hasOriginal: bool): (e: AppError)
    ensures e.kind == DataCollectionKind && e.code == "DATA_COLLECTION_ERROR"
    ensures e.category == ExternalApi && e.severity == Medium
    ensures e.details == map["source" := Text(source), "items_collected" := Number(collected), "items_failed" := Number(failed)]
  {
    AppError(DataCollectionKind, message, "DATA_COLLECTION_ERROR", ExternalApi, Medium,
             map["source" := Text(source), "items_collected" := Number(collected), "items_failed" := Number(failed)], hasOriginal)
  }

  /** `DataProcessingError`: business-logic, recording the processor and a non-empty item id. */
  function NewDataProcessing(message: string, processor: string, itemId: Option<string>, hasOriginal: bool): (e: AppError)
    ensures e.kind == DataProcessingKind && e.code == "DATA_PROCESSING_ERROR"
    ensures e.category == BusinessLogic && e.severity == Medium
    ensures "processor" in e.details && e.details["processor"] == Text(processor)
  {
    AppError(DataProcessingKind, message, "DATA_PROCESSING_ERROR", BusinessLogic, Medium,
             WithText(map["processor" := Text(processor)], "item_id", itemId), hasOriginal)
  }

  /** `ConfigurationError`: system, high severity, code CONFIG_ERROR. */
  function NewConfiguration(message: string, configKey: Option<string>): (e: AppError)
    ensures e.kind == ConfigurationKind && e.code == "CONFIG_ERROR" && e.category == System && e.severity == High
    ensures e.details.Keys <= {"config_key"}
  {
    AppError(ConfigurationKind, message, "CONFIG_ERROR", System, High, WithText(map[], "config_key", configKey), false)
  }

  /* -------------------------------------------------------------- helpers */

  /** An exception as the helpers receive it: one of ours, or anything else with its text. */
  datatype Raised = App(error: AppError) | Foreign(text: string)

  /** The log level an error is written at. */
  datatype Level = Info | Warning | Error | CriticalLevel

  /** `log`: critical, error, warning, info by severity. */
  function LogLevel(e: AppError): (l: Level)
    ensures l == CriticalLevel <==> e.severity == Critical
    ensures l == Info <==> e.severity == Low
  {
    match e.severity
    case Critical => CriticalLevel
    case High => Error
    case Medium => Warning
    case Low => Info
  }

  /** Wrapping a foreign exception: a medium system error with code APP_ERROR, the text as message and the context as details. */
  function Wrap(x: Raised, context: map<string, Detail>): (e: AppError)
    ensures x.App? ==> e == x.error
    ensures x.Foreign? ==> e == Base(x.text, "APP_ERROR", System, Medium, context, true)
  {
    match x
    case App(err) => err
    case Foreign(t) => Base(t, "APP_ERROR", System, Medium, context, true)
  }

  /** `handle_exception`: the standardised error, and whether it is raised rather than returned. */
  function HandleException(x: Raised, context: map<string, Detail>, reraise: bool): (r: (AppError, bool))
    ensures r.1 == reraise
    ensures x.App? ==> r.0 == x.error
    ensures x.Foreign? ==> r.0.message == x.text && r.0.code == "APP_ERROR" && r.0.details == context && r.0.traced
  {
    (Wrap(x, context), reraise)
  }

  /** Handling an already-standardised error again changes nothing. */
  lemma HandleIdempotent(x: Raised, context: map<string, Detail>, reraise: bool)
    ensures HandleException(App(HandleException(x, context, reraise).0), context, reraise) == HandleException(x, context, reraise)
  {
  }

  /** The API error body: code, message and category value, plus details and traceback in debug mode. */
  datatype ErrorBody = ErrorBody(code: string, message: string, category: string,
                                 details: Option<map<string, Detail>>, traceback: bool)

  /** `create_error_response`. */
  function CreateErrorResponse(e: AppError, debug: bool): (b: ErrorBody)
    ensures b.code == e.code && b.message == e.message && b.category == CategoryValue(e.category)
    ensures b.details.Some? <==> debug
    ensures b.traceback <==> debug && e.traced
  {
    ErrorBody(e.code, e.message, CategoryValue(e.category), if debug then Some(e.details) else None, debug && e.traced)
  }

  /* ----------------------------------------------------------- aggregator */

  /** Errors of one category. */
  function CountCategory(errors: seq<AppError>, c: Category): (n: nat)
    ensures n <= |errors|
  {
    if errors == [] then 0 else (if errors[0].category == c then 1 else 0) + CountCategory(errors[1..], c)
  }

  /** Errors of one severity. */
  function CountSeverity(errors: seq<AppError>, s: Severity): (n: nat)
    ensures n <= |errors|
  {
    if errors == [] then 0 else (if errors[0].severity == s then 1 else 0) + CountSeverity(errors[1..], s)
  }

  /** `add` and `add_exception`: append, wrapping a foreign exception. */
  function AddException(errors: seq<AppError>, x: Raised, context: map<string, Detail>): (r: seq<AppError>)
    ensures |r| == |errors| + 1 && r[..|errors|] == errors && r[|errors|] == Wrap(x, context)
  {
    errors + [Wrap(x, context)]
  }

  /** `has_critical_errors`: some error is high or critical. */
  function HasCritical(errors: seq<AppError>): (b: bool)
    ensures b <==> exists i :: 0 <= i < |errors| && (errors[i].severity == High || errors[i].severity == Critical)
    ensures b <==> CountSeverity(errors, High) + CountSeverity(errors, Critical) > 0
  {
    if errors == [] then false
    else
      assert forall i :: 1 <= i < |errors| ==> errors[i] == errors[1..][i - 1];
      errors[0].severity == High || errors[0].severity == Critical || HasCritical(errors[1..])
  }

  /** The summary; its count maps are keyed by category and severity, which the body renders as their values. */
  datatype Summary = Summary(total: nat, byCategory: map<Category, nat>, bySeverity: map<Severity, nat>, listed: seq<AppError>)

  /** `get_summary`: counts per present category and severity, and the first ten errors. */
  function GetSummary(errors: seq<AppError>): (s: Summary)
    ensures s.total == |errors| && |s.listed| <= 10 && s.listed == Take(errors, 10)
    ensures forall c :: c in s.byCategory <==> CountCategory(errors, c) > 0
    ensures forall c :: c in s.byCategory ==> s.byCategory[c] == CountCategory(errors, c)
    ensures forall v :: v in s.bySeverity <==> CountSeverity(errors, v) > 0
    ensures forall v :: v in s.bySeverity ==> s.bySeverity[v] == CountSeverity(errors, v)
  {
    SummaryKeys();
    Summary(|errors|,
            map c | c in AllCategories && CountCategory(errors, c) > 0 :: CountCategory(errors, c),
            map v | v in AllSeverities && CountSeverity(errors, v) > 0 :: CountSeverity(errors, v),
            Take(errors, 10))
  }

  const AllSeverities: seq<Severity> := [Low, Medium, High, Critical]

  /** Every category and every severity is listed. */
  lemma SummaryKeys()
    ensures forall c :: c in AllCategories
    ensures forall v :: v in AllSeverities
  {
    forall c ensures c in AllCategories {
      CategoryListed(c);
    }
    forall v: Severity ensures v in AllSeverities {
      match v
      case Low => assert AllSeverities[0] == v;
      case Medium => assert AllSeverities[1] == v;
      case High => assert AllSeverities[2] == v;
      case Critical => assert AllSeverities[3] == v;
    }
  }

  lemma CategoryListed(c: Category)
    ensures c in AllCategories
  {
  }

  /** The per-category counts over a list of distinct categories, added up. */
  function SumOver(errors: seq<AppError>, cats: seq<Category>): nat {
    if cats == [] then 0 else CountCategory(errors, cats[0]) + SumOver(errors, cats[1..])
  }

  /** Over distinct categories, one error is counted once if its category is listed, else never. */
  lemma {:induction false} SumOverOne(e: AppError, rest: seq<AppError>, cats: seq<Category>)
    requires NoDuplicates(cats)
    ensures SumOver([e] + rest, cats) == SumOver(rest, cats) + (if e.category in cats then 1 else 0)
  {
    if cats != [] {
      assert ([e] + rest)[1..] == rest;
      assert NoDuplicates(cats[1..]);
      SumOverOne(e, rest, cats[1..]);
      assert e.category in cats[1..] ==> e.category != cats[0];
      assert e.category in cats <==> e.category == cats[0] || e.category in cats[1..];
    }
  }

  lemma {:induction false} SumOverEmpty(cats: seq<Category>)
    ensures SumOver([], cats) == 0
  {
    if cats != [] {
      SumOverEmpty(cats[1..]);
    }
  }

  /** The per-category counts add up to the total: every error has exactly one category. */
  lemma {:induction false} CategoryCountsSum(errors: seq<AppError>)
    ensures SumOver(errors, AllCategories) == |errors|
  {
    if errors == [] {
      SumOverEmpty(AllCategories);
    } else {
      CategoryCountsSum(errors[1..]);
      CategoryListed(errors[0].category);
      assert errors == [errors[0]] + errors[1..];
      SumOverOne(errors[0], errors[1..], AllCategories);
    }
  }

  /** The summary's total equals the per-category counts added up, and an empty aggregator reports nothing. */
  lemma SummaryTotals(errors: seq<AppError>)
    ensures GetSummary(errors).total == SumOver(errors, AllCategories)
    ensures errors == [] ==> GetSummary(errors) == Summary(0, map[], map[], [])
  {
    CategoryCountsSum(errors);
  }

  /** `has_critical_errors` agrees with the summary's severity counts. */
  lemma CriticalMatchesSummary(errors: seq<AppError>)
    ensures HasCritical(errors) <==> High in GetSummary(errors).bySeverity || Critical in GetSummary(errors).bySeverity
  {
  }

  /** A foreign exception added to an aggregator is never critical: it is wrapped at medium severity. */
  lemma ForeignNotCritical(errors: seq<AppError>, text: string, context: map<string, Detail>)
    requires !HasCritical(errors)
    ensures !HasCritical(AddException(errors, Foreign(text), context))
  {
    var r := AddException(errors, Foreign(text), context);
    assert forall i :: 0 <= i < |errors| ==> r[i] == errors[i];
  }
}

=== FILE: data_user_models.dfy ===
/**
 The role-based access model: four roles, fourteen permissions, the table
 granting permissions to roles, and the request schemas whose field limits
 the service relies on.
 */
module UserModels {
  import opened Common

  datatype Role = Admin | Manager | Creator | Viewer

  datatype Permission =
    | CreatorRead | CreatorWrite | CreatorDelete
    | MissionRead | MissionWrite | MissionDelete | MissionAssign
    | AnalyticsRead | AnalyticsExport
    | CompetencyRead | CompetencyWrite
    | SystemAdmin | UserManage | AuditRead

  /** The role's wire value. */
  function RoleValue(r: Role): string {
    match r
    case Admin => "admin"
    case Manager => "manager"
    case Creator => "creator"
    case Viewer => "viewer"
  }

  /** `UserRole(value)`: the role with that wire value, `None` where Python raises. */
  function ParseRole(s: string): (r: Option<Role>)
    ensures r.Some? ==> RoleValue(r.value) == s
  {
    if s == "admin" then Some(Admin)
    else if s == "manager" then Some(Manager)
    else if s == "creator" then Some(Creator)
    else if s == "viewer" then Some(Viewer)
    else None
  }

  /** Every role survives the trip through its wire value. */
  lemma RoleRoundTrip(r: Role)
    ensures ParseRole(RoleValue(r)) == Some(r)
  {
  }

  /** The permission's wire value, `resource:action`. */
  function PermissionValue(p: Permission): string {
    match p
    case CreatorRead => "creator:read"
    case CreatorWrite => "creator:write"
    case CreatorDelete => "creator:delete"
    case MissionRead => "mission:read"
    case MissionWrite => "mission:write"
    case MissionDelete => "mission:delete"
    case MissionAssign => "mission:assign"
    case AnalyticsRead => "analytics:read"
    case AnalyticsExport => "analytics:export"
    case CompetencyRead => "competency:read"
    case CompetencyWrite => "competency:write"
    case SystemAdmin => "system:admin"
    case UserManage => "user:manage"
    case AuditRead => "audit:read"
  }

  /** `Permission(value)`: the permission with that wire value, `None` where Python raises. */
  function ParsePermission(s: string): (r: Option<Permission>)
    ensures r.Some? ==> PermissionValue(r.value) == s
  {
    if s == "creator:read" then Some(CreatorRead)
    else if s == "creator:write" then Some(CreatorWrite)
    else if s == "creator:delete" then Some(CreatorDelete)
    else if s == "mission:read" then Some(MissionRead)
    else if s == "mission:write" then Some(MissionWrite)
    else if s == "mission:delete" then Some(MissionDelete)
    else if s == "mission:assign" then Some(MissionAssign)
    else if s == "analytics:read" then Some(AnalyticsRead)
    else if s == "analytics:export" then Some(AnalyticsExport)
    else if s == "competency:read" then Some(CompetencyRead)
    else if s == "competency:write" then Some(CompetencyWrite)
    else if s == "system:admin" then Some(SystemAdmin)
    else if s == "user:manage" then Some(UserManage)
    else if s == "audit:read" then Some(AuditRead)
    else None
  }

  /** Every permission survives the trip through its wire value. */
  lemma PermissionRoundTrip(p: Permission)
    ensures ParsePermission(PermissionValue(p)) == Some(p)
  {
  }

  /** Distinct permissions have distinct wire values, so a check on strings is a check on permissions. */
  lemma PermissionValueInjective(p: Permission, q: Permission)
    ensures PermissionValue(p) == PermissionValue(q) <==> p == q
  {
    PermissionRoundTrip(p);
    PermissionRoundTrip(q);
  }

  /** All permissions, in declaration order (`[p for p in Permission]`). */
  const AllPermissions: seq<Permission> := [
    CreatorRead, CreatorWrite, CreatorDelete,
    MissionRead, MissionWrite, MissionDelete, MissionAssign,
    AnalyticsRead, AnalyticsExport,
    CompetencyRead, CompetencyWrite,
    SystemAdmin, UserManage, AuditRead]

  /** `ROLE_PERMISSIONS`: what each role is granted, in table order. */
  function RolePermissions(r: Role): seq<Permission> {
    match r
    case Admin => AllPermissions
    case Manager => [CreatorRead, CreatorWrite, MissionRead, MissionWrite, MissionAssign,
                     AnalyticsRead, AnalyticsExport, CompetencyRead, CompetencyWrite, AuditRead]
    case Creator => [CreatorRead, MissionRead, AnalyticsRead, CompetencyRead]
    case Viewer => [CreatorRead, MissionRead, AnalyticsRead]
  }

  /** Whether the role holds the permission. */
  predicate Grants(r: Role, p: Permission) { p in RolePermissions(r) }

  /** The administrator holds every permission, each listed once. */
  lemma AdminHoldsAll(p: Permission)
    ensures Grants(Admin, p)
    ensures NoDuplicates(AllPermissions)
  {
  }

  /** The roles are nested: viewer within creator within manager within administrator. */
  lemma RolesNest(p: Permission)
    ensures Grants(Viewer, p) ==> Grants(Creator, p)
    ensures Grants(Creator, p) ==> Grants(Manager, p)
    ensures Grants(Manager, p) ==> Grants(Admin, p)
  {
    AdminHoldsAll(p);
  }

  /** System administration, user management and the two deletions. */
  predicate AdminOnly(p: Permission) {
    p == SystemAdmin || p == UserManage || p == CreatorDelete || p == MissionDelete
  }

  /** Those four are held by the administrator alone, and a manager holds everything else. */
  lemma AdminOnlyPermissions(r: Role, p: Permission)
    ensures AdminOnly(p) ==> (Grants(r, p) <==> r == Admin)
    ensures Grants(Manager, p) <==> !AdminOnly(p)
  {
    AdminHoldsAll(p);
    match r
    case Admin =>
    case Manager =>
      assert Grants(Manager, p) <==> !AdminOnly(p);
    case Creator =>
      assert AdminOnly(p) ==> !Grants(Creator, p);
    case Viewer =>
      assert AdminOnly(p) ==> !Grants(Viewer, p);
  }

  /** A registration request after field validation. */
  datatype UserCreate = UserCreate(
    email: string,
    username: string,
    fullName: Option<string>,
    isActive: bool,
    role: Role,
    password: string)

  /**
   `UserCreate(...)` validation: a username of 3 to 50 characters and a
   password of at least 8; an omitted role is a viewer and an omitted flag
   active. `None` is the validation error.
   */
  function ValidateCreate(email: string, username: string, fullName: Option<string>,
                          isActive: Option<bool>, role: Option<Role>, password: string): (r: Option<UserCreate>)
    ensures r.Some? <==> 3 <= |username| <= 50 && |password| >= 8
    ensures r.Some? ==> r.value.role == role.GetOr(Viewer) && r.value.isActive == isActive.GetOr(true)
    ensures r.Some? ==> r.value.email == email && r.value.username == username && r.value.password == password
  {
    if 3 <= |username| <= 50 && |password| >= 8 then
      Some(UserCreate(email, username, fullName, isActive.GetOr(true), role.GetOr(Viewer), password))
    else None
  }

  /** A request that names no role registers a viewer. */
  lemma DefaultRoleIsViewer(email: string, username: string, password: string)
    requires 3 <= |username| <= 50 && |password| >= 8
    ensures ValidateCreate(email, username, None, None, None, password) == Some(UserCreate(email, username, None, true, Viewer, password))
  {
  }

  datatype PasswordChange = PasswordChange(current: string, next: string)

  /** `PasswordChangeRequest(...)`: the new password needs at least 8 characters; the current one is unchecked. */
  function ValidatePasswordChange(current: string, next: string): (r: Option<PasswordChange>)
    ensures r.Some? <==> |next| >= 8
    ensures r.Some? ==> r.value.current == current && r.value.next == next
  {
    if |next| >= 8 then Some(PasswordChange(current, next)) else None
  }
}

=== FILE: deep_agents.dfy ===
/**
 The deep-analysis agent: a gate that decides whether a query is complex
 enough for multi-step reasoning, and a generate / critique / improve loop
 bounded by `critic_rounds` and `max_steps`.

 The model calls (initial answer, critique, improvement) are oracles: each
 returns `None` when the engine is absent or the call failed, in which case the
 agent's own fallback is used, exactly as the agent does.
 */
module DeepAgents {
  import opened Common

  /** Indicators of a multi-step request, Korean and English. */
  const ComplexityIndicators: seq<string> := [
    "비교", "분석", "종합", "평가", "장단점", "차이점", "공통점",
    "아키텍처", "설계", "구현", "최적화", "전략", "프레임워크", "시스템",
    "단계별", "순차적", "체계적", "완성해줘", "만들어줘", "개발해줘",
    "compare", "analyze", "evaluate", "architecture", "design", "implement"
  ]

  predicate IsSentenceEnd(c: char) {
    c == '.' || c == '?' || c == '!' || c == '。' || c == '？' || c == '！'
  }

  predicate NonBlank(s: string) { !IsBlank(s) }

  /** Number of non-blank sentences once the query is cut at sentence punctuation. */
  function SentenceCount(query: string): nat {
    Count(NonBlank, SplitOn(query, IsSentenceEnd))
  }

  /** The complexity score the gate compares with 2. */
  function ComplexityScore(query: string): nat {
    CountContained(Lower(query), ComplexityIndicators)
    + (if |query| > 300 then 1 else 0)
    + (if SentenceCount(query) > 3 then 1 else 0)
  }

  /** `should_use_deep_agents`. */
  function ShouldUseDeepAgents(query: string): (use: bool)
    ensures query == "" ==> !use
    ensures use ==> ContainsAny(Lower(query), ComplexityIndicators) || |query| > 300
  {
    query != "" && ComplexityScore(query) >= 2
  }

  lemma {:induction false} CountContainedOfTwo(s: string, keys: seq<string>, i: nat, j: nat)
    requires i < j < |keys|
    requires Contains(s, keys[i]) && Contains(s, keys[j])
    ensures CountContained(s, keys) >= 2
    decreases |keys|
  {
    if i == 0 {
      assert keys[1..][j - 1] == keys[j];
      assert CountContained(s, keys[1..]) >= 1;
    } else {
      assert keys[1..][i - 1] == keys[i] && keys[1..][j - 1] == keys[j];
      CountContainedOfTwo(s, keys[1..], i - 1, j - 1);
    }
  }

  /** Two different indicators are enough on their own to send a query to the deep agent. */
  lemma TwoIndicatorsTrigger(query: string, i: nat, j: nat)
    requires query != ""
    requires i < j < |ComplexityIndicators|
    requires Contains(Lower(query), ComplexityIndicators[i])
    requires Contains(Lower(query), ComplexityIndicators[j])
    ensures ShouldUseDeepAgents(query)
  {
    CountContainedOfTwo(Lower(query), ComplexityIndicators, i, j);
    assert ComplexityScore(query) >= 2;
  }

  /** A query of at most 300 characters with no indicator is never sent there. */
  lemma PlainShortQueryStays(query: string)
    requires |query| <= 300
    requires !ContainsAny(Lower(query), ComplexityIndicators)
    ensures !ShouldUseDeepAgents(query)
  {
  }

  /* ------------------------------------------------------------ the loop */

  datatype Config = Config(maxSteps: int, criticRounds: int, qualityThreshold: real)

  /** Defaults of the agent's constructor. */
  const DefaultConfig := Config(8, 2, 0.7)

  /** Markers of a structured answer that earn the heuristic critique a bonus. */
  const StructureMarkers: seq<string> := ["1.", "2.", "-", "•", "##"]

  /** `_heuristic_critique`: 0.5, plus 0.1 per length band passed, plus 0.1 for structure. */
  function HeuristicScore(response: string): (score: real)
    ensures 0.5 <= score <= 0.8
    ensures |response| <= 100 && !ContainsAny(response, StructureMarkers) ==> score == 0.5
    ensures |response| > 300 && ContainsAny(response, StructureMarkers) ==> score == 0.8
  {
    var s := 0.5
      + (if |response| > 100 then 0.1 else 0.0)
      + (if |response| > 300 then 0.1 else 0.0)
      + (if ContainsAny(response, StructureMarkers) then 0.1 else 0.0);
    MinR(s, 1.0)
  }

  /** The fixed improvement list of the heuristic critique. */
  const HeuristicImprovements: seq<string> := ["더 구체적인 예시 추가", "구조화된 형식으로 정리"]

  function InitialFallback(query: string): string {
    "[초기 응답] " + query + "에 대한 분석 결과입니다."
  }

  /** The text the agent builds itself when the improvement call is unavailable. */
  function ImproveFallback(response: string, improvements: seq<string>): (r: string)
    ensures IsPrefix(response, r)
  {
    var head := response + "\n\n[개선사항 반영]\n";
    assert IsPrefix(response, head + Bullets(improvements)) by {
      assert (head + Bullets(improvements))[..|response|] == response;
    }
    head + Bullets(improvements)
  }

  function Bullets(items: seq<string>): string {
    if |items| == 0 then "" else "- " + items[0] + "\n" + Bullets(items[1..])
  }

  /**
   What the model calls return, indexed by the call's round:
   `None` stands for "no engine" or "the call raised", which the agent
   replaces with its own fallback.
   */
  datatype Oracles = Oracles(
    initial: Option<string>,
    critique: nat -> Option<Critique>,
    improve: nat -> Option<string>)

  /** A parsed critique: its score and the improvements it asks for. */
  datatype Critique = Critique(score: real, improvements: seq<string>)

  function HeuristicCritique(response: string): (c: Critique)
    ensures 0.5 <= c.score <= 0.8
  {
    Critique(HeuristicScore(response), HeuristicImprovements)
  }

  datatype DeepResult = DeepResult(
    success: bool,
    response: string,
    iterations: nat,
    qualityScore: real,
    critiqueScores: seq<real>,
    needsRag: bool,
    needsCompetency: bool,
    needsRecommendation: bool)

  /** The record returned from the agent's exception handler. */
  function FailureResult(): (r: DeepResult)
    ensures !r.success && r.iterations == 0 && r.qualityScore == 0.0
  {
    DeepResult(false, "", 0, 0.0, [], false, false, false)
  }

  /** `execute`: one answer, then up to `critic_rounds` critique / improve rounds. */
  method Execute(query: string, cfg: Config, o: Oracles) returns (r: DeepResult)
    ensures r.success
    ensures !r.needsRag && !r.needsCompetency && !r.needsRecommendation
    ensures 1 <= r.iterations <= 1 + Max(0, cfg.criticRounds)
    ensures r.iterations <= Max(1, cfg.maxSteps)
    ensures |r.critiqueScores| <= Max(0, cfg.criticRounds)
    ensures |r.critiqueScores| == 0 ==> r.qualityScore == 0.0
    ensures |r.critiqueScores| > 0 ==> r.qualityScore == r.critiqueScores[|r.critiqueScores| - 1]
    // every critique except possibly the last fell short of the threshold
    ensures forall i :: 0 <= i < |r.critiqueScores| - 1 ==> r.critiqueScores[i] < cfg.qualityThreshold
    // the loop only gives up early when the threshold was met or the step budget ran out
    ensures |r.critiqueScores| < Max(0, cfg.criticRounds) ==>
      (|r.critiqueScores| > 0 && r.qualityScore >= cfg.qualityThreshold) || r.iterations >= cfg.maxSteps
  {
    var response := o.initial.GetOr(InitialFallback(query));
    var iterations: nat := 1;
    var quality := 0.0;
    var scores: seq<real> := [];
    var round := 0;
    var stopped := false;
    while round < cfg.criticRounds && !stopped
      decreases cfg.criticRounds - round, if stopped then 0 else 1
      invariant 0 <= round <= Max(0, cfg.criticRounds)
      invariant |scores| <= round
      invariant iterations == 1 + |scores| || (iterations == |scores| && |scores| > 0)
      invariant iterations <= 1 + round
      invariant iterations <= Max(1, cfg.maxSteps)
      invariant |scores| == 0 ==> quality == 0.0
      invariant |scores| > 0 ==> quality == scores[|scores| - 1]
      invariant forall i :: 0 <= i < |scores| - 1 ==> scores[i] < cfg.qualityThreshold
      invariant !stopped ==> |scores| == round && iterations == 1 + |scores|
      invariant !stopped ==> |scores| == 0 || quality < cfg.qualityThreshold
      invariant stopped ==> (|scores| > 0 && quality >= cfg.qualityThreshold) || iterations >= cfg.maxSteps
    {
      if iterations >= cfg.maxSteps {
        stopped := true;
      } else {
        var critique := o.critique(round).GetOr(HeuristicCritique(response));
        var score := critique.score;
        scores := scores + [score];
        quality := score;
        if quality >= cfg.qualityThreshold {
          stopped := true;
        } else {
          response := o.improve(round).GetOr(ImproveFallback(response, critique.improvements));
          iterations := iterations + 1;
        }
        round := round + 1;
      }
    }
    r := DeepResult(true, response, iterations, quality, scores, false, false, false);
  }
}

=== FILE: domain_competency_models.dfy ===
/**
 The competency-assessment records: questions and user responses, whose two
 identifier fields (`id` and `question_id`, `id` and `response_id`) are kept
 in step when only one of them is supplied, and the enumerations of levels
 and domains.
 */
module CompetencyModels {
  import opened Common

  datatype CompetencyLevel = Beginner | Intermediate | Advanced | Expert

  datatype CompetencyDomain = ChildcarePolicy | Education | Technology | Management | Research | Communication {
    function Value(): string {
      match this
      case ChildcarePolicy => "childcare_policy"
      case Education => "education"
      case Technology => "technology"
      case Management => "management"
      case Research => "research"
      case Communication => "communication"
    }
  }

  /** The domain a string names, if it names one. */
  function ParseDomain(s: string): (d: Option<CompetencyDomain>)
    ensures d.Some? ==> d.value.Value() == s
    ensures d.None? ==> forall e: CompetencyDomain :: e.Value() != s
  {
    if s == "childcare_policy" then Some(ChildcarePolicy)
    else if s == "education" then Some(Education)
    else if s == "technology" then Some(Technology)
    else if s == "management" then Some(Management)
    else if s == "research" then Some(Research)
    else if s == "communication" then Some(Communication)
    else None
  }

  /** Python's `a or b` on an optional text: the text when it is present and non-empty. */
  function OrText(a: Option<string>, b: string): (r: string)
    ensures a.Some? && a.value != "" ==> r == a.value
    ensures a.None? || a.value == "" ==> r == b
  {
    if a.Some? && a.value != "" then a.value else b
  }

  /**
   The two identifier fields after construction: one supplied alone is
   copied to the other, two supplied are kept, none is a validation error.
   */
  function SyncIds(primary: Option<string>, alias: Option<string>): (r: Option<(string, string)>)
    ensures r.None? <==> primary.None? && alias.None?
    ensures r.Some? && primary.Some? ==> r.value.0 == primary.value
    ensures r.Some? && alias.Some? ==> r.value.1 == alias.value
    ensures r.Some? && (primary.None? || alias.None?) ==> r.value.0 == r.value.1
  {
    if primary.Some? && alias.None? then Some((primary.value, primary.value))
    else if alias.Some? && primary.None? then Some((alias.value, alias.value))
    else if primary.Some? && alias.Some? then Some((primary.value, alias.value))
    else None
  }

  /** A skill gap; the priority defaults to "medium". */
  datatype SkillGap = SkillGap(skillName: string, current: CompetencyLevel, target: CompetencyLevel, priority: string, recommendations: seq<string>)

  function NewSkillGap(name: string, current: CompetencyLevel, target: CompetencyLevel): (g: SkillGap)
    ensures g.priority == "medium" && g.recommendations == []
    ensures g.skillName == name && g.current == current && g.target == target
  {
    SkillGap(name, current, target, "medium", [])
  }

  datatype Question = Question(
    id: string,
    questionId: string,
    text: string,
    domain: CompetencyDomain,
    area: string,
    difficulty: string,
    options: seq<string>,
    correctAnswer: Option<string>)

  /** The keyword arguments a question is built from; `None` is an omitted one. */
  datatype QuestionArgs = QuestionArgs(
    id: Option<string>,
    questionId: Option<string>,
    text: Option<string>,
    domain: Option<CompetencyDomain>,
    area: Option<string>,
    difficulty: Option<string>)

  /**
   `CompetencyQuestion(**data)`: the identifiers are synchronised, the text
   and domain are required, the area defaults to "general" and the
   difficulty to "medium".
   */
  function MakeQuestion(a: QuestionArgs): (q: Option<Question>)
    ensures q.Some? <==> (a.id.Some? || a.questionId.Some?) && a.text.Some? && a.domain.Some?
    ensures q.Some? ==> q.value.area == a.area.GetOr("general") && q.value.difficulty == a.difficulty.GetOr("medium")
  {
    match SyncIds(a.id, a.questionId)
    case None => None
    case Some(ids) =>
      if a.text.None? || a.domain.None? then None
      else Some(Question(ids.0, ids.1, a.text.value, a.domain.value, a.area.GetOr("general"),
        a.difficulty.GetOr("medium"), [], None))
  }

  /** Either identifier alone yields a question whose two identifiers are equal; both are kept as given. */
  lemma QuestionIdsAgree(a: QuestionArgs)
    requires a.text.Some? && a.domain.Some?
    ensures a.id.Some? && a.questionId.None? ==> MakeQuestion(a).value.id == MakeQuestion(a).value.questionId == a.id.value
    ensures a.questionId.Some? && a.id.None? ==> MakeQuestion(a).value.id == MakeQuestion(a).value.questionId == a.questionId.value
    ensures a.id.Some? && a.questionId.Some? ==>
      MakeQuestion(a).value.id == a.id.value && MakeQuestion(a).value.questionId == a.questionId.value
  {
  }

  datatype Response = Response(
    id: string,
    responseId: string,
    questionId: string,
    userId: string,
    answer: string,
    value: Option<real>,
    time: Option<real>,
    confidence: Option<real>,
    isCorrect: Option<bool>)

  /** The keyword arguments a response is built from; `confidence` is `None` when omitted and `Some(None)` when given as null. */
  datatype ResponseArgs = ResponseArgs(
    id: Option<string>,
    responseId: Option<string>,
    questionId: Option<string>,
    userId: Option<string>,
    answer: Option<string>,
    value: Option<real>,
    time: Option<real>,
    confidence: Option<Option<real>>)

  /**
   `UserResponse(**data)`: the identifiers are synchronised, the question,
   user and answer are required, and the confidence defaults to 0.5.
   */
  function MakeResponse(a: ResponseArgs): (r: Option<Response>)
    ensures r.Some? <==> (a.id.Some? || a.responseId.Some?) && a.questionId.Some? && a.userId.Some? && a.answer.Some?
    ensures r.Some? ==> r.value.questionId == a.questionId.value && r.value.value == a.value && r.value.time == a.time
    ensures r.Some? ==> r.value.confidence == a.confidence.GetOr(Some(0.5))
  {
    match SyncIds(a.id, a.responseId)
    case None => None
    case Some(ids) =>
      if a.questionId.None? || a.userId.None? || a.answer.None? then None
      else Some(Response(ids.0, ids.1, a.questionId.value, a.userId.value, a.answer.value, a.value, a.time,
        a.confidence.GetOr(Some(0.5)), None))
  }

  /** Either identifier alone yields a response whose two identifiers are equal; both are kept as given; an omitted confidence is 0.5. */
  lemma ResponseIdsAgree(a: ResponseArgs)
    requires a.questionId.Some? && a.userId.Some? && a.answer.Some?
    ensures a.id.Some? && a.responseId.None? ==> MakeResponse(a).value.id == MakeResponse(a).value.responseId == a.id.value
    ensures a.responseId.Some? && a.id.None? ==> MakeResponse(a).value.id == MakeResponse(a).value.responseId == a.responseId.value
    ensures a.id.Some? && a.responseId.Some? ==>
      MakeResponse(a).value.id == a.id.value && MakeResponse(a).value.responseId == a.responseId.value
    ensures a.confidence.None? && (a.id.Some? || a.responseId.Some?) ==> MakeResponse(a).value.confidence == Some(0.5)
  {
  }
}

=== FILE: domain_mission_models.dfy ===
/**
 The mission domain: campaign missions with eligibility requirements, and the
 assignments that recommend a mission to a creator. The field constraints of
 the schema are stated as validity predicates, and building a record checks
 them the way validation does.
 */
module MissionModels {
  import opened Common

  datatype MissionType = Content | Traffic | Conversion | Live | OtherType {
    function Value(): string {
      match this
      case Content => "content"
      case Traffic => "traffic"
      case Conversion => "conversion"
      case Live => "live"
      case OtherType => "other"
    }
  }

  datatype RewardType = Fixed | Performance | Hybrid {
    function Value(): string {
      match this
      case Fixed => "fixed"
      case Performance => "performance"
      case Hybrid => "hybrid"
    }
  }

  /** The eligibility conditions of a mission. */
  datatype Requirement = Requirement(
    minFollowers: int,
    maxFollowers: Option<int>,
    minEngagementRate: real,
    minPosts30d: int,
    minGrade: string,
    allowedPlatforms: seq<string>,
    disallowHighReports: bool,
    maxReports90d: int,
    allowedCategories: seq<string>,
    excludedCategories: seq<string>,
    excludeRisks: seq<string>,
    requiredTags: seq<string>)
  {
    /** The schema's bounds: counts are non-negative and the engagement rate is a fraction. */
    predicate Valid() {
      minFollowers >= 0 && (maxFollowers.Some? ==> maxFollowers.value >= 0)
      && 0.0 <= minEngagementRate <= 1.0 && minPosts30d >= 0 && maxReports90d >= 0
    }
  }

  /** A requirement with every field at its default. */
  function DefaultRequirement(): (r: Requirement)
    ensures r.Valid()
    ensures r.minGrade == "C" && r.disallowHighReports && r.maxReports90d == 2
    ensures r.minFollowers == 0 && r.maxFollowers.None? && r.minEngagementRate == 0.0 && r.minPosts30d == 0
    ensures r.allowedPlatforms == [] && r.allowedCategories == [] && r.excludedCategories == []
    ensures r.excludeRisks == [] && r.requiredTags == []
  {
    Requirement(0, None, 0.0, 0, "C", [], true, 2, [], [], [], [])
  }

  /** Validation of a requirement: accepted exactly when the bounds hold. */
  function MakeRequirement(r: Requirement): (o: Option<Requirement>)
    ensures o.Some? <==> r.Valid()
    ensures o.Some? ==> o.value == r
  {
    if r.Valid() then Some(r) else None
  }

  /** The defaults are accepted as they are, and moving the engagement rate out of [0, 1] is what refuses them. */
  lemma DefaultAccepted(rate: real)
    ensures MakeRequirement(DefaultRequirement()) == Some(DefaultRequirement())
    ensures MakeRequirement(DefaultRequirement().(minEngagementRate := rate)).Some? <==> 0.0 <= rate <= 1.0
  {
  }

  datatype Mission = Mission(
    id: string,
    name: string,
    missionType: MissionType,
    rewardType: RewardType,
    rewardAmount: Option<real>,
    requirement: Requirement)
  {
    predicate Valid() {
      requirement.Valid() && (rewardAmount.Some? ==> rewardAmount.value >= 0.0)
    }
  }

  datatype AssignmentStatus = Recommended | Accepted | InProgress | Completed | Rejected

  /** Why a mission was, or was not, recommended. */
  datatype Reason =
    | PlatformMismatch | TooFewFollowers | TooManyFollowers | TooFewPosts | HighReports | TooManyReports
    | GradeBelow(minGrade: string) | CategoryExcluded | CategoryNotAllowed | RiskExcluded(risk: string)
    | GradeFits | EngagementMeets | TagsMatch(matched: seq<string>)
    | ReportPenalty | LowEngagementPenalty | LowActivityPenalty
  {
    /** The reasons a hard filter gives for refusing a mission. */
    predicate IsRejection() {
      PlatformMismatch? || TooFewFollowers? || TooManyFollowers? || TooFewPosts? || HighReports? || TooManyReports?
      || GradeBelow? || CategoryExcluded? || CategoryNotAllowed? || RiskExcluded?
    }
  }

  datatype Assignment = Assignment(
    id: string,
    missionId: string,
    creatorId: string,
    status: AssignmentStatus,
    score: real,
    reasons: seq<Reason>)
  {
    predicate Valid() { 0.0 <= score <= 100.0 }
  }

  /** Validation of a new assignment, whose status defaults to recommended. */
  function NewAssignment(id: string, missionId: string, creatorId: string, score: real, reasons: seq<Reason>)
    : (o: Option<Assignment>)
    ensures o.Some? <==> 0.0 <= score <= 100.0
    ensures o.Some? ==> o.value.Valid() && o.value.status == Recommended && o.value.score == score
                        && o.value.id == id && o.value.missionId == missionId && o.value.creatorId == creatorId
  {
    var a := Assignment(id, missionId, creatorId, Recommended, score, reasons);
    if a.Valid() then Some(a) else None
  }
}

=== FILE: graph_main_orchestrator.dfy ===
/**
 The current orchestration graph: route, plan, tool enrichment, a workflow,
 the RAG quality gate and replanning, ending in final synthesis.

 The graph is a node enumeration, a transition function over the state
 fields the guards read, and a run function whose termination is proved with
 the replan budget `max_loops - loop_count` and a rank of the nodes. Every
 node body is modelled; what a node learns from the outside world (the
 intent model, the planner, the tool service, the RAG pipeline, the worker
 agents, the synthesis model) is read from an oracle indexed by step.

 The conditional edges are finite maps from the key a router returns to the
 next node; a key outside the map is a routing error of the graph runtime,
 which the model reports as `Stuck`.
 */
module MainOrchestrator {
  import opened Common
  import DeepAgents
  import IntentAnalyzer
  import PromptTemplates
  import opened Routing

  /* ====================================================== _dedup_strings */

  /** A Python value as `_dedup_strings` sees it: a string or anything else. */
  datatype PyValue = PyStr(s: string) | PyOther

  /**
   `_dedup_strings`: stripped, non-empty strings, each once, in order of
   first appearance; non-strings are skipped.
   */
  method DedupStrings(values: seq<PyValue>) returns (out: seq<string>)
    ensures NoDuplicates(out)
    ensures forall x :: x in out ==> x != "" && exists v :: v in values && v.PyStr? && Strip(v.s) == x
    ensures forall v :: v in values && v.PyStr? && Strip(v.s) != "" ==> Strip(v.s) in out
    ensures IsSubsequence(out, StrippedStrings(values))
    ensures InFirstOccurrenceOrder(out, StrippedStrings(values))
  {
    var seen: set<string> := {};
    out := [];
    var i := 0;
    while i < |values|
      invariant 0 <= i <= |values|
      invariant forall x :: x in seen <==> x in out
      invariant DedupInv(out, StrippedStrings(values[..i]))
    {
      var v := values[i];
      var before, after := StrippedStrings(values[..i]), StrippedStrings(values[..i + 1]);
      StrippedStringsStep(values, i);
      if v.PyStr? {
        var n := Strip(v.s);
        assert after == before + [n];
        DedupStep(out, before, n);
        if n != "" && n !in seen {
          out := out + [n];
          seen := seen + {n};
        }
      } else {
        assert after == before;
      }
      i := i + 1;
    }
    assert values[..i] == values;
    DedupResult(values, out);
  }

  /** The loop's invariant over all the values gives the promised output. */
  lemma DedupResult(values: seq<PyValue>, out: seq<string>)
    requires DedupInv(out, StrippedStrings(values))
    ensures NoDuplicates(out)
    ensures forall x :: x in out ==> x != "" && exists v :: v in values && v.PyStr? && Strip(v.s) == x
    ensures forall v :: v in values && v.PyStr? && Strip(v.s) != "" ==> Strip(v.s) in out
    ensures IsSubsequence(out, StrippedStrings(values))
    ensures InFirstOccurrenceOrder(out, StrippedStrings(values))
  {
    StrippedStringsMembers(values);
  }

  /** What the loop of `_dedup_strings` keeps about its output `out` after reading the stripped strings `src`. */
  predicate DedupInv(out: seq<string>, src: seq<string>) {
    NoDuplicates(out)
    && (forall x :: x in out ==> x != "" && x in src)
    && (forall x :: x in src && x != "" ==> x in out)
    && IsSubsequence(out, src)
    && InFirstOccurrenceOrder(out, src)
  }

  /** Reading one more stripped string: it is appended when it is non-empty and new. */
  lemma DedupStep(out: seq<string>, src: seq<string>, n: string)
    requires DedupInv(out, src)
    ensures n != "" && n !in out ==> DedupInv(out + [n], src + [n])
    ensures !(n != "" && n !in out) ==> DedupInv(out, src + [n])
  {
    OrderAfterAppend(out, src, n);
    if n != "" && n !in out {
      SubsequenceAppendBoth(out, src, n);
      var r := out + [n];
      assert forall i :: 0 <= i < |out| ==> r[i] == out[i];
    } else {
      SubsequenceAppendRight(out, src, [n]);
    }
  }

  /** The stripped strings are those of the string values. */
  lemma {:induction false} StrippedStringsMembers(values: seq<PyValue>)
    ensures forall x :: x in StrippedStrings(values) <==> exists v :: v in values && v.PyStr? && Strip(v.s) == x
    decreases |values|
  {
    if |values| > 0 {
      var init := values[..|values| - 1];
      StrippedStringsMembers(init);
      assert values == init + [values[|values| - 1]];
      assert forall v :: v in values <==> v in init || v == values[|values| - 1];
    }
  }

  /** The stripped strings of `values`, in order. */
  function StrippedStrings(values: seq<PyValue>): seq<string> {
    if |values| == 0 then []
    else
      var last := values[|values| - 1];
      StrippedStrings(values[..|values| - 1]) + (if last.PyStr? then [Strip(last.s)] else [])
  }

  lemma StrippedStringsStep(values: seq<PyValue>, i: nat)
    requires i < |values|
    ensures var v := values[i];
      StrippedStrings(values[..i + 1]) == StrippedStrings(values[..i]) + (if v.PyStr? then [Strip(v.s)] else [])
  {
    assert values[..i + 1] == values[..i] + [values[i]];
    StrippedStringsAppend(values[..i], values[i]);
  }

  lemma StrippedStringsAppend(values: seq<PyValue>, v: PyValue)
    ensures StrippedStrings(values + [v]) == StrippedStrings(values) + (if v.PyStr? then [Strip(v.s)] else [])
  {
    assert (values + [v])[..|values|] == values;
  }

  lemma {:induction false} SubsequenceAppendRight<T>(xs: seq<T>, ys: seq<T>, zs: seq<T>)
    requires IsSubsequence(xs, ys)
    ensures IsSubsequence(xs, ys + zs)
    decreases |ys|
  {
    if |xs| == 0 {
    } else {
      assert |ys| > 0;
      assert (ys + zs)[1..] == ys[1..] + zs;
      if xs[0] == ys[0] && IsSubsequence(xs[1..], ys[1..]) {
        SubsequenceAppendRight(xs[1..], ys[1..], zs);
      } else {
        SubsequenceAppendRight(xs, ys[1..], zs);
      }
    }
  }

  lemma {:induction false} SubsequenceAppendBoth<T>(xs: seq<T>, ys: seq<T>, x: T)
    requires IsSubsequence(xs, ys)
    ensures IsSubsequence(xs + [x], ys + [x])
    decreases |ys|
  {
    if |xs| == 0 {
      if |ys| == 0 {
        assert [x][1..] == [];
      } else {
        assert (ys + [x])[1..] == ys[1..] + [x];
        SubsequenceAppendBoth(xs, ys[1..], x);
      }
    } else {
      assert (ys + [x])[1..] == ys[1..] + [x];
      assert (xs + [x])[1..] == xs[1..] + [x];
      if xs[0] == ys[0] && IsSubsequence(xs[1..], ys[1..]) {
        SubsequenceAppendBoth(xs[1..], ys[1..], x);
      } else {
        SubsequenceAppendBoth(xs, ys[1..], x);
      }
    }
  }

  /* ====================================================== state */

  /**
   The planner's JSON as the guards read it. `workflowType` is "" when the
   field is missing, empty or not a string; `costPreference` is "" when it is
   missing or falsy.
   */
  datatype Plan = Plan(workflowType: string, needsRag: bool, needsTools: bool, costPreference: string)

  /** `{}`: what the guards see when there is no plan. */
  const NoPlan := Plan("", false, false, "")

  /** The `reason` of `tool_enrichment_result` (`ran` is true only for `Ran`). */
  datatype ToolStatus = NotRunYet | NotNeeded | NoSpecOrService | ToolError | Ran

  /** `rag_result`; its `response` is `None` when it is missing or not a string. */
  datatype RagResult = RagResult(response: Option<string>)

  datatype State = State(
    messages: seq<Message>,
    workflowType: string,
    useDeepAgents: bool,
    routingConfidence: real,
    plan: Option<Plan>,
    tool: ToolStatus,
    ragResult: Option<RagResult>,
    retrieved: seq<RetrievedDoc>,
    hasRagContext: bool,
    deepResult: Option<DeepAgents.DeepResult>,
    competencyData: Option<string>,
    recommendationData: Option<string>,
    analyticsResults: Option<string>,
    missionCount: nat,
    collectedCount: nat,
    selectedModel: Option<string>,
    loopCount: int,
    maxLoops: int,
    errors: seq<string>)

  /** The state `run` builds from one user message, with the class defaults. */
  function InitialState(message: string): (s: State)
    ensures s.loopCount == 0 && s.maxLoops == 2 && |s.messages| == 1
  {
    State([Message(Human, message)], "default", false, 0.0, None, NotRunYet, None, [], false, None,
          None, None, None, 0, 0, None, 0, 2, [])
  }

  predicate BudgetOk(s: State) { s.loopCount <= s.maxLoops }

  /** The conversation ends with an AI message: the answer `run()` returns. */
  predicate AnswersLast(s: State) { |s.messages| > 0 && s.messages[|s.messages| - 1].role == AI }

  function LatestText(s: State): string
    requires |s.messages| > 0
  {
    s.messages[|s.messages| - 1].content
  }

  function AddError(s: State, e: string): (t: State)
    ensures t.errors == s.errors + [e]
  {
    s.(errors := s.errors + [e])
  }

  /* ====================================================== oracles */

  /** The planner's reply after decoding. */
  datatype PlannerReply = PlanDict(p: Plan) | PlanNotDict | PlanUnparseable | PlannerRaised

  /** What the tool service did with the spec built for the workflow. */
  datatype ToolReply = ToolNoSpec | ToolRaised | ToolEnriched

  /** The RAG pipeline's answer. */
  datatype RagReply = RagOk(response: Option<string>, docs: seq<RetrievedDoc>) | RagFailed

  /** A worker agent's outcome: a rendering of its data and a count of items. */
  datatype WorkerReply = WorkerOk(repr: string, count: nat) | WorkerFailed(reason: string)

  /** Everything the graph learns from outside, indexed by the step that asks. */
  datatype Env = Env(
    intent: nat -> IntentAnalyzer.IntentResult,
    planner: nat -> PlannerReply,
    tools: nat -> ToolReply,
    deep: nat -> Option<DeepAgents.DeepResult>,
    rag: (nat, PromptTemplates.PromptType) -> RagReply,
    worker: nat -> WorkerReply,
    synth: nat -> Option<string>)

  /* ====================================================== nodes and edges */

  datatype Node =
    | RouteRequest | PlanRequest | ToolEnrichment | ReplanRequest
    | DeepAgentsProcessing | RagProcessing | LlmManager | CompetencyDiagnosis
    | RecommendationNode | MissionRecommendation | VectorSearch | ExternalIntegration
    | AnalyticsNode | DataCollectionNode | FinalSynthesis

  /** The edge map after tool enrichment. */
  function ToolEnrichmentEdges(key: string): Option<Node> {
    if key == "replan" then Some(ReplanRequest)
    else if key == "deep_agents" then Some(DeepAgentsProcessing)
    else if key == "rag" then Some(RagProcessing)
    else if key == "competency" then Some(CompetencyDiagnosis)
    else if key == "recommendation" then Some(RecommendationNode)
    else if key == "mission" then Some(MissionRecommendation)
    else if key == "search" then Some(VectorSearch)
    else if key == "analytics" then Some(AnalyticsNode)
    else if key == "data_collection" then Some(DataCollectionNode)
    else if key == "general" then Some(LlmManager)
    else None
  }

  /** The edge map after RAG processing. */
  function RagEdges(key: string): Option<Node> {
    if key == "replan" then Some(ReplanRequest)
    else if key == "competency" then Some(CompetencyDiagnosis)
    else if key == "recommendation" then Some(RecommendationNode)
    else if key == "search" then Some(VectorSearch)
    else if key == "analytics" then Some(AnalyticsNode)
    else if key == "final" then Some(FinalSynthesis)
    else None
  }

  /** The edge map after the deep agents. */
  function DeepEdges(key: string): Option<Node> {
    if key == "final" then Some(FinalSynthesis)
    else if key == "rag" then Some(RagProcessing)
    else if key == "competency" then Some(CompetencyDiagnosis)
    else if key == "recommendation" then Some(RecommendationNode)
    else None
  }

  /** The edge map after external integration. */
  function PostToolEdges(key: string): Option<Node> {
    if key == "rag" then Some(RagProcessing)
    else if key == "final" then Some(FinalSynthesis)
    else None
  }

  /**
   A rank that every edge not guarded by the replan budget strictly
   decreases; `FinalSynthesis` leads to the end.
   */
  function Rank(n: Node): nat {
    match n
    case RouteRequest => 8
    case PlanRequest => 7
    case ReplanRequest => 7
    case ToolEnrichment => 6
    case DeepAgentsProcessing => 5
    case RagProcessing => 4
    case VectorSearch => 3
    case CompetencyDiagnosis => 3
    case ExternalIntegration => 2
    case RecommendationNode => 2
    case AnalyticsNode => 2
    case DataCollectionNode => 2
    case LlmManager => 2
    case MissionRecommendation => 2
    case FinalSynthesis => 1
  }

  const MaxRank: nat := 8

  /* ====================================================== node bodies */

  const PlanningKeywords: seq<string> := ["설계", "아키텍처", "구현", "리팩터링", "최적", "전략", "완성해줘"]

  /** The gate of `_plan_request`: the planner runs unless all four skip conditions hold. */
  function ShouldPlan(workflowType: string, confidence: real, text: string): (plan: bool)
    ensures !plan <==> workflowType != "general" && workflowType != "rag" && confidence >= 0.65
                       && |text| <= 200 && !ContainsAny(text, PlanningKeywords)
  {
    workflowType == "general" || workflowType == "rag" || confidence < 0.65 || |text| > 200
    || ContainsAny(text, PlanningKeywords)
  }

  /** The plan `_plan_request` builds when the planner's reply does not decode. */
  function PlannerFallback(workflowType: string, text: string): (p: Plan)
    ensures p.workflowType == workflowType && p.needsRag == (workflowType == "rag")
    ensures p.needsTools <==> workflowType == "data_collection" || workflowType == "mission"
  {
    Plan(workflowType, workflowType == "rag", workflowType in {"data_collection", "mission"}, "balanced")
  }

  /** Adopting a decoded plan: a non-empty workflow type replaces the current one. */
  function AdoptPlan(s: State, p: Plan): (t: State)
    ensures t.plan == Some(p)
    ensures p.workflowType != "" ==> t.workflowType == p.workflowType
    ensures p.workflowType == "" ==> t.workflowType == s.workflowType
  {
    var wf := if p.workflowType != "" then p.workflowType else s.workflowType;
    s.(plan := Some(p), workflowType := wf, useDeepAgents := wf == "deep_agents")
  }

  /** `_route_request`. */
  function RouteNode(s: State, env: Env, k: nat): (t: State)
    ensures t.loopCount == s.loopCount && t.maxLoops == s.maxLoops
  {
    if |s.messages| == 0 then AddError(s, "처리할 메시지가 없습니다")
    else
      var text := LatestText(s);
      if DeepAgents.ShouldUseDeepAgents(text) then
        s.(workflowType := "deep_agents", useDeepAgents := true, routingConfidence := 1.0)
      else
        var ir := env.intent(k);
        match ir.confidence
        case NonNumeric => AddError(s, "요청 라우팅 실패").(workflowType := "general")
        case _ =>
          var conf := if ir.confidence.Number? then ir.confidence.value else 0.0;
          s.(workflowType := IntentWorkflow(ir.intent, text), routingConfidence := conf)
  }

  /** The intent-to-workflow table of `_route_request`. */
  function IntentWorkflow(intent: string, text: string): (wf: string)
    ensures intent == "general_chat" || intent == "unknown" ==> wf == (if ShouldUseRag(text) then "rag" else "general")
  {
    if intent == "competency_assessment" then "competency"
    else if intent == "recommendation" then "recommendation"
    else if intent == "mission_matching" then "mission"
    else if intent == "search" then "search"
    else if intent == "analytics" then "analytics"
    else if intent == "data_collection" then "data_collection"
    else if ShouldUseRag(text) then "rag" else "general"
  }

  /** `_plan_request`. */
  function PlanNode(s: State, env: Env, k: nat): (t: State)
    ensures t.loopCount == s.loopCount && t.maxLoops == s.maxLoops
  {
    if |s.messages| == 0 then s
    else
      var text := LatestText(s);
      if !ShouldPlan(s.workflowType, s.routingConfidence, text) then s.(plan := None)
      else
        match env.planner(k)
        case PlannerRaised => s.(plan := None)
        case PlanNotDict => s
        case PlanUnparseable => AdoptPlan(s, PlannerFallback(s.workflowType, text))
        case PlanDict(p) => AdoptPlan(s, p)
  }

  const ToolishWorkflows: set<string> := {"mission", "analytics", "data_collection"}

  /** `_tool_enrichment`: runs only when the plan asks for tools or the workflow needs outside data. */
  function ToolNode(s: State, env: Env, k: nat): (t: State)
    ensures t.tool == NotNeeded <==> !s.plan.GetOr(NoPlan).needsTools && s.workflowType !in ToolishWorkflows
    ensures t == s.(tool := t.tool)
  {
    var plan := s.plan.GetOr(NoPlan);
    if !(plan.needsTools || s.workflowType in ToolishWorkflows) then s.(tool := NotNeeded)
    else
      match env.tools(k)
      case ToolNoSpec => s.(tool := NoSpecOrService)
      case ToolRaised => s.(tool := ToolError)
      case ToolEnriched => s.(tool := Ran)
  }

  /**
   `_replan_request` as written: when the reply does not decode, the copy of
   the previous plan has `notes` set before the emptiness test, so the
   fallback plan is never used and the copy always gets tools off, RAG on.
   */
  function ReplanNode(s: State, env: Env, k: nat): (t: State)
    ensures t.loopCount == s.loopCount && t.maxLoops == s.maxLoops
  {
    if |s.messages| == 0 then s
    else
      match env.planner(k)
      case PlannerRaised => s
      case PlanNotDict => s
      case PlanUnparseable =>
        ApplyReplan(s, s.plan.GetOr(NoPlan).(needsTools := false, needsRag := true))
      case PlanDict(p) => ApplyReplan(s, p)
  }

  /** The policy applied to every decoded replan. */
  function ApplyReplan(s: State, p: Plan): (t: State)
    ensures t.plan.Some?
    ensures p.workflowType == "search" ==> t.plan.value.needsRag
    ensures t.plan.value.needsRag && s.ragResult.Some? ==>
      t.ragResult.None? && t.retrieved == [] && !t.hasRagContext
    ensures !t.plan.value.needsRag ==> t.ragResult == s.ragResult && t.retrieved == s.retrieved
    ensures t.loopCount == s.loopCount && t.maxLoops == s.maxLoops
  {
    var p1 := if p.workflowType == "search" then p.(needsRag := true) else p;
    var wf := if p1.workflowType != "" then p1.workflowType else s.workflowType;
    var s1 := s.(plan := Some(p1), workflowType := wf);
    if p1.needsRag && s1.ragResult.Some? then
      s1.(ragResult := None, retrieved := [], hasRagContext := false)
    else s1
  }

  /** `_deep_agents_processing`. */
  function DeepNode(s: State, env: Env, k: nat): (t: State)
    ensures t.loopCount == s.loopCount && t.maxLoops == s.maxLoops
  {
    if |s.messages| == 0 then
      AddError(s, "Deep Agents 처리 오류").(deepResult := Some(DeepAgents.FailureResult()))
    else
      match env.deep(k)
      case Some(r) => s.(deepResult := Some(r), useDeepAgents := true)
      case None => AddError(s, "Deep Agents 처리 오류").(deepResult := Some(DeepAgents.FailureResult()))
  }

  /** `_rag_processing`. */
  function RagNode(s: State, env: Env, k: nat): (t: State)
    ensures t.loopCount == s.loopCount && t.maxLoops == s.maxLoops
  {
    if |s.messages| == 0 then AddError(s, "처리할 메시지가 없습니다")
    else
      match env.rag(k, DetermineQueryType(LatestText(s)))
      case RagFailed => AddError(s, "RAG 처리 실패")
      case RagOk(response, docs) =>
        s.(ragResult := Some(RagResult(response)), retrieved := docs, hasRagContext := true,
           workflowType := PostRagWorkflow(docs, LatestText(s)))
  }

  /** The worker agents: each stores its data on success and records an error otherwise. */
  function WorkerNode(n: Node, s: State, env: Env, k: nat): (t: State)
    ensures t.loopCount == s.loopCount && t.maxLoops == s.maxLoops
    ensures t.messages == s.messages
  {
    match env.worker(k)
    case WorkerFailed(reason) => AddError(s, reason)
    case WorkerOk(repr, count) =>
      match n
      case CompetencyDiagnosis => s.(competencyData := Some(repr))
      case RecommendationNode => s.(recommendationData := Some(repr))
      case AnalyticsNode => s.(analyticsResults := Some(repr))
      case MissionRecommendation => s.(missionCount := count)
      case DataCollectionNode => s.(collectedCount := count)
      case LlmManager => s.(selectedModel := Some(repr))
      case _ => s
  }

  /* ====================================================== conditions */

  /** `_post_tool_enrichment_condition`: a failed tool step is replanned while budget lasts. */
  function PostToolEnrichmentKey(s: State): (r: (string, State))
    ensures r.1 != s <==> s.plan.GetOr(NoPlan).needsTools && s.tool in {ToolError, NoSpecOrService}
                          && s.loopCount < s.maxLoops
    ensures r.1 != s ==> r.0 == "replan" && r.1.loopCount == s.loopCount + 1
                         && r.1 == s.(loopCount := r.1.loopCount, workflowType := r.1.workflowType)
                         && r.1.workflowType != ""
    ensures r.1 == s ==> r.0 == s.workflowType
  {
    var needsTools := s.plan.GetOr(NoPlan).needsTools;
    if needsTools && s.tool in {ToolError, NoSpecOrService} && s.loopCount < s.maxLoops then
      ("replan", s.(loopCount := s.loopCount + 1,
                    workflowType := if s.workflowType == "" then "general" else s.workflowType))
    else (s.workflowType, s)
  }

  const UncertaintyMarkers: seq<string> := [
    "잘 모르", "알 수 없", "확인할 수 없", "찾을 수 없", "제공된 문서",
    "근거가 없", "정보가 없", "추가 정보", "확실하지", "추정",
    "cannot", "unknown", "not sure", "insufficient"
  ]

  /** `_should_replan_after_rag`: the RAG quality gate. */
  function ShouldReplanAfterRag(s: State): (replan: bool)
    ensures s.ragResult.None? ==> !replan
    ensures s.ragResult.Some? ==>
      (replan <==>
        var text := Strip(s.ragResult.value.response.GetOr(""));
        |s.retrieved| == 0 || text == "" || ContainsAny(Lower(text), UncertaintyMarkers)
        || (|text| < 120 && |s.retrieved| >= 2))
  {
    match s.ragResult
    case None => false
    case Some(rr) =>
      var text := Strip(rr.response.GetOr(""));
      if |s.retrieved| == 0 then true
      else if text == "" then true
      else if ContainsAny(Lower(text), UncertaintyMarkers) then true
      else |text| < 120 && |s.retrieved| >= 2
  }

  /** `_rag_route_condition`. */
  function RagRouteKey(s: State): (r: (string, State))
    ensures r.1 != s <==> ShouldReplanAfterRag(s) && s.loopCount < s.maxLoops
    ensures r.1 != s ==> r.0 == "replan" && r.1 == s.(loopCount := s.loopCount + 1)
    ensures r.1 == s ==> r.0 == s.workflowType
  {
    if ShouldReplanAfterRag(s) && s.loopCount < s.maxLoops then
      ("replan", s.(loopCount := s.loopCount + 1))
    else (s.workflowType, s)
  }

  /** `_post_tool_route_condition`: RAG re-entry is budgeted and only happens without a RAG result. */
  function PostToolRouteKey(s: State): (r: (string, State))
    ensures r.0 == "rag" <==> s.plan.GetOr(NoPlan).needsRag && s.loopCount < s.maxLoops && s.ragResult.None?
    ensures r.0 == "rag" ==> r.1 == s.(loopCount := s.loopCount + 1, workflowType := "rag")
    ensures r.0 != "rag" ==> r.0 == "final" && r.1 == s
  {
    if s.plan.GetOr(NoPlan).needsRag && s.loopCount < s.maxLoops && s.ragResult.None? then
      ("rag", s.(loopCount := s.loopCount + 1, workflowType := "rag"))
    else ("final", s)
  }

  /* ====================================================== transitions */

  /** Where a step leads: another node, the end, a key the edge map lacks, or a node without edges. */
  datatype Next = Goto(node: Node, st: State) | End(st: State) | NoEdge(key: string, st: State) | DeadEnd(st: State)

  /**
   Follows the edge map under `key`. A replan edge taken without spending
   budget (a workflow type that is literally "replan") is not followed: the
   run stops there with that key.
   */
  function Follow(edges: string -> Option<Node>, key: string, s: State): (x: Next)
    ensures x.Goto? ==> x.node != ReplanRequest && x.st == s && Some(x.node) == edges(key)
    ensures x.NoEdge? ==> x.key == key && x.st == s
    ensures x.Goto? || x.NoEdge?
  {
    match edges(key)
    case Some(m) => if m == ReplanRequest then NoEdge(key, s) else Goto(m, s)
    case None => NoEdge(key, s)
  }

  /** The edges leaving `n`, evaluated on the state its body produced. */
  function Edges(n: Node, s: State): (x: Next)
    ensures x.st.maxLoops == s.maxLoops
    ensures x.st.loopCount == s.loopCount || x.st.loopCount == s.loopCount + 1 <= s.maxLoops
    // an edge that spends no budget moves down the rank
    ensures x.Goto? && x.st.loopCount == s.loopCount ==> Rank(x.node) < Rank(n)
    // the only edges that spend budget enter the replan node or re-enter RAG
    ensures x.Goto? && x.st.loopCount != s.loopCount ==>
      x.node == ReplanRequest || (n == ExternalIntegration && x.node == RagProcessing)
  {
    match n
    case RouteRequest => Goto(PlanRequest, s)
    case PlanRequest => Goto(ToolEnrichment, s)
    case ReplanRequest => Goto(ToolEnrichment, s)
    case ToolEnrichment =>
      var (key, t) := PostToolEnrichmentKey(s);
      if key == "replan" && t != s then Goto(ReplanRequest, t) else Follow(ToolEnrichmentEdges, key, t)
    case RagProcessing =>
      var (key, t) := RagRouteKey(s);
      if key == "replan" && t != s then Goto(ReplanRequest, t) else Follow(RagEdges, key, t)
    case DeepAgentsProcessing => Follow(DeepEdges, DeepExitKey(s.deepResult), s)
    case ExternalIntegration =>
      var (key, t) := PostToolRouteKey(s);
      if key == "rag" then Goto(RagProcessing, t) else Goto(FinalSynthesis, t)
    case VectorSearch => Goto(ExternalIntegration, s)
    case CompetencyDiagnosis => Goto(RecommendationNode, s)
    case RecommendationNode => Goto(FinalSynthesis, s)
    case AnalyticsNode => Goto(FinalSynthesis, s)
    case DataCollectionNode => Goto(FinalSynthesis, s)
    case LlmManager => Goto(FinalSynthesis, s)
    case MissionRecommendation => DeadEnd(s)
    case FinalSynthesis => End(s)
  }

  /**
   The edges as the graph declares them: the router's return value is looked
   up in the map whatever it is, so a workflow type "replan" enters the
   replan node without spending budget.
   */
  function EdgesAsWritten(n: Node, s: State): (x: Next)
    ensures x != Edges(n, s) ==> x.Goto? && x.node == ReplanRequest && x.st.loopCount == s.loopCount
  {
    match n
    case ToolEnrichment =>
      var (key, t) := PostToolEnrichmentKey(s);
      if ToolEnrichmentEdges(key) == Some(ReplanRequest) then Goto(ReplanRequest, t) else Edges(n, s)
    case RagProcessing =>
      var (key, t) := RagRouteKey(s);
      if RagEdges(key) == Some(ReplanRequest) then Goto(ReplanRequest, t) else Edges(n, s)
    case _ => Edges(n, s)
  }

  /**
   The cycle the declared edges allow: a plan whose workflow type is
   "replan" and which does not ask for tools sends tool enrichment to the
   replan node for free; a replan reply that is not an object leaves the
   state as it was, so the two nodes alternate on the same state forever.
   */
  lemma ReplanWorkflowCycles(s: State, env: Env, k: nat)
    requires |s.messages| > 0 && s.workflowType == "replan" && s.plan == Some(NoPlan)
    requires env.planner(k + 1) == PlanNotDict
    ensures var t := s.(tool := NotNeeded);
      EdgesAsWritten(ToolEnrichment, Body(ToolEnrichment, s, env, k)) == Goto(ReplanRequest, t)
      && EdgesAsWritten(ReplanRequest, Body(ReplanRequest, t, env, k + 1)) == Goto(ToolEnrichment, t)
      && Body(ToolEnrichment, t, env, k + 2) == t
  {
  }

  /** The body of node `n`. */
  function Body(n: Node, s: State, env: Env, k: nat): (t: State)
    ensures t.loopCount == s.loopCount && t.maxLoops == s.maxLoops
  {
    match n
    case RouteRequest => RouteNode(s, env, k)
    case PlanRequest => PlanNode(s, env, k)
    case ToolEnrichment => ToolNode(s, env, k)
    case ReplanRequest => ReplanNode(s, env, k)
    case DeepAgentsProcessing => DeepNode(s, env, k)
    case RagProcessing => RagNode(s, env, k)
    case VectorSearch => s
    case ExternalIntegration => s
    case FinalSynthesis => SynthesisNode(s, env, k)
    case _ => WorkerNode(n, s, env, k)
  }

  /** One step: run the body of `n`, then follow its edges. */
  function Step(n: Node, s: State, env: Env, k: nat): (x: Next)
    ensures x.st.maxLoops == s.maxLoops && s.loopCount <= x.st.loopCount
    ensures BudgetOk(s) ==> BudgetOk(x.st)
    ensures x.Goto? && x.st.loopCount == s.loopCount ==> Rank(x.node) < Rank(n)
  {
    Edges(n, Body(n, s, env, k))
  }

  /* ====================================================== synthesis */

  /**
   `_synthesize_results`: a RAG answer alone is returned stripped; otherwise
   the synthesis model's answer; if that call raises, the non-empty parts
   joined by blank lines, or the completion notice when there are no parts at
   all. Only an empty list gives the notice: parts that are all empty give
   the empty answer.
   */
  function Synthesize(s: State, reply: Option<string>): (r: string)
    ensures LoneRagAnswer(s) ==> r == Strip(s.ragResult.value.response.value)
    ensures !LoneRagAnswer(s) && reply.Some? ==> r == reply.value
    ensures !LoneRagAnswer(s) && reply.None? && |FallbackParts(s)| == 0 ==> r == CompletionNotice
    ensures !LoneRagAnswer(s) && reply.None? && |FallbackParts(s)| > 0 ==>
      (forall p :: p in FallbackParts(s) && p != "" ==> Contains(r, p))
      && (r == "" <==> forall p :: p in FallbackParts(s) ==> p == "")
  {
    if LoneRagAnswer(s) then
      Strip(s.ragResult.value.response.value)
    else
      match reply
      case Some(text) => text
      case None =>
        var parts := FallbackParts(s);
        if |parts| == 0 then CompletionNotice
        else
          var kept := Filter(NonEmpty, parts);
          JoinedNonEmpty(kept);
          assert kept == [] <==> forall p :: p in parts ==> p == "" by {
            if kept != [] {
              assert kept[0] in kept;
            }
          }
          Join("\n\n", kept)
  }

  predicate NonEmpty(p: string) { p != "" }

  /**
   Joining the non-empty parts: each of them occurs in the result, which is
   empty exactly when there is none.
   */
  lemma JoinedNonEmpty(kept: seq<string>)
    requires forall p :: p in kept ==> p != ""
    ensures forall p :: p in kept ==> Contains(Join("\n\n", kept), p)
    ensures Join("\n\n", kept) == "" <==> kept == []
  {
    forall p | p in kept ensures Contains(Join("\n\n", kept), p) {
      var i :| 0 <= i < |kept| && kept[i] == p;
      JoinContainsParts("\n\n", kept, i);
    }
    if kept != [] {
      JoinStartsWithFirst("\n\n", kept);
      assert kept[0] in kept;
    }
  }

  /** A non-blank RAG answer and nothing else to combine it with. */
  predicate LoneRagAnswer(s: State) {
    s.ragResult.Some? && s.ragResult.value.response.Some?
    && Strip(s.ragResult.value.response.value) != "" && NoOtherData(s)
  }

  predicate NoOtherData(s: State) {
    s.competencyData.None? && s.recommendationData.None? && s.analyticsResults.None?
    && s.missionCount == 0 && s.collectedCount == 0
  }

  function FallbackParts(s: State): seq<string> {
    (if s.ragResult.Some? && s.ragResult.value.response.Some? then [s.ragResult.value.response.value] else [])
    + (if s.competencyData.Some? then ["역량진단 분석: " + s.competencyData.value] else [])
    + (if s.recommendationData.Some? then ["맞춤형 추천: " + s.recommendationData.value] else [])
    + (if s.analyticsResults.Some? then ["분석 리포트: " + s.analyticsResults.value] else [])
    + (if s.missionCount > 0 then ["미션 추천: " + NatToString(s.missionCount) + "개"] else [])
    + (if s.selectedModel.Some? && s.selectedModel.value != "" then ["사용된 LLM: " + s.selectedModel.value] else [])
  }

  /** `_final_synthesis`: the answer is appended to the conversation as one AI message. */
  function SynthesisNode(s: State, env: Env, k: nat): (t: State)
    ensures t.messages == s.messages + [Message(AI, Synthesize(s, env.synth(k)))]
    ensures t == s.(messages := t.messages)
  {
    s.(messages := s.messages + [Message(AI, Synthesize(s, env.synth(k)))])
  }

  /* ====================================================== runs */

  datatype Outcome =
    | Finished(st: State, steps: nat)
    | Stuck(at: Node, key: string, st: State, steps: nat)
    | Halted(at: Node, st: State, steps: nat)

  /** The same outcome, one step later. */
  function Later(o: Outcome): (p: Outcome)
    ensures p.steps == o.steps + 1 && p.st == o.st
    ensures p.Finished? == o.Finished? && p.Stuck? == o.Stuck? && p.Halted? == o.Halted?
    ensures !o.Finished? ==> p.at == o.at
    ensures o.Stuck? ==> p.key == o.key
  {
    match o
    case Finished(v, c) => Finished(v, c + 1)
    case Stuck(at, key, v, c) => Stuck(at, key, v, c + 1)
    case Halted(at, v, c) => Halted(at, v, c + 1)
  }

  /**
   A whole run from node `n`. It terminates for every oracle: each edge
   either spends one unit of the replan budget or moves down the rank, so at
   most `Rank(n) + 1 + (max_loops - loop_count) * (MaxRank + 1)` steps are
   taken, and the budget invariant `loop_count <= max_loops` holds at the end.
   */
  function Run(n: Node, s: State, env: Env, k: nat): (o: Outcome)
    requires BudgetOk(s)
    ensures BudgetOk(o.st) && o.st.maxLoops == s.maxLoops
    ensures s.loopCount <= o.st.loopCount
    ensures 1 <= o.steps <= Rank(n) + 1 + (s.maxLoops - s.loopCount) * (MaxRank + 1)
    decreases s.maxLoops - s.loopCount, Rank(n)
  {
    var x := Step(n, s, env, k);
    match x
    case End(t) => Finished(t, 1)
    case DeadEnd(t) => Halted(n, t, 1)
    case NoEdge(key, t) => Stuck(n, key, t, 1)
    case Goto(m, t) => Later(Run(m, t, env, k + 1))
  }

  /** Only the mission node is a dead end, and only final synthesis ends the run. */
  lemma EdgesEnds(n: Node, s: State)
    ensures Edges(n, s).DeadEnd? <==> n == MissionRecommendation
    ensures Edges(n, s).End? <==> n == FinalSynthesis
  {
  }

  /**
   Tool enrichment on a "mission" state either replans, spending budget, or
   follows the "mission" edge with its conversation unchanged.
   */
  lemma ToolStepOnMission(s: State, env: Env, k: nat) returns (t: State)
    requires s.workflowType == "mission"
    ensures var x := Step(ToolEnrichment, s, env, k);
      x == Goto(ReplanRequest, x.st) || (x == Goto(MissionRecommendation, t) && t.messages == s.messages)
  {
    t := Body(ToolEnrichment, s, env, k);
    var (key, u) := PostToolEnrichmentKey(t);
    if !(key == "replan" && u != t) {
      assert key == "mission" && u == t;
    }
  }

  /**
   The mission node has no outgoing edge: a state carrying workflow type
   "mission" into tool enrichment is either replanned, spending budget, or
   halts at `mission_recommendation` two steps later with its conversation
   unchanged, so no answer is ever appended to it.
   */
  lemma MissionRunHalts(s: State, env: Env, k: nat)
    requires BudgetOk(s) && s.workflowType == "mission"
    ensures var o := Run(ToolEnrichment, s, env, k);
      Step(ToolEnrichment, s, env, k) == Goto(ReplanRequest, Step(ToolEnrichment, s, env, k).st)
      || (o.Halted? && o.at == MissionRecommendation && o.steps == 2 && o.st.messages == s.messages)
  {
    var t := ToolStepOnMission(s, env, k);
    if Step(ToolEnrichment, s, env, k) == Goto(MissionRecommendation, t) {
      var w := Body(MissionRecommendation, t, env, k + 1);
      EdgesEnds(MissionRecommendation, w);
      assert Run(MissionRecommendation, t, env, k + 1) == Halted(MissionRecommendation, w, 1);
    }
  }

  /** The edges with the missing one added: `mission_recommendation` leads to final synthesis. */
  function EdgesCompleted(n: Node, s: State): (x: Next)
    ensures n != MissionRecommendation ==> x == Edges(n, s)
    ensures !x.DeadEnd?
    ensures x.End? <==> n == FinalSynthesis
  {
    EdgesEnds(n, s);
    if n == MissionRecommendation then Goto(FinalSynthesis, s) else Edges(n, s)
  }

  /** One step over the completed edges. */
  function StepCompleted(n: Node, s: State, env: Env, k: nat): (x: Next)
    ensures x.st.maxLoops == s.maxLoops && s.loopCount <= x.st.loopCount
    ensures BudgetOk(s) ==> BudgetOk(x.st)
    ensures x.Goto? && x.st.loopCount == s.loopCount ==> Rank(x.node) < Rank(n)
    ensures !x.DeadEnd?
    ensures x.End? ==> AnswersLast(x.st)
  {
    var t := Body(n, s, env, k);
    if n == MissionRecommendation then EdgesCompleted(n, t)
    else
      var x := Step(n, s, env, k);
      assert x == EdgesCompleted(n, t);
      x
  }

  /**
   A run over the completed edges: it terminates within the same bound,
   never halts, and a run that finishes has an AI message last.
   */
  function RunCompleted(n: Node, s: State, env: Env, k: nat): (o: Outcome)
    requires BudgetOk(s)
    ensures BudgetOk(o.st) && o.st.maxLoops == s.maxLoops
    ensures 1 <= o.steps <= Rank(n) + 1 + (s.maxLoops - s.loopCount) * (MaxRank + 1)
    ensures !o.Halted?
    ensures o.Finished? ==> AnswersLast(o.st)
    decreases s.maxLoops - s.loopCount, Rank(n)
  {
    var x := StepCompleted(n, s, env, k);
    match x
    case End(t) => Finished(t, 1)
    case NoEdge(key, t) => Stuck(n, key, t, 1)
    case Goto(m, t) =>
      var o := RunCompleted(m, t, env, k + 1);
      Later(o)
  }

  /** The completed edges change only the runs that halted at the mission node. */
  lemma {:induction false} CompletedAgreesUnlessHalted(n: Node, s: State, env: Env, k: nat)
    requires BudgetOk(s)
    ensures !Run(n, s, env, k).Halted? ==> RunCompleted(n, s, env, k) == Run(n, s, env, k)
    decreases s.maxLoops - s.loopCount, Rank(n)
  {
    var x := Step(n, s, env, k);
    if n != MissionRecommendation {
      assert StepCompleted(n, s, env, k) == x;
      if x.Goto? {
        CompletedAgreesUnlessHalted(x.node, x.st, env, k + 1);
      }
    }
  }

  /** Over the completed edges, synthesis finishes at once. */
  lemma SynthesisFinishes(w: State, env: Env, k: nat)
    requires BudgetOk(w)
    ensures RunCompleted(FinalSynthesis, w, env, k) == Finished(SynthesisNode(w, env, k), 1)
  {
    var v := SynthesisNode(w, env, k);
    EdgesEnds(FinalSynthesis, v);
    assert StepCompleted(FinalSynthesis, w, env, k) == End(v);
  }

  /** Over the completed edges, the mission node hands its state, conversation unchanged, to synthesis. */
  lemma MissionFinishes(t: State, env: Env, k: nat)
    requires BudgetOk(t)
    ensures var w := Body(MissionRecommendation, t, env, k);
      w.messages == t.messages && BudgetOk(w)
      && RunCompleted(MissionRecommendation, t, env, k) == Later(RunCompleted(FinalSynthesis, w, env, k + 1))
  {
    var w := Body(MissionRecommendation, t, env, k);
    assert StepCompleted(MissionRecommendation, t, env, k) == Goto(FinalSynthesis, w);
  }

  /**
   With the completed edges the same "mission" state is replanned as
   before, or reaches final synthesis and finishes with an AI message last.
   */
  lemma MissionRunAnswers(s: State, env: Env, k: nat)
    requires BudgetOk(s) && s.workflowType == "mission"
    ensures var o := RunCompleted(ToolEnrichment, s, env, k);
      Step(ToolEnrichment, s, env, k) == Goto(ReplanRequest, Step(ToolEnrichment, s, env, k).st)
      || (o.Finished? && o.steps == 3 && |o.st.messages| == |s.messages| + 1
          && o.st.messages[|s.messages|].role == AI)
  {
    var t := ToolStepOnMission(s, env, k);
    if Step(ToolEnrichment, s, env, k) == Goto(MissionRecommendation, t) {
      assert StepCompleted(ToolEnrichment, s, env, k) == Goto(MissionRecommendation, t);
      MissionFinishes(t, env, k + 1);
      SynthesisFinishes(Body(MissionRecommendation, t, env, k + 1), env, k + 2);
    }
  }

  /** A run from the entry point takes at most 9 * (max_loops + 1) steps and never over-spends the budget. */
  lemma RunFromStartIsBounded(message: string, env: Env)
    ensures var o := Run(RouteRequest, InitialState(message), env, 0);
      o.st.loopCount <= 2 && o.steps <= 27
  {
  }

  /* ====================================================== properties */

  /** After external integration, RAG is re-entered only with `needs_rag`, budget left and no RAG result. */
  lemma ReentryIsGuarded(s: State, env: Env, k: nat)
    ensures var x := Step(ExternalIntegration, s, env, k);
      (x.Goto? && x.node == RagProcessing) <==>
        (s.plan.GetOr(NoPlan).needsRag && s.loopCount < s.maxLoops && s.ragResult.None?)
    ensures var x := Step(ExternalIntegration, s, env, k);
      x.Goto? && x.node == RagProcessing ==> x.st.workflowType == "rag" && x.st.loopCount == s.loopCount + 1
    ensures var x := Step(ExternalIntegration, s, env, k);
      x.Goto? && x.node != RagProcessing ==> x.node == FinalSynthesis
  {
  }

  /** A successful deep-agent result as the agent builds it always leads to final synthesis. */
  lemma DeepAgentResultGoesFinal(s: State)
    requires s.deepResult.Some? && s.deepResult.value.success
    requires !s.deepResult.value.needsRag && !s.deepResult.value.needsCompetency
    requires !s.deepResult.value.needsRecommendation
    ensures Edges(DeepAgentsProcessing, s) == Goto(FinalSynthesis, s)
  {
  }

  /**
   The routing function is partial: a workflow type the planner invents has
   no edge after tool enrichment, and the run stops there with that key.
   */
  lemma PlannerWorkflowOutsideMapSticks(s: State, env: Env, k: nat)
    requires ToolEnrichmentEdges(s.workflowType).None? && s.workflowType != "replan"
    requires !s.plan.GetOr(NoPlan).needsTools && s.workflowType !in ToolishWorkflows
    ensures Step(ToolEnrichment, s, env, k).NoEdge?
    ensures Step(ToolEnrichment, s, env, k).key == s.workflowType
  {
  }

  /** Concretely: the planner answers with workflow "summarize" and the run gets stuck after tool enrichment. */
  lemma SummarizeWorkflowSticks(s: State, env: Env, k: nat)
    requires |s.messages| > 0 && ShouldPlan(s.workflowType, s.routingConfidence, LatestText(s))
    requires env.planner(k) == PlanDict(Plan("summarize", false, false, ""))
    ensures var t := Step(PlanRequest, s, env, k);
      t.Goto? && t.node == ToolEnrichment && Step(ToolEnrichment, t.st, env, k + 1) == NoEdge("summarize", t.st.(tool := NotNeeded))
  {
  }

  /**
   A failed RAG call leaves the workflow type as it was; when that is "rag"
   (the router's choice) and the quality gate does not fire, the RAG router
   returns "rag", which its edge map lacks.
   */
  lemma FailedRagSticks(s: State, env: Env, k: nat)
    requires |s.messages| > 0 && s.workflowType == "rag" && s.ragResult.None?
    requires env.rag(k, DetermineQueryType(LatestText(s))) == RagFailed
    ensures Step(RagProcessing, s, env, k).NoEdge?
    ensures Step(RagProcessing, s, env, k).key == "rag"
  {
  }

  /** The quality gate's hard signals. */
  lemma QualityGateSignals(s: State)
    requires s.ragResult.Some?
    ensures |s.retrieved| == 0 ==> ShouldReplanAfterRag(s)
    ensures IsBlank(s.ragResult.value.response.GetOr("")) ==> ShouldReplanAfterRag(s)
    ensures |s.retrieved| >= 2 && |Strip(s.ragResult.value.response.GetOr(""))| < 120 ==> ShouldReplanAfterRag(s)
  {
  }

  /** Replanning with `needs_rag` wipes the previous RAG result so that RAG can run again. */
  lemma ReplanResetsRag(s: State, env: Env, k: nat)
    requires |s.messages| > 0 && s.ragResult.Some?
    requires env.planner(k) == PlanUnparseable
    ensures var t := ReplanNode(s, env, k);
      t.plan.Some? && !t.plan.value.needsTools && t.plan.value.needsRag
      && t.ragResult.None? && t.retrieved == [] && !t.hasRagContext
  {
  }

  /** A replan that picks "search" always turns `needs_rag` on. */
  lemma SearchReplanNeedsRag(s: State, env: Env, k: nat, p: Plan)
    requires |s.messages| > 0 && env.planner(k) == PlanDict(p) && p.workflowType == "search"
    ensures var t := ReplanNode(s, env, k);
      t.plan == Some(p.(needsRag := true)) && t.workflowType == "search"
  {
  }

  /** The planner is skipped exactly when the four conditions hold together. */
  lemma PlannerSkip(s: State, env: Env, k: nat)
    requires |s.messages| > 0
    requires s.workflowType !in {"general", "rag"} && s.routingConfidence >= 0.65
    requires |LatestText(s)| <= 200 && !ContainsAny(LatestText(s), PlanningKeywords)
    ensures PlanNode(s, env, k) == s.(plan := None)
  {
  }

  /** With no previous plan and an undecodable reply, the replan still turns tools off and RAG on. */
  lemma ReplanFallbackBranchIsDead(s: State, env: Env, k: nat)
    requires |s.messages| > 0 && s.plan.None? && env.planner(k) == PlanUnparseable
    ensures ReplanNode(s, env, k).plan == Some(Plan("", true, false, ""))
    ensures ReplanNode(s, env, k).workflowType == s.workflowType
  {
  }

  /** The synthesis short-cut: a lone RAG answer is returned stripped, without the model. */
  lemma SynthesisShortCut(s: State, env: Env, k: nat, answer: string)
    requires s.ragResult == Some(RagResult(Some(answer))) && !IsBlank(answer) && NoOtherData(s)
    ensures SynthesisNode(s, env, k).messages == s.messages + [Message(AI, Strip(answer))]
  {
  }
}

=== FILE: graph_routing.dfy ===
/**
 The keyword routers both orchestration graphs share: whether a message needs
 retrieval, which prompt type a message asks for, and where a successful RAG
 step sends the request next. The two graphs carry identical copies of these
 functions.
 */
module Routing {
  import opened Common
  import PromptTemplates
  import DeepAgents

  datatype Role = Human | AI

  /** The answer both graphs give when synthesis has nothing to report. */
  const CompletionNotice: string := "처리가 완료되었습니다."

  /** A conversation message: a human turn or an AI turn. */
  datatype Message = Message(role: Role, content: string)

  /**
   `_deep_agents_route_condition`: failure (or no result) ends in synthesis;
   otherwise the result's needs are tried in the order RAG, competency,
   recommendation.
   */
  function DeepExitKey(r: Option<DeepAgents.DeepResult>): (key: string)
    ensures key in {"final", "rag", "competency", "recommendation"}
    ensures r.None? || !r.value.success ==> key == "final"
    ensures r.Some? && r.value.success ==>
      key == (if r.value.needsRag then "rag"
              else if r.value.needsCompetency then "competency"
              else if r.value.needsRecommendation then "recommendation"
              else "final")
  {
    match r
    case None => "final"
    case Some(d) =>
      if !d.success then "final"
      else if d.needsRag then "rag"
      else if d.needsCompetency then "competency"
      else if d.needsRecommendation then "recommendation"
      else "final"
  }


  const RagIndicators: seq<string> := [
    "어떻게", "왜", "무엇을", "언제", "어디서",
    "설명해주세요", "알려주세요", "도와주세요",
    "관련", "정보", "자료", "내용",
    "최신", "현재", "최근",
    "정책", "제도", "법률", "규정"
  ]

  const RagDomainKeywords: seq<string> := ["육아", "아동", "부모", "교육", "정책", "발달"]

  /** `_should_use_rag`. */
  function ShouldUseRag(message: string): (use: bool)
    ensures use <==> ContainsAny(Lower(message), RagIndicators) || |Words(message)| > 10
                     || ContainsAny(Lower(message), RagDomainKeywords)
  {
    var lowered := Lower(message);
    ContainsAny(lowered, RagIndicators) || |Words(message)| > 10 || ContainsAny(lowered, RagDomainKeywords)
  }

  /* ------------------------------------------------------- query type */

  const CompetencyTypeKeys: seq<string> := ["역량", "진단", "평가", "수준", "능력"]
  const RecommendationTypeKeys: seq<string> := ["추천", "학습자료", "과정", "프로그램"]
  const SearchTypeKeys: seq<string> := ["검색", "찾기", "정보", "자료"]
  const AnalyticsTypeKeys: seq<string> := ["분석", "리포트", "통계", "성과"]

  /** The data-collection keywords as the source lists them, "API" in upper case. */
  const DataCollectionTypeKeys: seq<string> := ["수집", "데이터", "API", "외부"]

  /**
   The keyword cascade of `_determine_query_type` over an already lowered
   text, with the data-collection keywords as a parameter: each group is
   tried only when every earlier group missed, and general chat answers
   when all of them miss.
   */
  function QueryTypeOf(text: string, dataKeys: seq<string>): (t: PromptTemplates.PromptType)
    ensures t == PromptTemplates.CompetencyAssessment <==> ContainsAny(text, CompetencyTypeKeys)
    ensures t == PromptTemplates.Recommendation
      <==> !ContainsAny(text, CompetencyTypeKeys) && ContainsAny(text, RecommendationTypeKeys)
    ensures t == PromptTemplates.Search
      <==> !ContainsAny(text, CompetencyTypeKeys) && !ContainsAny(text, RecommendationTypeKeys)
           && ContainsAny(text, SearchTypeKeys)
    ensures t == PromptTemplates.Analytics
      <==> !ContainsAny(text, CompetencyTypeKeys) && !ContainsAny(text, RecommendationTypeKeys)
           && !ContainsAny(text, SearchTypeKeys) && ContainsAny(text, AnalyticsTypeKeys)
    ensures t == PromptTemplates.DataCollection
      <==> !ContainsAny(text, CompetencyTypeKeys) && !ContainsAny(text, RecommendationTypeKeys)
           && !ContainsAny(text, SearchTypeKeys) && !ContainsAny(text, AnalyticsTypeKeys)
           && ContainsAny(text, dataKeys)
    ensures t == PromptTemplates.GeneralChat
      <==> !ContainsAny(text, CompetencyTypeKeys) && !ContainsAny(text, RecommendationTypeKeys)
           && !ContainsAny(text, SearchTypeKeys) && !ContainsAny(text, AnalyticsTypeKeys)
           && !ContainsAny(text, dataKeys)
  {
    if ContainsAny(text, CompetencyTypeKeys) then PromptTemplates.CompetencyAssessment
    else if ContainsAny(text, RecommendationTypeKeys) then PromptTemplates.Recommendation
    else if ContainsAny(text, SearchTypeKeys) then PromptTemplates.Search
    else if ContainsAny(text, AnalyticsTypeKeys) then PromptTemplates.Analytics
    else if ContainsAny(text, dataKeys) then PromptTemplates.DataCollection
    else PromptTemplates.GeneralChat
  }

  /** `_determine_query_type` as written. */
  function DetermineQueryType(message: string): PromptTemplates.PromptType {
    QueryTypeOf(Lower(message), DataCollectionTypeKeys)
  }

  /** A retrieved document as the post-RAG router reads it. */
  datatype RetrievedDoc = RetrievedDoc(category: string)

  /** The workflow a document category asks for, if any. */
  function CategoryWorkflow(category: string): Option<string> {
    if category == "parenting" then Some("competency")
    else if category == "policy" then Some("analytics")
    else if category == "education" then Some("recommendation")
    else None
  }

  /** Document `i` is the first with a category the router knows. */
  predicate FirstCategorised(docs: seq<RetrievedDoc>, i: nat)
    requires i < |docs|
  {
    CategoryWorkflow(docs[i].category).Some? && forall j :: 0 <= j < i ==> CategoryWorkflow(docs[j].category).None?
  }

  function FirstCategoryWorkflow(docs: seq<RetrievedDoc>): (r: Option<string>)
    ensures r.Some? ==> exists i :: 0 <= i < |docs| && FirstCategorised(docs, i) && CategoryWorkflow(docs[i].category) == r
    ensures r.None? ==> forall d :: d in docs ==> CategoryWorkflow(d.category).None?
  {
    if |docs| == 0 then None
    else if CategoryWorkflow(docs[0].category).Some? then CategoryWorkflow(docs[0].category)
    else
      var r := FirstCategoryWorkflow(docs[1..]);
      if r.Some? then
        var i :| 0 <= i < |docs[1..]| && FirstCategorised(docs[1..], i) && CategoryWorkflow(docs[1..][i].category) == r;
        assert docs[i + 1] == docs[1..][i];
        assert forall j :: 1 <= j <= i ==> docs[j] == docs[1..][j - 1];
        assert FirstCategorised(docs, i + 1);
        r
      else
        assert forall d :: d in docs ==> d == docs[0] || d in docs[1..];
        r
  }

  /** `_determine_post_rag_workflow`: the first categorised document, then message keywords, then "final". */
  function PostRagWorkflow(docs: seq<RetrievedDoc>, message: string): (wf: string)
    ensures wf in {"competency", "analytics", "recommendation", "final"}
    ensures FirstCategoryWorkflow(docs).Some? ==> wf == FirstCategoryWorkflow(docs).value
    ensures FirstCategoryWorkflow(docs).None? && ContainsAny(Lower(message), ["역량", "진단"]) ==> wf == "competency"
    ensures (FirstCategoryWorkflow(docs).None? && !ContainsAny(Lower(message), ["역량", "진단"])
             && ContainsAny(Lower(message), ["추천", "학습"])) ==> wf == "recommendation"
    ensures (FirstCategoryWorkflow(docs).None? && !ContainsAny(Lower(message), ["역량", "진단"])
             && !ContainsAny(Lower(message), ["추천", "학습"]) && ContainsAny(Lower(message), ["분석", "리포트"]))
            ==> wf == "analytics"
    ensures wf == "final"
      <==> FirstCategoryWorkflow(docs).None? && !ContainsAny(Lower(message), ["역량", "진단", "추천", "학습", "분석", "리포트"])
  {
    match FirstCategoryWorkflow(docs)
    case Some(w) => w
    case None =>
      var lowered := Lower(message);
      if ContainsAny(lowered, ["역량", "진단"]) then "competency"
      else if ContainsAny(lowered, ["추천", "학습"]) then "recommendation"
      else if ContainsAny(lowered, ["분석", "리포트"]) then "analytics"
      else "final"
  }

  /* ------------------------------------------------------- the "API" keyword */

  /**
   The data-collection group lists "API" in upper case, but it is compared
   with the lowered message, so it can never match.
   */
  lemma ApiKeywordNeverMatches(message: string)
    ensures !Contains(Lower(message), "API")
  {
    LowerMissesUpper(message, "API", 0);
  }

  /**
   A message that names an API and no other keyword of the cascade: only the
   upper-case "API" could have matched, so it falls through to general chat.
   */
  lemma ApiMessageIsGeneralChat(message: string)
    requires NamesOnlyApi(Lower(message))
    ensures DetermineQueryType(message) == PromptTemplates.GeneralChat
  {
    ApiKeywordNeverMatches(message);
  }

  /** `text` names an API in lower case and holds no other query-type keyword. */
  predicate NamesOnlyApi(text: string) {
    Contains(text, "api")
    && !ContainsAny(text, CompetencyTypeKeys) && !ContainsAny(text, RecommendationTypeKeys)
    && !ContainsAny(text, SearchTypeKeys) && !ContainsAny(text, AnalyticsTypeKeys)
    && !Contains(text, "수집") && !Contains(text, "데이터") && !Contains(text, "외부")
  }

  /** The data-collection keywords as evidently intended: all in lower case. */
  const DataCollectionTypeKeysIntended: seq<string> := ["수집", "데이터", "api", "외부"]

  function DetermineQueryTypeIntended(message: string): PromptTemplates.PromptType {
    QueryTypeOf(Lower(message), DataCollectionTypeKeysIntended)
  }

  /** With the lower-case keyword, a message naming an API and no earlier keyword is data collection. */
  lemma IntendedApiIsDataCollection(message: string)
    requires NamesOnlyApi(Lower(message))
    ensures DetermineQueryTypeIntended(message) == PromptTemplates.DataCollection
  {
    assert "api" in DataCollectionTypeKeysIntended;
  }
}

=== FILE: mcp_servers_base_server.dfy ===
/**
 The MCP protocol server base: a registry of tools and the JSON-RPC request
 dispatcher (initialize, tools/list, tools/call, ping), plus the stdio loop
 that reads one request per line. Error codes follow section 5.1 of the
 JSON-RPC 2.0 Specification. Tool handlers are a parameter: each call's
 outcome given the tool's name and arguments.
 */
module McpServer {
  import opened Common

  const ParseError := -32700
  const InvalidRequest := -32600
  const MethodNotFound := -32601
  const InvalidParams := -32602
  const InternalError := -32603

  const ProtocolVersion := "2024-11-05"

  /** A registered tool; its handler is looked up by name. */
  datatype Tool = Tool(name: string, description: string, inputSchema: string)

  datatype Server = Server(name: string, version: string, tools: ODict<Tool>)

  /** A server with no tools. */
  function NewServer(name: string, version: string): (s: Server)
    ensures s.tools.Valid() && s.tools.m == map[] && s.tools.order == []
  {
    Server(name, version, EmptyDict())
  }

  /** `register_tool`: a tool of the same name is replaced in place; a new one goes last. */
  function RegisterTool(s: Server, t: Tool): (r: Server)
    requires s.tools.Valid()
    ensures r.tools.Valid() && r.tools.m == s.tools.m[t.name := t]
    ensures t.name in s.tools.m ==> r.tools.order == s.tools.order
    ensures t.name !in s.tools.m ==> r.tools.order == s.tools.order + [t.name]
    ensures r.name == s.name && r.version == s.version
  {
    s.(tools := s.tools.Set(t.name, t))
  }

  /** The `params` of a request: a dictionary with an optional tool name and arguments, or something that is not a dictionary. */
  datatype Params = ParamsDict(toolName: Option<string>, arguments: map<string, string>) | NotADict(problem: string)

  datatype Request = Request(id: Option<string>, methodName: string, params: Params)

  /** A tool handler's outcome: a value (`str`, a dumped `dict` or `list`, or `str()` of anything else) or an exception's message. */
  datatype Outcome = Returned(text: string) | Raised(message: string)

  datatype ErrorBody = ErrorBody(code: int, message: string)

  datatype Body =
    | InitResult(protocolVersion: string, listChanged: bool, serverName: string, serverVersion: string)
    | ToolsResult(tools: seq<Tool>)
    | CallResult(text: string, isError: bool)
    | Pong

  /** A JSON-RPC response: a result or an error, never both. */
  datatype Response = Result(id: Option<string>, body: Body) | Error(id: Option<string>, error: ErrorBody)

  /** `tools/list`: every registered tool, once per name, in registration order. */
  function ToolsList(s: Server): (r: seq<Tool>)
    requires s.tools.Valid()
    ensures |r| == |s.tools.order|
    ensures forall t: Tool :: t in r <==> t in s.tools.m.Values
  {
    var r := s.tools.Values();
    assert forall t: Tool :: t in r ==> t in s.tools.m.Values by {
      forall t: Tool | t in r
        ensures t in s.tools.m.Values
      {
        var i :| 0 <= i < |r| && r[i] == t;
        assert s.tools.order[i] in s.tools.m;
      }
    }
    assert forall t: Tool :: t in s.tools.m.Values ==> t in r by {
      forall t: Tool | t in s.tools.m.Values
        ensures t in r
      {
        var n :| n in s.tools.m && s.tools.m[n] == t;
        assert n in s.tools.order;
        var i :| 0 <= i < |s.tools.order| && s.tools.order[i] == n;
        assert r[i] == t;
      }
    }
    r
  }

  /** The registry is kept under each tool's own name. */
  ghost predicate Named(s: Server) {
    forall n :: n in s.tools.m ==> s.tools.m[n].name == n
  }

  /**
   `_handle_tools_call`: an unregistered name (missing means "") is
   METHOD_NOT_FOUND; a handler's value becomes text content, and a handler
   that raises gives a result flagged `isError`, not an error response.
   */
  function ToolsCall(s: Server, id: Option<string>, name: string, arguments: map<string, string>,
                     run: (string, map<string, string>) -> Outcome): (r: Response)
    ensures name !in s.tools.m ==> r == Error(id, ErrorBody(MethodNotFound, "Tool not found: " + name))
    ensures name in s.tools.m ==> r.Result? && r.id == id && r.body.CallResult?
    ensures name in s.tools.m ==> (r.body.isError <==> run(name, arguments).Raised?)
    ensures name in s.tools.m && run(name, arguments).Returned? ==> r.body.text == run(name, arguments).text
    ensures name in s.tools.m && run(name, arguments).Raised? ==> r.body.text == "Error: " + run(name, arguments).message
  {
    if name !in s.tools.m then Error(id, ErrorBody(MethodNotFound, "Tool not found: " + name))
    else match run(name, arguments)
      case Returned(text) => Result(id, CallResult(text, false))
      case Raised(message) => Result(id, CallResult("Error: " + message, true))
  }

  /**
   `handle_request`: dispatch on the method; an unknown method is
   METHOD_NOT_FOUND, and a failure while handling (a `params` that is not a
   dictionary) is INTERNAL_ERROR. The request id is always echoed.
   */
  function HandleRequest(s: Server, req: Request, run: (string, map<string, string>) -> Outcome): (r: Response)
    requires s.tools.Valid()
    ensures r.id == req.id
    ensures req.methodName == "ping" ==> r == Result(req.id, Pong)
    ensures req.methodName == "initialize" ==> r == Result(req.id, InitResult(ProtocolVersion, true, s.name, s.version))
    ensures req.methodName == "tools/list" ==> r == Result(req.id, ToolsResult(ToolsList(s)))
    ensures req.methodName !in {"initialize", "tools/list", "tools/call", "ping"} ==>
      r == Error(req.id, ErrorBody(MethodNotFound, "Method not found: " + req.methodName))
    ensures req.methodName == "tools/call" && req.params.NotADict? ==>
      r == Error(req.id, ErrorBody(InternalError, req.params.problem))
    ensures req.methodName == "tools/call" && req.params.ParamsDict? ==>
      r == ToolsCall(s, req.id, req.params.toolName.GetOr(""), req.params.arguments, run)
  {
    if req.methodName == "initialize" then Result(req.id, InitResult(ProtocolVersion, true, s.name, s.version))
    else if req.methodName == "tools/list" then Result(req.id, ToolsResult(ToolsList(s)))
    else if req.methodName == "tools/call" then
      match req.params
      case NotADict(problem) => Error(req.id, ErrorBody(InternalError, problem))
      case ParamsDict(name, arguments) => ToolsCall(s, req.id, name.GetOr(""), arguments, run)
    else if req.methodName == "ping" then Result(req.id, Pong)
    else Error(req.id, ErrorBody(MethodNotFound, "Method not found: " + req.methodName))
  }

  /** Errors carry only the codes of section 5.1 of the JSON-RPC 2.0 Specification that the server uses. */
  lemma ErrorCodes(s: Server, req: Request, run: (string, map<string, string>) -> Outcome)
    requires s.tools.Valid()
    ensures var r := HandleRequest(s, req, run);
      r.Error? ==> r.error.code == MethodNotFound || r.error.code == InternalError
  {
  }

  /** A tool known only by its name. */
  function NamedTool(name: string): Tool {
    Tool(name, "", "")
  }

  /** Registering distinct names one after another lists them in that order, each under its own name. */
  function RegisterAll(server: string, version: string, names: seq<string>): (s: Server)
    requires NoDuplicates(names)
    ensures s.tools.Valid() && s.tools.order == names
    ensures forall n :: n in s.tools.m ==> s.tools.m[n] == NamedTool(n)
  {
    if names == [] then NewServer(server, version)
    else
      var init := names[..|names| - 1];
      var last := names[|names| - 1];
      assert NoDuplicates(init);
      var s := RegisterAll(server, version, init);
      assert last !in s.tools.m by { assert last !in init; }
      assert init + [last] == names;
      RegisterTool(s, NamedTool(last))
  }

  /** A tool registered and then called is found: the response is a call result, never an error. */
  lemma RegisteredToolIsCallable(s: Server, t: Tool, id: Option<string>, arguments: map<string, string>,
                                 run: (string, map<string, string>) -> Outcome)
    requires s.tools.Valid()
    ensures HandleRequest(RegisterTool(s, t), Request(id, "tools/call", ParamsDict(Some(t.name), arguments)), run).Result?
  {
  }

  /** Registering a tool lists it, once; registering it again under the same name replaces it. */
  lemma RegisterThenList(s: Server, t: Tool)
    requires s.tools.Valid() && Named(s)
    ensures Named(RegisterTool(s, t))
    ensures t in ToolsList(RegisterTool(s, t))
    ensures forall u :: u in ToolsList(RegisterTool(s, t)) && u.name == t.name ==> u == t
  {
  }

  /* --------------------------------------------------------------- stdio */

  /** One line read from standard input. */
  datatype Line =
    | Blank                                       // only whitespace: skipped
    | Garbage(problem: string)                    // not JSON
    | NotAnObject                                 // JSON, but not an object
    | Object(id: Option<string>, methodName: Option<string>, params: Option<Params>)

  /** The request a JSON object denotes: the method defaults to "" and the params to an empty dictionary. */
  function ToRequest(id: Option<string>, methodName: Option<string>, params: Option<Params>): (r: Request)
    ensures r.id == id && r.methodName == methodName.GetOr("")
    ensures params.None? ==> r.params == ParamsDict(None, map[])
  {
    Request(id, methodName.GetOr(""), params.GetOr(ParamsDict(None, map[])))
  }

  /**
   `run_stdio`, as written: blank lines are skipped, a line that is not JSON
   is answered with PARSE_ERROR and id null, and an object is handled. A
   JSON value that is not an object fails outside the handled error and
   stops the loop: the lines after it are never answered.
   */
  function RunStdio(s: Server, lines: seq<Line>, run: (string, map<string, string>) -> Outcome): (out: seq<Response>)
    requires s.tools.Valid()
    ensures |out| <= |lines|
    ensures forall i :: 0 <= i < |out| ==> out[i].Error? && out[i].error.code == ParseError ==> out[i].id.None?
  {
    if lines == [] then []
    else match lines[0]
      case Blank => RunStdio(s, lines[1..], run)
      case Garbage(problem) => [Error(None, ErrorBody(ParseError, "Parse error: " + problem))] + RunStdio(s, lines[1..], run)
      case NotAnObject => []
      case Object(id, methodName, params) => [HandleRequest(s, ToRequest(id, methodName, params), run)] + RunStdio(s, lines[1..], run)
  }

  /** A JSON array before a ping leaves the ping unanswered. */
  lemma NonObjectStopsLoop(s: Server, run: (string, map<string, string>) -> Outcome)
    requires s.tools.Valid()
    ensures RunStdio(s, [NotAnObject, Object(Some("1"), Some("ping"), None)], run) == []
  {
  }

  /**
   The loop as evidently intended: a JSON value that is not an object is
   answered with INVALID_REQUEST and id null, and reading goes on.
   */
  function RunStdioChecked(s: Server, lines: seq<Line>, run: (string, map<string, string>) -> Outcome): (out: seq<Response>)
    requires s.tools.Valid()
    ensures |out| == |lines| - Count((l: Line) => l.Blank?, lines)
    ensures forall i :: 0 <= i < |out| ==> out[i].Error? && out[i].error.code in {ParseError, InvalidRequest} ==>
      out[i].id.None?
  {
    if lines == [] then []
    else
      var rest := RunStdioChecked(s, lines[1..], run);
      match lines[0]
      case Blank => rest
      case Garbage(problem) => [Error(None, ErrorBody(ParseError, "Parse error: " + problem))] + rest
      case NotAnObject => [Error(None, ErrorBody(InvalidRequest, "Invalid Request"))] + rest
      case Object(id, methodName, params) =>
        var resp := HandleRequest(s, ToRequest(id, methodName, params), run);
        ErrorCodes(s, ToRequest(id, methodName, params), run);
        [resp] + rest
  }

  /** Every line that is not blank gets exactly one answer, and the two loops agree on input without non-object values. */
  lemma {:induction false} CheckedAgreesOnObjects(s: Server, lines: seq<Line>, run: (string, map<string, string>) -> Outcome)
    requires s.tools.Valid()
    requires forall i :: 0 <= i < |lines| ==> !lines[i].NotAnObject?
    ensures RunStdioChecked(s, lines, run) == RunStdio(s, lines, run)
  {
    if lines != [] {
      assert forall i :: 0 <= i < |lines[1..]| ==> lines[1..][i] == lines[i + 1];
      CheckedAgreesOnObjects(s, lines[1..], run);
    }
  }

  /** The intended loop answers the ping after a non-object line. */
  lemma CheckedAnswersAfterNonObject(s: Server, run: (string, map<string, string>) -> Outcome)
    requires s.tools.Valid()
    ensures RunStdioChecked(s, [NotAnObject, Object(Some("1"), Some("ping"), None)], run)
         == [Error(None, ErrorBody(InvalidRequest, "Invalid Request")), Result(Some("1"), Pong)]
  {
    var l := [NotAnObject, Object(Some("1"), Some("ping"), None)];
    assert l[1..][1..] == [];
  }
}

=== FILE: mcp_servers_http_fetch_server.dfy ===
/**
 The HTTP-fetch MCP server: five tools over the HTTP fetcher and the web
 search client (fetching one or several URLs, searching, searching then
 fetching, and reading a creator's profile page). The fetcher, the search
 client and the page's pattern matches are parameters.
 */
module HttpFetchServer {
  import opened Common
  import McpServer

  const TextLimit := 5000
  const PreviewLimit := 1000
  const DescriptionLimit := 200
  const NoResultsMessage := "No search results found"

  /** The tools the server registers, in registration order. */
  const ToolNames := ["fetch_url", "fetch_urls", "web_search", "search_and_fetch", "fetch_creator_profile"]

  /** What the fetcher returns; a field it left out is None. */
  datatype FetchResult = FetchResult(url: Option<string>, status: Option<int>, contentType: Option<string>,
                                     siteName: Option<string>, text: Option<string>, json: Option<string>,
                                     error: Option<string>)

  /** Python truthiness of an optional string field. */
  predicate Given(s: Option<string>) {
    s.Some? && s.value != ""
  }

  /** `_fetch_url`'s answer. */
  datatype Page = Page(url: string, status: int, contentType: string, siteName: string, text: Option<string>,
                       json: Option<string>, error: Option<string>)

  /** `_fetch_url`: the fetcher's fields with their defaults, the text cut to 5000 characters and absent when empty. */
  function FetchUrl(url: string, fetch: string -> FetchResult): (p: Page)
    ensures var r := fetch(url);
      p.url == r.url.GetOr(url) && p.status == r.status.GetOr(0) && p.json == r.json && p.error == r.error
    ensures p.text.Some? <==> Given(fetch(url).text)
    ensures p.text.Some? ==> var t := fetch(url).text.value;
      0 < |p.text.value| == Min(TextLimit, |t|) && p.text.value == t[..|p.text.value|]
  {
    var r := fetch(url);
    var text := if Given(r.text) then Some(Take(r.text.value, TextLimit)) else None;
    Page(r.url.GetOr(url), r.status.GetOr(0), r.contentType.GetOr(""), r.siteName.GetOr(""), text, r.json, r.error)
  }

  /** One entry of `_fetch_urls`. */
  datatype Preview = Preview(url: string, status: int, contentType: string, siteName: string,
                             textPreview: Option<string>, hasJson: bool, error: Option<string>)

  function ToPreview(r: FetchResult): (p: Preview)
    ensures p.url == r.url.GetOr("") && p.hasJson == r.json.Some? && p.error == r.error
    ensures p.textPreview.Some? <==> Given(r.text)
    ensures p.textPreview.Some? ==> 0 < |p.textPreview.value| <= PreviewLimit
  {
    Preview(r.url.GetOr(""), r.status.GetOr(0), r.contentType.GetOr(""), r.siteName.GetOr(""),
            if Given(r.text) then Some(Take(r.text.value, PreviewLimit)) else None, r.json.Some?, r.error)
  }

  /** The preview of a fetch agrees with the page `_fetch_url` makes of it, its text being a prefix of the page's. */
  lemma PreviewAgreesWithPage(url: string, fetch: string -> FetchResult)
    ensures var pv, pg := ToPreview(fetch(url)), FetchUrl(url, fetch);
      pv.status == pg.status && pv.hasJson == pg.json.Some? && pv.error == pg.error
      && (pv.textPreview.Some? <==> pg.text.Some?)
      && (pv.textPreview.Some? ==>
            (|pv.textPreview.value| <= |pg.text.value| && pv.textPreview.value == pg.text.value[..|pv.textPreview.value|]))
      && (fetch(url).url.Some? ==> pv.url == pg.url)
  {
  }

  /** `_fetch_urls`: one preview per result the fetcher returns for the URLs and the limit, in order. */
  function FetchUrls(urls: seq<string>, limit: int, fetchMany: (seq<string>, int) -> seq<FetchResult>): (r: seq<Preview>)
    ensures |r| == |fetchMany(urls, limit)|
    ensures forall i :: 0 <= i < |r| ==> r[i] == ToPreview(fetchMany(urls, limit)[i])
  {
    var results := fetchMany(urls, limit);
    seq(|results|, i requires 0 <= i < |results| => ToPreview(results[i]))
  }

  /** The search client's outcome: URLs, or an exception's message. */
  datatype SearchOutcome = Found(urls: seq<string>) | Failed(message: string)

  datatype SearchReport = SearchReport(query: string, urls: seq<string>, count: nat, prioritizeGov: Option<bool>,
                                       error: Option<string>)

  /** `_web_search`: the URLs and their number, or no URLs and the failure's message. */
  function WebSearch(query: string, topK: int, prioritizeGov: bool, search: (string, int) -> SearchOutcome): (r: SearchReport)
    ensures r.query == query && r.count == |r.urls|
    ensures r.error.Some? <==> search(query, topK).Failed?
    ensures search(query, topK).Found? ==> r.urls == search(query, topK).urls && r.prioritizeGov == Some(prioritizeGov)
    ensures search(query, topK).Failed? ==> r.urls == [] && r.error == Some(search(query, topK).message)
  {
    match search(query, topK)
    case Found(urls) => SearchReport(query, urls, |urls|, Some(prioritizeGov), None)
    case Failed(message) => SearchReport(query, [], 0, None, Some(message))
  }

  datatype SearchAndFetchResult =
    | SearchFailed(report: SearchReport)
    | NoResults(query: string, message: string)
    | Fetched(query: string, searchResults: nat, fetched: seq<Preview>, allUrls: seq<string>)

  /**
   `_search_and_fetch`: a search that failed with a message is returned as
   it is; no URLs (including a failure with an empty message) is the
   no-results answer; otherwise the URLs are fetched up to the fetch limit.
   */
  function SearchAndFetch(query: string, topK: int, fetchLimit: int, search: (string, int) -> SearchOutcome,
                          fetchMany: (seq<string>, int) -> seq<FetchResult>): (r: SearchAndFetchResult)
    ensures var o := search(query, topK);
      r.SearchFailed? <==> o.Failed? && o.message != ""
    ensures r.SearchFailed? ==> r.report == WebSearch(query, topK, true, search)
    ensures r.NoResults? <==> (search(query, topK).Found? && search(query, topK).urls == []) ||
                              search(query, topK) == Failed("")
    ensures r.NoResults? ==> r.query == query && r.message == NoResultsMessage
    ensures r.Fetched? ==> r.allUrls == search(query, topK).urls && r.searchResults == |r.allUrls| > 0
    ensures r.Fetched? ==> r.fetched == FetchUrls(r.allUrls, fetchLimit, fetchMany)
  {
    var report := WebSearch(query, topK, true, search);
    if Given(report.error) then SearchFailed(report)
    else if report.urls == [] then NoResults(query, NoResultsMessage)
    else Fetched(query, |report.urls|, FetchUrls(report.urls, fetchLimit, fetchMany), report.urls)
  }

  /** The URLs fetched are exactly the ones the plain web search reports for the same query. */
  lemma FetchedUrlsAreReported(query: string, topK: int, fetchLimit: int, search: (string, int) -> SearchOutcome,
                               fetchMany: (seq<string>, int) -> seq<FetchResult>)
    ensures var r, w := SearchAndFetch(query, topK, fetchLimit, search, fetchMany), WebSearch(query, topK, true, search);
      r.Fetched? ==> r.allUrls == w.urls && r.searchResults == w.count && w.error.None?
  {
  }

  /** A search that raised with an empty message reads as finding nothing. */
  lemma EmptyFailureReadsAsNoResults(query: string, topK: int, fetchLimit: int, fetchMany: (seq<string>, int) -> seq<FetchResult>)
    ensures SearchAndFetch(query, topK, fetchLimit, (q: string, k: int) => Failed(""), fetchMany) == NoResults(query, NoResultsMessage)
  {
  }

  /* ------------------------------------------------------ creator profile */

  /** Platform detection on the lower-cased URL, in priority order; an explicit platform is kept. */
  function DetectPlatform(url: string, platform: string): (r: string)
    ensures platform != "unknown" ==> r == platform
    ensures platform == "unknown" && Contains(Lower(url), "tiktok.com") ==> r == "tiktok"
    ensures platform == "unknown" && !Contains(Lower(url), "tiktok.com") && Contains(Lower(url), "instagram.com") ==> r == "instagram"
    ensures r in {platform, "tiktok", "instagram", "youtube", "twitter"}
  {
    if platform != "unknown" then platform
    else
      var u := Lower(url);
      if Contains(u, "tiktok.com") then "tiktok"
      else if Contains(u, "instagram.com") then "instagram"
      else if Contains(u, "youtube.com") || Contains(u, "youtu.be") then "youtube"
      else if Contains(u, "twitter.com") || Contains(u, "x.com") then "twitter"
      else platform
  }

  /** The site names looked for, all in the detection's order. */
  const SiteMarkers := ["tiktok.com", "instagram.com", "youtube.com", "youtu.be", "twitter.com", "x.com"]

  /** Detection leaves the platform "unknown" exactly when the URL names none of the sites. */
  lemma UnknownIffNoMarker(url: string)
    ensures DetectPlatform(url, "unknown") == "unknown" <==> !ContainsAny(Lower(url), SiteMarkers)
  {
    var u := Lower(url);
    if ContainsAny(u, SiteMarkers) {
      var i :| 0 <= i < |SiteMarkers| && Contains(u, SiteMarkers[i]);
      assert i == 0 || i == 1 || i == 2 || i == 3 || i == 4 || i == 5;
    } else {
      assert !Contains(u, SiteMarkers[0]) && !Contains(u, SiteMarkers[1]) && !Contains(u, SiteMarkers[2]);
      assert !Contains(u, SiteMarkers[3]) && !Contains(u, SiteMarkers[4]) && !Contains(u, SiteMarkers[5]);
    }
  }

  /** The twitter test is a plain substring test, so any host ending in "x.com" reads as twitter. */
  lemma BoxHostReadsAsTwitter()
    ensures DetectPlatform("box.com", "unknown") == "twitter"
  {
    var u := Lower("box.com");
    assert u == "box.com";
    ShortNotContains(u, "tiktok.com");
    ShortNotContains(u, "instagram.com");
    ShortNotContains(u, "youtube.com");
    ShortNotContains(u, "youtu.be");
    ShortNotContains(u, "twitter.com");
    ContainsSelf("x.com");
    ContainsInSuffix("bo", "x.com", "x.com");
    assert "bo" + "x.com" == u;
  }

  /** `_fetch_creator_profile`'s answer. */
  datatype Profile = Profile(url: string, platform: string, fetched: bool, contentType: string, siteName: string,
                             error: Option<string>, followersText: Option<string>, description: Option<string>)

  /**
   `_fetch_creator_profile`: `fetched` holds exactly when the fetch reported
   no error; the follower text and the description come from the page text
   when it is non-empty, the description cut to 200 characters. The two
   pattern searches over the text are parameters.
   */
  function FetchCreatorProfile(url: string, platform: string, fetch: string -> FetchResult,
                               followersMatch: string -> Option<string>, descriptionMatch: string -> Option<string>): (p: Profile)
    ensures p.url == url && p.platform == DetectPlatform(url, platform)
    ensures p.fetched <==> !Given(fetch(url).error)
    ensures p.error == fetch(url).error
    ensures !Given(fetch(url).text) ==> p.followersText.None? && p.description.None?
    ensures Given(fetch(url).text) ==> p.followersText == followersMatch(fetch(url).text.value)
    ensures Given(fetch(url).text) ==> (p.description.Some? <==> descriptionMatch(fetch(url).text.value).Some?)
    ensures p.description.Some? ==> var d := descriptionMatch(fetch(url).text.value).value;
      |p.description.value| == Min(DescriptionLimit, |d|) && p.description.value == d[..|p.description.value|]
  {
    var r := fetch(url);
    var base := Profile(url, DetectPlatform(url, platform), !Given(r.error), r.contentType.GetOr(""), r.siteName.GetOr(""),
                        r.error, None, None);
    if !Given(r.text) then base
    else
      var d := descriptionMatch(r.text.value);
      base.(followersText := followersMatch(r.text.value),
            description := if d.Some? then Some(Take(d.value, DescriptionLimit)) else None)
  }

  /** An explicit platform survives whatever the URL says. */
  lemma ExplicitPlatformKept(url: string, platform: string, fetch: string -> FetchResult,
                             followersMatch: string -> Option<string>, descriptionMatch: string -> Option<string>)
    requires platform != "unknown"
    ensures FetchCreatorProfile(url, platform, fetch, followersMatch, descriptionMatch).platform == platform
  {
  }

  /** `initialize`: the five tools are registered once each, in order. */
  function Initialized(): (s: McpServer.Server)
    ensures s.tools.Valid() && s.tools.order == ToolNames
    ensures forall n :: n in s.tools.m ==> s.tools.m[n].name == n
  {
    McpServer.RegisterAll("http-fetch", "1.0.0", ToolNames)
  }
}

=== FILE: mcp_servers_vector_search_server.dfy ===
/**
 The vector-search MCP server: seven tools over the retrieval engine
 (vector, keyword and hybrid search, adding and deleting documents, search
 statistics, similar creators). The engine's searches are parameters; what
 is modelled is how the server shapes their arguments and their results.
 */
module VectorSearchServer {
  import opened Common
  import McpServer

  const ContentLimit := 500
  const SimilarContentLimit := 300
  const TagLimit := 3

  /** The tools the server registers, in registration order. */
  const ToolNames := ["vector_search", "keyword_search", "hybrid_search", "add_documents",
                      "delete_documents", "get_search_stats", "find_similar_creators"]

  /** One engine result, with missing fields already at their defaults ("" and 0). */
  datatype Hit = Hit(id: string, content: string, score: real, vectorScore: real, keywordScore: real,
                     metadata: map<string, string>)

  datatype SearchKind = VectorKind | KeywordKind | HybridKind

  function KindName(k: SearchKind): string {
    match k
    case VectorKind => "vector"
    case KeywordKind => "keyword"
    case HybridKind => "hybrid"
  }

  /** A formatted result; only hybrid results carry the two partial scores. */
  datatype Formatted = Formatted(id: string, content: string, score: real, vectorScore: Option<real>,
                                 keywordScore: Option<real>, metadata: map<string, string>, searchType: string)

  /** The formatting shared by the three searches: content cut to 500 characters. */
  function FormatHit(h: Hit, k: SearchKind): (f: Formatted)
    ensures f.id == h.id && f.score == h.score && f.metadata == h.metadata
    ensures |f.content| == Min(ContentLimit, |h.content|) && f.content == h.content[..|f.content|]
    ensures |h.content| <= ContentLimit ==> f.content == h.content
    ensures f.vectorScore.Some? <==> k == HybridKind
    ensures f.vectorScore.Some? ==> f.vectorScore.value == h.vectorScore && f.keywordScore == Some(h.keywordScore)
  {
    var content := Take(h.content, ContentLimit);
    if k == HybridKind then Formatted(h.id, content, h.score, Some(h.vectorScore), Some(h.keywordScore), h.metadata, "hybrid")
    else Formatted(h.id, content, h.score, None, None, h.metadata, KindName(k))
  }

  /** `_vector_search`, `_keyword_search` and the formatting half of `_hybrid_search`: one entry per hit, in order. */
  function Format(hits: seq<Hit>, k: SearchKind): (r: seq<Formatted>)
    ensures |r| == |hits|
    ensures forall i :: 0 <= i < |r| ==> r[i].id == hits[i].id && r[i].searchType == KindName(k)
    ensures forall i :: 0 <= i < |r| ==> |r[i].content| <= ContentLimit
  {
    seq(|hits|, i requires 0 <= i < |hits| => FormatHit(hits[i], k))
  }

  /* ------------------------------------------------------------ weights */

  /** The engine's fusion weights. */
  datatype Weights = Weights(vector: real, keyword: real)

  /** The engine's hybrid search under given weights. */
  type HybridSearch = (Weights, string, int, map<string, string>) -> seq<Hit>

  /**
   `_hybrid_search`, as written: the search runs under the requested weights
   (the keyword weight being the complement); afterwards the vector weight
   is put back but the keyword weight becomes the complement of it.
   */
  function Hybrid(engine: Weights, vectorWeight: real, query: string, limit: int, filters: map<string, string>,
                  search: HybridSearch): (r: (seq<Formatted>, Weights))
    ensures r.0 == Format(search(Weights(vectorWeight, 1.0 - vectorWeight), query, limit, filters), HybridKind)
    ensures r.1.vector == engine.vector
    ensures r.1.vector + r.1.keyword == 1.0
  {
    var results := search(Weights(vectorWeight, 1.0 - vectorWeight), query, limit, filters);
    (Format(results, HybridKind), Weights(engine.vector, 1.0 - engine.vector))
  }

  /** An engine configured with weights that do not sum to one is left with a different keyword weight. */
  lemma KeywordWeightNotRestored(search: HybridSearch)
    ensures Hybrid(Weights(0.5, 0.3), 0.7, "q", 10, map[], search).1 == Weights(0.5, 0.5)
  {
  }

  /** `_hybrid_search` as evidently intended: both weights are restored. */
  function HybridRestoring(engine: Weights, vectorWeight: real, query: string, limit: int, filters: map<string, string>,
                           search: HybridSearch): (r: (seq<Formatted>, Weights))
    ensures r.0 == Hybrid(engine, vectorWeight, query, limit, filters, search).0
    ensures r.1 == engine
  {
    var results := search(Weights(vectorWeight, 1.0 - vectorWeight), query, limit, filters);
    (Format(results, HybridKind), engine)
  }

  /** The two versions leave the engine alike exactly when its weights already summed to one. */
  lemma RestoringAgreesIffComplementary(engine: Weights, vectorWeight: real, query: string, limit: int,
                                        filters: map<string, string>, search: HybridSearch)
    ensures HybridRestoring(engine, vectorWeight, query, limit, filters, search)
         == Hybrid(engine, vectorWeight, query, limit, filters, search)
        <==> engine.vector + engine.keyword == 1.0
  {
  }

  /* ---------------------------------------------------------- documents */

  datatype Report = Report(success: bool, count: nat, message: string)

  /** The report of a bulk change of `n` documents. */
  function ChangeReport(success: bool, n: nat, done: string, verb: string): (r: Report)
    ensures r.success == success
    ensures success ==> r.count == n && r.message == "Successfully " + done + " " + NatToString(n) + " documents"
    ensures !success ==> r.count == 0 && r.message == "Failed to " + verb + " documents"
  {
    if success then Report(true, n, "Successfully " + done + " " + NatToString(n) + " documents")
    else Report(false, 0, "Failed to " + verb + " documents")
  }

  /** `_add_documents`: the engine's verdict is a parameter. */
  function AddDocuments(docs: seq<Hit>, engineAdds: seq<Hit> -> bool): (r: Report)
    ensures r.success == engineAdds(docs)
    ensures r.count == (if engineAdds(docs) then |docs| else 0)
  {
    ChangeReport(engineAdds(docs), |docs|, "added", "add")
  }

  /** `_delete_documents`: the engine's verdict is a parameter. */
  function DeleteDocuments(ids: seq<string>, engineDeletes: seq<string> -> bool): (r: Report)
    ensures r.success == engineDeletes(ids)
    ensures r.count == (if engineDeletes(ids) then |ids| else 0)
  {
    ChangeReport(engineDeletes(ids), |ids|, "deleted", "delete")
  }

  /** A failed change reports nothing changed, whatever the number of documents. */
  lemma FailedChangeCountsNothing(n: nat, m: nat)
    ensures ChangeReport(false, n, "added", "add") == ChangeReport(false, m, "added", "add")
  {
  }

  /* --------------------------------------------------- similar creators */

  /** A creator profile; an empty string is a missing (falsy) field and followers default to 0. */
  datatype Profile = Profile(platform: string, handle: string, category: string, tags: seq<string>, followers: int)

  datatype Tier = Nano | Micro | Macro | Mega

  function TierOf(followers: int): (t: Tier)
    ensures t == Mega <==> followers >= 1_000_000
    ensures t == Macro <==> 100_000 <= followers < 1_000_000
    ensures t == Micro <==> 10_000 <= followers < 100_000
    ensures t == Nano <==> followers < 10_000
  {
    if followers >= 1_000_000 then Mega
    else if followers >= 100_000 then Macro
    else if followers >= 10_000 then Micro
    else Nano
  }

  function Rank(t: Tier): nat {
    match t
    case Nano => 0
    case Micro => 1
    case Macro => 2
    case Mega => 3
  }

  /** More followers never mean a lower tier. */
  lemma TierMonotone(a: int, b: int)
    requires a <= b
    ensures Rank(TierOf(a)) <= Rank(TierOf(b))
  {
  }

  function Phrase(t: Tier): string {
    match t
    case Nano => "nano influencer"
    case Micro => "micro influencer"
    case Macro => "macro influencer"
    case Mega => "mega influencer"
  }

  /** The query's parts: the platform and category when given, at most three tags, then the follower tier's phrase. */
  function QueryParts(p: Profile): (parts: seq<string>)
    ensures 1 <= |parts| <= 3 + TagLimit
    ensures parts[|parts| - 1] == Phrase(TierOf(p.followers))
    ensures p.platform == "" && p.category == "" ==> parts == Take(p.tags, TagLimit) + [Phrase(TierOf(p.followers))]
    ensures p.platform != "" ==> parts[0] == "platform:" + p.platform
  {
    (if p.platform != "" then ["platform:" + p.platform] else [])
    + (if p.category != "" then [p.category] else [])
    + Take(p.tags, TagLimit)
    + [Phrase(TierOf(p.followers))]
  }

  /** The search query: the parts joined by spaces; it ends with the tier phrase. */
  function Query(p: Profile): (q: string)
    ensures var t := Phrase(TierOf(p.followers)); |t| <= |q| && q[|q| - |t|..] == t
  {
    var parts := QueryParts(p);
    JoinEndsWithLast(" ", parts);
    Join(" ", parts)
  }

  /** The query names the given platform and category and the first three tags. */
  lemma QueryShowsProfile(p: Profile)
    ensures p.platform != "" ==> Contains(Query(p), "platform:" + p.platform)
    ensures p.category != "" ==> Contains(Query(p), p.category)
    ensures forall j :: 0 <= j < Min(TagLimit, |p.tags|) ==> Contains(Query(p), p.tags[j])
  {
    var parts := QueryParts(p);
    var head := (if p.platform != "" then ["platform:" + p.platform] else [])
      + (if p.category != "" then [p.category] else []);
    var tags := Take(p.tags, TagLimit);
    assert parts == head + tags + [Phrase(TierOf(p.followers))];
    if p.platform != "" {
      JoinContainsParts(" ", parts, 0);
    }
    if p.category != "" {
      JoinContainsParts(" ", parts, |head| - 1);
    }
    forall j | 0 <= j < Min(TagLimit, |p.tags|)
      ensures Contains(Query(p), p.tags[j])
    {
      assert parts[|head| + j] == p.tags[j];
      JoinContainsParts(" ", parts, |head| + j);
    }
  }

  /** A similar creator as returned: content cut to 300 characters, with the query as the reason. */
  datatype Match = Match(id: string, content: string, score: real, metadata: map<string, string>, reason: string)

  function ToMatch(h: Hit, query: string): (m: Match)
    ensures m.id == h.id && m.metadata == h.metadata && m.reason == "Similar based on: " + query
    ensures |m.content| == Min(SimilarContentLimit, |h.content|) && m.content == h.content[..|m.content|]
  {
    Match(h.id, Take(h.content, SimilarContentLimit), h.score, h.metadata, "Similar based on: " + query)
  }

  /** A result's creator handle, lower-cased; "" when it has none. */
  function HandleOf(metadata: map<string, string>): string {
    Lower(if "handle" in metadata then metadata["handle"] else "")
  }

  /** Metadata of the profile's own creator: a non-empty handle equal to the lower-cased current one. */
  predicate SameCreator(metadata: map<string, string>, current: string) {
    HandleOf(metadata) != "" && HandleOf(metadata) == current
  }

  predicate IsSelf(h: Hit, current: string) {
    SameCreator(h.metadata, current)
  }

  /** The loop of `_find_similar_creators`: skip the creator itself, add the rest, stop once `limit` are collected. */
  function Collect(results: seq<Hit>, current: string, limit: int, query: string, acc: seq<Match>): (r: seq<Match>)
    requires |acc| < Max(limit, 1)
    ensures |acc| <= |r| <= Max(limit, 1) && r[..|acc|] == acc
    ensures forall i :: |acc| <= i < |r| ==>
      !SameCreator(r[i].metadata, current) && r[i].reason == "Similar based on: " + query && |r[i].content| <= SimilarContentLimit
  {
    if results == [] then acc
    else
      var h := results[0];
      if IsSelf(h, current) then Collect(results[1..], current, limit, query, acc)
      else
        var grown := acc + [ToMatch(h, query)];
        if |grown| >= limit then grown
        else
          var r := Collect(results[1..], current, limit, query, grown);
          assert r[|acc|] == grown[|acc|] by { assert r[..|grown|] == grown; }
          r
  }

  /** The hits that are not the creator itself, in order. */
  function Others(results: seq<Hit>, current: string): (r: seq<Hit>)
    ensures |r| <= |results|
    ensures forall h :: h in r ==> h in results && !IsSelf(h, current)
  {
    if results == [] then []
    else if IsSelf(results[0], current) then Others(results[1..], current)
    else [results[0]] + Others(results[1..], current)
  }

  /** Without the creator itself among the hits, nothing is dropped. */
  lemma {:induction false} OthersOfOthers(results: seq<Hit>, current: string)
    requires forall i :: 0 <= i < |results| ==> !IsSelf(results[i], current)
    ensures Others(results, current) == results
  {
    if results != [] {
      var tail := results[1..];
      assert forall i :: 0 <= i < |tail| ==> !IsSelf(tail[i], current) by {
        forall i | 0 <= i < |tail|
          ensures !IsSelf(tail[i], current)
        {
          assert tail[i] == results[i + 1];
        }
      }
      OthersOfOthers(tail, current);
      assert !IsSelf(results[0], current);
      assert results == [results[0]] + tail;
    }
  }

  /** The matches of the given hits, in order. */
  function Matches(hs: seq<Hit>, query: string): (ms: seq<Match>)
    ensures |ms| == |hs|
    ensures forall i :: 0 <= i < |hs| ==> ms[i] == ToMatch(hs[i], query)
  {
    seq(|hs|, i requires 0 <= i < |hs| => ToMatch(hs[i], query))
  }

  /**
   `_find_similar_creators`: a query built from the profile, a hybrid search
   for twice the limit, and the first `limit` hits that are not the creator
   itself (at least one, even for a limit below one, when any is found).
   */
  function FindSimilar(p: Profile, limit: int, search: (string, int) -> seq<Hit>): (r: seq<Match>)
    ensures |r| <= Max(limit, 1)
    ensures forall m :: m in r ==>
      !SameCreator(m.metadata, Lower(p.handle)) && m.reason == "Similar based on: " + Query(p) && |m.content| <= SimilarContentLimit
  {
    Collect(search(Query(p), limit * 2), Lower(p.handle), limit, Query(p), [])
  }

  /** Reference: the loop keeps the first `max(limit, 1)` hits that are not the creator itself. */
  lemma {:induction false} CollectIsFilteredPrefix(results: seq<Hit>, current: string, limit: int, query: string, acc: seq<Match>)
    requires |acc| < Max(limit, 1)
    ensures Collect(results, current, limit, query, acc)
         == acc + Take(Matches(Others(results, current), query), Max(limit, 1) - |acc|)
  {
    if results != [] {
      var h := results[0];
      var rest := Matches(Others(results[1..], current), query);
      if IsSelf(h, current) {
        CollectIsFilteredPrefix(results[1..], current, limit, query, acc);
      } else {
        var m := ToMatch(h, query);
        var n := Max(limit, 1) - |acc|;
        assert Matches(Others(results, current), query) == [m] + rest;
        assert Take([m] + rest, n) == [m] + Take(rest, n - 1);
        var grown := acc + [m];
        if |grown| < limit {
          CollectIsFilteredPrefix(results[1..], current, limit, query, grown);
        } else {
          assert Take(rest, n - 1) == [];
        }
      }
    }
  }

  /** The similar creators are the first `max(limit, 1)` search hits that are not the creator itself, in order. */
  lemma FindSimilarIsFilteredPrefix(p: Profile, limit: int, search: (string, int) -> seq<Hit>)
    ensures FindSimilar(p, limit, search)
         == Take(Matches(Others(search(Query(p), limit * 2), Lower(p.handle)), Query(p)), Max(limit, 1))
  {
    CollectIsFilteredPrefix(search(Query(p), limit * 2), Lower(p.handle), limit, Query(p), []);
  }

  /** With no hit of the creator itself and few enough hits, every hit is returned. */
  lemma AllOthersKept(results: seq<Hit>, current: string, limit: int, query: string)
    requires forall i :: 0 <= i < |results| ==> !IsSelf(results[i], current)
    requires |results| <= Max(limit, 1)
    ensures Collect(results, current, limit, query, []) == Matches(results, query)
  {
    CollectIsFilteredPrefix(results, current, limit, query, []);
    OthersOfOthers(results, current);
  }

  /** `initialize`: the seven tools are registered once each, in order. */
  function Initialized(): (s: McpServer.Server)
    ensures s.tools.Valid() && s.tools.order == ToolNames
    ensures forall n :: n in s.tools.m ==> s.tools.m[n].name == n
  {
    McpServer.RegisterAll("vector-search", "1.0.0", ToolNames)
  }
}

=== FILE: middleware_audit.dfy ===
/**
 The audit middleware: every request outside the excluded paths is logged
 with the action its path stands for, the client address, and whether the
 handler succeeded. The handler's outcome, the headers and the socket peer
 are inputs; a failure to write the log is swallowed.
 */
module AuditMiddleware {
  import opened Common
  import opened AuditService

  /** Paths whose prefixes bypass auditing. */
  const ExcludedPrefixes: seq<string> := ["/health", "/metrics", "/docs", "/openapi.json", "/redoc"]

  /** The endpoint table, in declaration order. */
  const EndpointActions: seq<(string, Action)> := [
    ("/api/v1/auth/login", Login),
    ("/api/v1/auth/logout", Logout),
    ("/api/v1/auth/register", UserCreate),
    ("/api/v1/auth/change-password", PasswordChange),
    ("/api/v1/auth/refresh", TokenRefresh),
    ("/api/v1/creator/evaluate", CreatorEvaluate),
    ("/api/v1/missions/recommend", MissionRecommend),
    ("/api/v1/competency/assess", CompetencyAssess),
    ("/api/v1/recommendations/generate", RecommendationGenerate),
    ("/api/v1/search/vector", VectorSearch),
    ("/api/v1/rag/query", RagQuery),
    ("/api/v1/rag/add-documents", DocumentAdd),
    ("/api/v1/analytics/report", AnalyticsReport)]

  /** Whether a table endpoint equals the path (`exact`) or starts it. */
  predicate Hits(endpoint: string, path: string, exact: bool) {
    if exact then endpoint == path else IsPrefix(endpoint, path)
  }

  /** The action of the first table entry whose endpoint the path equals (`exact`) or starts with. */
  function FirstMatch(table: seq<(string, Action)>, path: string, exact: bool): (r: Option<Action>)
    ensures r.None? <==> forall i :: 0 <= i < |table| ==> !Hits(table[i].0, path, exact)
    ensures |table| > 0 && Hits(table[0].0, path, exact) ==> r == Some(table[0].1)
    ensures r.Some? ==> exists i :: 0 <= i < |table| && table[i].1 == r.value && Hits(table[i].0, path, exact)
  {
    if |table| == 0 then None
    else if Hits(table[0].0, path, exact) then Some(table[0].1)
    else
      var r := FirstMatch(table[1..], path, exact);
      assert forall i :: 1 <= i < |table| ==> table[i] == table[1..][i - 1];
      r
  }

  /** The defaults by method: POST to a path mentioning "create" or "add", PUT or PATCH, DELETE; else a RAG query. */
  function MethodDefault(path: string, httpMethod: string): (a: Action)
    ensures a == UserCreate <==> httpMethod == "POST" && (Contains(path, "create") || Contains(path, "add"))
    ensures a == UserUpdate <==> httpMethod == "PUT" || httpMethod == "PATCH"
    ensures a == UserDelete <==> httpMethod == "DELETE"
    ensures a in {UserCreate, UserUpdate, UserDelete, RagQuery}
  {
    if httpMethod == "POST" then
      (if Contains(path, "create") || Contains(path, "add") then UserCreate else RagQuery)
    else if httpMethod == "PUT" || httpMethod == "PATCH" then UserUpdate
    else if httpMethod == "DELETE" then UserDelete
    else RagQuery
  }

  /** `_determine_action`: an exact endpoint, else the first endpoint the path extends, else the method default. */
  function DetermineAction(path: string, httpMethod: string): (a: Action)
    ensures FirstMatch(EndpointActions, path, true).Some? ==> a == FirstMatch(EndpointActions, path, true).value
    ensures FirstMatch(EndpointActions, path, true).None? && FirstMatch(EndpointActions, path, false).Some? ==>
      a == FirstMatch(EndpointActions, path, false).value
    ensures FirstMatch(EndpointActions, path, false).None? ==> a == MethodDefault(path, httpMethod)
  {
    ExactImpliesPrefix(EndpointActions, path);
    match FirstMatch(EndpointActions, path, true)
    case Some(a) => a
    case None =>
      match FirstMatch(EndpointActions, path, false)
      case Some(a) => a
      case None => MethodDefault(path, httpMethod)
  }

  /** An endpoint matched exactly is also its own prefix, so the prefix step finds a match whenever the exact step does. */
  lemma {:induction false} ExactImpliesPrefix(table: seq<(string, Action)>, path: string)
    ensures FirstMatch(table, path, true).Some? ==> FirstMatch(table, path, false).Some?
    decreases |table|
  {
    if |table| > 0 && !Hits(table[0].0, path, true) {
      ExactImpliesPrefix(table[1..], path);
    }
  }

  /** The login endpoint is a login whatever the method. */
  lemma LoginPaths(httpMethod: string)
    ensures DetermineAction("/api/v1/auth/login", httpMethod) == Login
  {
    assert Hits(EndpointActions[0].0, "/api/v1/auth/login", true);
  }

  /** `_get_client_ip`: the first X-Forwarded-For element, else X-Real-IP, else the peer, else "unknown". */
  function ClientIp(forwardedFor: Option<string>, realIp: Option<string>, peer: Option<string>): (ip: string)
    ensures Set(forwardedFor) ==> ip == Strip(BeforeFirst(forwardedFor.value, ','))
    ensures !Set(forwardedFor) && Set(realIp) ==> ip == realIp.value
    ensures !Set(forwardedFor) && !Set(realIp) && peer.Some? ==> ip == peer.value
    ensures !Set(forwardedFor) && !Set(realIp) && peer.None? ==> ip == "unknown"
  {
    if Set(forwardedFor) then Strip(BeforeFirst(forwardedFor.value, ','))
    else if Set(realIp) then realIp.value
    else if peer.Some? then peer.value
    else "unknown"
  }

  /** A proxy chain names the original client first. */
  lemma ForwardedChainNamesClient(client: string, rest: string, realIp: Option<string>, peer: Option<string>)
    requires ',' !in client && client != "" && Strip(client) == client
    ensures ClientIp(Some(client + "," + rest), realIp, peer) == client
  {
    var s := client + "," + rest;
    var b := BeforeFirst(s, ',');
    assert s[|client|] == ',';
    assert s[..|client|] == client;
  }

  /** The request as the middleware sees it. */
  datatype Request = Request(
    path: string,
    httpMethod: string,
    userId: Option<string>,
    username: Option<string>,
    role: Option<string>,
    requestId: Option<string>,
    forwardedFor: Option<string>,
    realIp: Option<string>,
    peer: Option<string>,
    userAgent: Option<string>)

  /** What the downstream handler did: answered with a status, or raised. */
  datatype Outcome = Responded(status: int) | Raised(message: string)

  function Succeeded(o: Outcome): bool { o.Responded? && o.status < 400 }

  /** The logged error message: the status class for an error response, the exception text for a raise. */
  function ErrorMessage(o: Outcome): (m: Option<string>)
    ensures m.None? <==> Succeeded(o)
    ensures o.Raised? ==> m == Some(o.message)
  {
    match o
    case Raised(msg) => Some(msg)
    case Responded(status) =>
      if status >= 500 then Some("Server error: " + IntToString(status))
      else if status >= 400 then Some("Client error: " + IntToString(status))
      else None
  }

  /** Server errors are errors, other failures (including a raise, which leaves no response) warnings. */
  function SeverityOf(o: Outcome): (sv: Severity)
    ensures sv == Info <==> Succeeded(o)
    ensures sv == Error <==> o.Responded? && o.status >= 500
    ensures sv != Critical
  {
    if Succeeded(o) then Info
    else if o.Responded? && o.status >= 500 then Error
    else Warning
  }

  /** `dispatch`: the event logged, or `None` when the request bypasses auditing. */
  function Dispatch(enabled: bool, req: Request, o: Outcome): (ev: Option<Event>)
    ensures ev.None? <==> !enabled || AnyPrefix(ExcludedPrefixes, req.path)
    ensures ev.Some? ==> (ev.value.success <==> Succeeded(o))
    ensures ev.Some? ==> ev.value.action == DetermineAction(req.path, req.httpMethod)
    ensures ev.Some? ==> ev.value.ipAddress == Some(ClientIp(req.forwardedFor, req.realIp, req.peer))
    ensures ev.Some? ==> ev.value.userAgent.Some? && |ev.value.userAgent.value| <= 500
  {
    if !enabled || AnyPrefix(ExcludedPrefixes, req.path) then None
    else
      Some(Event(DetermineAction(req.path, req.httpMethod), SeverityOf(o), req.userId, req.username, req.role,
                 None, None, req.requestId, Some(ClientIp(req.forwardedFor, req.realIp, req.peer)),
                 Some(Take(req.userAgent.GetOr(""), 500)), Some(req.path), Some(req.httpMethod),
                 Succeeded(o), ErrorMessage(o)))
  }

  /** Health probes and docs pages are never audited, however the path continues. */
  lemma HealthBypasses(suffix: string, req: Request, o: Outcome)
    requires req.path == "/health" + suffix
    ensures Dispatch(true, req, o).None?
  {
    assert IsPrefix(ExcludedPrefixes[0], req.path);
  }

  /** A request that raised is logged as a failed warning carrying the exception text. */
  lemma RaisedIsWarning(req: Request, msg: string)
    requires !AnyPrefix(ExcludedPrefixes, req.path)
    ensures var ev := Dispatch(true, req, Raised(msg)).value;
      !ev.success && ev.severity == Warning && ev.errorMessage == Some(msg)
  {
  }
}

=== FILE: monitoring_metrics_collector.dfy ===
/**
 The system metrics collector: samples of CPU, memory and disk use join a
 history bounded by `max_history`, from which time-windowed summaries are
 drawn and old samples are cleared; the deep-agent counters only ever grow.
 The machine readings and the clock are inputs (seconds since the epoch).
 */
module MetricsCollector {
  import opened Common

  /** The machine's readings at one moment: CPU and memory use in percent, disk bytes used and in total. */
  datatype Reading = Reading(cpu: real, memory: real, diskUsed: nat, diskTotal: nat)

  /** One stored sample. */
  datatype Sample = Sample(time: real, cpu: real, memory: real, disk: real)

  datatype Collector = Collector(
    maxHistory: int,
    history: seq<Sample>,
    retries: nat,
    noProgress: nat,
    criticScores: seq<real>)

  /** A fresh collector; the default bound is 1000 samples. */
  function New(maxHistory: int): (c: Collector)
    ensures c.history == [] && c.retries == 0 && c.noProgress == 0 && c.criticScores == []
  {
    Collector(maxHistory, [], 0, 0, [])
  }

  /** Append, then drop the oldest sample once if the bound is exceeded. */
  function Append(h: seq<Sample>, x: Sample, max: int): (r: seq<Sample>)
    ensures 0 <= max && |h| <= max ==> |r| <= max
    ensures |h| + 1 <= max ==> r == h + [x]
    ensures max >= 1 ==> |r| > 0 && r[|r| - 1] == x
    ensures IsSuffix(r, h + [x]) && |h + [x]| - |r| <= 1
  {
    var g := h + [x];
    if |g| > max then g[1..] else g
  }

  predicate IsSuffix<T(==)>(r: seq<T>, s: seq<T>) {
    |r| <= |s| && r == s[|s| - |r|..]
  }

  /** Appending to a full history keeps its length and drops the oldest sample. */
  lemma AppendFull(h: seq<Sample>, x: Sample)
    requires |h| > 0
    ensures Append(h, x, |h|) == h[1..] + [x]
  {
  }

  /**
   `collect_system_metrics`: without the process-inspection library, a zero
   sample that is not stored; with it, the disk share is used over total in
   percent and the sample is stored, unless the disk total is zero, when the
   division fails and nothing is returned or stored.
   */
  function CollectSystem(c: Collector, available: bool, now: real, reading: Reading): (r: (Collector, Option<Sample>))
    ensures !available ==> r == (c, Some(Sample(now, 0.0, 0.0, 0.0)))
    ensures available && reading.diskTotal == 0 ==> r == (c, None)
    ensures available && reading.diskTotal > 0 ==>
      r.1.Some? && r.1.value.cpu == reading.cpu && r.1.value.memory == reading.memory
      && r.1.value.disk == reading.diskUsed as real / reading.diskTotal as real * 100.0
      && r.0 == c.(history := Append(c.history, r.1.value, c.maxHistory))
  {
    if !available then (c, Some(Sample(now, 0.0, 0.0, 0.0)))
    else if reading.diskTotal == 0 then (c, None)
    else
      var s := Sample(now, reading.cpu, reading.memory, reading.diskUsed as real / reading.diskTotal as real * 100.0);
      (c.(history := Append(c.history, s, c.maxHistory)), Some(s))
  }

  /** Collecting never lets a history within its bound outgrow it. */
  lemma CollectKeepsBound(c: Collector, available: bool, now: real, reading: Reading)
    requires 0 <= c.maxHistory && |c.history| <= c.maxHistory
    ensures |CollectSystem(c, available, now, reading).0.history| <= c.maxHistory
  {
  }

  /** The disk share of a disk no fuller than its size is at most 100 percent. */
  lemma DiskShareWithin(used: nat, total: nat)
    requires 0 < total && used <= total
    ensures 0.0 <= used as real / total as real * 100.0 <= 100.0
  {
    assert used as real / total as real <= 1.0;
  }

  /** `collect_application_metrics`: the error rate, 0.0 when there were no requests. */
  function ApplicationErrorRate(errors: int, total: int): (r: real)
    ensures total <= 0 ==> r == 0.0
    ensures 0 <= errors <= total ==> 0.0 <= r <= 1.0
    ensures total > 0 && errors == total ==> r == 1.0
  {
    if total > 0 then errors as real / total as real else 0.0
  }

  /** The LangGraph metrics' deep-agent part. */
  datatype Deep = Deep(retries: nat, noProgress: nat, avgCritic: real, totalAgentExecutions: int)

  /** The mean critic score, 0.0 when none was reported. */
  function AvgCritic(scores: seq<real>): (r: real)
    ensures scores == [] ==> r == 0.0
    ensures scores != [] ==> r * |scores| as real == SumR(scores)
  {
    if scores == [] then 0.0 else SumR(scores) / |scores| as real
  }

  /**
   `collect_langgraph_metrics`: the retry and no-progress counters grow by
   the positive part of their deltas, a reported critic score is kept, and
   the agent executions (the dictionary's values) are summed.
   */
  function CollectLangGraph(c: Collector, executions: seq<int>, retryDelta: int, noProgressDelta: int,
                            critic: Option<real>): (r: (Collector, Deep))
    ensures r.0.retries == c.retries + Max(0, retryDelta)
    ensures r.0.noProgress == c.noProgress + Max(0, noProgressDelta)
    ensures critic.None? ==> r.0.criticScores == c.criticScores
    ensures critic.Some? ==> r.0.criticScores == c.criticScores + [critic.value]
    ensures r.0.history == c.history && r.0.maxHistory == c.maxHistory
    ensures r.1 == Deep(r.0.retries, r.0.noProgress, AvgCritic(r.0.criticScores), Sum(executions))
  {
    var c2 := c.(retries := c.retries + Max(0, retryDelta),
                 noProgress := c.noProgress + Max(0, noProgressDelta),
                 criticScores := if critic.Some? then c.criticScores + [critic.value] else c.criticScores);
    (c2, Deep(c2.retries, c2.noProgress, AvgCritic(c2.criticScores), Sum(executions)))
  }

  /** The deep-agent counters never decrease, whatever deltas are reported. */
  lemma CountersNeverDecrease(c: Collector, executions: seq<int>, retryDelta: int, noProgressDelta: int,
                              critic: Option<real>)
    ensures var c2 := CollectLangGraph(c, executions, retryDelta, noProgressDelta, critic).0;
      c2.retries >= c.retries && c2.noProgress >= c.noProgress
    ensures retryDelta < 0 ==> CollectLangGraph(c, executions, retryDelta, noProgressDelta, critic).0.retries == c.retries
  {
  }

  /** `collect_rag_metrics`: the total processing time is retrieval plus generation. */
  function RagTotalTime(retrieval: real, generation: real): (t: real)
    ensures retrieval >= 0.0 && generation >= 0.0 ==> t >= retrieval && t >= generation
    ensures t - generation == retrieval
  {
    retrieval + generation
  }

  /** Samples taken at or after a cutoff. */
  function Since(h: seq<Sample>, cutoff: real): (r: seq<Sample>)
    ensures IsSubsequence(r, h)
    ensures forall x :: x in r <==> x in h && x.time >= cutoff
    ensures |r| == Count((x: Sample) => x.time >= cutoff, h)
  {
    var p := (x: Sample) => x.time >= cutoff;
    FilterIsSubsequence(p, h);
    FilterCount(p, h);
    Filter(p, h)
  }

  datatype Summary = Summary(hours: int, count: nat, avgCpu: real, avgMemory: real, avgDisk: real, latest: Sample)

  function Cpus(s: seq<Sample>): (r: seq<real>)
    ensures |r| == |s| && forall i :: 0 <= i < |s| ==> r[i] == s[i].cpu
  {
    seq(|s|, i requires 0 <= i < |s| => s[i].cpu)
  }

  function Memories(s: seq<Sample>): (r: seq<real>)
    ensures |r| == |s| && forall i :: 0 <= i < |s| ==> r[i] == s[i].memory
  {
    seq(|s|, i requires 0 <= i < |s| => s[i].memory)
  }

  function Disks(s: seq<Sample>): (r: seq<real>)
    ensures |r| == |s| && forall i :: 0 <= i < |s| ==> r[i] == s[i].disk
  {
    seq(|s|, i requires 0 <= i < |s| => s[i].disk)
  }

  /** The mean of a non-empty list. */
  function Average(s: seq<real>): (r: real)
    requires s != []
    ensures r * |s| as real == SumR(s)
  {
    SumR(s) / |s| as real
  }

  /**
   `get_metrics_summary`: over the samples of the last `hours` hours, their
   count, average CPU, memory and disk use, and the latest one; nothing when
   no sample falls in the window.
   */
  function MetricsSummary(c: Collector, now: real, hours: int): (r: Option<Summary>)
    ensures r.None? <==> Since(c.history, now - hours as real * 3600.0) == []
    ensures r.Some? ==>
      (var recent := Since(c.history, now - hours as real * 3600.0);
       r.value.count == |recent| > 0 && r.value.hours == hours
       && r.value.latest == recent[|recent| - 1] && r.value.latest in c.history
       && r.value.latest.time >= now - hours as real * 3600.0)
  {
    var recent := Since(c.history, now - hours as real * 3600.0);
    if recent == [] then None
    else
      assert recent[|recent| - 1] in recent;
      Some(Summary(hours, |recent|, Average(Cpus(recent)), Average(Memories(recent)), Average(Disks(recent)),
                   recent[|recent| - 1]))
  }

  /** When every sample reads the same CPU use, that is the average. */
  lemma SteadyCpuAverage(c: Collector, now: real, hours: int, cpu: real)
    requires forall i :: 0 <= i < |c.history| ==> c.history[i].cpu == cpu
    requires MetricsSummary(c, now, hours).Some?
    ensures MetricsSummary(c, now, hours).value.avgCpu == cpu
  {
    var recent := Since(c.history, now - hours as real * 3600.0);
    var cs := Cpus(recent);
    forall i | 0 <= i < |cs|
      ensures cs[i] == cpu
    {
      assert recent[i] in c.history;
    }
    ConstantAverage(cs, cpu);
    assert MetricsSummary(c, now, hours).value.avgCpu == Average(cs);
  }

  /** The average of readings that are all the same is that reading. */
  lemma ConstantAverage(s: seq<real>, v: real)
    requires s != [] && forall i :: 0 <= i < |s| ==> s[i] == v
    ensures Average(s) == v
  {
    ConstantSum(s, v);
    var a, t, n := Average(s), SumR(s), |s| as real;
    assert a * n == t && t == n * v;
    UniqueFactor(a, v, n);
  }

  lemma {:induction false} ConstantSum(s: seq<real>, v: real)
    requires forall i :: 0 <= i < |s| ==> s[i] == v
    ensures SumR(s) == |s| as real * v
  {
    if s != [] {
      assert forall i :: 0 <= i < |s[1..]| ==> s[1..][i] == s[i + 1];
      ConstantSum(s[1..], v);
      assert |s| as real * v == (|s| - 1) as real * v + v;
    }
  }

  lemma UniqueFactor(a: real, b: real, n: real)
    requires n > 0.0 && a * n == n * b
    ensures a == b
  {
    assert (a - b) * n == 0.0;
  }

  /** `get_metrics_history`: `history[-limit:]`, or nothing when the history is empty. */
  function History(c: Collector, limit: int): (r: seq<Sample>)
    ensures c.history == [] ==> r == []
    ensures limit > 0 ==> r == TakeLast(c.history, limit)
    ensures limit == 0 ==> r == c.history
    ensures IsSuffix(r, c.history)
  {
    if c.history == [] then [] else FromEnd(c.history, limit)
  }

  /** `clear_old_metrics`: only the samples of the last `hours` hours remain; the number removed is returned. */
  function ClearOld(c: Collector, now: real, hours: int): (r: (Collector, nat))
    ensures r.0.history == Since(c.history, now - hours as real * 3600.0)
    ensures r.1 + |r.0.history| == |c.history|
    ensures r.1 == Count((x: Sample) => x.time < now - hours as real * 3600.0, c.history)
    ensures r.0.retries == c.retries && r.0.noProgress == c.noProgress && r.0.criticScores == c.criticScores
  {
    var cutoff := now - hours as real * 3600.0;
    var kept := Since(c.history, cutoff);
    CountSplit(c.history, cutoff);
    (c.(history := kept), |c.history| - |kept|)
  }

  /** Every sample is either recent or old. */
  lemma {:induction false} CountSplit(h: seq<Sample>, cutoff: real)
    ensures Count((x: Sample) => x.time >= cutoff, h) + Count((x: Sample) => x.time < cutoff, h) == |h|
  {
    if h != [] {
      CountSplit(h[1..], cutoff);
    }
  }

  /** Clearing twice at the same moment removes nothing the second time. */
  lemma ClearTwiceRemovesNothing(c: Collector, now: real, hours: int)
    ensures ClearOld(ClearOld(c, now, hours).0, now, hours).1 == 0
  {
    var cutoff := now - hours as real * 3600.0;
    var kept := ClearOld(c, now, hours).0.history;
    CountUniform((x: Sample) => x.time < cutoff, kept);
  }
}

=== FILE: monitoring_performance_monitor.dfy ===
/**
 The performance monitor: operations are started and ended by id; an ended
 operation's duration is recorded under its name, failures are counted, and
 the metric joins a history bounded by `max_history`. Statistics report
 counts, error rates, mean, extremes and percentiles; domain metrics track
 creator decisions and mission recommendations. Clock readings are inputs.
 */
module PerformanceMonitor {
  import opened Common

  /** An operation in flight: its name and start time. */
  datatype Op = Op(name: string, start: real)

  /** A finished operation. */
  datatype Metric = Metric(name: string, start: real, duration: real, success: bool, error: Option<string>)

  datatype Monitor = Monitor(
    maxHistory: nat,
    latencyThreshold: real,
    errorRateThreshold: real,
    history: seq<Metric>,
    durations: ODict<seq<real>>,
    errors: map<string, nat>,
    current: map<string, Op>,
    creatorScores: seq<real>,
    creatorAccepts: nat,
    creatorTotal: nat,
    missionRequests: nat,
    missionRecommended: nat)

  /** The history is within its bound, failures never outnumber recorded durations, and accepts never outnumber decisions. */
  ghost predicate Valid(m: Monitor) {
    m.durations.Valid() && |m.history| <= m.maxHistory
    && (forall n :: n in m.errors ==> n in m.durations.m && m.errors[n] <= |m.durations.m[n]|)
    && m.creatorAccepts <= m.creatorTotal && |m.creatorScores| == m.creatorTotal
  }

  /** A fresh monitor; the defaults are 1000 metrics of history, 5 seconds and a 10% error rate. */
  function New(maxHistory: nat, latencyThreshold: real, errorRateThreshold: real): (m: Monitor)
    ensures Valid(m) && m.history == [] && m.current == map[] && m.durations.m == map[]
  {
    Monitor(maxHistory, latencyThreshold, errorRateThreshold, [], EmptyDict(), map[], map[], [], 0, 0, 0, 0)
  }

  /** `deque(maxlen=max).append(x)`: the oldest entries drop out once the bound is reached. */
  function BoundedAppend<T>(h: seq<T>, x: T, max: nat): (r: seq<T>)
    ensures |r| <= max && |r| == Min(|h| + 1, max)
    ensures max > 0 ==> r[|r| - 1] == x
    ensures r == (h + [x])[|h| + 1 - |r|..]
  {
    TakeLast(h + [x], max)
  }

  /** `start_operation`: the id is the name and the start time in milliseconds; an id already in flight is replaced. */
  function StartOperation(m: Monitor, name: string, nowMillis: int, now: real): (r: (Monitor, string))
    ensures r.1 == name + "_" + IntToString(nowMillis)
    ensures r.0 == m.(current := m.current[r.1 := Op(name, now)])
    ensures Valid(m) ==> Valid(r.0)
  {
    var id := name + "_" + IntToString(nowMillis);
    (m.(current := m.current[id := Op(name, now)]), id)
  }

  /** The durations recorded under a name. */
  function DurationsOf(m: Monitor, name: string): (d: seq<real>)
    ensures name in m.durations.m ==> d == m.durations.m[name]
    ensures name !in m.durations.m ==> d == []
  {
    if name in m.durations.m then m.durations.m[name] else []
  }

  function ErrorsOf(m: Monitor, name: string): (n: nat)
    ensures name in m.errors ==> n == m.errors[name]
    ensures name !in m.errors ==> n == 0
  {
    if name in m.errors then m.errors[name] else 0
  }

  /** A finished metric recorded: its duration under its name, a failure counted, and the metric in the history. */
  function Record(m: Monitor, metric: Metric): (r: Monitor)
    requires m.durations.Valid()
    ensures r.durations.Valid() && r.current == m.current
    ensures DurationsOf(r, metric.name) == DurationsOf(m, metric.name) + [metric.duration]
    ensures ErrorsOf(r, metric.name) == ErrorsOf(m, metric.name) + (if metric.success then 0 else 1)
    ensures r.history == BoundedAppend(m.history, metric, m.maxHistory)
  {
    var name := metric.name;
    var durations := m.durations.Set(name, DurationsOf(m, name) + [metric.duration]);
    var errors := if metric.success then m.errors else m.errors[name := ErrorsOf(m, name) + 1];
    m.(history := BoundedAppend(m.history, metric, m.maxHistory), durations := durations, errors := errors)
  }

  /** Recording a metric keeps the monitor's invariant. */
  lemma RecordKeepsValid(m: Monitor, metric: Metric)
    requires Valid(m)
    ensures Valid(Record(m, metric))
  {
  }

  /** Recording a metric leaves every other name's durations and failures alone. */
  lemma RecordLeavesOthers(m: Monitor, metric: Metric, other: string)
    requires m.durations.Valid() && other != metric.name
    ensures DurationsOf(Record(m, metric), other) == DurationsOf(m, other)
    ensures ErrorsOf(Record(m, metric), other) == ErrorsOf(m, other)
  {
  }

  /** The metric of an operation finished now. */
  function Finished(op: Op, success: bool, error: Option<string>, now: real): (x: Metric)
    ensures x.name == op.name && x.start == op.start && x.success == success && x.error == error
    ensures x.start + x.duration == now
  {
    Metric(op.name, op.start, now - op.start, success, error)
  }

  /**
   `end_operation`: an unknown id gives nothing and changes nothing;
   otherwise the operation leaves the in-flight set and its metric, timed
   from its start to now, is recorded.
   */
  function EndOperation(m: Monitor, id: string, success: bool, error: Option<string>, now: real): (r: (Monitor, Option<Metric>))
    requires m.durations.Valid()
    ensures r.0.durations.Valid()
    ensures r.1.None? <==> id !in m.current
    ensures id !in m.current ==> r.0 == m
    ensures id in m.current ==>
      r.1 == Some(Finished(m.current[id], success, error, now))
      && r.0 == Record(m, r.1.value).(current := m.current - {id})
  {
    if id !in m.current then (m, None)
    else
      var metric := Finished(m.current[id], success, error, now);
      (Record(m, metric).(current := m.current - {id}), Some(metric))
  }

  /** Ending an operation keeps the monitor's invariant. */
  lemma EndKeepsValid(m: Monitor, id: string, success: bool, error: Option<string>, now: real)
    requires Valid(m)
    ensures Valid(EndOperation(m, id, success, error, now).0)
  {
    if id in m.current {
      RecordKeepsValid(m, Finished(m.current[id], success, error, now));
    }
  }

  /** Ending what was just started yields a metric under that name whose duration is the elapsed time; ending it again yields nothing. */
  lemma StartThenEnd(m: Monitor, name: string, ms: int, t0: real, t1: real, success: bool)
    requires Valid(m)
    ensures var (m1, id) := StartOperation(m, name, ms, t0);
      var (m2, metric) := EndOperation(m1, id, success, None, t1);
      metric == Some(Metric(name, t0, t1 - t0, success, None))
      && EndOperation(m2, id, success, None, t1).1.None?
  {
  }

  /* ------------------------------------------------------------ statistics */

  function Id(x: real): real { x }

  /** `sorted(data)`, smallest first. */
  function SortAsc(data: seq<real>): (r: seq<real>)
    ensures |r| == |data|
    ensures forall i, j :: 0 <= i < j < |r| ==> r[i] <= r[j]
  {
    var d := SortDesc(data, Id);
    seq(|d|, i requires 0 <= i < |d| => d[|d| - 1 - i])
  }

  lemma SortAscMembers(data: seq<real>, i: nat)
    requires i < |data|
    ensures SortAsc(data)[i] in data
  {
    var d := SortDesc(data, Id);
    assert SortAsc(data)[i] == d[|d| - 1 - i];
    SortedItemIsGiven(data, Id, d[|d| - 1 - i]);
  }

  lemma SortAscBounds(data: seq<real>)
    requires |data| > 0
    ensures forall x :: x in data ==> SortAsc(data)[0] <= x <= SortAsc(data)[|data| - 1]
  {
    var a := SortAsc(data);
    SortDescMembers(data, Id);
    forall x | x in data
      ensures a[0] <= x <= a[|data| - 1]
    {
      var d := SortDesc(data, Id);
      var j :| 0 <= j < |d| && d[j] == x;
      assert x == a[|d| - 1 - j];
    }
  }

  /** `int(len * percentile / 100)`, clamped to the last index. */
  function PercentileIndex(n: nat, percentile: int): (k: int)
    requires n > 0
    ensures k <= n - 1
    ensures percentile >= 0 ==> k >= 0
  {
    Min(Trunc(percentile as real / 100.0 * n as real), n - 1)
  }

  /** From 100 up the index is the last one, and at 0 it is the first. */
  lemma PercentileIndexEnds(n: nat, p: int)
    requires n > 0 && (p >= 100 || p == 0)
    ensures p >= 100 ==> PercentileIndex(n, p) == n - 1
    ensures p == 0 ==> PercentileIndex(n, p) == 0
  {
    if p >= 100 {
      ScaledAtLeast(p as real / 100.0, n as real);
    } else {
      assert p as real / 100.0 * n as real == 0.0;
    }
  }

  /**
   `_calculate_percentile`: 0.0 without data; otherwise the sorted element
   at the index. A negative index counts from the end, and one beyond the
   start fails and gives 0.0.
   */
  function Percentile(data: seq<real>, percentile: int): (r: real)
    ensures data == [] ==> r == 0.0
    ensures data != [] && percentile >= 0 ==> r in data
  {
    if data == [] then 0.0
    else
      var n := |data|;
      var k := PercentileIndex(n, percentile);
      if k >= 0 then
        SortAscMembers(data, k);
        SortAsc(data)[k]
      else if -k <= n then
        SortAscMembers(data, n + k);
        SortAsc(data)[n + k]
      else 0.0
  }

  /** A percentile of at least 100 is the largest value, and one of 0 the smallest. */
  lemma PercentileExtremes(data: seq<real>, p: int)
    requires data != [] && (p >= 100 || p == 0)
    ensures p >= 100 ==> forall x :: x in data ==> x <= Percentile(data, p)
    ensures p == 0 ==> forall x :: x in data ==> Percentile(data, p) <= x
  {
    SortAscBounds(data);
    PercentileIndexEnds(|data|, p);
  }

  lemma ScaledAtLeast(f: real, n: real)
    requires f >= 1.0 && n >= 0.0
    ensures f * n >= n
  {
    assert f * n - n == (f - 1.0) * n;
  }

  /** Smallest of a non-empty list. */
  function MinOf(s: seq<real>): (r: real)
    requires s != []
    ensures r in s && forall x :: x in s ==> r <= x
  {
    if |s| == 1 then s[0]
    else
      var rest := MinOf(s[1..]);
      assert forall x :: x in s ==> x == s[0] || x in s[1..];
      MinR(s[0], rest)
  }

  /** Largest of a non-empty list. */
  function MaxOf(s: seq<real>): (r: real)
    requires s != []
    ensures r in s && forall x :: x in s ==> x <= r
  {
    if |s| == 1 then s[0]
    else
      var rest := MaxOf(s[1..]);
      assert forall x :: x in s ==> x == s[0] || x in s[1..];
      MaxR(s[0], rest)
  }

  /** The summary statistics of some durations with some failures. */
  datatype Stats = Stats(total: nat, errorCount: nat, errorRate: real, avg: real, min: real, max: real,
                         p95: real, p99: Option<real>)

  /** `error_count / total_count`, in [0, 1] when failures never outnumber operations. */
  function ErrorRate(errors: nat, total: nat): (r: real)
    ensures errors <= total ==> 0.0 <= r <= 1.0
    ensures total == 0 ==> r == 0.0
    ensures errors == 0 ==> r == 0.0
  {
    if total > 0 then Fraction(errors, total) else 0.0
  }

  /** The statistics of a list of durations: all zeros when empty (and no 99th percentile). */
  function Summarise(durations: seq<real>, errors: nat): (s: Stats)
    ensures durations == [] ==> s == Stats(0, 0, 0.0, 0.0, 0.0, 0.0, 0.0, None)
    ensures durations != [] ==>
      (s.total == |durations| && s.errorCount == errors && s.errorRate == ErrorRate(errors, |durations|)
       && s.min in durations && s.max in durations && s.p95 in durations
       && s.p99.Some? && s.p99.value in durations
       && s.min <= s.p95 <= s.max && s.min <= s.p99.value <= s.max && s.min <= s.avg <= s.max
       && forall x :: x in durations ==> s.min <= x <= s.max)
  {
    if durations == [] then Stats(0, 0, 0.0, 0.0, 0.0, 0.0, 0.0, None)
    else
      var lo := MinOf(durations);
      var hi := MaxOf(durations);
      var p95 := Percentile(durations, 95);
      var p99 := Percentile(durations, 99);
      Stats(|durations|, errors, ErrorRate(errors, |durations|),
            MeanOf(durations), lo, hi, p95, Some(p99))
  }

  /** `statistics.mean`: the sum over the count, which lies between the extremes. */
  function MeanOf(s: seq<real>): (r: real)
    requires s != []
    ensures MinOf(s) <= r <= MaxOf(s)
  {
    var sum := SumR(s);
    var n := |s| as real;
    SumBetween(s, MinOf(s), MaxOf(s));
    DivBetween(sum, n, MinOf(s), MaxOf(s));
    sum / n
  }

  lemma {:induction false} SumBetween(s: seq<real>, lo: real, hi: real)
    requires forall x :: x in s ==> lo <= x <= hi
    ensures |s| as real * lo <= SumR(s) <= |s| as real * hi
  {
    if s != [] {
      assert forall x :: x in s[1..] ==> x in s;
      SumBetween(s[1..], lo, hi);
      var k := |s[1..]| as real;
      assert |s| as real == k + 1.0;
      assert (k + 1.0) * lo == k * lo + lo;
      assert (k + 1.0) * hi == k * hi + hi;
      assert s[0] in s;
    }
  }

  lemma DivBetween(sum: real, n: real, lo: real, hi: real)
    requires n > 0.0 && n * lo <= sum <= n * hi
    ensures lo <= sum / n <= hi
  {
  }

  /** `get_operation_stats`. */
  function OperationStats(m: Monitor, name: string): (s: Stats)
    requires Valid(m)
    ensures s.total == |DurationsOf(m, name)|
    ensures 0.0 <= s.errorRate <= 1.0
    ensures s.total > 0 ==> s.errorCount == ErrorsOf(m, name)
  {
    Summarise(DurationsOf(m, name), ErrorsOf(m, name))
  }

  /** Failures are always counted within the operations recorded under the same name. */
  lemma ErrorsWithinOperations(m: Monitor, name: string)
    requires Valid(m)
    ensures ErrorsOf(m, name) <= |DurationsOf(m, name)|
  {
  }

  /** Every name's durations, in the order names were first recorded. */
  function AllDurations(m: Monitor, names: seq<string>): (d: seq<real>)
    requires forall i :: 0 <= i < |names| ==> names[i] in m.durations.m
  {
    if names == [] then [] else m.durations.m[names[0]] + AllDurations(m, names[1..])
  }

  /** The failures of every name. */
  function AllErrors(m: Monitor, names: seq<string>): (n: nat)
    requires forall i :: 0 <= i < |names| ==> names[i] in m.durations.m
  {
    if names == [] then 0 else ErrorsOf(m, names[0]) + AllErrors(m, names[1..])
  }

  /** Over any names, the failures never outnumber the durations. */
  lemma {:induction false} AllErrorsWithin(m: Monitor, names: seq<string>)
    requires Valid(m)
    requires forall i :: 0 <= i < |names| ==> names[i] in m.durations.m
    ensures AllErrors(m, names) <= |AllDurations(m, names)|
  {
    if names != [] {
      AllErrorsWithin(m, names[1..]);
    }
  }

  /** `get_overall_stats`: the statistics over every recorded duration, with each name's own. */
  function OverallStats(m: Monitor): (r: (Stats, map<string, Stats>))
    requires Valid(m)
    ensures r.0.total == |AllDurations(m, m.durations.order)|
    ensures 0.0 <= r.0.errorRate <= 1.0
    ensures r.1.Keys == m.durations.m.Keys
    ensures forall n :: n in r.1 ==> r.1[n] == OperationStats(m, n)
  {
    var names := m.durations.order;
    AllErrorsWithin(m, names);
    var all := AllDurations(m, names);
    (Summarise(all, if all == [] then 0 else AllErrors(m, names)),
     map n | n in m.durations.m :: OperationStats(m, n))
  }

  /** `list(history)[-limit:]`: a positive limit keeps the latest entries, zero keeps them all, a negative one drops that many from the front. */
  function Recent(m: Monitor, limit: int): (r: seq<Metric>)
    ensures limit > 0 ==> r == TakeLast(m.history, limit)
    ensures limit == 0 ==> r == m.history
    ensures limit < 0 ==> r == m.history[Min(-limit, |m.history|)..]
  {
    FromEnd(m.history, limit)
  }

  /** Asking for the latest zero metrics returns the whole history, because `[-0:]` is the whole list. */
  lemma ZeroLimitReturnsAll(m: Monitor)
    ensures Recent(m, 0) == m.history
  {
  }

  /** Metrics started within the last hour. */
  function RecentHourCount(m: Monitor, now: real): (n: nat)
    ensures n <= |m.history|
  {
    Count((x: Metric) => x.start >= now - 3600.0, m.history)
  }

  /** `_check_thresholds`: whether the latency and error-rate warnings fire for a finished metric. */
  function Warnings(m: Monitor, metric: Metric): (r: (bool, bool))
    ensures r.0 <==> metric.duration != 0.0 && metric.duration > m.latencyThreshold
    ensures r.1 <==> |DurationsOf(m, metric.name)| > 0
                     && ErrorRate(ErrorsOf(m, metric.name), |DurationsOf(m, metric.name)|) > m.errorRateThreshold
  {
    var total := |DurationsOf(m, metric.name)|;
    (metric.duration != 0.0 && metric.duration > m.latencyThreshold,
     total > 0 && ErrorRate(ErrorsOf(m, metric.name), total) > m.errorRateThreshold)
  }

  /** After an operation ends, its name has at least one duration, so the error-rate check always runs. */
  lemma EndedNameHasDurations(m: Monitor, id: string, success: bool, error: Option<string>, now: real)
    requires m.durations.Valid() && id in m.current
    ensures |DurationsOf(EndOperation(m, id, success, error, now).0, m.current[id].name)| > 0
  {
  }

  datatype Summary = Summary(overall: Stats, running: nat, recent: seq<Metric>, lastHour: nat)

  /** `get_performance_summary`: overall statistics, the operations in flight, the latest 50 metrics and the count of the last hour. */
  function PerformanceSummary(m: Monitor, now: real): (r: Summary)
    requires Valid(m)
    ensures r.overall == OverallStats(m).0 && r.running == |m.current|
    ensures r.recent == TakeLast(m.history, 50) && |r.recent| <= 50
    ensures r.lastHour <= |m.history|
  {
    Summary(OverallStats(m).0, |m.current|, Recent(m, 50), RecentHourCount(m, now))
  }

  /** Right after an operation ends, the summary shows it as the latest metric and one fewer operation in flight. */
  lemma SummaryShowsEnded(m: Monitor, id: string, success: bool, error: Option<string>, now: real, later: real)
    requires Valid(m) && id in m.current && m.maxHistory > 0
    ensures var (m2, metric) := EndOperation(m, id, success, error, now);
      Valid(m2)
      && var r := PerformanceSummary(m2, later);
      |r.recent| > 0 && r.recent[|r.recent| - 1] == metric.value && r.running == |m.current| - 1
  {
    EndKeepsValid(m, id, success, error, now);
    var (m2, metric) := EndOperation(m, id, success, error, now);
    assert m2.history == BoundedAppend(m.history, metric.value, m.maxHistory);
    assert m2.current == m.current - {id};
  }

  /** `reset_stats`: every store emptied and every counter zeroed; the configuration stays. */
  function Reset(m: Monitor): (r: Monitor)
    ensures r == New(m.maxHistory, m.latencyThreshold, m.errorRateThreshold)
    ensures Valid(r)
  {
    Monitor(m.maxHistory, m.latencyThreshold, m.errorRateThreshold, [], EmptyDict(), map[], map[], [], 0, 0, 0, 0)
  }

  /** After a reset the overall statistics are all zeros and no operation is in flight. */
  lemma ResetClears(m: Monitor)
    ensures Valid(Reset(m))
    ensures OverallStats(Reset(m)).0 == Stats(0, 0, 0.0, 0.0, 0.0, 0.0, 0.0, None)
    ensures Reset(m).current == map[] && Reset(m).history == []
  {
  }

  /* -------------------------------------------------------- domain metrics */

  /** `record_creator_result`: one more decision and score; an accept, in any letter case, is counted. */
  function RecordCreatorResult(m: Monitor, score: real, decision: string): (r: Monitor)
    requires Valid(m)
    ensures Valid(r)
    ensures r.creatorTotal == m.creatorTotal + 1 && r.creatorScores == m.creatorScores + [score]
    ensures r.creatorAccepts == m.creatorAccepts + (if Lower(decision) == "accept" then 1 else 0)
  {
    m.(creatorTotal := m.creatorTotal + 1,
       creatorScores := m.creatorScores + [score],
       creatorAccepts := m.creatorAccepts + (if Lower(decision) == "accept" then 1 else 0))
  }

  /** `record_mission_recommendation`: one more request; a positive count is added. */
  function RecordMissionRecommendation(m: Monitor, count: int): (r: Monitor)
    ensures r.missionRequests == m.missionRequests + 1
    ensures r.missionRecommended == m.missionRecommended + Max(count, 0)
    ensures Valid(m) ==> Valid(r)
  {
    m.(missionRequests := m.missionRequests + 1,
       missionRecommended := m.missionRecommended + (if count > 0 then count else 0))
  }

  datatype Domain = Domain(avgScore: real, acceptRate: real, total: nat, avgMissions: real, requests: nat)

  /** `get_domain_metrics`: averages and the accept rate, each 0.0 when nothing was recorded. */
  function DomainMetrics(m: Monitor): (d: Domain)
    requires Valid(m)
    ensures 0.0 <= d.acceptRate <= 1.0 && d.avgMissions >= 0.0
    ensures m.creatorTotal == 0 ==> d.avgScore == 0.0 && d.acceptRate == 0.0
    ensures m.missionRequests == 0 ==> d.avgMissions == 0.0
    ensures d.total == m.creatorTotal && d.requests == m.missionRequests
  {
    Domain(if m.creatorScores == [] then 0.0 else SumR(m.creatorScores) / |m.creatorScores| as real,
           ErrorRate(m.creatorAccepts, m.creatorTotal),
           m.creatorTotal,
           if m.missionRequests > 0 then m.missionRecommended as real / m.missionRequests as real else 0.0,
           m.missionRequests)
  }

  /** After one accepted and one rejected creator the accept rate is one half. */
  lemma AcceptRateExample(m: Monitor)
    requires Valid(m) && m.creatorTotal == 0
    ensures DomainMetrics(RecordCreatorResult(RecordCreatorResult(m, 80.0, "ACCEPT"), 40.0, "reject")).acceptRate == 0.5
  {
    var m2 := RecordCreatorResult(RecordCreatorResult(m, 80.0, "ACCEPT"), 40.0, "reject");
    assert Lower("ACCEPT") == "accept";
    assert Lower("reject") != "accept" by { assert Lower("reject")[0] == 'r'; }
    assert m2.creatorAccepts == 1 && m2.creatorTotal == 2;
  }
}

=== FILE: py_float.dfy ===
/**
 Python's `float(v)` on the loosely typed values of `PyScalars`, read
 exactly (no rounding to 53 bits), and its agreement with the lenient integer
 reader: on comma-free text `_to_num` is `int(float(v))`.
 */
module PyFloat {
  import opened Common
  import opened PyScalars

  /** Ten to an integer power, as a real. */
  function TenTo(e: int): (r: real)
    ensures r > 0.0
    ensures e >= 0 ==> r == Pow10(e) as real
  {
    if e >= 0 then Pow10(e) as real else 1.0 / Pow10(-e) as real
  }

  /** `m` times ten to the power `d`, exactly. */
  function Scaled(m: nat, d: int): (r: real)
    ensures r >= 0.0
  {
    m as real * TenTo(d)
  }

  /** An unsigned number read exactly: the mantissa's digits times ten to the exponent less the fraction digits. */
  function UnsignedReal(body: string): (r: Option<real>)
    ensures r.Some? <==> Unsigned(body).Some?
    ensures r.Some? ==> r.value >= 0.0
  {
    var e := ExpIndex(body);
    var mantissa := Mantissa(body[..e]);
    var exponent := if e < |body| then ExponentValue(body[e + 1..]) else Some(0);
    if mantissa.Some? && exponent.Some? then Some(Scaled(mantissa.value.0, exponent.value - mantissa.value.1))
    else None
  }

  /**
   `float(s)` on a stripped string, read exactly: an optional sign, then an
   unsigned number. `None` where `float` raises; it accepts exactly the text
   the integer reader accepts.
   */
  function ParseReal(s: string): (r: Option<real>)
    ensures r.Some? <==> ParseTrunc(s).Some?
    ensures r.Some? && r.value < 0.0 ==> s[0] == '-'
  {
    var signed := |s| > 0 && (s[0] == '-' || s[0] == '+');
    var magnitude := UnsignedReal(if signed then s[1..] else s);
    if magnitude.None? then None
    else if signed && s[0] == '-' then Some(-magnitude.value)
    else Some(magnitude.value)
  }

  /**
   Python's `float(v)`: `None` where it raises, a TypeError for `None` and a
   ValueError for text that is not a number. Booleans read as 1 and 0, and
   text is stripped but keeps its commas.
   */
  function ToFloat(v: Scalar): (r: Option<real>)
    ensures r.None? <==> v.SNone? || (v.SStr? && ParseTrunc(Strip(v.s)).None?)
    ensures v.SFloat? ==> r == Some(v.x)
    ensures v.SInt? ==> r == Some(v.i as real)
  {
    match v
    case SNone => None
    case SBool(b) => Some(if b then 1.0 else 0.0)
    case SInt(i) => Some(i as real)
    case SFloat(x) => Some(x)
    case SStr(s) => ParseReal(Strip(s))
  }

  /** Division of naturals is unique: a quotient and remainder in range are the ones `/` gives. */
  lemma DivUnique(m: nat, n: nat, q: nat, r: nat)
    requires n > 0 && m == q * n + r && r < n
    ensures m / n == q
  {
    var q0, r0 := m / n, m % n;
    if q0 < q {
      MulAtLeast(q - q0, n);
      assert false;
    } else if q0 > q {
      MulAtLeast(q0 - q, n);
      assert false;
    }
  }

  /** A positive multiple of `n` is at least `n`. */
  lemma MulAtLeast(k: nat, n: nat)
    requires k > 0
    ensures k * n >= n
  {
    assert k * n == (k - 1) * n + n;
  }

  /** Dropping one digit, then `p` more, is dividing by ten times `p`. */
  lemma DivTenThen(m: nat, p: nat)
    requires p > 0
    ensures (m / 10) / p == m / (10 * p)
  {
    var a, b := m / 10, m % 10;
    var q, r := a / p, a % p;
    assert m == q * (10 * p) + (10 * r + b);
    DivUnique(m, 10 * p, q, 10 * r + b);
  }

  /** A negative shift is integer division by a power of ten. */
  lemma {:induction false} ShiftDown(m: nat, k: nat)
    ensures Shift(m, -(k as int)) == m / Pow10(k)
  {
    if k > 0 {
      ShiftDown(m / 10, k - 1);
      DivTenThen(m, Pow10(k - 1));
    }
  }

  /** Casting to a real commutes with products. */
  lemma RealOfProduct(a: int, b: int)
    ensures (a * b) as real == a as real * b as real
  {
  }

  /** The integer quotient is the floor of the exact one. */
  lemma FloorOfQuotient(m: nat, p: nat)
    requires p > 0
    ensures (m as real / p as real).Floor == m / p
  {
    var q := m / p;
    assert q * p <= m < q * p + p;
    RealOfProduct(q, p);
    var lo, pr := q as real, p as real;
    assert lo * pr <= m as real < lo * pr + pr;
    DivBounds(m as real, pr, lo);
    FloorBetween(m as real / pr, q);
  }

  /** Dividing by a positive number keeps a value between consecutive multiples. */
  lemma DivBounds(a: real, b: real, lo: real)
    requires b > 0.0 && lo * b <= a < lo * b + b
    ensures lo <= a / b < lo + 1.0
  {
    var x := a / b;
    assert x * b == a;
    assert (x - lo) * b == a - lo * b;
    assert (x - lo - 1.0) * b == a - lo * b - b;
    ProductSign(x - lo, b);
    ProductSign(x - lo - 1.0, b);
  }

  /** A factor has the sign of its product with a positive number. */
  lemma ProductSign(y: real, b: real)
    requires b > 0.0
    ensures y < 0.0 ==> y * b < 0.0
    ensures y >= 0.0 ==> y * b >= 0.0
  {
  }

  /** A real between an integer and its successor has that integer as its floor. */
  lemma FloorBetween(x: real, q: int)
    requires q as real <= x < q as real + 1.0
    ensures x.Floor == q
  {
  }

  /** A shift is the floor of the exact scaled value. */
  lemma ShiftIsFloor(m: nat, d: int)
    ensures Scaled(m, d).Floor == Shift(m, d)
  {
    if d >= 0 {
      ShiftUpIsFloor(m, d);
    } else {
      ShiftDownIsFloor(m, -d);
    }
  }

  lemma ShiftUpIsFloor(m: nat, d: nat)
    ensures Scaled(m, d).Floor == Shift(m, d)
  {
    var p := Pow10(d);
    ShiftUp(m, d);
    RealOfProduct(m, p);
    assert Scaled(m, d) == (m * p) as real;
  }

  lemma ShiftDownIsFloor(m: nat, k: nat)
    requires k > 0
    ensures Scaled(m, -(k as int)).Floor == Shift(m, -(k as int))
  {
    var p := Pow10(k);
    ShiftDown(m, k);
    FloorOfQuotient(m, p);
    assert TenTo(-(k as int)) == 1.0 / p as real;
    assert Scaled(m, -(k as int)) == m as real / p as real;
  }

  /** The integer reader's value of an unsigned number is the floor of its exact value. */
  lemma UnsignedIsFloor(body: string)
    requires Unsigned(body).Some?
    ensures Unsigned(body).value == UnsignedReal(body).value.Floor
  {
    var e := ExpIndex(body);
    var mantissa := Mantissa(body[..e]);
    var exponent := if e < |body| then ExponentValue(body[e + 1..]) else Some(0);
    var d := exponent.value - mantissa.value.1;
    assert Unsigned(body) == Some(Shift(mantissa.value.0, d));
    assert UnsignedReal(body) == Some(Scaled(mantissa.value.0, d));
    ShiftIsFloor(mantissa.value.0, d);
  }

  /** `int(float(s))`: the integer reader truncates exactly what `float` reads. */
  lemma {:induction false} ParseTruncOfReal(s: string)
    requires ParseReal(s).Some?
    ensures ParseTrunc(s) == Some(Trunc(ParseReal(s).value))
  {
    var signed := |s| > 0 && (s[0] == '-' || s[0] == '+');
    UnsignedIsFloor(if signed then s[1..] else s);
  }

  /**
   On text without commas `_to_num` is `int(float(v))`, falling back to the
   default exactly where `float(v)` raises; on every other scalar but `None`
   it truncates what `float(v)` gives.
   */
  lemma {:induction false} ToIntTruncatesToFloat(v: Scalar, default: int)
    requires v.SStr? ==> ',' !in v.s
    ensures v.SNone? || ToFloat(v).None? <==> ToInt(v, default) == default && ToFloat(v).None?
    ensures ToFloat(v).Some? ==> ToInt(v, default) == Trunc(ToFloat(v).value)
  {
    if v.SStr? {
      FilterKeepsAll(NotComma, v.s);
      assert RemoveCommas(v.s) == v.s;
      if ParseReal(Strip(v.s)).Some? {
        ParseTruncOfReal(Strip(v.s));
      }
    }
  }
}

=== FILE: py_scalars.dfy ===
/**
 Loosely typed values as the agents read them out of request dictionaries,
 with Python's truthiness and the lenient integer conversion `_to_int` /
 `_to_num` that several agents share: `None` gives the default, numbers are
 truncated toward zero, and text has its commas removed, is stripped and is
 read with Python's float syntax (a sign, digit groups joined by single
 underscores, a fraction, an exponent), then truncated toward zero.
 */
module PyScalars {
  import opened Common

  datatype Scalar = SNone | SBool(b: bool) | SInt(i: int) | SFloat(x: real) | SStr(s: string)

  /** Python's truth value of a scalar. */
  predicate Truthy(v: Scalar) {
    match v
    case SNone => false
    case SBool(b) => b
    case SInt(i) => i != 0
    case SFloat(x) => x != 0.0
    case SStr(s) => s != ""
  }

  /** Python's `a or b`. */
  function Or(a: Scalar, b: Scalar): (r: Scalar)
    ensures Truthy(a) ==> r == a
    ensures !Truthy(a) ==> r == b
  {
    if Truthy(a) then a else b
  }

  predicate IsDigit(c: char) { '0' <= c <= '9' }

  predicate AllDigits(s: string) { forall i :: 0 <= i < |s| ==> IsDigit(s[i]) }

  /** The value of a string of decimal digits, read left to right (a non-digit counts as 0, and never occurs). */
  function DigitsValue(s: string): (n: nat)
    decreases |s|
  {
    if |s| == 0 then 0
    else DigitsValue(s[..|s| - 1]) * 10 + (if IsDigit(s[|s| - 1]) then s[|s| - 1] as int - '0' as int else 0)
  }

  /** The position of the first '.', or the length when there is none. */
  function DotIndex(s: string): (i: nat)
    ensures i <= |s|
    ensures forall j :: 0 <= j < i ==> s[j] != '.'
    ensures i < |s| ==> s[i] == '.'
  {
    if |s| == 0 then 0 else if s[0] == '.' then 0 else 1 + DotIndex(s[1..])
  }

  predicate IsExpMark(c: char) { c == 'e' || c == 'E' }

  /** The position of the first exponent mark, or the length when there is none. */
  function ExpIndex(s: string): (i: nat)
    ensures i <= |s|
    ensures forall j :: 0 <= j < i ==> !IsExpMark(s[j])
    ensures i < |s| ==> IsExpMark(s[i])
  {
    if |s| == 0 then 0 else if IsExpMark(s[0]) then 0 else 1 + ExpIndex(s[1..])
  }

  predicate DigitOrUnderscore(c: char) { IsDigit(c) || c == '_' }

  /** A digit group of Python's float syntax, `digit (["_"] digit)*`: single underscores between digits. */
  predicate IsDigitPart(s: string)
    decreases |s|
  {
    |s| > 0 && IsDigit(s[0])
    && (|s| == 1 || (if s[1] == '_' then IsDigitPart(s[2..]) else IsDigitPart(s[1..])))
  }

  /** The digits of a digit group, underscores dropped. */
  function GroupDigits(s: string): (r: string)
    requires IsDigitPart(s)
    ensures 0 < |r| <= |s|
    decreases |s|
  {
    var rest := if |s| == 1 then "" else if s[1] == '_' then GroupDigits(s[2..]) else GroupDigits(s[1..]);
    var r := [s[0]] + rest;
    assert forall i :: 1 <= i < |r| ==> r[i] == rest[i - 1];
    r
  }

  /** Every character of a digit group is a digit or an underscore. */
  lemma {:induction false} GroupChars(s: string, k: nat)
    requires IsDigitPart(s) && k < |s|
    ensures DigitOrUnderscore(s[k])
    decreases |s|
  {
    if k > 0 {
      if s[1] == '_' {
        if k > 1 { GroupChars(s[2..], k - 2); }
      } else {
        GroupChars(s[1..], k - 1);
      }
    }
  }

  /** A run of digits is a digit group of its own digits. */
  lemma {:induction false} DigitsAreGroup(s: string)
    requires AllDigits(s) && |s| > 0
    ensures IsDigitPart(s) && GroupDigits(s) == s
    decreases |s|
  {
    if |s| > 1 {
      assert AllDigits(s[1..]);
      DigitsAreGroup(s[1..]);
      assert s == [s[0]] + s[1..];
    }
  }

  function Pow10(n: nat): (r: nat)
    ensures r >= 1
  {
    if n == 0 then 1 else 10 * Pow10(n - 1)
  }

  /** `m` times ten to the power `d`, truncated toward zero when `d` is negative. */
  function Shift(m: nat, d: int): nat
    decreases if d >= 0 then d else -d
  {
    if d == 0 then m
    else if d > 0 then 10 * Shift(m, d - 1)
    else Shift(m / 10, d + 1)
  }

  /** A non-negative shift multiplies by a power of ten. */
  lemma {:induction false} ShiftUp(m: nat, d: nat)
    ensures Shift(m, d) == m * Pow10(d)
  {
    if d > 0 {
      ShiftUp(m, d - 1);
      assert 10 * (m * Pow10(d - 1)) == m * (10 * Pow10(d - 1));
    }
  }

  /** The exponent after the mark: an optional sign, then a digit group. */
  function ExponentValue(s: string): (r: Option<int>)
  {
    var digits := if |s| > 0 && (s[0] == '-' || s[0] == '+') then s[1..] else s;
    if IsDigitPart(digits) then
      var v := DigitsValue(GroupDigits(digits));
      Some(if |s| > 0 && s[0] == '-' then -(v as int) else v)
    else None
  }

  /**
   A mantissa of digit groups around an optional point, at least one group:
   its digits read as one number, and the number of fraction digits.
   */
  function Mantissa(m: string): (r: Option<(nat, nat)>)
  {
    var dot := DotIndex(m);
    var whole, frac := m[..dot], if dot < |m| then m[dot + 1..] else "";
    if (whole == "" || IsDigitPart(whole)) && (frac == "" || IsDigitPart(frac)) && |whole| + |frac| > 0 then
      var w, f := if whole == "" then "" else GroupDigits(whole), if frac == "" then "" else GroupDigits(frac);
      Some((DigitsValue(w + f), |f|))
    else None
  }

  /** An unsigned number: a mantissa, then an optional exponent after an 'e' or 'E'; its value truncated. */
  function Unsigned(body: string): (r: Option<nat>)
  {
    var e := ExpIndex(body);
    var mantissa := Mantissa(body[..e]);
    var exponent := if e < |body| then ExponentValue(body[e + 1..]) else Some(0);
    if mantissa.Some? && exponent.Some? then Some(Shift(mantissa.value.0, exponent.value - mantissa.value.1))
    else None
  }

  /**
   `int(float(s))` on a stripped string: an optional sign, then an unsigned
   number, truncated toward zero. Anything else makes `float` raise and is
   refused, which covers "inf" and "nan" too, since `int` raises on those.
   */
  function ParseTrunc(s: string): (r: Option<int>)
  {
    var signed := |s| > 0 && (s[0] == '-' || s[0] == '+');
    var magnitude := Unsigned(if signed then s[1..] else s);
    if magnitude.None? then None
    else if signed && s[0] == '-' then Some(-(magnitude.value as int))
    else Some(magnitude.value)
  }

  predicate NotComma(c: char) { c != ',' }

  /** `str.replace(",", "")`. */
  function RemoveCommas(s: string): (r: string)
    ensures forall c :: c in r <==> c in s && c != ','
  {
    Filter(NotComma, s)
  }

  /** `_to_int(v, default)` / `_to_num(v, default)`. */
  function ToInt(v: Scalar, default: int): (r: int)
  {
    match v
    case SNone => default
    case SBool(b) => if b then 1 else 0
    case SInt(i) => i
    case SFloat(x) => Trunc(x)
    case SStr(s) =>
      match ParseTrunc(Strip(RemoveCommas(s)))
      case Some(n) => n
      case None => default
  }

  /** Reading back the digits `str(n)` writes gives `n`. */
  lemma {:induction false} DigitsRoundTrip(n: nat)
    ensures AllDigits(NatToString(n)) && DigitsValue(NatToString(n)) == n
    decreases n
  {
    var s := NatToString(n);
    assert forall i :: 0 <= i < |s| ==> s[i] in s;
    if n >= 10 {
      DigitsRoundTrip(n / 10);
      var p := NatToString(n / 10);
      assert s == p + [('0' as int + n % 10) as char];
      assert s[..|s| - 1] == p;
    }
  }

  /** A number written out in decimal converts back to itself. */
  lemma ToIntOfDecimalText(n: nat, default: int)
    ensures ToInt(SStr(NatToString(n)), default) == n
  {
    var s := NatToString(n);
    DecimalTextIsClean(n);
    ParseOfDigits(s);
  }

  /** Decimal text has no commas and no surrounding space. */
  lemma DecimalTextIsClean(n: nat)
    ensures var s := NatToString(n);
      AllDigits(s) && |s| > 0 && DigitsValue(s) == n && Strip(RemoveCommas(s)) == s
  {
    var s := NatToString(n);
    DigitsRoundTrip(n);
    assert s[0] in s && s[|s| - 1] in s;
    FilterKeepsAll(NotComma, s);
    assert RemoveCommas(s) == s;
    StripOfUnspaced(s);
  }

  /** A non-empty run of digits parses to its value. */
  lemma ParseOfDigits(s: string)
    requires AllDigits(s) && |s| > 0
    ensures ParseTrunc(s) == Some(DigitsValue(s))
  {
    DigitsAreGroup(s);
    ParseOfGroup(s);
  }

  /** A digit group with no point, like "1_000", parses to its digits with the underscores dropped. */
  lemma ParseOfGroup(s: string)
    requires IsDigitPart(s)
    ensures ParseTrunc(s) == Some(DigitsValue(GroupDigits(s)))
  {
    assert s[0] != '-' && s[0] != '+';
    MantissaOfGroup(s);
    assert s[..|s|] == s;
    assert Unsigned(s) == Some(Shift(DigitsValue(GroupDigits(s)), 0));
  }

  lemma NoMarkInGroup(s: string)
    requires IsDigitPart(s)
    ensures ExpIndex(s) == |s| && DotIndex(s) == |s|
  {
    forall i | 0 <= i < |s|
      ensures !IsExpMark(s[i]) && s[i] != '.'
    {
      GroupChars(s, i);
    }
  }

  /** A mantissa that is one digit group has no fraction digits. */
  lemma MantissaOfGroup(s: string)
    requires IsDigitPart(s)
    ensures ExpIndex(s) == |s| && DotIndex(s) == |s|
    ensures Mantissa(s) == Some((DigitsValue(GroupDigits(s)), 0))
  {
    NoMarkInGroup(s);
    assert s[..|s|] == s;
    assert GroupDigits(s) + "" == GroupDigits(s);
  }

  /** Scientific notation such as "1e3": the mantissa's digits times ten to the exponent. */
  lemma ParseOfExponent(m: string, x: string)
    requires AllDigits(m) && |m| > 0 && AllDigits(x) && |x| > 0
    ensures ParseTrunc(m + "e" + x) == Some(DigitsValue(m) * Pow10(DigitsValue(x)))
  {
    ParseOfExponentShift(m, x);
    ShiftUp(DigitsValue(m), DigitsValue(x));
  }

  lemma ParseOfExponentShift(m: string, x: string)
    requires AllDigits(m) && |m| > 0 && AllDigits(x) && |x| > 0
    ensures ParseTrunc(m + "e" + x) == Some(Shift(DigitsValue(m), DigitsValue(x)))
  {
    DigitsAreGroup(m);
    ExpMarkAt(m, x);
    MantissaOfGroup(m);
    ExponentOfDigits(x);
    var d, k := DigitsValue(m), DigitsValue(x);
    assert k - 0 == k;
    ParseOfParts(m + "e" + x, |m|, d, 0, k);
  }

  /** An unsigned text whose mantissa and exponent both read parses to their combination. */
  lemma ParseOfParts(t: string, e: nat, digits: nat, fracLen: nat, exponent: int)
    requires e < |t| && t[0] != '-' && t[0] != '+' && ExpIndex(t) == e
    requires Mantissa(t[..e]) == Some((digits, fracLen)) && ExponentValue(t[e + 1..]) == Some(exponent)
    ensures ParseTrunc(t) == Some(Shift(digits, exponent - fracLen))
  {
    assert Unsigned(t) == Some(Shift(digits, exponent - fracLen));
  }

  lemma ExpMarkAt(m: string, x: string)
    requires AllDigits(m) && |m| > 0
    ensures var t := m + "e" + x;
      t[0] == m[0] && ExpIndex(t) == |m| && t[..|m|] == m && t[|m| + 1..] == x
  {
    var t := m + "e" + x;
    assert forall j :: 0 <= j < |m| ==> t[j] == m[j] && !IsExpMark(t[j]);
    assert IsExpMark(t[|m|]);
  }

  lemma ExponentOfDigits(x: string)
    requires AllDigits(x) && |x| > 0
    ensures ExponentValue(x) == Some(DigitsValue(x))
  {
    DigitsAreGroup(x);
    assert x[0] != '-' && x[0] != '+';
  }

  /** Text such as "12.7": the fraction digits are cut off, which is truncation toward zero. */
  lemma ParseOfDecimal(w: string, f: string)
    requires AllDigits(w) && |w| > 0 && AllDigits(f)
    ensures ParseTrunc(w + "." + f) == Some(DigitsValue(w))
  {
    var t := w + "." + f;
    DecimalMantissa(w, f);
    var d, k := DigitsValue(w + f), |f|;
    ParseOfMantissa(t, d, k);
    DropFraction(w, f);
  }

  /** Text with no exponent: its value is the mantissa's digits scaled down by the fraction length. */
  lemma ParseOfMantissa(t: string, digits: nat, fracLen: nat)
    requires |t| > 0 && t[0] != '-' && t[0] != '+' && ExpIndex(t) == |t|
    requires Mantissa(t) == Some((digits, fracLen))
    ensures ParseTrunc(t) == Some(Shift(digits, 0 - fracLen))
  {
    assert t[..|t|] == t;
    assert Unsigned(t) == Some(Shift(digits, 0 - fracLen));
  }

  lemma DecimalMantissa(w: string, f: string)
    requires AllDigits(w) && |w| > 0 && AllDigits(f)
    ensures (w + "." + f)[0] == w[0] && ExpIndex(w + "." + f) == |w + "." + f|
    ensures Mantissa(w + "." + f) == Some((DigitsValue(w + f), |f|))
  {
    var t := w + "." + f;
    assert forall j :: 0 <= j < |t| ==> !IsExpMark(t[j]) by {
      assert forall j :: 0 <= j < |w| ==> t[j] == w[j];
      assert forall j :: |w| < j < |t| ==> t[j] == f[j - |w| - 1];
    }
    assert forall j :: 0 <= j < |w| ==> t[j] == w[j] && t[j] != '.';
    assert t[|w|] == '.';
    assert DotIndex(t) == |w|;
    assert t[..|w|] == w && t[|w| + 1..] == f;
    DigitsAreGroup(w);
    if f != "" {
      DigitsAreGroup(f);
    }
  }

  /** Dropping the last digits of a number divides it by ten for each. */
  lemma {:induction false} DropFraction(w: string, f: string)
    requires AllDigits(f)
    ensures Shift(DigitsValue(w + f), -|f|) == DigitsValue(w)
    decreases |f|
  {
    if |f| > 0 {
      var g := f[..|f| - 1];
      assert (w + f)[..|w + f| - 1] == w + g;
      assert (w + f)[|w + f| - 1] == f[|f| - 1];
      assert IsDigit(f[|f| - 1]);
      assert DigitsValue(w + f) / 10 == DigitsValue(w + g);
      assert AllDigits(g);
      DropFraction(w, g);
    } else {
      assert w + f == w;
    }
  }

  /** A character Python's float syntax has no use for: not a digit, underscore, point, sign or exponent mark. */
  predicate Foreign(c: char) {
    !DigitOrUnderscore(c) && c != '.' && c != '-' && c != '+' && !IsExpMark(c)
  }

  /** Removing commas twice is removing them once. */
  lemma {:induction false} RemoveCommasIdempotent(s: string)
    ensures RemoveCommas(RemoveCommas(s)) == RemoveCommas(s)
  {
    var r := RemoveCommas(s);
    FilterKeepsAll(NotComma, r);
  }

  /** Commas never matter: "1,000" reads as "1000". */
  lemma ToIntIgnoresCommas(s: string, default: int)
    ensures ToInt(SStr(s), default) == ToInt(SStr(RemoveCommas(s)), default)
  {
    RemoveCommasIdempotent(s);
  }

  /** `None`, and text holding a character that cannot occur in a number, give the default. */
  lemma ToIntDefaults(s: string, default: int)
    ensures ToInt(SNone, default) == default
    ensures (exists i :: 0 <= i < |Strip(RemoveCommas(s))| && Foreign(Strip(RemoveCommas(s))[i]))
            ==> ToInt(SStr(s), default) == default
  {
    var t := Strip(RemoveCommas(s));
    if exists i :: 0 <= i < |t| && Foreign(t[i]) {
      var i :| 0 <= i < |t| && Foreign(t[i]);
      NoParseWithStrayChar(t, i);
    }
  }

  /** A foreign character anywhere defeats the parse. */
  lemma NoParseWithStrayChar(t: string, i: nat)
    requires i < |t| && Foreign(t[i])
    ensures ParseTrunc(t) == None
  {
    var signed := |t| > 0 && (t[0] == '-' || t[0] == '+');
    var body := if signed then t[1..] else t;
    var k := if signed then i - 1 else i;
    assert 0 <= k < |body| && body[k] == t[i];
    var e := ExpIndex(body);
    if k < e {
      assert body[..e][k] == body[k];
      MantissaStray(body[..e], k);
    } else if k > e {
      assert body[e + 1..][k - e - 1] == body[k];
      ExponentStray(body[e + 1..], k - e - 1);
    }
  }

  lemma MantissaStray(m: string, k: nat)
    requires k < |m| && Foreign(m[k])
    ensures Mantissa(m) == None
  {
    var dot := DotIndex(m);
    if k < dot {
      NotAGroup(m[..dot], k);
    } else if k > dot {
      NotAGroup(m[dot + 1..], k - dot - 1);
    }
  }

  /** A foreign character rules out a digit group. */
  lemma NotAGroup(s: string, k: nat)
    requires k < |s| && Foreign(s[k])
    ensures !IsDigitPart(s)
  {
    if IsDigitPart(s) {
      GroupChars(s, k);
    }
  }

  lemma ExponentStray(x: string, k: nat)
    requires k < |x| && Foreign(x[k])
    ensures ExponentValue(x) == None
  {
    if x[0] == '-' || x[0] == '+' {
      NotAGroup(x[1..], k - 1);
    } else {
      NotAGroup(x, k);
    }
  }

  /** Numbers convert by truncation toward zero. */
  lemma ToIntOfNumbers(i: int, x: real, default: int)
    ensures ToInt(SInt(i), default) == i
    ensures x >= 0.0 ==> ToInt(SFloat(x), default) == x.Floor
    ensures x < 0.0 ==> ToInt(SFloat(x), default) == -((-x).Floor)
  {
  }
}

=== FILE: rag_batch_processor.dfy ===
/**
 Batch generation: one generation call per request, gathered in order, with
 per-item failures replaced by a fixed message.

 The generation engine is a parameter `generate`, whose `None` is a call that
 raised; `gatherFails` is a failure of the gathering itself.
 */
module BatchProcessor {
  import opened Common

  /** The two fields of a request dictionary that are passed on. */
  datatype Request = Request(prompt: Option<string>, context: Option<map<string, string>>)

  const ItemError: string := "Error processing request."
  const BatchError: string := "Error"

  /** The result kept for one gathered item. */
  function ItemResult(outcome: Option<string>): (r: string)
    ensures outcome.Some? ==> r == outcome.value
    ensures outcome.None? ==> r == ItemError
  {
    match outcome
    case Some(text) => text
    case None => ItemError
  }

  /** The loop over the gathered results, in request order. */
  function Gathered(requests: seq<Request>, generate: Request -> Option<string>): (r: seq<string>)
    ensures |r| == |requests|
  {
    if |requests| == 0 then [] else [ItemResult(generate(requests[0]))] + Gathered(requests[1..], generate)
  }

  /** Item `i` of the gathered list is the treated outcome of request `i`. */
  lemma {:induction false} GatheredAt(requests: seq<Request>, generate: Request -> Option<string>, i: nat)
    requires i < |requests|
    ensures Gathered(requests, generate)[i] == ItemResult(generate(requests[i]))
    decreases |requests|
  {
    if i > 0 {
      GatheredAt(requests[1..], generate, i - 1);
    }
  }

  /** `process_batch`. */
  function ProcessBatch(requests: seq<Request>, generate: Request -> Option<string>, gatherFails: bool): (r: seq<string>)
    ensures |r| == |requests|
    ensures |requests| > 0 && gatherFails ==> forall i :: 0 <= i < |r| ==> r[i] == BatchError
    ensures !gatherFails ==> forall i :: 0 <= i < |r| ==>
      (generate(requests[i]).Some? ==> r[i] == generate(requests[i]).value)
      && (generate(requests[i]).None? ==> r[i] == ItemError)
  {
    forall i | 0 <= i < |requests| {
      GatheredAt(requests, generate, i);
    }
    if |requests| == 0 then []
    else if gatherFails then seq(|requests|, _ => BatchError)
    else Gathered(requests, generate)
  }

  /**
   Items are independent: processing a batch is processing its two halves and
   concatenating, so no item's result depends on its neighbours.
   */
  lemma {:induction false} GatheredSplits(a: seq<Request>, b: seq<Request>, generate: Request -> Option<string>)
    ensures Gathered(a + b, generate) == Gathered(a, generate) + Gathered(b, generate)
    decreases |a|
  {
    if |a| == 0 {
      assert a + b == b;
    } else {
      GatheredSplits(a[1..], b, generate);
      assert (a + b)[1..] == a[1..] + b;
    }
  }

  lemma BatchSplits(a: seq<Request>, b: seq<Request>, generate: Request -> Option<string>)
    ensures ProcessBatch(a + b, generate, false) == ProcessBatch(a, generate, false) + ProcessBatch(b, generate, false)
  {
    GatheredSplits(a, b, generate);
    if |a| == 0 { assert a + b == b; }
    if |b| == 0 { assert a + b == a; }
  }
}

=== FILE: rag_context_builder.dfy ===
/**
 The context prompt builder: six markdown sections (system, user profile,
 task, retrieved documents, history, query) joined by blank lines, with a
 character budget on the retrieved documents.

 Dictionaries are lists of key/value pairs in insertion order. The clock's
 formatted time and Python's `str()` of a non-string value are parameters.
 */
module ContextBuilder {
  import opened Common

  /**
   A dictionary value, as far as truthiness and type tests need to see it.
   `MixedList` is a list whose first item is a string and some later item is
   not; `OtherList` is any other list that is not all strings.
   */
  datatype Value =
    | Str(s: string)
    | Int(i: int)
    | Num(x: real)
    | Bool(b: bool)
    | StrList(items: seq<string>)
    | MixedList(head: string)
    | OtherList(nonEmpty: bool)
    | Other(truthy: bool)

  /** Python truthiness. */
  predicate Truthy(v: Value) {
    match v
    case Str(s) => s != ""
    case Int(i) => i != 0
    case Num(x) => x != 0.0
    case Bool(b) => b
    case StrList(items) => |items| > 0
    case MixedList(_) => true
    case OtherList(nonEmpty) => nonEmpty
    case Other(truthy) => truthy
  }

  /** `isinstance(v, (str, int, float, bool))`. */
  predicate IsScalar(v: Value) {
    v.Str? || v.Int? || v.Num? || v.Bool?
  }

  /** A retrieved document. */
  datatype Doc = Doc(content: Option<string>, pageContent: Option<string>, source: Option<string>)

  /** A history message. */
  datatype Message = Message(role: Option<string>, content: Option<string>)

  const BlankLine: string := "\n\n"
  const TruncationMark: string := "\n...\n[TRUNCATED]"
  const MiddleMark: string := "\n...\n[TRUNCATED]\n...\n"
  const HistoryWindow: nat := 20
  const MinDocCap: int := 800
  const MaxDocCap: int := 8000

  /* ---------------------------------------------------------------- sections */

  /** `_build_system_section`; `os` is `None` when there is no context or it lacks the key. */
  function SystemSection(now: string, os: Option<string>): (r: string)
    ensures |r| > 0
  {
    var shown := match os case Some(v) => v case None => "Unknown";
    var lines := ["### System Context", "- Current Time: " + now, "- OS/Environment: " + shown];
    JoinStartsWithFirst("\n", lines);
    Join("\n", lines)
  }

  /** ASCII letters, the characters `str.title` treats as cased. */
  predicate IsCased(c: char) { 'a' <= c <= 'z' || 'A' <= c <= 'Z' }

  /** Character `i` of `s.title()`: upper case at the start of a run of cased characters, lower case inside one. */
  function TitleChar(s: string, i: nat): char
    requires i < |s|
  {
    if i == 0 || !IsCased(s[i - 1]) then UpperChar(s[i]) else LowerChar(s[i])
  }

  /** `str.title`. */
  function Title(s: string): (r: string)
    ensures |r| == |s|
    ensures forall i :: 0 <= i < |s| ==> r[i] == TitleChar(s, i)
  {
    seq(|s|, i requires 0 <= i < |s| => TitleChar(s, i))
  }

  /** `k.replace('_', ' ')`. */
  function Unsnake(k: string): (r: string)
    ensures |r| == |k| && '_' !in r
  {
    seq(|k|, i requires 0 <= i < |k| => if k[i] == '_' then ' ' else k[i])
  }

  function UserLine(k: string, v: Value, show: Value -> string): string {
    "- " + Title(Unsnake(k)) + ": " + show(v)
  }

  /** The profile lines: one per truthy value, in order. */
  function UserLines(ctx: seq<(string, Value)>, show: Value -> string): (r: seq<string>)
    ensures |r| == Count((kv: (string, Value)) => Truthy(kv.1), ctx)
    ensures forall line :: line in r ==> exists kv :: kv in ctx && Truthy(kv.1) && line == UserLine(kv.0, kv.1, show)
  {
    if |ctx| == 0 then []
    else
      var rest := UserLines(ctx[1..], show);
      assert forall kv :: kv in ctx[1..] ==> kv in ctx;
      if Truthy(ctx[0].1) then [UserLine(ctx[0].0, ctx[0].1, show)] + rest else rest
  }

  /** `_build_user_section`. */
  function UserSection(ctx: seq<(string, Value)>, show: Value -> string): (r: string)
    ensures r == "" <==> |ctx| == 0
  {
    if |ctx| == 0 then ""
    else
      var lines := ["### User Profile"] + UserLines(ctx, show);
      JoinStartsWithFirst("\n", lines);
      Join("\n", lines)
  }

  /** What one task-context entry gives: a line, nothing, or the `TypeError` of joining a list that is not all strings. */
  datatype AgentEntry = Line(text: string) | NoLine | JoinFails

  /** The task-context outcome of one entry: a line if its value is a scalar or a non-empty list of strings. */
  function AgentLine(k: string, v: Value, show: Value -> string): (r: AgentEntry)
    ensures r.Line? <==> IsScalar(v) || (v.StrList? && |v.items| > 0)
    ensures r.JoinFails? <==> v.MixedList?
  {
    if IsScalar(v) then Line("- " + k + ": " + show(v))
    else if v.StrList? && |v.items| > 0 then Line("- " + k + ": " + Join(", ", v.items))
    else if v.MixedList? then JoinFails
    else NoLine
  }

  /** Some entry of the task context holds a list whose join raises. */
  predicate HasMixedList(ctx: seq<(string, Value)>) {
    exists i :: 0 <= i < |ctx| && ctx[i].1.MixedList?
  }

  /** The task lines, or `None` when an entry's join raises. */
  function AgentLines(ctx: seq<(string, Value)>, show: Value -> string): (r: Option<seq<string>>)
    ensures r.None? <==> HasMixedList(ctx)
    ensures r.Some? ==> |r.value| == Count((kv: (string, Value)) => AgentLine(kv.0, kv.1, show).Line?, ctx)
  {
    if |ctx| == 0 then Some([])
    else
      var rest := AgentLines(ctx[1..], show);
      assert HasMixedList(ctx) <==> ctx[0].1.MixedList? || HasMixedList(ctx[1..]) by {
        assert forall i :: 1 <= i < |ctx| ==> ctx[i] == ctx[1..][i - 1];
      }
      match AgentLine(ctx[0].0, ctx[0].1, show)
      case JoinFails => None
      case Line(line) => if rest.Some? then Some([line] + rest.value) else None
      case NoLine => rest
  }

  /** `_build_agent_section`; `None` when a list join raises. */
  function AgentSection(ctx: seq<(string, Value)>, show: Value -> string): (r: Option<string>)
    ensures r.None? <==> HasMixedList(ctx)
    ensures r.Some? ==> (r.value == "" <==> |ctx| == 0)
  {
    if |ctx| == 0 then Some("")
    else
      var body := AgentLines(ctx, show);
      if body.None? then None
      else
        var lines := ["### Task Context"] + body.value;
        JoinStartsWithFirst("\n", lines);
        Some(Join("\n", lines))
  }

  /** `_build_history_section`: the last twenty messages, roles upper-cased. */
  function HistoryLines(history: seq<Message>): (r: seq<string>)
    ensures |r| == Min(|history|, HistoryWindow)
    ensures forall i :: 0 <= i < |r| ==>
      var m := history[|history| - |r| + i];
      r[i] == Upper(m.role.GetOr("user")) + ": " + m.content.GetOr("")
  {
    var recent := TakeLast(history, HistoryWindow);
    seq(|recent|, i requires 0 <= i < |recent| => Upper(recent[i].role.GetOr("user")) + ": " + recent[i].content.GetOr(""))
  }

  function HistorySection(history: seq<Message>): (r: string)
    ensures r == "" <==> |history| == 0
  {
    if |history| == 0 then ""
    else
      var lines := ["### Conversation History"] + HistoryLines(history);
      JoinStartsWithFirst("\n", lines);
      Join("\n", lines)
  }

  /** `_build_query_section`. */
  function QuerySection(query: string): (r: string)
    ensures |r| > 0
  {
    "### Current User Query\n" + query
  }

  /** A text ending with the query section is longer than the query and ends with it. */
  lemma QueryEndsPrompt(r: string, query: string)
    requires var q := QuerySection(query); |q| <= |r| && r[|r| - |q|..] == q
    ensures |query| < |r| && r[|r| - |query|..] == query
  {
    var q := QuerySection(query);
    assert q[|q| - |query|..] == query;
    assert r[|r| - |query|..] == q[|q| - |query|..];
  }

  /* ------------------------------------------------------- retrieved documents */

  /** `clip`: keep short texts; cut long ones to a head, a marker and a tail. */
  function Clip(text: string, maxLen: int): (r: string)
    ensures |text| <= maxLen ==> r == text
    ensures |text| > maxLen && maxLen >= 0 ==>
      var head := Max(0, Trunc(maxLen as real * 0.7));
      Min(head, |text|) <= |r| && r[..Min(head, |text|)] == text[..Min(head, |text|)] && Contains(r, "[TRUNCATED]")
  {
    if text == "" then ""
    else if |text| <= maxLen then text
    else
      var head := Max(0, Trunc(maxLen as real * 0.7));
      var tail := Max(0, maxLen - head - 40);
      if tail > 0 then
        MarkContained(MiddleMark);
        ContainsInMiddle(Take(text, head), MiddleMark, TakeLast(text, tail), "[TRUNCATED]");
        Take(text, head) + MiddleMark + TakeLast(text, tail)
      else
        MarkContained(TruncationMark);
        ContainsInSuffix(PrefixTo(text, maxLen), TruncationMark, "[TRUNCATED]");
        PrefixTo(text, maxLen) + TruncationMark
  }

  lemma MarkContained(mark: string)
    requires mark == MiddleMark || mark == TruncationMark
    ensures Contains(mark, "[TRUNCATED]")
  {
    assert |mark| >= 16 && mark[5..16] == "[TRUNCATED]";
    SliceContained(mark, 5, 16, "[TRUNCATED]");
  }

  /** With a cap of at least 800 the clipped text never exceeds the cap. */
  lemma ClipWithinCap(text: string, cap: int)
    requires cap >= MinDocCap
    ensures |Clip(text, cap)| <= cap
  {
    if |text| > cap {
      var head := Max(0, Trunc(cap as real * 0.7));
      assert head <= cap;
      assert cap - head - 40 > 0;
    }
  }

  /** The per-document cap, from a budget of four characters per token. */
  function PerDocCap(docCount: nat, limitChars: int): (cap: int)
    ensures MinDocCap <= cap <= MaxDocCap
  {
    var raw := Trunc((limitChars as real * 0.65) / Max(1, Min(docCount, 6)) as real);
    Max(MinDocCap, Min(raw, MaxDocCap))
  }

  /** The text of the `index`-th document (counting from 1). */
  function DocString(index: nat, d: Doc, cap: int): string {
    var content := match d.content case Some(c) => (if c != "" then c else d.pageContent.GetOr("")) case None => d.pageContent.GetOr("");
    "[" + NatToString(index) + "] Source: " + d.source.GetOr("Unknown") + "\nContent: " + Clip(content, cap) + "\n"
  }

  function OmissionLine(remaining: nat): string {
    "\n... (Context budget reached. Remaining " + NatToString(remaining) + " documents omitted.) ..."
  }

  /** Total length of some texts. */
  function Size(texts: seq<string>): nat {
    if |texts| == 0 then 0 else Size(texts[..|texts| - 1]) + |texts[|texts| - 1]|
  }

  /**
   The budget loop over the document texts, with `total` characters already
   used: how many texts fit before the first that would pass `limit`.
   */
  function Fitting(texts: seq<string>, total: int, limit: int): (n: nat)
    ensures n <= |texts|
    ensures n > 0 ==> total + Size(texts[..n]) <= limit
    ensures n < |texts| ==> total + Size(texts[..n]) + |texts[n]| > limit
    decreases |texts|
  {
    if |texts| == 0 || total + |texts[0]| > limit then 0
    else
      var n := Fitting(texts[1..], total + |texts[0]|, limit);
      SizeCons(texts, n);
      n + 1
  }

  lemma {:induction false} SizeCons(texts: seq<string>, n: nat)
    requires 0 < |texts| && n < |texts|
    ensures Size(texts[..n + 1]) == |texts[0]| + Size(texts[1..][..n])
    decreases n
  {
    if n > 0 {
      SizeCons(texts, n - 1);
      assert texts[..n + 1][..n] == texts[..n];
      assert texts[1..][..n][..n - 1] == texts[1..][..n - 1];
    }
  }

  /** The lines of the budget loop: the fitting texts, then a notice counting the rest. */
  function BudgetLines(texts: seq<string>, limit: int): (r: seq<string>)
    ensures var n := Fitting(texts, 0, limit);
      (n < |texts| ==> r == texts[..n] + [OmissionLine(|texts| - n)]) && (n == |texts| ==> r == texts)
  {
    var n := Fitting(texts, 0, limit);
    if n < |texts| then texts[..n] + [OmissionLine(|texts| - n)] else texts
  }

  const RetrievalNote: string :=
    "\n*Note: Use the above information to answer. If the answer is not found, state that you don't know based on the provided context.*"

  /** `_build_retrieval_section`. */
  function RetrievalSection(docs: seq<Doc>, maxContextTokens: int): (r: string)
    ensures r == "" <==> |docs| == 0
  {
    if |docs| == 0 then ""
    else
      var limit := maxContextTokens * 4;
      var cap := PerDocCap(|docs|, limit);
      var texts := seq(|docs|, i requires 0 <= i < |docs| => DocString(i + 1, docs[i], cap));
      var lines := ["### Retrieved Information (Reference Material)"] + BudgetLines(texts, limit) + [RetrievalNote];
      JoinStartsWithFirst("\n", lines);
      Join("\n", lines)
  }

  /* ---------------------------------------------------------------- assembly */

  /** The sections in their fixed order, the optional ones only when their input is present; `None` when the task section raises. */
  function Sections(query: string, userContext: seq<(string, Value)>, now: string, os: Option<string>,
                    docs: seq<Doc>, history: seq<Message>, agentContext: seq<(string, Value)>,
                    maxContextTokens: int, show: Value -> string): (s: Option<seq<string>>)
    ensures s.None? <==> HasMixedList(agentContext)
    ensures s.Some? && |docs| > 0 ==> RetrievalSection(docs, maxContextTokens) in s.value
  {
    var agent := if |agentContext| > 0 then AgentSection(agentContext, show) else Some("");
    if agent.None? then None
    else
      Some([SystemSection(now, os), UserSection(userContext, show)]
        + (if |agentContext| > 0 then [agent.value] else [])
        + (if |docs| > 0 then [RetrievalSection(docs, maxContextTokens)] else [])
        + (if |history| > 0 then [HistorySection(history)] else [])
        + [QuerySection(query)])
  }

  lemma SectionsEnds(query: string, userContext: seq<(string, Value)>, now: string, os: Option<string>,
                     docs: seq<Doc>, history: seq<Message>, agentContext: seq<(string, Value)>,
                     maxContextTokens: int, show: Value -> string)
    ensures var s := Sections(query, userContext, now, os, docs, history, agentContext, maxContextTokens, show);
      s.Some? ==> |s.value| >= 2 && s.value[0] == SystemSection(now, os) && s.value[|s.value| - 1] == QuerySection(query)
  {
  }

  /**
   `build_context_prompt`: the non-empty sections joined by blank lines, or
   `None` when a list in the task context cannot be joined and the call raises.
   */
  function BuildContextPrompt(query: string, userContext: seq<(string, Value)>, now: string, os: Option<string>,
                              docs: seq<Doc>, history: seq<Message>, agentContext: seq<(string, Value)>,
                              maxContextTokens: int, show: Value -> string): (r: Option<string>)
    ensures r.None? <==> HasMixedList(agentContext)
    ensures r.Some? ==> var q := QuerySection(query); |q| <= |r.value| && r.value[|r.value| - |q|..] == q
    ensures r.Some? ==> var sys := SystemSection(now, os); |sys| <= |r.value| && r.value[..|sys|] == sys
  {
    var sections := Sections(query, userContext, now, os, docs, history, agentContext, maxContextTokens, show);
    if sections.None? then None
    else
      SectionsEnds(query, userContext, now, os, docs, history, agentContext, maxContextTokens, show);
      var kept := Filter((p: string) => p != "", sections.value);
      KeptEnds(sections.value, kept);
      JoinStartsWithFirst(BlankLine, kept);
      JoinEndsWithLast(BlankLine, kept);
      Some(Join(BlankLine, kept))
  }

  /** Every non-empty section appears in the prompt. */
  lemma SectionsShown(query: string, userContext: seq<(string, Value)>, now: string, os: Option<string>,
                      docs: seq<Doc>, history: seq<Message>, agentContext: seq<(string, Value)>,
                      maxContextTokens: int, show: Value -> string, i: nat)
    requires var s := Sections(query, userContext, now, os, docs, history, agentContext, maxContextTokens, show);
      s.Some? && i < |s.value|
    ensures var s := Sections(query, userContext, now, os, docs, history, agentContext, maxContextTokens, show).value;
      var r := BuildContextPrompt(query, userContext, now, os, docs, history, agentContext, maxContextTokens, show);
      r.Some? && (s[i] != "" ==> Contains(r.value, s[i]))
  {
    var sections := Sections(query, userContext, now, os, docs, history, agentContext, maxContextTokens, show).value;
    var kept := Filter((p: string) => p != "", sections);
    var x := sections[i];
    if x != "" {
      assert BuildContextPrompt(query, userContext, now, os, docs, history, agentContext, maxContextTokens, show)
        == Some(Join(BlankLine, kept));
      assert x in kept;
      var j :| 0 <= j < |kept| && kept[j] == x;
      JoinContainsParts(BlankLine, kept, j);
    }
  }

  /** With documents, the retrieval section appears in the prompt whenever the prompt is built. */
  lemma RetrievalShown(query: string, userContext: seq<(string, Value)>, now: string, os: Option<string>,
                       docs: seq<Doc>, history: seq<Message>, agentContext: seq<(string, Value)>,
                       maxContextTokens: int, show: Value -> string)
    requires |docs| > 0
    ensures var r := BuildContextPrompt(query, userContext, now, os, docs, history, agentContext, maxContextTokens, show);
      r.Some? ==> Contains(r.value, RetrievalSection(docs, maxContextTokens))
  {
    var sections := Sections(query, userContext, now, os, docs, history, agentContext, maxContextTokens, show);
    if sections.Some? {
      var k :| 0 <= k < |sections.value| && sections.value[k] == RetrievalSection(docs, maxContextTokens);
      SectionsShown(query, userContext, now, os, docs, history, agentContext, maxContextTokens, show, k);
    }
  }

  /** A task context with a list of a string followed by a non-string makes the whole prompt build raise. */
  lemma MixedListRaises(query: string, userContext: seq<(string, Value)>, now: string, os: Option<string>,
                        docs: seq<Doc>, history: seq<Message>, agentContext: seq<(string, Value)>,
                        maxContextTokens: int, show: Value -> string, k: string, head: string)
    requires (k, MixedList(head)) in agentContext
    ensures BuildContextPrompt(query, userContext, now, os, docs, history, agentContext, maxContextTokens, show).None?
  {
    var i :| 0 <= i < |agentContext| && agentContext[i] == (k, MixedList(head));
    assert agentContext[i].1.MixedList?;
  }

  /** Filtering empty sections keeps the first and the last section, both non-empty. */
  lemma KeptEnds(sections: seq<string>, kept: seq<string>)
    requires |sections| >= 2 && sections[0] != "" && sections[|sections| - 1] != ""
    requires kept == Filter((p: string) => p != "", sections)
    ensures |kept| > 0 && kept[0] == sections[0] && kept[|kept| - 1] == sections[|sections| - 1]
  {
    FilterLast((p: string) => p != "", sections);
  }

  /** An item that passes the filter and ends the input also ends the output. */
  lemma {:induction false} FilterLast<T>(p: T -> bool, s: seq<T>)
    requires |s| > 0 && p(s[|s| - 1])
    ensures var f := Filter(p, s); |f| > 0 && f[|f| - 1] == s[|s| - 1]
    decreases |s|
  {
    if |s| > 1 {
      FilterLast(p, s[1..]);
      assert s[1..][|s| - 2] == s[|s| - 1];
    }
  }
}

=== FILE: rag_document_processor.dfy ===
/**
 The text side of the document processor: splitting a cleaned text into overlapping
 chunks, dropping repeated sentences, and the keyword, category and language metadata.
 */
module DocumentProcessor {
  import opened Common

  /* ------------------------------------------------------------------ chunking */

  /** The three chunking settings read from the processor's configuration. */
  datatype ChunkConfig = ChunkConfig(maxChunkSize: int, chunkOverlap: int, minChunkSize: int)

  const DefaultChunkConfig := ChunkConfig(1000, 200, 100)

  /** Python's normalisation of a slice or search bound against a length `n`. */
  function Norm(i: int, n: nat): (r: nat)
    ensures r <= n
    ensures 0 <= i <= n ==> r == i
  {
    if i < 0 then (if i + n < 0 then 0 else i + n)
    else if i > n then n
    else i
  }

  /** Normalisation never stretches a forward distance (it is not monotone: -1 maps past 0). */
  lemma NormSpread(a: int, d: nat, n: nat)
    ensures Norm(a + d, n) <= Norm(a, n) + d
  {
  }

  /** `s[a:b]` for any integers `a` and `b`. */
  function PySlice(s: string, a: int, b: int): (r: string)
    ensures |r| == Max(0, Norm(b, |s|) - Norm(a, |s|))
  {
    var lo := Norm(a, |s|);
    var hi := Norm(b, |s|);
    if lo <= hi then s[lo..hi] else ""
  }

  /** The last index in `[lo, hi)` that holds `c`, or -1. */
  function LastIndexIn(s: string, c: char, lo: nat, hi: nat): (r: int)
    requires hi <= |s|
    ensures r == -1 || (lo <= r < hi && s[r] == c)
    ensures forall j :: Max(lo, r + 1) <= j < hi ==> s[j] != c
    decreases hi
  {
    if hi <= lo then -1
    else if s[hi - 1] == c then hi - 1
    else LastIndexIn(s, c, lo, hi - 1)
  }

  /** `s.rfind(c, a, b)` for a single character. */
  function RFind(s: string, c: char, a: int, b: int): (r: int)
    ensures r == -1 || (Norm(a, |s|) <= r < Norm(b, |s|) && s[r] == c)
  {
    LastIndexIn(s, c, Norm(a, |s|), Norm(b, |s|))
  }

  /**
   Where the window that starts at `start` ends: `max_chunk_size` further on (or at the
   end of the text), pulled back to just after the last '.' inside the window when that
   full stop lies more than `min_chunk_size` past the start.
   */
  function WindowEnd(text: string, cfg: ChunkConfig, start: int): (end: int)
    ensures end <= |text|
  {
    var n := |text|;
    var end := Min(start + cfg.maxChunkSize, n);
    if end < n then
      var last := RFind(text, '.', start, end);
      if last > start + cfg.minChunkSize then last + 1 else end
    else end
  }

  /** The stripped text of the window that starts at `start`. */
  function WindowText(text: string, cfg: ChunkConfig, start: int): string {
    Strip(PySlice(text, start, WindowEnd(text, cfg, start)))
  }

  /** `[chunk] if chunk else []`. */
  function Emit(chunk: string): (r: seq<string>)
    ensures forall c :: c in r ==> c == chunk && c != ""
  {
    if chunk != "" then [chunk] else []
  }

  /** What every emitted chunk should be: a non-empty, stripped piece of the text no longer than `max`. */
  predicate GoodChunk(text: string, c: string, max: int) {
    c != "" && Strip(c) == c && |c| <= max && Contains(text, c)
  }

  /** A window never holds more than `max_chunk_size` characters. */
  lemma WindowWithinLimit(text: string, cfg: ChunkConfig, start: int)
    ensures cfg.maxChunkSize >= 0 ==> |PySlice(text, start, WindowEnd(text, cfg, start))| <= cfg.maxChunkSize
  {
    var n := |text|;
    if cfg.maxChunkSize >= 0 {
      var end0 := Min(start + cfg.maxChunkSize, n);
      NormSpread(start, cfg.maxChunkSize, n);
      assert Norm(end0, n) <= Norm(start + cfg.maxChunkSize, n);
      var end := WindowEnd(text, cfg, start);
      assert Norm(end, n) <= Norm(end0, n);
    }
  }

  /** The stripped text of a slice occurs in the text. */
  lemma StrippedSliceOccurs(text: string, lo: nat, hi: nat)
    requires lo <= hi <= |text|
    ensures Contains(text, Strip(text[lo..hi]))
  {
    var w := text[lo..hi];
    var i, j := StripBounds(w);
    SliceOfSliceContained(text, lo, hi, i, j);
  }

  lemma SliceOfSliceContained(text: string, lo: nat, hi: nat, i: nat, j: nat)
    requires lo <= hi <= |text| && i <= j <= hi - lo
    ensures Contains(text, text[lo..hi][i..j])
  {
    SliceOfSlice(text, lo, hi, i, j);
    SliceContained(text, lo + i, lo + j, text[lo..hi][i..j]);
  }

  /** Where the stripped text lies in the original. */
  lemma StripBounds(w: string) returns (i: nat, j: nat)
    ensures i <= j <= |w| && Strip(w) == w[i..j]
  {
    i := LeadingSpace(w);
    var t := w[i..];
    j := i + |t| - TrailingSpace(t);
  }

  lemma SliceOfSlice(s: string, lo: nat, hi: nat, i: nat, j: nat)
    requires lo <= hi <= |s| && i <= j <= hi - lo
    ensures s[lo..hi][i..j] == s[lo + i..lo + j]
  {
    assert forall k :: 0 <= k < j - i ==> s[lo..hi][i..j][k] == s[lo + i + k];
  }

  /** Every non-empty window text is a good chunk of the text. */
  lemma WindowIsGood(text: string, cfg: ChunkConfig, start: int)
    ensures cfg.maxChunkSize >= 0 && WindowText(text, cfg, start) != "" ==>
      GoodChunk(text, WindowText(text, cfg, start), cfg.maxChunkSize)
  {
    var w := PySlice(text, start, WindowEnd(text, cfg, start));
    var c := WindowText(text, cfg, start);
    WindowWithinLimit(text, cfg, start);
    StripIdempotent(w);
    var lo := Norm(start, |text|);
    var hi := Norm(WindowEnd(text, cfg, start), |text|);
    if c != "" {
      assert lo <= hi && w == text[lo..hi];
      StrippedSliceOccurs(text, lo, hi);
    }
  }

  /** `[chunk] if chunk else []` for every window, in order. */
  function ChunksAt(text: string, cfg: ChunkConfig, starts: seq<int>): (r: seq<string>)
    ensures |r| <= |starts|
  {
    if |starts| == 0 then []
    else Emit(WindowText(text, cfg, starts[0])) + ChunksAt(text, cfg, starts[1..])
  }

  /** Whatever the windows, every emitted chunk is good. */
  lemma {:induction false} ChunksAtAreGood(text: string, cfg: ChunkConfig, starts: seq<int>)
    requires cfg.maxChunkSize >= 0
    ensures forall c :: c in ChunksAt(text, cfg, starts) ==> GoodChunk(text, c, cfg.maxChunkSize)
    decreases |starts|
  {
    if |starts| > 0 {
      WindowIsGood(text, cfg, starts[0]);
      ChunksAtAreGood(text, cfg, starts[1..]);
      var head := Emit(WindowText(text, cfg, starts[0]));
      var rest := ChunksAt(text, cfg, starts[1..]);
      assert forall c :: c in head + rest ==> c in head || c in rest;
    }
  }

  /** The next start of the written loop: `end - chunk_overlap`. */
  function WrittenNext(text: string, cfg: ChunkConfig, start: int): int {
    WindowEnd(text, cfg, start) - cfg.chunkOverlap
  }

  /**
   The window starts the chunking loop as written visits, for at most `fuel` rounds:
   `None` when the loop is still going after that many rounds. The loop is left only
   when the next start is at or past the end of the text.
   */
  function WrittenStarts(text: string, cfg: ChunkConfig, start: int, fuel: nat): (r: Option<seq<int>>)
    ensures r.Some? ==> |r.value| <= fuel
    ensures r.Some? ==> forall i :: 0 <= i < |r.value| ==> r.value[i] < |text|
    decreases fuel
  {
    if start >= |text| then Some([])
    else if fuel == 0 then None
    else
      var next := WrittenNext(text, cfg, start);
      if next >= |text| then Some([start])
      else
        var rest := WrittenStarts(text, cfg, next, fuel - 1);
        if rest.None? then None
        else
          assert forall i :: 0 < i <= |rest.value| ==> ([start] + rest.value)[i] == rest.value[i - 1];
          Some([start] + rest.value)
  }

  /** `_split_into_chunks` as written, with at most `fuel` rounds of its loop. */
  function SplitIntoChunksAsWritten(text: string, cfg: ChunkConfig, fuel: nat): (r: Option<seq<string>>)
    ensures r.Some? ==> |r.value| <= Max(1, fuel)
  {
    if text == "" then Some([])
    else if |text| <= cfg.maxChunkSize then Some([text])
    else
      var starts := WrittenStarts(text, cfg, 0, fuel);
      if starts.None? then None else Some(ChunksAt(text, cfg, starts.value))
  }

  /** Whenever the written loop does finish on a long text, every chunk it emitted is good. */
  lemma WrittenChunksAreGood(text: string, cfg: ChunkConfig, fuel: nat)
    requires |text| > cfg.maxChunkSize >= 0
    ensures SplitIntoChunksAsWritten(text, cfg, fuel).Some? ==>
      forall c :: c in SplitIntoChunksAsWritten(text, cfg, fuel).value ==> GoodChunk(text, c, cfg.maxChunkSize)
  {
    var starts := WrittenStarts(text, cfg, 0, fuel);
    if starts.Some? {
      ChunksAtAreGood(text, cfg, starts.value);
    }
  }

  /**
   With a positive overlap the loop never ends: every next start is `end - overlap`,
   which stays below the text's length, so `start >= len(text)` never holds.
   */
  lemma {:induction false} LoopNeverExits(text: string, cfg: ChunkConfig, start: int, fuel: nat)
    requires cfg.chunkOverlap > 0
    requires start < |text|
    ensures WrittenStarts(text, cfg, start, fuel).None?
    decreases fuel
  {
    if fuel > 0 {
      LoopNeverExits(text, cfg, WrittenNext(text, cfg, start), fuel - 1);
    }
  }

  /** Any text longer than one chunk makes the written chunking run forever. */
  lemma LongTextNeverChunks(text: string, cfg: ChunkConfig, fuel: nat)
    requires cfg.chunkOverlap > 0
    requires text != "" && |text| > cfg.maxChunkSize
    ensures SplitIntoChunksAsWritten(text, cfg, fuel).None?
  {
    LoopNeverExits(text, cfg, 0, fuel);
  }

  /** The default settings are affected: 1001 characters are already too many. */
  lemma DefaultSettingsNeverChunk(text: string, fuel: nat)
    requires |text| > 1000
    ensures SplitIntoChunksAsWritten(text, DefaultChunkConfig, fuel).None?
  {
    LongTextNeverChunks(text, DefaultChunkConfig, fuel);
  }

  /** The next start in the corrected loop: back by the overlap, but always forward. */
  function NextStart(cfg: ChunkConfig, start: int, end: int): (next: int)
    ensures next > start
    ensures next >= end - cfg.chunkOverlap
  {
    Max(end - cfg.chunkOverlap, start + 1)
  }

  /**
   The window starts of the corrected loop: it stops after the window that reaches the
   end of the text, and each window starts after the previous one.
   */
  function LoopStarts(text: string, cfg: ChunkConfig, start: nat): (r: seq<nat>)
    requires start < |text|
    ensures |r| > 0 && r[0] == start
    ensures forall i :: 0 <= i < |r| ==> start <= r[i] < |text|
    ensures forall i, j :: 0 <= i < j < |r| ==> r[i] < r[j]
    decreases |text| - start
  {
    var end := WindowEnd(text, cfg, start);
    var next := NextStart(cfg, start, end);
    if end >= |text| || next >= |text| then [start]
    else
      var rest := LoopStarts(text, cfg, next);
      assert forall i :: 0 < i <= |rest| ==> ([start] + rest)[i] == rest[i - 1];
      [start] + rest
  }

  /** `_split_into_chunks` with the loop corrected; it always finishes. */
  function SplitIntoChunks(text: string, cfg: ChunkConfig): (r: seq<string>)
    ensures |r| <= |text|
  {
    if text == "" then []
    else if |text| <= cfg.maxChunkSize then [text]
    else
      var starts := LoopStarts(text, cfg, 0);
      StrictlyIncreasingBound(starts, |text|);
      ChunksAt(text, cfg, starts)
  }

  /** Strictly increasing starts below `n` number at most `n - first`. */
  lemma {:induction false} StrictlyIncreasingBound(s: seq<nat>, n: nat)
    requires |s| > 0
    requires forall i :: 0 <= i < |s| ==> s[0] <= s[i] < n
    requires forall i, j :: 0 <= i < j < |s| ==> s[i] < s[j]
    ensures |s| <= n - s[0]
    decreases |s|
  {
    if |s| > 1 {
      StrictlyIncreasingBound(s[1..], n);
    }
  }

  /** Text longer than one chunk is cut into good chunks. */
  lemma ChunksAreGood(text: string, cfg: ChunkConfig)
    requires |text| > cfg.maxChunkSize >= 0
    ensures forall c :: c in SplitIntoChunks(text, cfg) ==> GoodChunk(text, c, cfg.maxChunkSize)
  {
    ChunksAtAreGood(text, cfg, LoopStarts(text, cfg, 0));
  }

  /**
   With a positive chunk size and a non-negative overlap the corrected windows leave
   no gap: each next window starts no later than the previous one ends, and the last
   one ends at the end of the text.
   */
  lemma {:induction false} WindowsCoverText(text: string, cfg: ChunkConfig, start: nat)
    requires cfg.maxChunkSize > 0 && cfg.chunkOverlap >= 0 && cfg.minChunkSize >= 0
    requires start < |text|
    ensures var r := LoopStarts(text, cfg, start);
      && (forall i :: 0 <= i < |r| - 1 ==> r[i + 1] <= WindowEnd(text, cfg, r[i]))
      && WindowEnd(text, cfg, r[|r| - 1]) == |text|
    decreases |text| - start
  {
    var end := WindowEnd(text, cfg, start);
    var next := NextStart(cfg, start, end);
    WindowEndsAfterStart(text, cfg, start);
    if end < |text| {
      assert next < |text|;
      WindowsCoverText(text, cfg, next);
      var rest := LoopStarts(text, cfg, next);
      var r := LoopStarts(text, cfg, start);
      assert r == [start] + rest;
      assert forall i :: 0 < i < |r| ==> r[i] == rest[i - 1];
    }
  }

  /** A window with a positive size ends after its start, and at the end of the text once it can reach it. */
  lemma WindowEndsAfterStart(text: string, cfg: ChunkConfig, start: nat)
    requires cfg.maxChunkSize > 0 && cfg.minChunkSize >= 0 && start < |text|
    ensures start < WindowEnd(text, cfg, start)
    ensures start + cfg.maxChunkSize >= |text| ==> WindowEnd(text, cfg, start) == |text|
  {
  }

  /** A text that fits one chunk comes back whole (unstripped), and an empty one gives no chunks. */
  lemma ShortTextIsOneChunk(text: string, cfg: ChunkConfig, fuel: nat)
    requires |text| <= cfg.maxChunkSize
    ensures SplitIntoChunks(text, cfg) == (if text == "" then [] else [text])
    ensures SplitIntoChunksAsWritten(text, cfg, fuel) == Some(SplitIntoChunks(text, cfg))
  {
  }

  /* ------------------------------------------------------- duplicate sentences */

  predicate IsFullStop(c: char) { c == '.' }

  /** The sentence itself: the key of the duplicate check. */
  function Itself(s: string): string { s }

  /** `[p.strip() for p in pieces if p.strip()]`. */
  function StrippedPieces(pieces: seq<string>): (r: seq<string>)
    ensures forall s :: s in r ==> s != "" && Strip(s) == s && exists p :: p in pieces && s == Strip(p)
    ensures forall p :: p in pieces && Strip(p) != "" ==> Strip(p) in r
  {
    if |pieces| == 0 then []
    else
      var rest := StrippedPieces(pieces[1..]);
      StripIdempotent(pieces[0]);
      assert forall p :: p in pieces ==> p == pieces[0] || p in pieces[1..];
      if Strip(pieces[0]) != "" then [Strip(pieces[0])] + rest else rest
  }

  /**
   The sentences `_remove_duplicate_sentences` keeps: the stripped, non-empty pieces
   between full stops, each once, in order of first occurrence.
   */
  function UniqueSentences(text: string): (r: seq<string>)
    ensures NoDuplicates(r)
    ensures forall s :: s in r ==> s != "" && Strip(s) == s && '.' !in s
    ensures forall p :: p in SplitOn(text, IsFullStop) && Strip(p) != "" ==> Strip(p) in r
    ensures IsSubsequence(r, StrippedPieces(SplitOn(text, IsFullStop)))
    ensures InFirstOccurrenceOrder(r, StrippedPieces(SplitOn(text, IsFullStop)))
  {
    var pieces := StrippedPieces(SplitOn(text, IsFullStop));
    var r := DedupBy(pieces, Itself, {});
    DedupByFirst(pieces, Itself, {});
    DedupByIsSubsequence(pieces, Itself, {});
    DedupByOrder(pieces, Itself, {});
    forall s | s in r
      ensures '.' !in s
    {
      var p :| p in SplitOn(text, IsFullStop) && s == Strip(p);
      StripKeepsChars(p);
    }
    r
  }

  /** `_remove_duplicate_sentences`: the kept sentences joined with ". ". */
  function RemoveDuplicateSentences(text: string): (r: string)
    ensures Strip(text) == "" ==> r == ""
  {
    var us := UniqueSentences(text);
    if Strip(text) == "" then
      NoSentenceInBlank(text);
      Join(". ", us)
    else Join(". ", us)
  }

  /** A blank text has no sentences. */
  lemma NoSentenceInBlank(text: string)
    requires Strip(text) == ""
    ensures UniqueSentences(text) == []
  {
    var r := UniqueSentences(text);
    if r != [] {
      assert r[0] in r;
      var p :| p in SplitOn(text, IsFullStop) && Strip(p) == r[0];
      assert r[0] in StrippedPieces(SplitOn(text, IsFullStop)) by {
        SubsequenceElements(r, StrippedPieces(SplitOn(text, IsFullStop)));
      }
      StripKeepsChars(p);
      assert !IsSpace(r[0][0]);
      assert r[0][0] in text by {
        assert r[0][0] in p;
        SplitPiecesFromText(text, p, r[0][0]);
      }
      StripBlankHasOnlySpace(text, r[0][0]);
    }
  }

  /** The pieces of a split hold only characters of the text. */
  lemma {:induction false} SplitPiecesFromText(text: string, p: string, c: char)
    requires p in SplitOn(text, IsFullStop) && c in p
    ensures c in text
    decreases |text|
  {
    if |text| > 0 {
      var rest := SplitOn(text[1..], IsFullStop);
      if IsFullStop(text[0]) {
        assert p in rest;
        SplitPiecesFromText(text[1..], p, c);
      } else if p == [text[0]] + rest[0] {
        if c != text[0] {
          assert rest[0] in rest;
          SplitPiecesFromText(text[1..], rest[0], c);
        }
      } else {
        assert p in rest[1..];
        SplitPiecesFromText(text[1..], p, c);
      }
    }
  }

  /** A text that strips to nothing holds only whitespace. */
  lemma StripBlankHasOnlySpace(text: string, c: char)
    requires Strip(text) == "" && c in text
    ensures IsSpace(c)
  {
    var lead := LeadingSpace(text);
    var t := text[lead..];
    assert |t| - TrailingSpace(t) == 0;
    var i :| 0 <= i < |text| && text[i] == c;
  }

  lemma StrippedPiecesCons(a: string, rest: seq<string>)
    ensures StrippedPieces([a] + rest) == (if Strip(a) != "" then [Strip(a)] else []) + StrippedPieces(rest)
  {
    assert ([a] + rest)[1..] == rest;
  }

  /** `" " + u` and `u` strip alike when `u` is already stripped. */
  lemma StripLeadingBlank(w: string, u: string)
    requires w == "" || w == " "
    requires u != "" && Strip(u) == u
    ensures Strip(w + u) == u
  {
    var s := w + u;
    assert !IsSpace(u[0]) && !IsSpace(u[|u| - 1]);
    if w == " " {
      assert s[1..] == u;
      assert LeadingSpace(s) == 1;
    } else {
      assert s == u;
    }
    assert s[LeadingSpace(s)..] == u;
    assert TrailingSpace(u) == 0;
  }

  /** Splitting the joined sentences at full stops and stripping gives them back. */
  lemma {:induction false} JoinedSentencesSplitBack(w: string, us: seq<string>)
    requires w == "" || w == " "
    requires forall s :: s in us ==> s != "" && Strip(s) == s && '.' !in s
    ensures StrippedPieces(SplitOn(w + Join(". ", us), IsFullStop)) == us
    decreases |us|
  {
    if |us| == 0 {
      NothingSplitsToNothing(w);
    } else if |us| == 1 {
      assert us[0] in us;
      OneSentenceSplitsBack(w, us[0]);
      assert us == [us[0]];
    } else {
      assert forall s :: s in us[1..] ==> s in us;
      JoinedSentencesSplitBack(" ", us[1..]);
      assert us[0] in us;
      SentencesSplitBackStep(w, us);
    }
  }

  lemma NothingSplitsToNothing(w: string)
    requires w == "" || w == " "
    ensures StrippedPieces(SplitOn(w + Join(". ", []), IsFullStop)) == []
  {
    assert w + Join(". ", []) == w;
    SplitOnNoDelim(w, IsFullStop);
    assert Strip(w) == "" by {
      if w == " " {
        assert LeadingSpace(w) == 1;
      }
    }
  }

  lemma OneSentenceSplitsBack(w: string, u: string)
    requires w == "" || w == " "
    requires u != "" && Strip(u) == u && '.' !in u
    ensures StrippedPieces(SplitOn(w + Join(". ", [u]), IsFullStop)) == [u]
  {
    assert w + Join(". ", [u]) == w + u;
    SplitOnNoDelim(w + u, IsFullStop);
    StripLeadingBlank(w, u);
    StrippedPiecesCons(w + u, []);
    assert [w + u] + [] == [w + u];
  }

  /** The first sentence splits off at its full stop; the rest follows from the tail. */
  lemma SentencesSplitBackStep(w: string, us: seq<string>)
    requires w == "" || w == " "
    requires |us| > 1
    requires us[0] != "" && Strip(us[0]) == us[0] && '.' !in us[0]
    requires StrippedPieces(SplitOn(" " + Join(". ", us[1..]), IsFullStop)) == us[1..]
    ensures StrippedPieces(SplitOn(w + Join(". ", us), IsFullStop)) == us
  {
    var head := w + us[0];
    var tail := " " + Join(". ", us[1..]);
    JoinSplitsAtFirst(w, us);
    SplitOnAtDelim(head, '.', tail, IsFullStop);
    StripLeadingBlank(w, us[0]);
    StrippedPiecesCons(head, SplitOn(tail, IsFullStop));
    HeadTail(us);
  }

  lemma JoinSplitsAtFirst(w: string, us: seq<string>)
    requires |us| > 1
    ensures w + Join(". ", us) == (w + us[0]) + ['.'] + (" " + Join(". ", us[1..]))
  {
    var rest := Join(". ", us[1..]);
    assert Join(". ", us) == us[0] + ". " + rest;
    assert ". " + rest == ['.'] + (" " + rest);
  }

  /** Deduplicating a list that is already free of repeats changes nothing. */
  lemma {:induction false} DedupOfDistinct(s: seq<string>, seen: set<string>)
    requires NoDuplicates(s)
    requires forall x :: x in s ==> x !in seen
    ensures DedupBy(s, Itself, seen) == s
    decreases |s|
  {
    if |s| > 0 {
      assert forall x :: x in s[1..] ==> x in s && x != s[0];
      assert NoDuplicates(s[1..]) by {
        assert forall i :: 0 <= i < |s| - 1 ==> s[1..][i] == s[i + 1];
      }
      DedupOfDistinct(s[1..], seen + {s[0]});
      assert [s[0]] + s[1..] == s;
    }
  }

  /** Removing duplicate sentences a second time changes nothing. */
  lemma RemoveDuplicateSentencesIdempotent(text: string)
    ensures RemoveDuplicateSentences(RemoveDuplicateSentences(text)) == RemoveDuplicateSentences(text)
  {
    var us := UniqueSentences(text);
    var joined := RemoveDuplicateSentences(text);
    assert joined == Join(". ", us);
    JoinedSentencesSplitBack("", us);
    assert "" + Join(". ", us) == joined;
    DedupOfDistinct(us, {});
    assert UniqueSentences(joined) == us;
  }

  /* -------------------------------------------------------------- classification */

  const ParentingKeywords: seq<string> := ["육아", "아이", "아동", "부모", "양육", "발달", "교육"]
  const PolicyKeywords: seq<string> := ["정책", "제도", "법률", "규정", "지원", "혜택"]
  const EducationKeywords: seq<string> := ["교육", "학습", "훈련", "과정", "프로그램"]
  const HealthKeywords: seq<string> := ["건강", "의료", "질병", "예방", "치료"]

  /** `_classify_content`: the first keyword group found in the lowered text, else "general". */
  function ClassifyContent(content: string): (r: string)
    ensures r in {"parenting", "policy", "education", "health", "general"}
  {
    var low := Lower(content);
    if ContainsAny(low, ParentingKeywords) then "parenting"
    else if ContainsAny(low, PolicyKeywords) then "policy"
    else if ContainsAny(low, EducationKeywords) then "education"
    else if ContainsAny(low, HealthKeywords) then "health"
    else "general"
  }

  /** Each category is chosen exactly when its group matches and no earlier group does. */
  lemma ClassifyInGroupOrder(content: string)
    ensures var low := Lower(content);
      && (ClassifyContent(content) == "parenting" <==> ContainsAny(low, ParentingKeywords))
      && (ClassifyContent(content) == "policy" <==>
            !ContainsAny(low, ParentingKeywords) && ContainsAny(low, PolicyKeywords))
      && (ClassifyContent(content) == "education" <==>
            !ContainsAny(low, ParentingKeywords) && !ContainsAny(low, PolicyKeywords)
            && ContainsAny(low, EducationKeywords))
      && (ClassifyContent(content) == "health" <==>
            !ContainsAny(low, ParentingKeywords) && !ContainsAny(low, PolicyKeywords)
            && !ContainsAny(low, EducationKeywords) && ContainsAny(low, HealthKeywords))
  {
  }

  /**
   "교육" is both a parenting and an education keyword; the parenting group is checked
   first, so a text mentioning it is always "parenting".
   */
  lemma SharedKeywordReadsAsParenting(content: string)
    requires Contains(Lower(content), "교육")
    ensures ClassifyContent(content) == "parenting"
  {
    assert ParentingKeywords[6] == "교육";
  }

  /** Case does not change the category. */
  lemma ClassifyIgnoresCase(content: string)
    ensures ClassifyContent(Lower(content)) == ClassifyContent(content)
  {
    LowerIdempotent(content);
  }

  /* -------------------------------------------------------------------- language */

  /** `_detect_language`: more Hangul syllables than Latin letters is "ko", fewer is "en", a tie "mixed". */
  function DetectLanguage(content: string): (r: string)
    ensures r in {"ko", "en", "mixed"}
  {
    var korean := Count(HangulSyllable, content);
    var english := Count(AsciiLetter, content);
    if korean > english then "ko"
    else if english > korean then "en"
    else "mixed"
  }

  /** Text in Hangul syllables only is Korean. */
  lemma HangulTextIsKorean(content: string)
    requires content != ""
    requires forall c :: c in content ==> HangulSyllable(c)
    ensures DetectLanguage(content) == "ko"
  {
    CountUniform(HangulSyllable, content);
    CountUniform(AsciiLetter, content);
  }

  /** Text in Latin letters only is English. */
  lemma LatinTextIsEnglish(content: string)
    requires content != ""
    requires forall c :: c in content ==> AsciiLetter(c)
    ensures DetectLanguage(content) == "en"
  {
    CountUniform(HangulSyllable, content);
    CountUniform(AsciiLetter, content);
  }

  /** Text without letters of either script is "mixed". */
  lemma LetterlessTextIsMixed(content: string)
    requires forall c :: c in content ==> !HangulSyllable(c) && !AsciiLetter(c)
    ensures DetectLanguage(content) == "mixed"
  {
    CountUniform(HangulSyllable, content);
    CountUniform(AsciiLetter, content);
  }

  /** Digits, spaces and punctuation never change the detected language. */
  lemma OtherCharsDoNotCount(content: string, extra: string)
    requires forall c :: c in extra ==> !HangulSyllable(c) && !AsciiLetter(c)
    ensures DetectLanguage(content + extra) == DetectLanguage(content)
  {
    CountUniform(HangulSyllable, extra);
    CountUniform(AsciiLetter, extra);
    CountAppend(HangulSyllable, content, extra);
    CountAppend(AsciiLetter, content, extra);
  }

  /* -------------------------------------------------------------------- keywords */

  const KeywordStopWords: set<string> := {
    "the", "a", "an", "and", "or", "but", "in", "on", "at", "to", "for", "of", "with", "by",
    "이", "그", "저", "의", "을", "를", "에", "에서", "로", "으로", "와", "과", "는", "은"
  }

  predicate NotWordChar(c: char) { !WordChar(c) }

  predicate NonEmpty(s: string) { s != "" }

  /** `re.findall(r'\b\w+\b', s)`: the maximal runs of word characters. */
  function WordRuns(s: string): (r: seq<string>)
    ensures forall w :: w in r ==> w != "" && forall c :: c in w ==> WordChar(c)
  {
    Filter(NonEmpty, SplitOn(s, NotWordChar))
  }

  /** A word worth counting: longer than two characters and not a stop word. */
  predicate IsCandidate(w: string) { w !in KeywordStopWords && |w| > 2 }

  /** The lowered words of the content that survive the stop-word and length filter. */
  function CandidateWords(content: string): (r: seq<string>)
    ensures forall w :: w in r ==> IsCandidate(w)
  {
    Filter(IsCandidate, WordRuns(Lower(content)))
  }

  /** How often `w` occurs among `ws`. */
  function Freq(ws: seq<string>, w: string): (n: nat)
    ensures n > 0 <==> w in ws
    decreases |ws|
  {
    if |ws| == 0 then 0
    else (if ws[0] == w then 1 else 0) + Freq(ws[1..], w)
  }

  /** The ranking key: a word's frequency. */
  function RankKey(ws: seq<string>): string -> real {
    w => Freq(ws, w) as real
  }

  /** Seen more than once. */
  function Repeated(ws: seq<string>): string -> bool {
    w => Freq(ws, w) > 1
  }

  /** The ten most frequent distinct candidates, in first-seen order among equals. */
  function TopWords(ws: seq<string>): (r: seq<string>)
    ensures |r| <= 10 && NoDuplicates(r)
    ensures forall w :: w in r ==> w in ws
    ensures SortedDesc(r, RankKey(ws))
  {
    var distinct := DedupBy(ws, Itself, {});
    var sorted := SortDesc(distinct, RankKey(ws));
    SortDescDistinct(distinct, RankKey(ws), Itself);
    var r := SortedTop(distinct, RankKey(ws), 10);
    assert r == sorted[..|r|];
    SubsequenceOfPrefix(r, sorted);
    SubsequenceNoDuplicates(r, sorted);
    r
  }

  /** `_extract_keywords`: the top ten words by frequency, keeping those seen more than once. */
  function ExtractKeywords(content: string): (r: seq<string>)
    ensures |r| <= 10 && NoDuplicates(r)
    ensures forall w :: w in r ==> |w| > 2 && w !in KeywordStopWords && Freq(CandidateWords(content), w) > 1
    ensures SortedDesc(r, RankKey(CandidateWords(content)))
  {
    var ws := CandidateWords(content);
    var top := TopWords(ws);
    var r := Filter(Repeated(ws), top);
    FilterIsSubsequence(Repeated(ws), top);
    SubsequenceNoDuplicates(r, top);
    FilterKeepsOrder(Repeated(ws), top, RankKey(ws));
    r
  }

  /** Filtering a sorted list keeps it sorted. */
  lemma {:induction false} FilterKeepsOrder(p: string -> bool, s: seq<string>, key: string -> real)
    requires SortedDesc(s, key)
    ensures SortedDesc(Filter(p, s), key)
    decreases |s|
  {
    if |s| > 0 {
      assert SortedDesc(s[1..], key) by {
        assert forall i :: 0 <= i < |s| - 1 ==> s[1..][i] == s[i + 1];
      }
      FilterKeepsOrder(p, s[1..], key);
      var rest := Filter(p, s[1..]);
      if p(s[0]) {
        forall y | y in rest
          ensures key(s[0]) >= key(y)
        {
          var j :| 0 <= j < |s[1..]| && s[1..][j] == y;
          assert y == s[j + 1];
        }
        assert forall i :: 0 < i < |rest| + 1 ==> ([s[0]] + rest)[i] == rest[i - 1];
      }
    }
  }

  /** With at most ten distinct candidates, every repeated word is a keyword. */
  lemma FewWordsAllRepeatsKept(content: string, w: string)
    requires |DedupBy(CandidateWords(content), Itself, {})| <= 10
    requires Freq(CandidateWords(content), w) > 1
    ensures w in ExtractKeywords(content)
  {
    var ws := CandidateWords(content);
    FewDistinctAllTop(ws, w);
    var top := TopWords(ws);
    assert w in top && Repeated(ws)(w);
    assert ExtractKeywords(content) == Filter(Repeated(ws), top);
  }

  /** With at most ten distinct candidates every candidate is among the top ten. */
  lemma FewDistinctAllTop(ws: seq<string>, w: string)
    requires |DedupBy(ws, Itself, {})| <= 10 && w in ws
    ensures w in TopWords(ws)
  {
    var distinct := DedupBy(ws, Itself, {});
    DedupByFirst(ws, Itself, {});
    assert w in distinct;
    var sorted := SortDesc(distinct, RankKey(ws));
    SortDescMembers(distinct, RankKey(ws));
    assert TopWords(ws) == sorted;
  }

  /** A candidate missing from the top ten ranks no higher than any of the ten. */
  lemma OutrankedByTop(ws: seq<string>, v: string)
    requires v in ws && v !in TopWords(ws)
    ensures |TopWords(ws)| == 10
    ensures forall w :: w in TopWords(ws) ==> Freq(ws, v) <= Freq(ws, w)
  {
    var distinct := DedupBy(ws, Itself, {});
    var sorted := SortDesc(distinct, RankKey(ws));
    var top := TopWords(ws);
    DedupByFirst(ws, Itself, {});
    assert v in distinct;
    SortDescMembers(distinct, RankKey(ws));
    var k :| 0 <= k < |sorted| && sorted[k] == v;
    assert top == sorted[..|top|];
    assert forall i :: 0 <= i < |top| ==> top[i] != v;
    assert k >= |top|;
    forall w | w in top
      ensures Freq(ws, v) <= Freq(ws, w)
    {
      var i :| 0 <= i < |top| && top[i] == w;
      assert sorted[i] == w;
      assert RankKey(ws)(w) >= RankKey(ws)(v);
    }
  }

  /** A repeated word is only left out when ten keywords are at least as frequent. */
  lemma DroppedRepeatsAreRarer(content: string, w: string, v: string)
    requires w in ExtractKeywords(content)
    requires Freq(CandidateWords(content), v) > 1
    requires v !in ExtractKeywords(content)
    ensures Freq(CandidateWords(content), v) <= Freq(CandidateWords(content), w)
  {
    var ws := CandidateWords(content);
    assert Repeated(ws)(v);
    assert v !in TopWords(ws);
    OutrankedByTop(ws, v);
  }
}

=== FILE: rag_generation_engine.dfy ===
/**
 The generation engine of the RAG layer: which chat models get loaded, which
 one answers a request, the bounded retry around one model, the fallback
 chain through the other configured models, and the fixed apology when every
 model fails.

 A loaded model is represented by its name alone; `models` lists the names in
 the order they were loaded, which is the iteration order of the source's
 dictionary. Calling a model is an oracle `call(name, messages, attempt)`
 that yields `Some(text)` for a reply and `None` for a raised exception.
 */
module GenerationEngine {
  import opened Common

  /* ------------------------------------------------------------ configuration */

  /** The settings-independent defaults used when the settings module is unavailable. */
  const DefaultModel := "claude-sonnet-4-5-20250929"
  const FastModel := "gemini-2.5-flash"
  const DeepModel := "gpt-5.2"
  const FallbackModel := "gemini-2.5-flash"
  const DefaultMaxRetries := 2
  const DefaultBackoffMs := 250
  const DefaultBackoffMultiplier := 2.0
  const DefaultFallbackOrder := ["selected", "default", "fast", "fallback", "deep"]

  /** `_fallback_generation`: the reply when no model produced text. */
  const Apology := "죄송합니다. 현재 응답을 생성할 수 없습니다."

  datatype Config = Config(
    defaultModel: string, fastModel: string, deepModel: string, fallbackModel: string,
    maxRetries: int, backoffMs: int, backoffMultiplier: real,
    fallbackOrder: seq<string>)

  /** The configuration an engine built from an empty dictionary ends up with. */
  function EmptyConfig(): (c: Config)
    ensures c.fastModel == c.fallbackModel
    ensures |c.fallbackOrder| == 5 && c.fallbackOrder[0] == "selected"
  {
    Config(DefaultModel, FastModel, DeepModel, FallbackModel,
           DefaultMaxRetries, DefaultBackoffMs, DefaultBackoffMultiplier, DefaultFallbackOrder)
  }

  /** Which provider keys are set (for Google, also whether its client library imported). */
  datatype Keys = Keys(openai: bool, anthropic: bool, google: bool)

  /* ----------------------------------------------------------- model loading */

  /** `[n for n in candidates if ok(n) and n not in models]`, appended in order. */
  function AddNew(models: seq<string>, candidates: seq<string>, ok: string -> bool): (r: seq<string>)
    requires NoDuplicates(models)
    ensures NoDuplicates(r)
    ensures |models| <= |r| && r[..|models|] == models
    ensures forall n :: n in r <==> n in models || (n in candidates && ok(n))
    decreases |candidates|
  {
    if |candidates| == 0 then models
    else
      var n := candidates[0];
      var next := if ok(n) && n !in models then models + [n] else models;
      AddNew(next, candidates[1..], ok)
  }

  predicate IsGpt(n: string) { IsPrefix("gpt-", n) }
  predicate IsClaude(n: string) { IsPrefix("claude", n) }
  predicate IsGemini(n: string) { Contains(Lower(n), "gemini") }

  /**
   `_initialize_models`: OpenAI loads GPT-named default/fast/fallback models,
   Anthropic the Claude-named default/deep models, Google the Gemini-named
   fast/fallback/default models; without LangChain nothing is loaded.
   */
  function InitializeModels(c: Config, keys: Keys, langchain: bool): (models: seq<string>)
    ensures NoDuplicates(models)
    ensures !langchain ==> models == []
    ensures langchain ==> forall n :: n in models <==> Loadable(c, keys, n)
  {
    if !langchain then []
    else
      var afterOpenai := if keys.openai then AddNew([], [c.defaultModel, c.fastModel, c.fallbackModel], IsGpt) else [];
      var afterAnthropic := if keys.anthropic then AddNew(afterOpenai, [c.defaultModel, c.deepModel], IsClaude) else afterOpenai;
      if keys.google then AddNew(afterAnthropic, [c.fastModel, c.fallbackModel, c.defaultModel], IsGemini) else afterAnthropic
  }

  /** The independent description of which names a provider can load. */
  predicate Loadable(c: Config, keys: Keys, n: string) {
    (keys.openai && IsGpt(n) && n in [c.defaultModel, c.fastModel, c.fallbackModel])
    || (keys.anthropic && IsClaude(n) && n in [c.defaultModel, c.deepModel])
    || (keys.google && IsGemini(n) && n in [c.fastModel, c.fallbackModel, c.defaultModel])
  }

  /**
   A Gemini fast model that is also the fallback model is loaded once, and a
   non-Gemini default is not loaded, when only the Google key is set.
   */
  lemma GoogleOnlyLoadsFastModelOnce(c: Config)
    requires IsGemini(c.fastModel) && c.fallbackModel == c.fastModel && !IsGemini(c.defaultModel)
    ensures InitializeModels(c, Keys(false, false, true), true) == [c.fastModel]
  {
    var cands := [c.fastModel, c.fallbackModel, c.defaultModel];
    assert cands[0] == c.fastModel && cands[1..] == [c.fallbackModel, c.defaultModel];
    assert [] + [c.fastModel] == [c.fastModel];
    assert AddNew([], [c.fastModel, c.fallbackModel, c.defaultModel], IsGemini)
        == AddNew([c.fastModel], [c.fallbackModel, c.defaultModel], IsGemini);
    assert AddNew([c.fastModel], [c.fallbackModel, c.defaultModel], IsGemini)
        == AddNew([c.fastModel], [c.defaultModel], IsGemini)
        == AddNew([c.fastModel], [], IsGemini);
  }

  /* --------------------------------------------------------------- contexts */

  /**
   The keys of a request context the engine reads. `None` stands for a missing
   or empty context; an empty override string stands for a missing or falsy one.
   `documents` are the contents of `retrieved_documents`, and `userInfo` the
   text form of `user_context`.
   */
  datatype Context = Context(
    taskType: Option<string>, latencyHint: Option<string>, costHint: Option<string>,
    promptOverride: string, systemPromptOverride: string,
    documents: seq<string>, userInfo: Option<string>)

  /* --------------------------------------------------------------- selection */

  predicate IsDeepTask(task: Option<string>) {
    task == Some("analysis") || task == Some("coding") || task == Some("reasoning")
  }

  /**
   `_select_model`: an explicit loaded name; then a budget or fast hint picks
   the fast model and a deep task the deep model, each only when loaded; then
   the default model, the fast model, the first loaded model, or nothing.
   */
  function SelectModel(c: Config, models: seq<string>, modelName: string, ctx: Option<Context>): (r: Option<string>)
    ensures r.Some? ==> r.value in models
    ensures r.None? <==> models == []
    ensures modelName != "" && modelName in models ==> r == Some(modelName)
    ensures (!(modelName != "" && modelName in models) && ctx.Some? && c.fastModel in models
             && (ctx.value.costHint == Some("budget") || ctx.value.latencyHint == Some("fast")))
        ==> r == Some(c.fastModel)
    ensures (modelName == "" || modelName !in models) && c.defaultModel in models && ctx.None? ==> r == Some(c.defaultModel)
  {
    if modelName != "" && modelName in models then Some(modelName)
    else if ctx.Some? && ctx.value.costHint == Some("budget") && c.fastModel in models then Some(c.fastModel)
    else if ctx.Some? && ctx.value.latencyHint == Some("fast") && c.fastModel in models then Some(c.fastModel)
    else if ctx.Some? && IsDeepTask(ctx.value.taskType) && c.deepModel in models then Some(c.deepModel)
    else if c.defaultModel in models then Some(c.defaultModel)
    else if c.fastModel in models then Some(c.fastModel)
    else if |models| > 0 then Some(models[0])
    else None
  }

  /**
   A deep task reaches the deep model unless an explicit name, a budget hint or
   a fast hint takes precedence; and the deep model is never picked over a
   loaded default without such a task.
   */
  lemma DeepModelOnlyForDeepTasks(c: Config, models: seq<string>, modelName: string, ctx: Option<Context>)
    requires c.deepModel != c.defaultModel && c.deepModel != c.fastModel && c.deepModel != modelName
    requires c.defaultModel in models
    ensures SelectModel(c, models, modelName, ctx) == Some(c.deepModel)
        <==> ctx.Some? && IsDeepTask(ctx.value.taskType) && c.deepModel in models
             && !(modelName != "" && modelName in models)
             && !(c.fastModel in models && (ctx.value.costHint == Some("budget") || ctx.value.latencyHint == Some("fast")))
  {
  }

  /* --------------------------------------------------------------- fallbacks */

  /** `name_map.get(token, token)`; `None` for the selected slot when nothing was selected. */
  function Resolve(c: Config, selected: Option<string>, token: string): (r: Option<string>)
    ensures token !in ["selected", "default", "fast", "deep", "fallback"] ==> r == Some(token)
  {
    if token == "selected" then selected
    else if token == "default" then Some(c.defaultModel)
    else if token == "fast" then Some(c.fastModel)
    else if token == "deep" then Some(c.deepModel)
    else if token == "fallback" then Some(c.fallbackModel)
    else Some(token)
  }

  /** The generator loop of `_fallback_candidates` from a given `seen` set. */
  function Candidates(c: Config, models: seq<string>, selected: Option<string>, tokens: seq<string>, seen: set<string>)
    : (r: seq<string>)
    ensures NoDuplicates(r)
    ensures forall n :: n in r <==>
      n in models && n !in seen && exists t :: t in tokens && Resolve(c, selected, t) == Some(n) && n != ""
    decreases |tokens|
  {
    if |tokens| == 0 then []
    else
      var name := Resolve(c, selected, tokens[0]);
      if name.None? || name.value == "" || name.value in seen then
        Candidates(c, models, selected, tokens[1..], seen)
      else
        var rest := Candidates(c, models, selected, tokens[1..], seen + {name.value});
        assert name.value !in rest;
        if name.value in models then [name.value] + rest else rest
  }

  /** The names `seen` starts with: the selected one, if any. */
  function Seeded(selected: Option<string>): (s: set<string>)
    ensures forall n :: n in s <==> selected == Some(n)
  {
    if selected.Some? then {selected.value} else {}
  }

  /**
   `_fallback_candidates`: every loaded name some token of the fallback order
   resolves to, once each, never the selected one.
   */
  function FallbackCandidates(c: Config, models: seq<string>, selected: Option<string>): (r: seq<string>)
    ensures NoDuplicates(r)
    ensures forall n :: n in r <==>
      n in models && selected != Some(n) && exists t :: t in c.fallbackOrder && Resolve(c, selected, t) == Some(n) && n != ""
  {
    Candidates(c, models, selected, c.fallbackOrder, Seeded(selected))
  }

  /**
   The candidates come in fallback order: the list is a subsequence of the
   resolved tokens.
   */
  lemma {:induction false} CandidatesFollowOrder(c: Config, models: seq<string>, selected: Option<string>,
                                                  tokens: seq<string>, seen: set<string>)
    ensures IsSubsequence(Candidates(c, models, selected, tokens, seen), ResolvedNames(c, selected, tokens))
    decreases |tokens|
  {
    if |tokens| > 0 {
      var name := Resolve(c, selected, tokens[0]);
      var names := ResolvedNames(c, selected, tokens);
      var r := Candidates(c, models, selected, tokens, seen);
      if name.None? || name.value == "" {
        CandidatesFollowOrder(c, models, selected, tokens[1..], seen);
      } else if name.value in seen {
        CandidatesFollowOrder(c, models, selected, tokens[1..], seen);
        assert names[1..] == ResolvedNames(c, selected, tokens[1..]);
        SubsequenceDropHead(r, names);
      } else {
        CandidatesFollowOrder(c, models, selected, tokens[1..], seen + {name.value});
        var rest := Candidates(c, models, selected, tokens[1..], seen + {name.value});
        assert names == [name.value] + ResolvedNames(c, selected, tokens[1..]);
        if name.value in models {
          assert r == [name.value] + rest;
          assert r[1..] == rest && names[1..] == ResolvedNames(c, selected, tokens[1..]);
        } else {
          assert r == rest;
          SubsequenceDropHead(r, names);
        }
      }
    }
  }

  /** The names the tokens resolve to, skipping empty ones. */
  function ResolvedNames(c: Config, selected: Option<string>, tokens: seq<string>): (r: seq<string>)
    ensures |r| <= |tokens|
    ensures forall n :: n in r ==> n != ""
    decreases |tokens|
  {
    if |tokens| == 0 then []
    else
      var name := Resolve(c, selected, tokens[0]);
      if name.None? || name.value == "" then ResolvedNames(c, selected, tokens[1..])
      else [name.value] + ResolvedNames(c, selected, tokens[1..])
  }

  /** A subsequence of the tail is a subsequence of the whole. */
  lemma SubsequenceDropHead<T>(xs: seq<T>, ys: seq<T>)
    requires |ys| > 0 && IsSubsequence(xs, ys[1..])
    ensures IsSubsequence(xs, ys)
  {
  }

  /** With the default order, the selected name never reappears and the default model is tried first. */
  lemma DefaultOrderTriesDefaultFirst(models: seq<string>, selected: string)
    requires DefaultModel in models && selected != DefaultModel
    ensures var r := FallbackCandidates(EmptyConfig(), models, Some(selected));
      |r| > 0 && r[0] == DefaultModel && selected !in r
  {
    var c := EmptyConfig();
    var seen := Seeded(Some(selected));
    assert Resolve(c, Some(selected), "selected") == Some(selected);
    assert Candidates(c, models, Some(selected), c.fallbackOrder, seen)
        == Candidates(c, models, Some(selected), c.fallbackOrder[1..], seen);
    assert c.fallbackOrder[1..][0] == "default";
  }

  /* ------------------------------------------------------------------ retry */

  function Pow(x: real, n: nat): real {
    if n == 0 then 1.0 else x * Pow(x, n - 1)
  }

  lemma PowStep(b: real, m: real, k: nat)
    requires k > 0
    ensures (b * m) * Pow(m, k - 1) == b * Pow(m, k)
  {
    assert Pow(m, k) == m * Pow(m, k - 1);
  }

  /** `max(1, max_retries)`. */
  function Attempts(maxRetries: int): (n: nat)
    ensures n >= 1 && n >= maxRetries
    ensures maxRetries >= 1 ==> n == maxRetries
  {
    if maxRetries < 1 then 1 else maxRetries
  }

  /** What one call of `_generate_with_retries` did: the reply, how many calls, and the sleeps between them. */
  datatype RetryOutcome = RetryOutcome(response: string, calls: nat, sleeps: seq<real>)

  /** The retry loop from attempt `attempt` on, with the current backoff. */
  function RetryFrom(call: nat -> Option<string>, attempt: nat, attempts: nat, backoff: real, multiplier: real)
    : (r: RetryOutcome)
    requires attempt < attempts
    ensures 1 <= r.calls <= attempts - attempt
    ensures |r.sleeps| == r.calls - 1
    decreases attempts - attempt
  {
    match call(attempt)
    case Some(text) => RetryOutcome(text, 1, [])
    case None =>
      if attempt < attempts - 1 then
        var rest := RetryFrom(call, attempt + 1, attempts, backoff * multiplier, multiplier);
        RetryOutcome(rest.response, rest.calls + 1, [backoff] + rest.sleeps)
      else RetryOutcome("", 1, [])
  }

  /**
   `_generate_with_retries` for one model: at least one and at most
   `max(1, max_retries)` calls, one sleep between consecutive calls.
   */
  function GenerateWithRetries(c: Config, call: nat -> Option<string>): (r: RetryOutcome)
    ensures 1 <= r.calls <= Attempts(c.maxRetries)
    ensures |r.sleeps| == r.calls - 1
  {
    RetryFrom(call, 0, Attempts(c.maxRetries), c.backoffMs as real / 1000.0, c.backoffMultiplier)
  }

  /**
   The loop stops at the first success: every earlier attempt failed, the reply
   is the successful attempt's text, and when the last call failed too, all
   attempts were spent and the reply is empty.
   */
  lemma {:induction false} RetryStopsAtFirstSuccess(call: nat -> Option<string>, attempt: nat, attempts: nat,
                                                    backoff: real, multiplier: real)
    requires attempt < attempts
    ensures var r := RetryFrom(call, attempt, attempts, backoff, multiplier);
      var last := attempt + r.calls - 1;
      (forall k :: attempt <= k < last ==> call(k).None?)
      && (call(last).Some? ==> r.response == call(last).value)
      && (call(last).None? ==> r.response == "" && last == attempts - 1)
    decreases attempts - attempt
  {
    if call(attempt).None? && attempt < attempts - 1 {
      RetryStopsAtFirstSuccess(call, attempt + 1, attempts, backoff * multiplier, multiplier);
    }
  }

  /** The backoff grows geometrically: the k-th sleep is the initial backoff times `multiplier^k`. */
  lemma {:induction false} RetrySleepsGrow(call: nat -> Option<string>, attempt: nat, attempts: nat,
                                           backoff: real, multiplier: real)
    requires attempt < attempts
    ensures var r := RetryFrom(call, attempt, attempts, backoff, multiplier);
      Geometric(r.sleeps, backoff, multiplier)
    decreases attempts - attempt
  {
    var r := RetryFrom(call, attempt, attempts, backoff, multiplier);
    if call(attempt).Some? || attempt == attempts - 1 {
      assert r.sleeps == [];
    } else {
      RetrySleepsGrow(call, attempt + 1, attempts, backoff * multiplier, multiplier);
      var rest := RetryFrom(call, attempt + 1, attempts, backoff * multiplier, multiplier);
      assert r.sleeps == [backoff] + rest.sleeps;
      GeometricCons(backoff, multiplier, rest.sleeps);
    }
  }

  /** The k-th element is `b * m^k`. */
  predicate Geometric(s: seq<real>, b: real, m: real) {
    forall k :: 0 <= k < |s| ==> s[k] == b * Pow(m, k)
  }

  /** Prepending the current backoff to the geometric sleeps of the next step keeps them geometric. */
  lemma GeometricCons(b: real, m: real, rest: seq<real>)
    requires Geometric(rest, b * m, m)
    ensures Geometric([b] + rest, b, m)
  {
    forall k | 0 <= k < |rest| + 1
      ensures ([b] + rest)[k] == b * Pow(m, k)
    {
      if k > 0 {
        PowStep(b, m, k);
      }
    }
  }

  /** With the default two attempts, one failure is followed by a retry that succeeds. */
  lemma SecondAttemptSucceeds(c: Config, call: nat -> Option<string>, text: string)
    requires c.maxRetries == 2 && call(0).None? && call(1) == Some(text)
    ensures GenerateWithRetries(c, call) == RetryOutcome(text, 2, [c.backoffMs as real / 1000.0])
  {
  }

  /* --------------------------------------------------------------- messages */

  datatype Message = SystemMessage(content: string) | HumanMessage(content: string)

  /** `_format_context`: up to three retrieved documents, cut to 200 characters, then the user info. */
  function FormatContext(documents: seq<string>, userInfo: Option<string>): (r: string)
    ensures r == "" <==> |documents| == 0 && userInfo.None?
  {
    var docLines := if |documents| == 0 then [] else ["Retrieved Docs:"] + DocLines(Take(documents, 3), 1);
    var userLines := if userInfo.Some? then ["User Info: " + userInfo.value] else [];
    var parts := docLines + userLines;
    if |parts| == 0 then ""
    else JoinStartsWithFirst("\n", parts); Join("\n", parts)
  }

  /** The numbered lines `"i. " + content[:200] + "..."`. */
  function DocLines(documents: seq<string>, i: nat): (r: seq<string>)
    ensures |r| == |documents|
    decreases |documents|
  {
    if |documents| == 0 then []
    else [NatToString(i) + ". " + Take(documents[0], 200) + "..."] + DocLines(documents[1..], i + 1)
  }

  /**
   `_prepare_messages` (LangChain form): the system prompt if given, the
   formatted context if non-empty, then the prompt as the one human message.
   */
  function PrepareMessages(prompt: string, systemPrompt: string, ctx: Option<Context>): (r: seq<Message>)
    ensures 1 <= |r| <= 3 && r[|r| - 1] == HumanMessage(prompt)
    ensures forall i :: 0 <= i < |r| - 1 ==> r[i].SystemMessage?
    ensures systemPrompt != "" ==> r[0] == SystemMessage(systemPrompt)
    ensures |r| - 1 == (if systemPrompt != "" then 1 else 0)
      + (if ctx.Some? && FormatContext(ctx.value.documents, ctx.value.userInfo) != "" then 1 else 0)
  {
    var sys := if systemPrompt != "" then [SystemMessage(systemPrompt)] else [];
    var info := if ctx.Some? then FormatContext(ctx.value.documents, ctx.value.userInfo) else "";
    var ctxMsg := if info != "" then [SystemMessage("Context:\n" + info)] else [];
    sys + ctxMsg + [HumanMessage(prompt)]
  }

  /* --------------------------------------------------------------- generate */

  /** The text of a model call sequence for `name`. */
  function CallOf(call: (string, seq<Message>, nat) -> Option<string>, name: string, messages: seq<Message>)
    : nat -> Option<string>
  {
    (k: nat) => call(name, messages, k)
  }

  /** The fallback loop of `generate`: the first non-empty retry reply among `names`, or "". */
  function FirstReply(c: Config, names: seq<string>, messages: seq<Message>,
                      call: (string, seq<Message>, nat) -> Option<string>): (r: string)
    ensures r == "" <==> forall i :: 0 <= i < |names| ==> GenerateWithRetries(c, CallOf(call, names[i], messages)).response == ""
    ensures r != "" ==> exists i :: 0 <= i < |names| && r == GenerateWithRetries(c, CallOf(call, names[i], messages)).response
    decreases |names|
  {
    if |names| == 0 then ""
    else
      var reply := GenerateWithRetries(c, CallOf(call, names[0], messages)).response;
      if reply != "" then reply
      else
        var rest := FirstReply(c, names[1..], messages, call);
        assert forall i :: 1 <= i < |names| ==> names[i] == names[1..][i - 1];
        rest
  }

  /** The prompt after a truthy `prompt_override`. */
  function EffectivePrompt(prompt: string, ctx: Option<Context>): string {
    if ctx.Some? && ctx.value.promptOverride != "" then ctx.value.promptOverride else prompt
  }

  /** The system prompt after a truthy `system_prompt_override`. */
  function EffectiveSystem(systemPrompt: string, ctx: Option<Context>): string {
    if ctx.Some? && ctx.value.systemPromptOverride != "" then ctx.value.systemPromptOverride else systemPrompt
  }

  /**
   `generate`: the selected model's reply after retries, else the first
   fallback candidate's non-empty reply, else the apology; it never fails and
   never returns empty text.
   */
  function Generate(c: Config, models: seq<string>, prompt: string, systemPrompt: string, modelName: string,
                    ctx: Option<Context>, call: (string, seq<Message>, nat) -> Option<string>): (r: string)
    ensures r != ""
    ensures models == [] ==> r == Apology
  {
    var selected := SelectModel(c, models, modelName, ctx);
    if selected.None? then Apology
    else
      var messages := PrepareMessages(EffectivePrompt(prompt, ctx), EffectiveSystem(systemPrompt, ctx), ctx);
      var reply := GenerateWithRetries(c, CallOf(call, selected.value, messages)).response;
      if reply != "" then reply
      else
        var fallback := FirstReply(c, FallbackCandidates(c, models, selected), messages, call);
        if fallback != "" then fallback else Apology
  }

  /**
   Every reply other than the apology is the retry reply of a loaded model,
   given the prompt and system prompt after the overrides.
   */
  lemma GenerateRepliesFromLoadedModel(c: Config, models: seq<string>, prompt: string, systemPrompt: string,
                                       modelName: string, ctx: Option<Context>,
                                       call: (string, seq<Message>, nat) -> Option<string>)
    ensures var r := Generate(c, models, prompt, systemPrompt, modelName, ctx, call);
      var messages := PrepareMessages(EffectivePrompt(prompt, ctx), EffectiveSystem(systemPrompt, ctx), ctx);
      r == Apology || exists n :: n in models && r == GenerateWithRetries(c, CallOf(call, n, messages)).response
  {
    var r := Generate(c, models, prompt, systemPrompt, modelName, ctx, call);
    var selected := SelectModel(c, models, modelName, ctx);
    if selected.Some? {
      var messages := PrepareMessages(EffectivePrompt(prompt, ctx), EffectiveSystem(systemPrompt, ctx), ctx);
      var names := FallbackCandidates(c, models, selected);
      if r != Apology && r != GenerateWithRetries(c, CallOf(call, selected.value, messages)).response {
        var i :| 0 <= i < |names| && r == GenerateWithRetries(c, CallOf(call, names[i], messages)).response;
        assert names[i] in names;
      }
    }
  }

  /** When every call of every model raises, the reply is the apology. */
  lemma AllFailuresGiveApology(c: Config, models: seq<string>, prompt: string, systemPrompt: string,
                               modelName: string, ctx: Option<Context>,
                               call: (string, seq<Message>, nat) -> Option<string>)
    requires forall n, m, k :: call(n, m, k).None?
    ensures Generate(c, models, prompt, systemPrompt, modelName, ctx, call) == Apology
  {
    var selected := SelectModel(c, models, modelName, ctx);
    if selected.Some? {
      var messages := PrepareMessages(EffectivePrompt(prompt, ctx), EffectiveSystem(systemPrompt, ctx), ctx);
      forall n | true
        ensures GenerateWithRetries(c, CallOf(call, n, messages)).response == ""
      {
        var r := GenerateWithRetries(c, CallOf(call, n, messages));
        RetryStopsAtFirstSuccess(CallOf(call, n, messages), 0, Attempts(c.maxRetries),
                                 c.backoffMs as real / 1000.0, c.backoffMultiplier);
        assert CallOf(call, n, messages)(r.calls - 1).None?;
      }
    }
  }

  /** A truthy `prompt_override` makes the `prompt` argument irrelevant. */
  lemma PromptOverrideWins(c: Config, models: seq<string>, prompt1: string, prompt2: string, systemPrompt: string,
                           modelName: string, ctx: Option<Context>,
                           call: (string, seq<Message>, nat) -> Option<string>)
    requires ctx.Some? && ctx.value.promptOverride != ""
    ensures Generate(c, models, prompt1, systemPrompt, modelName, ctx, call)
         == Generate(c, models, prompt2, systemPrompt, modelName, ctx, call)
    ensures PrepareMessages(EffectivePrompt(prompt1, ctx), EffectiveSystem(systemPrompt, ctx), ctx)[
              |PrepareMessages(EffectivePrompt(prompt1, ctx), EffectiveSystem(systemPrompt, ctx), ctx)| - 1]
         == HumanMessage(ctx.value.promptOverride)
  {
  }

  /**
   When the selected model fails on its only attempt and the next candidate
   answers first time, that candidate's text is the reply.
   */
  lemma BackupAnswers(c: Config, models: seq<string>, prompt: string, systemPrompt: string, modelName: string,
                      ctx: Option<Context>, call: (string, seq<Message>, nat) -> Option<string>, text: string)
    requires c.maxRetries == 1 && text != ""
    requires SelectModel(c, models, modelName, ctx).Some?
    requires var selected := SelectModel(c, models, modelName, ctx);
      var names := FallbackCandidates(c, models, selected);
      var messages := PrepareMessages(EffectivePrompt(prompt, ctx), EffectiveSystem(systemPrompt, ctx), ctx);
      |names| > 0 && call(selected.value, messages, 0).None? && call(names[0], messages, 0) == Some(text)
    ensures Generate(c, models, prompt, systemPrompt, modelName, ctx, call) == text
  {
  }
}

=== FILE: rag_intent_analyzer.dfy ===
/**
 The intent router: a fast model labels the query, and the agent normalises
 whatever label comes back onto the fixed set of `UserIntent` values.

 The model reply is an oracle. JSON decoding is a parameter `parse` applied to
 the reply after the markdown fences are removed.
 */
module IntentAnalyzer {
  import opened Common

  /** The values of the `UserIntent` enumeration. */
  const UserIntentValues: seq<string> := [
    "competency_assessment", "recommendation", "search", "analytics",
    "data_collection", "mission_matching", "general_chat", "unknown"
  ]

  /** The `intent` field of the decoded reply. */
  datatype IntentField = Absent | Str(s: string) | NonString

  /** The `confidence` field as the orchestrator later reads it. */
  datatype Confidence = NoConfidence | Number(value: real) | NonNumeric

  /** The decoded reply: a JSON object with the two fields the service reads. */
  datatype Decoded = Decoded(intent: IntentField, confidence: Confidence)

  /** What `analyze_intent` returns. */
  datatype IntentResult = IntentResult(intent: string, confidence: Confidence, failed: bool)

  /** Alias folding and validation of the `intent` field. */
  function NormalizeIntent(f: IntentField): (r: string)
    ensures r in UserIntentValues
    ensures f == Str("competency") ==> r == "competency_assessment"
    ensures f == Str("mission") ==> r == "mission_matching"
    ensures f.Str? && f.s in UserIntentValues ==> r == f.s
    ensures f.Str? && f.s !in UserIntentValues && f.s != "competency" && f.s != "mission" ==> r == "general_chat"
    ensures !f.Str? ==> r == "general_chat"
  {
    match f
    case Absent => "general_chat"
    case NonString => "general_chat"
    case Str(s) =>
      var t := if s == "competency" then "competency_assessment"
               else if s == "mission" then "mission_matching"
               else s;
      if t in UserIntentValues then t else "general_chat"
  }

  /** Normalising an already normalised intent changes nothing. */
  lemma NormalizeIdempotent(f: IntentField)
    ensures NormalizeIntent(Str(NormalizeIntent(f))) == NormalizeIntent(f)
  {
  }

  /** `response.replace("```json", "").replace("```", "").strip()`. */
  function RemoveFences(response: string): string {
    Strip(ReplaceAll(ReplaceAll(response, "```json", ""), "```", ""))
  }

  /**
   `analyze_intent`: `reply` is the model's text, or `None` when the call
   raised; `parse` decodes the cleaned text, `None` meaning it was not a JSON
   object.
   */
  function AnalyzeIntent(reply: Option<string>, parse: string -> Option<Decoded>): (r: IntentResult)
    ensures r.intent in UserIntentValues
    ensures r.failed <==> reply.None? || parse(RemoveFences(reply.value)).None?
    ensures r.failed ==> r.intent == "general_chat" && r.confidence == Number(0.0)
    ensures !r.failed ==> r.intent == NormalizeIntent(parse(RemoveFences(reply.value)).value.intent)
    ensures !r.failed ==> r.confidence == parse(RemoveFences(reply.value)).value.confidence
  {
    match reply
    case None => IntentResult("general_chat", Number(0.0), true)
    case Some(text) =>
      match parse(RemoveFences(text))
      case None => IntentResult("general_chat", Number(0.0), true)
      case Some(d) => IntentResult(NormalizeIntent(d.intent), d.confidence, false)
  }

  /** A reply without a backtick is decoded after stripping only, so the fence removal never alters bare JSON. */
  lemma BareReplyOnlyStripped(text: string)
    requires '`' !in text
    ensures RemoveFences(text) == Strip(text)
  {
    MissingCharNotContained(text, "```json", 0);
    ReplaceAbsent(text, "```json", "");
    MissingCharNotContained(text, "```", 0);
    ReplaceAbsent(text, "```", "");
  }
}

=== FILE: rag_llm_manager.dfy ===
/**
 The tier- and task-aware model router of the RAG layer: it picks one of the
 engine's three configured models and attaches cost and latency hints.
 */
module LlmRouting {

  /** The engine's configured model names. */
  datatype Models = Models(defaultModel: string, fastModel: string, deepModel: string)

  datatype RoutingConfig = RoutingConfig(modelName: string, costHint: string, latencyHint: string)

  /** Planning or high complexity, for a user allowed the deep model. */
  predicate Escalates(userTier: string, complexity: string, taskType: string, costPreference: string) {
    (taskType == "planning" || complexity == "high") && (userTier == "pro" || costPreference == "performance")
  }

  /** `route_request`. */
  function RouteRequest(m: Models, userTier: string, complexity: string, taskType: string, costPreference: string)
    : (c: RoutingConfig)
    ensures taskType == "routing" ==> c == RoutingConfig(m.fastModel, "budget", "fast")
    ensures taskType != "routing" && Escalates(userTier, complexity, taskType, costPreference) ==>
      c == RoutingConfig(m.deepModel, "premium", "slow")
    ensures taskType == "coding" && !Escalates(userTier, complexity, taskType, costPreference) ==>
      c == RoutingConfig(m.deepModel, "balanced", "normal")
    ensures taskType !in {"routing", "coding"} && !Escalates(userTier, complexity, taskType, costPreference) ==>
      (userTier == "free" ==> c == RoutingConfig(m.fastModel, "budget", "fast"))
      && (userTier == "pro" && costPreference == "speed" ==> c == RoutingConfig(m.fastModel, "balanced", "fast"))
      && (userTier != "free" && !(userTier == "pro" && costPreference == "speed") ==>
            c.costHint == "balanced" && c.latencyHint == "normal"
            && c.modelName == (if taskType == "rag" && costPreference == "budget" then m.fastModel else m.defaultModel))
  {
    var base := RoutingConfig(m.defaultModel, "balanced", "normal");
    if taskType == "routing" then RoutingConfig(m.fastModel, "budget", "fast")
    else if Escalates(userTier, complexity, taskType, costPreference) then RoutingConfig(m.deepModel, "premium", "slow")
    else if taskType == "coding" then base.(modelName := m.deepModel)
    else
      var afterRag := if taskType == "rag" && costPreference == "budget" then base.(modelName := m.fastModel) else base;
      if userTier == "free" then RoutingConfig(m.fastModel, "budget", "fast")
      else if userTier == "pro" && costPreference == "speed" then afterRag.(modelName := m.fastModel, latencyHint := "fast")
      else afterRag
  }

  /** The router always names one of the three configured models, with hints from fixed vocabularies. */
  lemma RouteIsConfigured(m: Models, userTier: string, complexity: string, taskType: string, costPreference: string)
    ensures var c := RouteRequest(m, userTier, complexity, taskType, costPreference);
      c.modelName in {m.defaultModel, m.fastModel, m.deepModel}
      && c.costHint in {"balanced", "budget", "premium"} && c.latencyHint in {"normal", "fast", "slow"}
  {
  }

  /**
   With three distinct models, the deep model is chosen exactly for coding
   tasks and for escalated planning or complex requests, never for routing.
   */
  lemma DeepModelExactly(m: Models, userTier: string, complexity: string, taskType: string, costPreference: string)
    requires m.deepModel != m.fastModel && m.deepModel != m.defaultModel
    ensures RouteRequest(m, userTier, complexity, taskType, costPreference).modelName == m.deepModel
        <==> taskType != "routing" && (taskType == "coding" || Escalates(userTier, complexity, taskType, costPreference))
  {
  }

  /** A premium cost hint always comes with a slow latency hint, and only for escalated requests. */
  lemma PremiumMeansSlow(m: Models, userTier: string, complexity: string, taskType: string, costPreference: string)
    ensures var c := RouteRequest(m, userTier, complexity, taskType, costPreference);
      c.costHint == "premium" <==> c.latencyHint == "slow"
    ensures RouteRequest(m, userTier, complexity, taskType, costPreference).costHint == "premium"
        <==> taskType != "routing" && Escalates(userTier, complexity, taskType, costPreference)
  {
  }
}

=== FILE: rag_pipeline.dfy ===
/**
 The RAG pipeline's request flow: the cache check, multi-query retrieval with
 first-occurrence merging, tier routing, generation, validation of the answer
 with its source list, and caching of the final answer; plus the analytics
 enrichment of the generation context.

 The collaborators that call models or stores (query-expansion reply, the
 vector and keyword searches, the reranker, the generator, the refiner) are
 given as inputs; the cache, the query expander and the tier router are the
 models of their own modules.
 */
module RagPipeline {
  import opened Common
  import SemanticCache
  import QueryExpander
  import LlmRouting

  /** A retrieved document: the fields the pipeline reads. */
  datatype Doc = Doc(id: string, score: real, content: string, source: Option<string>, date: Option<string>)

  function Id(d: Doc): string { d.id }
  function Score(d: Doc): real { d.score }

  function Ids(docs: seq<Doc>): (r: seq<string>)
    ensures |r| == |docs| && forall i :: 0 <= i < |docs| ==> r[i] == docs[i].id
  {
    seq(|docs|, i requires 0 <= i < |docs| => docs[i].id)
  }

  /** Unique ids are exactly pairwise distinct keys. */
  lemma DistinctIds(docs: seq<Doc>)
    ensures NoDuplicates(Ids(docs)) <==> DistinctKeys(docs, Id)
  {
  }

  /** The pipeline knobs, with their defaults 5, 3, true, true. */
  datatype Settings = Settings(maxRetrievalDocs: int, rerankTopK: int, enableReranking: bool, enableHybridSearch: bool)

  const DefaultSettings := Settings(5, 3, true, true)

  /* ------------------------------------------------------------ deduplicate */

  /** `_deduplicate_documents`: the first document of every id, in order. */
  function DeduplicateDocuments(docs: seq<Doc>): (r: seq<Doc>)
    ensures NoDuplicates(Ids(r))
    ensures forall d :: d in r ==> d in docs
    ensures |r| <= |docs|
  {
    DedupBy(docs, Id, {})
  }

  /** Each kept document is the first with its id, and every id of the input survives. */
  lemma DeduplicateKeepsFirst(docs: seq<Doc>)
    ensures forall d :: d in DeduplicateDocuments(docs) ==> FirstWithKey(docs, Id, d.id) == Some(d)
    ensures forall d :: d in docs ==> d.id in Ids(DeduplicateDocuments(docs))
  {
    DedupByFirst(docs, Id, {});
    var r := DeduplicateDocuments(docs);
    forall d | d in docs
      ensures d.id in Ids(r)
    {
      var y :| y in r && Id(y) == Id(d);
      var i :| 0 <= i < |r| && r[i] == y;
      assert Ids(r)[i] == d.id;
    }
  }

  /* --------------------------------------------------------- multi-query merge */

  function Concat(lists: seq<seq<Doc>>): seq<Doc>
    decreases |lists|
  {
    if |lists| == 0 then [] else lists[0] + Concat(lists[1..])
  }

  /** The nested loop of `process_query` from a given `seen_ids` set. */
  function FlattenFrom(lists: seq<seq<Doc>>, seen: set<string>): (r: seq<Doc>)
    ensures r == DedupBy(Concat(lists), Id, seen)
    decreases |lists|
  {
    if |lists| == 0 then []
    else
      var first := DedupBy(lists[0], Id, seen);
      DedupByAppend(lists[0], Concat(lists[1..]), Id, seen);
      first + FlattenFrom(lists[1..], seen + KeysOf(lists[0], Id))
  }

  /**
   The per-query results flattened, keeping the first document of each id: the
   same as deduplicating the concatenation in one pass.
   */
  function FlattenUnique(lists: seq<seq<Doc>>): (r: seq<Doc>)
    ensures r == DeduplicateDocuments(Concat(lists))
    ensures NoDuplicates(Ids(r))
  {
    FlattenFrom(lists, {})
  }

  /* -------------------------------------------------------- hybrid retrieval */

  /**
   `_hybrid_retrieval` for one query: vector hits, plus keyword hits in hybrid
   mode, deduplicated by id, sorted by score descending and cut to the limit;
   `None` for a search that raised, which empties the result.
   */
  function HybridRetrieval(s: Settings, vector: Option<seq<Doc>>, keyword: Option<seq<Doc>>): (r: seq<Doc>)
    ensures vector.None? || (s.enableHybridSearch && keyword.None?) ==> r == []
    ensures NoDuplicates(Ids(r))
    ensures SortedDesc(r, Score)
    ensures s.maxRetrievalDocs >= 0 ==> |r| <= s.maxRetrievalDocs
    ensures forall d :: d in r ==> (vector.Some? && d in vector.value) || (keyword.Some? && d in keyword.value)
  {
    if vector.None? || (s.enableHybridSearch && keyword.None?) then []
    else
      var all := vector.value + (if s.enableHybridSearch then keyword.value else []);
      var unique := DeduplicateDocuments(all);
      var r := SortedTop(unique, Score, s.maxRetrievalDocs);
      RetrievedStayDistinct(unique, s.maxRetrievalDocs);
      r
  }

  lemma RetrievedStayDistinct(unique: seq<Doc>, stop: int)
    requires NoDuplicates(Ids(unique))
    ensures NoDuplicates(Ids(SortedTop(unique, Score, stop)))
  {
    DistinctIds(unique);
    SortDescDistinct(unique, Score, Id);
    var sorted := SortDesc(unique, Score);
    var r := SortedTop(unique, Score, stop);
    assert r == sorted[..|r|];
    DistinctIds(r);
  }

  /** When the limit leaves room for all of them, every retrieved id survives. */
  lemma RoomyRetrievalKeepsAllIds(s: Settings, vector: seq<Doc>, keyword: seq<Doc>)
    requires s.maxRetrievalDocs >= |vector| + |keyword|
    ensures var r := HybridRetrieval(s, Some(vector), Some(keyword));
      forall d :: d in vector ==> d.id in Ids(r)
  {
    var all := vector + (if s.enableHybridSearch then keyword else []);
    var unique := DeduplicateDocuments(all);
    var r := HybridRetrieval(s, Some(vector), Some(keyword));
    assert r == SortDesc(unique, Score) by {
      var sorted := SortDesc(unique, Score);
      assert |sorted| <= s.maxRetrievalDocs;
    }
    DeduplicateKeepsFirst(all);
    forall d | d in vector
      ensures d.id in Ids(r)
    {
      assert d in all;
      assert d.id in Ids(unique);
      var i :| 0 <= i < |unique| && Ids(unique)[i] == d.id;
      SortDescMembers(unique, Score);
      assert unique[i] in r;
      var j :| 0 <= j < |r| && r[j] == unique[i];
      assert Ids(r)[j] == d.id;
    }
  }

  /* --------------------------------------------------------------- answers */

  const TooShortReply := "응답이 너무 짧습니다. 더 자세한 정보를 제공해주세요."
  const RefusalReply := "죄송합니다. 적절한 답변을 제공할 수 없습니다."
  const BlockedKeywords := ["오류", "에러", "실패", "불가능"]

  /**
   `_validate_response`: fewer than 10 characters after stripping gives the
   too-short reply, a blocked keyword the refusal, anything else passes.
   */
  function ValidateResponse(response: string): (r: string)
    ensures |Strip(response)| < 10 ==> r == TooShortReply
    ensures |Strip(response)| >= 10 && ContainsAny(response, BlockedKeywords) ==> r == RefusalReply
    ensures |Strip(response)| >= 10 && !ContainsAny(response, BlockedKeywords) ==> r == response
  {
    if |Strip(response)| < 10 then TooShortReply
    else if ContainsAny(response, BlockedKeywords) then RefusalReply
    else response
  }

  /** Neither fixed reply is too short or blocked, so validating twice changes nothing. */
  lemma ValidateIdempotent(response: string)
    ensures ValidateResponse(ValidateResponse(response)) == ValidateResponse(response)
  {
    FixedRepliesPass();
  }

  lemma FixedRepliesPass()
    ensures ValidateResponse(TooShortReply) == TooShortReply
    ensures ValidateResponse(RefusalReply) == RefusalReply
  {
    TooShortPasses();
    RefusalPasses();
  }

  lemma TooShortPasses()
    ensures ValidateResponse(TooShortReply) == TooShortReply
  {
    StripOfUnspaced(TooShortReply);
    NoBlockedKeyword(TooShortReply);
  }

  lemma RefusalPasses()
    ensures ValidateResponse(RefusalReply) == RefusalReply
  {
    StripOfUnspaced(RefusalReply);
    NoBlockedKeyword(RefusalReply);
  }

  /** A text none of whose characters starts a blocked keyword contains none. */
  lemma NoBlockedKeyword(s: string)
    requires forall j :: 0 <= j < |s| ==> s[j] != '오' && s[j] != '에' && s[j] != '실' && s[j] != '불'
    ensures !ContainsAny(s, BlockedKeywords)
  {
    MissingCharNotContained(s, "오류", 0);
    MissingCharNotContained(s, "에러", 0);
    MissingCharNotContained(s, "실패", 0);
    MissingCharNotContained(s, "불가능", 0);
  }

  /** One `- source (date)` line, `Unknown` for a missing field. */
  function SourceLine(d: Doc): (line: string)
    ensures d.source.None? ==> |line| >= 11 && line[..11] == "- Unknown ("
  {
    "- " + d.source.GetOr("Unknown") + " (" + d.date.GetOr("Unknown") + ")"
  }

  /** `_create_source_info`: the source lines of the first three documents. */
  function SourceInfo(docs: seq<Doc>): (r: string)
    ensures r == "" <==> docs == []
    ensures docs != [] ==> |SourceLine(docs[0])| <= |r| && r[..|SourceLine(docs[0])|] == SourceLine(docs[0])
  {
    var lines := seq(Min(3, |docs|), i requires 0 <= i < Min(3, |docs|) => SourceLine(docs[i]));
    if |lines| == 0 then ""
    else JoinStartsWithFirst("\n", lines); Join("\n", lines)
  }

  const SourcesHeading := "\n\n**참고 자료**:\n"

  /** The validated answer, followed by the source list when there are documents. */
  function Postprocess(response: string, docs: seq<Doc>): (r: string)
    ensures docs == [] ==> r == ValidateResponse(response)
    ensures docs != [] ==> r == ValidateResponse(response) + SourcesHeading + SourceInfo(docs)
  {
    var validated := ValidateResponse(response);
    if |docs| > 0 then validated + SourcesHeading + SourceInfo(docs) else validated
  }

  /** Each of the first three documents has its source line in the source list. */
  lemma SourceListed(docs: seq<Doc>, i: nat)
    requires i < Min(3, |docs|)
    ensures Contains(SourceInfo(docs), SourceLine(docs[i]))
  {
    var lines := seq(Min(3, |docs|), j requires 0 <= j < Min(3, |docs|) => SourceLine(docs[j]));
    assert SourceInfo(docs) == Join("\n", lines);
    JoinContainsParts("\n", lines, i);
  }

  /**
   Post-processing keeps the validated answer as a prefix; with documents the
   heading follows it, and after the heading come the source lines of the
   first three documents.
   */
  lemma PostprocessKeepsAnswer(response: string, docs: seq<Doc>)
    ensures var r := Postprocess(response, docs);
      var v := ValidateResponse(response);
      |v| <= |r| && r[..|v|] == v
      && (docs == [] ==> r == v)
      && (docs != [] ==>
            (|v| + |SourcesHeading| <= |r| && r[|v|..|v| + |SourcesHeading|] == SourcesHeading
             && forall i :: 0 <= i < Min(3, |docs|) ==> Contains(r[|v| + |SourcesHeading|..], SourceLine(docs[i]))))
  {
    var r := Postprocess(response, docs);
    var v := ValidateResponse(response);
    if docs != [] {
      var info := SourceInfo(docs);
      assert r == v + SourcesHeading + info;
      assert r[|v| + |SourcesHeading|..] == info;
      forall i | 0 <= i < Min(3, |docs|)
        ensures Contains(r[|v| + |SourcesHeading|..], SourceLine(docs[i]))
      {
        SourceListed(docs, i);
      }
    }
  }

  /** `'high' if len(retrieved_docs) > 3 or len(processed_query) > 50 else 'low'`. */
  function Complexity(docs: seq<Doc>, query: string): (c: string)
    ensures c == "high" <==> |docs| > 3 || |query| > 50
    ensures c in {"high", "low"}
  {
    if |docs| > 3 || |query| > 50 then "high" else "low"
  }

  /* ----------------------------------------------------------- process_query */

  /** What the collaborators answer for one request. */
  datatype Collaborators = Collaborators(
    expansion: Option<string>,
    vectorSearch: string -> Option<seq<Doc>>,
    keywordSearch: string -> Option<seq<Doc>>,
    rerank: seq<Doc> -> seq<Doc>,
    generate: LlmRouting.RoutingConfig -> string,
    refine: string -> string)

  /** The fields of `process_query`'s result dictionary the model keeps. */
  datatype Outcome = Outcome(
    response: string, cached: bool, documents: seq<Doc>, numRetrieved: nat,
    routing: Option<LlmRouting.RoutingConfig>)

  /** The per-query retrieval lists, in query order. */
  function Retrievals(s: Settings, queries: seq<string>, k: Collaborators): (r: seq<seq<Doc>>)
    ensures |r| == |queries|
  {
    seq(|queries|, i requires 0 <= i < |queries| =>
      HybridRetrieval(s, k.vectorSearch(queries[i]), k.keywordSearch(queries[i])))
  }

  /**
   `process_query`: a live, non-empty cached answer is returned as is;
   otherwise the query is expanded (three variations), each query retrieved,
   the lists merged by first occurrence and reranked, the request routed by
   tier and complexity, the answer generated, post-processed, refined and
   cached. `now` is the clock at the cache lookup and `later` at the store.
   */
  function ProcessQuery(s: Settings, models: LlmRouting.Models, cache: SemanticCache.Cache, hash: string -> string,
                        now: int, later: int, query: string, userTier: string, k: Collaborators)
    : (r: (Outcome, SemanticCache.Cache))
    ensures r.0.cached ==> r.1 == cache && r.0.documents == [] && r.0.routing.None?
    ensures !r.0.cached ==> s.rerankTopK >= 0 ==> |r.0.documents| <= s.rerankTopK
    ensures !r.0.cached ==> r.0.routing.Some?
  {
    var (hit, afterGet) := SemanticCache.Get(cache, hash, query, now);
    if hit.Some? && hit.value != "" then
      (Outcome(hit.value, true, [], 0, None), afterGet)
    else
      var queries := QueryExpander.ExpandQuery(query, 3, k.expansion);
      var processed := queries[0];
      var retrieved := k.rerank(FlattenUnique(Retrievals(s, queries, k)));
      var routing := LlmRouting.RouteRequest(models, userTier, Complexity(retrieved, processed), "general", "balanced");
      var answer := k.refine(Postprocess(k.generate(routing), retrieved));
      (Outcome(answer, false, PrefixTo(retrieved, s.rerankTopK), |retrieved|, Some(routing)),
       SemanticCache.Put(afterGet, hash, query, answer, None, later))
  }

  /** A live, non-empty cached answer short-circuits: no collaborator influences the result. */
  lemma CacheHitSkipsWork(s: Settings, models: LlmRouting.Models, cache: SemanticCache.Cache, hash: string -> string,
                          now: int, later: int, query: string, userTier: string, k1: Collaborators, k2: Collaborators)
    requires var hit := SemanticCache.Get(cache, hash, query, now).0; hit.Some? && hit.value != ""
    ensures ProcessQuery(s, models, cache, hash, now, later, query, userTier, k1)
         == ProcessQuery(s, models, cache, hash, now, later, query, userTier, k2)
    ensures var r := ProcessQuery(s, models, cache, hash, now, later, query, userTier, k1);
      r.0.cached && r.0.response == cache.entries[SemanticCache.Key(hash, query)].response
  {
  }

  /**
   A computed answer is cached: asking the same query again before it expires
   returns it from the cache.
   */
  lemma AnswerIsCached(s: Settings, models: LlmRouting.Models, cache: SemanticCache.Cache, hash: string -> string,
                       now: int, later: int, query: string, userTier: string, k: Collaborators, t: int)
    requires var hit := SemanticCache.Get(cache, hash, query, now).0; !(hit.Some? && hit.value != "")
    requires t <= later + cache.ttl
    ensures var r := ProcessQuery(s, models, cache, hash, now, later, query, userTier, k);
      SemanticCache.Get(r.1, hash, query, t).0 == Some(r.0.response)
  {
  }

  /**
   On a cache miss, the documents reported are the reranked merge of every
   query's retrieval, cut at `rerank_top_k`, and the router sees "high"
   complexity iff more than three documents came back or the original query
   is longer than 50 characters.
   */
  lemma MissRetrievesAndRoutes(s: Settings, models: LlmRouting.Models, cache: SemanticCache.Cache, hash: string -> string,
                               now: int, later: int, query: string, userTier: string, k: Collaborators)
    requires var hit := SemanticCache.Get(cache, hash, query, now).0; !(hit.Some? && hit.value != "")
    ensures var r := ProcessQuery(s, models, cache, hash, now, later, query, userTier, k);
      var queries := QueryExpander.ExpandQuery(query, 3, k.expansion);
      var retrieved := k.rerank(DeduplicateDocuments(Concat(Retrievals(s, queries, k))));
      !r.0.cached && r.0.numRetrieved == |retrieved| && r.0.documents == PrefixTo(retrieved, s.rerankTopK)
      && r.0.routing == Some(LlmRouting.RouteRequest(models, userTier,
           if |retrieved| > 3 || |query| > 50 then "high" else "low", "general", "balanced"))
  {
    var queries := QueryExpander.ExpandQuery(query, 3, k.expansion);
    assert queries[0] == query;
  }

  /* ------------------------------------------------------ analytics context */

  /** A context value: text, or a nested dictionary. */
  datatype Value = Text(text: string) | Nested(entries: map<string, Value>)

  /** The user-context keys copied for analytics queries. */
  const AnalyticsKeys := {"report_type", "date_range", "filters", "creator_stats", "mission_stats",
                          "reward_stats", "creator_data", "mission_data", "reward_data", "analytics_data"}

  /** The copy goes ahead: there is a user context, and any existing `analytics_context` is a dictionary. */
  predicate Augments(context: map<string, Value>, userContext: map<string, Value>) {
    userContext != map[] && ("analytics_context" in context ==> context["analytics_context"].Nested?)
  }

  /** The entries of `userContext` under the given keys. */
  function Copied(keys: set<string>, userContext: map<string, Value>): (r: map<string, Value>)
    ensures forall key :: key in r <==> key in keys && key in userContext
    ensures forall key :: key in r ==> r[key] == userContext[key]
  {
    map key | key in keys && key in userContext :: userContext[key]
  }

  /**
   The enrichment for an arbitrary key list that avoids the two keys it writes
   itself.
   */
  function AugmentWith(keys: set<string>, context: map<string, Value>, userContext: map<string, Value>)
    : (r: map<string, Value>)
    requires "analytics_context" !in keys && "user_data" !in keys
    ensures !Augments(context, userContext) ==> r == context
    ensures Augments(context, userContext) ==> "user_data" in r
  {
    if !Augments(context, userContext) then context
    else
      var previous := if "analytics_context" in context then context["analytics_context"].entries else map[];
      var copied := Copied(keys, userContext);
      var analytics := previous + copied;
      var top := context + copied;
      var withAnalytics := if analytics != map[] then top["analytics_context" := Nested(analytics)] else top;
      if "user_data" in withAnalytics then withAnalytics
      else withAnalytics["user_data" := Nested(userContext)]
  }

  /**
   `_augment_analytics_context`: each analytics key of the user context is
   copied to the top level and into `analytics_context`; the whole user context
   becomes `user_data` unless that key exists. An empty user context changes
   nothing, nor does an `analytics_context` that is not a dictionary (the
   copy raises and the original is kept).
   */
  function AugmentAnalyticsContext(context: map<string, Value>, userContext: map<string, Value>)
    : (r: map<string, Value>)
    ensures userContext == map[] ==> r == context
    ensures Augments(context, userContext) ==> "user_data" in r
  {
    ReservedKeysNotCopied();
    AugmentWith(AnalyticsKeys, context, userContext)
  }

  lemma ReservedKeysNotCopied()
    ensures "analytics_context" !in AnalyticsKeys && "user_data" !in AnalyticsKeys
  {
  }

  /** Every listed key of the user context lands at the top level and in `analytics_context`. */
  lemma AugmentCopiesKeys(keys: set<string>, context: map<string, Value>, userContext: map<string, Value>, key: string)
    requires "analytics_context" !in keys && "user_data" !in keys
    requires Augments(context, userContext) && key in keys && key in userContext
    ensures var r := AugmentWith(keys, context, userContext);
      key in r && r[key] == userContext[key]
      && "analytics_context" in r && r["analytics_context"].Nested?
      && key in r["analytics_context"].entries && r["analytics_context"].entries[key] == userContext[key]
  {
  }

  /** Unlisted keys are untouched, and an existing `user_data` is kept; otherwise it is the user context. */
  lemma AugmentKeepsOthers(keys: set<string>, context: map<string, Value>, userContext: map<string, Value>, key: string)
    requires "analytics_context" !in keys && "user_data" !in keys
    requires key !in keys && key != "analytics_context"
    ensures var r := AugmentWith(keys, context, userContext);
      (key in r <==> key in context || (key == "user_data" && Augments(context, userContext)))
      && (key in context ==> r[key] == context[key])
      && (key == "user_data" && key !in context && Augments(context, userContext) ==> r[key] == Nested(userContext))
  {
  }

  /** Augmenting twice with the same user context is the same as augmenting once. */
  lemma AugmentIdempotent(keys: set<string>, context: map<string, Value>, userContext: map<string, Value>)
    requires "analytics_context" !in keys && "user_data" !in keys
    ensures AugmentWith(keys, AugmentWith(keys, context, userContext), userContext)
         == AugmentWith(keys, context, userContext)
  {
    var once := AugmentWith(keys, context, userContext);
    if Augments(context, userContext) {
      var copied := Copied(keys, userContext);
      var previous := if "analytics_context" in context then context["analytics_context"].entries else map[];
      var analytics := previous + copied;
      var top := context + copied;
      var withAnalytics := if analytics != map[] then top["analytics_context" := Nested(analytics)] else top;
      assert once == if "user_data" in withAnalytics then withAnalytics
                     else withAnalytics["user_data" := Nested(userContext)];
      AlreadyMerged(once, copied);
      assert Augments(once, userContext);
      var previous2 := if "analytics_context" in once then once["analytics_context"].entries else map[];
      assert previous2 == analytics;
      AlreadyMerged(analytics, copied);
      if analytics != map[] {
        AlreadyUpdated(once, "analytics_context", Nested(analytics));
      }
    }
  }

  /** Merging entries a map already holds changes nothing. */
  lemma AlreadyMerged(m: map<string, Value>, c: map<string, Value>)
    requires forall k :: k in c ==> k in m && m[k] == c[k]
    ensures m + c == m
  {
  }

  /** Storing the value a key already holds changes nothing. */
  lemma AlreadyUpdated(m: map<string, Value>, k: string, v: Value)
    requires k in m && m[k] == v
    ensures m[k := v] == m
  {
  }
}

=== FILE: rag_pipeline_prompt.dfy ===
/**
 The RAG pipeline's prompt step, `_create_prompt`: the context prompt
 builder's output, with the bare query as the fallback when the builder
 raises.
 */
module PipelinePrompt {
  import opened Common
  import ContextBuilder

  /**
   `_create_prompt`: the context prompt with the operating system given as
   "darwin" and the whole request context as the task context, or the bare
   query when building the prompt raises. `userContext` is the request
   context's "user_context" entry.
   */
  function CreatePrompt(query: string, userContext: seq<(string, ContextBuilder.Value)>, now: string,
                        docs: seq<ContextBuilder.Doc>, history: seq<ContextBuilder.Message>,
                        context: seq<(string, ContextBuilder.Value)>, maxContextTokens: int,
                        show: ContextBuilder.Value -> string): (p: string)
    ensures |query| <= |p| && p[|p| - |query|..] == query
    ensures p == query <==> ContextBuilder.HasMixedList(context)
  {
    var built := ContextBuilder.BuildContextPrompt(query, userContext, now, Some("darwin"), docs, history, context,
                                                   maxContextTokens, show);
    if built.None? then query
    else
      ContextBuilder.QueryEndsPrompt(built.value, query);
      built.value
  }
}

=== FILE: rag_prompt_optimizer.dfy ===
/**
 The prompt optimiser: whitespace clean-up of the prompt and a greedy
 token-budget cut of the retrieved context.

 The two regular expressions of `_clean_text` are written out as scans:
 `\n{3,}` becomes `CollapseNewlines` and `[ \t]+` becomes `CollapseBlanks`.
 */
module PromptOptimizer {
  import opened Common

  /** A context item; `content` is `str(item.get('content', ''))`. */
  datatype ContextItem = ContextItem(content: string, metadata: map<string, string>)

  predicate IsBlankChar(c: char) { c == ' ' || c == '\t' }

  /** Number of leading newlines. */
  function NewlineRun(s: string): (n: nat)
    ensures n <= |s|
    ensures forall i :: 0 <= i < n ==> s[i] == '\n'
    ensures n < |s| ==> s[n] != '\n'
  {
    if |s| == 0 || s[0] != '\n' then 0 else 1 + NewlineRun(s[1..])
  }

  /** Number of leading spaces and tabs. */
  function BlankRun(s: string): (n: nat)
    ensures n <= |s|
    ensures forall i :: 0 <= i < n ==> IsBlankChar(s[i])
    ensures n < |s| ==> !IsBlankChar(s[n])
  {
    if |s| == 0 || !IsBlankChar(s[0]) then 0 else 1 + BlankRun(s[1..])
  }

  /** No three newlines in a row. */
  predicate NoTripleNewline(s: string) {
    forall i :: 0 <= i && i + 2 < |s| ==> !(s[i] == '\n' && s[i + 1] == '\n' && s[i + 2] == '\n')
  }

  /** No tab, and no two spaces in a row. */
  predicate SingleSpaced(s: string) {
    (forall i :: 0 <= i < |s| ==> s[i] != '\t')
    && (forall i :: 0 <= i && i + 1 < |s| ==> !(s[i] == ' ' && s[i + 1] == ' '))
  }

  /** `re.sub(r'\n{3,}', '\n\n', s)`. */
  function CollapseNewlines(s: string): (r: string)
    ensures NoTripleNewline(r)
    ensures |s| > 0 ==> |r| > 0 && r[0] == s[0]
    ensures |s| == 0 ==> r == ""
    decreases |s|
  {
    if |s| == 0 then ""
    else
      var k := NewlineRun(s);
      if k == 0 then
        var rest := CollapseNewlines(s[1..]);
        ConsNoTriple(s[0], rest);
        [s[0]] + rest
      else
        var rest := CollapseNewlines(s[k..]);
        var head := if k >= 3 then "\n\n" else s[..k];
        RunsNoTriple(head, rest);
        head + rest
  }

  lemma ConsNoTriple(c: char, b: string)
    requires c != '\n' && NoTripleNewline(b)
    ensures NoTripleNewline([c] + b)
  {
    var s := [c] + b;
    forall i | 0 < i && i + 2 < |s|
      ensures !(s[i] == '\n' && s[i + 1] == '\n' && s[i + 2] == '\n')
    {
      assert s[i] == b[i - 1] && s[i + 1] == b[i] && s[i + 2] == b[i + 1];
    }
  }

  /** One or two newlines followed by text that does not start with one. */
  lemma RunsNoTriple(a: string, b: string)
    requires 0 < |a| <= 2 && forall i :: 0 <= i < |a| ==> a[i] == '\n'
    requires NoTripleNewline(b) && (|b| > 0 ==> b[0] != '\n')
    ensures NoTripleNewline(a + b)
  {
    var s := a + b;
    forall i | 0 <= i && i + 2 < |s|
      ensures !(s[i] == '\n' && s[i + 1] == '\n' && s[i + 2] == '\n')
    {
      if i + 2 >= |a| && i < |a| {
        assert s[|a|] == b[0];
      } else if i >= |a| {
        assert s[i] == b[i - |a|] && s[i + 1] == b[i - |a| + 1] && s[i + 2] == b[i - |a| + 2];
      }
    }
  }

  /** On text with no run of three newlines the substitution changes nothing. */
  lemma {:induction false} CollapseNewlinesIdentity(s: string)
    requires NoTripleNewline(s)
    ensures CollapseNewlines(s) == s
    decreases |s|
  {
    if |s| > 0 {
      var k := NewlineRun(s);
      if k == 0 {
        CollapseNewlinesIdentity(s[1..]);
        assert [s[0]] + s[1..] == s;
      } else {
        if |s| >= 3 {
          assert !(s[0] == '\n' && s[1] == '\n' && s[2] == '\n');
        }
        forall i | 0 <= i && i + 2 < |s[k..]|
          ensures !(s[k..][i] == '\n' && s[k..][i + 1] == '\n' && s[k..][i + 2] == '\n')
        {
          assert s[k..][i] == s[k + i] && s[k..][i + 1] == s[k + i + 1] && s[k..][i + 2] == s[k + i + 2];
        }
        CollapseNewlinesIdentity(s[k..]);
        assert s[..k] + s[k..] == s;
      }
    }
  }

  /** `re.sub(r'[ \t]+', ' ', s)`. */
  function CollapseBlanks(s: string): (r: string)
    ensures SingleSpaced(r)
    ensures |s| > 0 ==> |r| > 0 && (r[0] == '\n' <==> s[0] == '\n') && (r[0] == ' ' <==> IsBlankChar(s[0]))
    ensures |s| == 0 ==> r == ""
    decreases |s|
  {
    if |s| == 0 then ""
    else
      var k := BlankRun(s);
      if k == 0 then
        var rest := CollapseBlanks(s[1..]);
        ConsSingleSpaced(s[0], rest);
        [s[0]] + rest
      else
        var rest := CollapseBlanks(s[k..]);
        ConsSingleSpaced(' ', rest);
        " " + rest
  }

  lemma ConsSingleSpaced(c: char, b: string)
    requires c != '\t' && SingleSpaced(b) && (c == ' ' && |b| > 0 ==> b[0] != ' ')
    ensures SingleSpaced([c] + b)
  {
    var s := [c] + b;
    assert forall i :: 0 < i < |s| ==> s[i] == b[i - 1];
  }

  /** Collapsing blanks never joins newlines: each blank run leaves one space behind. */
  lemma {:induction false} CollapseBlanksKeepsNewlines(s: string)
    ensures NoTripleNewline(s) ==> NoTripleNewline(CollapseBlanks(s))
    ensures var r := CollapseBlanks(s);
      |r| >= 2 && r[0] == '\n' && r[1] == '\n' ==> |s| >= 2 && s[0] == '\n' && s[1] == '\n'
    decreases |s|
  {
    if |s| > 0 {
      var r := CollapseBlanks(s);
      var k := BlankRun(s);
      if k == 0 {
        var rest := CollapseBlanks(s[1..]);
        CollapseBlanksKeepsNewlines(s[1..]);
        assert r == [s[0]] + rest;
        if NoTripleNewline(s) {
          assert NoTripleNewline(s[1..]) by {
            assert forall i :: 0 <= i < |s| - 1 ==> s[1..][i] == s[i + 1];
          }
          forall i | 0 <= i && i + 2 < |r|
            ensures !(r[i] == '\n' && r[i + 1] == '\n' && r[i + 2] == '\n')
          {
            if i > 0 {
              assert r[i] == rest[i - 1] && r[i + 1] == rest[i] && r[i + 2] == rest[i + 1];
            } else {
              assert r[1] == rest[0] && r[2] == rest[1] && s[1..][0] == s[1] && s[1..][1] == s[2];
              assert !(s[0] == '\n' && s[1] == '\n' && s[2] == '\n');
            }
          }
        }
      } else {
        var rest := CollapseBlanks(s[k..]);
        CollapseBlanksKeepsNewlines(s[k..]);
        assert r == " " + rest;
        if NoTripleNewline(s) {
          assert NoTripleNewline(s[k..]) by {
            assert forall i :: 0 <= i < |s| - k ==> s[k..][i] == s[k + i];
          }
          forall i | 0 <= i && i + 2 < |r|
            ensures !(r[i] == '\n' && r[i + 1] == '\n' && r[i + 2] == '\n')
          {
            if i > 0 {
              assert r[i] == rest[i - 1] && r[i + 1] == rest[i] && r[i + 2] == rest[i + 1];
            }
          }
        }
      }
    }
  }

  /** On text with no tab and no double space the substitution changes nothing. */
  lemma {:induction false} CollapseBlanksIdentity(s: string)
    requires SingleSpaced(s)
    ensures CollapseBlanks(s) == s
    decreases |s|
  {
    if |s| > 0 {
      var k := BlankRun(s);
      assert SingleSpaced(s[1..]) by {
        assert forall i :: 0 <= i < |s| - 1 ==> s[1..][i] == s[i + 1];
      }
      if k > 0 {
        assert s[0] == ' ';
        if |s| >= 2 { assert !(s[0] == ' ' && s[1] == ' '); }
      }
      CollapseBlanksIdentity(s[1..]);
      assert [s[0]] + s[1..] == s;
    }
  }

  /** `_clean_text`. */
  function CleanText(text: string): (r: string)
    ensures NoTripleNewline(r) && SingleSpaced(r)
    ensures |r| > 0 ==> !IsSpace(r[0]) && !IsSpace(r[|r| - 1])
  {
    var t := CollapseBlanks(CollapseNewlines(text));
    CollapseBlanksKeepsNewlines(CollapseNewlines(text));
    StripIsInfix(t);
    InfixKeepsShape(t, Strip(t));
    Strip(t)
  }

  /** Both shape properties are local, so every block of a string inherits them. */
  lemma InfixKeepsShape(s: string, u: string)
    requires exists i, j :: 0 <= i <= j <= |s| && u == s[i..j]
    ensures NoTripleNewline(s) ==> NoTripleNewline(u)
    ensures SingleSpaced(s) ==> SingleSpaced(u)
  {
    var i, j :| 0 <= i <= j <= |s| && u == s[i..j];
    assert forall k :: 0 <= k < |u| ==> u[k] == s[i + k];
  }

  /** Cleaning twice is cleaning once. */
  lemma CleanTextIdempotent(text: string)
    ensures CleanText(CleanText(text)) == CleanText(text)
  {
    var c := CleanText(text);
    CollapseNewlinesIdentity(c);
    CollapseBlanksIdentity(c);
    StripOfUnspaced(c);
  }

  /** `len(content) / 1.5`. */
  function EstimatedTokens(item: ContextItem): real {
    |item.content| as real / 1.5
  }

  /** The estimated tokens of a list of items. */
  function Cost(items: seq<ContextItem>): (t: real)
    ensures t >= 0.0
  {
    if |items| == 0 then 0.0 else Cost(items[..|items| - 1]) + EstimatedTokens(items[|items| - 1])
  }

  /**
   `_prune_context`: the longest prefix taken greedily, stopping at the first
   item that would push the running estimate over `maxTokens`.
   */
  method PruneContext(context: seq<ContextItem>, maxTokens: int) returns (pruned: seq<ContextItem>)
    ensures |pruned| <= |context| && pruned == context[..|pruned|]
    ensures |pruned| > 0 ==> Cost(pruned) <= maxTokens as real
    ensures |pruned| < |context| ==> Cost(pruned) + EstimatedTokens(context[|pruned|]) > maxTokens as real
  {
    var currentLen := 0.0;
    pruned := [];
    var i := 0;
    while i < |context|
      invariant 0 <= i <= |context|
      invariant pruned == context[..i]
      invariant currentLen == Cost(pruned)
      invariant i > 0 ==> currentLen <= maxTokens as real
    {
      var estimated := EstimatedTokens(context[i]);
      if currentLen + estimated > maxTokens as real {
        break;
      }
      assert context[..i + 1][..i] == context[..i];
      pruned := pruned + [context[i]];
      currentLen := currentLen + estimated;
      i := i + 1;
    }
  }

  /** `optimize`: the cleaned prompt and the pruned context. */
  method Optimize(prompt: string, context: seq<ContextItem>, maxContextTokens: int)
    returns (optimizedPrompt: string, optimizedContext: seq<ContextItem>)
    ensures optimizedPrompt == CleanText(prompt)
    ensures |optimizedContext| <= |context| && optimizedContext == context[..|optimizedContext|]
    ensures |optimizedContext| > 0 ==> Cost(optimizedContext) <= maxContextTokens as real
  {
    optimizedPrompt := CleanText(prompt);
    optimizedContext := PruneContext(context, maxContextTokens);
  }
}

=== FILE: rag_prompt_templates.dfy ===
/**
 Prompt templates of the RAG layer: the prompt-type enumeration, the markdown
 file each type is loaded from, the inline fallbacks, name-based lookup and
 the formatting of retrieved documents and conversation history.

 The markdown loader, Python's `str.format` and the float formatting of
 scores are parameters; the inline template texts are a table handed in.
 */
module PromptTemplates {
  import opened Common

  datatype PromptType =
    | CompetencyAssessment | Recommendation | Search | Analytics | GeneralChat | DataCollection

  function Value(t: PromptType): string {
    match t
    case CompetencyAssessment => "competency_assessment"
    case Recommendation => "recommendation"
    case Search => "search"
    case Analytics => "analytics"
    case GeneralChat => "general_chat"
    case DataCollection => "data_collection"
  }

  /** `_name_to_type`: the inverse of `Value`. */
  function NameToType(name: string): (r: Option<PromptType>)
    ensures r.Some? ==> Value(r.value) == name
    ensures forall t :: Value(t) == name ==> r == Some(t)
  {
    if name == "competency_assessment" then Some(CompetencyAssessment)
    else if name == "recommendation" then Some(Recommendation)
    else if name == "search" then Some(Search)
    else if name == "analytics" then Some(Analytics)
    else if name == "general_chat" then Some(GeneralChat)
    else if name == "data_collection" then Some(DataCollection)
    else None
  }

  lemma ValueNameRoundTrip(t: PromptType)
    ensures NameToType(Value(t)) == Some(t)
  {
  }

  /** `_type_to_agent`: the agent whose prompt directory serves each type. */
  function TypeToAgent(t: PromptType): string {
    match t
    case CompetencyAssessment => "competency_agent"
    case Recommendation => "recommendation_agent"
    case Search => "search_agent"
    case Analytics => "analytics_agent"
    case GeneralChat => "creator_onboarding_agent"
    case DataCollection => "data_collection_agent"
  }

  const FileStems: set<string> := {"assess", "recommend", "search", "analyze", "onboard"}

  /** `_get_prompt_file_name`. */
  function PromptFileName(t: PromptType): (stem: string)
    ensures stem in FileStems
    ensures stem == "analyze" <==> t == Analytics || t == DataCollection
  {
    match t
    case CompetencyAssessment => "assess"
    case Recommendation => "recommend"
    case Search => "search"
    case Analytics => "analyze"
    case GeneralChat => "onboard"
    case DataCollection => "analyze"
  }

  /** Apart from the two analysis types, distinct types load distinct files. */
  lemma FileNamesDistinguishTypes(t: PromptType, u: PromptType)
    requires t != u && PromptFileName(t) == PromptFileName(u)
    ensures {t, u} == {Analytics, DataCollection}
  {
  }

  /** The inline tables the class builds in its constructor. */
  datatype Tables = Tables(
    systemPrompts: map<string, string>,
    inline: PromptType -> string,
    ragAnswer: string)

  /** The system-prompt table always holds the three roles the class defines. */
  predicate WellFormed(tb: Tables) {
    tb.systemPrompts.Keys == {"default", "competency_expert", "recommendation_expert"}
  }

  /**
   `get_system_prompt`: a markdown prompt of the named agent wins
   (`load` returns `None` for a missing file); otherwise the role's inline
   prompt, and the default prompt for an unknown role.
   */
  function GetSystemPrompt(tb: Tables, role: string, agentName: string, load: string -> Option<string>): (r: string)
    requires WellFormed(tb)
    ensures agentName != "" && load(agentName).Some? ==> r == load(agentName).value
    ensures (agentName == "" || load(agentName).None?) && role in tb.systemPrompts ==> r == tb.systemPrompts[role]
    ensures (agentName == "" || load(agentName).None?) && role !in tb.systemPrompts ==> r == tb.systemPrompts["default"]
  {
    if agentName != "" && load(agentName).Some? then load(agentName).value
    else if role in tb.systemPrompts then tb.systemPrompts[role]
    else tb.systemPrompts["default"]
  }

  /**
   `get_prompt`: the markdown template of the type's agent, else the inline
   template formatted with the variables (`format` returns `None` when a
   variable is missing, in which case the raw template is returned).
   */
  function GetPrompt(tb: Tables, t: PromptType, loadFile: (string, string) -> Option<string>,
                     format: string -> Option<string>): (r: string)
    ensures loadFile(TypeToAgent(t), PromptFileName(t)).Some? ==> r == loadFile(TypeToAgent(t), PromptFileName(t)).value
    ensures loadFile(TypeToAgent(t), PromptFileName(t)).None? && tb.inline(t) == "" ==> r == ""
    ensures loadFile(TypeToAgent(t), PromptFileName(t)).None? && tb.inline(t) != "" ==>
      r == (if format(tb.inline(t)).Some? then format(tb.inline(t)).value else tb.inline(t))
  {
    match loadFile(TypeToAgent(t), PromptFileName(t))
    case Some(md) => md
    case None =>
      var template := tb.inline(t);
      if template == "" then "" else format(template).GetOr(template)
  }

  /**
   `format_by_name`. `variant` is the outcome of the A/B coin (`Some` with the
   alternative template when the experiment is on and the coin chose it).
   */
  function FormatByName(tb: Tables, name: string, variant: Option<string>,
                        loadFile: (string, string) -> Option<string>,
                        format: string -> Option<string>): (r: string)
    requires WellFormed(tb)
    ensures name == "system_default" ==> r == tb.systemPrompts["default"]
    ensures name in tb.systemPrompts ==> r == tb.systemPrompts[name]
    ensures name == "rag_answer" && variant.None? ==> r == format(tb.ragAnswer).GetOr(tb.ragAnswer)
    ensures name != "system_default" && name !in tb.systemPrompts && name != "rag_answer" && NameToType(name).None?
      ==> r == ""
  {
    if name == "system_default" then tb.systemPrompts["default"]
    else if name in tb.systemPrompts then tb.systemPrompts[name]
    else if name == "rag_answer" then
      var base := variant.GetOr(tb.ragAnswer);
      match format(base)
      case Some(text) => text
      case None => tb.ragAnswer
    else match NameToType(name)
      case Some(t) => GetPrompt(tb, t, loadFile, format)
      case None => ""
  }

  /** Looking a prompt up by a type's name gives the prompt of that type. */
  lemma TypeNamesReachPrompt(tb: Tables, t: PromptType, variant: Option<string>,
                             loadFile: (string, string) -> Option<string>, format: string -> Option<string>)
    requires WellFormed(tb)
    ensures FormatByName(tb, Value(t), variant, loadFile, format) == GetPrompt(tb, t, loadFile, format)
  {
    assert Value(t) !in tb.systemPrompts;
  }

  /**
   By name, a role's system prompt and "system_default" give what
   `get_system_prompt` gives for that role, and for "default", when no agent
   prompt is loaded.
   */
  lemma SystemNamesAgree(tb: Tables, role: string, variant: Option<string>, load: string -> Option<string>,
                         loadFile: (string, string) -> Option<string>, format: string -> Option<string>)
    requires WellFormed(tb)
    ensures role in tb.systemPrompts ==>
      FormatByName(tb, role, variant, loadFile, format) == GetSystemPrompt(tb, role, "", load)
    ensures FormatByName(tb, "system_default", variant, loadFile, format) == GetSystemPrompt(tb, "default", "", load)
  {
  }

  /* ------------------------------------------------------- document listing */

  datatype Doc = Doc(content: string, score: real, source: Option<string>, date: Option<string>)

  const NoDocuments := "관련 문서가 없습니다."

  /** `content[:500]` followed by "..." exactly when something was cut. */
  function ContentPreview(content: string): (r: string)
    ensures |content| <= 500 ==> r == content
    ensures |content| > 500 ==> r == content[..500] + "..."
    ensures |r| <= 503
  {
    Take(content, 500) + (if |content| > 500 then "..." else "")
  }

  function DocBlock(i: nat, d: Doc, fmt2: real -> string, itos: int -> string): string {
    "\n문서 " + itos(i) + ":\n- 내용: " + ContentPreview(d.content)
    + "\n- 관련도: " + fmt2(d.score)
    + "\n- 출처: " + d.source.GetOr("Unknown")
    + "\n- 날짜: " + d.date.GetOr("Unknown") + "\n"
  }

  function DocBlocks(docs: seq<Doc>, first: nat, fmt2: real -> string, itos: int -> string): (r: seq<string>)
    ensures |r| == |docs|
    ensures forall i :: 0 <= i < |docs| ==> r[i] == DocBlock(first + i, docs[i], fmt2, itos)
  {
    if |docs| == 0 then [] else [DocBlock(first, docs[0], fmt2, itos)] + DocBlocks(docs[1..], first + 1, fmt2, itos)
  }

  /** `_format_retrieved_documents`: numbered from 1, one block per document. */
  function FormatRetrievedDocuments(docs: seq<Doc>, fmt2: real -> string, itos: int -> string): (r: string)
    ensures |docs| == 0 ==> r == NoDocuments
    ensures |docs| > 0 ==> r == Join("\n", DocBlocks(docs, 1, fmt2, itos))
  {
    if |docs| == 0 then NoDocuments else Join("\n", DocBlocks(docs, 1, fmt2, itos))
  }

  /** Document `i` is shown under the number `i + 1`. */
  lemma DocumentShownNumbered(docs: seq<Doc>, fmt2: real -> string, itos: int -> string, i: nat)
    requires i < |docs|
    ensures Contains(FormatRetrievedDocuments(docs, fmt2, itos), DocBlock(i + 1, docs[i], fmt2, itos))
  {
    JoinContainsParts("\n", DocBlocks(docs, 1, fmt2, itos), i);
  }

  /** The documents are shown in their given order. */
  lemma DocumentsShownInOrder(docs: seq<Doc>, fmt2: real -> string, itos: int -> string, i: nat, j: nat)
    requires i < j < |docs|
    ensures var r := FormatRetrievedDocuments(docs, fmt2, itos);
      exists k :: 0 <= k <= |r| && Contains(r[..k], DocBlock(i + 1, docs[i], fmt2, itos))
                                && Contains(r[k..], DocBlock(j + 1, docs[j], fmt2, itos))
  {
    var blocks := DocBlocks(docs, 1, fmt2, itos);
    var r := FormatRetrievedDocuments(docs, fmt2, itos);
    assert r == Join("\n", blocks);
    assert blocks[i] == DocBlock(i + 1, docs[i], fmt2, itos) && blocks[j] == DocBlock(j + 1, docs[j], fmt2, itos);
    JoinKeepsOrder("\n", blocks, i, j);
    var k :| 0 <= k <= |r| && Contains(r[..k], blocks[i]) && Contains(r[k..], blocks[j]);
  }

  /* ------------------------------------------------------- conversation */

  datatype Turn = Turn(role: string, content: string)

  function HistoryLines(turns: seq<Turn>): string {
    if |turns| == 0 then "" else turns[0].role + ": " + turns[0].content + "\n" + HistoryLines(turns[1..])
  }

  /** The history part of `get_conversation_prompt`: the last five turns only. */
  function ConversationHistory(history: seq<Turn>): (r: string)
    ensures r == HistoryLines(TakeLast(history, 5))
  {
    HistoryLines(history[|history| - Min(5, |history|)..])
  }

  lemma {:induction false} HistoryLinesSkipsNothing(turns: seq<Turn>, i: nat)
    requires i < |turns|
    ensures Contains(HistoryLines(turns), turns[i].role + ": " + turns[i].content + "\n")
    decreases |turns|
  {
    var line := turns[0].role + ": " + turns[0].content + "\n";
    var rest := HistoryLines(turns[1..]);
    if i == 0 {
      assert IsPrefix(line, line + rest) by { assert (line + rest)[..|line|] == line; }
    } else {
      HistoryLinesSkipsNothing(turns[1..], i - 1);
      ContainsInSuffix(line, rest, turns[i].role + ": " + turns[i].content + "\n");
    }
  }

  /** Every one of the last five turns appears in the prompt's history. */
  lemma RecentTurnsShown(history: seq<Turn>, i: nat)
    requires |history| - 5 <= i < |history|
    ensures Contains(ConversationHistory(history), history[i].role + ": " + history[i].content + "\n")
  {
    var recent := TakeLast(history, 5);
    var k := i - (|history| - |recent|);
    assert recent[k] == history[i];
    HistoryLinesSkipsNothing(recent, k);
  }
}

=== FILE: rag_query_expander.dfy ===
/**
 Query expansion: the fast model proposes alternative phrasings, one per
 line, and the expander keeps the original query first followed by the
 distinct new lines, up to the requested number of variations.

 The model reply is a parameter; `None` stands for a call that raised.
 */
module QueryExpander {
  import opened Common

  /** `[line.strip() for line in lines if line.strip()]`. */
  function StrippedLines(lines: seq<string>): (r: seq<string>)
    ensures forall v :: v in r ==> v != "" && Strip(v) == v
    ensures forall v :: v in r <==> exists line :: line in lines && v == Strip(line) && v != ""
  {
    if |lines| == 0 then []
    else
      var rest := StrippedLines(lines[1..]);
      var v := Strip(lines[0]);
      StripIdempotent(lines[0]);
      assert forall line :: line in lines <==> line == lines[0] || line in lines[1..];
      if v != "" then [v] + rest else rest
  }

  /** The candidate variations of a model reply. */
  function Variations(response: string): (r: seq<string>)
    ensures forall v :: v in r ==> v != "" && Strip(v) == v
  {
    StrippedLines(SplitOn(response, c => c == '\n'))
  }

  /**
   The accumulation loop: append each candidate that is non-empty, differs
   from the original and is not yet present.
   */
  function AddUnique(acc: seq<string>, vs: seq<string>, original: string): (r: seq<string>)
    requires NoDuplicates(acc)
    ensures NoDuplicates(r)
    ensures |acc| <= |r| && r[..|acc|] == acc
    ensures forall v :: v in r <==> v in acc || (v in vs && v != "" && v != original)
    decreases |vs|
  {
    if |vs| == 0 then acc
    else
      var v := vs[0];
      assert forall w :: w in vs <==> w == v || w in vs[1..];
      if v != "" && v != original && v !in acc then
        var r := AddUnique(acc + [v], vs[1..], original);
        assert (acc + [v])[..|acc|] == acc;
        r
      else AddUnique(acc, vs[1..], original)
  }

  /**
   `expand_query`: `response` is the model's reply, or `None` when the call
   raised.
   */
  function ExpandQuery(original: string, n: int, response: Option<string>): (r: seq<string>)
    ensures response.None? ==> r == [original]
    ensures NoDuplicates(r)
    ensures response.Some? && n >= 0 ==> |r| >= 1 && r[0] == original && |r| <= n + 1
    ensures response.Some? ==> forall i :: 0 < i < |r| ==> r[i] != original && r[i] in Variations(response.value)
  {
    match response
    case None => [original]
    case Some(text) =>
      var unique := AddUnique([original], Variations(text), original);
      var r := PrefixTo(unique, n + 1);
      ExpandedFacts(original, Variations(text), unique, r);
      r
  }

  /** What survives the final slice of the accumulated list. */
  lemma ExpandedFacts(original: string, vs: seq<string>, unique: seq<string>, r: seq<string>)
    requires unique == AddUnique([original], vs, original)
    requires exists k :: 0 <= k <= |unique| && r == unique[..k]
    ensures NoDuplicates(r)
    ensures |r| >= 1 ==> r[0] == original
    ensures forall i :: 0 < i < |r| ==> r[i] != original && r[i] in vs
  {
    var k :| 0 <= k <= |unique| && r == unique[..k];
    assert unique[..1] == [original];
    forall i | 0 < i < |r|
      ensures r[i] != original && r[i] in vs
    {
      assert r[i] == unique[i] && unique[i] in unique;
      assert unique[i] != unique[0];
    }
  }

  /**
   When the budget of variations covers them all, every distinct non-empty
   line of the reply other than the original is kept.
   */
  lemma AllVariationsKeptWhenRoomy(original: string, n: int, text: string)
    requires n + 1 >= 1 + |Variations(text)|
    ensures forall v :: v in Variations(text) && v != original ==> v in ExpandQuery(original, n, Some(text))
  {
    var unique := AddUnique([original], Variations(text), original);
    AddUniqueLength([original], Variations(text), original);
    assert ExpandQuery(original, n, Some(text)) == unique;
  }

  /** The loop adds at most one query per candidate. */
  lemma {:induction false} AddUniqueLength(acc: seq<string>, vs: seq<string>, original: string)
    requires NoDuplicates(acc)
    ensures |AddUnique(acc, vs, original)| <= |acc| + |vs|
    decreases |vs|
  {
    if |vs| > 0 {
      var v := vs[0];
      if v != "" && v != original && v !in acc {
        AddUniqueLength(acc + [v], vs[1..], original);
      } else {
        AddUniqueLength(acc, vs[1..], original);
      }
    }
  }
}

=== FILE: rag_response_refiner.dfy ===
/**
 The response refiner: an optional grounding check against the retrieved
 documents, then a rewrite by the fast model for anything but short answers.

 The generation engine is two parameters. `verify` receives the document
 excerpt and the claim that the fixed verification prompt wraps; `rewrite`
 receives the response that the fixed persona prompt wraps. `None` from
 either is a call that raised.
 */
module ResponseRefiner {
  import opened Common

  const HallucinationWarning: string :=
    "\n\n*(주의: 생성된 답변이 제공된 문서의 내용과 일치하지 않을 수 있습니다. 원본 출처를 확인해주세요.)*"

  /** Documents and characters per document that the verification prompt quotes. */
  const MaxVerifiedDocs: nat := 3
  const MaxExcerptChars: nat := 300
  /** Characters of the answer that the verification prompt quotes. */
  const MaxClaimChars: nat := 1000
  /** Answers shorter than this are returned without a rewrite. */
  const MinRefineLength: nat := 50

  /** The excerpts of each of the first documents. */
  function Excerpts(documents: seq<string>): (r: seq<string>)
    ensures |r| == Min(|documents|, MaxVerifiedDocs)
    ensures forall i :: 0 <= i < |r| ==> r[i] == Take(documents[i], MaxExcerptChars)
  {
    var docs := Take(documents, MaxVerifiedDocs);
    seq(|docs|, i requires 0 <= i < |docs| => Take(docs[i], MaxExcerptChars))
  }

  /** `"\n".join(d.get("content", "")[:300] for d in documents[:3])`. */
  function DocsText(documents: seq<string>): string {
    Join("\n", Excerpts(documents))
  }

  /** The quoted document text never exceeds three excerpts and their two separators. */
  lemma DocsTextBounded(documents: seq<string>)
    ensures |DocsText(documents)| <= MaxVerifiedDocs * MaxExcerptChars + 2
  {
    var ex := Excerpts(documents);
    JoinLength(ex);
  }

  /** Documents after the third one are never quoted. */
  lemma DocsTextIgnoresTail(documents: seq<string>, more: seq<string>)
    requires |documents| >= MaxVerifiedDocs
    ensures DocsText(documents + more) == DocsText(documents)
  {
    assert Excerpts(documents + more) == Excerpts(documents);
  }

  lemma {:induction false} JoinLength(parts: seq<string>)
    requires |parts| <= 3 && forall p :: p in parts ==> |p| <= MaxExcerptChars
    ensures |Join("\n", parts)| <= |parts| * MaxExcerptChars + (if |parts| == 0 then 0 else |parts| - 1)
    decreases |parts|
  {
    if |parts| > 1 {
      assert forall p :: p in parts[1..] ==> p in parts;
      JoinLength(parts[1..]);
    }
  }

  /** `_check_hallucination`: a "YES" anywhere in the reply passes; a failed call passes too. */
  function CheckHallucination(response: string, documents: seq<string>,
                              verify: (string, string) -> Option<string>): (ok: bool)
    ensures verify(DocsText(documents), Take(response, MaxClaimChars)).None? ==> ok
    ensures verify(DocsText(documents), Take(response, MaxClaimChars)).Some? ==>
      (ok <==> Contains(Upper(Strip(verify(DocsText(documents), Take(response, MaxClaimChars)).value)), "YES"))
  {
    match verify(DocsText(documents), Take(response, MaxClaimChars))
    case None => true
    case Some(reply) => Contains(Upper(Strip(reply)), "YES")
  }

  /** The answer after the optional grounding check. */
  function Checked(raw: string, documents: seq<string>, checkHallucination: bool,
                   verify: (string, string) -> Option<string>): (r: string)
    ensures r == raw || r == raw + HallucinationWarning
    ensures r != raw <==> checkHallucination && |documents| > 0 && !CheckHallucination(raw, documents, verify)
  {
    if checkHallucination && |documents| > 0 && !CheckHallucination(raw, documents, verify) then
      raw + HallucinationWarning
    else raw
  }

  /**
   `refine`: `documents` are the contents of `context["retrieved_documents"]`,
   empty when the context or the list is missing.
   */
  function Refine(raw: string, documents: seq<string>, checkHallucination: bool,
                  verify: (string, string) -> Option<string>, rewrite: string -> Option<string>): (r: string)
    ensures raw == "" ==> r == ""
    ensures raw != "" && |Checked(raw, documents, checkHallucination, verify)| < MinRefineLength ==>
      r == Checked(raw, documents, checkHallucination, verify)
    ensures raw != "" && rewrite(Checked(raw, documents, checkHallucination, verify)).None? ==>
      r == Checked(raw, documents, checkHallucination, verify)
  {
    if raw == "" then ""
    else
      var checked := Checked(raw, documents, checkHallucination, verify);
      if |checked| < MinRefineLength then checked
      else
        match rewrite(checked)
        case Some(refined) => refined
        case None => checked
  }

  /** A short answer never reaches the rewriting model: any two engines give the same result. */
  lemma ShortAnswerSkipsRewrite(raw: string, documents: seq<string>, checkHallucination: bool,
                                verify: (string, string) -> Option<string>,
                                rewrite1: string -> Option<string>, rewrite2: string -> Option<string>)
    requires |Checked(raw, documents, checkHallucination, verify)| < MinRefineLength
    ensures Refine(raw, documents, checkHallucination, verify, rewrite1)
         == Refine(raw, documents, checkHallucination, verify, rewrite2)
  {
  }

  /** Without the grounding check, the verifying model is never consulted and nothing is appended. */
  lemma NoCheckNoWarning(raw: string, documents: seq<string>, verify: (string, string) -> Option<string>)
    ensures Checked(raw, documents, false, verify) == raw
  {
  }
}

=== FILE: rag_retrieval_cache.dfy ===
/**
 The retrieval engine's query cache seen together with `hybrid_search`.
 `keyword_search` answers a repeated query and limit with a copy of the
 cached list, but the hits in it are the cached hit objects themselves, and
 the merge and the rerank of a hybrid search overwrite their scores. The
 cache is therefore modelled with the writes it receives, next to a version
 whose cache keeps copies.
 */
module RetrievalCache {
  import opened Common
  import opened RetrievalEngine

  /**
   Where a hybrid search's vector hits come from. Without a vector store the
   vector search falls back to `keyword_search` under the same query and
   limit, so its hits are the very hit objects the keyword cache holds; a
   vector store supplies hits of its own.
   */
  datatype VectorSource = FallbackIndex | VectorStore(hits: seq<Hit>)

  /** The vector hits a hybrid search merges, given the keyword search's hits. */
  function VectorHits(src: VectorSource, ks: seq<Hit>): (vs: seq<Hit>)
    ensures src.FallbackIndex? ==> vs == ks
    ensures src.VectorStore? ==> vs == src.hits
  {
    if src.FallbackIndex? then ks else src.hits
  }

  /**
   Whether the merge keeps the cached hit at position `i` as the entry of its
   id, and so writes into it. In fallback mode the cached hits are the vector
   hits and the vector loop keeps the last hit of each id; with a vector store
   the keyword loop keeps the first cached hit of an id no vector hit has.
   */
  predicate MergeKeeps(src: VectorSource, cached: seq<Hit>, i: int)
    requires 0 <= i < |cached|
  {
    match src
    case FallbackIndex => forall j :: i < j < |cached| ==> cached[j].id != cached[i].id
    case VectorStore(vs) =>
      (forall h :: h in vs ==> h.id != cached[i].id)
      && forall j :: 0 <= j < i ==> cached[j].id != cached[i].id
  }

  /**
   The state the merge and the rerank leave the merged candidates in: the
   fused score, then the cross-encoder's score, which `rerank_documents`
   writes into every document it covers before it sorts or fails.
   */
  function FinalStates(combined: seq<Hit>, reranker: Reranker): (r: seq<Hit>)
    ensures |r| == |combined|
    ensures forall i :: 0 <= i < |r| ==> r[i].id == combined[i].id && r[i].content == combined[i].content
    ensures !reranker.CrossEncoder? ==> r == combined
    ensures reranker.CrossEncoder? ==>
      forall i :: 0 <= i < |r| && i < |reranker.scores| ==> r[i].score == reranker.scores[i]
  {
    if reranker.CrossEncoder? then Rescored(combined, reranker.scores) else combined
  }

  /** The first hit of a list with the given id. */
  function HitWithId(hs: seq<Hit>, id: string): (r: Option<Hit>)
    ensures r.Some? ==> r.value in hs && r.value.id == id
    ensures r.None? <==> forall h :: h in hs ==> h.id != id
  {
    FirstWithKey(hs, (h: Hit) => h.id, id)
  }

  /**
   A cached list after a merge: as long as before, each hit the merge kept
   now in its final merged state with the same id, every other hit untouched.
   */
  ghost predicate RewrittenFrom(src: VectorSource, cached: seq<Hit>, final: seq<Hit>, r: seq<Hit>) {
    |r| == |cached|
    && (forall i :: 0 <= i < |cached| && !MergeKeeps(src, cached, i) ==> r[i] == cached[i])
    && (forall i :: 0 <= i < |cached| && MergeKeeps(src, cached, i) ==> r[i] in final && r[i].id == cached[i].id)
  }

  /**
   The cached list after a hybrid search as written. `keyword_search` hands
   out a copy of the cached list but not of its hits, so each cached hit the
   merge keeps ends in the state the merge and the rerank gave it; every
   other cached hit is untouched.
   */
  function WrittenBack(src: VectorSource, cached: seq<Hit>, final: seq<Hit>): (r: seq<Hit>)
    requires forall i :: 0 <= i < |cached| && MergeKeeps(src, cached, i) ==> Listed(final, cached[i].id)
    ensures RewrittenFrom(src, cached, final, r)
  {
    var r := seq(|cached|, i requires 0 <= i < |cached| =>
      var f := HitWithId(final, cached[i].id);
      if MergeKeeps(src, cached, i) && f.Some? then f.value else cached[i]);
    forall i | 0 <= i < |cached| && MergeKeeps(src, cached, i)
      ensures r[i] in final && r[i].id == cached[i].id
    {
      assert Listed(final, cached[i].id);
      var h :| h in final && h.id == cached[i].id;
      assert HitWithId(final, cached[i].id).Some?;
    }
    r
  }

  /** Every id a merge input lists is the id of some merged candidate. */
  lemma CombinedListsInputs(vs: seq<Hit>, ks: seq<Hit>, gs: seq<Hit>, graphEnabled: bool, w: Weights, id: string)
    requires Listed(vs, id) || Listed(ks, id)
    ensures Listed(Combined(vs, ks, gs, graphEnabled, w), id)
  {
    var m := MergeSearchResults(vs, ks, if graphEnabled then gs else [], w);
    assert id in Ids(m);
    var j :| 0 <= j < |m| && Ids(m)[j] == id;
    assert MergedHits(m)[j].id == id;
  }

  /** Every cached hit the merge keeps has a final merged state of its id. */
  lemma KeptHitsMerged(src: VectorSource, ks: seq<Hit>, gs: seq<Hit>, graphEnabled: bool, w: Weights, reranker: Reranker)
    ensures var final := FinalStates(Combined(VectorHits(src, ks), ks, gs, graphEnabled, w), reranker);
      forall i :: 0 <= i < |ks| && MergeKeeps(src, ks, i) ==> Listed(final, ks[i].id)
  {
    var vs := VectorHits(src, ks);
    var combined := Combined(vs, ks, gs, graphEnabled, w);
    var final := FinalStates(combined, reranker);
    forall i | 0 <= i < |ks| && MergeKeeps(src, ks, i)
      ensures Listed(final, ks[i].id)
    {
      assert ks[i] in ks;
      CombinedListsInputs(vs, ks, gs, graphEnabled, w, ks[i].id);
      FinalKeepsIds(combined, reranker, ks[i].id);
    }
  }

  /** The merge's final states list every id the merged list does. */
  lemma FinalKeepsIds(combined: seq<Hit>, reranker: Reranker, id: string)
    requires Listed(combined, id)
    ensures Listed(FinalStates(combined, reranker), id)
  {
    var h :| h in combined && h.id == id;
    var j :| 0 <= j < |combined| && combined[j] == h;
    var final := FinalStates(combined, reranker);
    assert final[j] in final;
  }

  /** Every key of the cache but `key` is in `after` exactly when it was in `cache`, with the same list. */
  ghost predicate OthersKept(cache: QueryCache, after: QueryCache, key: (string, int)) {
    forall k :: k != key ==> (k in after <==> k in cache) && (k in cache ==> after[k] == cache[k])
  }

  /** A cache that kept every other key and holds `v` at `key` is the old cache with `key` set to `v`. */
  lemma EntryReplaced(cache: QueryCache, after: QueryCache, key: (string, int), v: seq<Hit>)
    requires OthersKept(cache, after, key) && key in after && after[key] == v
    ensures after == cache[key := v]
  {
  }

  /**
   `hybrid_search` as written, with the keyword cache it reads and leaves
   behind. The keyword search answers from the cache entry of the query and
   limit (in fallback mode the vector search has just filled it); the merge
   and the rerank then write their scores into the hits that entry holds, so
   a later search reads them instead of the keyword scores.
   */
  function HybridSearchCachedAsWritten(ix: KeywordIndex, query: string, limit: int, src: VectorSource,
                                       graphEnabled: bool, w: Weights, reranker: Reranker, rerankTopK: int,
                                       cache: QueryCache): (r: (seq<Hit>, QueryCache))
    requires ix.Valid()
    ensures var ks := KeywordSearch(ix, query, limit, cache).0;
      r.0 == HybridSearchAsWritten(VectorHits(src, ks), ks, GraphSearch(ix, query, limit), graphEnabled, w, reranker, rerankTopK)
    ensures OthersKept(cache, r.1, (query, limit))
    ensures var ks := KeywordSearch(ix, query, limit, cache).0;
      (query, limit) in r.1
      && RewrittenFrom(src, ks, FinalStates(Combined(VectorHits(src, ks), ks, GraphSearch(ix, query, limit), graphEnabled, w), reranker),
                       r.1[(query, limit)])
  {
    var ks := KeywordSearch(ix, query, limit, cache).0;
    var c1 := KeywordSearch(ix, query, limit, cache).1;
    var vs := VectorHits(src, ks);
    var gs := GraphSearch(ix, query, limit);
    var final := FinalStates(Combined(vs, ks, gs, graphEnabled, w), reranker);
    KeptHitsMerged(src, ks, gs, graphEnabled, w, reranker);
    var entry := WrittenBack(src, ks, final);
    (HybridSearchAsWritten(vs, ks, gs, graphEnabled, w, reranker, rerankTopK), c1[(query, limit) := entry])
  }

  /**
   `hybrid_search` with a cache that keeps copies of its hits, and with the
   merged list sorted before the cut: the search leaves the cache as the
   keyword search left it.
   */
  function HybridSearchCached(ix: KeywordIndex, query: string, limit: int, src: VectorSource,
                              graphEnabled: bool, w: Weights, reranker: Reranker, rerankTopK: int,
                              cache: QueryCache): (r: (seq<Hit>, QueryCache))
    requires ix.Valid()
    ensures rerankTopK >= 0 ==> |r.0| <= rerankTopK
    ensures (query, limit) in r.1
    ensures forall k :: k in cache ==> k in r.1 && r.1[k] == cache[k]
    ensures forall k :: k in r.1 && k != (query, limit) ==> k in cache
  {
    var (ks, c1) := KeywordSearch(ix, query, limit, cache);
    (HybridSearch(VectorHits(src, ks), ks, GraphSearch(ix, query, limit), graphEnabled, w, reranker, rerankTopK), c1)
  }

  /** With the cache keeping copies, a repeated hybrid search gives the same results and leaves the cache as it was. */
  lemma CachedSearchRepeats(ix: KeywordIndex, query: string, limit: int, src: VectorSource,
                            graphEnabled: bool, w: Weights, reranker: Reranker, rerankTopK: int, cache: QueryCache)
    requires ix.Valid()
    ensures var first := HybridSearchCached(ix, query, limit, src, graphEnabled, w, reranker, rerankTopK, cache);
      HybridSearchCached(ix, query, limit, src, graphEnabled, w, reranker, rerankTopK, first.1) == first
  {
    var (ks, c1) := KeywordSearch(ix, query, limit, cache);
    assert KeywordSearch(ix, query, limit, c1) == (ks, c1);
  }

  /** With the cache keeping copies, a keyword search after a hybrid search still returns the keyword scores. */
  lemma KeywordScoresSurvive(ix: KeywordIndex, query: string, limit: int, src: VectorSource,
                             graphEnabled: bool, w: Weights, reranker: Reranker, rerankTopK: int, cache: QueryCache)
    requires ix.Valid()
    ensures var after := HybridSearchCached(ix, query, limit, src, graphEnabled, w, reranker, rerankTopK, cache).1;
      KeywordSearch(ix, query, limit, after).0 == KeywordSearch(ix, query, limit, cache).0
  {
    var (ks, c1) := KeywordSearch(ix, query, limit, cache);
    assert KeywordSearch(ix, query, limit, c1) == (ks, c1);
  }

  /** With a reranker, both versions return the same results from the same cache; they differ only in the cache left behind. */
  lemma CachedSearchesAgreeWithReranker(ix: KeywordIndex, query: string, limit: int, src: VectorSource,
                                        graphEnabled: bool, w: Weights, reranker: Reranker, rerankTopK: int, cache: QueryCache)
    requires ix.Valid() && !reranker.NoReranker?
    ensures HybridSearchCached(ix, query, limit, src, graphEnabled, w, reranker, rerankTopK, cache).0
      == HybridSearchCachedAsWritten(ix, query, limit, src, graphEnabled, w, reranker, rerankTopK, cache).0
  {
    var ks := KeywordSearch(ix, query, limit, cache).0;
    HybridSearchAgreesWithReranker(VectorHits(src, ks), ks, GraphSearch(ix, query, limit), graphEnabled, w, reranker, rerankTopK);
  }

  /** The merge table of one hit met by the vector and keyword loops, then by a graph hit of the same id. */
  lemma MergeSelfAndGraph(a: Hit, g: Hit, w: Weights)
    requires g.id == a.id
    ensures MergeSearchResults([a], [a], [g], w) == [Scored(Merged(a, a.score, a.score, g.score), w)]
  {
    OneVector(a);
    var t1 := AddVector([a]);
    assert [a][..0] == [] && [g][..0] == [];
    assert AddComponent(t1, [], KeywordPart) == t1;
    var t2 := AddComponent(t1, [a], KeywordPart);
    assert t2 == ODict(map[a.id := Merged(a, a.score, a.score, 0.0)], [a.id]);
    assert AddComponent(t2, [], GraphPart) == t2;
    var t3 := AddComponent(t2, [g], GraphPart);
    assert t3 == ODict(map[a.id := Merged(a, a.score, a.score, g.score)], [a.id]);
    assert MergeTableOf([a], [a], [g]) == t3;
  }

  /**
   In fallback mode, from a cache holding one hit whose document the graph
   search also finds, a hybrid search as written without a reranker returns
   that hit with its fused score and leaves the fused score in the cache.
   */
  lemma WrittenSearchRewritesCache(ix: KeywordIndex, query: string, limit: int, a: Hit, g: Hit,
                                   w: Weights, rerankTopK: int, cache: QueryCache)
    requires ix.Valid() && rerankTopK >= 1
    requires (query, limit) in cache && cache[(query, limit)] == [a]
    requires GraphSearch(ix, query, limit) == [g] && g.id == a.id
    ensures var fused := a.(score := Weighted(Merged(a, a.score, a.score, g.score), w));
      var r := HybridSearchCachedAsWritten(ix, query, limit, FallbackIndex, true, w, NoReranker, rerankTopK, cache);
      r.0 == [fused] && r.1 == cache[(query, limit) := [fused]]
  {
    var fused := a.(score := Weighted(Merged(a, a.score, a.score, g.score), w));
    var r := HybridSearchCachedAsWritten(ix, query, limit, FallbackIndex, true, w, NoReranker, rerankTopK, cache);
    assert KeywordSearch(ix, query, limit, cache).0 == [a];
    FusedCombined(a, g, w);
    OneHitReturnsFused(a, g, w, rerankTopK);
    OneEntryRewritten(a, fused, r.1[(query, limit)]);
    EntryReplaced(cache, r.1, (query, limit), [fused]);
  }

  /** Without a reranker, the search as written over one hit met by both loops and a graph hit of its id returns the fused hit. */
  lemma OneHitReturnsFused(a: Hit, g: Hit, w: Weights, rerankTopK: int)
    requires g.id == a.id && rerankTopK >= 1
    ensures HybridSearchAsWritten([a], [a], [g], true, w, NoReranker, rerankTopK)
      == [a.(score := Weighted(Merged(a, a.score, a.score, g.score), w))]
  {
    var fused := a.(score := Weighted(Merged(a, a.score, a.score, g.score), w));
    FusedCombined(a, g, w);
    PrefixOfOne(Combined([a], [a], [g], true, w), fused, rerankTopK);
  }

  /** A cut of a one-hit list at a positive length keeps the hit. */
  lemma PrefixOfOne(c: seq<Hit>, f: Hit, stop: int)
    requires c == [f] && stop >= 1
    ensures PrefixTo(c, stop) == [f]
  {
    assert Take(c, stop) == c;
  }

  /** A fallback-mode cache entry of one hit, rewritten by a merge of one hit of its id, holds that merged hit. */
  lemma OneEntryRewritten(a: Hit, fused: Hit, entry: seq<Hit>)
    requires fused.id == a.id && RewrittenFrom(FallbackIndex, [a], [fused], entry)
    ensures entry == [fused]
  {
    assert MergeKeeps(FallbackIndex, [a], 0);
  }

  /** The merged list of one hit met by the vector and keyword loops and a graph hit of the same id: that hit with its fused score. */
  lemma FusedCombined(a: Hit, g: Hit, w: Weights)
    requires g.id == a.id
    ensures Combined([a], [a], [g], true, w) == [a.(score := Weighted(Merged(a, a.score, a.score, g.score), w))]
  {
    var e := Merged(a, a.score, a.score, g.score);
    var m := MergeSearchResults([a], [a], [g], w);
    assert m == [Scored(e, w)] by { MergeSelfAndGraph(a, g, w); }
    assert |MergedHits(m)| == 1 && MergedHits(m)[0] == Scored(e, w).hit;
  }

  /**
   The written search's scores drift: with the default weights, a cached
   keyword score of 0.2 and a graph score of 1.0, repeated hybrid searches
   return 0.5 and then 0.8, and a keyword search in between returns 0.5
   instead of 0.2.
   */
  lemma WrittenScoresDrift(ix: KeywordIndex, query: string, limit: int, a: Hit, g: Hit, cache: QueryCache)
    requires ix.Valid() && (query, limit) in cache && cache[(query, limit)] == [a] && a.score == 0.2
    requires GraphSearch(ix, query, limit) == [g] && g.id == a.id && g.score == 1.0
    ensures var first := HybridSearchCachedAsWritten(ix, query, limit, FallbackIndex, true, DefaultWeights, NoReranker, DefaultRerankTopK, cache);
      var second := HybridSearchCachedAsWritten(ix, query, limit, FallbackIndex, true, DefaultWeights, NoReranker, DefaultRerankTopK, first.1);
      first.0 == [a.(score := 0.5)] && KeywordSearch(ix, query, limit, first.1).0 == [a.(score := 0.5)]
      && second.0 == [a.(score := 0.8)]
  {
    WrittenSearchRewritesCache(ix, query, limit, a, g, DefaultWeights, DefaultRerankTopK, cache);
    assert Weighted(Merged(a, 0.2, 0.2, 1.0), DefaultWeights) == 0.5;
    assert Weighted(Merged(a.(score := 0.5), 0.5, 0.5, 1.0), DefaultWeights) == 0.8;
    var c1 := cache[(query, limit) := [a.(score := 0.5)]];
    WrittenSearchRewritesCache(ix, query, limit, a.(score := 0.5), g, DefaultWeights, DefaultRerankTopK, c1);
  }
}

=== FILE: rag_retrieval_engine.dfy ===
/**
 The retrieval engine's deterministic core: the in-memory keyword index with
 its keyword and tag-graph searches, the weighted merge of the vector,
 keyword and graph result lists, reranking, tag extraction and the hash
 embedding used when no embedding model is loaded.

 Vector search results, the cross-encoder's scores, the regular-expression
 tokenisers of the tag extractor and the MD5 digest are inputs.
 */
module RetrievalEngine {
  import opened Common

  /** A search hit; `originalScore` is recorded by the cross-encoder rerank. */
  datatype Hit = Hit(id: string, content: string, score: real, tags: seq<string>, originalScore: Option<real>)

  function ScoreOf(h: Hit): real { h.score }

  /** A document of the in-memory keyword index. */
  datatype Indexed = Indexed(content: string, tags: seq<string>)

  type KeywordIndex = ODict<Indexed>

  /** The configured weights (0.5, 0.5 and 0.3 by default). */
  datatype Weights = Weights(vector: real, keyword: real, graph: real)

  const DefaultWeights: Weights := Weights(0.5, 0.5, 0.3)
  const DefaultRerankTopK: int := 5
  const MaxTags: nat := 30
  const EmbeddingSize: nat := 128

  /* ----------------------------------------------------------- keyword search */

  /** `sum(content.count(t) for t in terms if t in content)`. */
  function TermCount(content: string, terms: seq<string>): (n: nat)
    requires forall t :: t in terms ==> |t| > 0
    ensures n > 0 <==> ContainsAny(content, terms)
  {
    if |terms| == 0 then 0
    else
      assert forall t :: t in terms ==> t == terms[0] || t in terms[1..];
      assert forall t :: t in terms[1..] ==> t in terms;
      CountOccurrences(content, terms[0]) + TermCount(content, terms[1..])
  }

  /** The score of a matching document: occurrences over words plus one, capped at 1. */
  function KeywordScore(count: nat, content: string): (s: real)
    requires count > 0
    ensures 0.0 < s <= 1.0
  {
    MinR(count as real / (|Words(content)| + 1) as real, 1.0)
  }

  /** The hits of the index entries that share a term with the query, in index order. */
  function KeywordHits(ix: KeywordIndex, keys: seq<string>, terms: seq<string>): (r: seq<Hit>)
    requires ix.Valid() && forall k :: k in keys ==> k in ix.m
    requires forall t :: t in terms ==> |t| > 0
    ensures forall h :: h in r ==> KeywordMatch(ix, h, terms) && h.id in keys
    ensures forall k :: k in keys && ContainsAny(Lower(ix.m[k].content), terms) ==> exists h :: h in r && h.id == k
  {
    if |keys| == 0 then []
    else
      var rest := KeywordHits(ix, keys[1..], terms);
      var doc := ix.m[keys[0]];
      var content := Lower(doc.content);
      var count := TermCount(content, terms);
      assert forall k :: k in keys ==> k == keys[0] || k in keys[1..];
      if count > 0 then
        var h := Hit(keys[0], doc.content, KeywordScore(count, content), doc.tags, None);
        assert h in [h] + rest;
        [h] + rest
      else rest
  }

  /** A keyword hit: an indexed document with a query term in its lower-cased content, scored in (0, 1]. */
  ghost predicate KeywordMatch(ix: KeywordIndex, h: Hit, terms: seq<string>) {
    h.id in ix.m && h.content == ix.m[h.id].content && 0.0 < h.score <= 1.0
    && ContainsAny(Lower(ix.m[h.id].content), terms)
  }

  /** A fresh keyword search: the matching documents, best first, cut at `limit`. */
  function KeywordResults(ix: KeywordIndex, query: string, limit: int): (r: seq<Hit>)
    requires ix.Valid()
    ensures SortedDesc(r, ScoreOf)
    ensures limit >= 0 ==> |r| <= limit
    ensures forall h :: h in r ==> KeywordMatch(ix, h, Words(Lower(query)))
  {
    SortedTop(KeywordHits(ix, ix.order, Words(Lower(query))), ScoreOf, limit)
  }

  /**
   Keyword search keeps the best matches: as many as the limit allows, no
   match left out scores above one kept, and every indexed document sharing
   a term with the query is among the matches ranked.
   */
  lemma KeywordResultsAreTop(ix: KeywordIndex, query: string, limit: nat)
    requires ix.Valid()
    ensures var terms := Words(Lower(query));
      var hits := KeywordHits(ix, ix.order, terms);
      var r := KeywordResults(ix, query, limit);
      |r| == Min(limit, |hits|)
      && (forall h, g :: h in hits && h !in r && g in r ==> g.score >= h.score)
      && (forall k :: k in ix.m && ContainsAny(Lower(ix.m[k].content), terms) ==> exists h :: h in hits && h.id == k)
  {
    var terms := Words(Lower(query));
    var hits := KeywordHits(ix, ix.order, terms);
    var r := KeywordResults(ix, query, limit);
    assert r == SortedTop(hits, ScoreOf, limit);
    SortedTopIsTop(hits, ScoreOf, limit);
    assert forall h :: h in hits ==> ScoreOf(h) == h.score;
    assert forall k :: k in ix.m ==> k in ix.order;
  }

  /** The query cache: a search's result list under its query and limit. */
  type QueryCache = map<(string, int), seq<Hit>>

  /** `keyword_search`: answered from the cache when the same query and limit were seen, else searched and cached. */
  function KeywordSearch(ix: KeywordIndex, query: string, limit: int, cache: QueryCache): (r: (seq<Hit>, QueryCache))
    requires ix.Valid()
    ensures (query, limit) in cache ==> r == (cache[(query, limit)], cache)
    ensures (query, limit) !in cache ==>
      r.1 == cache[(query, limit) := r.0]
      && SortedDesc(r.0, ScoreOf) && (limit >= 0 ==> |r.0| <= limit)
      && forall h :: h in r.0 ==> KeywordMatch(ix, h, Words(Lower(query)))
  {
    if (query, limit) in cache then (cache[(query, limit)], cache)
    else
      var out := KeywordResults(ix, query, limit);
      (out, cache[(query, limit) := out])
  }

  /** The cache is never invalidated: a repeated search returns the first answer even after the index changed. */
  lemma RepeatedSearchIsCached(ix: KeywordIndex, changed: KeywordIndex, query: string, limit: int, cache: QueryCache)
    requires ix.Valid() && changed.Valid()
    ensures var first := KeywordSearch(ix, query, limit, cache);
      KeywordSearch(changed, query, limit, first.1).0 == first.0
  {
  }

  /* -------------------------------------------------------------- graph search */

  /** `[w for w in query.split() if len(w) > 2]`. */
  function Entities(query: string): (r: seq<string>)
    ensures forall e :: e in r ==> |e| > 2
  {
    Filter((w: string) => |w| > 2, Words(query))
  }

  /** `entity in tags or any(entity in str(t) for t in tags)`; the first test implies the second. */
  predicate TagsMention(tags: seq<string>, e: string) {
    exists t :: t in tags && Contains(t, e)
  }

  /** One point per entity that some tag mentions. */
  function GraphScore(tags: seq<string>, entities: seq<string>): (n: nat)
    ensures n <= |entities|
    ensures n > 0 <==> exists e :: e in entities && TagsMention(tags, e)
  {
    if |entities| == 0 then 0
    else
      assert forall e :: e in entities ==> e == entities[0] || e in entities[1..];
      assert forall e :: e in entities[1..] ==> e in entities;
      (if TagsMention(tags, entities[0]) then 1 else 0) + GraphScore(tags, entities[1..])
  }

  function GraphHits(ix: KeywordIndex, keys: seq<string>, entities: seq<string>): (r: seq<Hit>)
    requires ix.Valid() && forall k :: k in keys ==> k in ix.m
    ensures forall h :: h in r ==> GraphMatch(ix, h, entities) && h.id in keys
    ensures forall k :: k in keys && GraphScore(ix.m[k].tags, entities) > 0 ==> exists h :: h in r && h.id == k
  {
    if |keys| == 0 then []
    else
      var rest := GraphHits(ix, keys[1..], entities);
      var doc := ix.m[keys[0]];
      var score := GraphScore(doc.tags, entities);
      assert forall k :: k in keys ==> k == keys[0] || k in keys[1..];
      if score > 0 then
        var h := Hit(keys[0], doc.content, score as real, doc.tags, None);
        assert h in [h] + rest;
        [h] + rest
      else rest
  }

  /** A graph hit: an indexed document scored by how many entities its tags mention, at least one. */
  ghost predicate GraphMatch(ix: KeywordIndex, h: Hit, entities: seq<string>) {
    h.id in ix.m && h.content == ix.m[h.id].content
    && h.score == GraphScore(ix.m[h.id].tags, entities) as real && h.score >= 1.0
  }

  /** `_graph_search`: documents scored by the query entities their tags mention, best first. */
  function GraphSearch(ix: KeywordIndex, query: string, limit: int): (r: seq<Hit>)
    requires ix.Valid()
    ensures SortedDesc(r, ScoreOf)
    ensures limit >= 0 ==> |r| <= limit
    ensures forall h :: h in r ==> GraphMatch(ix, h, Entities(query))
  {
    SortedTop(GraphHits(ix, ix.order, Entities(query)), ScoreOf, limit)
  }

  /**
   Graph search keeps the best-scored documents in the same way: as many as
   the limit allows, none left out above one kept, and every document whose
   tags mention a query entity is ranked.
   */
  lemma GraphSearchIsTop(ix: KeywordIndex, query: string, limit: nat)
    requires ix.Valid()
    ensures var hits := GraphHits(ix, ix.order, Entities(query));
      var r := GraphSearch(ix, query, limit);
      |r| == Min(limit, |hits|)
      && (forall h, g :: h in hits && h !in r && g in r ==> g.score >= h.score)
      && (forall k :: k in ix.m && GraphScore(ix.m[k].tags, Entities(query)) > 0 ==> exists h :: h in hits && h.id == k)
  {
    var hits := GraphHits(ix, ix.order, Entities(query));
    var r := GraphSearch(ix, query, limit);
    assert r == SortedTop(hits, ScoreOf, limit);
    SortedTopIsTop(hits, ScoreOf, limit);
    assert forall h :: h in hits ==> ScoreOf(h) == h.score;
    assert forall k :: k in ix.m ==> k in ix.order;
  }

  /* -------------------------------------------------------------------- merge */

  /** A merged result: the stored hit and its three component scores. */
  datatype Merged = Merged(hit: Hit, vector: real, keyword: real, graph: real)

  /** The three result lists the merge reads. */
  datatype Component = VectorPart | KeywordPart | GraphPart

  function Get(e: Merged, c: Component): real {
    match c
    case VectorPart => e.vector
    case KeywordPart => e.keyword
    case GraphPart => e.graph
  }

  function With(e: Merged, c: Component, v: real): (r: Merged)
    ensures r.hit == e.hit && Get(r, c) == v
    ensures forall d :: d != c ==> Get(r, d) == Get(e, d)
  {
    match c
    case VectorPart => e.(vector := v)
    case KeywordPart => e.(keyword := v)
    case GraphPart => e.(graph := v)
  }

  /** The entry of a first-seen result: its own score in its component, zero elsewhere. */
  function Fresh(h: Hit, c: Component): (r: Merged)
    ensures r.hit == h && Get(r, c) == h.score
    ensures forall d :: d != c ==> Get(r, d) == 0.0
  {
    With(Merged(h, 0.0, 0.0, 0.0), c, h.score)
  }

  /** The result map keyed by document id, in first-insertion order. */
  type MergeTable = ODict<Merged>

  ghost predicate WellKeyed(t: MergeTable) {
    t.Valid() && forall id :: id in t.m ==> t.m[id].hit.id == id
  }

  /** Some result of the list has the id. */
  ghost predicate Listed(rs: seq<Hit>, id: string) {
    exists h :: h in rs && h.id == id
  }

  /** The score of the last result with the given id. */
  function LastScore(rs: seq<Hit>, id: string): (r: Option<real>)
    ensures r.Some? <==> Listed(rs, id)
  {
    if |rs| == 0 then None
    else if rs[|rs| - 1].id == id then Some(rs[|rs| - 1].score)
    else
      assert forall h :: h in rs ==> h == rs[|rs| - 1] || h in rs[..|rs| - 1];
      assert forall h :: h in rs[..|rs| - 1] ==> h in rs;
      LastScore(rs[..|rs| - 1], id)
  }

  /** The vector loop: each result replaces the entry of its id, with zero keyword and graph scores. */
  function AddVector(rs: seq<Hit>): (t: MergeTable)
    ensures WellKeyed(t)
    ensures forall id :: id in t.m <==> LastScore(rs, id).Some?
    ensures forall id, c :: id in t.m ==> Get(t.m[id], c) == (if c == VectorPart then LastScore(rs, id).value else 0.0)
  {
    if |rs| == 0 then EmptyDict()
    else
      var r := rs[|rs| - 1];
      AddVector(rs[..|rs| - 1]).Set(r.id, Fresh(r, VectorPart))
  }

  /**
   The keyword and graph loops: an existing entry gets the result's score in
   the component, a new id gets a fresh entry.
   */
  function AddComponent(t0: MergeTable, rs: seq<Hit>, c: Component): (t: MergeTable)
    requires WellKeyed(t0)
    ensures WellKeyed(t)
    ensures forall id :: id in t.m <==> id in t0.m || LastScore(rs, id).Some?
    ensures forall id, d :: id in t.m ==>
      Get(t.m[id], d) == if d == c && LastScore(rs, id).Some? then LastScore(rs, id).value
                         else if id in t0.m then Get(t0.m[id], d)
                         else 0.0
  {
    if |rs| == 0 then t0
    else
      var t1 := AddComponent(t0, rs[..|rs| - 1], c);
      var r := rs[|rs| - 1];
      if r.id in t1.m then t1.Set(r.id, With(t1.m[r.id], c, r.score))
      else t1.Set(r.id, Fresh(r, c))
  }

  function MergeTableOf(vs: seq<Hit>, ks: seq<Hit>, gs: seq<Hit>): MergeTable {
    AddComponent(AddComponent(AddVector(vs), ks, KeywordPart), gs, GraphPart)
  }

  /** After the three loops the table holds exactly the ids of the three lists. */
  lemma MergeTableIds(vs: seq<Hit>, ks: seq<Hit>, gs: seq<Hit>)
    ensures var t := MergeTableOf(vs, ks, gs);
      WellKeyed(t) && forall id :: id in t.m <==> Listed(vs, id) || Listed(ks, id) || Listed(gs, id)
  {
  }

  /** After the three loops an id carries its last score of each list, and 0 for a list that misses it. */
  lemma MergeTableAt(vs: seq<Hit>, ks: seq<Hit>, gs: seq<Hit>, id: string)
    requires id in MergeTableOf(vs, ks, gs).m
    ensures var e := MergeTableOf(vs, ks, gs).m[id];
      e.hit.id == id
      && e.vector == LastScore(vs, id).GetOr(0.0)
      && e.keyword == LastScore(ks, id).GetOr(0.0)
      && e.graph == LastScore(gs, id).GetOr(0.0)
  {
    var t1 := AddVector(vs);
    var t2 := AddComponent(t1, ks, KeywordPart);
    var e := AddComponent(t2, gs, GraphPart).m[id];
    assert Get(e, VectorPart) == e.vector;
    assert Get(e, KeywordPart) == e.keyword;
    assert Get(e, GraphPart) == e.graph;
  }

  function Weighted(e: Merged, w: Weights): real {
    e.vector * w.vector + e.keyword * w.keyword + e.graph * w.graph
  }

  /** The entry with its hit re-scored by the weighted sum. */
  function Scored(e: Merged, w: Weights): (r: Merged)
    ensures r.hit.id == e.hit.id && r.vector == e.vector && r.keyword == e.keyword && r.graph == e.graph
    ensures r.hit.score == Weighted(e, w) == Weighted(r, w)
  {
    e.(hit := e.hit.(score := Weighted(e, w)))
  }

  function Ids(ms: seq<Merged>): (r: seq<string>)
    ensures |r| == |ms| && forall i :: 0 <= i < |r| ==> r[i] == ms[i].hit.id
  {
    seq(|ms|, i requires 0 <= i < |ms| => ms[i].hit.id)
  }

  /** The table's entries in iteration order, each re-scored by the weighted sum. */
  function Fuse(t: MergeTable, w: Weights): (r: seq<Merged>)
    requires WellKeyed(t)
    ensures Ids(r) == t.order
    ensures forall i :: 0 <= i < |r| ==> r[i] == Scored(t.m[t.order[i]], w)
  {
    var r := seq(|t.order|, i requires 0 <= i < |t.order| => Scored(t.m[t.order[i]], w));
    assert Ids(r) == t.order;
    r
  }

  /** The ids of the fused table are distinct and are exactly the ids of the three lists. */
  lemma FusedIds(vs: seq<Hit>, ks: seq<Hit>, gs: seq<Hit>, w: Weights)
    ensures WellKeyed(MergeTableOf(vs, ks, gs))
    ensures var ids := Ids(Fuse(MergeTableOf(vs, ks, gs), w));
      NoDuplicates(ids) && forall id :: id in ids <==> Listed(vs, id) || Listed(ks, id) || Listed(gs, id)
  {
    MergeTableIds(vs, ks, gs);
  }

  /** Each fused entry carries the id's last score of each list and their weighted sum. */
  lemma FusedEntries(vs: seq<Hit>, ks: seq<Hit>, gs: seq<Hit>, w: Weights)
    ensures WellKeyed(MergeTableOf(vs, ks, gs))
    ensures forall e :: e in Fuse(MergeTableOf(vs, ks, gs), w) ==> MergedFrom(e, vs, ks, gs, w)
  {
    MergeTableIds(vs, ks, gs);
    var t := MergeTableOf(vs, ks, gs);
    var r := Fuse(t, w);
    forall e | e in r
      ensures MergedFrom(e, vs, ks, gs, w)
    {
      var i :| 0 <= i < |r| && r[i] == e;
      var id := t.order[i];
      assert id in t.m;
      MergeTableAt(vs, ks, gs, id);
      var m := t.m[id];
      assert e == Scored(m, w);
    }
  }

  /** An entry whose components are the id's last score in each list (0 when absent) and whose score is their weighted sum. */
  ghost predicate MergedFrom(e: Merged, vs: seq<Hit>, ks: seq<Hit>, gs: seq<Hit>, w: Weights) {
    e.vector == LastScore(vs, e.hit.id).GetOr(0.0)
    && e.keyword == LastScore(ks, e.hit.id).GetOr(0.0)
    && e.graph == LastScore(gs, e.hit.id).GetOr(0.0)
    && e.hit.score == Weighted(e, w)
  }

  /**
   `_merge_search_results`: one entry per document id, in first-seen order,
   scored by the weighted sum of its last vector, keyword and graph scores,
   a list that misses the id counting 0.
   */
  function MergeSearchResults(vs: seq<Hit>, ks: seq<Hit>, gs: seq<Hit>, w: Weights): (r: seq<Merged>)
    ensures NoDuplicates(Ids(r))
    ensures forall id :: id in Ids(r) <==> Listed(vs, id) || Listed(ks, id) || Listed(gs, id)
    ensures forall e :: e in r ==> MergedFrom(e, vs, ks, gs, w)
  {
    FusedIds(vs, ks, gs, w);
    FusedEntries(vs, ks, gs, w);
    Fuse(MergeTableOf(vs, ks, gs), w)
  }

  function MergedHits(merged: seq<Merged>): (r: seq<Hit>)
    ensures |r| == |merged| && forall i :: 0 <= i < |r| ==> r[i] == merged[i].hit
  {
    seq(|merged|, i requires 0 <= i < |merged| => merged[i].hit)
  }

  /** `_deduplicate_results`: the first result of each id, in input order. */
  function DeduplicateResults(results: seq<Hit>): (r: seq<Hit>)
    ensures forall i, j :: 0 <= i < j < |r| ==> r[i].id != r[j].id
    ensures forall h :: h in r ==> h in results
  {
    DedupBy(results, (h: Hit) => h.id, {})
  }

  /** Every id survives deduplication through its first result, and the order is kept. */
  lemma DeduplicateKeepsFirst(results: seq<Hit>)
    ensures forall h :: h in DeduplicateResults(results) ==> FirstWithKey(results, (x: Hit) => x.id, h.id) == Some(h)
    ensures forall x :: x in results ==> exists h :: h in DeduplicateResults(results) && h.id == x.id
    ensures IsSubsequence(DeduplicateResults(results), results)
  {
    DedupByFirst(results, (h: Hit) => h.id, {});
    DedupByIsSubsequence(results, (h: Hit) => h.id, {});
  }

  /* ---------------------------------------------------------------- reranking */

  /** The cross-encoder: absent, a score per pair, or a prediction that raised. */
  datatype Reranker = NoReranker | CrossEncoder(scores: seq<real>) | RerankFails

  /** The first documents get the cross-encoder's score; the old one is kept as `originalScore`. */
  function Rescored(docs: seq<Hit>, scores: seq<real>): (r: seq<Hit>)
    ensures |r| == |docs|
    ensures forall i :: 0 <= i < |r| && i < |scores| ==>
      r[i] == docs[i].(score := scores[i], originalScore := Some(docs[i].score))
    ensures forall i :: |scores| <= i < |r| ==> r[i] == docs[i]
  {
    seq(|docs|, i requires 0 <= i < |docs| =>
      if i < |scores| then docs[i].(score := scores[i], originalScore := Some(docs[i].score)) else docs[i])
  }

  /**
   `rerank_documents`: sort by the cross-encoder's scores, or by the existing
   scores without one; a failing prediction keeps the input order, and a
   short score list fails after re-scoring the documents it covers.
   */
  function RerankDocuments(docs: seq<Hit>, reranker: Reranker, topK: int): (r: seq<Hit>)
    ensures |docs| == 0 ==> r == []
    ensures |r| <= |docs| && (topK >= 0 ==> |r| <= topK)
    ensures reranker.NoReranker? ==> SortedDesc(r, ScoreOf) && forall h :: h in r ==> h in docs
    ensures reranker.CrossEncoder? && |reranker.scores| >= |docs| ==>
      SortedDesc(r, ScoreOf) && forall h :: h in r ==> h.originalScore.Some?
    ensures reranker.RerankFails? && |docs| > 0 ==> r == PrefixTo(docs, topK)
    ensures reranker.CrossEncoder? && |reranker.scores| < |docs| ==> r == PrefixTo(Rescored(docs, reranker.scores), topK)
  {
    if |docs| == 0 then []
    else
      match reranker
      case NoReranker => SortedTop(docs, ScoreOf, topK)
      case RerankFails => PrefixTo(docs, topK)
      case CrossEncoder(scores) =>
        var rescored := Rescored(docs, scores);
        if |scores| < |docs| then PrefixTo(rescored, topK)
        else
          assert forall h :: h in rescored ==> h.originalScore.Some?;
          SortedTop(rescored, ScoreOf, topK)
  }

  /** With a full score list every returned document carries the cross-encoder's score for it. */
  lemma RerankUsesEncoderScores(docs: seq<Hit>, scores: seq<real>, topK: int)
    requires |scores| >= |docs|
    ensures forall h :: h in RerankDocuments(docs, CrossEncoder(scores), topK) ==>
      exists i :: 0 <= i < |docs| && h.score == scores[i] && h.originalScore == Some(docs[i].score) && h.id == docs[i].id
  {
    var rescored := Rescored(docs, scores);
    forall h | h in RerankDocuments(docs, CrossEncoder(scores), topK)
      ensures exists i :: 0 <= i < |docs| && h.score == scores[i] && h.originalScore == Some(docs[i].score) && h.id == docs[i].id
    {
      assert h in rescored;
      var i :| 0 <= i < |rescored| && rescored[i] == h;
    }
  }

  /* ------------------------------------------------------------ hybrid search */

  /** The merged candidates of a hybrid search; graph results count only when the graph search is enabled. */
  function Combined(vs: seq<Hit>, ks: seq<Hit>, gs: seq<Hit>, graphEnabled: bool, w: Weights): seq<Hit> {
    MergedHits(MergeSearchResults(vs, ks, if graphEnabled then gs else [], w))
  }

  /**
   `hybrid_search` as written: without a reranker the merged list is cut in
   merge order, which is not sorted by the fused score.
   */
  function HybridSearchAsWritten(vs: seq<Hit>, ks: seq<Hit>, gs: seq<Hit>, graphEnabled: bool,
                                 w: Weights, reranker: Reranker, rerankTopK: int): (r: seq<Hit>)
    ensures rerankTopK >= 0 ==> |r| <= rerankTopK
    ensures reranker.NoReranker? ==> r == PrefixTo(Combined(vs, ks, gs, graphEnabled, w), rerankTopK)
  {
    var combined := Combined(vs, ks, gs, graphEnabled, w);
    if reranker.NoReranker? then PrefixTo(combined, rerankTopK)
    else RerankDocuments(combined, reranker, rerankTopK)
  }

  /** `hybrid_search` with the merged list sorted by fused score before the cut, as the rerank fallback does. */
  function HybridSearch(vs: seq<Hit>, ks: seq<Hit>, gs: seq<Hit>, graphEnabled: bool,
                        w: Weights, reranker: Reranker, rerankTopK: int): (r: seq<Hit>)
    ensures rerankTopK >= 0 ==> |r| <= rerankTopK
    ensures reranker.NoReranker? ==>
      SortedDesc(r, ScoreOf) && forall h :: h in r ==> h in Combined(vs, ks, gs, graphEnabled, w)
  {
    RerankDocuments(Combined(vs, ks, gs, graphEnabled, w), reranker, rerankTopK)
  }

  /** The corrected search differs from the written one only without a reranker. */
  lemma HybridSearchAgreesWithReranker(vs: seq<Hit>, ks: seq<Hit>, gs: seq<Hit>, graphEnabled: bool,
                                       w: Weights, reranker: Reranker, rerankTopK: int)
    requires !reranker.NoReranker?
    ensures HybridSearch(vs, ks, gs, graphEnabled, w, reranker, rerankTopK)
      == HybridSearchAsWritten(vs, ks, gs, graphEnabled, w, reranker, rerankTopK)
  {
  }

  /** The table after the vector loop over one result. */
  lemma OneVector(a: Hit)
    ensures AddVector([a]) == ODict(map[a.id := Fresh(a, VectorPart)], [a.id])
  {
    assert [a][..0] == [];
    assert AddVector([]) == EmptyDict<Merged>();
  }

  /** The table after a keyword loop over one result with a new id. */
  lemma OneNewKeyword(t: MergeTable, b: Hit)
    requires WellKeyed(t) && b.id !in t.m
    ensures AddComponent(t, [b], KeywordPart) == ODict(t.m[b.id := Fresh(b, KeywordPart)], t.order + [b.id])
  {
    assert [b][..0] == [];
    assert AddComponent(t, [], KeywordPart) == t;
  }

  /** Merging one vector hit and one keyword hit of another document lists the vector hit first. */
  lemma MergeVectorThenKeyword(a: Hit, b: Hit, w: Weights)
    requires a.id != b.id
    ensures MergeSearchResults([a], [b], [], w) == [Scored(Fresh(a, VectorPart), w), Scored(Fresh(b, KeywordPart), w)]
  {
    OneVector(a);
    var t1 := AddVector([a]);
    OneNewKeyword(t1, b);
    var t2 := AddComponent(t1, [b], KeywordPart);
    assert AddComponent(t2, [], GraphPart) == t2;
    assert t2.order == [a.id, b.id];
    assert MergeTableOf([a], [b], []) == t2;
  }

  /**
   Without a reranker, a vector hit whose weighted score is below that of a
   keyword hit for another document still comes back first: the written cut
   returns a list that is not sorted by score. The default weights with
   scores 0.2 and 1.0 are an instance (fused scores 0.1 and 0.5).
   */
  lemma HybridSliceUnsorted(a: Hit, b: Hit, w: Weights, topK: int)
    requires a.id != b.id && topK >= 2
    requires a.score * w.vector < b.score * w.keyword
    ensures var r := HybridSearchAsWritten([a], [b], [], false, w, NoReranker, topK);
      |r| == 2 && r[0].id == a.id && r[1].id == b.id && r[0].score < r[1].score && !SortedDesc(r, ScoreOf)
  {
    CombinedTwo(a, b, w);
    var combined := Combined([a], [b], [], false, w);
    assert PrefixTo(combined, topK) == combined;
  }

  /** The merged candidates of one vector hit and one keyword hit of another document. */
  lemma CombinedTwo(a: Hit, b: Hit, w: Weights)
    requires a.id != b.id
    ensures var c := Combined([a], [b], [], false, w);
      |c| == 2 && c[0].id == a.id && c[1].id == b.id
      && c[0].score == a.score * w.vector && c[1].score == b.score * w.keyword
  {
    MergeVectorThenKeyword(a, b, w);
    var ea := Fresh(a, VectorPart);
    var eb := Fresh(b, KeywordPart);
    var ms := [Scored(ea, w), Scored(eb, w)];
    assert Combined([a], [b], [], false, w) == MergedHits(ms);
    assert MergedHits(ms) == [ms[0].hit, ms[1].hit];
    FreshWeighted(a, w);
    FreshWeighted(b, w);
  }

  /** A first-seen entry's fused score is its own score times its list's weight. */
  lemma FreshWeighted(h: Hit, w: Weights)
    ensures Weighted(Fresh(h, VectorPart), w) == h.score * w.vector
    ensures Weighted(Fresh(h, KeywordPart), w) == h.score * w.keyword
  {
    var ev := Fresh(h, VectorPart);
    assert ev == Merged(h, h.score, 0.0, 0.0);
    var ek := Fresh(h, KeywordPart);
    assert ek == Merged(h, 0.0, h.score, 0.0);
  }

  /** The corrected search returns the same two documents best first. */
  lemma HybridSearchSortsThem(a: Hit, b: Hit, w: Weights, topK: int)
    requires a.id != b.id && topK >= 2
    requires a.score * w.vector < b.score * w.keyword
    ensures var r := HybridSearch([a], [b], [], false, w, NoReranker, topK);
      SortedDesc(r, ScoreOf) && |r| == 2 && r[0].id == b.id && r[1].id == a.id
  {
    CombinedTwo(a, b, w);
    var combined := Combined([a], [b], [], false, w);
    var c0, c1 := combined[0], combined[1];
    assert combined == [c0, c1];
    TopOfTwo(c0, c1, topK);
    assert HybridSearch([a], [b], [], false, w, NoReranker, topK) == SortedTop(combined, ScoreOf, topK);
  }

  /** Two hits, the second scoring higher, come out of the top-k cut swapped. */
  lemma TopOfTwo(x: Hit, y: Hit, topK: int)
    requires x.score < y.score && topK >= 2
    ensures SortedTop([x, y], ScoreOf, topK) == [y, x]
  {
    assert [x, y][1..] == [y] && [y][1..] == [];
    assert SortDesc([y], ScoreOf) == InsertDesc(y, [], ScoreOf) == [y];
    assert InsertDesc(x, [y], ScoreOf) == [y] + InsertDesc(x, [], ScoreOf) == [y, x];
    assert SortDesc([x, y], ScoreOf) == [y, x];
  }

  /* ----------------------------------------------------------- tag extraction */

  /** A `tags` / `keywords` metadata value. */
  datatype TagField = TagList(items: seq<string>) | TagText(text: string) | NoTagField

  /** The metadata fields the extractor reads. */
  datatype TagMeta = TagMeta(tags: TagField, keywords: TagField,
                             source: Option<string>, title: Option<string>, category: Option<string>)

  const NoMeta: TagMeta := TagMeta(NoTagField, NoTagField, None, None, None)

  const StopWords: set<string> := {
    "the", "and", "for", "with", "this", "that", "from", "are", "was", "were", "will", "your",
    "있습니다", "합니다", "그리고", "하지만", "또한", "관련", "사용", "기능", "목적", "위해", "대한", "그것", "이것", "저것"
  }

  /** The stripped, non-empty items of a list. */
  function NonBlank(items: seq<string>): (r: seq<string>)
    ensures forall t :: t in r ==> t != ""
  {
    if |items| == 0 then []
    else
      var t := Strip(items[0]);
      if t != "" then [t] + NonBlank(items[1..]) else NonBlank(items[1..])
  }

  function FieldTags(f: TagField): seq<string> {
    match f
    case TagList(items) => NonBlank(items)
    case TagText(text) => if Strip(text) != "" then NonBlank(SplitOn(text, c => c == ',')) else []
    case NoTagField => []
  }

  function OptionalTag(v: Option<string>): seq<string> {
    if v.Some? && Strip(v.value) != "" then [Strip(v.value)] else []
  }

  /** The tags taken from metadata, in the order the extractor visits them. */
  function MetaTags(meta: TagMeta): seq<string> {
    FieldTags(meta.tags) + FieldTags(meta.keywords)
      + OptionalTag(meta.source) + OptionalTag(meta.title) + OptionalTag(meta.category)
  }

  lemma MetaTagsNone()
    ensures MetaTags(NoMeta) == []
  {
    assert FieldTags(NoTagField) == [];
    assert OptionalTag(None) == [];
  }

  /* Hashtags: `re.findall` of a '#' followed by at least two tag characters. */

  /* The hashtag class as intended is `WordChar`: word characters and Hangul syllables. */

  /** The hashtag class as written: the doubled backslash leaves a backslash, the letter `w` and Hangul syllables. */
  predicate WrittenHashtagChar(c: char) {
    c == '\\' || c == 'w' || HangulSyllable(c)
  }

  /** The length of the longest prefix of tag characters. */
  function TagRun(s: string, isTagChar: char -> bool): (n: nat)
    ensures n <= |s| && forall i :: 0 <= i < n ==> isTagChar(s[i])
    ensures n < |s| ==> !isTagChar(s[n])
  {
    if |s| == 0 || !isTagChar(s[0]) then 0
    else
      var n := TagRun(s[1..], isTagChar);
      assert forall i :: 0 < i <= n ==> s[i] == s[1..][i - 1];
      n + 1
  }

  /** Greedy, left-to-right, non-overlapping matches of `#` and two or more tag characters; the tag text is kept. */
  function FindHashtags(s: string, isTagChar: char -> bool): (r: seq<string>)
    ensures forall h :: h in r ==> |h| >= 2 && forall c :: c in h ==> isTagChar(c)
    decreases |s|
  {
    if |s| == 0 then []
    else if s[0] == '#' && TagRun(s[1..], isTagChar) >= 2 then
      var n := TagRun(s[1..], isTagChar);
      var h := s[1..1 + n];
      assert forall c :: c in h ==> isTagChar(c) by {
        assert forall i :: 0 <= i < n ==> h[i] == s[1..][i];
      }
      [h] + FindHashtags(s[1 + n..], isTagChar)
    else FindHashtags(s[1..], isTagChar)
  }

  /** A text without `#` has no hashtags. */
  lemma {:induction false} NoHashNoTags(s: string, isTagChar: char -> bool)
    requires '#' !in s
    ensures FindHashtags(s, isTagChar) == []
    decreases |s|
  {
    if |s| > 0 {
      assert s[0] in s;
      assert forall c :: c in s[1..] ==> c in s;
      NoHashNoTags(s[1..], isTagChar);
    }
  }

  /** "#tip": the written class has no `t`, so no hashtag is found; the intended class finds "tip". */
  lemma HashtagMissed()
    ensures FindHashtags("#tip", WrittenHashtagChar) == []
    ensures FindHashtags("#tip", WordChar) == ["tip"]
  {
    var s := "#tip";
    assert s[1..] == "tip" && s[1..][0] == 't';
    assert TagRun("tip", WrittenHashtagChar) == 0;
    NoHashNoTags("tip", WrittenHashtagChar);
    TipRun();
    assert s[1..4] == "tip" && s[4..] == [];
  }

  lemma TipRun()
    ensures TagRun("tip", WordChar) == 3
  {
    assert "tip"[1..] == "ip" && "ip"[1..] == "p" && "p"[1..] == "";
    assert WordChar('t') && WordChar('i') && WordChar('p');
  }

  /* Tokens: `re.split` of the text, then a length, stop-word and number filter. */

  /** The separators the token pattern lists: whitespace and punctuation. */
  const TokenPunctuation: set<char> := {
    '.', ',', ';', ':', '!', '?', '(', ')', '[', ']', '{', '}', '<', '>', '-', '_', '/', '\\', '"', '\''
  }

  /** The token splitter as intended. */
  predicate TokenDelim(c: char) {
    IsSpace(c) || c in TokenPunctuation
  }

  /**
   The token pattern as written. Its doubled backslashes make the character
   class hold a backslash and the letters `s`, `t`, `n`, `r`, and the `]`
   after the escaped backslash before it closes the class early, so the rest
   of the pattern is literal text: a match is a class character, then
   `WrittenTail`, then one or more `]`.
   */
  const WrittenClass: set<char> := {'\\', 's', 't', 'n', 'r', '.', ',', ';', ':', '!', '?', '(', ')', '['}
  const WrittenTail: string := "\\{\\}<>\\-_/\\\\\\\"'"

  /** The length of the leading run of `]`. */
  function BracketRun(s: string): (n: nat)
    ensures n <= |s|
  {
    if |s| == 0 || s[0] != ']' then 0 else 1 + BracketRun(s[1..])
  }

  /** The length of a match of the written token pattern at the start of `s`, if there is one. */
  function WrittenMatch(s: string): (r: Option<nat>)
    ensures r.Some? ==> 0 < r.value <= |s| && IsPrefix(WrittenTail, s[1..])
  {
    if |s| > 0 && s[0] in WrittenClass && IsPrefix(WrittenTail + "]", s[1..]) then
      assert s[1..][..|WrittenTail|] == (WrittenTail + "]")[..|WrittenTail|];
      Some(1 + |WrittenTail| + BracketRun(s[1 + |WrittenTail|..]))
    else None
  }

  /** `re.split` with the written token pattern: the pieces between its matches. */
  function SplitWritten(s: string): (r: seq<string>)
    ensures |r| >= 1
    decreases |s|
  {
    if |s| == 0 then [""]
    else
      match WrittenMatch(s)
      case Some(k) => [""] + SplitWritten(s[k..])
      case None =>
        var rest := SplitWritten(s[1..]);
        [[s[0]] + rest[0]] + rest[1..]
  }

  /** Text without the pattern's literal tail is never split: it is a single token. */
  lemma {:induction false} SplitWrittenWhole(s: string)
    requires !Contains(s, WrittenTail)
    ensures SplitWritten(s) == [s]
    decreases |s|
  {
    if |s| > 0 {
      assert !Contains(s[1..], WrittenTail);
      assert !IsPrefix(WrittenTail, s[1..]);
      assert WrittenMatch(s).None?;
      SplitWrittenWhole(s[1..]);
      assert [s[0]] + s[1..] == s;
    }
  }

  /** `re.fullmatch(r"\d+", t)` as intended: one or more digits. */
  predicate AllDigits(t: string) {
    |t| > 0 && forall c :: c in t ==> '0' <= c <= '9'
  }

  /** The number test as written: the doubled backslash matches a backslash followed by one or more `d`. */
  predicate BackslashDs(t: string) {
    |t| >= 2 && t[0] == '\\' && forall c :: c in t[1..] ==> c == 'd'
  }

  /** The token filter: at least three characters, not a stop word, not a number. */
  predicate KeepToken(t: string, isNumber: string -> bool) {
    |t| >= 3 && Lower(t) !in StopWords && !isNumber(t)
  }

  function TokenTags(tokens: seq<string>, isNumber: string -> bool): (r: seq<string>)
    ensures forall t :: t in r ==> KeepToken(t, isNumber)
  {
    if |tokens| == 0 then []
    else
      var t := Strip(tokens[0]);
      var rest := TokenTags(tokens[1..], isNumber);
      if KeepToken(t, isNumber) then [t] + rest else rest
  }

  /** A kept token is a stripped piece of the split. */
  lemma {:induction false} TokenTagsComeFromPieces(tokens: seq<string>, isNumber: string -> bool, t: string)
    requires t in TokenTags(tokens, isNumber)
    ensures exists p :: p in tokens && t == Strip(p)
    decreases |tokens|
  {
    if |tokens| > 0 && t != Strip(tokens[0]) {
      TokenTagsComeFromPieces(tokens[1..], isNumber, t);
      var p :| p in tokens[1..] && t == Strip(p);
      assert p in tokens;
    }
  }

  lemma {:induction false} NoneKept(ts: seq<string>, isNumber: string -> bool)
    requires forall i :: 0 <= i < |ts| ==> !KeepToken(Strip(ts[i]), isNumber)
    ensures TokenTags(ts, isNumber) == []
    decreases |ts|
  {
    if |ts| > 0 {
      NoneKept(ts[1..], isNumber);
    }
  }

  /** The clean-up loop: stripped, case-insensitively new, and stop after `MaxTags - taken` tags. */
  function TagLoop(candidates: seq<string>, seen: set<string>, taken: nat): (r: seq<string>)
    requires taken < MaxTags
    ensures |r| <= MaxTags - taken
    ensures forall t :: t in r ==> t != "" && Strip(t) == t && Lower(t) !in seen
    ensures forall i, j :: 0 <= i < j < |r| ==> Lower(r[i]) != Lower(r[j])
  {
    if |candidates| == 0 then []
    else
      var tt := Strip(candidates[0]);
      StripIdempotent(candidates[0]);
      if tt == "" || Lower(tt) in seen then TagLoop(candidates[1..], seen, taken)
      else if taken + 1 >= MaxTags then [tt]
      else
        var rest := TagLoop(candidates[1..], seen + {Lower(tt)}, taken + 1);
        assert forall i :: 0 < i <= |rest| ==> ([tt] + rest)[i] == rest[i - 1];
        [tt] + rest
  }

  /**
   `_extract_tags` as written: metadata tags, then hashtags and tokens found
   with the written patterns, cleaned and capped.
   */
  function ExtractTagsAsWritten(content: string, meta: TagMeta): (r: seq<string>)
    ensures |r| <= MaxTags
    ensures forall t :: t in r ==> t != "" && Strip(t) == t
    ensures forall i, j :: 0 <= i < j < |r| ==> Lower(r[i]) != Lower(r[j])
  {
    TagLoop(MetaTags(meta) + FindHashtags(content, WrittenHashtagChar)
      + TokenTags(SplitWritten(content), BackslashDs), {}, 0)
  }

  /** `_extract_tags` with the hashtag, token and number patterns as intended. */
  function ExtractTags(content: string, meta: TagMeta): (r: seq<string>)
    ensures |r| <= MaxTags
    ensures forall t :: t in r ==> t != "" && Strip(t) == t
    ensures forall i, j :: 0 <= i < j < |r| ==> Lower(r[i]) != Lower(r[j])
  {
    TagLoop(MetaTags(meta) + FindHashtags(content, WordChar)
      + TokenTags(SplitOn(content, TokenDelim), AllDigits), {}, 0)
  }

  /** No token of the corrected extractor is a number or holds whitespace or punctuation. */
  lemma ExtractedTokensAreWords(content: string)
    ensures forall t :: t in TokenTags(SplitOn(content, TokenDelim), AllDigits) ==>
      !AllDigits(t) && |t| >= 3 && forall c :: c in t ==> !TokenDelim(c)
  {
    var pieces := SplitOn(content, TokenDelim);
    forall t | t in TokenTags(pieces, AllDigits)
      ensures forall c :: c in t ==> !TokenDelim(c)
    {
      TokenTagsComeFromPieces(pieces, AllDigits, t);
      var p :| p in pieces && t == Strip(p);
      StripKeepsChars(p);
    }
  }

  /** The stop words are all short, so no text of five or more characters is one. */
  lemma StopWordsShort()
    ensures forall w :: w in StopWords ==> |w| <= 4
  {
  }

  /** A single stripped candidate is the whole tag list. */
  lemma TagLoopSingle(t: string)
    requires t != "" && Strip(t) == t
    ensures TagLoop([t], {}, 0) == [t]
  {
    assert [t][1..] == [];
  }

  /** One as-written candidate list of a text: no metadata, no hashtag, and the whole text as the only token. */
  lemma WrittenCandidates(t: string)
    requires '#' !in t && |t| < |WrittenTail|
    ensures MetaTags(NoMeta) + FindHashtags(t, WrittenHashtagChar) + TokenTags(SplitWritten(t), BackslashDs)
      == TokenTags([t], BackslashDs)
  {
    NoHashNoTags(t, WrittenHashtagChar);
    ShortNotContains(t, WrittenTail);
    SplitWrittenWhole(t);
    MetaTagsNone();
  }

  /** A short text without `#` is, as written, never split: it is its own and only tag when it passes the filter. */
  lemma WholeTextTag(t: string)
    requires |t| > 0 && !IsSpace(t[0]) && !IsSpace(t[|t| - 1])
    requires '#' !in t && |t| < |WrittenTail|
    requires KeepToken(t, BackslashDs)
    ensures ExtractTagsAsWritten(t, NoMeta) == [t]
  {
    WrittenCandidates(t);
    StripOfUnspaced(t);
    assert [t][1..] == [];
    assert TokenTags([t], BackslashDs) == [t];
    TagLoopSingle(t);
  }

  /** Without `#`, when no intended token passes the filter, the intended extractor finds no tag. */
  lemma NoIntendedTags(content: string, pieces: seq<string>)
    requires '#' !in content && SplitOn(content, TokenDelim) == pieces
    requires forall i :: 0 <= i < |pieces| ==> !KeepToken(Strip(pieces[i]), AllDigits)
    ensures ExtractTags(content, NoMeta) == []
  {
    NoHashNoTags(content, WordChar);
    NoneKept(pieces, AllDigits);
    MetaTagsNone();
    assert MetaTags(NoMeta) + [] + [] == [];
  }

  /**
   A number of five to fourteen digits, such as a follower count "10000":
   the written number test keeps it as a tag, the intended one drops it.
   */
  lemma NumberTokenKept(y: string)
    requires AllDigits(y) && 5 <= |y| < |WrittenTail|
    ensures ExtractTagsAsWritten(y, NoMeta) == [y]
    ensures ExtractTags(y, NoMeta) == []
  {
    WrittenNumber(y);
    IntendedNumber(y);
  }

  lemma WrittenNumber(y: string)
    requires AllDigits(y) && 5 <= |y| < |WrittenTail|
    ensures ExtractTagsAsWritten(y, NoMeta) == [y]
  {
    DigitsArePlain(y);
    assert y[0] in y && y[|y| - 1] in y;
    LowerUnchanged(y);
    StopWordsShort();
    WholeTextTag(y);
  }

  lemma IntendedNumber(y: string)
    requires AllDigits(y)
    ensures ExtractTags(y, NoMeta) == []
  {
    DigitsArePlain(y);
    assert y[0] in y && y[|y| - 1] in y;
    SplitOnNoDelim(y, TokenDelim);
    StripOfUnspaced(y);
    NoIntendedTags(y, [y]);
  }

  /** Digits are neither separators, nor `#`, nor upper-case. */
  lemma DigitsArePlain(y: string)
    requires AllDigits(y)
    ensures forall c :: c in y ==> !TokenDelim(c) && c != '#' && !IsUpper(c) && !IsSpace(c)
  {
  }

  /**
   Two two-letter words "ab cd": the written pattern keeps the whole text as
   one tag, the intended one splits it at the space and drops both short words.
   */
  lemma TextNotTokenised(a: string, b: string)
    requires |a| == 2 && |b| == 2
    requires forall c :: c in a + b ==> !TokenDelim(c) && c != '#' && !IsUpper(c)
    ensures ExtractTagsAsWritten(a + " " + b, NoMeta) == [a + " " + b]
    ensures ExtractTags(a + " " + b, NoMeta) == []
  {
    WrittenTwoWords(a, b);
    IntendedTwoWordsDropped(a, b);
  }

  lemma IntendedTwoWordsDropped(a: string, b: string)
    requires |a| == 2 && |b| == 2
    requires forall c :: c in a + b ==> !TokenDelim(c) && c != '#'
    ensures ExtractTags(a + " " + b, NoMeta) == []
  {
    IntendedTwoWords(a, b);
    var pieces := [a, b];
    assert |Strip(a)| <= 2 && |Strip(b)| <= 2;
    assert forall i :: 0 <= i < |pieces| ==> !KeepToken(Strip(pieces[i]), AllDigits);
    NoIntendedTags(a + " " + b, pieces);
  }

  lemma WrittenTwoWords(a: string, b: string)
    requires |a| == 2 && |b| == 2
    requires forall c :: c in a + b ==> !TokenDelim(c) && c != '#' && !IsUpper(c)
    ensures ExtractTagsAsWritten(a + " " + b, NoMeta) == [a + " " + b]
  {
    var t := a + " " + b;
    assert forall c :: c in t ==> c in a + b || c == ' ';
    assert t[0] == a[0] && t[|t| - 1] == b[1];
    assert a[0] in a + b && b[1] in a + b;
    LowerUnchanged(t);
    StopWordsShort();
    WholeTextTag(t);
  }

  lemma IntendedTwoWords(a: string, b: string)
    requires forall c :: c in a + b ==> !TokenDelim(c) && c != '#'
    ensures SplitOn(a + " " + b, TokenDelim) == [a, b] && '#' !in a + " " + b
  {
    assert forall c :: c in a ==> c in a + b;
    assert forall c :: c in b ==> c in a + b;
    assert forall c :: c in a + " " + b ==> c in a + b || c == ' ';
    assert a + " " + b == a + [' '] + b;
    SplitOnAtDelim(a, ' ', b, TokenDelim);
    SplitOnNoDelim(b, TokenDelim);
  }

  /** Lowering a text without upper-case letters changes nothing. */
  lemma LowerUnchanged(y: string)
    requires forall c :: c in y ==> !IsUpper(c)
    ensures Lower(y) == y
  {
    assert forall i :: 0 <= i < |y| ==> y[i] in y;
  }

  /* ----------------------------------------------------- fallback index edits */

  /** A document handed to `add_documents`; `tags` is a list already present in its metadata. */
  datatype NewDoc = NewDoc(id: Option<string>, content: Option<string>, tags: Option<seq<string>>, meta: TagMeta)

  /**
   `_fallback_add_documents`: each document is stored under its id (or
   `doc_<size>`), keeping its tags or extracting them from the content.
   */
  function FallbackAdd(ix: KeywordIndex, docs: seq<NewDoc>): (r: KeywordIndex)
    requires ix.Valid()
    ensures r.Valid()
    ensures forall k :: k in ix.m ==> k in r.m
    ensures forall d :: d in docs && d.id.Some? ==> d.id.value in r.m
    decreases |docs|
  {
    if |docs| == 0 then ix
    else
      var d := docs[0];
      var id := d.id.GetOr("doc_" + NatToString(|ix.m|));
      var content := d.content.GetOr("");
      var tags := match d.tags case Some(t) => t case None => ExtractTags(content, d.meta);
      var r := FallbackAdd(ix.Set(id, Indexed(content, tags)), docs[1..]);
      assert forall e :: e in docs ==> e == d || e in docs[1..];
      r
  }

  /** `_fallback_delete_documents`: drop each id; unknown ids are ignored. */
  function FallbackDelete(ix: KeywordIndex, ids: seq<string>): (r: KeywordIndex)
    requires ix.Valid()
    ensures r.Valid()
    ensures r.m == ix.m - set i | i in ids
    decreases |ids|
  {
    if |ids| == 0 then ix
    else
      var r := FallbackDelete(ix.Remove(ids[0]), ids[1..]);
      assert (ix.m - {ids[0]}) - (set i | i in ids[1..]) == ix.m - set i | i in ids;
      r
  }

  /** A stored document is found under its id with its content, and deleting the id removes it. */
  lemma {:induction false} AddThenDelete(ix: KeywordIndex, d: NewDoc)
    requires ix.Valid() && d.id.Some?
    ensures var added := FallbackAdd(ix, [d]);
      d.id.value in added.m && added.m[d.id.value].content == d.content.GetOr("")
      && FallbackDelete(added, [d.id.value]).m == added.m - {d.id.value}
  {
    var content := d.content.GetOr("");
    var tags := match d.tags case Some(t) => t case None => ExtractTags(content, d.meta);
    var next := ix.Set(d.id.value, Indexed(content, tags));
    assert [d][1..] == [];
    assert FallbackAdd(ix, [d]) == FallbackAdd(next, []) == next;
    assert (set i | i in [d.id.value]) == {d.id.value};
  }

  /** Deleting ids that are not in the index changes nothing. */
  lemma {:induction false} DeleteAbsentIsNoop(ix: KeywordIndex, ids: seq<string>)
    requires ix.Valid() && forall i :: i in ids ==> i !in ix.m
    ensures FallbackDelete(ix, ids) == ix
    decreases |ids|
  {
    if |ids| > 0 {
      assert ix.Remove(ids[0]) == ix;
      DeleteAbsentIsNoop(ix, ids[1..]);
    }
  }

  /* ----------------------------------------------------------- hash embedding */

  /** `_simple_hash_embedding`: each digest byte over 255, zero-padded and cut to 128 values. */
  function HashEmbedding(digest: seq<Byte>): (r: seq<real>)
    ensures |r| == EmbeddingSize
    ensures forall i :: 0 <= i < |r| ==> 0.0 <= r[i] <= 1.0
    ensures forall i :: 0 <= i < |r| && i < |digest| ==> r[i] == digest[i] as real / 255.0
    ensures forall i :: |digest| <= i < |r| ==> r[i] == 0.0
  {
    seq(EmbeddingSize, i requires 0 <= i < EmbeddingSize =>
      if i < |digest| then digest[i] as real / 255.0 else 0.0)
  }
}

=== FILE: rag_semantic_cache.dfy ===
/**
 The exact-match response cache in front of the RAG pipeline.

 Entries are keyed by a digest of the normalised query (`strip` then
 `lower`); the digest function and the clock are parameters. Times are whole
 seconds.
 */
module SemanticCache {
  import opened Common

  datatype Entry = Entry(response: string, metadata: map<string, string>, timestamp: int, expiresAt: int)

  datatype Cache = Cache(ttl: int, entries: map<string, Entry>)

  /** A new cache with the given time-to-live (3600 seconds by default) holds nothing. */
  function NewCache(ttl: int): (c: Cache)
    ensures c.ttl == ttl && |c.entries| == 0
  {
    Cache(ttl, map[])
  }

  /** `_hash_query`: only the stripped, lower-cased query reaches the digest. */
  function Key(hash: string -> string, query: string): string {
    hash(Lower(Strip(query)))
  }

  /** `_is_expired`: strictly past the expiry instant. */
  predicate Expired(e: Entry, now: int) {
    now > e.expiresAt
  }

  /**
   `get_cached_response`: the live entry's response, or `None`; an expired
   entry is deleted on the way.
   */
  function Get(c: Cache, hash: string -> string, query: string, now: int): (r: (Option<string>, Cache))
    ensures r.1.ttl == c.ttl
    ensures r.0.Some? <==> Key(hash, query) in c.entries && !Expired(c.entries[Key(hash, query)], now)
    ensures r.0.Some? ==> r.0.value == c.entries[Key(hash, query)].response && r.1 == c
    ensures r.0.None? ==> r.1.entries == c.entries - {Key(hash, query)}
  {
    var key := Key(hash, query);
    if key in c.entries then
      if !Expired(c.entries[key], now) then (Some(c.entries[key].response), c)
      else (None, c.(entries := c.entries - {key}))
    else (None, c)
  }

  /** `cache_response`: store under the key, stamping now and expiring a time-to-live later. */
  function Put(c: Cache, hash: string -> string, query: string, response: string,
               metadata: Option<map<string, string>>, now: int): (r: Cache)
    ensures r.ttl == c.ttl
    ensures r.entries.Keys == c.entries.Keys + {Key(hash, query)}
    ensures r.entries[Key(hash, query)].response == response
    ensures r.entries[Key(hash, query)].expiresAt == now + c.ttl
    ensures metadata.None? ==> r.entries[Key(hash, query)].metadata == map[]
    ensures forall k :: k in c.entries && k != Key(hash, query) ==> r.entries[k] == c.entries[k]
  {
    var md := match metadata case Some(m) => m case None => map[];
    c.(entries := c.entries[Key(hash, query) := Entry(response, md, now, now + c.ttl)])
  }

  /** `clear`. */
  function Clear(c: Cache): (r: Cache)
    ensures r.ttl == c.ttl && r.entries == map[]
  {
    c.(entries := map[])
  }

  /** Lower-casing leaves the whitespace class of every character unchanged. */
  lemma {:induction false} LowerKeepsLeadingSpace(s: string)
    ensures LeadingSpace(Lower(s)) == LeadingSpace(s)
    decreases |s|
  {
    if |s| > 0 {
      assert Lower(s)[1..] == Lower(s[1..]);
      LowerKeepsLeadingSpace(s[1..]);
    }
  }

  lemma {:induction false} LowerKeepsTrailingSpace(s: string)
    ensures TrailingSpace(Lower(s)) == TrailingSpace(s)
    decreases |s|
  {
    if |s| > 0 {
      assert Lower(s)[..|s| - 1] == Lower(s[..|s| - 1]);
      LowerKeepsTrailingSpace(s[..|s| - 1]);
    }
  }

  lemma LowerSlice(s: string, a: nat, b: nat)
    requires a <= b <= |s|
    ensures Lower(s)[a..b] == Lower(s[a..b])
  {
  }

  lemma LStripLowerCommute(s: string)
    ensures LStrip(Lower(s)) == Lower(LStrip(s))
  {
    LowerKeepsLeadingSpace(s);
    LowerSlice(s, LeadingSpace(s), |s|);
  }

  lemma RStripLowerCommute(s: string)
    ensures RStrip(Lower(s)) == Lower(RStrip(s))
  {
    LowerKeepsTrailingSpace(s);
    LowerSlice(s, 0, |s| - TrailingSpace(s));
  }

  /** `strip` and `lower` commute. */
  lemma StripLowerCommute(s: string)
    ensures Strip(Lower(s)) == Lower(Strip(s))
  {
    LStripLowerCommute(s);
    RStripLowerCommute(LStrip(s));
  }

  /** Queries that differ only in case or in surrounding whitespace share one entry. */
  lemma KeyIgnoresCaseAndSpace(hash: string -> string, query: string)
    ensures Key(hash, Lower(query)) == Key(hash, query)
    ensures Key(hash, Strip(query)) == Key(hash, query)
  {
    StripLowerCommute(query);
    LowerIdempotent(Strip(query));
    StripIdempotent(query);
  }

  /** A stored response is served back, under any spelling with the same normal form, until it expires. */
  lemma PutThenGet(c: Cache, hash: string -> string, query: string, lookup: string, response: string,
                   metadata: Option<map<string, string>>, stored: int, now: int)
    requires Lower(Strip(lookup)) == Lower(Strip(query))
    requires now <= stored + c.ttl
    ensures Get(Put(c, hash, query, response, metadata, stored), hash, lookup, now).0 == Some(response)
  {
    assert Key(hash, lookup) == Key(hash, query);
  }

  /** A lookup after expiry misses and removes the entry. */
  lemma ExpiredGetDeletes(c: Cache, hash: string -> string, query: string, now: int)
    requires Key(hash, query) in c.entries && now > c.entries[Key(hash, query)].expiresAt
    ensures Get(c, hash, query, now).0 == None
    ensures Key(hash, query) !in Get(c, hash, query, now).1.entries
  {
  }

  /** Storing twice under one key is the same as storing only the second time: response and expiry are reset. */
  lemma PutOverwrites(c: Cache, hash: string -> string, query: string, again: string,
                      first: string, second: string, m1: Option<map<string, string>>,
                      m2: Option<map<string, string>>, t1: int, t2: int)
    requires Key(hash, again) == Key(hash, query)
    ensures Put(Put(c, hash, query, first, m1, t1), hash, again, second, m2, t2)
         == Put(c, hash, again, second, m2, t2)
  {
  }

  /** After `clear`, every lookup misses. */
  lemma ClearThenGet(c: Cache, hash: string -> string, query: string, now: int)
    ensures Get(Clear(c), hash, query, now).0 == None
  {
  }
}

=== FILE: scripts_rag_eval.dfy ===
/**
 The offline RAG evaluation: each golden item's query is answered by the
 pipeline (a parameter here) and scored by the share of its expected
 keywords found in the answer, ignoring letter case; the run passes when
 the average reaches the minimum score. Reading and parsing the golden file
 is left out: the items arrive already parsed.
 */
module RagEval {
  import opened Common

  /** Expected keywords found in the answer, ignoring case. */
  function Hits(resp: string, keywords: seq<string>): (n: nat)
    ensures n <= |keywords|
    ensures n == |keywords| <==> forall i :: 0 <= i < |keywords| ==> Contains(Lower(resp), Lower(keywords[i]))
    ensures n == 0 <==> forall i :: 0 <= i < |keywords| ==> !Contains(Lower(resp), Lower(keywords[i]))
  {
    if keywords == [] then 0
    else
      assert forall i :: 1 <= i < |keywords| ==> keywords[i] == keywords[1..][i - 1];
      (if Contains(Lower(resp), Lower(keywords[0])) then 1 else 0) + Hits(resp, keywords[1..])
  }

  /** `score_response`: 1.0 with nothing expected, else the fraction of keywords found, which is full exactly when all were found and zero exactly when none was. */
  function ScoreResponse(resp: string, keywords: seq<string>): (r: real)
    ensures 0.0 <= r <= 1.0
    ensures keywords == [] ==> r == 1.0
    ensures keywords != [] ==>
      (r == 1.0 <==> forall i :: 0 <= i < |keywords| ==> Contains(Lower(resp), Lower(keywords[i])))
    ensures r == 0.0 <==> keywords != [] && forall i :: 0 <= i < |keywords| ==> !Contains(Lower(resp), Lower(keywords[i]))
  {
    if keywords == [] then 1.0
    else
      FullFraction(Hits(resp, keywords), |keywords|);
      Fraction(Hits(resp, keywords), |keywords|)
  }

  /** The score is the share of keywords found. */
  lemma ScoreIsShare(resp: string, keywords: seq<string>)
    requires keywords != []
    ensures ScoreResponse(resp, keywords) == Hits(resp, keywords) as real / |keywords| as real
  {
    assert Max(|keywords|, 1) == |keywords|;
  }

  /** A fraction of a positive whole is one exactly when the part is the whole. */
  lemma FullFraction(part: nat, whole: nat)
    requires 0 < whole && part <= whole
    ensures Fraction(part, whole) == 1.0 <==> part == whole
  {
    var r := Fraction(part, whole);
    if part == whole {
      UnitFactor(r, whole as real);
    }
  }

  /** A factor that leaves a positive number unchanged is one. */
  lemma UnitFactor(r: real, n: real)
    requires n > 0.0 && r * n == n
    ensures r == 1.0
  {
    assert (r - 1.0) * n == 0.0;
  }

  /** A golden item: its query and the keywords its answer should contain. */
  datatype Item = Item(query: string, expected: seq<string>)

  /** The scores of the items with a non-blank (stripped) query, in order. */
  function Scores(items: seq<Item>, answer: string -> string): (s: seq<real>)
    ensures |s| <= |items|
    ensures forall i :: 0 <= i < |s| ==> 0.0 <= s[i] <= 1.0
    ensures (forall i :: 0 <= i < |items| ==> Strip(items[i].query) != "") ==> |s| == |items|
  {
    if items == [] then []
    else
      var q := Strip(items[0].query);
      var rest := Scores(items[1..], answer);
      assert forall i :: 1 <= i < |items| ==> items[i] == items[1..][i - 1];
      if q == "" then rest else [ItemScore(items[0], answer)] + rest
  }

  /** One item's score, for a non-blank query. */
  function ItemScore(it: Item, answer: string -> string): (r: real)
    ensures 0.0 <= r <= 1.0
  {
    ScoreResponse(answer(Strip(it.query)), it.expected)
  }

  /** Each score lies in [0, 1], so their sum lies in [0, count]. */
  lemma {:induction false} SumWithin(s: seq<real>)
    requires forall i :: 0 <= i < |s| ==> 0.0 <= s[i] <= 1.0
    ensures 0.0 <= SumR(s) <= |s| as real
  {
    if s != [] {
      assert forall i :: 0 <= i < |s[1..]| ==> s[1..][i] == s[i + 1];
      SumWithin(s[1..]);
    }
  }

  /** `evaluate`: 1.0 for an empty golden set, else the mean score over the scored items (0.0 if none). */
  function Evaluate(items: seq<Item>, answer: string -> string): (avg: real)
    ensures 0.0 <= avg <= 1.0
    ensures items == [] ==> avg == 1.0
    ensures items != [] && Scores(items, answer) == [] ==> avg == 0.0
  {
    if items == [] then 1.0
    else
      var s := Scores(items, answer);
      SumWithin(s);
      Mean(SumR(s), |s|)
  }

  /** `sum / max(1, count)` for a sum of count values in [0, 1]. */
  function Mean(sum: real, count: nat): (m: real)
    requires 0.0 <= sum <= count as real
    ensures 0.0 <= m <= 1.0
    ensures count == 0 ==> m == 0.0
    ensures count > 0 && sum == count as real ==> m == 1.0
  {
    var d := Max(1, count) as real;
    assert sum <= d;
    sum / d
  }

  /** With at least one score, the mean is the sum over the count. */
  lemma MeanOfScored(sum: real, count: nat)
    requires 0.0 <= sum <= count as real && count > 0
    ensures Mean(sum, count) == sum / count as real
  {
    assert Max(1, count) == count;
  }

  /** Items whose queries are all blank score 0.0, where an empty golden set scores 1.0. */
  lemma AllBlankScoresZero(items: seq<Item>, answer: string -> string)
    requires items != [] && forall i :: 0 <= i < |items| ==> Strip(items[i].query) == ""
    ensures Scores(items, answer) == [] && Evaluate(items, answer) == 0.0
  {
    BlankScores(items, answer);
    assert SumR([]) == 0.0;
  }

  lemma {:induction false} BlankScores(items: seq<Item>, answer: string -> string)
    requires forall i :: 0 <= i < |items| ==> Strip(items[i].query) == ""
    ensures Scores(items, answer) == []
  {
    if items != [] {
      assert forall i :: 0 <= i < |items[1..]| ==> items[1..][i] == items[i + 1];
      BlankScores(items[1..], answer);
    }
  }

  /** A set whose every answer contains every expected keyword scores 1.0. */
  lemma PerfectAnswersScoreOne(items: seq<Item>, answer: string -> string)
    requires items != []
    requires forall i :: 0 <= i < |items| ==> Strip(items[i].query) != ""
    requires forall i, k :: 0 <= i < |items| && 0 <= k < |items[i].expected| ==>
      Contains(Lower(answer(Strip(items[i].query))), Lower(items[i].expected[k]))
    ensures Evaluate(items, answer) == 1.0
  {
    PerfectScores(items, answer);
    SumOfOnes(Scores(items, answer));
  }

  lemma {:induction false} PerfectScores(items: seq<Item>, answer: string -> string)
    requires forall i :: 0 <= i < |items| ==> Strip(items[i].query) != ""
    requires forall i, k :: 0 <= i < |items| && 0 <= k < |items[i].expected| ==>
      Contains(Lower(answer(Strip(items[i].query))), Lower(items[i].expected[k]))
    ensures forall i :: 0 <= i < |Scores(items, answer)| ==> Scores(items, answer)[i] == 1.0
  {
    if items != [] {
      var it := items[0];
      assert forall i :: 0 <= i < |items[1..]| ==> items[1..][i] == items[i + 1];
      PerfectScores(items[1..], answer);
    }
  }

  lemma {:induction false} SumOfOnes(s: seq<real>)
    requires forall i :: 0 <= i < |s| ==> s[i] == 1.0
    ensures SumR(s) == |s| as real
  {
    if s != [] {
      assert forall i :: 0 <= i < |s[1..]| ==> s[1..][i] == s[i + 1];
      SumOfOnes(s[1..]);
    }
  }

  /** `main`'s exit code: 0 when the golden file is missing or the average reaches the minimum, else 1. */
  function ExitCode(goldenExists: bool, items: seq<Item>, answer: string -> string, minScore: real): (code: int)
    ensures code == 0 <==> !goldenExists || Evaluate(items, answer) >= minScore
    ensures code == 0 || code == 1
  {
    if !goldenExists then 0 else if Evaluate(items, answer) >= minScore then 0 else 1
  }

  /** With the default minimum of 0.0 every run passes. */
  lemma DefaultMinimumPasses(goldenExists: bool, items: seq<Item>, answer: string -> string)
    ensures ExitCode(goldenExists, items, answer, 0.0) == 0
  {
  }
}

=== FILE: services_ab_testing.dfy ===
/**
 The prompt A/B testing service: experiments hold weighted prompt variants
 for one prompt type; a user who falls inside an experiment's share is
 assigned a variant once, deterministically from a hash of their id, and
 results recorded per variant decide a winner. The MD5 hash and the fresh
 identifiers are parameters; times are integers.
 */
module ABTesting {
  import opened Common

  datatype Status = Draft | Running | Paused | Completed | Archived

  datatype VariantType = Control | Treatment

  datatype Variant = Variant(id: string, name: string, vtype: VariantType, content: string, weight: real)

  /** A variant as the caller describes it; every key may be missing. */
  datatype VariantSpec = VariantSpec(name: Option<string>, typeName: Option<string>, content: Option<string>, weight: Option<real>)

  datatype Experiment = Experiment(
    id: string,
    name: string,
    description: string,
    status: Status,
    variants: seq<Variant>,
    targetPromptType: string,
    userPercentage: real,
    primaryMetric: string,
    createdAt: int,
    startDate: Option<int>,
    endDate: Option<int>,
    createdBy: Option<string>)

  datatype Outcome = Outcome(
    experimentId: string,
    variantId: string,
    userId: string,
    responseTimeMs: real,
    qualityScore: Option<real>,
    success: bool)

  /** The service: experiments in creation order, recorded results, and each user's assignments by experiment. */
  datatype Service = Service(
    experiments: ODict<Experiment>,
    results: seq<Outcome>,
    assignments: map<string, map<string, string>>,
    enabled: bool)

  function VariantId(v: Variant): string { v.id }

  function Weight(v: Variant): real { v.weight }

  /** `VariantType(value)`, which raises on any other text. */
  function ParseType(value: string): (t: Option<VariantType>)
    ensures t == Some(Control) <==> value == "control"
    ensures t == Some(Treatment) <==> value == "treatment"
  {
    if value == "control" then Some(Control) else if value == "treatment" then Some(Treatment) else None
  }

  /** One variant before normalisation: the first defaults to control, the rest to treatment, and weights to an equal share. */
  function BuildVariant(spec: VariantSpec, i: nat, count: nat, id: string): (r: Option<Variant>)
    requires i < count
    ensures spec.typeName.None? ==> r.Some? && r.value.vtype == (if i > 0 then Treatment else Control)
    ensures r.Some? ==> r.value.id == id && r.value.weight == spec.weight.GetOr(1.0 / count as real)
    ensures r.Some? ==> r.value.name == spec.name.GetOr("Variant " + NatToString(i + 1))
  {
    var typeName := spec.typeName.GetOr(if i > 0 then "treatment" else "control");
    match ParseType(typeName)
    case None => None
    case Some(t) =>
      Some(Variant(id, spec.name.GetOr("Variant " + NatToString(i + 1)), t, spec.content.GetOr(""),
                   spec.weight.GetOr(1.0 / count as real)))
  }

  /** Variants `i..` of the list; `None` when some type name is invalid. */
  function BuildFrom(specs: seq<VariantSpec>, i: nat, ids: nat -> string): (r: Option<seq<Variant>>)
    requires i <= |specs|
    ensures r.None? <==> exists j :: i <= j < |specs| && BuildVariant(specs[j], j, |specs|, ids(j)).None?
    ensures r.Some? ==> (|r.value| == |specs| - i
      && forall j :: i <= j < |specs| ==> BuildVariant(specs[j], j, |specs|, ids(j)) == Some(r.value[j - i]))
    decreases |specs| - i
  {
    if i == |specs| then Some([])
    else
      match BuildVariant(specs[i], i, |specs|, ids(i))
      case None => None
      case Some(v) =>
        match BuildFrom(specs, i + 1, ids)
        case None => None
        case Some(rest) => Some([v] + rest)
  }

  function Weights(vs: seq<Variant>): (ws: seq<real>)
    ensures |ws| == |vs| && forall i :: 0 <= i < |vs| ==> ws[i] == vs[i].weight
  {
    if |vs| == 0 then [] else [vs[0].weight] + Weights(vs[1..])
  }

  /** Every weight divided by `t`. */
  function Scale(vs: seq<Variant>, t: real): (r: seq<Variant>)
    requires t != 0.0
    ensures |r| == |vs|
    ensures forall i :: 0 <= i < |vs| ==> r[i] == vs[i].(weight := vs[i].weight / t)
  {
    if |vs| == 0 then [] else [vs[0].(weight := vs[0].weight / t)] + Scale(vs[1..], t)
  }

  /** Dividing every weight by `t` divides their sum by `t`. */
  lemma {:induction false} ScaleSum(vs: seq<Variant>, t: real)
    requires t != 0.0
    ensures SumR(Weights(Scale(vs, t))) == SumR(Weights(vs)) / t
    decreases |vs|
  {
    if |vs| > 0 {
      ScaleSum(vs[1..], t);
      assert Scale(vs, t)[1..] == Scale(vs[1..], t);
      assert Weights(Scale(vs, t)) == [vs[0].weight / t] + Weights(Scale(vs[1..], t));
      assert Weights(vs) == [vs[0].weight] + Weights(vs[1..]);
    }
  }

  /** The normalisation step: weights with a positive total are divided by it. */
  function Normalize(vs: seq<Variant>): (r: seq<Variant>)
    ensures |r| == |vs| && forall i :: 0 <= i < |vs| ==> r[i].id == vs[i].id && r[i].vtype == vs[i].vtype
    ensures SumR(Weights(vs)) > 0.0 ==> SumR(Weights(r)) == 1.0
    ensures SumR(Weights(vs)) <= 0.0 ==> r == vs
  {
    var total := SumR(Weights(vs));
    if total > 0.0 then
      ScaleSum(vs, total);
      Scale(vs, total)
    else vs
  }

  /** `create_experiment`: a draft with normalised variants, stored under its id; `None` when a type name is invalid. */
  function CreateExperiment(s: Service, id: string, name: string, description: string, target: string,
                            specs: seq<VariantSpec>, userPercentage: real, primaryMetric: string,
                            createdBy: Option<string>, now: int, ids: nat -> string): (r: Option<(Service, Experiment)>)
    requires s.experiments.Valid()
    ensures r.None? <==> BuildFrom(specs, 0, ids).None?
    ensures r.Some? ==> (r.value.0.experiments.Valid()
      && r.value.0.experiments.m == s.experiments.m[id := r.value.1]
      && r.value.1.status == Draft && r.value.1.id == id && r.value.1.createdAt == now
      && |r.value.1.variants| == |specs|
      && r.value.1.variants == Normalize(BuildFrom(specs, 0, ids).value))
  {
    match BuildFrom(specs, 0, ids)
    case None => None
    case Some(vs) =>
      var e := Experiment(id, name, description, Draft, Normalize(vs), target, userPercentage, primaryMetric,
                          now, None, None, createdBy);
      Some((s.(experiments := s.experiments.Set(id, e)), e))
  }

  /** Variants created without types are one control followed by treatments. */
  lemma {:induction false} DefaultTypes(specs: seq<VariantSpec>, ids: nat -> string, j: nat)
    requires forall k :: 0 <= k < |specs| ==> specs[k].typeName.None?
    requires j < |specs|
    ensures BuildFrom(specs, 0, ids).Some?
    ensures BuildFrom(specs, 0, ids).value[j].vtype == (if j == 0 then Control else Treatment)
  {
    assert forall k :: 0 <= k < |specs| ==> BuildVariant(specs[k], k, |specs|, ids(k)).Some?;
    var r := BuildFrom(specs, 0, ids);
    assert BuildVariant(specs[j], j, |specs|, ids(j)) == Some(r.value[j]);
  }

  /** Variants created without weights share the traffic equally. */
  lemma {:induction false} DefaultWeightsAreEqual(specs: seq<VariantSpec>, ids: nat -> string, j: nat)
    requires forall k :: 0 <= k < |specs| ==> specs[k].typeName.None? && specs[k].weight.None?
    requires j < |specs|
    ensures BuildFrom(specs, 0, ids).Some?
    ensures BuildFrom(specs, 0, ids).value[j].weight == 1.0 / |specs| as real
  {
    assert forall k :: 0 <= k < |specs| ==> BuildVariant(specs[k], k, |specs|, ids(k)).Some?;
    var r := BuildFrom(specs, 0, ids);
    assert BuildVariant(specs[j], j, |specs|, ids(j)) == Some(r.value[j]);
  }

  /** `start_experiment` and `stop_experiment`: an unknown id answers false and changes nothing. */
  function SetStatus(s: Service, id: string, status: Status, now: int): (r: (Service, bool))
    requires s.experiments.Valid() && (status == Running || status == Completed)
    ensures r.0.experiments.Valid()
    ensures r.1 <==> id in s.experiments.m
    ensures !r.1 ==> r.0 == s
    ensures r.1 ==> (r.0.experiments.m.Keys == s.experiments.m.Keys && r.0.experiments.m[id].status == status
      && forall k :: k in s.experiments.m && k != id ==> r.0.experiments.m[k] == s.experiments.m[k])
    ensures r.1 && status == Running ==> r.0.experiments.m[id].startDate == Some(now)
    ensures r.1 && status == Completed ==> r.0.experiments.m[id].endDate == Some(now)
  {
    if id !in s.experiments.m then (s, false)
    else
      var e := s.experiments.m[id];
      var e' := if status == Running then e.(status := Running, startDate := Some(now))
                else e.(status := Completed, endDate := Some(now));
      (s.(experiments := s.experiments.Set(id, e')), true)
  }

  function StartExperiment(s: Service, id: string, now: int): (r: (Service, bool))
    requires s.experiments.Valid()
    ensures r == SetStatus(s, id, Running, now)
    ensures r.1 ==> r.0.experiments.m[id].status == Running
  {
    SetStatus(s, id, Running, now)
  }

  function StopExperiment(s: Service, id: string, now: int): (r: (Service, bool))
    requires s.experiments.Valid()
    ensures r == SetStatus(s, id, Completed, now)
    ensures r.1 ==> r.0.experiments.m[id].status == Completed
  {
    SetStatus(s, id, Completed, now)
  }

  /* ----------------------------------------------------------- assignment */

  /** The user's position in an experiment: the hash modulo 10 000, in hundredths of a percent. */
  function Percentage(h: nat): (p: real)
    ensures 0.0 <= p < 100.0
  {
    (h % 10000) as real / 100.0
  }

  /** `_is_user_in_experiment`. */
  predicate InExperiment(hash: string -> nat, userId: string, e: Experiment) {
    Percentage(hash(userId + ":" + e.id)) < e.userPercentage
  }

  /** An experiment open to 100% of users includes every user, and one open to 0% none. */
  lemma FullShareIncludesAll(hash: string -> nat, userId: string, e: Experiment)
    ensures e.userPercentage >= 100.0 ==> InExperiment(hash, userId, e)
    ensures e.userPercentage <= 0.0 ==> !InExperiment(hash, userId, e)
  {
  }

  /** The draw for a variant: the hash modulo 10 000, scaled into [0, 1). */
  function Draw(h: nat): (r: real)
    ensures 0.0 <= r < 1.0
  {
    (h % 10000) as real / 10000.0
  }

  /** The running total of the weights up to and including variant `k`. */
  function Cumulative(vs: seq<Variant>, k: nat): real
    requires k < |vs|
  {
    SumR(Weights(vs[..k + 1]))
  }

  /** `_assign_variant` from running total `c`: the first variant that carries the total past the draw, else the last; `None` (an index error) with no variants. */
  function Pick(vs: seq<Variant>, draw: real, c: real): (r: Option<Variant>)
    ensures r.None? <==> |vs| == 0
    ensures r.Some? ==> r.value in vs
  {
    if |vs| == 0 then None
    else if draw < c + vs[0].weight then Some(vs[0])
    else if |vs| == 1 then Some(vs[0])
    else
      var r := Pick(vs[1..], draw, c + vs[0].weight);
      assert r.value in vs;
      r
  }

  /** The first running total is the first weight. */
  lemma CumulativeFirst(vs: seq<Variant>)
    requires |vs| > 0
    ensures Cumulative(vs, 0) == vs[0].weight
  {
    assert vs[..1] == [vs[0]];
    assert Weights([vs[0]]) == [vs[0].weight];
    assert SumR([vs[0].weight]) == vs[0].weight + SumR([]);
  }

  /** The running total one variant further equals the first weight plus the tail's running total. */
  lemma CumulativeStep(vs: seq<Variant>, k: nat)
    requires k + 1 < |vs|
    ensures Cumulative(vs, k + 1) == vs[0].weight + Cumulative(vs[1..], k)
  {
    assert vs[..k + 2] == [vs[0]] + vs[1..][..k + 1];
    assert Weights(vs[..k + 2])[1..] == Weights(vs[1..][..k + 1]);
  }

  /**
   The pick is the first variant whose running total exceeds the draw, and
   the last variant when none does.
   */
  lemma {:induction false} PickIsFirstCrossing(vs: seq<Variant>, draw: real, c: real, k: nat)
    requires k < |vs|
    requires draw < c + Cumulative(vs, k)
    requires forall j :: 0 <= j < k ==> draw >= c + Cumulative(vs, j)
    ensures Pick(vs, draw, c) == Some(vs[k])
    decreases |vs|
  {
    CumulativeFirst(vs);
    if k > 0 {
      forall j | 0 <= j < k - 1
        ensures draw >= c + vs[0].weight + Cumulative(vs[1..], j)
      {
        CumulativeStep(vs, j);
      }
      CumulativeStep(vs, k - 1);
      PickIsFirstCrossing(vs[1..], draw, c + vs[0].weight, k - 1);
    }
  }

  /** When no running total exceeds the draw, the last variant is picked. */
  lemma {:induction false} PickFallsBackToLast(vs: seq<Variant>, draw: real, c: real)
    requires |vs| > 0
    requires forall j :: 0 <= j < |vs| ==> draw >= c + Cumulative(vs, j)
    ensures Pick(vs, draw, c) == Some(vs[|vs| - 1])
    decreases |vs|
  {
    CumulativeFirst(vs);
    if |vs| > 1 {
      forall j | 0 <= j < |vs| - 1
        ensures draw >= c + vs[0].weight + Cumulative(vs[1..], j)
      {
        CumulativeStep(vs, j);
      }
      PickFallsBackToLast(vs[1..], draw, c + vs[0].weight);
    }
  }

  /** Two equal halves: a draw below one half picks the first variant, any other draw the second. */
  lemma EvenSplit(a: Variant, b: Variant, draw: real)
    requires a.weight == 0.5 && b.weight == 0.5 && 0.0 <= draw < 1.0
    ensures draw < 0.5 ==> Pick([a, b], draw, 0.0) == Some(a)
    ensures draw >= 0.5 ==> Pick([a, b], draw, 0.0) == Some(b)
  {
    assert [a, b][1..] == [b];
  }

  predicate IsActive(e: Experiment, promptType: string) {
    e.status == Running && e.targetPromptType == promptType
  }

  /** The running experiments for a prompt type, in creation order. */
  function ActiveFor(s: Service, promptType: string): (r: seq<Experiment>)
    requires s.experiments.Valid()
    ensures forall e :: e in r <==> e in s.experiments.Values() && IsActive(e, promptType)
  {
    Filter((e: Experiment) => IsActive(e, promptType), s.experiments.Values())
  }

  /** The variant a user was assigned earlier in an experiment, if it still exists. */
  function Assigned(s: Service, userId: string, e: Experiment): (r: Option<Variant>)
    ensures r.Some? ==> r.value in e.variants
    ensures r.Some? ==> (userId in s.assignments && e.id in s.assignments[userId]
      && r.value.id == s.assignments[userId][e.id])
  {
    if userId in s.assignments && e.id in s.assignments[userId] then
      FirstWithKey(e.variants, VariantId, s.assignments[userId][e.id])
    else None
  }

  /** Record an assignment. */
  function Remember(s: Service, userId: string, experimentId: string, variantId: string): (r: Service)
    ensures r.experiments == s.experiments && r.results == s.results && r.enabled == s.enabled
    ensures userId in r.assignments && r.assignments[userId] ==
      (if userId in s.assignments then s.assignments[userId] else map[])[experimentId := variantId]
  {
    var mine := if userId in s.assignments then s.assignments[userId] else map[];
    s.(assignments := s.assignments[userId := mine[experimentId := variantId]])
  }

  /**
   `get_variant_for_user`: `None` when it raises (an experiment without
   variants), otherwise the new state and the variant, if any: none when the
   service is disabled, no experiment runs for the prompt type, or the user
   is outside the first one's share.
   */
  function VariantFor(s: Service, userId: string, promptType: string, hash: string -> nat): (r: Option<(Service, Option<Variant>)>)
    requires s.experiments.Valid()
    ensures !s.enabled || ActiveFor(s, promptType) == [] ==> r == Some((s, None))
    ensures r.Some? && r.value.1.Some? ==> (r.value.1.value in ActiveFor(s, promptType)[0].variants
      && InExperiment(hash, userId, ActiveFor(s, promptType)[0]))
    ensures r.Some? ==> r.value.0.experiments == s.experiments && r.value.0.enabled == s.enabled
    ensures r.Some? && r.value.1.Some? ==> (userId in r.value.0.assignments
      && ActiveFor(s, promptType)[0].id in r.value.0.assignments[userId]
      && r.value.0.assignments[userId][ActiveFor(s, promptType)[0].id] == r.value.1.value.id)
  {
    if !s.enabled then Some((s, None))
    else
      var active := ActiveFor(s, promptType);
      if active == [] then Some((s, None))
      else
        var e := active[0];
        if !InExperiment(hash, userId, e) then Some((s, None))
        else
          match Assigned(s, userId, e)
          case Some(v) => Some((s, Some(v)))
          case None =>
            match Pick(e.variants, Draw(hash(userId + ":" + e.id + ":variant")), 0.0)
            case None => None
            case Some(v) => Some((Remember(s, userId, e.id, v.id), Some(v)))
  }

  /** Two items of a list with distinct ids and the same id are the same item. */
  lemma SameIdSameVariant(vs: seq<Variant>, a: Variant, b: Variant)
    requires DistinctKeys(vs, VariantId) && a in vs && b in vs && a.id == b.id
    ensures a == b
  {
    var i :| 0 <= i < |vs| && vs[i] == a;
    var j :| 0 <= j < |vs| && vs[j] == b;
    assert !(i < j) && !(j < i) by {
      assert VariantId(vs[i]) == VariantId(vs[j]);
    }
  }

  /** Assignment is sticky: asking again in the resulting state returns the same variant and changes nothing. */
  lemma AssignmentIsSticky(s: Service, userId: string, promptType: string, hash: string -> nat)
    requires s.experiments.Valid()
    requires var r := VariantFor(s, userId, promptType, hash); r.Some? && r.value.1.Some?
    requires DistinctKeys(ActiveFor(s, promptType)[0].variants, VariantId)
    ensures var r := VariantFor(s, userId, promptType, hash);
      VariantFor(r.value.0, userId, promptType, hash) == Some((r.value.0, r.value.1))
  {
    var r := VariantFor(s, userId, promptType, hash);
    var s1 := r.value.0;
    var v := r.value.1.value;
    var e := ActiveFor(s, promptType)[0];
    assert ActiveFor(s1, promptType) == ActiveFor(s, promptType);
    var again := Assigned(s1, userId, e);
    assert again.Some?;
    SameIdSameVariant(e.variants, again.value, v);
  }

  /** `record_result`: appended, nothing else changes. */
  function RecordResult(s: Service, o: Outcome): (r: Service)
    ensures r.results == s.results + [o]
    ensures r.experiments == s.experiments && r.assignments == s.assignments && r.enabled == s.enabled
  {
    s.(results := s.results + [o])
  }

  /* ----------------------------------------------------------------- stats */

  datatype VariantStats = VariantStats(
    id: string,
    name: string,
    vtype: VariantType,
    sampleSize: nat,
    successRate: Option<real>,
    avgResponseTimeMs: Option<real>,
    avgQuality: Option<real>)

  datatype ExperimentStats = ExperimentStats(
    experimentId: string,
    name: string,
    status: Status,
    totalSamples: nat,
    variants: seq<VariantStats>,
    winner: Option<string>,
    isSignificant: bool)

  const MinSampleSize := 30

  /** The quality scores present among the results, in order. */
  function Qualities(rs: seq<Outcome>): (q: seq<real>)
    ensures |q| <= |rs|
  {
    if |rs| == 0 then []
    else (if rs[0].qualityScore.Some? then [rs[0].qualityScore.value] else []) + Qualities(rs[1..])
  }

  function ResponseTimes(rs: seq<Outcome>): (t: seq<real>)
    ensures |t| == |rs|
  {
    if |rs| == 0 then [] else [rs[0].responseTimeMs] + ResponseTimes(rs[1..])
  }

  function Mean(xs: seq<real>): (m: Option<real>)
    ensures m.None? <==> xs == []
  {
    if xs == [] then None else Some(SumR(xs) / |xs| as real)
  }

  /** A variant's statistics over the experiment's results; a variant without results has no metrics. */
  function StatsFor(v: Variant, results: seq<Outcome>): (st: VariantStats)
    ensures st.id == v.id && st.name == v.name
    ensures st.sampleSize == Count((o: Outcome) => o.variantId == v.id, results)
    ensures st.sampleSize == 0 <==> st.successRate.None?
    ensures st.successRate.Some? ==> 0.0 <= st.successRate.value <= 1.0
    ensures st.sampleSize == 0 ==> st.avgQuality.None? && st.avgResponseTimeMs.None?
  {
    var mine := Filter((o: Outcome) => o.variantId == v.id, results);
    FilterCount((o: Outcome) => o.variantId == v.id, results);
    if mine == [] then VariantStats(v.id, v.name, v.vtype, 0, None, None, None)
    else
      var ok := Count((o: Outcome) => o.success, mine);
      VariantStats(v.id, v.name, v.vtype, |mine|, Some(Fraction(ok, |mine|)), Mean(ResponseTimes(mine)), Mean(Qualities(mine)))
  }

  /** An item the filter rejects, appended at the end, leaves the filtered sequence unchanged. */
  lemma {:induction false} FilterSkipsLast<T>(p: T -> bool, s: seq<T>, x: T)
    requires !p(x)
    ensures Filter(p, s + [x]) == Filter(p, s)
    decreases |s|
  {
    if |s| > 0 {
      assert (s + [x])[1..] == s[1..] + [x];
      FilterSkipsLast(p, s[1..], x);
    }
  }

  /** Recording a result of another variant leaves a variant's statistics unchanged. */
  lemma OtherResultsIgnored(v: Variant, results: seq<Outcome>, o: Outcome)
    requires o.variantId != v.id
    ensures StatsFor(v, results + [o]) == StatsFor(v, results)
  {
    FilterSkipsLast((x: Outcome) => x.variantId == v.id, results, o);
  }

  /** Recording a result of the variant itself adds one to its sample size. */
  lemma OwnResultCounted(v: Variant, results: seq<Outcome>, o: Outcome)
    requires o.variantId == v.id
    ensures StatsFor(v, results + [o]).sampleSize == StatsFor(v, results).sampleSize + 1
  {
    CountAppend((x: Outcome) => x.variantId == v.id, results, [o]);
  }

  function QualityKey(st: VariantStats): real { st.avgQuality.GetOr(0.0) }

  function AllStats(vs: seq<Variant>, results: seq<Outcome>): (r: seq<VariantStats>)
    ensures |r| == |vs| && forall i :: 0 <= i < |vs| ==> r[i] == StatsFor(vs[i], results)
  {
    if |vs| == 0 then [] else [StatsFor(vs[0], results)] + AllStats(vs[1..], results)
  }

  /** The winner: with two or more variants, the best average quality (a missing one counting 0), if it has 30 samples. */
  function Winner(stats: seq<VariantStats>): (w: Option<string>)
    ensures w.Some? ==> |stats| >= 2
    ensures w.Some? ==> exists st :: (st in stats && st.name == w.value && st.sampleSize >= MinSampleSize
      && forall other :: other in stats ==> QualityKey(other) <= QualityKey(st))
    ensures w.None? && |stats| >= 2 ==> exists st :: (st in stats && st.sampleSize < MinSampleSize
      && forall other :: other in stats ==> QualityKey(other) <= QualityKey(st))
    ensures |stats| >= 2 && SortDesc(stats, QualityKey)[0].sampleSize >= MinSampleSize ==>
      w == Some(SortDesc(stats, QualityKey)[0].name)
  {
    if |stats| < 2 then None
    else
      var sorted := SortDesc(stats, QualityKey);
      var top := sorted[0];
      SortDescMembers(stats, QualityKey);
      assert top in stats;
      forall other | other in stats
        ensures QualityKey(other) <= QualityKey(top)
      {
        var j :| 0 <= j < |sorted| && sorted[j] == other;
      }
      if top.sampleSize >= MinSampleSize then Some(top.name) else None
  }

  /** `get_experiment_stats`; `None` for an unknown experiment (the error answer). */
  function ExperimentStatsOf(s: Service, id: string): (r: Option<ExperimentStats>)
    ensures r.None? <==> id !in s.experiments.m
    ensures r.Some? ==> (r.value.isSignificant <==> r.value.winner.Some?)
    ensures r.Some? ==> r.value.totalSamples == |Filter((o: Outcome) => o.experimentId == id, s.results)|
    ensures r.Some? ==> |r.value.variants| == |s.experiments.m[id].variants|
  {
    if id !in s.experiments.m then None
    else
      var e := s.experiments.m[id];
      var results := Filter((o: Outcome) => o.experimentId == id, s.results);
      var stats := AllStats(e.variants, results);
      var w := Winner(stats);
      Some(ExperimentStats(id, e.name, e.status, |results|, stats, w, w.Some?))
  }

  /** An experiment with fewer than two variants never has a winner. */
  lemma NoWinnerAlone(s: Service, id: string)
    requires id in s.experiments.m && |s.experiments.m[id].variants| < 2
    ensures ExperimentStatsOf(s, id).value.winner.None?
  {
  }

  /* ------------------------------------------------------------- listing */

  function CreatedAt(e: Experiment): real { e.createdAt as real }

  /** `list_experiments`: those with the status asked for (all without one), newest first. */
  function ListExperiments(s: Service, status: Option<Status>): (r: seq<Experiment>)
    requires s.experiments.Valid()
    ensures SortedDesc(r, CreatedAt)
    ensures forall e :: e in r <==> e in s.experiments.Values() && (status.None? || e.status == status.value)
  {
    var all := s.experiments.Values();
    var chosen := if status.None? then all else Filter((e: Experiment) => e.status == status.value, all);
    SortDescMembers(chosen, CreatedAt);
    SortDesc(chosen, CreatedAt)
  }

  /** Whether an experiment is running and holds a variant with the given id. */
  predicate RunsVariant(e: Experiment, variantId: string) {
    e.status == Running && exists v :: v in e.variants && v.id == variantId
  }

  function FirstRunning(es: seq<Experiment>, variantId: string): (r: Option<Experiment>)
    ensures r.None? <==> forall e :: e in es ==> !RunsVariant(e, variantId)
    ensures r.Some? ==> r.value in es && RunsVariant(r.value, variantId)
  {
    if |es| == 0 then None
    else if RunsVariant(es[0], variantId) then Some(es[0])
    else
      assert forall e :: e in es <==> e == es[0] || e in es[1..];
      FirstRunning(es[1..], variantId)
  }

  /**
   `get_prompt_with_experiment`: the assigned variant's prompt with its
   experiment and variant ids, or the default prompt with none; `None` when
   the assignment raises.
   */
  function PromptFor(s: Service, userId: string, promptType: string, defaultPrompt: string, hash: string -> nat)
    : (r: Option<(Service, (string, Option<string>, Option<string>))>)
    requires s.experiments.Valid()
    ensures r.None? <==> VariantFor(s, userId, promptType, hash).None?
    ensures r.Some? && r.value.1.1.None? ==> r.value.1.0 == defaultPrompt && r.value.1.2.None?
    ensures r.Some? && r.value.1.1.Some? ==> (VariantFor(s, userId, promptType, hash).value.1.Some?
      && r.value.1.0 == VariantFor(s, userId, promptType, hash).value.1.value.content
      && r.value.1.2 == Some(VariantFor(s, userId, promptType, hash).value.1.value.id))
  {
    match VariantFor(s, userId, promptType, hash)
    case None => None
    case Some((s1, None)) => Some((s1, (defaultPrompt, None, None)))
    case Some((s1, Some(v))) =>
      match FirstRunning(s1.experiments.Values(), v.id)
      case None => Some((s1, (defaultPrompt, None, None)))
      case Some(e) => Some((s1, (v.content, Some(e.id), Some(v.id))))
  }

  /** A disabled service always answers with the default prompt and no experiment. */
  lemma DisabledUsesDefault(s: Service, userId: string, promptType: string, defaultPrompt: string, hash: string -> nat)
    requires s.experiments.Valid() && !s.enabled
    ensures PromptFor(s, userId, promptType, defaultPrompt, hash) == Some((s, (defaultPrompt, None, None)))
  {
  }
}

=== FILE: services_audit.dfy ===
/**
 The audit trail: every important operation is logged with who did it, what
 it touched and whether it succeeded. With an SQLite URL (or when the tables
 cannot be created) the logs live in a bounded in-memory list; otherwise they
 go to the database, whose answers are parameters here. Timestamps are
 seconds; request details and before/after values are not modelled.
 */
module AuditService {
  import opened Common

  datatype Action =
    | Login | Logout | LoginFailed | TokenRefresh | PasswordChange
    | UserCreate | UserUpdate | UserDelete
    | CreatorEvaluate | CreatorUpdate
    | MissionCreate | MissionUpdate | MissionDelete | MissionAssign | MissionRecommend
    | CompetencyAssess | RecommendationGenerate
    | RagQuery | DocumentAdd | VectorSearch
    | AnalyticsReport
    | SystemConfigChange | DataExport | DataImport
    | ErrorEvent | SecurityAlert

  datatype Severity = Info | Warning | Error | Critical

  /** What a caller of `log` supplies. */
  datatype Event = Event(
    action: Action,
    severity: Severity,
    userId: Option<string>,
    username: Option<string>,
    role: Option<string>,
    resourceType: Option<string>,
    resourceId: Option<string>,
    requestId: Option<string>,
    ipAddress: Option<string>,
    userAgent: Option<string>,
    endpoint: Option<string>,
    httpMethod: Option<string>,
    success: bool,
    errorMessage: Option<string>)

  datatype AuditLog = AuditLog(id: string, timestamp: int, event: Event)

  /** The service; the in-memory list exists in memory mode and after a failed write to the database. */
  datatype Service = Service(useMemory: bool, initialized: bool, logs: Option<seq<AuditLog>>)

  const MaxMemoryLogs := 10000

  /** In memory mode the list exists and holds at most the 10 000 newest logs. */
  predicate Valid(s: Service) {
    s.useMemory ==> s.logs.Some? && |s.logs.value| <= MaxMemoryLogs
  }

  /** `__init__`: an SQLite URL keeps the logs in memory. */
  function New(databaseUrl: string): (s: Service)
    ensures Valid(s) && !s.initialized
    ensures s.useMemory <==> Contains(databaseUrl, "sqlite")
    ensures s.useMemory ==> s.logs == Some([])
    ensures !s.useMemory ==> s.logs.None?
  {
    if Contains(databaseUrl, "sqlite") then Service(true, false, Some([])) else Service(false, false, None)
  }

  /** `initialize`: once only; failing to create the tables falls back to an empty in-memory list. */
  function Initialize(s: Service, tablesCreated: bool): (r: Service)
    requires Valid(s)
    ensures Valid(r) && r.initialized
    ensures s.initialized ==> r == s
    ensures !s.initialized && !s.useMemory && !tablesCreated ==> r == Service(true, true, Some([]))
    ensures !s.initialized && (s.useMemory || tablesCreated) ==> r == s.(initialized := true)
  {
    if s.initialized then s
    else if !s.useMemory && !tablesCreated then Service(true, true, Some([]))
    else s.(initialized := true)
  }

  /** The memory limit: a list grown past 10 000 keeps its newest 10 000. */
  function Cap(xs: seq<AuditLog>): (r: seq<AuditLog>)
    ensures |r| == Min(|xs|, MaxMemoryLogs)
    ensures r == xs[|xs| - |r|..]
  {
    if |xs| > MaxMemoryLogs then TakeLast(xs, MaxMemoryLogs) else xs
  }

  /**
   `log`: the entry is appended in memory (then capped), or written to the
   database; a failed write (`persisted` false) appends it, uncapped, to an
   in-memory list created on demand.
   */
  function Log(s: Service, tablesCreated: bool, id: string, now: int, ev: Event, persisted: bool): (r: (Service, AuditLog))
    requires Valid(s)
    ensures Valid(r.0) && r.0.initialized
    ensures r.1 == AuditLog(id, now, ev)
    ensures var i := Initialize(s, tablesCreated);
      r.0.useMemory == i.useMemory
      && (i.useMemory ==> r.0.logs == Some(Cap(i.logs.value + [r.1])))
      && (!i.useMemory && persisted ==> r.0 == i)
      && (!i.useMemory && !persisted ==> r.0.logs == Some(i.logs.GetOr([]) + [r.1]))
  {
    var i := Initialize(s, tablesCreated);
    var entry := AuditLog(id, now, ev);
    if i.useMemory then (i.(logs := Some(Cap(i.logs.value + [entry]))), entry)
    else if persisted then (i, entry)
    else (i.(logs := Some(i.logs.GetOr([]) + [entry])), entry)
  }

  /** In memory, the newest log is the one just written, and the older ones keep their order behind it. */
  lemma {:induction false} LogKeepsNewest(s: Service, tablesCreated: bool, id: string, now: int, ev: Event, persisted: bool)
    requires Valid(s) && Initialize(s, tablesCreated).useMemory
    ensures var i := Initialize(s, tablesCreated);
      var logs := Log(s, tablesCreated, id, now, ev, persisted).0.logs.value;
      |logs| == Min(|i.logs.value| + 1, MaxMemoryLogs)
      && logs[|logs| - 1] == AuditLog(id, now, ev)
      && logs[..|logs| - 1] == i.logs.value[|i.logs.value| + 1 - |logs|..]
  {
    var i := Initialize(s, tablesCreated);
    var old_ := i.logs.value;
    var all := old_ + [AuditLog(id, now, ev)];
    var logs := Cap(all);
    assert logs == all[|all| - |logs|..];
    assert logs[..|logs| - 1] == all[|all| - |logs|..|all| - 1];
    assert all[..|all| - 1] == old_;
  }

  /** Writes that keep failing grow the fallback list by one each, with no limit. */
  lemma FailedWritesGrow(s: Service, id: string, now: int, ev: Event)
    requires Valid(s) && s.initialized && !s.useMemory && s.logs.Some?
    ensures |Log(s, true, id, now, ev, false).0.logs.value| == |s.logs.value| + 1
  {
  }

  /* ---------------------------------------------------------------- query */

  datatype Query = Query(
    userId: Option<string>,
    action: Option<Action>,
    severity: Option<Severity>,
    resourceType: Option<string>,
    resourceId: Option<string>,
    startDate: Option<int>,
    endDate: Option<int>,
    success: Option<bool>,
    limit: nat,
    offset: nat)

  datatype Response = Response(logs: seq<AuditLog>, total: nat, limit: nat, offset: nat)

  /** Whether a text filter is set: Python treats `None` and "" alike. */
  predicate Set(f: Option<string>) { f.Some? && f.value != "" }

  /** The filters are conjunctive; an unset filter lets everything through. */
  predicate Selected(q: Query, l: AuditLog) {
    (!Set(q.userId) || l.event.userId == q.userId)
    && (q.action.None? || l.event.action == q.action.value)
    && (q.severity.None? || l.event.severity == q.severity.value)
    && (!Set(q.resourceType) || l.event.resourceType == q.resourceType)
    && (!Set(q.resourceId) || l.event.resourceId == q.resourceId)
    && (q.startDate.None? || l.timestamp >= q.startDate.value)
    && (q.endDate.None? || l.timestamp <= q.endDate.value)
    && (q.success.None? || l.event.success == q.success.value)
  }

  function SelectedOf(q: Query, logs: seq<AuditLog>): (r: seq<AuditLog>)
    ensures forall l :: l in r <==> l in logs && Selected(q, l)
    ensures |r| <= |logs|
  {
    Filter((l: AuditLog) => Selected(q, l), logs)
  }

  function LogTime(l: AuditLog): real { l.timestamp as real }

  /** `_query_memory`: the selected logs newest first, paged, with the count before paging. */
  function QueryMemory(logs: seq<AuditLog>, q: Query): (r: Response)
    ensures r.total == |SelectedOf(q, logs)| && r.limit == q.limit && r.offset == q.offset
    ensures |r.logs| <= q.limit && SortedDesc(r.logs, LogTime)
    ensures forall l :: l in r.logs ==> l in logs && Selected(q, l)
    ensures r.logs == Slice(SortDesc(SelectedOf(q, logs), LogTime), q.offset, q.offset + q.limit)
  {
    var selected := SelectedOf(q, logs);
    Response(PageDesc(selected, LogTime, q.offset, q.limit), |selected|, q.limit, q.offset)
  }

  /** A first page at least as large as the list holds every selected log. */
  lemma FullPageHasAll(logs: seq<AuditLog>, q: Query, l: AuditLog)
    requires q.offset == 0 && q.limit >= |logs| && l in logs && Selected(q, l)
    ensures l in QueryMemory(logs, q).logs
  {
    var selected := SelectedOf(q, logs);
    PageDescFull(selected, LogTime, q.limit);
    assert l in multiset(selected);
  }

  /**
   `query` as written: memory mode reads the list; database mode returns the
   database's answer (`fromDb`), and when that fails reads the in-memory
   list, which raises (`None`) unless a failed write created it.
   */
  function QueryLogs(s: Service, tablesCreated: bool, q: Query, fromDb: Option<Response>): (r: Option<Response>)
    requires Valid(s)
    ensures var i := Initialize(s, tablesCreated);
      (i.useMemory ==> r == Some(QueryMemory(i.logs.value, q)))
      && (!i.useMemory && fromDb.Some? ==> r == fromDb)
      && (!i.useMemory && fromDb.None? ==> (r.None? <==> i.logs.None?))
  {
    var i := Initialize(s, tablesCreated);
    if i.useMemory then Some(QueryMemory(i.logs.value, q))
    else if fromDb.Some? then fromDb
    else if i.logs.Some? then Some(QueryMemory(i.logs.value, q))
    else None
  }

  /** As written, a failed database query on a service that never failed a write raises instead of falling back. */
  lemma DatabaseFallbackRaises(url: string, q: Query)
    requires !Contains(url, "sqlite")
    ensures QueryLogs(New(url), true, q, None).None?
  {
  }

  /** The evidently intended fallback: a missing in-memory list reads as empty. */
  function QueryLogsChecked(s: Service, tablesCreated: bool, q: Query, fromDb: Option<Response>): (r: Response)
    requires Valid(s)
    ensures var i := Initialize(s, tablesCreated);
      (!i.useMemory && fromDb.Some? ==> r == fromDb.value)
      && (!i.useMemory && fromDb.None? && i.logs.None? ==> r.logs == [] && r.total == 0)
  {
    var i := Initialize(s, tablesCreated);
    if !i.useMemory && fromDb.Some? then fromDb.value
    else QueryMemory(i.logs.GetOr([]), q)
  }

  /** The intended query agrees with the written one wherever that one answers. */
  lemma CheckedAgrees(s: Service, tablesCreated: bool, q: Query, fromDb: Option<Response>)
    requires Valid(s)
    ensures QueryLogs(s, tablesCreated, q, fromDb).Some? ==>
      QueryLogs(s, tablesCreated, q, fromDb).value == QueryLogsChecked(s, tablesCreated, q, fromDb)
  {
  }

  /* ---------------------------------------------------------------- stats */

  /** `counts[k] = counts.get(k, 0) + 1` over a list of keys. */
  function Tally<K(!new)>(keys: seq<K>): (r: map<K, nat>)
    ensures forall k :: k in r <==> k in keys
    ensures forall k :: k in r ==> r[k] == multiset(keys)[k]
  {
    if |keys| == 0 then map[]
    else
      var init := keys[..|keys| - 1];
      var k := keys[|keys| - 1];
      var m := Tally(init);
      assert keys == init + [k];
      m[k := (if k in m then m[k] else 0) + 1]
  }

  /** The actions of the logs, in order. */
  function ActionsOf(logs: seq<AuditLog>): (r: seq<Action>)
    ensures |r| == |logs|
    ensures forall a :: a in r <==> exists l :: l in logs && l.event.action == a
  {
    if |logs| == 0 then []
    else
      assert forall l :: l in logs <==> l == logs[0] || l in logs[1..];
      [logs[0].event.action] + ActionsOf(logs[1..])
  }

  /** The severities of the logs, in order. */
  function SeveritiesOf(logs: seq<AuditLog>): (r: seq<Severity>)
    ensures |r| == |logs|
    ensures forall sv :: sv in r <==> exists l :: l in logs && l.event.severity == sv
  {
    if |logs| == 0 then []
    else
      assert forall l :: l in logs <==> l == logs[0] || l in logs[1..];
      [logs[0].event.severity] + SeveritiesOf(logs[1..])
  }

  /** The usernames of the logs that have one, in order. */
  function UsersOf(logs: seq<AuditLog>): (r: seq<string>)
    ensures forall u :: u in r <==> exists l :: l in logs && l.event.username == Some(u) && u != ""
  {
    if |logs| == 0 then []
    else
      var u := logs[0].event.username;
      assert forall l :: l in logs <==> l == logs[0] || l in logs[1..];
      (if Set(u) then [u.value] else []) + UsersOf(logs[1..])
  }

  function Successes(logs: seq<AuditLog>): (n: nat)
    ensures n <= |logs|
  {
    Count((l: AuditLog) => l.event.success, logs)
  }

  datatype Stats = Stats(
    totalLogs: nat,
    actionCounts: map<Action, nat>,
    severityCounts: map<Severity, nat>,
    userCounts: map<string, nat>,
    successCount: nat,
    failureCount: nat,
    successRate: real)

  /** The statistics of one query result: counts over the logs returned, the rate over the total. */
  function StatsOf(r: Response): (st: Stats)
    ensures st.totalLogs == r.total
    ensures st.successCount + st.failureCount == |r.logs|
    ensures forall a :: a in st.actionCounts <==> exists l :: l in r.logs && l.event.action == a
    ensures forall sv :: sv in st.severityCounts <==> exists l :: l in r.logs && l.event.severity == sv
    ensures r.total >= |r.logs| ==> 0.0 <= st.successRate <= 1.0
  {
    var ok := Successes(r.logs);
    Stats(r.total, Tally(ActionsOf(r.logs)), Tally(SeveritiesOf(r.logs)), Tally(UsersOf(r.logs)), ok, |r.logs| - ok,
          Fraction(ok, r.total))
  }

  /** The query behind `get_stats`: the date range only, up to 10 000 logs. */
  function StatsQuery(startDate: Option<int>, endDate: Option<int>): Query {
    Query(None, None, None, None, None, startDate, endDate, None, MaxMemoryLogs, 0)
  }

  /** `get_stats`; `None` when the underlying query raises. */
  function GetStats(s: Service, tablesCreated: bool, startDate: Option<int>, endDate: Option<int>,
                    fromDb: Option<Response>): (r: Option<Stats>)
    requires Valid(s)
    ensures r.None? <==> QueryLogs(s, tablesCreated, StatsQuery(startDate, endDate), fromDb).None?
    ensures r.Some? ==> r.value == StatsOf(QueryLogs(s, tablesCreated, StatsQuery(startDate, endDate), fromDb).value)
  {
    match QueryLogs(s, tablesCreated, StatsQuery(startDate, endDate), fromDb)
    case None => None
    case Some(resp) => Some(StatsOf(resp))
  }

  /**
   In memory the list never outgrows the statistics query, so the success and
   failure counts cover every log in the range and the rate lies in [0, 1].
   */
  lemma MemoryStatsCoverRange(s: Service, tablesCreated: bool, startDate: Option<int>, endDate: Option<int>,
                              fromDb: Option<Response>)
    requires Valid(s) && Initialize(s, tablesCreated).useMemory
    ensures var st := GetStats(s, tablesCreated, startDate, endDate, fromDb).value;
      st.successCount + st.failureCount == st.totalLogs && st.successRate <= 1.0
  {
    var i := Initialize(s, tablesCreated);
    var q := StatsQuery(startDate, endDate);
    var selected := SelectedOf(q, i.logs.value);
    PageDescFull(selected, LogTime, q.limit);
    assert |multiset(PageDesc(selected, LogTime, 0, q.limit))| == |selected|;
  }
}

=== FILE: services_auth.dfy ===
/**
 The authentication service: an in-memory user store indexed three ways
 (by id, by e-mail, by username), password login, signed access and refresh
 tokens, an in-memory revocation list, and permission checks on decoded
 tokens.

 Password hashing is a pair of parameters (`hash`, `verify`); identifiers,
 clocks and token ids are parameters too. A token is modelled as its payload
 together with the key that signed it, so decoding succeeds exactly when the
 key matches and the expiry has not passed; the signature algorithm itself is
 not modelled.
 */
module AuthService {
  import opened Common
  import opened UserModels

  /** Access tokens live 30 minutes, refresh tokens 7 days; times are in seconds. */
  const AccessTokenMinutes := 30
  const RefreshTokenDays := 7

  datatype User = User(
    id: string,
    email: string,
    username: string,
    fullName: Option<string>,
    isActive: bool,
    role: Role,
    hashedPassword: string,
    createdAt: int,
    updatedAt: int,
    lastLogin: Option<int>)

  /** What the API returns for a user: no password hash, plus the role's permissions. */
  datatype UserResponse = UserResponse(
    id: string,
    email: string,
    username: string,
    fullName: Option<string>,
    isActive: bool,
    role: Role,
    createdAt: int,
    lastLogin: Option<int>,
    permissions: seq<string>)

  /** A token payload; absent claims are `None`. */
  datatype Claims = Claims(
    userId: Option<string>,
    username: Option<string>,
    email: Option<string>,
    role: Option<string>,
    permissions: Option<seq<string>>,
    exp: int,
    iat: int,
    jti: Option<string>,
    kind: Option<string>)

  /** A signed token: its payload and the key it was signed with. */
  datatype Jwt = Jwt(claims: Claims, key: string)

  datatype TokenPair = TokenPair(access: Jwt, refresh: Jwt, tokenType: string, expiresIn: int)

  /** The decoded view of an access token that route guards consume. */
  datatype TokenData = TokenData(
    userId: string,
    username: string,
    email: string,
    role: Role,
    permissions: seq<string>,
    exp: int,
    iat: int,
    jti: string)

  /** The store: users by id, two indexes to ids, and the revoked tokens. */
  datatype Store = Store(
    users: map<string, User>,
    byEmail: map<string, string>,
    byUsername: map<string, string>,
    blacklist: set<Jwt>)

  const Empty := Store(map[], map[], map[], {})

  /** Python truthiness of an optional identifier: present and non-empty. */
  predicate Truthy(o: Option<string>) { o.Some? && o.value != "" }

  /**
   The three maps agree: every user is filed under its own id, e-mail and
   username, and every index entry points at a user carrying that key.
   */
  ghost predicate Consistent(s: Store) {
    (forall id :: id in s.users ==>
      s.users[id].id == id && id != ""
      && s.users[id].email in s.byEmail && s.byEmail[s.users[id].email] == id
      && s.users[id].username in s.byUsername && s.byUsername[s.users[id].username] == id)
    && (forall e :: e in s.byEmail ==> s.byEmail[e] in s.users && s.users[s.byEmail[e]].email == e)
    && (forall n :: n in s.byUsername ==> s.byUsername[n] in s.users && s.users[s.byUsername[n]].username == n)
  }

  lemma EmptyConsistent()
    ensures Consistent(Empty)
  {
  }

  /* ------------------------------------------------------------ responses */

  /** The wire values of a list of permissions, in order. */
  function Values(ps: seq<Permission>): (r: seq<string>)
    ensures |r| == |ps|
    ensures forall i :: 0 <= i < |ps| ==> r[i] == PermissionValue(ps[i])
  {
    if ps == [] then [] else [PermissionValue(ps[0])] + Values(ps[1..])
  }

  /** A permission's wire value is listed exactly when the permission is. */
  lemma ValuesMember(ps: seq<Permission>, p: Permission)
    ensures PermissionValue(p) in Values(ps) <==> p in ps
  {
    if PermissionValue(p) in Values(ps) {
      var i :| 0 <= i < |ps| && Values(ps)[i] == PermissionValue(p);
      PermissionValueInjective(ps[i], p);
    }
  }

  /** `_user_to_response`: the public fields and the role's permissions. */
  function ToResponse(u: User): (r: UserResponse)
    ensures r.id == u.id && r.email == u.email && r.username == u.username && r.role == u.role
    ensures r.isActive == u.isActive && r.createdAt == u.createdAt && r.lastLogin == u.lastLogin
    ensures forall p :: PermissionValue(p) in r.permissions <==> Grants(u.role, p)
  {
    var r := UserResponse(u.id, u.email, u.username, u.fullName, u.isActive, u.role, u.createdAt,
                          u.lastLogin, Values(RolePermissions(u.role)));
    forall p ensures PermissionValue(p) in r.permissions <==> Grants(u.role, p) {
      ValuesMember(RolePermissions(u.role), p);
    }
    r
  }

  /* -------------------------------------------------------------- creation */

  datatype CreateResult = Created(store: Store, user: UserResponse) | EmailRegistered | UsernameTaken

  /**
   `create_user`: a taken e-mail is reported first, then a taken username;
   otherwise the user is filed under the fresh id and all three maps.
   */
  function CreateUser(s: Store, req: UserCreate, id: string, now: int, hash: string -> string): (r: CreateResult)
    ensures r == EmailRegistered <==> req.email in s.byEmail
    ensures r == UsernameTaken <==> req.email !in s.byEmail && req.username in s.byUsername
    ensures r.Created? ==> id in r.store.users && r.store.users[id].hashedPassword == hash(req.password)
    ensures r.Created? ==> req.email in r.store.byEmail && r.store.byEmail[req.email] == id
    ensures r.Created? ==> req.username in r.store.byUsername && r.store.byUsername[req.username] == id
    ensures r.Created? ==> r.user == ToResponse(r.store.users[id]) && r.store.blacklist == s.blacklist
  {
    if req.email in s.byEmail then EmailRegistered
    else if req.username in s.byUsername then UsernameTaken
    else
      var u := User(id, req.email, req.username, req.fullName, req.isActive, req.role,
                    hash(req.password), now, now, None);
      Created(Store(s.users[id := u], s.byEmail[req.email := id], s.byUsername[req.username := id], s.blacklist),
              ToResponse(u))
  }

  /**
   Creating a user keeps the maps consistent and adds exactly one user,
   provided the generated id is new (a random UUID in the service).
   */
  lemma CreateKeepsConsistent(s: Store, req: UserCreate, id: string, now: int, hash: string -> string)
    requires Consistent(s) && id !in s.users && id != ""
    ensures var r := CreateUser(s, req, id, now, hash);
      r.Created? ==> Consistent(r.store) && r.store.users.Keys == s.users.Keys + {id}
  {
    var r := CreateUser(s, req, id, now, hash);
    if r.Created? {
      var t := r.store;
      forall k | k in t.users
        ensures t.users[k].id == k && k != ""
        ensures t.users[k].email in t.byEmail && t.byEmail[t.users[k].email] == k
        ensures t.users[k].username in t.byUsername && t.byUsername[t.users[k].username] == k
      {
        if k != id {
          assert t.users[k] == s.users[k];
          assert s.users[k].email != req.email && s.users[k].username != req.username;
        }
      }
      forall e | e in t.byEmail
        ensures t.byEmail[e] in t.users && t.users[t.byEmail[e]].email == e
      {
        if e != req.email { assert s.byEmail[e] != id; }
      }
      forall n | n in t.byUsername
        ensures t.byUsername[n] in t.users && t.users[t.byUsername[n]].username == n
      {
        if n != req.username { assert s.byUsername[n] != id; }
      }
    }
  }

  /** No two users share an e-mail or a username in a consistent store. */
  lemma KeysUnique(s: Store, a: string, b: string)
    requires Consistent(s) && a in s.users && b in s.users && a != b
    ensures s.users[a].email != s.users[b].email
    ensures s.users[a].username != s.users[b].username
  {
  }

  /* -------------------------------------------------------- authentication */

  /** The id a login name resolves to: the username index first, then the e-mail index. */
  function LookupLogin(s: Store, name: string): (id: Option<string>)
    ensures Truthy(id) && name in s.byUsername && s.byUsername[name] != "" ==> id == Some(s.byUsername[name])
    ensures id.Some? ==> name in s.byUsername || name in s.byEmail
  {
    var byName := if name in s.byUsername then Some(s.byUsername[name]) else None;
    if Truthy(byName) then byName
    else if name in s.byEmail then Some(s.byEmail[name]) else None
  }

  /**
   `authenticate_user`: the user for a login name (username or e-mail) and
   password, recording the login time; `None` for an unknown name, an
   inactive user or a wrong password, and then nothing changes.
   */
  function Authenticate(s: Store, name: string, password: string, now: int,
                        verify: (string, string) -> bool): (r: (Store, Option<User>))
    ensures r.1.None? ==> r.0 == s
    ensures r.1.Some? ==> r.1.value.isActive && verify(password, r.1.value.hashedPassword)
    ensures r.1.Some? ==> LookupLogin(s, name).Some? && LookupLogin(s, name).value in s.users
    ensures r.1.Some? && LookupLogin(s, name).Some? ==>
      (var id := LookupLogin(s, name).value;
       r.1.value == s.users[id].(lastLogin := Some(now)) && r.0 == s.(users := s.users[id := r.1.value]))
  {
    var id := LookupLogin(s, name);
    if !Truthy(id) || id.value !in s.users then (s, None)
    else
      var u := s.users[id.value];
      if !u.isActive || !verify(password, u.hashedPassword) then (s, None)
      else
        var u' := u.(lastLogin := Some(now));
        (s.(users := s.users[id.value := u']), Some(u'))
  }

  /**
   In a consistent store a successful login names the user by username or
   e-mail, and the store stays consistent.
   */
  lemma AuthenticateSound(s: Store, name: string, password: string, now: int, verify: (string, string) -> bool)
    requires Consistent(s)
    ensures var r := Authenticate(s, name, password, now, verify);
      r.1.Some? ==> (r.1.value.username == name || r.1.value.email == name) && Consistent(r.0)
  {
    var r := Authenticate(s, name, password, now, verify);
    if r.1.Some? {
      var id := r.1.value.id;
      assert s.users[id].email == r.1.value.email && s.users[id].username == r.1.value.username;
    }
  }

  /** An active user who gives the right password logs in by username. */
  lemma LoginByUsername(s: Store, id: string, password: string, now: int, verify: (string, string) -> bool)
    requires Consistent(s) && id in s.users
    requires s.users[id].isActive && verify(password, s.users[id].hashedPassword)
    ensures Authenticate(s, s.users[id].username, password, now, verify).1 == Some(s.users[id].(lastLogin := Some(now)))
  {
  }

  /**
   An active user also logs in by e-mail, unless that e-mail is somebody's
   username: the username index is consulted first.
   */
  lemma LoginByEmail(s: Store, id: string, password: string, now: int, verify: (string, string) -> bool)
    requires Consistent(s) && id in s.users
    requires s.users[id].isActive && verify(password, s.users[id].hashedPassword)
    requires s.users[id].email !in s.byUsername
    ensures Authenticate(s, s.users[id].email, password, now, verify).1 == Some(s.users[id].(lastLogin := Some(now)))
  {
  }

  /** A name that is neither a username nor an e-mail never logs in. */
  lemma UnknownNameRejected(s: Store, name: string, password: string, now: int, verify: (string, string) -> bool)
    requires name !in s.byUsername && name !in s.byEmail
    ensures Authenticate(s, name, password, now, verify) == (s, None)
  {
  }

  /** An inactive user never logs in, whatever the password. */
  lemma InactiveRejected(s: Store, name: string, password: string, now: int, verify: (string, string) -> bool)
    requires forall id :: id in s.users ==> !s.users[id].isActive
    ensures Authenticate(s, name, password, now, verify).1.None?
  {
  }

  /* ---------------------------------------------------------------- tokens */

  /** `create_access_token`: identity, role and permissions; a zero or absent lifetime means 30 minutes. */
  function AccessToken(u: User, secret: string, now: int, jti: string, lifetime: Option<int>): (t: Jwt)
    ensures t.key == secret && t.claims.kind == Some("access") && t.claims.userId == Some(u.id)
    ensures t.claims.role == Some(RoleValue(u.role)) && t.claims.iat == now
    ensures t.claims.permissions == Some(Values(RolePermissions(u.role)))
    ensures lifetime.Some? && lifetime.value != 0 ==> t.claims.exp == now + lifetime.value
    ensures lifetime.None? || lifetime.value == 0 ==> t.claims.exp == now + AccessTokenMinutes * 60
  {
    var expire := if lifetime.Some? && lifetime.value != 0 then now + lifetime.value else now + AccessTokenMinutes * 60;
    Jwt(Claims(Some(u.id), Some(u.username), Some(u.email), Some(RoleValue(u.role)),
               Some(Values(RolePermissions(u.role))), expire, now, Some(jti), Some("access")), secret)
  }

  /** `create_refresh_token`: only the user id, valid for 7 days. */
  function RefreshToken(u: User, secret: string, now: int, jti: string): (t: Jwt)
    ensures t.key == secret && t.claims.kind == Some("refresh") && t.claims.userId == Some(u.id)
    ensures t.claims.role.None? && t.claims.permissions.None? && t.claims.username.None?
    ensures t.claims.exp == now + RefreshTokenDays * 86400
  {
    Jwt(Claims(Some(u.id), None, None, None, None, now + RefreshTokenDays * 86400, now, Some(jti), Some("refresh")), secret)
  }

  /** `create_tokens`: both tokens, advertising the access token's lifetime in seconds. */
  function CreateTokens(u: User, secret: string, now: int, accessJti: string, refreshJti: string): (r: TokenPair)
    ensures r.access.claims.exp - r.access.claims.iat == r.expiresIn
    ensures r.access.claims.kind == Some("access") && r.refresh.claims.kind == Some("refresh")
    ensures r.tokenType == "bearer" && r.access != r.refresh
  {
    TokenPair(AccessToken(u, secret, now, accessJti, None), RefreshToken(u, secret, now, refreshJti),
              "bearer", AccessTokenMinutes * 60)
  }

  /** `jwt.decode`: the payload when the key matches and the expiry has not passed. */
  function Decode(t: Jwt, secret: string, now: int): (c: Option<Claims>)
    ensures c.Some? <==> t.key == secret && now <= t.claims.exp
    ensures c.Some? ==> c.value == t.claims
  {
    if t.key == secret && now <= t.claims.exp then Some(t.claims) else None
  }

  /** What `verify_token` does: accept, answer `None`, or raise on a role it does not know. */
  datatype Verdict = Accepted(data: TokenData) | Rejected | RaisesOnRole

  /**
   `verify_token`: a revoked token, a bad signature, an expired token or a
   missing user id is rejected; otherwise the claims are read with defaults
   (role "viewer", no permissions). The token's type is not consulted.
   */
  function VerifyToken(s: Store, t: Jwt, secret: string, now: int): (v: Verdict)
    ensures t in s.blacklist ==> v == Rejected
    ensures v.Accepted? ==> Decode(t, secret, now).Some? && Truthy(t.claims.userId)
    ensures v.Accepted? ==> v.data.userId == t.claims.userId.value && v.data.permissions == t.claims.permissions.GetOr([])
    ensures v.Accepted? ==> RoleValue(v.data.role) == t.claims.role.GetOr("viewer")
  {
    if t in s.blacklist then Rejected
    else match Decode(t, secret, now)
      case None => Rejected
      case Some(c) =>
        if !Truthy(c.userId) then Rejected
        else match ParseRole(c.role.GetOr("viewer"))
          case None => RaisesOnRole
          case Some(role) =>
            Accepted(TokenData(c.userId.value, c.username.GetOr(""), c.email.GetOr(""), role,
                               c.permissions.GetOr([]), c.exp, c.iat, c.jti.GetOr("")))
  }

  /** A fresh access token verifies to its user's id, role and the role's permissions. */
  lemma IssuedAccessTokenVerifies(s: Store, u: User, secret: string, now: int, later: int, jti: string)
    requires u.id != "" && now <= later <= now + AccessTokenMinutes * 60
    requires AccessToken(u, secret, now, jti, None) !in s.blacklist
    ensures var v := VerifyToken(s, AccessToken(u, secret, now, jti, None), secret, later);
      v.Accepted? && v.data.userId == u.id && v.data.role == u.role
      && v.data.permissions == Values(RolePermissions(u.role))
  {
    RoleRoundTrip(u.role);
  }

  /** A refresh token also passes `verify_token`, as a viewer holding no permissions. */
  lemma RefreshTokenVerifiesAsViewer(s: Store, u: User, secret: string, now: int, jti: string)
    requires u.id != "" && RefreshToken(u, secret, now, jti) !in s.blacklist
    ensures var v := VerifyToken(s, RefreshToken(u, secret, now, jti), secret, now);
      v.Accepted? && v.data.role == Viewer && v.data.permissions == []
  {
    RoleRoundTrip(Viewer);
  }

  /** A token signed with another key never verifies. */
  lemma ForeignKeyRejected(s: Store, t: Jwt, secret: string, now: int)
    requires t.key != secret
    ensures VerifyToken(s, t, secret, now) == Rejected
  {
  }

  /* ----------------------------------------------------------- revocation */

  /** `_blacklist_token` without Redis: the token joins the in-memory set; it reports success. */
  function Revoke(s: Store, t: Jwt): (r: (Store, bool))
    ensures r.1 && t in r.0.blacklist
    ensures r.0.blacklist == s.blacklist + {t}
    ensures r.0.users == s.users && r.0.byEmail == s.byEmail && r.0.byUsername == s.byUsername
  {
    (s.(blacklist := s.blacklist + {t}), true)
  }

  /** A revoked token is rejected from then on, even if it is otherwise valid. */
  lemma RevokedTokenRejected(s: Store, t: Jwt, secret: string, now: int)
    ensures VerifyToken(Revoke(s, t).0, t, secret, now) == Rejected
  {
  }

  /** Revocation touches only the revoked token: every other verdict is unchanged. */
  lemma RevokeIsolated(s: Store, t: Jwt, other: Jwt, secret: string, now: int)
    requires other != t
    ensures VerifyToken(Revoke(s, t).0, other, secret, now) == VerifyToken(s, other, secret, now)
  {
  }

  /* -------------------------------------------------------------- refresh */

  /**
   `refresh_access_token`: a decodable refresh token of an existing,
   active user is revoked and exchanged for a new pair; anything else is
   `None` and changes nothing. The revocation list is not consulted.
   */
  function RefreshAccessToken(s: Store, t: Jwt, secret: string, now: int, accessJti: string, refreshJti: string)
    : (r: (Store, Option<TokenPair>))
    ensures r.1.None? ==> r.0 == s
    ensures r.1.Some? ==> Decode(t, secret, now).Some? && t.claims.kind == Some("refresh")
    ensures r.1.Some? ==>
      (Truthy(t.claims.userId) && t.claims.userId.value in s.users && s.users[t.claims.userId.value].isActive)
    ensures r.1.Some? ==> r.0 == Revoke(s, t).0
    ensures r.1.Some? && t.claims.userId.Some? && t.claims.userId.value in s.users ==>
      r.1.value == CreateTokens(s.users[t.claims.userId.value], secret, now, accessJti, refreshJti)
  {
    match Decode(t, secret, now)
    case None => (s, None)
    case Some(c) =>
      if c.kind != Some("refresh") || !Truthy(c.userId) then (s, None)
      else if c.userId.value !in s.users || !s.users[c.userId.value].isActive then (s, None)
      else (Revoke(s, t).0, Some(CreateTokens(s.users[c.userId.value], secret, now, accessJti, refreshJti)))
  }

  /** An access token cannot be exchanged for new tokens. */
  lemma AccessTokenCannotRefresh(s: Store, u: User, secret: string, now: int, later: int, jti: string,
                                 a: string, b: string)
    ensures RefreshAccessToken(s, AccessToken(u, secret, now, jti, None), secret, later, a, b) == (s, None)
  {
  }

  /**
   The exchange revokes the old refresh token, yet the revoked token can be
   exchanged again: a replayed refresh token still yields new tokens.
   */
  lemma RefreshReplayAccepted(s: Store, t: Jwt, secret: string, now: int, a: string, b: string, c: string, d: string)
    requires RefreshAccessToken(s, t, secret, now, a, b).1.Some?
    ensures var s1 := RefreshAccessToken(s, t, secret, now, a, b).0;
      t in s1.blacklist && RefreshAccessToken(s1, t, secret, now, c, d).1.Some?
  {
  }

  /** The exchange that also refuses a revoked refresh token. */
  function RefreshChecked(s: Store, t: Jwt, secret: string, now: int, accessJti: string, refreshJti: string)
    : (r: (Store, Option<TokenPair>))
    ensures t in s.blacklist ==> r == (s, None)
    ensures t !in s.blacklist ==> r == RefreshAccessToken(s, t, secret, now, accessJti, refreshJti)
  {
    if t in s.blacklist then (s, None) else RefreshAccessToken(s, t, secret, now, accessJti, refreshJti)
  }

  /** With the check, a refresh token is good for one exchange only. */
  lemma CheckedRefreshSingleUse(s: Store, t: Jwt, secret: string, now: int, a: string, b: string, c: string, d: string)
    requires RefreshChecked(s, t, secret, now, a, b).1.Some?
    ensures var s1 := RefreshChecked(s, t, secret, now, a, b).0;
      RefreshChecked(s1, t, secret, now, c, d) == (s1, None)
  {
  }

  /* ---------------------------------------------------------- permissions */

  /** `has_permission`: the permission's wire value is in the token. */
  predicate HasPermission(td: TokenData, p: Permission) { PermissionValue(p) in td.permissions }

  /** `has_any_permission`. */
  function HasAny(td: TokenData, ps: seq<Permission>): (b: bool)
    ensures b <==> exists i :: 0 <= i < |ps| && HasPermission(td, ps[i])
  {
    if ps == [] then false
    else
      assert forall i :: 1 <= i < |ps| ==> ps[i] == ps[1..][i - 1];
      HasPermission(td, ps[0]) || HasAny(td, ps[1..])
  }

  /** `has_all_permissions`. */
  function HasAll(td: TokenData, ps: seq<Permission>): (b: bool)
    ensures b <==> forall i :: 0 <= i < |ps| ==> HasPermission(td, ps[i])
  {
    if ps == [] then true
    else
      assert forall i :: 1 <= i < |ps| ==> ps[i] == ps[1..][i - 1];
      HasPermission(td, ps[0]) && HasAll(td, ps[1..])
  }

  /** Holding all of a non-empty list means holding one of it; holding none of it means not holding all. */
  lemma AllImpliesAny(td: TokenData, ps: seq<Permission>)
    requires |ps| > 0
    ensures HasAll(td, ps) ==> HasAny(td, ps)
  {
    if HasAll(td, ps) {
      assert HasPermission(td, ps[0]);
    }
  }

  /** A token issued to a user grants exactly the user's role's permissions. */
  lemma IssuedTokenGrantsRole(s: Store, u: User, secret: string, now: int, jti: string, p: Permission)
    requires u.id != "" && AccessToken(u, secret, now, jti, None) !in s.blacklist
    ensures var v := VerifyToken(s, AccessToken(u, secret, now, jti, None), secret, now);
      v.Accepted? && (HasPermission(v.data, p) <==> Grants(u.role, p))
  {
    IssuedAccessTokenVerifies(s, u, secret, now, now, jti);
    ValuesMember(RolePermissions(u.role), p);
  }

  /* -------------------------------------------------------------- lookups */

  /** `get_user`. */
  function GetUser(s: Store, id: string): (r: Option<UserResponse>)
    ensures r.Some? <==> id in s.users
    ensures r.Some? ==> r.value == ToResponse(s.users[id])
  {
    if id in s.users then Some(ToResponse(s.users[id])) else None
  }

  /** `get_user_by_email`: through the e-mail index. */
  function GetUserByEmail(s: Store, email: string): (r: Option<UserResponse>)
    ensures r.Some? ==> email in s.byEmail && r == GetUser(s, s.byEmail[email])
    ensures email !in s.byEmail ==> r.None?
  {
    if email !in s.byEmail || s.byEmail[email] == "" then None else GetUser(s, s.byEmail[email])
  }

  /** In a consistent store every user is found by its e-mail. */
  lemma EmailFindsUser(s: Store, id: string)
    requires Consistent(s) && id in s.users
    ensures GetUserByEmail(s, s.users[id].email) == Some(ToResponse(s.users[id]))
  {
  }

  /* ------------------------------------------------------------- password */

  /**
   `update_password`: with the right current password the hash is replaced
   and the update time set; otherwise `false` and nothing changes. The new
   password's length is not checked here.
   */
  function UpdatePassword(s: Store, id: string, current: string, next: string, now: int,
                          verify: (string, string) -> bool, hash: string -> string): (r: (Store, bool))
    ensures !r.1 ==> r.0 == s
    ensures r.1 <==> id in s.users && verify(current, s.users[id].hashedPassword)
    ensures r.1 ==> r.0 == s.(users := s.users[id := s.users[id].(hashedPassword := hash(next), updatedAt := now)])
  {
    if id !in s.users || !verify(current, s.users[id].hashedPassword) then (s, false)
    else (s.(users := s.users[id := s.users[id].(hashedPassword := hash(next), updatedAt := now)]), true)
  }

  /**
   After a password change the store stays consistent, and the user logs in
   with the new password, given a hash the verifier accepts.
   */
  lemma NewPasswordLogsIn(s: Store, id: string, current: string, next: string, now: int, later: int,
                          verify: (string, string) -> bool, hash: string -> string)
    requires Consistent(s) && id in s.users && s.users[id].isActive
    requires verify(current, s.users[id].hashedPassword) && verify(next, hash(next))
    ensures var s1 := UpdatePassword(s, id, current, next, now, verify, hash).0;
      Consistent(s1) && Authenticate(s1, s.users[id].username, next, later, verify).1.Some?
  {
    var s1 := UpdatePassword(s, id, current, next, now, verify, hash).0;
    assert s1.users[id].username == s.users[id].username;
    LoginByUsername(s1, id, next, later, verify);
  }
}

=== FILE: services_creator_history.dfy ===
/**
 The creator history service: every evaluation of a creator is kept as a
 snapshot plus a history entry recording the change since the previous
 snapshot, missions add entries of their own, and trends compare the first
 and last snapshot of a period. Only the in-memory store is modelled; the
 database paths are parameters (what the database returns) or no-ops.
 Timestamps are seconds.
 */
module CreatorHistory {
  import opened Common

  datatype Snapshot = Snapshot(
    id: string,
    creatorId: string,
    timestamp: int,
    followers: int,
    engagement: real,
    grade: Option<string>,
    score: Option<real>)

  datatype Entry = Entry(
    id: string,
    creatorId: string,
    timestamp: int,
    changeType: string,
    description: string,
    previousSnapshotId: Option<string>,
    currentSnapshotId: Option<string>,
    delta: map<string, real>,
    missionId: Option<string>,
    missionName: Option<string>)

  /**
   The service. The in-memory stores exist only when the service started in
   memory or fell back to it; with a working database they are never created.
   */
  datatype Service = Service(
    useMemory: bool,
    initialized: bool,
    snapshots: Option<map<string, seq<Snapshot>>>,
    history: Option<map<string, seq<Entry>>>)

  /** Both stores exist or neither does, and a service in memory has them. */
  predicate StoresMatchMode(s: Service) {
    s.snapshots.Some? == s.history.Some? && (s.useMemory ==> s.snapshots.Some?)
  }

  /** `__init__`: an SQLite URL runs in memory. */
  function New(databaseUrl: string): (s: Service)
    ensures StoresMatchMode(s) && !s.initialized
    ensures s.useMemory <==> Contains(databaseUrl, "sqlite")
    ensures !s.useMemory ==> s.snapshots.None? && s.history.None?
  {
    if Contains(databaseUrl, "sqlite") then Service(true, false, Some(map[]), Some(map[]))
    else Service(false, false, None, None)
  }

  /** `initialize`: once only; failing to create the tables falls back to empty in-memory stores. */
  function Initialize(s: Service, tablesCreated: bool): (r: Service)
    requires StoresMatchMode(s)
    ensures StoresMatchMode(r) && r.initialized
    ensures s.initialized ==> r == s
    ensures !s.initialized && !s.useMemory && !tablesCreated ==> r == Service(true, true, Some(map[]), Some(map[]))
    ensures !s.initialized && (s.useMemory || tablesCreated) ==> r == s.(initialized := true)
  {
    if s.initialized then s
    else if !s.useMemory && !tablesCreated then Service(true, true, Some(map[]), Some(map[]))
    else s.(initialized := true)
  }

  function Stored<T>(m: map<string, seq<T>>, k: string): seq<T> {
    if k in m then m[k] else []
  }

  /** `_get_latest_snapshot`: the last in-memory snapshot, or what the database returns (`None` on error). */
  function Latest(s: Service, creatorId: string, fromDb: Option<Snapshot>): (r: Option<Snapshot>)
    requires StoresMatchMode(s)
    ensures s.useMemory ==> (r.Some? <==> Stored(s.snapshots.value, creatorId) != [])
    ensures s.useMemory && r.Some? ==> r.value == Last(Stored(s.snapshots.value, creatorId))
    ensures !s.useMemory ==> r == fromDb
  {
    if s.useMemory then
      var snaps := Stored(s.snapshots.value, creatorId);
      if snaps == [] then None else Some(Last(snaps))
    else fromDb
  }

  function Last<T>(xs: seq<T>): T
    requires xs != []
  {
    xs[|xs| - 1]
  }

  /** `value or 0` for an optional score. */
  function ScoreOr0(x: Option<real>): real {
    if x.Some? then x.value else 0.0
  }

  /** The change since the previous snapshot; empty for a first evaluation. */
  function Delta(cur: Snapshot, prev: Option<Snapshot>): (d: map<string, real>)
    ensures prev.None? <==> d == map[]
    ensures prev.Some? ==> (d.Keys == {"followers", "engagement_rate", "score"}
      && d["followers"] == (cur.followers - prev.value.followers) as real
      && d["engagement_rate"] == cur.engagement - prev.value.engagement
      && d["score"] == ScoreOr0(cur.score) - ScoreOr0(prev.value.score))
  {
    match prev
    case None => map[]
    case Some(p) =>
      var d := map["followers" := (cur.followers - p.followers) as real,
                   "engagement_rate" := cur.engagement - p.engagement,
                   "score" := ScoreOr0(cur.score) - ScoreOr0(p.score)];
      assert "followers" in d;
      d
  }

  /** How the evaluation text renders its parts: one-decimal numbers and the grade (`None` shows as "None"). */
  datatype Render = Render(oneDecimal: real -> string, grade: Option<string> -> string)

  /** The base description: with a truthy score, its grade and score; otherwise a bare "evaluation done". */
  function BaseDescription(cur: Snapshot, render: Render): string {
    if cur.score.Some? && cur.score.value != 0.0 then
      "평가 수행: " + render.grade(cur.grade) + " 등급, " + render.oneDecimal(cur.score.value) + "점"
    else "평가 수행"
  }

  /** The entry description: the base, plus the score gain when the score rose. */
  function Description(cur: Snapshot, d: map<string, real>, render: Render): (r: string)
    ensures "score" in d && d["score"] > 0.0 ==> r == BaseDescription(cur, render) + " (점수 +" + render.oneDecimal(d["score"]) + ")"
    ensures !("score" in d && d["score"] > 0.0) ==> r == BaseDescription(cur, render)
  {
    if "score" in d && d["score"] > 0.0 then
      BaseDescription(cur, render) + " (점수 +" + render.oneDecimal(d["score"]) + ")"
    else BaseDescription(cur, render)
  }

  function Append<T>(m: map<string, seq<T>>, k: string, x: T): (r: map<string, seq<T>>)
    ensures r.Keys == m.Keys + {k}
    ensures Stored(r, k) == Stored(m, k) + [x]
    ensures forall j :: j in m && j != k ==> r[j] == m[j]
  {
    m[k := Stored(m, k) + [x]]
  }

  /** The evaluation entry for a snapshot, given the previous one. */
  function EvaluationEntry(entryId: string, cur: Snapshot, prev: Option<Snapshot>, render: Render): (e: Entry)
    ensures e.changeType == "evaluation" && e.currentSnapshotId == Some(cur.id)
    ensures prev.Some? <==> e.previousSnapshotId.Some?
    ensures prev.Some? ==> e.previousSnapshotId.value == prev.value.id
    ensures e.timestamp == cur.timestamp && e.creatorId == cur.creatorId
  {
    var d := Delta(cur, prev);
    Entry(entryId, cur.creatorId, cur.timestamp, "evaluation", Description(cur, d, render),
          if prev.Some? then Some(prev.value.id) else None, Some(cur.id), d, None, None)
  }

  /**
   `record_evaluation`: initialise, look up the previous snapshot, build the
   entry, and save both (the database saves swallow their errors and leave
   the model's state alone).
   */
  function RecordEvaluation(s: Service, tablesCreated: bool, cur: Snapshot, entryId: string,
                            fromDb: Option<Snapshot>, render: Render): (r: (Service, Entry))
    requires StoresMatchMode(s)
    ensures StoresMatchMode(r.0) && r.0.initialized
    ensures var i := Initialize(s, tablesCreated);
      r.1 == EvaluationEntry(entryId, cur, Latest(i, cur.creatorId, fromDb), render)
    ensures var i := Initialize(s, tablesCreated);
      r.0.useMemory == i.useMemory
      && (i.useMemory ==>
        Stored(r.0.snapshots.value, cur.creatorId) == Stored(i.snapshots.value, cur.creatorId) + [cur]
        && Stored(r.0.history.value, cur.creatorId) == Stored(i.history.value, cur.creatorId) + [r.1])
  {
    var i := Initialize(s, tablesCreated);
    var e := EvaluationEntry(entryId, cur, Latest(i, cur.creatorId, fromDb), render);
    if i.useMemory then
      (i.(snapshots := Some(Append(i.snapshots.value, cur.creatorId, cur)),
          history := Some(Append(i.history.value, cur.creatorId, e))), e)
    else (i, e)
  }

  /** A creator's first evaluation in memory has no previous snapshot and an empty delta. */
  lemma FirstEvaluation(s: Service, cur: Snapshot, entryId: string, fromDb: Option<Snapshot>, render: Render)
    requires StoresMatchMode(s) && s.useMemory && cur.creatorId !in s.snapshots.value
    ensures var e := RecordEvaluation(s, true, cur, entryId, fromDb, render).1;
      e.previousSnapshotId.None? && e.delta == map[] && e.description == BaseDescription(cur, render)
  {
  }

  /**
   Two evaluations in a row: the second links to the first, its delta is the
   difference of the two, and its description gains the score gain exactly
   when the score rose.
   */
  lemma SecondEvaluationLinks(s: Service, a: Snapshot, b: Snapshot, id1: string, id2: string,
                              fromDb: Option<Snapshot>, render: Render)
    requires StoresMatchMode(s) && s.useMemory && a.creatorId == b.creatorId
    ensures var s1 := RecordEvaluation(s, true, a, id1, fromDb, render).0;
      var e := RecordEvaluation(s1, true, b, id2, fromDb, render).1;
      e.previousSnapshotId == Some(a.id) && e.currentSnapshotId == Some(b.id)
      && e.delta["followers"] == (b.followers - a.followers) as real
      && e.delta["score"] == ScoreOr0(b.score) - ScoreOr0(a.score)
      && (ScoreOr0(b.score) > ScoreOr0(a.score) <==> e.description != BaseDescription(b, render))
  {
    var s1 := RecordEvaluation(s, true, a, id1, fromDb, render).0;
    var i := Initialize(s1, true);
    assert i == s1;
    assert Latest(i, b.creatorId, fromDb) == Some(a);
    var d := Delta(b, Some(a));
    var base := BaseDescription(b, render);
    if ScoreOr0(b.score) > ScoreOr0(a.score) {
      assert |Description(b, d, render)| > |base|;
    }
  }

  /** `record_mission_completion`: a "mission_complete" entry naming the mission, with the performance metrics or {}. */
  function RecordMission(s: Service, tablesCreated: bool, creatorId: string, entryId: string, now: int,
                         missionId: string, missionName: string, performance: map<string, real>): (r: (Service, Entry))
    requires StoresMatchMode(s)
    ensures StoresMatchMode(r.0) && r.0.initialized
    ensures r.1.changeType == "mission_complete" && r.1.description == "미션 완료: " + missionName
    ensures r.1.delta == performance && r.1.missionId == Some(missionId) && r.1.previousSnapshotId.None?
    ensures var i := Initialize(s, tablesCreated);
      r.0.useMemory == i.useMemory
      && (i.useMemory ==> Stored(r.0.history.value, creatorId) == Stored(i.history.value, creatorId) + [r.1])
    ensures r.0.snapshots == Initialize(s, tablesCreated).snapshots
  {
    var i := Initialize(s, tablesCreated);
    var e := Entry(entryId, creatorId, now, "mission_complete", "미션 완료: " + missionName,
                   None, None, performance, Some(missionId), Some(missionName));
    if i.useMemory then (i.(history := Some(Append(i.history.value, creatorId, e))), e)
    else (i, e)
  }

  /* --------------------------------------------------------------- trend */

  datatype Summary = Improving | Declining | Stable

  datatype Trend = Trend(
    followersChange: int,
    followersChangePct: real,
    engagementChange: real,
    engagementChangePct: real,
    scoreChange: Option<real>,
    gradeImproved: bool,
    missionsCompleted: nat,
    summary: Summary)

  /** The grade order S > A > B > C, anything else ranking 0. */
  function GradeRank(g: string): (n: nat)
    ensures n <= 4
  {
    if g == "S" then 4 else if g == "A" then 3 else if g == "B" then 2 else if g == "C" then 1 else 0
  }

  function GradeImproved(first: Option<string>, last: Option<string>): (b: bool)
    ensures b <==> first.Some? && first.value != "" && last.Some? && last.value != "" && GradeRank(last.value) > GradeRank(first.value)
  {
    first.Some? && first.value != "" && last.Some? && last.value != "" && GradeRank(last.value) > GradeRank(first.value)
  }

  /** The trend summary: improving needs more than 5% follower growth and some engagement growth. */
  function Classify(followersPct: real, engagementChange: real): (t: Summary)
    ensures t == Improving <==> followersPct > 5.0 && engagementChange > 0.0
    ensures t == Declining <==> !(followersPct > 5.0 && engagementChange > 0.0) && (followersPct < -5.0 || engagementChange < -0.01)
  {
    if followersPct > 5.0 && engagementChange > 0.0 then Improving
    else if followersPct < -5.0 || engagementChange < -0.01 then Declining
    else Stable
  }

  /** A period with no follower move beyond 5% and an engagement change in [-0.01, 0] is stable. */
  lemma SmallMovesAreStable(followersPct: real, engagementChange: real)
    requires -5.0 <= followersPct <= 5.0 && -0.01 <= engagementChange
    ensures Classify(followersPct, engagementChange) == Stable
  {
  }

  /** A fall of more than 5% in followers is declining whatever the engagement did. */
  lemma FollowerDropDeclines(followersPct: real, engagementChange: real)
    requires followersPct < -5.0
    ensures Classify(followersPct, engagementChange) == Declining
  {
  }

  predicate InRange(t: int, start: int, end: int) { start <= t <= end }

  function SnapshotsIn(xs: seq<Snapshot>, start: int, end: int): (r: seq<Snapshot>)
    ensures forall x :: x in r <==> x in xs && InRange(x.timestamp, start, end)
  {
    Filter((x: Snapshot) => InRange(x.timestamp, start, end), xs)
  }

  function MissionCount(es: seq<Entry>, start: int, end: int): (n: nat)
    ensures n <= |es|
  {
    Count((e: Entry) => InRange(e.timestamp, start, end) && e.changeType == "mission_complete", es)
  }

  const Day := 86400

  /**
   `get_trend`: compare the first and last snapshot of the last `periodDays`
   days; `None` with fewer than two. Percentages divide by the first value,
   floored at 1 follower and 0.001 engagement.
   */
  function GetTrend(s: Service, creatorId: string, periodDays: int, now: int): (r: Option<Trend>)
    requires StoresMatchMode(s)
    ensures var start := now - periodDays * Day;
      var snaps := if s.useMemory then SnapshotsIn(Stored(s.snapshots.value, creatorId), start, now) else [];
      (r.None? <==> |snaps| < 2)
      && (r.Some? ==> (r.value.followersChange == Last(snaps).followers - snaps[0].followers
          && r.value.followersChangePct == r.value.followersChange as real / Max(snaps[0].followers, 1) as real * 100.0
          && r.value.gradeImproved == GradeImproved(snaps[0].grade, Last(snaps).grade)
          && (r.value.scoreChange.Some? <==> snaps[0].score.Some? && Last(snaps).score.Some?)))
  {
    var start := now - periodDays * Day;
    var snaps := if s.useMemory then SnapshotsIn(Stored(s.snapshots.value, creatorId), start, now) else [];
    if |snaps| < 2 then None
    else
      var first, last := snaps[0], Last(snaps);
      var fc := last.followers - first.followers;
      var fpct := fc as real / Max(first.followers, 1) as real * 100.0;
      var ec := last.engagement - first.engagement;
      var epct := ec / MaxR(first.engagement, 0.001) * 100.0;
      var sc := if first.score.Some? && last.score.Some? then Some(last.score.value - first.score.value) else None;
      var missions := if s.useMemory then MissionCount(Stored(s.history.value, creatorId), start, now) else 0;
      Some(Trend(fc, fpct, ec, epct, sc, GradeImproved(first.grade, last.grade), missions, Classify(fpct, ec)))
  }

  /** Follower growth from zero followers is measured against one follower. */
  lemma ZeroFollowersCountAsOne(s: Service, creatorId: string, periodDays: int, now: int)
    requires StoresMatchMode(s)
    requires GetTrend(s, creatorId, periodDays, now).Some?
    ensures var start := now - periodDays * Day;
      var snaps := SnapshotsIn(Stored(s.snapshots.value, creatorId), start, now);
      snaps[0].followers <= 0 ==>
        GetTrend(s, creatorId, periodDays, now).value.followersChangePct == (Last(snaps).followers - snaps[0].followers) as real * 100.0
  {
  }

  /* -------------------------------------------------------------- history */

  datatype Query = Query(
    creatorId: string,
    startDate: Option<int>,
    endDate: Option<int>,
    changeType: Option<string>,
    offset: nat,
    limit: nat)

  datatype Response = Response(creatorId: string, entries: seq<Entry>, snapshots: seq<Snapshot>, trend: Option<Trend>, total: nat)

  /** The conjunction of the query's filters; an empty change type filters nothing. */
  predicate Selected(q: Query, e: Entry) {
    (q.startDate.None? || e.timestamp >= q.startDate.value)
    && (q.endDate.None? || e.timestamp <= q.endDate.value)
    && (q.changeType.None? || q.changeType.value == "" || e.changeType == q.changeType.value)
  }

  function EntryTime(e: Entry): real { e.timestamp as real }

  /** The entries the query selects, in their stored order. */
  function SelectedOf(q: Query, entries: seq<Entry>): (r: seq<Entry>)
    ensures forall e :: e in r <==> e in entries && Selected(q, e)
    ensures |r| <= |entries|
  {
    Filter((e: Entry) => Selected(q, e), entries)
  }

  /** The page of selected entries, newest first (ties keep their order), and the count before paging. */
  function Page(q: Query, entries: seq<Entry>): (r: (seq<Entry>, nat))
    ensures r.1 == |SelectedOf(q, entries)|
    ensures |r.0| <= q.limit
    ensures SortedDesc(r.0, EntryTime)
    ensures forall e :: e in r.0 ==> e in entries && Selected(q, e)
    ensures r.0 == Slice(SortDesc(SelectedOf(q, entries), EntryTime), q.offset, q.offset + q.limit)
  {
    var selected := SelectedOf(q, entries);
    (PageDesc(selected, EntryTime, q.offset, q.limit), |selected|)
  }

  /** A first page as large as the history holds every selected entry. */
  lemma FullPageHasAll(q: Query, entries: seq<Entry>, e: Entry)
    requires q.offset == 0 && q.limit >= |entries|
    requires e in entries && Selected(q, e)
    ensures e in Page(q, entries).0
  {
    var selected := SelectedOf(q, entries);
    PageDescFull(selected, EntryTime, q.limit);
    assert e in multiset(selected);
  }

  /**
   `get_history` as written: in database mode it reads the in-memory stores,
   which were never created, so it raises (`None`).
   */
  function GetHistory(s: Service, tablesCreated: bool, q: Query, now: int): (r: Option<Response>)
    requires StoresMatchMode(s)
    ensures var i := Initialize(s, tablesCreated);
      (r.None? <==> i.history.None?)
      && (r.Some? ==> r.value.total == |SelectedOf(q, Stored(i.history.value, q.creatorId))|)
    ensures r.Some? ==> |r.value.snapshots| <= 10 && |r.value.entries| <= q.limit
    ensures var i := Initialize(s, tablesCreated);
      r.Some? ==> r.value.entries == Page(q, Stored(i.history.value, q.creatorId)).0
                  && r.value.snapshots == TakeLast(Stored(i.snapshots.value, q.creatorId), 10)
  {
    var i := Initialize(s, tablesCreated);
    if i.history.None? || i.snapshots.None? then None
    else
      var (page, total) := Page(q, Stored(i.history.value, q.creatorId));
      Some(Response(q.creatorId, page, TakeLast(Stored(i.snapshots.value, q.creatorId), 10),
                    GetTrend(i, q.creatorId, 30, now), total))
  }

  /** With a working database, as written, every history query raises. */
  lemma DatabaseHistoryRaises(url: string, q: Query, now: int)
    requires !Contains(url, "sqlite")
    ensures GetHistory(New(url), true, q, now).None?
  {
  }

  /**
   The evidently intended history query: the in-memory fallback reads empty
   stores where none exist, so a database-mode query returns an empty page.
   */
  function GetHistoryChecked(s: Service, tablesCreated: bool, q: Query, now: int): (r: Response)
    requires StoresMatchMode(s)
    ensures Initialize(s, tablesCreated).history.None? ==> r.entries == [] && r.total == 0
    ensures |r.snapshots| <= 10 && |r.entries| <= q.limit
  {
    var i := Initialize(s, tablesCreated);
    var hist := if i.history.Some? then Stored(i.history.value, q.creatorId) else [];
    var snaps := if i.snapshots.Some? then Stored(i.snapshots.value, q.creatorId) else [];
    var (page, total) := Page(q, hist);
    Response(q.creatorId, page, TakeLast(snaps, 10), GetTrend(i, q.creatorId, 30, now), total)
  }

  /** Wherever the as-written query answers, the intended one answers the same. */
  lemma CheckedAgreesInMemory(s: Service, tablesCreated: bool, q: Query, now: int)
    requires StoresMatchMode(s)
    ensures GetHistory(s, tablesCreated, q, now).Some? ==>
      GetHistory(s, tablesCreated, q, now).value == GetHistoryChecked(s, tablesCreated, q, now)
  {
  }
}

=== FILE: services_mcp_integration.dfy ===
/**
 The external-data enrichment service: a request's external-data spec names
 a web search or URLs, YouTube lookups and Supadata scrapes; each source that
 returns data contributes a key to the result, and sources returning nothing
 contribute none. The external clients are parameters: each call's result is
 given as a function of its arguments, and a client that failed to start is
 modelled as unavailable. Python truthiness is written out: an empty string,
 an empty list, an empty dictionary and the number 0 count as absent.
 */
module McpIntegration {
  import opened Common

  /** A list element that may or may not be a string. */
  datatype Item = Str(s: string) | NotString

  /** The `youtube` part of a spec. */
  datatype YouTubeSpec = YouTubeSpec(
    channelId: Option<string>, channelUsername: Option<string>, channelHandle: Option<string>,
    fetchChannel: bool, videoIds: seq<string>, searchQuery: Option<string>, restrictToChannel: bool)

  /** The `supadata` part of a spec. */
  datatype SupadataSpec = SupadataSpec(
    lang: string, noLinks: bool, transcriptText: bool, transcriptMode: string,
    scrapeUrls: seq<Item>, transcriptUrls: seq<Item>, mapUrl: Option<Item>, crawlUrl: Option<Item>,
    crawlLimit: Option<int>)

  /** An external-data spec; every field may be missing. */
  datatype Spec = Spec(
    searchQuery: Option<string>, urls: Option<seq<string>>, webUrls: Option<seq<string>>,
    webLimit: Option<int>, limit: Option<int>,
    youtube: Option<YouTubeSpec>, supadata: Option<SupadataSpec>)

  /** The spec with no keys at all: `{}`. */
  const EmptySpec := Spec(None, None, None, None, None, None, None)

  /** Python truthiness of an optional string, list or number. */
  predicate StrGiven(s: Option<string>) { s.Some? && s.value != "" }
  predicate ListGiven<T>(s: Option<seq<T>>) { s.Some? && s.value != [] }
  predicate NumGiven(n: Option<int>) { n.Some? && n.value != 0 }

  /* --------------------------------------------------------------- web */

  /** What to fetch from the web. */
  datatype WebSpec = WebSpec(query: Option<string>, urls: seq<string>, limit: int)

  /**
   `_extract_web_spec`: nothing without a search query and without URLs
   (`urls`, else `web_urls`); otherwise the limit is `web_limit`, else
   `limit`, else 3.
   */
  function ExtractWebSpec(spec: Spec): (r: Option<WebSpec>)
    ensures r.None? <==> !StrGiven(spec.searchQuery) && !ListGiven(spec.urls) && !ListGiven(spec.webUrls)
    ensures r.Some? ==> r.value.query == spec.searchQuery
    ensures r.Some? && ListGiven(spec.urls) ==> r.value.urls == spec.urls.value
    ensures r.Some? && !ListGiven(spec.urls) && ListGiven(spec.webUrls) ==> r.value.urls == spec.webUrls.value
    ensures r.Some? && !ListGiven(spec.urls) && !ListGiven(spec.webUrls) ==> r.value.urls == []
    ensures r.Some? && !NumGiven(spec.webLimit) && !NumGiven(spec.limit) ==> r.value.limit == 3
    ensures r.Some? && NumGiven(spec.webLimit) ==> r.value.limit == spec.webLimit.value
    ensures r.Some? && !NumGiven(spec.webLimit) && NumGiven(spec.limit) ==> r.value.limit == spec.limit.value
    ensures r.Some? ==> StrGiven(r.value.query) || r.value.urls != []
  {
    var urls := if ListGiven(spec.urls) then spec.urls.value
                else if ListGiven(spec.webUrls) then spec.webUrls.value else [];
    if !StrGiven(spec.searchQuery) && urls == [] then None
    else
      var limit := if NumGiven(spec.webLimit) then spec.webLimit.value
                   else if NumGiven(spec.limit) then spec.limit.value else 3;
      Some(WebSpec(spec.searchQuery, urls, limit))
  }

  /** The web clients: whether search is available, its answer (`None` when it raises), and the page fetcher. */
  datatype Web = Web(searchAvailable: bool, search: (string, int) -> Option<seq<string>>,
                     fetchMany: (seq<string>, int) -> seq<string>)

  datatype WebData = WebData(query: Option<string>, urls: seq<string>, snippets: seq<string>)

  /**
   `_fetch_web_data`: without URLs and with a query, the search supplies
   them (none when it raises); with still no URLs there is nothing, and
   otherwise the pages are fetched.
   */
  function FetchWeb(ws: WebSpec, web: Web): (r: Option<WebData>)
    ensures ws.urls != [] ==> r == Some(WebData(ws.query, ws.urls, web.fetchMany(ws.urls, ws.limit)))
    ensures ws.urls == [] && !(StrGiven(ws.query) && web.searchAvailable) ==> r.None?
    ensures r.Some? ==> r.value.urls != [] && r.value.query == ws.query
    ensures r.Some? ==> r.value.snippets == web.fetchMany(r.value.urls, ws.limit)
  {
    var urls := if ws.urls == [] && StrGiven(ws.query) && web.searchAvailable
                then web.search(ws.query.value, ws.limit).GetOr([])
                else ws.urls;
    if urls == [] then None
    else Some(WebData(ws.query, urls, web.fetchMany(urls, ws.limit)))
  }

  /** Given URLs, the search is never consulted: two different searches give the same result. */
  lemma GivenUrlsSkipSearch(ws: WebSpec, web: Web, search2: (string, int) -> Option<seq<string>>)
    requires ws.urls != []
    ensures FetchWeb(ws, web) == FetchWeb(ws, web.(search := search2))
  {
  }

  /** A search that raises leaves nothing to fetch. */
  lemma FailedSearchGivesNothing(ws: WebSpec, web: Web)
    requires ws.urls == [] && StrGiven(ws.query) && web.searchAvailable
    requires web.search(ws.query.value, ws.limit).None?
    ensures FetchWeb(ws, web).None?
  {
  }

  /* ----------------------------------------------------------- youtube */

  /** A YouTube sub-task: channel overview, video details or a video search. */
  datatype Task = Overview(channel: string) | Details(ids: seq<string>) | Search(query: string, within: Option<string>)

  /** A sub-task's outcome: it raised, or returned a dictionary, a list, or something else. */
  datatype Reply = Raised | Dict(entries: map<string, string>) | List(items: seq<string>) | OtherValue

  /** The YouTube client: whether it is usable, its channel resolution, and each task's outcome. */
  datatype YouTube = YouTube(available: bool,
                             resolve: (Option<string>, Option<string>, Option<string>) -> Option<string>,
                             run: Task -> Reply)

  /** The search query of the spec, else of the user context. */
  function YouTubeQuery(ys: YouTubeSpec, contextQuery: Option<string>): (q: Option<string>)
    ensures StrGiven(ys.searchQuery) ==> q == ys.searchQuery
    ensures !StrGiven(ys.searchQuery) ==> q == contextQuery
    ensures StrGiven(q) <==> StrGiven(ys.searchQuery) || StrGiven(contextQuery)
  {
    if StrGiven(ys.searchQuery) then ys.searchQuery else contextQuery
  }

  /**
   The sub-tasks to run, in order: the overview when a channel resolved and
   fetching it is asked for, the details when there are video ids, the
   search when there is a query (within the resolved channel, or the given
   channel id when not restricted).
   */
  function YouTubeTasks(ys: YouTubeSpec, resolved: Option<string>, contextQuery: Option<string>): (ts: seq<Task>)
    ensures |ts| <= 3
    ensures (exists t :: t in ts && t.Overview?) <==> StrGiven(resolved) && ys.fetchChannel
    ensures (exists t :: t in ts && t.Details?) <==> ys.videoIds != []
    ensures (exists t :: t in ts && t.Search?) <==> StrGiven(YouTubeQuery(ys, contextQuery))
  {
    var q := YouTubeQuery(ys, contextQuery);
    var overview := if StrGiven(resolved) && ys.fetchChannel then [Overview(resolved.value)] else [];
    var details := if ys.videoIds != [] then [Details(ys.videoIds)] else [];
    var search := if StrGiven(q) then [Search(q.value, if ys.restrictToChannel then resolved else ys.channelId)] else [];
    var ts := overview + details + search;
    assert forall t :: t in ts <==> t in overview || t in details || t in search;
    assert overview != [] ==> overview[0] in ts;
    assert details != [] ==> details[0] in ts;
    assert search != [] ==> search[0] in ts;
    ts
  }

  datatype YouTubeData = YouTubeData(overview: Option<map<string, string>>, details: Option<map<string, string>>,
                                     search: Option<seq<string>>, channelId: Option<string>)

  /** The last outcome of a given kind that has the expected shape; raised tasks are skipped. */
  function OverviewOf(ts: seq<Task>, yt: YouTube): (r: Option<map<string, string>>)
    ensures r.Some? ==> exists t :: t in ts && t.Overview? && yt.run(t) == Dict(r.value)
    ensures (exists t :: t in ts && t.Overview? && yt.run(t).Dict?) ==> r.Some?
  {
    if ts == [] then None
    else
      var rest := OverviewOf(ts[1..], yt);
      if rest.Some? then
        var t :| t in ts[1..] && t.Overview? && yt.run(t) == Dict(rest.value);
        assert t in ts;
        rest
      else if ts[0].Overview? && yt.run(ts[0]).Dict? then Some(yt.run(ts[0]).entries)
      else None
  }

  function DetailsOf(ts: seq<Task>, yt: YouTube): (r: Option<map<string, string>>)
    ensures r.Some? ==> exists t :: t in ts && t.Details? && yt.run(t) == Dict(r.value)
    ensures (exists t :: t in ts && t.Details? && yt.run(t).Dict?) ==> r.Some?
  {
    if ts == [] then None
    else
      var rest := DetailsOf(ts[1..], yt);
      if rest.Some? then
        var t :| t in ts[1..] && t.Details? && yt.run(t) == Dict(rest.value);
        assert t in ts;
        rest
      else if ts[0].Details? && yt.run(ts[0]).Dict? then Some(yt.run(ts[0]).entries)
      else None
  }

  function SearchOf(ts: seq<Task>, yt: YouTube): (r: Option<seq<string>>)
    ensures r.Some? ==> exists t :: t in ts && t.Search? && yt.run(t) == List(r.value)
    ensures (exists t :: t in ts && t.Search? && yt.run(t).List?) ==> r.Some?
  {
    if ts == [] then None
    else
      var rest := SearchOf(ts[1..], yt);
      if rest.Some? then
        var t :| t in ts[1..] && t.Search? && yt.run(t) == List(rest.value);
        assert t in ts;
        rest
      else if ts[0].Search? && yt.run(ts[0]).List? then Some(yt.run(ts[0]).items)
      else None
  }

  predicate MapGiven(m: Option<map<string, string>>) { m.Some? && m.value != map[] }

  /**
   `_fetch_youtube_data`: nothing from an unusable client; otherwise the
   sub-tasks run, raised ones are skipped, and there is nothing when no
   outcome carries data.
   */
  function FetchYouTube(ys: YouTubeSpec, contextQuery: Option<string>, yt: YouTube): (r: Option<YouTubeData>)
    ensures !yt.available ==> r.None?
    ensures r.Some? ==> MapGiven(r.value.overview) || MapGiven(r.value.details) || ListGiven(r.value.search)
    ensures r.Some? ==> (r.value.overview.Some? ==> StrGiven(yt.resolve(ys.channelId, ys.channelUsername, ys.channelHandle)))
    ensures r.Some? ==> (r.value.details.Some? ==> ys.videoIds != [])
    ensures r.Some? ==>
      r.value.channelId == (var c := yt.resolve(ys.channelId, ys.channelUsername, ys.channelHandle);
                            if StrGiven(c) then c else ys.channelId)
  {
    if !yt.available then None
    else
      var resolved := yt.resolve(ys.channelId, ys.channelUsername, ys.channelHandle);
      var ts := YouTubeTasks(ys, resolved, contextQuery);
      var o, d, s := OverviewOf(ts, yt), DetailsOf(ts, yt), SearchOf(ts, yt);
      if !(MapGiven(o) || MapGiven(d) || ListGiven(s)) then None
      else Some(YouTubeData(o, d, s, if StrGiven(resolved) then resolved else ys.channelId))
  }

  /** Sub-tasks that all raise give nothing. */
  lemma AllRaisedGivesNothing(ys: YouTubeSpec, contextQuery: Option<string>, yt: YouTube)
    requires forall t :: yt.run(t) == Raised
    ensures FetchYouTube(ys, contextQuery, yt).None?
  {
    if yt.available {
      var ts := YouTubeTasks(ys, yt.resolve(ys.channelId, ys.channelUsername, ys.channelHandle), contextQuery);
      assert OverviewOf(ts, yt).None? && DetailsOf(ts, yt).None? && SearchOf(ts, yt).None?;
    }
  }

  /* ---------------------------------------------------------- supadata */

  /** The string items of a list, in order. */
  function Strings(items: seq<Item>): (r: seq<string>)
    ensures |r| <= |items|
    ensures forall s :: s in r <==> Str(s) in items
  {
    if items == [] then []
    else
      var rest := Strings(items[1..]);
      assert forall x :: x in items <==> x == items[0] || x in items[1..];
      if items[0].Str? then [items[0].s] + rest else rest
  }

  /** A URL given as a non-empty string. */
  function UrlOf(x: Option<Item>): (r: Option<string>)
    ensures r.Some? <==> x.Some? && x.value.Str? && x.value.s != ""
    ensures r.Some? ==> x == Some(Str(r.value))
  {
    if x.Some? && x.value.Str? && x.value.s != "" then Some(x.value.s) else None
  }

  /** The Supadata client: whether it is available, and each call's results given its arguments. */
  datatype Supadata = Supadata(available: bool,
                               scrape: (seq<string>, string, bool) -> seq<string>,
                               transcripts: (seq<string>, string, bool, string) -> seq<string>,
                               mapSite: string -> seq<string>,
                               crawl: (string, int) -> seq<string>)

  datatype SupadataData = SupadataData(scrapes: Option<seq<string>>, transcripts: Option<seq<string>>,
                                       mapped: Option<seq<string>>, crawl: Option<seq<string>>,
                                       requested: SupadataSpec)

  /** `int(crawl_limit or 50)`. */
  function CrawlLimit(ss: SupadataSpec): (n: int)
    ensures NumGiven(ss.crawlLimit) ==> n == ss.crawlLimit.value
    ensures !NumGiven(ss.crawlLimit) ==> n == 50
    ensures n != 0
  {
    if NumGiven(ss.crawlLimit) then ss.crawlLimit.value else 50
  }

  /** A call's results when asked for and non-empty. */
  function NonEmpty(asked: bool, results: seq<string>): (r: Option<seq<string>>)
    ensures r.Some? <==> asked && results != []
    ensures r.Some? ==> r.value == results
  {
    if asked && results != [] then Some(results) else None
  }

  /**
   `_fetch_supadata`: nothing from an unavailable client; only string URLs
   are scraped or transcribed; a map or crawl URL must be a non-empty
   string; each call's non-empty results are kept, nothing is returned when
   no call gave any, and otherwise the requested spec is included.
   */
  function FetchSupadata(ss: SupadataSpec, sd: Supadata): (r: Option<SupadataData>)
    ensures !sd.available ==> r.None?
    ensures r.Some? ==> r.value.requested == ss
    ensures r.Some? ==> r.value.scrapes.Some? || r.value.transcripts.Some? || r.value.mapped.Some? || r.value.crawl.Some?
    ensures r.Some? && r.value.scrapes.Some? ==>
      Strings(ss.scrapeUrls) != [] && r.value.scrapes.value == sd.scrape(Strings(ss.scrapeUrls), ss.lang, ss.noLinks)
    ensures r.Some? && r.value.transcripts.Some? ==>
      Strings(ss.transcriptUrls) != []
      && r.value.transcripts.value == sd.transcripts(Strings(ss.transcriptUrls), ss.lang, ss.transcriptText, ss.transcriptMode)
    ensures r.Some? && r.value.mapped.Some? ==> UrlOf(ss.mapUrl).Some? && r.value.mapped.value == sd.mapSite(UrlOf(ss.mapUrl).value)
    ensures r.Some? && r.value.crawl.Some? ==>
      UrlOf(ss.crawlUrl).Some? && r.value.crawl.value == sd.crawl(UrlOf(ss.crawlUrl).value, CrawlLimit(ss))
  {
    if !sd.available then None
    else
      var su := Strings(ss.scrapeUrls);
      var tu := Strings(ss.transcriptUrls);
      var mu := UrlOf(ss.mapUrl);
      var cu := UrlOf(ss.crawlUrl);
      var scrapes := NonEmpty(su != [], if su != [] then sd.scrape(su, ss.lang, ss.noLinks) else []);
      var transcripts := NonEmpty(tu != [], if tu != [] then sd.transcripts(tu, ss.lang, ss.transcriptText, ss.transcriptMode) else []);
      var mapped := NonEmpty(mu.Some?, if mu.Some? then sd.mapSite(mu.value) else []);
      var crawl := NonEmpty(cu.Some?, if cu.Some? then sd.crawl(cu.value, CrawlLimit(ss)) else []);
      if scrapes.None? && transcripts.None? && mapped.None? && crawl.None? then None
      else Some(SupadataData(scrapes, transcripts, mapped, crawl, ss))
  }

  /** A spec listing only non-string URLs and no map or crawl URL gives nothing. */
  lemma NonStringUrlsIgnored(ss: SupadataSpec, sd: Supadata)
    requires forall i :: 0 <= i < |ss.scrapeUrls| ==> ss.scrapeUrls[i] == NotString
    requires forall i :: 0 <= i < |ss.transcriptUrls| ==> ss.transcriptUrls[i] == NotString
    requires ss.mapUrl.None? && ss.crawlUrl.None?
    ensures FetchSupadata(ss, sd).None?
  {
    NoStrings(ss.scrapeUrls);
    NoStrings(ss.transcriptUrls);
  }

  lemma {:induction false} NoStrings(items: seq<Item>)
    requires forall i :: 0 <= i < |items| ==> items[i] == NotString
    ensures Strings(items) == []
  {
    if items != [] {
      NoStrings(items[1..]);
    }
  }

  /* -------------------------------------------------------------- all */

  /** The enrichment result; each part is absent when its source gave nothing. */
  datatype Enrichment = Enrichment(
    snippets: Option<seq<string>>, webSource: Option<(Option<string>, seq<string>)>,
    youtube: Option<YouTubeData>, supadata: Option<SupadataData>, supadataSource: Option<SupadataSpec>)

  const NoEnrichment := Enrichment(None, None, None, None, None)

  /**
   `enrich_context`: nothing for a missing or empty spec; otherwise web
   snippets with their query and URLs when any snippet came back, YouTube
   insights when there were any, and Supadata results with the Supadata spec
   as their source when there were any.
   */
  function EnrichContext(spec: Option<Spec>, contextQuery: Option<string>, web: Web, yt: YouTube, sd: Supadata): (r: Enrichment)
    ensures spec.None? || spec == Some(EmptySpec) ==> r == NoEnrichment
    ensures r.snippets.Some? <==> r.webSource.Some?
    ensures r.snippets.Some? ==> r.snippets.value != []
    ensures r.supadata.Some? <==> r.supadataSource.Some?
    ensures r.supadata.Some? ==> spec.Some? && spec.value.supadata.Some? && r.supadataSource == spec.value.supadata
    ensures r.youtube.Some? ==> spec.Some? && spec.value.youtube.Some?
    ensures r.snippets.Some? ==> spec.Some? && ExtractWebSpec(spec.value).Some?
  {
    if spec.None? || spec == Some(EmptySpec) then NoEnrichment
    else
      var s := spec.value;
      var ws := ExtractWebSpec(s);
      var webData := if ws.Some? then FetchWeb(ws.value, web) else None;
      var hasSnippets := webData.Some? && webData.value.snippets != [];
      var youtube := if s.youtube.Some? then FetchYouTube(s.youtube.value, contextQuery, yt) else None;
      var supa := if s.supadata.Some? then FetchSupadata(s.supadata.value, sd) else None;
      Enrichment(
        if hasSnippets then Some(webData.value.snippets) else None,
        if hasSnippets then Some((webData.value.query, webData.value.urls)) else None,
        youtube,
        supa,
        if supa.Some? then s.supadata else None)
  }

  /** Unavailable clients and a spec with no URLs and no query give nothing at all. */
  lemma NothingAvailableGivesNothing(spec: Spec, contextQuery: Option<string>, web: Web, yt: YouTube, sd: Supadata)
    requires !StrGiven(spec.searchQuery) && !ListGiven(spec.urls) && !ListGiven(spec.webUrls)
    requires !yt.available && !sd.available
    ensures EnrichContext(Some(spec), contextQuery, web, yt, sd) == NoEnrichment
  {
  }
}

=== FILE: services_supadata_mcp.dfy ===
/**
 The Supadata client: scraping, transcripts, site maps and crawls are tool
 calls made through an MCP session, one call per URL, gathered
 concurrently; calls that fail or answer nothing are dropped. The session is
 a parameter giving each call's answer, or nothing when the call raises.
 */
module SupadataMcp {
  import opened Common

  const ToolScrape := "supadata_scrape"
  const ToolTranscript := "supadata_transcript"
  const ToolMap := "supadata_map"
  const ToolCrawl := "supadata_crawl"

  /** One call's arguments; an empty URL counts as missing. */
  datatype Args = Args(url: string, lang: Option<string>, noLinks: Option<bool>, text: Option<bool>,
                       mode: Option<string>, limit: Option<int>)

  /** What a session returns for a tool call. */
  datatype ToolResult = ToolResult(isError: bool, structured: Option<map<string, string>>, content: seq<string>)

  /** A call's value: the structured content, the content blocks, or an empty dictionary. */
  datatype Payload = Structured(entries: map<string, string>) | Blocks(blocks: seq<string>) | EmptyPayload

  /** Python truthiness of a call's value: an empty dictionary is falsy. */
  predicate Truthy(p: Payload) {
    match p
    case Structured(m) => m != map[]
    case Blocks(_) => true
    case EmptyPayload => false
  }

  /** The client: whether it is enabled and connected, and the session's answer to each call (nothing when it raises). */
  datatype Client = Client(available: bool, connected: bool, session: (string, Args) -> Option<ToolResult>)

  /**
   `_call_tool`: raises (nothing) without a connection, when the session
   raises, or on an error payload; otherwise the structured content when
   present, else the content blocks when any, else an empty dictionary.
   */
  function CallTool(c: Client, tool: string, args: Args): (r: Option<Payload>)
    ensures r.Some? <==> c.connected && c.session(tool, args).Some? && !c.session(tool, args).value.isError
    ensures r.Some? && c.session(tool, args).value.structured.Some? ==>
      r.value == Structured(c.session(tool, args).value.structured.value)
    ensures r.Some? && c.session(tool, args).value.structured.None? ==>
      (r.value.Blocks? <==> c.session(tool, args).value.content != [])
  {
    if !c.connected then None
    else match c.session(tool, args)
      case None => None
      case Some(res) =>
        if res.isError then None
        else if res.structured.Some? then Some(Structured(res.structured.value))
        else if res.content != [] then Some(Blocks(res.content))
        else Some(EmptyPayload)
  }

  /** Structured content wins over content blocks. */
  lemma StructuredPreferred(c: Client, tool: string, args: Args, m: map<string, string>)
    requires c.connected && c.session(tool, args) == Some(ToolResult(false, Some(m), ["block"]))
    ensures CallTool(c, tool, args) == Some(Structured(m))
  {
  }

  /** The calls made, one per argument set with a URL, in order. */
  function Calls(c: Client, tool: string, argsList: seq<Args>): (outs: seq<Option<Payload>>)
    ensures |outs| == Count((a: Args) => a.url != "", argsList)
    ensures forall o :: o in outs ==> exists a :: a in argsList && a.url != "" && o == CallTool(c, tool, a)
  {
    if argsList == [] then []
    else
      assert forall a :: a in argsList[1..] ==> a in argsList;
      if argsList[0].url != "" then [CallTool(c, tool, argsList[0])] + Calls(c, tool, argsList[1..])
      else Calls(c, tool, argsList[1..])
  }

  /** The values of the calls that succeeded, in order. */
  function Successes(outs: seq<Option<Payload>>): (r: seq<Payload>)
    ensures |r| <= |outs|
  {
    if outs == [] then []
    else if outs[0].Some? then [outs[0].value] + Successes(outs[1..])
    else Successes(outs[1..])
  }

  /** The truthy values of the calls that succeeded, in order. */
  function Kept(outs: seq<Option<Payload>>): (r: seq<Payload>)
    ensures |r| <= |outs|
    ensures forall p :: p in r ==> Truthy(p) && Some(p) in outs
  {
    if outs == [] then []
    else
      var rest := Kept(outs[1..]);
      assert forall x :: x in outs[1..] ==> x in outs;
      if outs[0].Some? && Truthy(outs[0].value) then [outs[0].value] + rest else rest
  }

  /** What is kept is a subsequence of the successful values: order is preserved and nothing is invented. */
  lemma {:induction false} KeptIsSubsequence(outs: seq<Option<Payload>>)
    ensures IsSubsequence(Kept(outs), Successes(outs))
  {
    if outs != [] {
      KeptIsSubsequence(outs[1..]);
      var k, s := Kept(outs), Successes(outs);
      if outs[0].Some? {
        assert s[1..] == Successes(outs[1..]);
        if Truthy(outs[0].value) {
          assert k[0] == s[0] && k[1..] == Kept(outs[1..]);
        } else if k != [] {
          assert k == Kept(outs[1..]);
        }
      }
    }
  }

  /** When every call succeeds with something, everything is kept. */
  lemma {:induction false} AllKept(outs: seq<Option<Payload>>)
    requires forall i :: 0 <= i < |outs| ==> outs[i].Some? && Truthy(outs[i].value)
    ensures |Kept(outs)| == |outs|
  {
    if outs != [] {
      assert forall i :: 0 <= i < |outs[1..]| ==> outs[1..][i] == outs[i + 1];
      AllKept(outs[1..]);
    }
  }

  /**
   `_gather_results`: nothing from a disabled or unconnected client or for
   no arguments; otherwise one call per argument set with a URL, keeping the
   truthy values of those that succeeded, in order.
   */
  function GatherResults(c: Client, tool: string, argsList: seq<Args>): (r: seq<Payload>)
    ensures !c.available || !c.connected || argsList == [] ==> r == []
    ensures (forall i :: 0 <= i < |argsList| ==> argsList[i].url == "") ==> r == []
    ensures |r| <= Count((a: Args) => a.url != "", argsList)
    ensures forall p :: p in r ==> Truthy(p)
    ensures c.available && c.connected ==> r == Kept(Calls(c, tool, argsList))
  {
    if !c.available || !c.connected || argsList == [] then []
    else
      CountUniform((a: Args) => a.url != "", argsList);
      Kept(Calls(c, tool, argsList))
  }

  /** The result is a subsequence of the successful calls' values. */
  lemma GatherIsSubsequence(c: Client, tool: string, argsList: seq<Args>)
    requires c.available && c.connected
    ensures IsSubsequence(GatherResults(c, tool, argsList), Successes(Calls(c, tool, argsList)))
  {
    KeptIsSubsequence(Calls(c, tool, argsList));
  }

  /** When every argument set has a URL and every call answers something, every answer is kept. */
  lemma AllAnsweredAllKept(c: Client, tool: string, argsList: seq<Args>)
    requires c.available && c.connected
    requires forall a :: a in argsList ==> a.url != "" && CallTool(c, tool, a).Some? && Truthy(CallTool(c, tool, a).value)
    ensures |GatherResults(c, tool, argsList)| == |argsList|
  {
    var outs := Calls(c, tool, argsList);
    CountUniform((a: Args) => a.url != "", argsList);
    forall i | 0 <= i < |outs|
      ensures outs[i].Some? && Truthy(outs[i].value)
    {
      assert outs[i] in outs;
    }
    AllKept(outs);
  }

  function ScrapeArgs(urls: seq<string>, lang: string, noLinks: bool): (r: seq<Args>)
    ensures |r| == |urls| && forall i :: 0 <= i < |urls| ==> r[i].url == urls[i] && r[i].lang == Some(lang)
  {
    seq(|urls|, i requires 0 <= i < |urls| => Args(urls[i], Some(lang), Some(noLinks), None, None, None))
  }

  /** `scrape_urls`: one scrape per URL. */
  function ScrapeUrls(c: Client, urls: seq<string>, lang: string, noLinks: bool): (r: seq<Payload>)
    ensures |r| <= |urls|
    ensures forall p :: p in r ==> Truthy(p)
  {
    GatherResults(c, ToolScrape, ScrapeArgs(urls, lang, noLinks))
  }

  /** `fetch_transcripts`: one transcript request per URL. */
  function FetchTranscripts(c: Client, urls: seq<string>, lang: string, text: bool, mode: string): (r: seq<Payload>)
    ensures |r| <= |urls|
  {
    var args := seq(|urls|, i requires 0 <= i < |urls| => Args(urls[i], Some(lang), None, Some(text), Some(mode), None));
    GatherResults(c, ToolTranscript, args)
  }

  /** `map_site`: the first gathered value, if any. */
  function MapSite(c: Client, url: string): (r: Option<Payload>)
    ensures url == "" ==> r.None?
    ensures r.Some? ==> Truthy(r.value) && GatherResults(c, ToolMap, [Args(url, None, None, None, None, None)]) == [r.value]
  {
    var results := GatherResults(c, ToolMap, [Args(url, None, None, None, None, None)]);
    if results == [] then None else Some(results[0])
  }

  /** `crawl_site`'s arguments: the limit clamped to [1, 5000]. */
  function CrawlArgs(url: string, limit: int): (a: Args)
    ensures a.url == url && a.limit.Some? && 1 <= a.limit.value <= 5000
    ensures 1 <= limit <= 5000 ==> a.limit == Some(limit)
    ensures limit < 1 ==> a.limit == Some(1)
    ensures limit > 5000 ==> a.limit == Some(5000)
  {
    Args(url, None, None, None, None, Some(Clamp(limit, 1, 5000)))
  }

  /** `crawl_site`: the first gathered value, if any, of a crawl within the clamped limit. */
  function CrawlSite(c: Client, url: string, limit: int): (r: Option<Payload>)
    ensures url == "" ==> r.None?
    ensures r.Some? ==> Truthy(r.value) && GatherResults(c, ToolCrawl, [CrawlArgs(url, limit)]) == [r.value]
  {
    var results := GatherResults(c, ToolCrawl, [CrawlArgs(url, limit)]);
    if results == [] then None else Some(results[0])
  }

  /** A crawl whose call raises gives nothing. */
  lemma FailedCrawlGivesNothing(c: Client, url: string, limit: int)
    requires c.session(ToolCrawl, CrawlArgs(url, limit)).None?
    ensures CrawlSite(c, url, limit).None?
  {
    var a := [CrawlArgs(url, limit)];
    assert a[1..] == [];
  }
}

=== FILE: tools_competency_tools.dfy ===
/**
 The competency tools: the analyser that turns a list of scored responses
 into one competency score with a level, strengths, improvement areas and
 advice, and the security tool that pseudonymises personal fields.
 */
module CompetencyTools {
  import opened Common

  /** One response dictionary, reduced to the two keys the analyser reads. */
  datatype ResponseItem = ResponseItem(score: Option<real>, rating: Option<real>)

  /** The analyser's argument: not a dictionary, a dictionary without "responses", or one with them. */
  datatype AnalyzerInput = NotDict | NoResponsesKey | WithResponses(responses: seq<ResponseItem>)

  /** `_extract_features` for one response: the score, else the rating, else 0.5. */
  function Feature(r: ResponseItem): (f: real)
    ensures r.score.Some? ==> f == r.score.value
    ensures r.score.None? && r.rating.Some? ==> f == r.rating.value
    ensures r.score.None? && r.rating.None? ==> f == 0.5
  {
    match r.score
    case Some(s) => s
    case None => r.rating.GetOr(0.5)
  }

  function Features(rs: seq<ResponseItem>): (fs: seq<real>)
    ensures |fs| == |rs|
    ensures forall i :: 0 <= i < |rs| ==> fs[i] == Feature(rs[i])
  {
    if rs == [] then [] else [Feature(rs[0])] + Features(rs[1..])
  }

  function MeanR(fs: seq<real>): (m: real)
    requires fs != []
  {
    SumR(fs) / |fs| as real
  }

  /** The sum of squared deviations from `m`. */
  function SquaredDeviation(fs: seq<real>, m: real): (d: real)
    ensures d >= 0.0
  {
    if fs == [] then 0.0 else Square(fs[0] - m) + SquaredDeviation(fs[1..], m)
  }

  function Square(e: real): (r: real)
    ensures r >= 0.0
  {
    SquareNonNegative(e);
    e * e
  }

  lemma SquareNonNegative(e: real)
    ensures e * e >= 0.0
  {
    if e < 0.0 {
      assert e * e == (-e) * (-e);
    }
  }

  /** The population variance (the square of the standard deviation the analyser compares). */
  function Variance(fs: seq<real>): (v: real)
    requires fs != []
    ensures v >= 0.0
  {
    SquaredDeviation(fs, MeanR(fs)) / |fs| as real
  }

  /** `_calculate_competency_score`: the mean clamped to [0, 1], and 0 without features. */
  function CompetencyScore(fs: seq<real>): (s: real)
    ensures 0.0 <= s <= 1.0
    ensures fs == [] ==> s == 0.0
    ensures fs != [] && 0.0 <= MeanR(fs) <= 1.0 ==> s == MeanR(fs)
  {
    if fs == [] then 0.0 else ClampR(MeanR(fs), 0.0, 1.0)
  }

  datatype Level = Advanced | Intermediate | Novice | Basic {
    function Name(): string {
      match this
      case Advanced => "고급"
      case Intermediate => "중급"
      case Novice => "초급"
      case Basic => "기초"
    }
  }

  /** `_get_competency_level`: bands at 0.8, 0.6 and 0.4. */
  function LevelOf(score: real): (l: Level)
    ensures l == Advanced <==> score >= 0.8
    ensures l == Intermediate <==> 0.6 <= score < 0.8
    ensures l == Novice <==> 0.4 <= score < 0.6
    ensures l == Basic <==> score < 0.4
  {
    if score >= 0.8 then Advanced else if score >= 0.6 then Intermediate else if score >= 0.4 then Novice else Basic
  }

  /** A higher score never gives a lower level. */
  lemma LevelMonotone(a: real, b: real)
    requires a <= b
    ensures LevelRank(LevelOf(a)) <= LevelRank(LevelOf(b))
  {
  }

  function LevelRank(l: Level): (n: nat) {
    match l
    case Basic => 0
    case Novice => 1
    case Intermediate => 2
    case Advanced => 3
  }

  predicate AnyAbove(fs: seq<real>, t: real) { exists i :: 0 <= i < |fs| && fs[i] > t }
  predicate AnyBelow(fs: seq<real>, t: real) { exists i :: 0 <= i < |fs| && fs[i] < t }

  datatype Strength = HighAchievement | ConsistentResults
  datatype Improvement = BasicSkills | Consistency

  /** `_identify_strengths`: a feature above 0.7, then a mean above 0.6. */
  function Strengths(fs: seq<real>): (r: seq<Strength>)
    ensures fs == [] ==> r == []
    ensures HighAchievement in r <==> AnyAbove(fs, 0.7)
    ensures ConsistentResults in r <==> fs != [] && MeanR(fs) > 0.6
  {
    if fs == [] then []
    else (if AnyAbove(fs, 0.7) then [HighAchievement] else []) + (if MeanR(fs) > 0.6 then [ConsistentResults] else [])
  }

  /**
   `_identify_improvement_areas`: a feature below 0.4, then a standard
   deviation above 0.3 (compared here as a variance above 0.09, which is the
   same test since both sides are non-negative).
   */
  function ImprovementAreas(fs: seq<real>): (r: seq<Improvement>)
    ensures fs == [] ==> r == []
    ensures BasicSkills in r <==> AnyBelow(fs, 0.4)
    ensures Consistency in r <==> fs != [] && Variance(fs) > 0.09
  {
    if fs == [] then []
    else (if AnyBelow(fs, 0.4) then [BasicSkills] else []) + (if Variance(fs) > 0.09 then [Consistency] else [])
  }

  datatype Advice = BasicMaterials | PersonalPlan | AdvancedCourses | MorePractice | ExpertMaterials | Mentoring

  /** `_generate_recommendations`: two pieces of advice per band (below 0.4, below 0.7, the rest). */
  function AdviceFor(score: real): (r: seq<Advice>)
    ensures |r| == 2
    ensures score < 0.4 <==> r == [BasicMaterials, PersonalPlan]
    ensures 0.4 <= score < 0.7 <==> r == [AdvancedCourses, MorePractice]
    ensures score >= 0.7 <==> r == [ExpertMaterials, Mentoring]
  {
    if score < 0.4 then [BasicMaterials, PersonalPlan]
    else if score < 0.7 then [AdvancedCourses, MorePractice]
    else [ExpertMaterials, Mentoring]
  }

  datatype Analysis =
    | NoData
    | InvalidData
    | Failed
    | Analysed(score: real, level: Level, strengths: seq<Strength>, improvements: seq<Improvement>, advice: seq<Advice>)
  {
    /** The "competency_score" every result carries. */
    function Score(): real {
      if Analysed? then score else 0.0
    }
  }

  /**
   `analyze` as the pure-Python branch computes it: no responses give
   "no_data", anything but a dictionary with "responses" gives
   "invalid_data", and otherwise the score and its level, strengths,
   improvement areas and advice.
   */
  function Analyze(input: AnalyzerInput): (a: Analysis)
    ensures input.NotDict? || input.NoResponsesKey? <==> a == InvalidData
    ensures input.WithResponses? && input.responses == [] <==> a == NoData
    ensures 0.0 <= a.Score() <= 1.0
  {
    match input
    case WithResponses(rs) =>
      if rs == [] then NoData
      else
        var fs := Features(rs);
        var s := CompetencyScore(fs);
        Analysed(s, LevelOf(s), Strengths(fs), ImprovementAreas(fs), AdviceFor(s))
    case _ => InvalidData
  }

  /** Every analysed result's level and advice agree with its score, and its findings with its features. */
  lemma AnalysisConsistent(rs: seq<ResponseItem>)
    requires rs != []
    ensures var a := Analyze(WithResponses(rs));
      a.Analysed? && a.level == LevelOf(a.score) && |a.advice| == 2
      && (a.score >= 0.7 ==> Mentoring in a.advice)
      && (HighAchievement in a.strengths <==> exists r :: r in rs && Feature(r) > 0.7)
      && (BasicSkills in a.improvements <==> exists r :: r in rs && Feature(r) < 0.4)
  {
    var fs := Features(rs);
    assert AnyAbove(fs, 0.7) <==> exists r :: r in rs && Feature(r) > 0.7 by {
      if AnyAbove(fs, 0.7) {
        var i :| 0 <= i < |fs| && fs[i] > 0.7;
        assert rs[i] in rs;
      }
    }
    assert AnyBelow(fs, 0.4) <==> exists r :: r in rs && Feature(r) < 0.4 by {
      if AnyBelow(fs, 0.4) {
        var i :| 0 <= i < |fs| && fs[i] < 0.4;
        assert rs[i] in rs;
      }
    }
  }

  /** Responses that all carry the same score give that score's level and no consistency concern. */
  lemma {:induction false} UniformScores(rs: seq<ResponseItem>, x: real)
    requires rs != [] && 0.0 <= x <= 1.0
    requires forall r :: r in rs ==> r.score == Some(x)
    ensures var a := Analyze(WithResponses(rs));
      a.score == x && a.level == LevelOf(x) && Consistency !in a.improvements
  {
    var fs := Features(rs);
    assert forall i :: 0 <= i < |fs| ==> fs[i] == x by {
      forall i | 0 <= i < |fs| ensures fs[i] == x {
        assert rs[i] in rs;
      }
    }
    UniformSum(fs, x);
    var n := |fs| as real;
    assert SumR(fs) / n == x by {
      assert SumR(fs) == n * x;
    }
    assert MeanR(fs) == x;
    UniformDeviation(fs, x);
    assert Variance(fs) == 0.0;
  }

  lemma {:induction false} UniformSum(fs: seq<real>, x: real)
    requires forall i :: 0 <= i < |fs| ==> fs[i] == x
    ensures SumR(fs) == |fs| as real * x
  {
    if fs != [] {
      UniformSum(fs[1..], x);
    }
  }

  lemma {:induction false} UniformDeviation(fs: seq<real>, x: real)
    requires forall i :: 0 <= i < |fs| ==> fs[i] == x
    ensures SquaredDeviation(fs, x) == 0.0
  {
    if fs != [] {
      UniformDeviation(fs[1..], x);
    }
  }

  /**
   `analyze` as the branch with numpy available executes it: the features
   form an n-by-1 array, and `not features` on an array of two or more
   elements raises "truth value of an array is ambiguous", which the outer
   handler turns into the error result; a single feature of 0 is falsy, so
   the strengths and improvement areas come back empty.
   */
  function AnalyzeWithNumpy(input: AnalyzerInput): (a: Analysis)
  {
    match input
    case WithResponses(rs) =>
      if rs == [] then NoData
      else if |rs| >= 2 then Failed
      else
        var fs := Features(rs);
        var s := CompetencyScore(fs);
        if fs[0] == 0.0 then Analysed(s, LevelOf(s), [], [], AdviceFor(s))
        else Analysed(s, LevelOf(s), Strengths(fs), ImprovementAreas(fs), AdviceFor(s))
    case _ => InvalidData
  }

  /** With numpy, two or more responses always end in the error result; a lone zero score loses its improvement area. */
  lemma NumpyAnalysisFails(rs: seq<ResponseItem>)
    ensures |rs| >= 2 ==> AnalyzeWithNumpy(WithResponses(rs)) == Failed && Analyze(WithResponses(rs)).Analysed?
    ensures rs == [ResponseItem(Some(0.0), None)] ==>
      AnalyzeWithNumpy(WithResponses(rs)).improvements == [] && BasicSkills in Analyze(WithResponses(rs)).improvements
  {
    if rs == [ResponseItem(Some(0.0), None)] {
      var fs := Features(rs);
      assert fs[0] == 0.0 && AnyBelow(fs, 0.4);
    }
  }

  /** A dictionary item: its keys in order and their values (as `str` renders them). */
  datatype Item = DictItem(d: map<string, string>) | OtherItem(tag: nat)

  /** The keys the security tool replaces. */
  predicate Personal(k: string) { k == "name" || k == "email" || k == "phone" || k == "id" }

  /**
   `anonymize_personal_data`: every dictionary item gets each personal key
   it holds replaced by the hash of its value; other items pass unchanged.
   The truncated MD5 digest is the parameter `hash`.
   */
  function Anonymize(items: seq<Item>, hash: string -> string): (r: seq<Item>)
    ensures |r| == |items|
    ensures forall i :: 0 <= i < |items| && items[i].OtherItem? ==> r[i] == items[i]
    ensures forall i :: 0 <= i < |items| && items[i].DictItem? ==>
      r[i].DictItem? && r[i].d.Keys == items[i].d.Keys
      && (forall k :: k in items[i].d && !Personal(k) ==> r[i].d[k] == items[i].d[k])
      && (forall k :: k in items[i].d && Personal(k) ==> r[i].d[k] == hash(items[i].d[k]))
  {
    if items == [] then []
    else [AnonymizeItem(items[0], hash)] + Anonymize(items[1..], hash)
  }

  function AnonymizeItem(item: Item, hash: string -> string): (r: Item)
  {
    match item
    case OtherItem(_) => item
    case DictItem(d) => DictItem(map k | k in d :: if Personal(k) then hash(d[k]) else d[k])
  }

  /** Anonymising twice hashes the personal values twice and leaves everything else as the first pass left it. */
  lemma {:induction false} AnonymizeTwice(items: seq<Item>, hash: string -> string)
    ensures var once := Anonymize(items, hash);
      var twice := Anonymize(once, hash);
      forall i :: 0 <= i < |items| && items[i].DictItem? ==>
        forall k :: k in items[i].d ==> twice[i].d[k] == (if Personal(k) then hash(hash(items[i].d[k])) else items[i].d[k])
  {
  }
}

=== FILE: tools_llm_tools.dfy ===
/**
 The model-selection tools: a per-model performance monitor that accumulates
 request statistics and names the best model under one criterion, and the
 selector that maps a task type, a priority and a token budget to one of five
 known models.
 */
module LlmTools {
  import opened Common

  /* ------------------------------------------------------------ the monitor */

  /** The running totals `record_performance` keeps for one model. */
  datatype ModelStats = ModelStats(totalRequests: nat, totalResponseTime: real, totalCost: real, successCount: nat)

  /** One recorded call; the timestamp is not modelled. */
  datatype Performance = Performance(modelName: string, responseTime: real, successRate: real, cost: real)

  datatype Monitor = Monitor(history: seq<Performance>, stats: ODict<ModelStats>) {
    ghost predicate Valid() { stats.Valid() }
  }

  function NewMonitor(): (m: Monitor)
    ensures m.Valid() && m.history == [] && m.stats.m == map[]
  {
    Monitor([], EmptyDict())
  }

  /** The statistics of a model, all zero when it was never seen. */
  function StatsOf(m: Monitor, name: string): ModelStats {
    if name in m.stats.m then m.stats.m[name] else ModelStats(0, 0.0, 0.0, 0)
  }

  /** `record_performance`: append to the history and add the call to the model's totals. */
  function RecordPerformance(m: Monitor, p: Performance): (r: Monitor)
    requires m.Valid()
    ensures r.Valid()
  {
    var s := StatsOf(m, p.modelName);
    var s' := ModelStats(s.totalRequests + 1, s.totalResponseTime + p.responseTime, s.totalCost + p.cost,
                         if p.successRate > 0.5 then s.successCount + 1 else s.successCount);
    Monitor(m.history + [p], m.stats.Set(p.modelName, s'))
  }

  /**
   Recording counts one more request for the model, one more success exactly
   when the success rate exceeds 0.5, adds time and cost, and leaves every
   other model's statistics alone.
   */
  lemma RecordCounts(m: Monitor, p: Performance, other: string)
    requires m.Valid()
    ensures var r := RecordPerformance(m, p);
      var before, after := StatsOf(m, p.modelName), StatsOf(r, p.modelName);
      r.history == m.history + [p]
      && after.totalRequests == before.totalRequests + 1
      && (after.successCount == before.successCount + 1 <==> p.successRate > 0.5)
      && (p.successRate <= 0.5 ==> after.successCount == before.successCount)
      && after.totalCost == before.totalCost + p.cost
      && after.totalResponseTime == before.totalResponseTime + p.responseTime
      && p.modelName in r.stats.m
      && (other != p.modelName ==> StatsOf(r, other) == StatsOf(m, other))
  {
  }

  /** Every model's success count stays within its request count. */
  ghost predicate CountsConsistent(m: Monitor) {
    forall k :: k in m.stats.m ==> m.stats.m[k].successCount <= m.stats.m[k].totalRequests
  }

  lemma RecordKeepsCountsConsistent(m: Monitor, p: Performance)
    requires m.Valid() && CountsConsistent(m)
    ensures CountsConsistent(RecordPerformance(m, p))
  {
  }

  /** A model that has served at least one request. */
  predicate Measured(s: ModelStats) { s.totalRequests > 0 }

  /** The quantity a criterion compares: mean response time, success ratio or mean cost. */
  function Metric(s: ModelStats, criterion: string): real
    requires Measured(s)
  {
    if criterion == "response_time" then s.totalResponseTime / s.totalRequests as real
    else if criterion == "success_rate" then s.successCount as real / s.totalRequests as real
    else s.totalCost / s.totalRequests as real
  }

  /** `x` is strictly better than `y`: lower time or cost, higher success; an unknown criterion prefers nothing. */
  predicate Better(criterion: string, x: real, y: real) {
    if criterion == "response_time" || criterion == "cost" then x < y
    else if criterion == "success_rate" then x > y
    else false
  }

  /** The running best score: Python's `float("inf")` or a finite value. */
  datatype Bound = Infinite | At(v: real)

  /** `x` beats the running best, with `x < inf` true and `x > inf` false. */
  predicate Improves(criterion: string, x: real, b: Bound) {
    match b
    case Infinite => criterion == "response_time" || criterion == "cost"
    case At(v) => Better(criterion, x, v)
  }

  /**
   The loop of `get_best_performing_model` from position `k` of the model
   order, with the index of the running best model.
   */
  function Scan(keys: seq<string>, stats: map<string, ModelStats>, criterion: string, k: nat, best: Option<nat>, bound: Bound)
    : (r: Option<nat>)
    requires k <= |keys| && forall i :: 0 <= i < |keys| ==> keys[i] in stats
    requires best.Some? ==> best.value < |keys|
    ensures r.Some? ==> r.value < |keys|
    decreases |keys| - k
  {
    if k == |keys| then best
    else if !Measured(stats[keys[k]]) then Scan(keys, stats, criterion, k + 1, best, bound)
    else
      var x := Metric(stats[keys[k]], criterion);
      if Improves(criterion, x, bound) then Scan(keys, stats, criterion, k + 1, Some(k), At(x))
      else Scan(keys, stats, criterion, k + 1, best, bound)
  }

  /**
   The scan's result: either nothing after `k` beat the starting bound and the
   running best is returned, or the winner is a measured model after `k` that
   beats the bound, that no later model beats, and that strictly beats every
   measured model before it.
   */
  lemma {:induction false} ScanOptimal(keys: seq<string>, stats: map<string, ModelStats>, criterion: string, k: nat,
                                       best: Option<nat>, bound: Bound)
    requires k <= |keys| && forall i :: 0 <= i < |keys| ==> keys[i] in stats
    requires best.Some? ==> best.value < k
    ensures var r := Scan(keys, stats, criterion, k, best, bound);
      (r == best ==> forall j :: k <= j < |keys| && Measured(stats[keys[j]]) ==>
                       !Improves(criterion, Metric(stats[keys[j]], criterion), bound))
      && (r != best ==> ( r.Some? && k <= r.value < |keys| && Measured(stats[keys[r.value]])
            && Improves(criterion, Metric(stats[keys[r.value]], criterion), bound)
            && (forall j :: k <= j < |keys| && Measured(stats[keys[j]]) ==>
                  !Better(criterion, Metric(stats[keys[j]], criterion), Metric(stats[keys[r.value]], criterion)))
            && (forall j :: k <= j < r.value && Measured(stats[keys[j]]) ==>
                  Better(criterion, Metric(stats[keys[r.value]], criterion), Metric(stats[keys[j]], criterion)))))
    decreases |keys| - k
  {
    if k < |keys| {
      if !Measured(stats[keys[k]]) {
        ScanOptimal(keys, stats, criterion, k + 1, best, bound);
      } else {
        var x := Metric(stats[keys[k]], criterion);
        if Improves(criterion, x, bound) {
          ScanOptimal(keys, stats, criterion, k + 1, Some(k), At(x));
          var r := Scan(keys, stats, criterion, k + 1, Some(k), At(x));
          if r != Some(k) {
            forall j | k <= j < r.value && Measured(stats[keys[j]])
              ensures Better(criterion, Metric(stats[keys[r.value]], criterion), Metric(stats[keys[j]], criterion))
            {
              if j == k { } else { }
            }
            ImprovesAfter(criterion, Metric(stats[keys[r.value]], criterion), x, bound);
          }
        } else {
          ScanOptimal(keys, stats, criterion, k + 1, best, bound);
          var r := Scan(keys, stats, criterion, k + 1, best, bound);
          if r != best {
            NotImprovingIsNotBetter(criterion, x, Metric(stats[keys[r.value]], criterion), bound);
          }
        }
      }
    }
  }

  /** Beating a value that itself beats the bound beats the bound. */
  lemma ImprovesAfter(criterion: string, y: real, x: real, bound: Bound)
    requires Improves(criterion, x, bound) && Better(criterion, y, x)
    ensures Improves(criterion, y, bound)
  {
  }

  /** A value that fails the bound is no better than one that passes it. */
  lemma NotImprovingIsNotBetter(criterion: string, x: real, y: real, bound: Bound)
    requires !Improves(criterion, x, bound) && Improves(criterion, y, bound)
    ensures !Better(criterion, x, y)
  {
  }

  const DefaultBest := "gpt-5.2"

  /** The initial best score as written: infinity only for response time, 0.0 for every other criterion. */
  function WrittenStart(criterion: string): Bound {
    if criterion == "response_time" then Infinite else At(0.0)
  }

  /** The initial best score a minimising criterion needs: infinity for response time and for cost. */
  function IntendedStart(criterion: string): Bound {
    if criterion == "response_time" || criterion == "cost" then Infinite else At(0.0)
  }

  /** The winner of a scan from a given starting bound, or "gpt-5.2". */
  function BestFrom(m: Monitor, criterion: string, start: Bound): (r: string)
    requires m.Valid()
  {
    if m.stats.m == map[] then DefaultBest
    else
      match Scan(m.stats.order, m.stats.m, criterion, 0, None, start)
      case None => DefaultBest
      case Some(i) => m.stats.order[i]
  }

  /** `get_best_performing_model` as written. */
  function BestPerformingModel(m: Monitor, criterion: string): (r: string)
    requires m.Valid()
  {
    BestFrom(m, criterion, WrittenStart(criterion))
  }

  /** `get_best_performing_model` with the cost criterion starting at infinity. */
  function BestPerformingModelFixed(m: Monitor, criterion: string): (r: string)
    requires m.Valid()
  {
    BestFrom(m, criterion, IntendedStart(criterion))
  }

  /** Under a minimising criterion started at infinity, the first measured model of least metric wins. */
  lemma {:induction false} MinimisingCriterionPicksLeast(m: Monitor, criterion: string)
    requires m.Valid() && (criterion == "response_time" || criterion == "cost")
    requires exists k :: k in m.stats.m && Measured(m.stats.m[k])
    ensures var r := BestPerformingModelFixed(m, criterion);
      r in m.stats.m && Measured(m.stats.m[r])
      && forall k :: k in m.stats.m && Measured(m.stats.m[k]) ==> Metric(m.stats.m[r], criterion) <= Metric(m.stats.m[k], criterion)
  {
    var keys, stats := m.stats.order, m.stats.m;
    var k :| k in stats && Measured(stats[k]);
    var j :| 0 <= j < |keys| && keys[j] == k;
    ScanOptimal(keys, stats, criterion, 0, None, IntendedStart(criterion));
    var s := Scan(keys, stats, criterion, 0, None, IntendedStart(criterion));
    assert s.Some?;
    forall k' | k' in stats && Measured(stats[k'])
      ensures Metric(stats[keys[s.value]], criterion) <= Metric(stats[k'], criterion)
    {
      var j' :| 0 <= j' < |keys| && keys[j'] == k';
    }
  }

  /** Response time behaves as intended as written too: the fastest measured model wins. */
  lemma FastestModelWins(m: Monitor)
    requires m.Valid() && exists k :: k in m.stats.m && Measured(m.stats.m[k])
    ensures var r := BestPerformingModel(m, "response_time");
      r in m.stats.m && Measured(m.stats.m[r])
      && forall k :: k in m.stats.m && Measured(m.stats.m[k]) ==>
           Metric(m.stats.m[r], "response_time") <= Metric(m.stats.m[k], "response_time")
  {
    MinimisingCriterionPicksLeast(m, "response_time");
  }

  /** The corrected cost criterion names the measured model of least mean cost. */
  lemma CheapestModelWins(m: Monitor)
    requires m.Valid() && exists k :: k in m.stats.m && Measured(m.stats.m[k])
    ensures var r := BestPerformingModelFixed(m, "cost");
      r in m.stats.m && Measured(m.stats.m[r])
      && forall k :: k in m.stats.m && Measured(m.stats.m[k]) ==> Metric(m.stats.m[r], "cost") <= Metric(m.stats.m[k], "cost")
  {
    MinimisingCriterionPicksLeast(m, "cost");
  }

  /**
   As written, the cost criterion starts from 0.0 and asks for a smaller mean
   cost, so with non-negative costs no model ever wins and "gpt-5.2" comes back.
   */
  lemma CostCriterionNeverWins(m: Monitor)
    requires m.Valid()
    requires forall k :: k in m.stats.m ==> m.stats.m[k].totalCost >= 0.0
    ensures BestPerformingModel(m, "cost") == DefaultBest
  {
    if m.stats.m != map[] {
      var keys, stats := m.stats.order, m.stats.m;
      ScanOptimal(keys, stats, "cost", 0, None, At(0.0));
    }
  }

  /**
   The success-rate winner has a positive success ratio no other measured
   model exceeds; when every ratio is 0 (or nothing was measured) the answer
   is "gpt-5.2".
   */
  lemma MostReliableModelWins(m: Monitor)
    requires m.Valid()
    ensures var r := BestPerformingModel(m, "success_rate");
      (exists k :: k in m.stats.m && Measured(m.stats.m[k]) && Metric(m.stats.m[k], "success_rate") > 0.0)
      ==> r in m.stats.m && Measured(m.stats.m[r]) && Metric(m.stats.m[r], "success_rate") > 0.0
          && forall k :: k in m.stats.m && Measured(m.stats.m[k]) ==>
               Metric(m.stats.m[k], "success_rate") <= Metric(m.stats.m[r], "success_rate")
    ensures (forall k :: k in m.stats.m && Measured(m.stats.m[k]) ==> Metric(m.stats.m[k], "success_rate") <= 0.0)
      ==> BestPerformingModel(m, "success_rate") == DefaultBest
  {
    var keys, stats := m.stats.order, m.stats.m;
    if stats != map[] {
      ScanOptimal(keys, stats, "success_rate", 0, None, At(0.0));
      var s := Scan(keys, stats, "success_rate", 0, None, At(0.0));
      if exists k :: k in stats && Measured(stats[k]) && Metric(stats[k], "success_rate") > 0.0 {
        var k :| k in stats && Measured(stats[k]) && Metric(stats[k], "success_rate") > 0.0;
        var j :| 0 <= j < |keys| && keys[j] == k;
        assert s.Some?;
        forall k' | k' in stats && Measured(stats[k'])
          ensures Metric(stats[k'], "success_rate") <= Metric(stats[keys[s.value]], "success_rate")
        {
          var j' :| 0 <= j' < |keys| && keys[j'] == k';
        }
      }
    }
  }

  /** An unknown criterion never updates the running best. */
  lemma UnknownCriterionGivesDefault(m: Monitor, criterion: string)
    requires m.Valid() && criterion !in {"response_time", "success_rate", "cost"}
    ensures BestPerformingModel(m, criterion) == DefaultBest
  {
    if m.stats.m != map[] {
      ScanOptimal(m.stats.order, m.stats.m, criterion, 0, None, At(0.0));
    }
  }

  /* ----------------------------------------------------------- the selector */

  /** The selector's catalogue. */
  datatype Model = Gpt52 | Gpt5Mini | ClaudeSonnet | Gpt52Pro | Llama3 {
    function Name(): string {
      match this
      case Gpt52 => "gpt-5.2"
      case Gpt5Mini => "gpt-5-mini"
      case ClaudeSonnet => "claude-sonnet-4-5-20250929"
      case Gpt52Pro => "gpt-5.2-pro"
      case Llama3 => "llama-3-8b-instruct"
    }

    function MaxTokens(): int {
      match this
      case ClaudeSonnet => 200000
      case Llama3 => 8000
      case _ => 128000
    }

    function CostPer1k(): real {
      match this
      case Gpt52 => 0.03
      case Gpt5Mini => 0.0015
      case ClaudeSonnet => 0.015
      case Gpt52Pro => 0.06
      case Llama3 => 0.0
    }

    predicate Fast() { this == Gpt5Mini || this == Llama3 }
  }

  /** `available_models`, in its declared order. */
  const AvailableModels: seq<Model> := [Gpt52, Gpt5Mini, ClaudeSonnet, Gpt52Pro, Llama3]

  /** The catalogue entry with a given name, if any. */
  function ModelNamed(name: string): (r: Option<Model>)
    ensures r.Some? ==> r.value.Name() == name
    ensures forall m: Model :: m.Name() == name ==> r == Some(m)
  {
    if name == "gpt-5.2" then Some(Gpt52)
    else if name == "gpt-5-mini" then Some(Gpt5Mini)
    else if name == "claude-sonnet-4-5-20250929" then Some(ClaudeSonnet)
    else if name == "gpt-5.2-pro" then Some(Gpt52Pro)
    else if name == "llama-3-8b-instruct" then Some(Llama3)
    else None
  }

  /** `estimate_tokens`: one token per four characters, at least one. */
  function EstimateTokens(text: string): (n: int)
    ensures n >= 1
    ensures |text| >= 4 ==> 4 * n <= |text| < 4 * n + 4
    ensures |text| < 4 ==> n == 1
  {
    Max(1, |text| / 4)
  }

  datatype Criteria = Criteria(taskType: string, priority: string, maxTokens: int)

  /**
   The catalogue models whose context window holds the request, in catalogue
   order: the windows are 8000, 128000 (three models) and 200000 tokens.
   */
  function SuitableModels(maxTokens: int): (r: seq<Model>)
    ensures forall x :: x in r <==> x.MaxTokens() >= maxTokens
  {
    if maxTokens <= 8000 then AvailableModels
    else if maxTokens <= 128000 then [Gpt52, Gpt5Mini, ClaudeSonnet, Gpt52Pro]
    else if maxTokens <= 200000 then [ClaudeSonnet]
    else []
  }

  /** The first of the cheapest models: the head of Python's stable `sorted` by cost. */
  function Cheapest(models: seq<Model>): (r: Model)
    requires models != []
    ensures r in models
    ensures forall x :: x in models ==> r.CostPer1k() <= x.CostPer1k()
  {
    if |models| == 1 then models[0]
    else
      var rest := Cheapest(models[1..]);
      if rest.CostPer1k() < models[0].CostPer1k() then rest else models[0]
  }

  /** The balanced choice: gpt-5-mini, then gpt-5.2, then the first suitable model. */
  function DefaultChoice(suitable: seq<Model>): Model
    requires suitable != []
  {
    if Gpt5Mini in suitable then Gpt5Mini
    else if Gpt52 in suitable then Gpt52
    else suitable[0]
  }

  /**
   The part of `select_model` after the fixed task types: among the models
   that hold the request, the performance leader, the cheapest, or the
   balanced choice.
   */
  function SelectAmong(priority: string, suitable: seq<Model>, leader: Option<Model>): Model {
    if suitable == [] then Gpt5Mini
    else if priority == "performance" && leader.Some? && leader.value in suitable then leader.value
    else if priority == "cost" then Cheapest(suitable)
    else DefaultChoice(suitable)
  }

  /**
   `select_model`. The later speed branch of the source is unreachable, since
   a "speed" priority returns at the routing test, and is not repeated here.
   */
  function SelectModel(c: Criteria, monitor: Monitor): Model
    requires monitor.Valid()
  {
    if c.taskType == "tool_execution" || c.taskType == "coding" then Gpt52
    else if c.taskType == "planning" || c.taskType == "reasoning" then Gpt52Pro
    else if c.taskType == "routing" || c.priority == "speed" then
      (if Llama3 in AvailableModels then Llama3 else Gpt5Mini)
    else SelectAmong(c.priority, SuitableModels(c.maxTokens), ModelNamed(BestPerformingModel(monitor, "success_rate")))
  }

  /** The task type alone decides for tool use, coding, planning, reasoning, routing and the speed priority. */
  lemma TaskTypeDecidesFirst(c: Criteria, monitor: Monitor)
    requires monitor.Valid()
    ensures c.taskType in {"tool_execution", "coding"} ==> SelectModel(c, monitor) == Gpt52
    ensures c.taskType in {"planning", "reasoning"} ==> SelectModel(c, monitor) == Gpt52Pro
    ensures c.taskType !in {"tool_execution", "coding", "planning", "reasoning"}
            && (c.taskType == "routing" || c.priority == "speed")
            ==> SelectModel(c, monitor) == Llama3
  {
  }

  /** Past the fixed task types the choice holds the request, or is gpt-5-mini when nothing does. */
  lemma SelectionHoldsRequest(c: Criteria, monitor: Monitor)
    requires monitor.Valid()
    requires c.taskType !in {"tool_execution", "coding", "planning", "reasoning", "routing"} && c.priority != "speed"
    ensures c.maxTokens <= 200000 ==> SelectModel(c, monitor).MaxTokens() >= c.maxTokens
    ensures c.maxTokens > 200000 ==> SelectModel(c, monitor) == Gpt5Mini
  {
    assert ClaudeSonnet.MaxTokens() == 200000;
    assert c.maxTokens <= 200000 ==> ClaudeSonnet in SuitableModels(c.maxTokens);
  }

  /** The cost priority returns a model that holds the request and costs no more than any other that does. */
  lemma CostPriorityPicksCheapest(c: Criteria, monitor: Monitor)
    requires monitor.Valid()
    requires c.taskType !in {"tool_execution", "coding", "planning", "reasoning", "routing"} && c.priority == "cost"
    requires c.maxTokens <= 200000
    ensures var r := SelectModel(c, monitor);
      r.MaxTokens() >= c.maxTokens
      && forall x: Model :: x.MaxTokens() >= c.maxTokens ==> r.CostPer1k() <= x.CostPer1k()
  {
    assert ClaudeSonnet in SuitableModels(c.maxTokens);
  }

  /** Under the cost priority the selection is the cheapest suitable model. */
  lemma CheapestChosenForCost(c: Criteria, monitor: Monitor)
    requires monitor.Valid()
    requires c.taskType !in {"tool_execution", "coding", "planning", "reasoning", "routing"} && c.priority == "cost"
    requires c.maxTokens <= 200000
    ensures SuitableModels(c.maxTokens) != [] && SelectModel(c, monitor) == Cheapest(SuitableModels(c.maxTokens))
  {
    assert ClaudeSonnet in SuitableModels(c.maxTokens);
  }

  /** Larger requests up to 128000 tokens on the cost priority go to gpt-5-mini. */
  lemma MidCostRequestGoesMini(c: Criteria, monitor: Monitor)
    requires monitor.Valid()
    requires c.taskType !in {"tool_execution", "coding", "planning", "reasoning", "routing"} && c.priority == "cost"
    requires 8000 < c.maxTokens <= 128000
    ensures SelectModel(c, monitor) == Gpt5Mini
  {
    var suitable := SuitableModels(c.maxTokens);
    CheapestChosenForCost(c, monitor);
    assert Gpt5Mini in suitable && Llama3 !in suitable;
  }

  /** Any other priority gets gpt-5-mini whenever gpt-5-mini holds the request. */
  lemma BalancedPriorityGetsMini(c: Criteria, monitor: Monitor)
    requires monitor.Valid()
    requires c.taskType !in {"tool_execution", "coding", "planning", "reasoning", "routing"}
    requires c.priority !in {"performance", "cost", "speed"}
    requires c.maxTokens <= 128000
    ensures SelectModel(c, monitor) == Gpt5Mini
  {
    assert Gpt5Mini in SuitableModels(c.maxTokens);
  }

  /** A performance priority uses the success-rate leader only when it is a catalogue model holding the request. */
  lemma PerformancePriorityFallsBack(c: Criteria, monitor: Monitor)
    requires monitor.Valid()
    requires c.taskType !in {"tool_execution", "coding", "planning", "reasoning", "routing"} && c.priority == "performance"
    requires c.maxTokens <= 128000
    ensures var leader := ModelNamed(BestPerformingModel(monitor, "success_rate"));
      SelectModel(c, monitor) == if leader.Some? && leader.value.MaxTokens() >= c.maxTokens then leader.value else Gpt5Mini
  {
    assert Gpt5Mini in SuitableModels(c.maxTokens);
  }
}

=== FILE: tools_vector_search_tools.dfy ===
/**
 The vector search tool: an embedding backend chosen at start-up, Pinecone
 when it is configured, and otherwise an in-memory keyword fallback over a
 dictionary of documents. Pinecone, the embedding services and `uuid4` are
 parameters.
 */
module VectorSearchTools {
  import opened Common

  /* -------------------------------------------------------------- backend */

  datatype EmbeddingBackend = OpenAI | Voyage | Sentence | Fallback

  const DefaultModel := "all-MiniLM-L6-v2"

  /** What the environment offers at start-up. */
  datatype Setup = Setup(
    modelName: string,
    openaiAvailable: bool,
    openaiStarts: bool,
    voyageAvailable: bool,
    voyageKey: string,
    voyageStarts: bool,
    sentenceAvailable: bool)

  /** The configured embedding model name, or the default when it is empty. */
  function ModelName(s: Setup): (n: string)
    ensures n != ""
  {
    if s.modelName != "" then s.modelName else DefaultModel
  }

  predicate OpenAIChosen(s: Setup) {
    IsPrefix("text-embedding", ModelName(s)) && s.openaiAvailable && s.openaiStarts
  }

  predicate VoyageChosen(s: Setup) {
    !OpenAIChosen(s) && IsPrefix("voyage-", ModelName(s)) && s.voyageAvailable && s.voyageKey != "" && s.voyageStarts
  }

  /**
   The backend chosen by `_initialize_components` as written: the sentence
   step's `else` branch also runs when Voyage was just chosen, and resets it
   to the fallback.
   */
  function BackendAsWritten(s: Setup): (b: EmbeddingBackend)
    ensures b == OpenAI <==> OpenAIChosen(s)
  {
    var afterOpenAI := if OpenAIChosen(s) then OpenAI else Fallback;
    var afterVoyage := if VoyageChosen(s) then Voyage else afterOpenAI;
    if afterVoyage != OpenAI then
      (if afterVoyage != Voyage && s.sentenceAvailable then Sentence else Fallback)
    else afterVoyage
  }

  /** As written, the Voyage backend is never the one in use. */
  lemma VoyageNeverSelected(s: Setup)
    ensures BackendAsWritten(s) != Voyage
  {
  }

  /** A Voyage model with a key and a working client still ends on the fallback as written. */
  lemma VoyageModelFallsBack()
    ensures var s := Setup("voyage-3", false, false, true, "key", true, true);
      VoyageChosen(s) && BackendAsWritten(s) == Fallback
  {
    var s := Setup("voyage-3", false, false, true, "key", true, true);
    assert ModelName(s) == "voyage-3";
    assert IsPrefix("voyage-", "voyage-3");
    assert !IsPrefix("text-embedding", "voyage-3") by {
      assert "voyage-3"[0] != "text-embedding"[0];
    }
  }

  /**
   The evidently intended choice: OpenAI for a `text-embedding` model,
   Voyage for a `voyage-` model with a key, else SentenceTransformers when
   installed, else the hash fallback.
   */
  function ChosenBackend(s: Setup): (b: EmbeddingBackend)
    ensures b == OpenAI <==> OpenAIChosen(s)
    ensures b == Voyage <==> VoyageChosen(s)
    ensures b == Sentence <==> !OpenAIChosen(s) && !VoyageChosen(s) && s.sentenceAvailable
  {
    if OpenAIChosen(s) then OpenAI
    else if VoyageChosen(s) then Voyage
    else if s.sentenceAvailable then Sentence
    else Fallback
  }

  /** The two choices differ only where the as-written one drops Voyage. */
  lemma BackendsAgreeOffVoyage(s: Setup)
    ensures ChosenBackend(s) != Voyage ==> BackendAsWritten(s) == ChosenBackend(s)
    ensures ChosenBackend(s) == Voyage ==> BackendAsWritten(s) == Fallback
  {
  }

  /** The SentenceTransformer model: the configured name unless it names an OpenAI model. */
  function SentenceModel(s: Setup): (n: string)
    ensures IsPrefix("text-embedding", ModelName(s)) ==> n == DefaultModel
    ensures !IsPrefix("text-embedding", ModelName(s)) ==> n == ModelName(s)
    ensures n != "" && !IsPrefix("text-embedding", n)
  {
    assert DefaultModel[0] != "text-embedding"[0];
    if IsPrefix("text-embedding", ModelName(s)) then DefaultModel else ModelName(s)
  }

  /* ------------------------------------------------------------ documents */

  /** A document's content: text, or some other value, on which `.lower()` raises. */
  datatype Content = Text(s: string) | NotText

  /** A stored document dictionary: its optional id, content and metadata. */
  datatype Doc = Doc(id: Option<string>, content: Option<Content>, metadata: Option<map<string, string>>)

  /** The tool. `documents` is `None` when the attribute was never created. */
  datatype Tool = Tool(backend: EmbeddingBackend, pinecone: bool, documents: Option<ODict<Doc>>)

  ghost predicate ToolValid(t: Tool) {
    t.documents.Some? ==> t.documents.value.Valid()
  }

  /**
   `__init__` as written: the document dictionary exists only when start-up
   raised (`raised`), in which case Pinecone stays off.
   */
  function Init(s: Setup, pineconeConfigured: bool, raised: bool): (t: Tool)
    ensures ToolValid(t)
    ensures t.documents.Some? <==> raised
    ensures t.pinecone <==> pineconeConfigured && !raised
  {
    Tool(BackendAsWritten(s), pineconeConfigured && !raised, if raised then Some(EmptyDict()) else None)
  }

  /** The evidently intended start-up: the document dictionary always exists, and the intended backend is used. */
  function InitChecked(s: Setup, pineconeConfigured: bool, raised: bool): (t: Tool)
    ensures ToolValid(t) && t.documents == Some(EmptyDict())
    ensures t.pinecone <==> pineconeConfigured && !raised
  {
    Tool(ChosenBackend(s), pineconeConfigured && !raised, Some(EmptyDict()))
  }

  /* -------------------------------------------------------------- search */

  datatype Hit = Hit(id: string, content: string, score: real, metadata: map<string, string>)

  function HitScore(h: Hit): real { h.score }

  /** The single result returned when the fallback search raises. */
  function Sentinel(query: string): (r: seq<Hit>)
    ensures |r| == 1 && r[0].id == "fallback" && r[0].score == 0.5
  {
    [Hit("fallback", "검색 결과: " + query, 0.5, map["source" := "fallback"])]
  }

  /** `str.count`: the empty pattern occurs once more than the length. */
  function PyCount(s: string, t: string): (n: nat)
    ensures Contains(s, t) ==> n > 0
  {
    if t == "" then |s| + 1 else CountOccurrences(s, t)
  }

  /**
   The keyword score of one document against the lowered query: `None`
   where scoring raises (content that is not text, or a match in content
   with no words), otherwise the hit, or nothing for a document without
   content or without a match.
   */
  function ScoreDoc(k: string, d: Doc, q: string): (r: Option<Option<Hit>>)
    ensures r.None? <==>
      (d.content == Some(NotText)
       || (d.content.Some? && d.content.value.Text? && Contains(Lower(d.content.value.s), q) && Words(Lower(d.content.value.s)) == []))
    ensures r.Some? && r.value.Some? ==>
      (r.value.value.id == k && d.content.Some? && d.content.value.Text?
       && Contains(Lower(d.content.value.s), q) && 0.0 < r.value.value.score <= 1.0
       && r.value.value.content == d.content.value.s)
  {
    match d.content
    case None => Some(None)
    case Some(NotText) => None
    case Some(Text(c)) =>
      var lc := Lower(c);
      if !Contains(lc, q) then Some(None)
      else
        var words := |Words(lc)|;
        if words == 0 then None
        else
          Some(Some(Hit(k, c, Density(PyCount(lc, q), words), d.metadata.GetOr(map[]))))
  }

  /** Occurrences per word, capped at 1: positive when there is an occurrence. */
  function Density(count: nat, words: nat): (r: real)
    requires words > 0
    ensures r <= 1.0
    ensures count > 0 ==> 0.0 < r
  {
    var ratio := count as real / words as real;
    assert count > 0 ==> ratio > 0.0 by {
      if count > 0 { assert ratio * words as real == count as real; }
    }
    MinR(ratio, 1.0)
  }

  /** The scan over the document dictionary in insertion order; `None` when a document raises. */
  function Scan(keys: seq<string>, m: map<string, Doc>, q: string): (r: Option<seq<Hit>>)
    requires forall k :: k in keys ==> k in m
    ensures r.Some? ==> |r.value| <= |keys|
    ensures r.Some? ==> forall h :: h in r.value ==>
      (h.id in keys && 0.0 < h.score <= 1.0
       && h.id in m && m[h.id].content.Some? && m[h.id].content.value.Text?
       && Contains(Lower(m[h.id].content.value.s), q))
  {
    if keys == [] then Some([])
    else
      match ScoreDoc(keys[0], m[keys[0]], q)
      case None => None
      case Some(first) =>
        match Scan(keys[1..], m, q)
        case None => None
        case Some(rest) => Some((if first.Some? then [first.value] else []) + rest)
  }

  /**
   `_fallback_search`: the documents whose lowered content contains the
   lowered query, scored by occurrences per word capped at 1, sorted by score
   (stably, highest first) and cut to `[:limit]`; the sentinel where anything
   raises, including a tool without a document dictionary.
   */
  function FallbackSearch(t: Tool, query: string, limit: int): (r: seq<Hit>)
    requires ToolValid(t)
    ensures t.documents.None? ==> r == Sentinel(query)
    ensures r != Sentinel(query) ==>
      (SortedDesc(r, HitScore) && (limit >= 0 ==> |r| <= limit)
       && forall h :: h in r ==> 0.0 < h.score <= 1.0 && h.id in t.documents.value.m)
  {
    match t.documents
    case None => Sentinel(query)
    case Some(d) =>
      match Scan(d.order, d.m, Lower(query))
      case None => Sentinel(query)
      case Some(hits) =>
        var sorted := SortDesc(hits, HitScore);
        SortDescPermutes(hits, HitScore);
        assert forall h :: h in sorted ==> h in hits by {
          forall h | h in sorted ensures h in hits {
            assert h in multiset(sorted);
          }
        }
        var r := PrefixTo(sorted, limit);
        assert forall h :: h in r ==> h in sorted;
        PrefixKeepsSorted(sorted, limit);
        r
  }

  /** A prefix of a sorted list is sorted. */
  lemma PrefixKeepsSorted(s: seq<Hit>, limit: int)
    requires SortedDesc(s, HitScore)
    ensures SortedDesc(PrefixTo(s, limit), HitScore)
  {
  }

  /** Every fallback hit is a stored text document whose lowered content contains the lowered query. */
  lemma HitsContainQuery(t: Tool, query: string, limit: int)
    requires ToolValid(t) && t.documents.Some?
    requires FallbackSearch(t, query, limit) != Sentinel(query)
    ensures forall h :: h in FallbackSearch(t, query, limit) ==>
      var d := t.documents.value.m[h.id];
      d.content.Some? && d.content.value.Text? && Contains(Lower(d.content.value.s), Lower(query))
  {
    var d := t.documents.value;
    var hits := Scan(d.order, d.m, Lower(query)).value;
    SortDescPermutes(hits, HitScore);
    forall h | h in FallbackSearch(t, query, limit)
      ensures h in hits
    {
      assert h in SortDesc(hits, HitScore);
      assert h in multiset(SortDesc(hits, HitScore));
    }
  }

  /** A scan that succeeds finds every document whose content matches. */
  lemma {:induction false} ScanFindsMatches(keys: seq<string>, m: map<string, Doc>, q: string, k: string)
    requires forall x :: x in keys ==> x in m
    requires Scan(keys, m, q).Some? && k in keys
    requires m[k].content.Some? && m[k].content.value.Text? && Contains(Lower(m[k].content.value.s), q)
    ensures exists h :: h in Scan(keys, m, q).value && h.id == k
    decreases |keys|
  {
    if keys[0] == k {
      var h := ScoreDoc(k, m[k], q).value.value;
      assert h in Scan(keys, m, q).value;
    } else {
      ScanFindsMatches(keys[1..], m, q, k);
      var h :| h in Scan(keys[1..], m, q).value && h.id == k;
      assert h in Scan(keys, m, q).value;
    }
  }

  /** The single-document case of `ScanFindsMatches`, as `ScoreDoc` sees it. */
  lemma ScoreDocFinds(k: string, d: Doc, q: string)
    requires d.content.Some? && d.content.value.Text? && Contains(Lower(d.content.value.s), q)
    requires ScoreDoc(k, d, q).Some?
    ensures ScoreDoc(k, d, q).value.Some?
  {
  }

  /** `search`: Pinecone's matches (its own failures give []) when it is on, else the fallback. */
  function Search(t: Tool, query: string, limit: int, pineconeHits: seq<Hit>): (r: seq<Hit>)
    requires ToolValid(t)
    ensures t.pinecone ==> r == pineconeHits
    ensures !t.pinecone ==> r == FallbackSearch(t, query, limit)
  {
    if t.pinecone then pineconeHits else FallbackSearch(t, query, limit)
  }

  /* --------------------------------------------------------- add and delete */

  /** `doc.get('id', str(uuid.uuid4()))`, with the i-th fresh id from `uuid`. */
  function DocKey(d: Doc, i: nat, uuid: nat -> string): string {
    if d.id.Some? then d.id.value else uuid(i)
  }

  /** The documents paired with the keys they are stored under. */
  function Keyed(docs: seq<Doc>, uuid: nat -> string): (r: seq<(string, Doc)>)
    ensures |r| == |docs|
    ensures forall j :: 0 <= j < |docs| ==> r[j] == (DocKey(docs[j], j, uuid), docs[j])
  {
    seq(|docs|, j requires 0 <= j < |docs| => (DocKey(docs[j], j, uuid), docs[j]))
  }

  function AddAll(d: ODict<Doc>, pairs: seq<(string, Doc)>): (r: ODict<Doc>)
    requires d.Valid()
    ensures r.Valid()
    ensures forall p :: p in pairs ==> p.0 in r.m
    ensures forall k :: k in d.m ==> k in r.m
    decreases |pairs|
  {
    if pairs == [] then d
    else
      var r := AddAll(d.Set(pairs[0].0, pairs[0].1), pairs[1..]);
      assert forall p :: p in pairs ==> p == pairs[0] || p in pairs[1..];
      r
  }

  /** `_fallback_add_documents`: each document stored under its key; without a dictionary it raises and reports failure. */
  function AddDocuments(t: Tool, docs: seq<Doc>, uuid: nat -> string): (r: (Tool, bool))
    requires ToolValid(t)
    ensures ToolValid(r.0)
    ensures r.1 <==> t.documents.Some?
    ensures r.1 ==> r.0.documents.Some? && forall j :: 0 <= j < |docs| ==> DocKey(docs[j], j, uuid) in r.0.documents.value.m
    ensures !r.1 ==> r.0 == t
  {
    match t.documents
    case None => (t, false)
    case Some(d) =>
      var pairs := Keyed(docs, uuid);
      assert forall j :: 0 <= j < |docs| ==> pairs[j] in pairs;
      (t.(documents := Some(AddAll(d, pairs))), true)
  }

  function RemoveAll(d: ODict<Doc>, ids: seq<string>): (r: ODict<Doc>)
    requires d.Valid()
    ensures r.Valid()
    ensures forall k :: k in r.m <==> k in d.m && k !in ids
    ensures forall k :: k in r.m ==> r.m[k] == d.m[k]
    decreases |ids|
  {
    if ids == [] then d
    else
      var r := RemoveAll(d.Remove(ids[0]), ids[1..]);
      assert forall k :: k in ids <==> k == ids[0] || k in ids[1..];
      r
  }

  /**
   `_fallback_delete_documents`: every listed id is removed; without a
   dictionary the first membership test raises, so only an empty list succeeds.
   */
  function DeleteDocuments(t: Tool, ids: seq<string>): (r: (Tool, bool))
    requires ToolValid(t)
    ensures ToolValid(r.0)
    ensures r.1 <==> t.documents.Some? || ids == []
    ensures t.documents.Some? ==>
      (r.0.documents.Some?
       && (forall k :: k in r.0.documents.value.m <==> k in t.documents.value.m && k !in ids)
       && (forall k :: k in r.0.documents.value.m ==> r.0.documents.value.m[k] == t.documents.value.m[k]))
    ensures t.documents.None? ==> r.0 == t
  {
    match t.documents
    case None => (t, ids == [])
    case Some(d) => (t.(documents := Some(RemoveAll(d, ids))), true)
  }

  /** `get_document_count`: the number of stored documents, 0 when the count raises. */
  function DocumentCount(t: Tool): (n: nat)
    requires ToolValid(t)
    ensures t.documents.Some? ==> n == |t.documents.value.m|
    ensures t.documents.None? ==> n == 0
  {
    match t.documents
    case None => 0
    case Some(d) => OrderCountsKeys(d); |d.order|
  }

  /** The insertion order lists each key once, so its length is the number of keys. */
  lemma OrderCountsKeys(d: ODict<Doc>)
    requires d.Valid()
    ensures |d.order| == |d.m|
  {
    DistinctCount(d.order, d.m.Keys);
  }

  /** A list of distinct keys that are exactly a set has the set's size. */
  lemma {:induction false} DistinctCount(s: seq<string>, keys: set<string>)
    requires NoDuplicates(s) && forall k :: k in s <==> k in keys
    ensures |s| == |keys|
    decreases |s|
  {
    if s != [] {
      assert forall k :: k in s[1..] <==> k in keys - {s[0]} by {
        forall k ensures k in s[1..] <==> k in keys - {s[0]} {
          if k in s[1..] {
            var i :| 0 <= i < |s[1..]| && s[1..][i] == k;
            assert s[i + 1] == k;
          }
          if k in s && k != s[0] {
            var i :| 0 <= i < |s| && s[i] == k;
            assert s[1..][i - 1] == k;
          }
        }
      }
      DistinctTail(s);
      DistinctCount(s[1..], keys - {s[0]});
    }
  }

  lemma DistinctTail(s: seq<string>)
    requires NoDuplicates(s) && s != []
    ensures NoDuplicates(s[1..])
  {
    assert forall i, j :: 0 <= i < j < |s[1..]| ==> s[1..][i] == s[i + 1] && s[1..][j] == s[j + 1];
  }

  /** Adding documents and then deleting ids leaves none of those ids stored. */
  lemma AddThenDelete(t: Tool, docs: seq<Doc>, ids: seq<string>, uuid: nat -> string)
    requires ToolValid(t) && t.documents.Some?
    ensures var (t1, added) := AddDocuments(t, docs, uuid);
      var (t2, deleted) := DeleteDocuments(t1, ids);
      added && deleted && forall k :: k in ids ==> k !in t2.documents.value.m
  {
  }

  /** Deleting ids that are not stored succeeds and changes nothing stored. */
  lemma DeleteAbsent(t: Tool, ids: seq<string>)
    requires ToolValid(t) && t.documents.Some?
    requires forall k :: k in ids ==> k !in t.documents.value.m
    ensures DeleteDocuments(t, ids).1
    ensures DeleteDocuments(t, ids).0.documents.value.m == t.documents.value.m
  {
  }

  /**
   As written, a tool whose start-up did not raise has no document
   dictionary: without Pinecone every search returns the sentinel, every
   non-empty add or delete fails, and the count is 0.
   */
  lemma NormalStartNeverStores(s: Setup, query: string, limit: int, docs: seq<Doc>, ids: seq<string>, uuid: nat -> string)
    ensures var t := Init(s, false, false);
      Search(t, query, limit, []) == Sentinel(query)
      && !AddDocuments(t, docs, uuid).1
      && (ids != [] ==> !DeleteDocuments(t, ids).1)
      && DocumentCount(AddDocuments(t, docs, uuid).0) == 0
  {
  }

  /** When no document raises and the limit covers them all, every stored document matching the query is a hit. */
  lemma SearchFindsStored(t: Tool, query: string, limit: int, k: string)
    requires ToolValid(t) && !t.pinecone && t.documents.Some?
    requires var d := t.documents.value;
      k in d.m && d.m[k].content.Some? && d.m[k].content.value.Text?
      && Contains(Lower(d.m[k].content.value.s), Lower(query))
      && Scan(d.order, d.m, Lower(query)).Some? && limit >= |d.order|
    ensures exists h :: h in Search(t, query, limit, []) && h.id == k
  {
    var d := t.documents.value;
    var q := Lower(query);
    var hits := Scan(d.order, d.m, q).value;
    ScanFindsMatches(d.order, d.m, q, k);
    var h :| h in hits && h.id == k;
    SortKeepsHit(hits, h);
    FallbackUnfolds(t, query, limit);
  }

  /** Sorting keeps every hit. */
  lemma SortKeepsHit(hits: seq<Hit>, h: Hit)
    requires h in hits
    ensures h in SortDesc(hits, HitScore)
  {
    SortDescPermutes(hits, HitScore);
    assert h in multiset(SortDesc(hits, HitScore));
  }

  /** A successful scan whose hits all fit the limit is returned whole, sorted. */
  lemma FallbackUnfolds(t: Tool, query: string, limit: int)
    requires ToolValid(t) && !t.pinecone && t.documents.Some?
    requires var d := t.documents.value; Scan(d.order, d.m, Lower(query)).Some? && limit >= |d.order|
    ensures var d := t.documents.value;
      Search(t, query, limit, []) == SortDesc(Scan(d.order, d.m, Lower(query)).value, HitScore)
  {
  }

  /** Adding one document with an id to the intended fresh tool stores exactly that document. */
  lemma AddOneToFresh(s: Setup, doc: Doc, uuid: nat -> string)
    requires doc.id.Some?
    ensures var t := AddDocuments(InitChecked(s, false, false), [doc], uuid).0;
      !t.pinecone && t.documents == Some(ODict(map[doc.id.value := doc], [doc.id.value]))
  {
    var k := doc.id.value;
    var e := EmptyDict<Doc>();
    assert Keyed([doc], uuid) == [(k, doc)];
    assert [(k, doc)][1..] == [];
    assert AddAll(e, [(k, doc)]) == AddAll(e.Set(k, doc), []);
    assert e.Set(k, doc) == ODict(map[k := doc], [k]);
    assert AddDocuments(InitChecked(s, false, false), [doc], uuid).0.documents == Some(AddAll(e, Keyed([doc], uuid)));
  }

  /** With the intended start-up, an added text document containing the query is found by the fallback search. */
  lemma CheckedStartFindsAdded(s: Setup, doc: Doc, query: string, uuid: nat -> string)
    requires doc.id.Some? && doc.content.Some? && doc.content.value.Text?
    requires Contains(Lower(doc.content.value.s), Lower(query)) && |Words(Lower(doc.content.value.s))| > 0
    ensures var t := AddDocuments(InitChecked(s, false, false), [doc], uuid).0;
      exists h :: h in Search(t, query, 1, []) && h.id == doc.id.value
  {
    var t := AddDocuments(InitChecked(s, false, false), [doc], uuid).0;
    var k := doc.id.value;
    AddOneToFresh(s, doc, uuid);
    SingleScan(k, doc, Lower(query));
    SearchFindsStored(t, query, 1, k);
  }

  /** Scanning a single matching text document with some words does not raise. */
  lemma SingleScan(k: string, doc: Doc, q: string)
    requires doc.content.Some? && doc.content.value.Text?
    requires Contains(Lower(doc.content.value.s), q) && |Words(Lower(doc.content.value.s))| > 0
    ensures Scan([k], map[k := doc], q).Some?
  {
    assert ScoreDoc(k, doc, q).Some?;
    assert [k][1..] == [];
  }

  /* ---------------------------------------------------------- embeddings */

  predicate IsHexDigit(c: char) { '0' <= c <= '9' || 'a' <= c <= 'f' }

  /** The lower-case hexadecimal digit of a nibble. */
  function HexChar(n: nat): (c: char)
    requires n < 16
    ensures IsHexDigit(c)
  {
    if n < 10 then ('0' as int + n) as char else ('a' as int + n - 10) as char
  }

  /** `hexdigest()`: two lower-case hexadecimal digits per byte, high nibble first. */
  function HexDigest(d: seq<Byte>): (h: string)
    ensures |h| == 2 * |d|
    ensures forall c :: c in h ==> IsHexDigit(c)
  {
    if d == [] then ""
    else [HexChar(d[0] / 16), HexChar(d[0] % 16)] + HexDigest(d[1..])
  }

  /** `int(c, 16)` for one lower-case hexadecimal digit. */
  function HexValue(c: char): (n: nat)
    requires IsHexDigit(c)
    ensures n < 16 && HexChar(n) == c
  {
    if '0' <= c <= '9' then c as int - '0' as int else c as int - 'a' as int + 10
  }

  /** `int(h[i:i+2], 16)` for `i` in `range(0, len(h), 2)`. */
  function PairValues(h: string): (r: seq<Byte>)
    requires |h| % 2 == 0 && forall c :: c in h ==> IsHexDigit(c)
    ensures |r| == |h| / 2
    decreases |h|
  {
    if h == [] then []
    else [16 * HexValue(h[0]) + HexValue(h[1])] + PairValues(h[2..])
  }

  /** Each digit reads back as its nibble. */
  lemma HexRoundTrip(n: nat)
    requires n < 16
    ensures HexValue(HexChar(n)) == n
  {
  }

  /** Reading the digest back two digits at a time recovers its bytes. */
  lemma {:induction false} PairsRecoverBytes(d: seq<Byte>)
    ensures PairValues(HexDigest(d)) == d
    decreases |d|
  {
    if d != [] {
      var h := HexDigest(d);
      assert h[2..] == HexDigest(d[1..]);
      HexRoundTrip(d[0] / 16);
      HexRoundTrip(d[0] % 16);
      PairsRecoverBytes(d[1..]);
    }
  }

  /** The values scaled to [0, 1], padded with zeros to 128 and cut to 128. */
  function Pad128(vals: seq<Byte>): (r: seq<real>)
    ensures |r| == 128
    ensures forall i :: 0 <= i < 128 ==> 0.0 <= r[i] <= 1.0
    ensures forall i :: |vals| <= i < 128 ==> r[i] == 0.0
  {
    seq(128, i requires 0 <= i < 128 => if i < |vals| then vals[i] as real / 255.0 else 0.0)
  }

  /** `_simple_hash_embedding`, with the MD5 digest as a parameter. */
  function HashEmbedding(text: string, md5: string -> seq<Byte>): (r: seq<real>)
    ensures |r| == 128 && forall i :: 0 <= i < 128 ==> 0.0 <= r[i] <= 1.0
  {
    var h := HexDigest(md5(text));
    Pad128(PairValues(h))
  }

  /** The hash embedding is the digest's bytes over 255, followed by zeros. */
  lemma HashEmbeddingIsDigest(text: string, md5: string -> seq<Byte>)
    requires |md5(text)| <= 128
    ensures var d := md5(text);
      forall i :: 0 <= i < 128 ==> HashEmbedding(text, md5)[i] == if i < |d| then d[i] as real / 255.0 else 0.0
  {
    PairsRecoverBytes(md5(text));
  }

  /**
   `_embed_query`: the backend's vector when it produced one (`external`),
   otherwise, and always on the fallback backend, the hash embedding.
   */
  function EmbedQuery(t: Tool, query: string, external: Option<seq<real>>, md5: string -> seq<Byte>): (r: seq<real>)
    ensures t.backend == Fallback || external.None? ==> r == HashEmbedding(query, md5)
    ensures t.backend != Fallback && external.Some? ==> r == external.value
    ensures t.backend == Fallback ==> |r| == 128 && forall i :: 0 <= i < 128 ==> 0.0 <= r[i] <= 1.0
  {
    if t.backend != Fallback && external.Some? then external.value else HashEmbedding(query, md5)
  }
}

=== FILE: utils_hello.dfy ===
/**
 The greeting helpers: a fixed "Hello World" and a personalised
 "Hello <name>!" whose name defaults to "World".
 */
module Hello {
  import opened Common

  /** `hello_world`. */
  function HelloWorld(): string {
    "Hello World"
  }

  /** `hello_user`: the f-string `"Hello {name}!"`. */
  function HelloUser(name: string): (r: string)
    ensures |r| == |name| + 7
    ensures r[..6] == "Hello " && r[|r| - 1] == '!'
    ensures r[6..|r| - 1] == name
  {
    "Hello " + name + "!"
  }

  /** `get_greeting`: `None` stands for the omitted argument, whose default is "World". */
  function GetGreeting(name: Option<string>): (r: string)
    ensures name.Some? ==> r == HelloUser(name.value)
  {
    var n := match name case Some(v) => v case None => "World";
    "Hello " + n + "!"
  }

  /** The name can be read back out of a personalised greeting, so distinct names greet differently. */
  lemma HelloUserInjective(a: string, b: string)
    ensures HelloUser(a) == HelloUser(b) ==> a == b
  {
    if HelloUser(a) == HelloUser(b) {
      assert a == HelloUser(a)[6..|HelloUser(a)| - 1];
    }
  }

  /** The default greeting is the fixed one with an exclamation mark, and greets "World" by name. */
  lemma DefaultGreeting()
    ensures GetGreeting(None) == HelloWorld() + "!"
    ensures GetGreeting(None) == HelloUser("World")
    ensures GetGreeting(None) != HelloWorld()
  {
  }
}
